=== FILE: README.md ===
# OSv core components, modelled in Dafny

This project models, and proves properties of, a set of OSv's core pieces:

- the page-range allocator and the per-CPU object pools of `core/mempool.cc`;
- the memory-pressure counters of `core/mempool.cc`;
- the page-table walker and its per-entry operations in `core/mmu.cc`;
- the RISC-V page-table entry encoding;
- the GDB remote-serial-protocol stubs (`gdb-stub.cc`, `gdb_stub.cc`,
  `gdb_protocol.cc`, `gdb_arch.cc`);
- the read loop of the read-only file system;
- the SMBIOS/DMI table walk and the EFI entry-point encoders;
- the UEFI boot-time services;
- the vsock protocol handlers;
- the command-line splitter exercised by the command-line tests;
- the `java.so` launcher;
- the two Ubuntu-package scripts;
- the two Makefile fixers.

Each component is a module with immutable datatypes and pure functions.
Methods are used where the source loops. Where a component calls into
hardware, the network, a subprocess or a file system, the result of that
call is a parameter of the model.

Modules, one per file:

- `Wrappers`: Option.
- `Logarithms`: `ilog2`, `ilog2_roundup`.
- `PageRanges`, `PageRangeAlloc`, `PageRangeFree`: the page-range allocator.
- `SlabPool`: the object pools, the garbage sinks and the reclaimer's
  arithmetic.
- `RiscvPte`: `pt_element` for RISC-V.
- `MmuOps`, `MmuWalk`: `core/mmu.cc`.
- `Octets`: bytes, checksums, hex and decimal text shared by the GDB stubs.
- `GdbStubCommands`: the self-contained stub of `gdb-stub.cc` and its
  standalone test.
- `GdbProtocol`: `gdb_protocol.cc`.
- `GdbArch`: `gdb_arch.cc`.
- `GdbStub`: `gdb_stub.cc`.
- `Rofs`: `rofs_read_blocks` and its test.
- `Dmi`: `dmi.cc`.
- `DmiBuild`: the entry-point checksums.
- `UefiBoot`, `UefiMemoryMap`, `UefiMain`: `uefi-boot.cc`.
- `Vsock`: `vsock_proto.cc`.
- `CommandLine`: the command-line splitter of the two command-line tests.
- `JavaLauncher`: `java.cc`.
- `PyText`: the Python string operations the scripts use.
- `UbuntuPackages`: `ubuntu_packages.py`.
- `BuildFromUbuntu`: `build_from_ubuntu_packages.py`.
- `FixMakefile`: `fix_makefile.py`.
- `FixMakefileIndentation`: `fix_makefile_indentation.py`.

## Model

Each row names a member whose contract states a property. A function that only computes a value has no row of its own; its lemmas do, and "## Functions covered by lemmas" lists which rows state what each such function does.

| member | source | states |
|---|---|---|
| Logarithms.Log2Bounds | core/mempool.cc:644 | `ilog2(n)` is the k with 2^k <= n < 2^(k+1) |
| Logarithms.Log2RoundupBounds | core/mempool.cc:747 | `ilog2_roundup(n)` is the smallest k with n <= 2^k |
| Logarithms.Log2RoundupBound | core/mempool.cc:747-750 | `ilog2_roundup(n) <= k` exactly when n <= 2^k, which is what the order clamp relies on |
| PageRanges.Empty | core/mempool.cc:594 | a new allocator over n pages holds nothing, has an n-bit bitmap and satisfies the allocator invariant |
| PageRanges.SetBits | core/mempool.cc:682-692 | `set_bits` changes only the first and last page's bits, or every bit of the range when filling |
| PageRanges.Insert | core/mempool.cc:639-655 | `insert` adds exactly the range to the free ranges and its pages to the free count, keeps every range in the container of its order, records the range in the words at its first and last page, and (when asked) sets only those two bitmap bits |
| PageRanges.InsertHuge | core/mempool.cc:645-647 | a range of order at least `max_order` goes into the size-ordered huge set |
| PageRanges.InsertList | core/mempool.cc:648-651 | a smaller range is pushed on the list of its order |
| PageRanges.Remove | core/mempool.cc:668-675 | `remove` takes exactly that range out, leaves the bitmap and the boundary words alone, and keeps the placement |
| PageRanges.RemoveHuge | core/mempool.cc:656-661 | the huge set loses exactly that range |
| PageRanges.RemoveList | core/mempool.cc:662-667 | the order's list loses exactly that range |
| PageRanges.Locate | core/mempool.cc:644-651 | every free range lies in the container its order names |
| PageRanges.InsertSortedSorted | core/mempool.cc:646 | inserting into the huge set keeps it ordered by size |
| PageRanges.WalkListsBag | core/mempool.cc:880-886 | `for_each` over the lists visits exactly the ranges the lists hold |
| PageRangeAlloc.ChooseSpec | core/mempool.cc:747-784 | `alloc` takes the front of the lowest non-empty list of order >= `exact_order`, else the largest huge range, else (contiguous) the first fit of order `exact_order - 1` |
| PageRangeAlloc.ChooseFits | core/mempool.cc:751-784 | `alloc` finds a range exactly when some free range is eligible and large enough |
| PageRangeAlloc.Alloc | core/mempool.cc:744-797 | `alloc` fails exactly when no free range is eligible; otherwise it hands out the first n pages of the chosen range, puts the rest back, keeps the invariant, and exactly those n pages stop being free |
| PageRangeAlloc.Carve | core/mempool.cc:786-795 | the pieces of the chosen range around the handed-out pages go back as free ranges, exactly the handed-out pages stop being free, and the invariant holds |
| PageRangeAlloc.FirstFit | core/mempool.cc:765-771 | the linear search returns the first range of at least n pages |
| PageRangeAlloc.LowestFrom | core/mempool.cc:751-755 | the lowest set bit from `exact_order` up, as `count_trailing_zeros` of the masked bitset |
| PageRangeAlloc.SortedMax | core/mempool.cc:776 | the last range of the size-ordered huge set (`rbegin`) is a largest one |
| PageRangeAlloc.FirstAligned | core/mempool.cc:803-825 | `alloc_aligned` takes the first visited range whose tail, shifted down to the alignment, still holds n pages |
| PageRangeAlloc.AlignedStart | core/mempool.cc:805-820 | the handed-out pages end `alignment_shift` pages before the range's end and start at the requested alignment |
| PageRangeAlloc.AllocAligned | core/mempool.cc:799-827 | `alloc_aligned` fails exactly when no free range of a visited order has room for n aligned pages; otherwise it hands out n pages whose start plus the offset is aligned, within the chosen range, puts both pieces back and keeps the invariant |
| PageRangeAlloc.WalkVisits | core/mempool.cc:872-887 | `for_each(min_order)` visits exactly the free ranges of the huge set and of the lists of order >= min_order |
| PageRangeFree.Merged | core/mempool.cc:831-843 | the range `free` inserts starts at the left neighbour (if any) and holds the pages of the freed range and of both neighbours it absorbs |
| PageRangeFree.Free | core/mempool.cc:829-845 | `free` keeps the invariant, makes exactly the freed pages free again and adds their count |
| PageRangeFree.TakePrev | core/mempool.cc:831-837 | a left neighbour is found unless the bitmap bit just before the freed range is clear; it is the free range ending there, and it alone leaves the free ranges |
| PageRangeFree.TakeNext | core/mempool.cc:838-843 | a right neighbour is found unless the bitmap bit just after the freed range is clear or beyond the bitmap; it is the free range starting there, and it alone leaves the free ranges |
| PageRangeFree.MergeSound | core/mempool.cc:829-845 | after the merge the free ranges stay disjoint, apart, tracked by their boundary words and honest in the bitmap, and the free pages gain exactly the freed range |
| PageRangeFree.InitialAdd | core/mempool.cc:847-870 | `initial_add` keeps the invariant, makes exactly the added pages free and grows the bitmap to the range's end when the range reaches past it |
| PageRangeFree.Grow | core/mempool.cc:849-866 | the growing branch keeps the invariant, makes exactly the added pages free and leaves a bitmap that ends at the range's end |
| PageRangeFree.Rebuild | core/mempool.cc:859-862 | the rebuilt bitmap has a bit set exactly at the first or last page of some free range |
| PageRangeFree.AllocThenFree | core/mempool.cc:744-845 | allocating pages and then freeing them restores the set of free pages, their count and the handed-out set, and keeps the invariant |
| SlabPool.ObjectSize | core/mempool.cc:421-428 | `compute_object_size(pos)` is at least 1, at most a quarter page and at most 2^pos |
| SlabPool.ObjectSizes | core/mempool.cc:390-428 | there are 13 pools; pool k holds objects of 2^k bytes up to 1024, then 1024 |
| SlabPool.SlotsShape | core/mempool.cc:294-298 | a new page is cut into `(page - size - header) / size + 1` distinct slots between the header and the page end |
| SlabPool.AddPage | core/mempool.cc:276-306 | `add_page` appends a page whose free list holds every slot, owned by the current CPU, and leaves other pages alone |
| SlabPool.TakeFront | core/mempool.cc:253-260 | an allocation takes the first object of the front page; the page leaves the free list when that was its last object |
| SlabPool.Alloc | core/mempool.cc:232-266 | `alloc` returns a live object: the front page's first object, or the first slot of a new page when none is free |
| SlabPool.FreeSameCpu | core/mempool.cc:313-339 | the page is released exactly when its last object comes back while a wholly free page is at the back; otherwise the object heads the page's free list and the page is re-listed front or back |
| SlabPool.AllocThenFree | core/mempool.cc:232-339 | when the front page already has an object out, freeing the object just allocated on the same CPU restores the pool exactly |
| SlabPool.SinkFree | core/mempool.cc:139-146 | a garbage sink queues the object and signals the owner exactly when this push is the 257th since the last signal |
| SlabPool.SinkSignals | core/mempool.cc:139-146 | after k frees the sink has queued them all in order, has signalled once per 257 pushes and keeps the remainder as its count |
| SlabPool.Free | core/mempool.cc:341-375 | a free on the owning CPU returns the object to its page; on another CPU it goes to the `[owner][current]` sink and nothing else changes |
| SlabPool.Watermark | core/mempool.cc:499-503 | `on_new_memory` sets the low watermark to a tenth of the total, truncated |
| SlabPool.OnAlloc | core/mempool.cc:482-497 | an allocation lowers the free count and wakes the reclaimer exactly when the count falls under the watermark |
| SlabPool.ReclaimTarget | core/mempool.cc:533-550 | `bytes_until_normal` is positive exactly under pressure, and freeing that many bytes ends the pressure |
| SlabPool.PressureMonotone | core/mempool.cc:477-540 | freeing relieves pressure exactly when the count reaches the watermark, allocating causes it exactly when the count drops below it |
| SlabPool.NoReclaimBound | core/mempool.cc:499-513 | `max_no_reclaim` (total less watermark) never wraps below zero and never exceeds the total |
| SlabPool.WaitForMemory | core/mempool.cc:578-588 | a request larger than the total memory aborts; any other blocks for that many bytes |
| SlabPool.WaitForMinimumMemory | core/mempool.cc:557-571 | an emergency thread, enough free memory or no shrinker proceed; otherwise the call aborts when the shortfall to 4 MiB exceeds all memory and waits for exactly that shortfall when it does not |
| RiscvPte.SetMask | arch/riscv64/arch-mmu.hh:101-125 | setting a bit gives it the requested value and leaves every other bit alone |
| RiscvPte.SetValid | arch/riscv64/arch-mmu.hh:101 | `set_valid` sets bit 0, which `valid()` reads back; nothing else changes |
| RiscvPte.SetWritable | arch/riscv64/arch-mmu.hh:103 | `set_writable` sets bit 2, which `writable()` reads back |
| RiscvPte.SetExecutable | arch/riscv64/arch-mmu.hh:105 | `set_executable` sets bit 3, which `executable()` reads back |
| RiscvPte.SetDirty | arch/riscv64/arch-mmu.hh:107 | `set_dirty` sets bit 7, which `dirty()` reads back |
| RiscvPte.SetUser | arch/riscv64/arch-mmu.hh:117 | `set_user` sets bit 4, which `user()` reads back |
| RiscvPte.SetAccessed | arch/riscv64/arch-mmu.hh:119 | `set_accessed` sets bit 6, which `accessed()` reads back |
| RiscvPte.SetSwBit | arch/riscv64/arch-mmu.hh:122-125 | `set_sw_bit(off)` sets bit 8 + off, which `sw_bit(off)` reads back |
| RiscvPte.SetLarge | arch/riscv64/arch-mmu.hh:109-115 | `set_large(false)` clears R, W and X so the entry no longer reads as large; `set_large(true)` changes nothing |
| RiscvPte.SetRsvdBit | arch/riscv64/arch-mmu.hh:128-129 | reserved bits do not exist: setting one changes nothing |
| RiscvPte.AddrRoundTrip | arch/riscv64/arch-mmu.hh:132-140 | `addr()` reads back the page address `set_addr` stored; flag bits 1 to 9 are kept and V is set |
| RiscvPte.PfnRoundTrip | arch/riscv64/arch-mmu.hh:143-145 | `pfn()` reads back the page number `set_pfn` stored |
| RiscvPte.MakePteBits | arch/riscv64/arch-mmu.hh:148-173 | `make_pte` always sets V and stores the address; R is set exactly for a non-empty permission, W and X exactly for a requested write or exec on a leaf at a large-capable level; D and A are set, U is not |
| RiscvPte.MakePteNoPermIsValid | arch/riscv64/arch-mmu.hh:154-164 | with no permission the entry is still valid, though it grants nothing |
| RiscvPte.MakePteSmallLeafReadOnly | arch/riscv64/arch-mmu.hh:158-159 | a leaf at a level that cannot hold large pages is never writable or executable |
| RiscvPte.MakePteIntendedBits | arch/riscv64/arch-mmu.hh:148-173 | the corrected entry is valid exactly when some permission is given; a leaf carries exactly the requested R, W and X at every level and a table pointer none of them, where the source (`MakePteBits`) ties them to the level; D and A are set, U is not, and the address is stored |
| MmuOps.LevelShift | core/mmu.cc:139-140 | the shift of level k is 12 + 9k |
| MmuOps.LevelMaskFormula | core/mmu.cc:137-142 | the level mask is `~((1 << shift) - 1)` |
| MmuOps.LevelMaskBits | core/mmu.cc:137-142 | bit i of the level mask is set exactly when i is at least the level's shift |
| MmuOps.Clamp | core/mmu.cc:299-306 | the clamped range lies within [min, max], starts on a slop boundary or at min, ends on a slop block's last byte or at max, and covers the requested range within those bounds |
| MmuOps.ClampWholeSlot | core/mmu.cc:299-306 | a request covering the whole slot clamps to the slot |
| MmuOps.ChangePerm | core/mmu.cc:238-270 | `change_perm` leaves the entry valid with W exactly when write is asked and the entry is not copy-on-write, X exactly when exec is asked, and every other bit as it was; it reports a flush on x86 exactly when a valid entry loses read, a writable one loses write or an executable one loses exec, and on aarch64 exactly when the effective permission changes |
| MmuOps.FlushNeeded | core/mmu.cc:243-262 | the flush condition in terms of the entry and the request alone: on x86 a valid entry losing read, a writable one losing write (or being copy-on-write), an executable one losing exec; on aarch64 a change of the effective permission |
| MmuOps.ProtNoneKeepsRead | core/mmu.cc:251-258 | PROT_NONE leaves the entry valid with W and X cleared, and R as it was |
| MmuOps.ReadOnlyNeedsFlush | core/mmu.cc:243-266 | dropping write from a writable entry needs a flush |
| MmuOps.SamePermNoFlush | core/mmu.cc:243-266 | granting exactly what the entry holds needs no flush, unless the entry is writable and copy-on-write |
| MmuOps.MarkCow | core/mmu.cc:229-236 | `pte_mark_cow` sets the copy-on-write bit as asked and clears W when marking; nothing else changes |
| MmuOps.CowSurvivesProtect | core/mmu.cc:229-249 | a copy-on-write entry stays read-only through any `change_perm` |
| MmuOps.PopulatePage | core/mmu.cc:591-622 | `populate::page` skips exactly a present entry that a write does not need to make writable; otherwise a provider exception fails the walk, and an offered entry is dirty exactly when the mapping is dirty or the access a write; the level's size is accounted exactly when the provider installed it and the operation accounts (`account_opt::yes`; `populate` defaults to `no`) |
| MmuOps.OfferedEntry | core/mmu.cc:613 | the offered entry is valid, readable for any permission, and writable or executable only at large-capable levels, as `make_leaf_pte` builds it |
| MmuOps.PopulateAgainSkips | core/mmu.cc:591-597 | populating for read again skips the entry just offered |
| MmuOps.Push | core/mmu.cc:658-666 | `tlb_gather::push` flushes exactly when 20 pages are already gathered, freeing them all, and leaves the new page last in the buffer |
| MmuOps.Flush | core/mmu.cc:667-683 | `flush` empties the buffer and reports true exactly when it held pages, in which case one TLB flush is followed by a free of each page, small or huge by its size |
| MmuOps.UnpopulatePage | core/mmu.cc:698-711 | `unpopulate::page` adds the page's size to the total when the operation accounts and nothing otherwise (`unpopulate` defaults to `account_opt::no`); an unmapped page ends the gather buffer and sets `do_flush` exactly when the buffer had room; a kept page sets `do_flush` and changes nothing else |
| MmuOps.UnpopulateAccounts | core/mmu.cc:696-711 | over a whole walk the accounted total grows by the size of every page, unmapped or kept, when the operation accounts, and not at all when it does not |
| MmuOps.EveryPageFreed | core/mmu.cc:689-720 | over a whole walk every page the provider unmapped is freed exactly once, in order |
| MmuOps.FinishFrees | core/mmu.cc:716-718 | `tlb_flush_needed` frees the pages still gathered |
| MmuOps.ValidatePerm | core/mmu.cc:996-1013 | `validate_perm` gives EACCES for an unreadable file or a shared writable mapping of a read-only file, EPERM for exec on a no-exec mount, else 0 |
| MmuOps.FewerPermsAccepted | core/mmu.cc:996-1013 | a mapping accepted for some permissions is accepted for any subset of them |
| MmuOps.PrivateWriteAllowed | core/mmu.cc:999-1003 | a private writable mapping of a read-only file is allowed; a shared one is refused |
| MmuOps.Offset | core/mmu.cc:1015-1018 | `file_vma::offset` is the mapping's file offset plus the distance from its start |
| MmuOps.Split | core/mmu.cc:950-962 | `split` inside the mapping yields the two halves meeting at the edge; an edge outside leaves it whole |
| MmuOps.SplitKeepsOffsets | core/mmu.cc:950-962 | each address of the mapping lies in exactly one half, which maps it to the same file offset |
| MmuWalk.Step | core/mmu.cc:440-447 | a slot spans at least a page, and a level-k slot spans 512 level-(k-1) slots |
| MmuWalk.SplitChild | core/mmu.cc:206-215 | each entry `split_large_page<1>` puts in the new table is valid, has R, W and X cleared by `set_large(false)`, and keeps every other flag of the large entry |
| MmuWalk.SplitChildMaps | core/mmu.cc:206-215 | for a 2 MiB-aligned large page, child `i` maps the page `i` pages into it, so the 512 children map distinct pages |
| MmuWalk.Canon | core/mmu.cc:510 | extending bit 47 gives a canonical address with the same low 48 bits |
| MmuWalk.CanonFixes | core/mmu.cc:510 | a canonical address is left unchanged by the extension |
| MmuWalk.CanonAdd | core/mmu.cc:509-510 | adding a slot offset to an extended base and extending again gives what extending the plain sum gives |
| MmuWalk.CanonSlot | core/mmu.cc:509-510 | below the root, the slot that holds a canonical address starts at a canonical address, so the extension leaves its base alone |
| MmuWalk.Walk | core/mmu.cc:484-537 | `map_level` calls `page` only on slots inside the slop-rounded range and at levels that hold leaves, never on an empty slot when skipping empties, allocates tables and splits large pages only when the operation asks; an empty slot is left alone unless allocating, an unsplit large page goes whole to `sub_page`, and with `once` at most one leaf is reached; the slots' base has bit 47 extended (`Canon`) and a split gives `SplitChild` entries |
| MmuWalk.Slots | core/mmu.cc:497-535 | the loop over a table's indices keeps the same range, level, emptiness and permission guarantees and the one-leaf bound |
| MmuWalk.Descent | core/mmu.cc:512-531 | handling one slot (handing it to `page` or descending into it) keeps the same guarantees for the caller's range |
| MmuWalk.Narrower | core/mmu.cc:299-306 | clamping to a slot only narrows the rounded range |
| MmuWalk.V2PWalk | core/mmu.cc:794-819 | the lookup walk reaches at most one leaf |
| MmuWalk.VirtToPhysAgrees | core/mmu.cc:907-914 | for every canonical address, in either half of the address space, `virt_to_phys_pt` finds nothing exactly when the page-table lookup finds no leaf, and otherwise gives the leaf's address combined with the address bits below the leaf's level |
| MmuWalk.SmallPageTranslation | core/mmu.cc:907-914 | for a canonical address mapped by a small-page leaf the physical address is the leaf's address plus the page offset |
| MmuWalk.WalkFinds | core/mmu.cc:484-537 | from a slot that holds a canonical address, with the base the walk computes for it, the walk `virt_to_phys` runs over that address's page reaches exactly the leaf the page-table lookup finds |
| MmuWalk.RangeOf | core/mmu.cc:884-900 | `operate_range`'s range starts on the page holding the start and ends on a page's last byte; it is `size` rounded up to whole pages, at least one page, so it is at least `size` bytes long and less than a page longer; since the start is rounded down first, the request's last byte can lie past it (start 4095 and size 2 walk only the first page) |
| MmuWalk.OperateRange | core/mmu.cc:884-900 | `operate_range` calls `page` only within the page-rounded range, flushes the TLB exactly when the operation says the walk needs it and never before a later `page` call, and calls `finalize` once, last |
| JavaLauncher.StrncmpPrefix | modules/java-base/java.cc:21-24 | `strncmp(s, prefix, strlen(prefix)) == 0` holds exactly when `prefix` is a prefix of `s` |
| JavaLauncher.StartsWithIsPrefix | modules/java-base/java.cc:21-24 | `starts_with` agrees with plain prefix testing on NUL-free strings |
| JavaLauncher.HasHeapOption | modules/java-base/java.cc:26-34 | the scan reports true exactly when some argument after `argv[0]` begins with `-Xmx` or `-mx` |
| JavaLauncher.HeapMegabytes | modules/java-base/java.cc:36-44 | the heap is at least 64 MiB and, above that floor, is three quarters of the free mebibytes rounded down |
| JavaLauncher.HeapFloor | modules/java-base/java.cc:36-44 | the 64 MiB floor applies exactly when less than 87 MiB is free |
| JavaLauncher.HeapMonotone | modules/java-base/java.cc:36-44 | more free memory never gives a smaller heap |
| JavaLauncher.DecimalRoundTrip | modules/java-base/java.cc:43 | the decimal text `std::to_string` produces reads back as the same number |
| JavaLauncher.HeapOptionShape | modules/java-base/java.cc:43 | the option is `-Xmx`, the heap size in decimal, then `M`, and is itself recognised as a heap option |
| JavaLauncher.JavaArgs | modules/java-base/java.cc:46-67 | the argument list is `/usr/bin/java`, a heap option exactly when the user gave none, `-cp /java/osv-gc-monitor.jar`, then the user's arguments after `argv[0]` |
| JavaLauncher.JavaArgsFacts | modules/java-base/java.cc:46-67 | the launched command always carries a heap option, has two or three more entries than `argv`, and ends with the user's arguments unchanged |
| JavaLauncher.ExecVector | modules/java-base/java.cc:69-74 | the `execv` vector holds every argument in order followed by one null pointer |
| Octets.LoadStore | modules/gdb-stub/gdb_stub.cc:264-286 | bytes written to memory from an address read back unchanged from that address |
| Octets.Checksum | modules/gdb-stub/gdb_protocol.cc:134-141 | the checksum is the byte sum reduced modulo 256, as the `uint8_t` accumulator wraps |
| Octets.ChecksumAppend | modules/gdb-stub/gdb_protocol.cc:134-141 | the checksum of two pieces is the sum of their checksums modulo 256 |
| Octets.FlipInvolutive | modules/gdb-stub/gdb_protocol.cc:148-179 | XOR with 0x20 undoes itself, which is what lets unescaping invert escaping |
| Octets.HexDigit | modules/gdb-stub/gdb_stub.cc:288-296 | the digit `std::hex` writes is lower-case and reads back as its value |
| Octets.HexByte | modules/gdb-stub/gdb_stub.cc:288-296 | `setw(2)` with fill `0` writes two lower-case digits that read back as the byte |
| Octets.HexBytes | modules/gdb-stub/gdb_stub.cc:288-296 | `format_hex` writes two lower-case digits per byte |
| Octets.HexPair | modules/gdb-stub/gdb_stub.cc:298-309 | `stoul` of two characters succeeds exactly when the first is a hex digit, or white space or a sign followed by a hex digit |
| Octets.HexPairIsStoull | modules/gdb-stub/gdb_stub.cc:303-304 | reading a pair is `stoul(pair, 16)` truncated to `uint8_t`, with the exception as failure |
| Octets.PairValue | modules/gdb-stub/gdb_stub.cc:303-304 | what `stoul` makes of two characters: a two-digit or one-digit value, a signed digit, a negated digit wrapped modulo 2^64, or a failure |
| Octets.DecodeHex | modules/gdb-stub/gdb_stub.cc:288-309 | `parse_hex(format_hex(bs))` is `bs` |
| Octets.DecodeIgnoresOddNibble | modules/gdb-stub/gdb_stub.cc:301-302 | a trailing odd character never changes what `parse_hex` decodes |
| Octets.StoullReference | modules/gdb-stub/gdb-stub.cc:635-637 | `stoull(s, 16)` fails exactly when no hex digits follow the white space, sign and `0x`, or when they are worth 2^64 or more; otherwise it is their value, negated modulo 2^64 after a minus sign |
| Octets.ScanIsStoull | modules/gdb-stub/gdb-stub.cc:635-637 | the left-to-right scan reads every string exactly as the whole-string reading does |
| Octets.HexNumberRoundTrip | modules/gdb-stub/gdb-stub.cc:635-637 | a number below 2^64 written in hex reads back as itself, whatever non-digit follows |
| Octets.PrefixedRoundTrip | modules/gdb-stub/gdb-stub.cc:635-637 | a `0x` prefix is skipped |
| Octets.NegatedRoundTrip | modules/gdb-stub/gdb-stub.cc:635-637 | a minus sign negates the value modulo 2^64 |
| Octets.OverflowThrows | modules/gdb-stub/gdb-stub.cc:635-637 | digits worth 2^64 or more throw `out_of_range` |
| Octets.UnreadableStart | modules/gdb-stub/gdb-stub.cc:635-637 | text that starts with anything but white space, a sign or a hex digit throws `invalid_argument` |
| Octets.LittleEndianValue | modules/gdb-stub/gdb-stub.cc:622-633 | the n bytes `format_hex(value, n)` writes, lowest first, are the value modulo 256^n |
| Octets.LittleEndianRoundTrip | modules/gdb-stub/gdb-stub.cc:622-633 | a value that fits in n bytes reads back from its n little-endian bytes |
| Octets.DecimalRoundTrip | modules/gdb-stub/gdb_stub.cc:390 | `stoi` reads back any non-negative `int` written in decimal |
| Octets.IndexFrom | modules/gdb-stub/gdb_stub.cc:345-346 | `find(b, from)` is the first position at or after `from` holding `b`, or the length (`npos`) when there is none |
| GdbProtocol.Escape | modules/gdb-stub/gdb_protocol.cc:148-160 | escaped data never holds a bare `#` or `$` and is at most twice as long |
| GdbProtocol.UnescapeEscape | modules/gdb-stub/gdb_protocol.cc:148-179 | unescaping escaped data gives the data back |
| GdbProtocol.UnescapeAfterEscape | modules/gdb-stub/gdb_protocol.cc:148-179 | unescaping works piecewise after an escaped prefix |
| GdbProtocol.TrailingEscapeDropped | modules/gdb-stub/gdb_protocol.cc:162-179 | a dangling `}` at the end of a body is dropped silently |
| GdbProtocol.FormatPacket | modules/gdb-stub/gdb_protocol.cc:181-190 | a frame is `$`, the data, `#` and two lower-case hex digits that read back as the data's checksum |
| GdbProtocol.SeekStart | modules/gdb-stub/gdb_protocol.cc:28-45 | the receiver skips to the first `$` or interrupt byte, discarding everything before it |
| GdbProtocol.Receive | modules/gdb-stub/gdb_protocol.cc:22-90 | a reception consumes input, replies nothing or (in ack mode) one `+` or `-`, and a `+` comes exactly with a packet, a `-` without one; a checksum `std::stoul` cannot read (line 68) is marked `thrown`, with no packet and no reply, apart from the `false` returns |
| GdbProtocol.ReadFrame | modules/gdb-stub/gdb_protocol.cc:47-90 | reading a frame body has the same reply discipline, and a thrown reading replies nothing and yields no packet |
| GdbProtocol.Verdict | modules/gdb-stub/gdb_protocol.cc:61-89 | the reading is thrown exactly when `std::stoul` finds no number in the two checksum characters; otherwise a match gives the unescaped data and `+`, a mismatch no packet and `-` (in ack mode) |
| GdbProtocol.ReceiveThrows | modules/gdb-stub/gdb_protocol.cc:22-68 | after any noise, a frame whose checksum characters `std::stoul` rejects is thrown with no packet and no reply, and leaves the input after it |
| GdbProtocol.ReceiveLost | modules/gdb-stub/gdb_protocol.cc:28-45 | input with no `$` and no interrupt byte is consumed and gives a plain failure, not a throw |
| GdbProtocol.ReadFrameOf | modules/gdb-stub/gdb_protocol.cc:47-90 | a well-formed frame yields its unescaped data, a `+` in ack mode, and leaves the input after it |
| GdbProtocol.ReceiveFrame | modules/gdb-stub/gdb_protocol.cc:22-90 | after any noise, a formatted frame is received as its data |
| GdbProtocol.ReceiveAfterNoise | modules/gdb-stub/gdb_protocol.cc:28-45 | bytes before the `$` do not change what is read |
| GdbProtocol.ReceiveCorrupted | modules/gdb-stub/gdb_protocol.cc:68-78 | a frame with a wrong checksum yields no packet and a `-` in ack mode |
| GdbProtocol.ReceiveInterrupt | modules/gdb-stub/gdb_protocol.cc:36-40 | an interrupt byte before any `$` is received as the one-byte packet `\x03`, with no reply |
| GdbProtocol.Transmit | modules/gdb-stub/gdb_protocol.cc:92-120 | sending writes the frame first; success needs a complete write and, in ack mode, consumes a reply; without ack mode a complete write succeeds at once |
| GdbProtocol.TransmitResends | modules/gdb-stub/gdb_protocol.cc:110-112 | each `-` makes the frame go out again, and the first `+` ends the send successfully |
| GdbProtocol.TransmitRejected | modules/gdb-stub/gdb_protocol.cc:113-116 | any reply other than `+` or `-` fails the send |
| GdbProtocol.SendThenReceive | modules/gdb-stub/gdb_protocol.cc:22-120 | what `send_packet` writes, `receive_packet` reads back as the same data |
| GdbArch.X64RegisterInfo | modules/gdb-stub/gdb_arch.cc:22-53 | the x86-64 table has 24 registers: 17 of 8 bytes ending with `rip`, then `eflags` and the five segment registers of 4 bytes, laid out without overlap inside the saved image |
| GdbArch.Aarch64RegisterInfo | modules/gdb-stub/gdb_arch.cc:235-249 | the AArch64 table has `x0`-`x30`, `sp` and `pc` of 8 bytes at 8-byte strides, then the 4-byte `cpsr`, inside the saved image |
| GdbArch.WriteRegisters | modules/gdb-stub/gdb_arch.cc:67-76 | writing all registers succeeds exactly when the data is the image's size, and stores it verbatim |
| GdbArch.ReadRegister | modules/gdb-stub/gdb_arch.cc:78-94 | a register number at or past the table's end is refused, a negative one indexes outside the table, and any other reads the register's size in bytes |
| GdbArch.WriteRegister | modules/gdb-stub/gdb_arch.cc:96-115 | the same guards; a register inside the table is written exactly when the data has its size, keeping the image's size |
| GdbArch.NegativeRegisterPassesGuard | modules/gdb-stub/gdb_arch.cc:86-92 | register number -1 passes the bounds check of both accessors |
| GdbArch.ReadRegisterChecked | modules/gdb-stub/gdb_arch.cc:78-94 | with the check also rejecting negative numbers, no access leaves the table and every number outside it is refused |
| GdbArch.WriteRegisterChecked | modules/gdb-stub/gdb_arch.cc:96-115 | the same for writes |
| GdbArch.RegisterRoundTrip | modules/gdb-stub/gdb_arch.cc:78-115 | a register written with data of its size reads back as that data |
| GdbArch.RegisterFrame | modules/gdb-stub/gdb_arch.cc:78-115 | writing one register leaves every other register's value unchanged |
| GdbArch.X64SingleStep | modules/gdb-stub/gdb_arch.cc:154-164 | single-stepping sets the trap flag, changes only the second byte of `eflags`, and adds 0x100 to it when the flag was clear |
| GdbArch.BumpSecondByte | modules/gdb-stub/gdb_arch.cc:162 | adding one to the second byte of a little-endian number adds 256 to it |
| GdbArch.X64SetBreakpoint | modules/gdb-stub/gdb_arch.cc:117-133 | only software breakpoints are planted; planting saves the byte at the address, writes `int3` there, marks the breakpoint enabled and leaves other memory alone |
| GdbArch.X64RemoveBreakpoint | modules/gdb-stub/gdb_arch.cc:135-146 | removal succeeds exactly for an enabled software breakpoint and writes the saved byte back, leaving other memory alone |
| GdbArch.X64SetThenRemove | modules/gdb-stub/gdb_arch.cc:117-146 | planting and then removing a software breakpoint restores memory exactly |
| GdbArch.Aarch64SetBreakpoint | modules/gdb-stub/gdb_arch.cc:313-329 | planting writes the four `BRK #0` bytes at the address, saves only the first original byte, and leaves other memory alone |
| GdbArch.Aarch64RemoveBreakpoint | modules/gdb-stub/gdb_arch.cc:331-343 | removal of an enabled software breakpoint writes four zero bytes, not the original instruction |
| GdbArch.Aarch64SetThenRemove | modules/gdb-stub/gdb_arch.cc:313-356 | planting then removing leaves zeros in place of the instruction and the rest of memory unchanged; single-stepping is never available on AArch64 |
| GdbStub.ParseHex | modules/gdb-stub/gdb_stub.cc:298-309 | `parse_hex` yields one byte per complete pair of characters, or throws |
| GdbStub.ParseFormatHex | modules/gdb-stub/gdb_stub.cc:288-309 | `parse_hex(format_hex(bs))` is `bs` |
| GdbStub.ParseHexOddNibble | modules/gdb-stub/gdb_stub.cc:301-302 | a trailing odd character is ignored |
| GdbStub.ThreadId | modules/gdb-stub/gdb_stub.cc:562-566 | a thread's id is its address modulo 2^16 |
| GdbStub.Insert | modules/gdb-stub/gdb_stub.cc:589 | `threads_[id] = info` keeps the map ordered by id, maps `id` to the thread and changes no other entry |
| GdbStub.Erase | modules/gdb-stub/gdb_stub.cc:601 | `threads_.erase(id)` keeps the map ordered, removes `id` and changes no other entry |
| GdbStub.EraseInsert | modules/gdb-stub/gdb_stub.cc:579-606 | erasing a freshly inserted id gives the map back |
| GdbStub.AddThread | modules/gdb-stub/gdb_stub.cc:579-594 | `add_thread` registers the thread under its id, changes no other id, and makes it current only when there was none |
| GdbStub.RemoveThread | modules/gdb-stub/gdb_stub.cc:596-606 | `remove_thread` unregisters its id, changes no other id, and clears the current thread exactly when it was that thread |
| GdbStub.AddThenRemove | modules/gdb-stub/gdb_stub.cc:579-606 | adding and then removing a new, non-current thread restores the stub |
| GdbStub.HandleThreadSelection | modules/gdb-stub/gdb_stub.cc:374-404 | `H` with no argument gives `E01`, with `0` or `-1` gives `OK`, throws exactly when `stoi` cannot read the id, and changes only the current thread, only for `Hc`/`Hg` naming a registered thread |
| GdbStub.HandleThreadAlive | modules/gdb-stub/gdb_stub.cc:406-416 | `T` throws exactly when `stoi` cannot read the id, and otherwise answers `OK` exactly for a registered id, `E01` otherwise |
| GdbStub.SelectAddedThread | modules/gdb-stub/gdb_stub.cc:374-404 | `Hg` with the id of a thread just added selects it |
| GdbStub.AddedThreadAlive | modules/gdb-stub/gdb_stub.cc:406-416 | a thread just added is reported alive |
| GdbStub.ThreadInfo | modules/gdb-stub/gdb_stub.cc:436-453 | the thread list is `m` followed by the registered ids in hex, comma-separated and in ascending order, which read back as those ids |
| GdbStub.ParseJoined | modules/gdb-stub/gdb_stub.cc:441-449 | the comma-joined hex ids read back as the ids |
| GdbStub.HandleReadMemory | modules/gdb-stub/gdb_stub.cc:219-236 | `m` without a comma gives `E01`; any other non-error reply is the hex of exactly the memory at the parsed address and length; the stub is unchanged |
| GdbStub.ParseWrite | modules/gdb-stub/gdb_stub.cc:240-250 | a write request lacks a separator exactly when the comma or the colon is missing; parsed numbers are below 2^64 |
| GdbStub.HandleWriteMemory | modules/gdb-stub/gdb_stub.cc:238-262 | `M` gives `E01` exactly without its separators, throws exactly on unreadable numbers, gives `OK` exactly when the data has the announced length, and then stores the data at the address |
| GdbStub.WriteRequestStores | modules/gdb-stub/gdb_stub.cc:238-262 | a well-formed `M` request stores its bytes |
| GdbStub.ReadAfterWrite | modules/gdb-stub/gdb_stub.cc:219-262 | an `m` request after an `M` of the same range returns the written bytes |
| GdbStub.ReadBack | modules/gdb-stub/gdb_stub.cc:219-236 | whatever the memory holds at the parsed range is what `m` returns |
| GdbStub.HandleReadRegisters | modules/gdb-stub/gdb_stub.cc:189-202 | `g` gives `E01` exactly without a current thread, and otherwise the hex of the saved register image |
| GdbStub.HandleWriteRegisters | modules/gdb-stub/gdb_stub.cc:204-217 | `G` gives `E01` without a current thread, throws exactly on unreadable hex, answers `OK` exactly when the data is an image's size, and changes nothing in the stub |
| GdbStub.WriteThenReadRegisters | modules/gdb-stub/gdb_stub.cc:189-217 | `G` with a block of the right size is answered `OK` and changes nothing, and `g` then answers the all-zero block `get_thread_registers` fills in, not the block written |
| GdbStub.HandleStep | modules/gdb-stub/gdb_stub.cc:320-332 | `s` gives `E01` without a current thread, `OK` on x86-64 and `E02` on AArch64 |
| GdbStub.HandleContinue | modules/gdb-stub/gdb_stub.cc:313-318 | `c` answers `OK` and resumes nothing |
| GdbStub.HandleHaltReason | modules/gdb-stub/gdb_stub.cc:418-422 | `?` answers `S05` (SIGTRAP) |
| GdbStub.HandleDetach | modules/gdb-stub/gdb_stub.cc:424-428 | `D` answers `OK` and marks the stub detached, nothing else |
| GdbStub.HandleKill | modules/gdb-stub/gdb_stub.cc:430-434 | `k` answers `OK` and stops the stub, nothing else |
| GdbStub.SetBreakpoint | modules/gdb-stub/gdb_stub.cc:529-545 | a breakpoint is recorded exactly when the architecture plants it (software only), enabled and with the original byte saved; no other address changes in the table |
| GdbStub.RemoveBreakpoint | modules/gdb-stub/gdb_stub.cc:547-560 | removal succeeds exactly for a recorded, enabled software breakpoint, which then leaves the table |
| GdbStub.SetThenRemoveBreakpoint | modules/gdb-stub/gdb_stub.cc:529-560 | on x86-64, setting and removing a new breakpoint restores the table and memory |
| GdbStub.HandleBreakpoint | modules/gdb-stub/gdb_stub.cc:334-372 | `Z`/`z` with fewer than 4 characters or a missing comma give `E01`; replies are `OK`, `E01` or `E03`; `OK` for `Z` means the parsed address now holds an enabled breakpoint, for `z` that it held one and no longer does |
| GdbStub.BreakpointDispatch | modules/gdb-stub/gdb_stub.cc:353-371 | a well-formed request answers `OK` exactly when the set or remove succeeds, else `E03` |
| GdbStub.BreakpointRequests | modules/gdb-stub/gdb_stub.cc:334-372 | on x86-64 a `Z0` then `z0` request pair at a new address restores the table and memory |
| GdbStub.FetchWhole | modules/gdb-stub/gdb_stub.cc:473-486 | fetching a document chunk by chunk from an offset returns the whole rest of it |
| GdbStub.XferRead | modules/gdb-stub/gdb_stub.cc:458-468 | an annex, offset and length laid out as `annex:offset,length` are read back as written |
| GdbStub.TargetXmlQuery | modules/gdb-stub/gdb_stub.cc:455-490 | a real `Xfer:features:read:` query either throws or gives `E01`: the annex is cut at position 11 |
| GdbStub.TargetXmlServed | modules/gdb-stub/gdb_stub.cc:455-490 | with the annex cut after the prefix, a `target.xml` request at any offset gets the matching `m`/`l` chunk |
| GdbStub.TargetXmlAtFeatures | modules/gdb-stub/gdb_stub.cc:458-459 | as written, on a `Xfer:features:read:` query the colon search from position 11 stops after `features`, so the offset field starts with `read` and no request is read |
| GdbStub.MemoryMapAtPrefix | modules/gdb-stub/gdb_stub.cc:502-503 | as written, on a `Xfer:memory-map:read:` query the colon search from position 15 stops before `read`, so no request is read |
| GdbStub.MemoryMapQuery | modules/gdb-stub/gdb_stub.cc:492-527 | a real `Xfer:memory-map:read:` query either throws or gives `E01`: the search starts at the colon after `memory-map` |
| GdbStub.MemoryMapServed | modules/gdb-stub/gdb_stub.cc:492-527 | with the search after the prefix, a memory-map request at any offset gets the matching chunk |
| GdbStub.QueryReplies | modules/gdb-stub/gdb_stub.cc:166-187 | `qSupported` gets the feature list, `qC` gets `QC1`, `qsThreadInfo` gets `l`, and every other query (including `qfThreadInfo` and both `qXfer` forms) gets an empty reply |
| GdbStub.WrittenHidesThreads | modules/gdb-stub/gdb_stub.cc:175 | `qfThreadInfo` is never answered with the thread list |
| GdbStub.WrittenHidesTargetXml | modules/gdb-stub/gdb_stub.cc:179 | a `target.xml` transfer is never answered |
| GdbStub.IntendedListsThreads | modules/gdb-stub/gdb_stub.cc:175-176 | with whole-prefix comparisons, `qfThreadInfo` is answered with every registered id |
| GdbStub.IntendedServesTargetXml | modules/gdb-stub/gdb_stub.cc:179-180 | with whole-prefix comparisons, a `target.xml` transfer is served |
| GdbStub.HandlePacket | modules/gdb-stub/gdb_stub.cc:99-157 | an empty packet gets no reply, an unknown command an empty one; only the commands that parse numbers or hex can throw; no command touches the threads or the architecture; only `k` stops the stub |
| GdbStub.Serve | modules/gdb-stub/gdb_stub.cc:66-97 | a stopped stub serves nothing; serving keeps the stub valid and its threads and architecture |
| GdbStub.ServeThrows | modules/gdb-stub/gdb_stub.cc:84-92 | a frame whose checksum `std::stoul` rejects ends the stub by an exception, with nothing written and the stub unchanged |
| GdbStub.ServeHandlerThrows | modules/gdb-stub/gdb_stub.cc:84-92 | a packet whose handler throws ends the stub by an exception after the packet's acknowledgement |
| GdbStub.ServeLost | modules/gdb-stub/gdb_stub.cc:84-92 | input without a `$` or interrupt byte ends the connection by a `false` return, not an exception, with nothing written |
| GdbStub.ServeFrames | modules/gdb-stub/gdb_stub.cc:84-92 | without ack mode, the bytes written are exactly the framed replies, in order |
| GdbStub.ServeStep | modules/gdb-stub/gdb_stub.cc:84-92 | one received packet is answered with one framed reply, after which serving continues on the rest of the input |
| GdbStub.KillEndsSession | modules/gdb-stub/gdb_stub.cc:84-92 | a `k` packet is answered `OK` and ends the session, whatever input follows |
| GdbStubCommands.Parse | modules/gdb-stub/gdb-stub.cc:42-58 | an accepted packet is `$`, data without `#`, `#`, then two hex characters whose value is the data's checksum; a frame whose checksum characters `stoi` cannot read (`ParseThrows`) is never accepted |
| GdbStubCommands.ParseFrame | modules/gdb-stub/gdb-stub.cc:42-58 | a frame is accepted exactly when its checksum characters read as the data's checksum, and then yields that data whatever trails it; `stoi` throws on it exactly when those characters hold no hex digit to read |
| GdbStubCommands.ParseAt | modules/gdb-stub/gdb-stub.cc:42-58 | with the first `#` at a given position, the result is the data before it if and only if the checksum matches |
| GdbStubCommands.ParseFormat | modules/gdb-stub/gdb-stub.cc:34-40 | parsing a formatted packet gives back its data |
| GdbStubCommands.FormatHex | modules/gdb-stub/gdb-stub.cc:622-633 | the text has two hex digits per byte and decodes to the value's low bytes, least significant first |
| GdbStubCommands.ReadMemory | modules/gdb-stub/gdb-stub.cc:490-523 | a zero or oversized length gets `E01`, address zero `E02`, otherwise the reply decodes to the bytes of memory from the address |
| GdbStubCommands.WriteMemory | modules/gdb-stub/gdb-stub.cc:525-558 | address zero gets `E01`, empty or odd hex `E02`, more than 4096 bytes `E03`; what is stored is the decoded data |
| GdbStubCommands.WriteMemoryStores | modules/gdb-stub/gdb-stub.cc:525-558 | writing the hex of up to 4096 bytes at a non-zero address answers `OK` and stores exactly those bytes |
| GdbStubCommands.WriteMemoryDecoded | modules/gdb-stub/gdb-stub.cc:525-558 | any hex text that decodes completely to up to 4096 bytes is stored as those bytes |
| GdbStubCommands.HandleQuery | modules/gdb-stub/gdb-stub.cc:435-454 | `Supported`, `C`, `Attached` and `Symbol:` get their fixed replies, checked in that order; any other query an empty one |
| GdbStubCommands.RegisterDump | modules/gdb-stub/gdb-stub.cc:456-482 | sixteen hex characters per register |
| GdbStubCommands.ReadCommand | modules/gdb-stub/gdb-stub.cc:365-375 | `m` without a comma is answered `E01`; an `m` never stops the stub or stores anything |
| GdbStubCommands.WriteCommand | modules/gdb-stub/gdb-stub.cc:377-390 | `M` without a comma or colon is answered `E01`; an `M` never stops the stub |
| GdbStubCommands.BreakpointCommand | modules/gdb-stub/gdb-stub.cc:398-422 | `Z`/`z` without a comma is answered `E01`, with one `OK` |
| GdbStubCommands.HandleCommand | modules/gdb-stub/gdb-stub.cc:342-433 | the empty command gets an empty reply; only `k` stops the stub; only `M` stores; only `m`, `M`, `Z`, `z` can throw; `?` gets `S05`; unknown commands an empty reply |
| GdbStubCommands.Dispatch | modules/gdb-stub/gdb-stub.cc:342-433 | `m` goes to the read handler, `M` to the write handler, `k` stops with no reply |
| GdbStubCommands.ReadPicked | modules/gdb-stub/gdb-stub.cc:365-375 | the `m` branch is the read handler |
| GdbStubCommands.WritePicked | modules/gdb-stub/gdb-stub.cc:377-390 | the `M` branch is the write handler |
| GdbStubCommands.ReadFields | modules/gdb-stub/gdb-stub.cc:365-375 | `m` with a hex address and length is answered as the memory read of those numbers |
| GdbStubCommands.ReadRequest | modules/gdb-stub/gdb-stub.cc:365-375 | the whole `m addr,length` command is answered with the memory read |
| GdbStubCommands.WriteFields | modules/gdb-stub/gdb-stub.cc:377-390 | `M addr,length:hex` with a non-zero address and up to 4096 bytes answers `OK` and stores the bytes at the address |
| GdbStubCommands.WriteRequest | modules/gdb-stub/gdb-stub.cc:377-390 | the whole `M` command stores its bytes at its address and answers `OK` |
| GdbStubCommands.ReceivePacket | modules/gdb-stub/gdb-stub.cc:589-620 | every reception consumes input; it sends nothing, `+` or `-`, yields data only after a `+`, and sends nothing when `parse` throws |
| GdbStubCommands.ReceiveFormatted | modules/gdb-stub/gdb-stub.cc:589-620 | a well-formed packet, behind at most one acknowledgement byte, is acknowledged with `+` and yields its data |
| GdbStubCommands.ReceiveSkipsAck | modules/gdb-stub/gdb-stub.cc:601-604 | a lone `+` or `-` chunk is skipped |
| GdbStubCommands.ReceiveThrows | modules/gdb-stub/gdb-stub.cc:589-620 | a frame whose checksum characters hold no hex digit is neither acknowledged nor refused: the exception from `stoi` leaves `receive_packet` |
| GdbStubCommands.Run | modules/gdb-stub/gdb-stub.cc:316-340 | everything sent is an acknowledgement or a packet that parses; the session records whether an exception ended it |
| GdbStubCommands.RunThrows | modules/gdb-stub/gdb-stub.cc:316-340 | a frame such as `$abc#zz` ends the session by the exception, with nothing sent for it |
| GdbStubCommands.RunKill | modules/gdb-stub/gdb-stub.cc:316-340 | a `k` packet is acknowledged and ends the loop normally, whatever input follows |
| GdbStubCommands.RunStep | modules/gdb-stub/gdb-stub.cc:316-340 | a handled packet is followed by its framed reply, and the loop goes on with memory updated by any write, ending as the rest of the session ends |
| GdbStubCommands.RunAnswers | modules/gdb-stub/gdb-stub.cc:316-340 | a formatted command with a non-empty reply is acknowledged, answered, and the loop continues on the rest |
| GdbStubCommands.StandaloneChecksum | modules/gdb-stub/test_standalone.cc:60-72 | the checksum of `qSupported` is 0x37 |
| GdbStubCommands.StandaloneFormat | modules/gdb-stub/test_standalone.cc:74-83 | `qSupported` is framed as `$qSupported#37` |
| GdbStubCommands.StandaloneParse | modules/gdb-stub/test_standalone.cc:85-100 | `$qSupported#37` parses to `qSupported` |
| GdbStubCommands.StandaloneParseBadChecksum | modules/gdb-stub/test_standalone.cc:85-100 | `$qSupported#00` is rejected |
| GdbStubCommands.StandaloneQuestion | modules/gdb-stub/test_standalone.cc:102-121 | `?` is framed as `$?#3f` |
| GdbStubCommands.StandaloneReadCommand | modules/gdb-stub/test_standalone.cc:102-121 | `m1000,10` survives formatting and parsing |
| GdbStubCommands.StandaloneHex | modules/gdb-stub/test_standalone.cc:123-141 | 0x1234 as two little-endian bytes is `3412` |
| Rofs.LoopStepAsWritten | fs/rofs/rofs_common.cc:101-127 | one pass of the splitting loop as written makes progress if and only if `max_io_size` holds at least one block |
| Rofs.SmallDeviceStalls | fs/rofs/rofs_common.cc:95-127 | below one block per request, a pass issues a zero-byte request and returns to the same state, so the loop never ends |
| Rofs.PerRequest | fs/rofs/rofs_common.cc:95 | the corrected per-request count (see Findings): the most blocks that fit `max_io_size`, and at least one, where the source's `max_request_bytes / BSIZE` can be 0 |
| Rofs.ReadBlocks | fs/rofs/rofs_common.cc:61-137 | the read with the corrected per-request count: the requests issued and the error returned are those of the read's plan under the block layer's answers: `ENOMEM` when a bio cannot be allocated, the first failing request's error, otherwise 0 |
| Rofs.SplitRead | fs/rofs/rofs_common.cc:94-136 | the splitting loop, given a per-request count of at least one (the corrected rule), issues its chunks in order and stops at the first that cannot be allocated or fails |
| Rofs.ChunksTotal | fs/rofs/rofs_common.cc:101-127 | the chunks of a split read add up to exactly the blocks asked for |
| Rofs.ChunksSized | fs/rofs/rofs_common.cc:102-103 | each chunk is a non-zero whole number of blocks, at most the per-request count |
| Rofs.ChunksContiguous | fs/rofs/rofs_common.cc:110-126 | the first chunk starts at the first block and the buffer's start; each next chunk starts where the previous one ended, on the device and in the buffer |
| Rofs.PlanWithinLimit | test_rofs_fix.cc:53-64 | when the device holds at least one block per request, no request exceeds `max_io_size` |
| Rofs.SplitReadCovers | fs/rofs/rofs_common.cc:94-127 | a read that does not fit one request covers its blocks exactly once, in order, from the start of the buffer |
| Rofs.HealthyReadSucceeds | fs/rofs/rofs_common.cc:61-137 | when every request succeeds, the read issues its whole plan and returns 0 |
| Rofs.TestSmallRead | test_rofs_fix.cc:144-149 | two blocks from block 0 go out as one 1024-byte request |
| Rofs.TestTenBlocks | test_rofs_fix.cc:151-156 | ten blocks from block 100 go out as requests of four, four and two blocks at consecutive offsets |
| Rofs.TestTwentyBlocks | test_rofs_fix.cc:158-163 | twenty blocks go out as five full requests |
| Rofs.SetVnode | fs/rofs/rofs_common.cc:35-59 | a null vnode or inode changes nothing; otherwise the vnode takes the inode, its number, mode 0555, and the type and size of a directory, regular file or link (size 0 and type unchanged for anything else) |
| Rofs.SetVnodeAgain | fs/rofs/rofs_common.cc:35-59 | setting a vnode from the same inode a second time keeps the vnode the first call made |
| Dmi.Nul | arch/x64/dmi.cc:46 | `strlen` finds the first NUL at or after its start, or none inside memory |
| Dmi.StringList | arch/x64/dmi.cc:44-50 | a list of strings ends at a NUL inside memory, and none of its strings is empty |
| Dmi.StringSet | arch/x64/dmi.cc:44-50 | a structure's string set ends at a NUL after its start, inside memory |
| Dmi.StringStartReads | arch/x64/dmi.cc:44-50 | in a well-formed list, string number `idx` is the `idx`-th string, and the empty string past the last one |
| Dmi.DmiStringReads | arch/x64/dmi.cc:39-51 | number 0 reads "Not Specified", a number naming a string reads that string, and a larger one the empty string |
| Dmi.StringStartAsWrittenAgrees | arch/x64/dmi.cc:45-49 | the walk as written agrees with the corrected one up to one past the last string |
| Dmi.StringStartAsWrittenOverruns | arch/x64/dmi.cc:45 | two past the last string, the walk as written lands past the set's terminating NUL, where the corrected one stays on it |
| Dmi.DmiStringAsWrittenExample | arch/x64/dmi.cc:39-51 | a concrete structure whose string number 3 reads the next structure's bytes as written, and the empty string once corrected |
| Dmi.SkipTable | arch/x64/dmi.cc:90-98 | the string-set skip of the SMBIOS 2 walk always advances at least two bytes |
| Dmi.SkipTableSet | arch/x64/dmi.cc:90-98 | a well-formed string set ending inside the table is skipped whole, to just past its final NUL |
| Dmi.SkipStrings | arch/x64/dmi.cc:198-200 | the SMBIOS 3 strings loop never moves backwards and stops only when memory ends |
| Dmi.SkipStringsList | arch/x64/dmi.cc:198-200 | it stops exactly on the NUL that ends a list of strings |
| Dmi.SkipSet3AsWritten | arch/x64/dmi.cc:196-203 | the SMBIOS 3 string-set skip as written never moves backwards |
| Dmi.SkipSet3 | arch/x64/dmi.cc:196-203 | the corrected skip never moves backwards |
| Dmi.SkipSet3Set | arch/x64/dmi.cc:196-203 | the corrected skip steps over a well-formed string set whole |
| Dmi.SkipSet3AsWrittenEmptySet | arch/x64/dmi.cc:196-203 | as written, a structure with no strings leaves the cursor on the second NUL of its set; with strings it agrees with the corrected skip |
| Dmi.VendorAtAgrees | arch/x64/dmi.cc:83 | both readings of the vendor agree when its number names one of the strings or the empty one just after them |
| Dmi.TableWalk | arch/x64/dmi.cc:65-99 | the walk visits at most the entry point's structure count |
| Dmi.TableWalkVisits | arch/x64/dmi.cc:53-100 | the walk visits accepted structures only, in increasing order, and the vendor is the one the last BIOS Information structure among them names |
| Dmi.Table3WalkFinds | arch/x64/dmi.cc:175-204 | the SMBIOS 3 walk visits accepted structures, stops at the first BIOS Information structure, and changes the vendor only then, to the string it names |
| Dmi.SmbiosDecode | arch/x64/dmi.cc:111-127 | an invalid entry point leaves the vendor and visits nothing; a valid one visits at most its structure count |
| Dmi.ProbeFindsNothing | arch/x64/dmi.cc:129-144 | with no decodable anchor in the scanned paragraphs, the vendor is unchanged |
| Dmi.ProbeFindsOne | arch/x64/dmi.cc:129-144 | with exactly one decodable anchor, the vendor is what decoding that entry point yields |
| Dmi.ProbeUefiPrefers3 | arch/x64/dmi.cc:146-225 | a valid SMBIOS 3 entry point decides the result whatever the 2.x table is; an invalid one with a 2.x anchor falls back to decoding the 2.x entry point |
| DmiBuild.Balance | arch/x64/dmi.cc:102-109 | the checksum byte brings the running sum to a multiple of 256 |
| DmiBuild.BalancedChecksum | arch/x64/dmi.cc:102-109 | with that byte inserted, the bytes sum to zero as `smbios_checksum` adds them |
| DmiBuild.Entry2RoundTrip | arch/x64/dmi.cc:111-127 | a 32-bit entry point built for a table is found by its anchor and read back as valid with the same base, length and count |
| DmiBuild.Entry2Layout | arch/x64/dmi.cc:113-124 | the built entry point has the `_SM_` anchor, its length at 5, a zero checksum, `_DMI_` at 0x10 and the fields at the offsets the reader uses |
| DmiBuild.Entry3RoundTrip | arch/x64/dmi.cc:155-165 | a 64-bit entry point built for a table reads back as valid with the same base and length |
| DmiBuild.Entry3Layout | arch/x64/dmi.cc:159-165 | it has the `_SM3_` anchor, its length at 6, a zero checksum, the length at 0x0c and the base at 0x10 |
| UefiBoot.GuidEqual | arch/x64/uefi-boot.cc:47-51 | two GUIDs compare equal exactly when all four parts are equal |
| UefiBoot.Scan | arch/x64/uefi-boot.cc:59-65 | the scan returns the table of the first entry with the GUID, or null when no entry has it |
| UefiBoot.FindConfigTable | arch/x64/uefi-boot.cc:53-66 | null without a UEFI boot or system table; otherwise the first matching entry's table, or null |
| UefiBoot.FoundIsListed | arch/x64/uefi-boot.cc:53-66 | a non-null result comes from the first configuration entry with that GUID |
| UefiBoot.FirstIndex | arch/x64/uefi-boot.cc:60-64 | when some entry has the GUID, the first such index |
| UefiBoot.Padded | arch/x64/uefi-boot.cc:86 | the allocation is the reported size plus two descriptors when that does not overflow |
| UefiBoot.GetMap | arch/x64/uefi-boot.cc:68-111 | success exactly when the size probe succeeds, or reports too small and both the allocation and the fetch succeed; the fetched map, size, key and descriptor size are recorded; a failed fetch frees the buffer and forgets it; nothing but the map fields changes |
| UefiBoot.GetMapNeverDangles | arch/x64/uefi-boot.cc:103-108 | a fetch never leaves the map pointing at a buffer it freed |
| UefiBoot.ExitAsWrittenDangles | arch/x64/uefi-boot.cc:157-168 | as written, a failed exit with a map in hand, followed by a failing refetch, leaves the map pointing at the freed buffer |
| UefiBoot.ExitAsWrittenRetriesOnce | arch/x64/uefi-boot.cc:145-182 | as written, the exit is tried twice when the first try fails and the refetch succeeds, once otherwise, never without a UEFI boot |
| UefiBoot.Exit | arch/x64/uefi-boot.cc:145-182 | without a UEFI boot `EFI_UNSUPPORTED` and nothing called; a first success is final; after a failure the map is fetched again and, if that works, the exit is retried with the new key and its status returned |
| UefiBoot.ExitRetriesOnce | arch/x64/uefi-boot.cc:145-182 | the corrected exit is tried twice when the first try fails and the refetch succeeds, once otherwise |
| UefiBoot.ExitNeverDangles | arch/x64/uefi-boot.cc:157-168 | the corrected exit never leaves the map pointing at a buffer it freed |
| UefiBoot.GetMapNeverExits | arch/x64/uefi-boot.cc:68-111 | fetching the map never calls `exit_boot_services` |
| UefiBoot.Init | arch/x64/uefi-boot.cc:184-217 | the boot is marked UEFI with the image and system table; ACPI is the 2.0 table, or the 1.0 table when that is null; both SMBIOS tables are looked up; success exactly when the map fetch succeeds |
| UefiMemoryMap.ReadDescriptor | include/osv/uefi.hh:80-86 | a descriptor can be read exactly when its fields lie inside the bytes written |
| UefiMemoryMap.DecodeMap | arch/x64/uefi-boot.cc:122-142 | a decoded map has exactly the number of descriptors asked for |
| UefiMemoryMap.SetupMemoryMap | arch/x64/uefi-boot.cc:113-143 | without a UEFI boot the size is unchanged; otherwise it grows by the conventional bytes of the `size / descriptor_size` descriptors, modulo 2^64 |
| UefiMemoryMap.AccumulateAgrees | arch/x64/uefi-boot.cc:125-142 | the loop's running total equals the conventional bytes of the decoded descriptors added to the start, modulo 2^64 |
| UefiMemoryMap.EncodeMap | include/osv/uefi.hh:80-86 | a written map is its descriptors, one stride each |
| UefiMemoryMap.ReadEncoded | include/osv/uefi.hh:80-86 | a written descriptor reads back as itself |
| UefiMemoryMap.MapRoundTrip | arch/x64/uefi-boot.cc:122-142 | the descriptors of a written map, at any stride of at least 40 bytes, decode back in order |
| UefiMemoryMap.SetupSeesEveryDescriptor | arch/x64/uefi-boot.cc:122-125 | for a map written whole, the loop's count is the number of descriptors and it reads every one |
| UefiMain.InitDescriptorSize | arch/x64/uefi-boot.cc:184-217 | after a successful `uefi_init` the descriptor size kept is one the firmware reported |
| UefiMain.InitNeverExits | arch/x64/uefi-boot.cc:184-217 | `uefi_init` never calls `exit_boot_services` |
| UefiMain.EnterKernel | arch/x64/uefi-boot.cc:240-262 | the memory map is counted into `phys_mem_size`, the exit as written decides the status, and the kernel is entered exactly when the exit succeeds, right after an `exit_boot_services` call |
| UefiMain.EfiMain | arch/x64/uefi-boot.cc:232-263 | a failed `uefi_init` is returned with nothing else done; otherwise the status is the exit's, the log is the init's followed by the exit's, at least one exit is tried, and the kernel is entered exactly when the exit succeeds |
| Vsock.HeaderOf | bsd/sys/netvsock/vsock_proto.cc:171-178 | every header goes from the PCB's local CID and port to its remote ones, as a stream packet with the given op, length and flags |
| Vsock.PacketsAppend | bsd/sys/netvsock/vsock_proto.cc:180 | the packets of two effect logs in sequence are the packets of each, in order |
| Vsock.Attach | bsd/sys/netvsock/vsock_proto.cc:68-99 | success exactly when there is no PCB yet, the allocation succeeds and the buffers can be reserved; then a fresh unbound PCB with the "any" CIDs and ports; on failure the slot is as before; no packet is sent |
| Vsock.Detach | bsd/sys/netvsock/vsock_proto.cc:101-112 | success exactly when there is a PCB; afterwards there is none |
| Vsock.CheckName | bsd/sys/netvsock/vsock_proto.cc:120-132 | a name is usable exactly with a PCB, the `AF_VSOCK` family, the `sockaddr_vm` size and a driver |
| Vsock.Bind | bsd/sys/netvsock/vsock_proto.cc:114-139 | success exactly for a usable name; the PCB is then bound to the guest CID and the name's port, its remote side unchanged; a failure changes nothing |
| Vsock.Connect | bsd/sys/netvsock/vsock_proto.cc:141-189 | an unusable name is refused with its error; otherwise the remote side is the name's, one request packet is sent, and the PCB is connected with status 0 when the driver takes it, or left connecting with `EIO` |
| Vsock.Disconnect | bsd/sys/netvsock/vsock_proto.cc:191-219 | without a PCB `EINVAL`; otherwise the PCB becomes unbound, the socket is marked disconnected, and a reset is sent exactly when it was connected and a driver exists |
| Vsock.Listen | bsd/sys/netvsock/vsock_proto.cc:221-235 | success exactly for a bound PCB, which then listens with the backlog; anything else `EINVAL` with nothing changed |
| Vsock.AddrOf | bsd/sys/netvsock/vsock_proto.cc:246-249 | a reported address has the `AF_VSOCK` family and the port; a CID that fits 32 bits is kept |
| Vsock.Accept | bsd/sys/netvsock/vsock_proto.cc:237-253 | without a PCB `EINVAL`; otherwise the remote address, nothing changed |
| Vsock.SockAddr | bsd/sys/netvsock/vsock_proto.cc:342-358 | without a PCB `EINVAL`; otherwise the local address, nothing changed |
| Vsock.PeerAddr | bsd/sys/netvsock/vsock_proto.cc:360-376 | without a PCB `EINVAL`; otherwise the remote address, nothing changed |
| Vsock.Send | bsd/sys/netvsock/vsock_proto.cc:255-306 | `EINVAL` without a PCB, `ENOTCONN` unless connected; one data packet of the payload's length is sent exactly when connected with a driver, and the status is 0 exactly when the driver takes it |
| Vsock.SendAlwaysFrees | bsd/sys/netvsock/vsock_proto.cc:300-305 | every path frees the payload and the control data it was given; the PCB never changes |
| Vsock.ShutdownFlags | bsd/sys/netvsock/vsock_proto.cc:328-331 | the receive bit is set exactly for `SHUT_RD` and `SHUT_RDWR`, the send bit exactly for `SHUT_WR` and `SHUT_RDWR` |
| Vsock.ShutdownFlagsAsWrittenLoseDirections | bsd/sys/netvsock/vsock_proto.cc:328-331 | as written, `SHUT_RDWR` and `SHUT_RD` send no flags at all, where the intended flags are non-zero; only `SHUT_WR` is right |
| Vsock.MaskedFlags | bsd/sys/netvsock/vsock_proto.cc:328-331 | the flags as written are the bit tests of `how` against `SHUT_RD` (zero) and `SHUT_WR` (one) |
| Vsock.ShutdownWith | bsd/sys/netvsock/vsock_proto.cc:309-340 | without a PCB `EINVAL`; otherwise status 0 and the socket can send no more; a shutdown packet with the flags goes out exactly when connected with a driver |
| Vsock.Shutdown | bsd/sys/netvsock/vsock_proto.cc:309-340 | the shutdown as written sends the flags as written |
| Vsock.ShutdownIntended | bsd/sys/netvsock/vsock_proto.cc:309-340 | the corrected shutdown sends the intended flags |
| Vsock.FullShutdownNotice | bsd/sys/netvsock/vsock_proto.cc:328-331 | on a connected PCB, a full shutdown as written announces no direction, and once corrected announces both |
| Vsock.NoPcbInvalid | bsd/sys/netvsock/vsock_proto.cc:54-66 | every request other than attach is refused with `EINVAL` on a socket without a PCB, and sends nothing |
| Vsock.HandleKeepsGood | bsd/sys/netvsock/vsock_proto.cc:54-66 | no request leaves a PCB closing or with a remote CID that does not fit 32 bits |
| Vsock.PeerAddrIsDestination | bsd/sys/netvsock/vsock_proto.cc:279-286 | the peer address `getpeername` and `accept` report is the destination of every data packet |
| Vsock.AttachDetach | bsd/sys/netvsock/vsock_proto.cc:68-112 | detaching a fresh PCB succeeds and leaves no PCB and no effects |
| Vsock.AttachFailureLeavesNothing | bsd/sys/netvsock/vsock_proto.cc:92-96 | a failed attach leaves no PCB behind, so a second attach is not refused as already connected |
| Vsock.BindThenSockAddr | bsd/sys/netvsock/vsock_proto.cc:134-135 | after a bind the local address is the guest CID, truncated to 32 bits, and the bound port |
| Vsock.ConnectThenPeerAddr | bsd/sys/netvsock/vsock_proto.cc:166-167 | after a connect the peer address is the name connected to |
| Vsock.BindListen | bsd/sys/netvsock/vsock_proto.cc:221-235 | attach, bind and listen leave a listening PCB on the bound port |
| Vsock.ListenOnlyBound | bsd/sys/netvsock/vsock_proto.cc:229-230 | listening on a PCB that is not bound is refused and changes nothing |
| Vsock.ConnectSendDisconnect | bsd/sys/netvsock/vsock_proto.cc:141-306 | connect, send and disconnect on a working driver succeed and send a request, one data packet and a reset with the right addresses, leaving the PCB unbound |
| CommandLine.Unescape | comprehensive_test.cpp:7-31 | the result is never longer than the input, and text without a backslash is unchanged |
| CommandLine.UnescapeKnown | comprehensive_test.cpp:12-23 | a backslash before one of the ten known letters becomes the character it names |
| CommandLine.UnescapePlain | comprehensive_test.cpp:26-28 | any other character is copied |
| CommandLine.LetterFor | comprehensive_test.cpp:13-23 | the letter chosen for a character is one the table maps back to it |
| CommandLine.UnescapeEscape | comprehensive_test.cpp:7-31 | escaping any text and processing the escapes gives the text back |
| CommandLine.UnescapeExamples | comprehensive_test.cpp:12-24 | a known escape is replaced, an unknown one and a trailing backslash are kept, and an escaped backslash is not read again |
| CommandLine.WordEnd | comprehensive_test.cpp:44 | an unquoted word is the longest run of characters that are neither blank nor a delimiter |
| CommandLine.QuoteEnd | comprehensive_test.cpp:44 | a quoted string ends at a quote character |
| CommandLine.LexShaped | comprehensive_test.cpp:47-69 | every token of the search is a quoted word, a bare word or one of the four delimiters |
| CommandLine.ParseCommandLine | comprehensive_test.cpp:33-79 | `ok` is always set, and a line of only blanks and semicolons gives no commands |
| CommandLine.GatherShaped | comprehensive_test.cpp:50-76 | every command gathered is non-empty words followed by exactly one terminator |
| CommandLine.GatherWords | comprehensive_test.cpp:50-76 | gathering keeps every word, in order, and drops only the delimiters |
| CommandLine.ParseKeepsWords | comprehensive_test.cpp:33-79 | every command has words and one terminator, and the words are exactly the line's word tokens, in order |
| CommandLine.Meaning | comprehensive_test.cpp:63-75 | one command per command written |
| CommandLine.NotIgnorable | comprehensive_test.cpp:38-41 | a line written from commands is never skipped as blank |
| CommandLine.ParseLine | comprehensive_test.cpp:33-79 | a line written from any well-formed commands parses back to those commands' words and terminators |
| CommandLine.BlankLines | comprehensive_test.cpp:93-109 | the empty line, a space, and blanks with a semicolon give no commands |
| CommandLine.LoneWord | comprehensive_test.cpp:111-116 | one word is one command ended by `""` |
| CommandLine.WordsAndBlanks | comprehensive_test.cpp:118-124 | three words separated by blanks are one command |
| CommandLine.QuotedArgument | comprehensive_test.cpp:126-131 | a quoted argument keeps its blanks and semicolons, without the quotes |
| CommandLine.SemicolonCommands | comprehensive_test.cpp:133-145 | words each ended by `;`, with blanks around, are separate commands ended by `;` |
| CommandLine.TwoCommands | test_regex_parser.cpp:94-103 | `a;b;` is two commands each ended by `;` |
| CommandLine.MixedCommands | comprehensive_test.cpp:147-163 | commands with a quoted argument holding delimiters parse as two, three and two items, the quoted one with its escapes processed |
| CommandLine.LiteralQuoted | comprehensive_test.cpp:149 | text without quotes or backslashes can be quoted and reads back unchanged |
| CommandLine.QuotedTab | comprehensive_test.cpp:160 | a quoted `\t` at the end reads back as a tab |
| CommandLine.TestWords | comprehensive_test.cpp:111-163 | the words and quoted texts the tests use have the shapes the parse lemmas ask for |
| UbuntuPackages.FieldsKeys | scripts/ubuntu_packages.py:93-100 | a key is in the parsed fields exactly when some line with a colon has that key before its first colon |
| UbuntuPackages.FieldsLast | scripts/ubuntu_packages.py:96-99 | a key's value is the stripped text after the first colon of the last line setting it |
| UbuntuPackages.MatchEnd | scripts/ubuntu_packages.py:155 | a match of the version pattern is never empty and stays inside the text |
| UbuntuPackages.Sub | scripts/ubuntu_packages.py:155 | substitution never lengthens the text |
| UbuntuPackages.AsWrittenKeepsText | scripts/ubuntu_packages.py:155 | the pattern as written, which asks for literal backslashes, leaves any text without a backslash unchanged |
| UbuntuPackages.IntendedKeepsPlain | scripts/ubuntu_packages.py:155 | the intended pattern leaves text without a parenthesis unchanged |
| UbuntuPackages.IntendedStripsVersion | scripts/ubuntu_packages.py:155 | the intended pattern removes a trailing ` (version)` from a name |
| UbuntuPackages.VersionMatch | scripts/ubuntu_packages.py:155 | the intended pattern matches a blank and a parenthesised group up to the closing parenthesis |
| UbuntuPackages.DependencyOf | scripts/ubuntu_packages.py:150-158 | a dependency kept is non-empty, does not start with `<`, and holds no `\|` |
| UbuntuPackages.FirstAlternative | scripts/ubuntu_packages.py:156-157 | the first alternative kept is non-empty, does not start with `<`, and holds no `\|` |
| UbuntuPackages.PlainDependency | scripts/ubuntu_packages.py:156-157 | a dependency that is non-empty, has no surrounding blanks, does not start with `<` and holds no `\|` is its own first alternative |
| UbuntuPackages.PlainNameKept | scripts/ubuntu_packages.py:153-156 | a plain package name survives substitution, the alternative split and stripping unchanged |
| UbuntuPackages.DependsLineReads | scripts/ubuntu_packages.py:150-158 | an indented `Depends: name` line yields the name |
| UbuntuPackages.AlternativeKeepsFirst | scripts/ubuntu_packages.py:156 | `a \| b` yields `a` |
| UbuntuPackages.DepTextKept | scripts/ubuntu_packages.py:155 | text with neither a backslash nor a parenthesis is untouched by either pattern |
| UbuntuPackages.VersionKept | scripts/ubuntu_packages.py:155 | as written, `a (version)` is kept with its version; with the intended pattern it yields `a` |
| UbuntuPackages.DependenciesRead | scripts/ubuntu_packages.py:147-159 | the `Depends:` lines of plain names read back as those names, in order |
| UbuntuPackages.ParseDependenciesRoundTrip | scripts/ubuntu_packages.py:147-159 | `apt-cache depends` output made of such lines parses back to the names, under both patterns |
| UbuntuPackages.PoolLetter | scripts/ubuntu_packages.py:196-198 | the pool directory is a prefix of the name: four characters (or the whole name if shorter) for `lib` packages, one otherwise |
| UbuntuPackages.FindFrom | scripts/ubuntu_packages.py:194-221 | for a non-empty name the lookup ends in a URL or in not-found, never in the missing-name error |
| UbuntuPackages.FindFromFirst | scripts/ubuntu_packages.py:189-221 | the URL found is the last link of the first section, in the order main, universe, restricted, multiverse, whose listing offers one; nothing is found exactly when none does |
| UbuntuPackages.ResolveDependencies | scripts/ubuntu_packages.py:109-132 | the resolved set is exactly the packages reachable from the roots through dependencies without passing a blacklisted one, each queried once |
| UbuntuPackages.Resolve | scripts/ubuntu_packages.py:118-130 | taking one pending, non-blacklisted package, querying it once and queueing its unseen non-blacklisted dependencies keeps the loop's invariant (processed and pending non-blacklisted packages are reachable; the roots and the dependencies of processed packages are processed, pending or blacklisted; each processed package is queried exactly once) |
| UbuntuPackages.ClosedReaches | scripts/ubuntu_packages.py:109-132 | a set holding the roots and closed under non-blacklisted dependencies holds everything reachable |
| UbuntuPackages.OsvPath | scripts/ubuntu_packages.py:330-333 | `usr/...` files land under `/usr`, others under the prefix, and the path ends with the relative path |
| UbuntuPackages.Visible | scripts/ubuntu_packages.py:326-327 | a file is listed exactly when no component of its path starts with `.` |
| UbuntuPackages.ManifestLines | scripts/ubuntu_packages.py:316-335 | with newline terminators, the manifest reads back as one line per visible file, each that file's record |
| UbuntuPackages.RecordOneLine | scripts/ubuntu_packages.py:335 | a record holds no newline |
| UbuntuPackages.ManifestAsWrittenOneLine | scripts/ubuntu_packages.py:335 | as written, with a backslash and `n` as terminator, the whole manifest is one line |
| UbuntuPackages.ProcessPackages | scripts/ubuntu_packages.py:337-388 | the packages handled are the dependency closure or the names given; the failed ones are those whose fetch failed; success means none did |
| UbuntuPackages.Failures | scripts/ubuntu_packages.py:356-369 | a package fails exactly when its download or extraction fails |
| UbuntuPackages.BlacklistOf | scripts/ubuntu_packages.py:476-480 | the blacklist is the union of the command-line and configuration names, and absent (so the default applies) exactly when both are empty |
| UbuntuPackages.CommandLinePackages | scripts/ubuntu_packages.py:465-469 | comma-separated names on the command line come first, then the configuration's packages |
| UbuntuPackages.ConfigPrefixIgnored | scripts/ubuntu_packages.py:500 | as written, without `--manifest-prefix` the prefix is `/usr` even when the configuration names one, because the option's default is never empty; the intended reading takes the configuration's; a given option wins in both |
| UbuntuPackages.CommandLineText | scripts/ubuntu_packages.py:504-505 | a command line is written exactly when the option or the configuration gives a non-empty one |
| UbuntuPackages.RunMain | scripts/ubuntu_packages.py:401-516 | no packages exits 1 with nothing written; otherwise the command line is written, and the exit code is 0 exactly when every package handled was fetched |
| BuildFromUbuntu.Compile | scripts/build_from_ubuntu_packages.py:124 | a pattern that compiles has at most one piece per character |
| BuildFromUbuntu.Lits | scripts/build_from_ubuntu_packages.py:124 | a word compiles to one literal piece per character, in order |
| BuildFromUbuntu.CompilePlain | scripts/build_from_ubuntu_packages.py:124 | a word of ordinary characters compiles to its literals followed by whatever the rest compiles to |
| BuildFromUbuntu.OccursCons | scripts/build_from_ubuntu_packages.py:124 | a word occurs at a position exactly when its first character is there and the rest occurs just after |
| BuildFromUbuntu.MatchLits | scripts/build_from_ubuntu_packages.py:124 | literals followed by a tail match at a position exactly when the word occurs there and the tail matches after it |
| BuildFromUbuntu.AnyTextMatches | scripts/build_from_ubuntu_packages.py:124 | `.*` matches at any position of a name |
| BuildFromUbuntu.MatchThenSearch | scripts/build_from_ubuntu_packages.py:124 | a match at any later position makes the search from an earlier one succeed |
| BuildFromUbuntu.SearchThenMatch | scripts/build_from_ubuntu_packages.py:124 | a successful search names a position where the pattern matches |
| BuildFromUbuntu.SearchLits | scripts/build_from_ubuntu_packages.py:124 | searching for a word, optionally followed by `.*`, succeeds exactly when the word occurs in the name |
| BuildFromUbuntu.SimpleSearch | scripts/build_from_ubuntu_packages.py:124 | a word pattern, with or without a trailing `.*`, compiles, and `re.search` with it succeeds exactly when the word occurs in the name |
| BuildFromUbuntu.AnyTextCompiles | scripts/build_from_ubuntu_packages.py:124 | `.*` compiles to one starred any-character piece |
| BuildFromUbuntu.Blacklisted | scripts/build_from_ubuntu_packages.py:121-126 | a name is blacklisted exactly when some compiled pattern finds a match in it |
| BuildFromUbuntu.CompileAll | scripts/build_from_ubuntu_packages.py:123-124 | compiling a list succeeds with one compiled pattern per pattern, in order, and fails exactly when some pattern does not compile |
| BuildFromUbuntu.SimpleBlacklist | scripts/build_from_ubuntu_packages.py:121-126 | for word patterns, a name is blacklisted exactly when one of the words occurs in it |
| BuildFromUbuntu.IsBlacklisted | scripts/build_from_ubuntu_packages.py:121-126 | true only when some pattern compiles and matches; false only when every pattern compiles and none matches; `None` when an entry tried is outside the modelled syntax (characters, `.` and `*`), which takes in every entry `re` rejects, such as `c++`, and also valid ones such as `^lib` or `[a-z]` |
| BuildFromUbuntu.IsBlacklistedCompiled | scripts/build_from_ubuntu_packages.py:121-126 | when every pattern compiles, the check returns exactly whether some compiled pattern matches |
| BuildFromUbuntu.Unblacklisted | scripts/build_from_ubuntu_packages.py:89 | the dependencies kept are exactly those the check finds not blacklisted, and the comprehension fails exactly when the check cannot decide for one of them |
| BuildFromUbuntu.SimpleHit | scripts/build_from_ubuntu_packages.py:123-125 | a name holding the word of some pattern, with only word patterns up to it, is blacklisted, whatever follows in the list |
| BuildFromUbuntu.FirstDefaultsSimple | scripts/build_from_ubuntu_packages.py:24-26 | the default list starts with `bash`, `dash`, `sh`, `perl`, `python.*`, all word patterns |
| BuildFromUbuntu.ShCaughtByDefaults | scripts/build_from_ubuntu_packages.py:24-32 | every name containing `sh` is blacklisted by the defaults |
| BuildFromUbuntu.PythonCaughtByDefaults | scripts/build_from_ubuntu_packages.py:24-32 | every name containing `python` is blacklisted by the defaults |
| BuildFromUbuntu.AssembledBlacklist | scripts/build_from_ubuntu_packages.py:333-336 | the patterns assembled by `main` are the defaults unless disabled, plus the comma-separated extras |
| BuildFromUbuntu.NoDefaultIgnored | scripts/build_from_ubuntu_packages.py:43 | as written, disabling the defaults with no extras hands the builder an empty list, which it replaces by the defaults; the intended builder uses no patterns; in every other case the two agree |
| BuildFromUbuntu.WordEnd | scripts/build_from_ubuntu_packages.py:112 | the end of a `\S+` run: every character before it is not blank, and the one at it, if any, is |
| BuildFromUbuntu.TokenAt | scripts/build_from_ubuntu_packages.py:112 | the group captured after `Depends:` and blanks is non-empty and holds no blank |
| BuildFromUbuntu.TokenFrom | scripts/build_from_ubuntu_packages.py:112-113 | a captured group is never empty |
| BuildFromUbuntu.TokenLeftmost | scripts/build_from_ubuntu_packages.py:112 | the search captures the group at the leftmost position where `Depends:\s+\S+` matches |
| BuildFromUbuntu.TokenNone | scripts/build_from_ubuntu_packages.py:112-113 | when the pattern matches nowhere, nothing is captured |
| BuildFromUbuntu.PackageDependencies | scripts/build_from_ubuntu_packages.py:96-119 | every dependency read is non-empty; a failed `apt-cache` gives none |
| BuildFromUbuntu.DependsLineToken | scripts/build_from_ubuntu_packages.py:108-114 | a line of text without `D`, then `Depends:`, blanks, a name and a blank-led rest yields that name |
| BuildFromUbuntu.KeyAfter | scripts/build_from_ubuntu_packages.py:112 | in such a line the pattern matches right after the leading text and captures the name |
| BuildFromUbuntu.NoKeyBefore | scripts/build_from_ubuntu_packages.py:112 | the pattern cannot match at a position not holding `D` |
| BuildFromUbuntu.SpaceRunEnd | scripts/build_from_ubuntu_packages.py:112 | the `\s+` run ends at the first non-blank character |
| BuildFromUbuntu.WordRunEnd | scripts/build_from_ubuntu_packages.py:112 | the `\S+` run ends at the first blank or at the end of the line |
| BuildFromUbuntu.DependenciesRead | scripts/build_from_ubuntu_packages.py:96-119 | output made of indented `Depends: name` lines reads back as the names, in order |
| BuildFromUbuntu.IndentedReads | scripts/build_from_ubuntu_packages.py:108-114 | one indented `Depends: name` line is one line and yields the name |
| BuildFromUbuntu.ResolvePackageList | scripts/build_from_ubuntu_packages.py:78-94 | the packages fetched are the ones named plus, when dependencies are resolved, every name on a `Depends:` line of the `apt-cache depends --recurse` output of a named package that the blacklist check finds not blacklisted, and nothing else; the result is an error exactly when resolving and that check cannot decide for one of those names |
| BuildFromUbuntu.ManifestLines | scripts/build_from_ubuntu_packages.py:238-266 | the manifest reads back as the `[manifest]` header then one line per extracted file, each that file's record |
| BuildFromUbuntu.RecordOneLine | scripts/build_from_ubuntu_packages.py:264 | a record of a path whose components hold no newline is one line |
| BuildFromUbuntu.RecordPaths | scripts/build_from_ubuntu_packages.py:253-264 | for a path without `:`, the text before the first colon is the guest path (`/` and the relative path) and the text after `: ` is the `${MODULE_DIR}/extracted` root followed by the guest path |
| BuildFromUbuntu.ColonSplit | scripts/build_from_ubuntu_packages.py:264 | `g: h` with a colon-free `g` splits back into `g` and `h` |
| BuildFromUbuntu.ModulePyLines | scripts/build_from_ubuntu_packages.py:268-278 | `module.py` is three lines: the import, a blank line, and either `default = api.run(cmdline='…')` with the command line exactly when one is given, or a comment |
| BuildFromUbuntu.DefaultLineOneLine | scripts/build_from_ubuntu_packages.py:275-278 | the last line of `module.py` is one line when the command line is |
| BuildFromUbuntu.DefaultLineStarts | scripts/build_from_ubuntu_packages.py:275-278 | the last line starts with `default = ` exactly when a command line is given |
| BuildFromUbuntu.ThreeLines | scripts/build_from_ubuntu_packages.py:274-278 | three one-line texts each ended by a newline read back as those three lines |
| FixMakefile.FixLineInverse | fix_makefile.py:15-22 | a changed line is the original with its eight leading spaces turned into one tab; no fixed line is still led by exactly eight spaces; no newline appears |
| FixMakefile.FixLineIdempotent | fix_makefile.py:15-22 | fixing a fixed line changes nothing |
| FixMakefile.FixLines | fix_makefile.py:14-22 | one output line per input line, each the fix of the line at the same place |
| FixMakefile.FixedLinesAreLines | fix_makefile.py:14-22 | fixed lines hold no newline when the input lines hold none |
| FixMakefile.FixTextLines | fix_makefile.py:10-26 | the rewritten file splits into as many lines as the original, each the fix of the original line at the same place |
| FixMakefile.FixTextIdempotent | fix_makefile.py:5-26 | running the script twice gives the file it gives once |
| FixMakefileIndentation.Roles | fix_makefile_indentation.py:16-25 | one role per line, each the role of the line at the same place |
| FixMakefileIndentation.StateMeaning | fix_makefile_indentation.py:12-25 | the loop's `in_recipe` before a line holds exactly when some earlier line is a rule header and no line after it ends the recipe |
| FixMakefileIndentation.FixIndentation | fix_makefile_indentation.py:5-41 | the script's loop produces, line by line, the fix of each line against the declarative recipe flag |
| FixMakefileIndentation.Walk | fix_makefile_indentation.py:11-37 | the flag-carrying walk gives one output per line, each the line fixed against the flag the loop holds before it |
| FixMakefileIndentation.RolesBy | fix_makefile_indentation.py:16-25 | one role per line under any role function |
| FixMakefileIndentation.LoopIsFixAll | fix_makefile_indentation.py:11-37 | lines fixed against the loop's flag are the lines fixed against the declarative flag |
| FixMakefileIndentation.LineFate | fix_makefile_indentation.py:28-37 | a line led by neither exactly eight nor exactly four spaces is kept; a non-header led by eight becomes tab-led; a non-header led by four changes exactly inside a recipe |
| FixMakefileIndentation.FixedLineRole | fix_makefile_indentation.py:16-37 | a changed line was neither a header nor a recipe end, and its fix is neither and is no longer space-indented |
| FixMakefileIndentation.SameRoles | fix_makefile_indentation.py:16-37 | fixing keeps every line's role, so the recipe structure is unchanged |
| FixMakefileIndentation.FixIdempotent | fix_makefile_indentation.py:5-41 | running the script twice gives the file it gives once |
| FixMakefileIndentation.ColonRecipeLineIsHeader | fix_makefile_indentation.py:16-18 | an eight-space line whose text holds a `:` with no `=` before it passes the header test |
| FixMakefileIndentation.HeaderText | fix_makefile_indentation.py:16 | such a line is not blank and not a conditional directive |
| FixMakefileIndentation.HeaderColon | fix_makefile_indentation.py:16-18 | the indent adds no `=` before the first colon |
| FixMakefileIndentation.StripsToBody | fix_makefile_indentation.py:16 | stripping an eight-space line leaves its text |
| FixMakefileIndentation.NotDirective | fix_makefile_indentation.py:16 | a stripped line starting with neither `i` nor `e` is no conditional directive |
| FixMakefileIndentation.BeforeAfterIndent | fix_makefile_indentation.py:18 | the text before the first colon of an indented line is the indent and the text's own |
| FixMakefileIndentation.ColonRecipeLineKept | fix_makefile_indentation.py:16-31 | as written, an eight-space recipe line holding a `:` with no `=` before it is taken for a header and keeps its spaces, even right under a rule |
| FixMakefileIndentation.IntendedConvertsEight | fix_makefile_indentation.py:28-31 | the intended fix turns every line led by exactly eight spaces into a tab-led one, and keeps unindented headers |
| PyText.LStrip | fix_makefile_indentation.py:16 | `lstrip` keeps a suffix of the text |
| PyText.RStrip | fix_makefile_indentation.py:18 | `rstrip` keeps a prefix of the text |
| PyText.LStripSpaces | fix_makefile_indentation.py:16 | `lstrip` removes only whitespace, and all the leading whitespace |
| PyText.RStripSpaces | fix_makefile_indentation.py:18 | `rstrip` removes only whitespace, and all the trailing whitespace |
| PyText.LStripSkips | fix_makefile_indentation.py:16 | with the first non-space at `n`, `lstrip` leaves the text from `n` on |
| PyText.RStripKeeps | fix_makefile_indentation.py:18 | with the last non-space at `n - 1`, `rstrip` leaves the first `n` characters |
| PyText.RStripLonger | fix_makefile_indentation.py:18 | `rstrip` keeps every character up to the last non-space |
| PyText.StripEmpty | fix_makefile_indentation.py:16 | `line.strip()` is empty, so false, exactly when the line is all whitespace |
| PyText.HasIn | fix_makefile_indentation.py:16 | `c in s` holds exactly when the character occurs in the text |
| PyText.HasAppend | fix_makefile_indentation.py:16 | a character is in a concatenation exactly when it is in one of the parts |
| PyText.Find | fix_makefile_indentation.py:18 | the position found holds the character and none before it does |
| PyText.FindAt | fix_makefile_indentation.py:18 | a position holding the character with none before it is the one found |
| PyText.Before | fix_makefile_indentation.py:18 | `s.split(sep)[0]` is a prefix without the separator: the whole text when the separator is absent, and otherwise the part just before its first occurrence |
| PyText.Split | fix_makefile.py:10 | `split` gives at least one piece, and no piece holds the separator |
| PyText.JoinSplit | fix_makefile.py:10-26 | joining the pieces of a split with the separator gives back the text |
| PyText.SplitJoin | fix_makefile.py:10-26 | splitting a join of separator-free pieces gives back the pieces |
| PyText.SplitCons | fix_makefile.py:10 | a separator-free piece followed by the separator is the first piece of the split |
| PyText.ReadLines | fix_makefile_indentation.py:9 | `readlines` gives no empty line |
| PyText.ConcatReadLines | fix_makefile_indentation.py:9-41 | writing back the lines read reproduces the text read |
| PyText.ReadLinesConcat | fix_makefile_indentation.py:9-41 | lines that each end in their only newline read back as themselves |
| PyText.ReadLinesFront | fix_makefile_indentation.py:9 | a newline-free line and a newline read as that line, then the lines of the rest |
| PyText.JoinOneLine | scripts/ubuntu_packages.py:330 | `str(rel_path)` of newline-free components holds no newline |
| PyText.ConcatOneLine | fix_makefile_indentation.py:41 | newline-free lines written back to back hold no newline |
| PyText.NoNewlineOneLine | fix_makefile_indentation.py:9 | text without a newline reads as at most one line |
| PyText.SpaceEnd | scripts/build_from_ubuntu_packages.py:112 | the `\s+` run from a position ends at the first non-blank character or the end, and everything before that is blank |
| PyText.Present | scripts/build_from_ubuntu_packages.py:108-114 | the values present, in order: no more than the entries, each one present among them |
| PyText.PresentAll | scripts/build_from_ubuntu_packages.py:108-114 | when every entry is present, the result is exactly their values |

## Left out

- Reading and writing files, the network, subprocesses (`apt-cache`, `apt-get`, `dpkg-deb`, `ar`, `tar`), hardware registers and firmware calls: their results are parameters of the members that use them.
- Logging, `print`, `printf`, debug output and the rofs stopwatch statistics: they change no state the model keeps.
- The page-range allocator and the object pools are modelled in page units: byte sizes, virtual addresses and the alignment of page addresses are not modelled.
- PageRangeFree.InitialAdd: the free total grows by the whole range, but `core/mempool.cc` first carves the bitmap allocator's own storage out of the range added and passes the rest through `_deferred_free`; neither the carve-out nor the deferral is modelled.
- PageRangeFree.Grow: the same carve-out and deferral are left out, so the count it ensures is an upper bound on what the source makes allocatable at once.
- The regions of `core/mmu.cc` (lines 916-922) and `core/mempool.cc` (lines 1002-1030) whose text is damaged in the source are not modelled.
- `page_ranges_max_order` is a constant of OSv's allocator headers; the model uses its value, 16.
- MmuWalk.Walk: above level 1 the source's `split_large_page` does nothing, and the `follow` that comes next fails the `!large()` assertion of `next_pt_addr`. The model does not stop there: it splits the page the same way as at level 1.
- MmuOps: the RISC-V `change_perm` returns no value in the source; the model gives the x86-64 and AArch64 return rule only.
- GdbStubCommands.Run: every send is taken to succeed, while `gdb-stub.cc` (line 331) leaves the loop when a write fails.
- GdbStubCommands.Run: the register values are a parameter, while `gdb-stub.cc` captures them with `CpuState::capture`, which fills in zeros.
- The checksum assertion of `test_gdb_stub.cc` (line 26) is not reproduced: it expects 0x67 for `qSupported`, but the byte sum is 0x437, so the checksum is 0x37, as GdbStubCommands.StandaloneChecksum states.
- GdbStub: target memory is a total map. `read_memory` and `write_memory` use `memcpy`, which throws nothing, so their `E03` branches cannot be taken; a fault on an unmapped address is not modelled.
- GdbStub.HandleContinue: it answers `OK` and resumes nothing, as the source does; scheduling threads is not modelled.
- `AF_VSOCK` comes from the C library headers; the model uses its value there, 40.
- GdbStub.Serve: one connection is modelled. After a `false` return from `receive_packet`, `run` waits for the next connection (gdb_stub.cc:74-96); the model ends there, with `thrown` false, and leaves later connections out, because accepting a connection is I/O.
- PyText: files are read and written in text mode; the newline translation that turns CRLF and CR into LF on reading is not modelled, so the lemmas speak of the decoded text, not of the bytes on disk.
- UefiMemoryMap.SetupMemoryMap: requires a non-zero descriptor size after a UEFI boot, and UefiMain.EfiMain a non-zero size from the firmware, because the source divides by it (`uefi-boot.cc` line 122).
- UefiMain.EfiMain: clearing BSS, `premain` and `main` are represented by one flag saying the kernel is entered; what they do is not modelled.
- Rofs.ReadBlocks: it reads with the corrected per-request count of at least one block (`PerRequest`), not the source's `max_request_bytes / BSIZE`, which is 0 on a device whose `max_io_size` is below 512. The source's loop there is modelled separately, by `LoopStepAsWritten` and `SmallDeviceStalls`; on every other device the two counts agree.
- Rofs.SplitRead: the same corrected per-request count as `ReadBlocks`.
- Rofs.PlanWithinLimit: requires a device that takes at least one block per request or a read that fits; below one block no request can respect the limit.
- UbuntuPackages: the link search in `_find_package_url` is a parameter (the listing's links). Its pattern `_{arch}\\.deb` asks for a backslash before `.deb`; that search is not modelled.
- UbuntuPackages: Python's iteration order over sets is not modelled; results that the source builds from sets are sets here.
- UbuntuPackages: `except Exception` handlers become the error results of the parameters.
- UbuntuPackages: `load_config_file`, the directory transformations, symlinks and clean-up are not modelled.
- BuildFromUbuntu.ModulePyLines: the command line is put between single quotes without escaping, as in the source; whether the resulting `module.py` is valid Python is not stated.
- BuildFromUbuntu.IsBlacklisted: regular expressions are modelled for ordinary characters, `.` and `*` only. Any other pattern gives `None`, whether `re` rejects it (`c++`) or accepts it (`^lib`, `[a-z]`), so `None` does not promise that the source raises `re.error`.
- BuildFromUbuntu.ResolvePackageList: it gives `None` whenever the blacklist check does for a dependency, which includes the valid patterns beyond the modelled syntax; for those the source decides the match and the model does not.
- BuildFromUbuntu: the `Makefile` it writes is fixed text and is not modelled.
- JavaLauncher: forking, `execv` and waiting for the child are not modelled; the free-memory figure is a parameter.

## Findings

| source | as written | input that shows it | evidently intended | confidence | as-written member | corrected member |
|---|---|---|---|---|---|---|
| arch/riscv64/arch-mmu.hh:154-159 | `set_valid(perm != 0)` is followed by `set_addr`, which sets V again | `make_pte(addr, leaf, 0)` gives a valid entry | an entry with no permission is not valid; the corrected definition also departs from the source beyond V, giving every leaf its requested R, W and X and table pointers none (`MakePteBits` and `MakePteSmallLeafReadOnly` state what the source does there) | not executed | RiscvPte.MakePteNoPermIsValid | RiscvPte.MakePteIntendedBits |
| modules/gdb-stub/gdb_stub.cc:175 | `query.substr(0, 8) == "fThreadInfo"` compares 8 characters with an 11-character literal | `qfThreadInfo` is answered with the empty reply | the thread list is sent | not executed | GdbStub.WrittenHidesThreads | GdbStub.IntendedListsThreads |
| modules/gdb-stub/gdb_stub.cc:179-181 | `substr(0, 11)` and `substr(0, 15)` are compared with 19- and 21-character literals | `qXfer:features:read:target.xml:0,100` is answered with the empty reply | the target description is served | not executed | GdbStub.WrittenHidesTargetXml | GdbStub.IntendedServesTargetXml |
| modules/gdb-stub/gdb_stub.cc:458 | the colon is searched from position 11, inside `Xfer:features:read:` | `Xfer:features:read:target.xml:0,100` reads `read:target.xml:0` as the offset | the offset after the annex is read | not executed | GdbStub.TargetXmlAtFeatures | GdbStub.TargetXmlServed |
| modules/gdb-stub/gdb_stub.cc:502 | the colon is searched from position 15, inside `Xfer:memory-map:read:` | `Xfer:memory-map:read::0,100` reads `read::0` as the offset | the offset after the prefix is read | not executed | GdbStub.MemoryMapAtPrefix | GdbStub.MemoryMapServed |
| modules/gdb-stub/gdb_arch.cc:86 | only `reg_num >= size` is refused | register number -1 indexes before the table | negative numbers are refused too | not executed | GdbArch.NegativeRegisterPassesGuard | GdbArch.ReadRegisterChecked |
| arch/x64/dmi.cc:45 | the walk tests the pointer `s`, which is never null, instead of the end of the string set | string number 4 of a structure with two strings starts one byte past the end of the string set | a number past the last string reads nothing | not executed | Dmi.StringStartAsWrittenOverruns | Dmi.DmiStringReads |
| arch/x64/dmi.cc:196-203 | a string set with no strings (two zero bytes) is skipped by one byte only | a structure with no strings makes the second zero byte the next header | the double zero is skipped whole | not executed | Dmi.SkipSet3AsWrittenEmptySet | Dmi.SkipSet3Set |
| bsd/sys/netvsock/vsock_proto.cc:328-331 | `SHUT_RD`, which is 0, is used as a bit mask | `shutdown(SHUT_RDWR)` sends a shutdown packet with no flags | receive and send flags set by direction | not executed | Vsock.ShutdownFlagsAsWrittenLoseDirections | Vsock.ShutdownFlags |
| arch/x64/uefi-boot.cc:161-168 | the map is freed and not forgotten before it is fetched again | a failed exit followed by a failing size probe leaves the map pointing at freed memory | the freed map is nulled | not executed | UefiBoot.ExitAsWrittenDangles | UefiBoot.ExitNeverDangles |
| fs/rofs/rofs_common.cc:95-127 | `max_io_size / 512` blocks per request | a device with `max_io_size` below 512 and a read that does not fit makes no progress, forever | at least one block per request | not executed | Rofs.SmallDeviceStalls | Rofs.SplitReadCovers |
| fix_makefile_indentation.py:16-18 | the header test does not exclude space-indented lines | an eight-space recipe line such as `cp a b:c` is taken for a header and keeps its spaces | every line led by exactly eight spaces becomes tab-led | not executed | FixMakefileIndentation.ColonRecipeLineKept | FixMakefileIndentation.IntendedConvertsEight |
| scripts/ubuntu_packages.py:155 | the raw pattern doubles its backslashes, so it asks for literal backslashes | `libc6 (>= 2.34)` is kept with its version | the version constraint is removed | not executed | UbuntuPackages.VersionKept | UbuntuPackages.IntendedStripsVersion |
| scripts/ubuntu_packages.py:335 | the f-string's escaped backslash (`\\n`) ends each manifest line with a backslash and `n` | every manifest is one line | one line per file | not executed | UbuntuPackages.ManifestAsWrittenOneLine | UbuntuPackages.ManifestLines |
| scripts/ubuntu_packages.py:500 | the option's default `/usr` is never empty, so `or` never reaches the configuration | a configuration naming a manifest prefix with no option gives `/usr` | the configuration's prefix applies | not executed | UbuntuPackages.ConfigPrefixIgnored | UbuntuPackages.ConfigPrefixIgnored |
| scripts/build_from_ubuntu_packages.py:43 | `blacklist or DEFAULT_BLACKLIST` replaces an empty list | `--no-default-blacklist` without `-b` still uses the defaults | no patterns | not executed | BuildFromUbuntu.NoDefaultIgnored | BuildFromUbuntu.NoDefaultIgnored |

## Functions covered by lemmas

- UbuntuPackages.ParseAptCacheOutput: the fields of its lines, as `UbuntuPackages.FieldsKeys` and `UbuntuPackages.FieldsLast` state.
- UbuntuPackages.ParseDependencies: `UbuntuPackages.ParseDependenciesRoundTrip`, `UbuntuPackages.VersionKept`, `UbuntuPackages.IntendedStripsVersion`.
- UbuntuPackages.FindPackageUrl: `UbuntuPackages.FindFromFirst`, for a non-empty name.
- UbuntuPackages.Manifest: `UbuntuPackages.ManifestLines` for the intended terminator, `UbuntuPackages.ManifestAsWrittenOneLine` for the source's.
- BuildFromUbuntu.SearchFrom and BuildFromUbuntu.MatchFrom: `BuildFromUbuntu.MatchThenSearch`, `BuildFromUbuntu.SearchThenMatch`, `BuildFromUbuntu.SearchLits`.
- BuildFromUbuntu.Manifest: `BuildFromUbuntu.ManifestLines`.
- BuildFromUbuntu.ModulePy: `BuildFromUbuntu.ModulePyLines`.
- BuildFromUbuntu.BuilderPatternsAsWritten: `BuildFromUbuntu.NoDefaultIgnored`.
- Dmi.DmiString: `Dmi.DmiStringReads`.
- Dmi.Probe: `Dmi.ProbeFindsNothing`, `Dmi.ProbeFindsOne`.
- Dmi.ProbeUefi: `Dmi.ProbeUefiPrefers3`.
- Vsock.Handle: `Vsock.HandleKeepsGood`, `Vsock.NoPcbInvalid`.
- FixMakefile.FixLine: `FixMakefile.FixLineInverse`, `FixMakefile.FixLineIdempotent`.
- FixMakefileIndentation.FixLine: `FixMakefileIndentation.LineFate`, `FixMakefileIndentation.FixedLineRole`, `FixMakefileIndentation.FixIdempotent`.
- GdbStub.HandleQuery: `GdbStub.QueryReplies`.
- UefiBoot.ExitAsWritten: `UefiBoot.ExitAsWrittenRetriesOnce`, `UefiBoot.ExitAsWrittenDangles`.
- Rofs.Plan: `Rofs.ReadBlocks`, `Rofs.SplitReadCovers`, `Rofs.PlanWithinLimit`.
- MmuWalk.VirtToPhysPt: `MmuWalk.VirtToPhysAgrees`, `MmuWalk.SmallPageTranslation`.
- PyText.Strip: `PyText.StripEmpty`.
- PyText.Join and PyText.RelText: `PyText.JoinSplit`, `PyText.SplitJoin`, `PyText.JoinOneLine`.
- PyText.Concat: `PyText.ConcatReadLines`, `PyText.ReadLinesConcat`, `PyText.ConcatOneLine`.
- PyText.CommaList: `BuildFromUbuntu.AssembledBlacklist`.

=== FILE: build_from_ubuntu.dfy ===
/** The builder that turns Ubuntu packages into an application module: the
    blacklist of name patterns and how it is put together, the one-pass
    list of packages to fetch, the reading of `apt-cache depends` output,
    the manifest of the extracted files, and the generated `module.py`.
    `apt-cache`, `apt-get` and the file system are parameters. */
module BuildFromUbuntu {
  import opened Wrappers
  import opened PyText

  // ---------------------------------------------------------------------
  // Name patterns

  /** One element of a pattern: a character, or `.` (anything but a
      newline). */
  datatype Atom = Char(c: char) | AnyChar

  /** An element on its own, or repeated any number of times by `*`. */
  datatype Piece = One(atom: Atom) | Star(atom: Atom)

  type Regex = seq<Piece>

  predicate Accepts(a: Atom, c: char)
  {
    match a
    case Char(d) => c == d
    case AnyChar => c != '\n'
  }

  /** The characters with a meaning in a pattern other than `.` and `*`. */
  predicate Special(c: char)
  {
    c == '\\' || c == '^' || c == '$' || c == '+' || c == '?' || c == '{' || c == '}'
    || c == '[' || c == ']' || c == '(' || c == ')' || c == '|'
  }

  /** A character that stands for itself in a pattern. */
  predicate Ordinary(c: char)
  {
    !Special(c) && c != '.' && c != '*'
  }

  /** The pattern a blacklist entry compiles to; `None` when it uses syntax
      beyond characters, `.` and `*` (or a `*` with nothing to repeat). */
  function Compile(p: string): (r: Option<Regex>)
    ensures r.Some? ==> |r.value| <= |p|
    decreases |p|
  {
    if |p| == 0 then Some([])
    else if Special(p[0]) || p[0] == '*' then None
    else
      var a := if p[0] == '.' then AnyChar else Char(p[0]);
      if |p| > 1 && p[1] == '*' then
        match Compile(p[2..])
        case Some(r) => Some([Star(a)] + r)
        case None => None
      else
        match Compile(p[1..])
        case Some(r) => Some([One(a)] + r)
        case None => None
  }

  /** The pattern matches a prefix of `s[i..]`. */
  predicate MatchFrom(r: Regex, s: string, i: nat)
    requires i <= |s|
    decreases |r|, |s| - i
  {
    if |r| == 0 then true
    else match r[0]
      case One(a) => i < |s| && Accepts(a, s[i]) && MatchFrom(r[1..], s, i + 1)
      case Star(a) =>
        MatchFrom(r[1..], s, i) || (i < |s| && Accepts(a, s[i]) && MatchFrom(r, s, i + 1))
  }

  /** `re.search`: the pattern matches somewhere from `i` on. */
  predicate SearchFrom(r: Regex, s: string, i: nat)
    requires i <= |s|
    decreases |s| - i
  {
    MatchFrom(r, s, i) || (i < |s| && SearchFrom(r, s, i + 1))
  }

  predicate Search(r: Regex, s: string)
  {
    SearchFrom(r, s, 0)
  }

  /** `w` occurs in `s` at `i`. */
  predicate OccursAt(w: string, s: string, i: int)
  {
    0 <= i && i + |w| <= |s| && s[i..i + |w|] == w
  }

  /** `w in s`. */
  predicate Occurs(w: string, s: string)
  {
    exists i :: 0 <= i <= |s| && OccursAt(w, s, i)
  }

  /** A pattern made of ordinary characters only. */
  predicate Plain(w: string)
  {
    forall c :: c in w ==> Ordinary(c)
  }

  /** The pattern that matches the characters of `w` one after another. */
  function Lits(w: string): (r: Regex)
    ensures |r| == |w|
    ensures forall k :: 0 <= k < |w| ==> r[k] == One(Char(w[k]))
  {
    if |w| == 0 then [] else [One(Char(w[0]))] + Lits(w[1..])
  }

  /** A plain pattern compiles to its characters, and followed by `.*` to
      its characters and then any text. */
  lemma {:induction false} CompilePlain(w: string, tail: string, t: Regex)
    requires Plain(w) && Compile(tail) == Some(t) && (|tail| > 0 ==> tail[0] != '*')
    ensures Compile(w + tail) == Some(Lits(w) + t)
  {
    if |w| > 0 {
      var p := w + tail;
      assert forall c :: c in w[1..] ==> c in w;
      CompilePlain(w[1..], tail, t);
      assert w[0] in w && p[0] == w[0];
      assert p[1..] == w[1..] + tail;
      assert |p| > 1 ==> p[1] != '*' by {
        if |w| > 1 {
          assert p[1] == w[1] && w[1] in w;
        } else if |p| > 1 {
          assert p[1] == tail[0];
        }
      }
      assert Compile(p) == Some([One(Char(w[0]))] + (Lits(w[1..]) + t));
      assert [One(Char(w[0]))] + (Lits(w[1..]) + t) == Lits(w) + t;
    } else {
      assert w + tail == tail;
      assert Lits(w) + t == t;
    }
  }

  /** `w` occurs at `i` when its first character is there and the rest
      follows. */
  lemma OccursCons(w: string, s: string, i: nat)
    requires |w| > 0 && i < |s|
    ensures OccursAt(w, s, i) <==> s[i] == w[0] && OccursAt(w[1..], s, i + 1)
  {
    if i + |w| <= |s| {
      assert s[i..i + |w|] == [s[i]] + s[i + 1..i + 1 + |w[1..]|];
      assert w == [w[0]] + w[1..];
    }
  }

  /** Characters first: the characters must be there, then the rest must
      match after them. */
  lemma {:induction false} MatchLits(w: string, t: Regex, s: string, i: nat)
    requires i <= |s|
    ensures MatchFrom(Lits(w) + t, s, i) <==> OccursAt(w, s, i) && MatchFrom(t, s, i + |w|)
    decreases |w|
  {
    var r := Lits(w) + t;
    if |w| > 0 {
      assert r[0] == One(Char(w[0]));
      assert r[1..] == Lits(w[1..]) + t;
      assert MatchFrom(r, s, i) <==> i < |s| && s[i] == w[0] && MatchFrom(r[1..], s, i + 1);
      if i < |s| {
        MatchLits(w[1..], t, s, i + 1);
        OccursCons(w, s, i);
      }
    } else {
      assert r == t;
      assert s[i..i] == w;
    }
  }

  /** `.*` matches wherever it starts. */
  lemma AnyTextMatches(s: string, i: nat)
    requires i <= |s|
    ensures MatchFrom([Star(AnyChar)], s, i)
  {
    assert [Star(AnyChar)][1..] == [];
  }

  /** A match at `j` is found by a search started anywhere before it. */
  lemma {:induction false} MatchThenSearch(r: Regex, s: string, i: nat, j: nat)
    requires i <= j <= |s| && MatchFrom(r, s, j)
    ensures SearchFrom(r, s, i)
    decreases j - i
  {
    if i < j {
      MatchThenSearch(r, s, i + 1, j);
    }
  }

  /** A successful search started at `i` has a match at some `j >= i`. */
  lemma {:induction false} SearchThenMatch(r: Regex, s: string, i: nat) returns (j: nat)
    requires i <= |s| && SearchFrom(r, s, i)
    ensures i <= j <= |s| && MatchFrom(r, s, j)
    decreases |s| - i
  {
    if MatchFrom(r, s, i) {
      j := i;
    } else {
      j := SearchThenMatch(r, s, i + 1);
    }
  }

  /** Searching for characters, optionally followed by `.*`, finds exactly
      the texts that contain them. */
  lemma SearchLits(w: string, t: Regex, s: string)
    requires t == [] || t == [Star(AnyChar)]
    ensures Search(Lits(w) + t, s) <==> Occurs(w, s)
  {
    forall j | 0 <= j <= |s|
      ensures MatchFrom(Lits(w) + t, s, j) <==> OccursAt(w, s, j)
    {
      MatchLits(w, t, s, j);
      if OccursAt(w, s, j) && t != [] {
        AnyTextMatches(s, j + |w|);
      }
    }
    if Occurs(w, s) {
      var j :| 0 <= j <= |s| && OccursAt(w, s, j);
      MatchThenSearch(Lits(w) + t, s, 0, j);
    }
    if Search(Lits(w) + t, s) {
      var j := SearchThenMatch(Lits(w) + t, s, 0);
      assert OccursAt(w, s, j);
    }
  }

  /** A blacklist entry of the two shapes the defaults use: a plain name,
      or a plain name then `.*`. */
  predicate Simple(p: string)
  {
    Plain(p) || (|p| >= 2 && p[|p| - 2..] == ".*" && Plain(p[..|p| - 2]))
  }

  /** The name a simple entry looks for. */
  function Word(p: string): string
    requires Simple(p)
  {
    if Plain(p) then p else p[..|p| - 2]
  }

  /** A simple entry compiles, and finds a name exactly when its word occurs
      in the name: the search is for a substring, not the whole name. */
  lemma SimpleSearch(p: string, s: string)
    requires Simple(p)
    ensures Compile(p).Some? && (Search(Compile(p).value, s) <==> Occurs(Word(p), s))
  {
    var w := Word(p);
    var t: Regex := if Plain(p) then [] else [Star(AnyChar)];
    if Plain(p) {
      assert p + "" == p;
      CompilePlain(p, "", []);
    } else {
      assert w + ".*" == p;
      AnyTextCompiles();
      CompilePlain(w, ".*", [Star(AnyChar)]);
    }
    SearchLits(w, t, s);
  }

  lemma AnyTextCompiles()
    ensures Compile(".*") == Some([Star(AnyChar)])
  {
    var p := ".*";
    assert p[0] == '.' && !Special('.') && p[1] == '*';
    assert p[2..] == "";
    assert [Star(AnyChar)] + [] == [Star(AnyChar)];
  }

  /** `_is_blacklisted` with compiled patterns: some pattern finds the
      name. */
  function Blacklisted(rs: seq<Regex>, name: string): (b: bool)
    ensures b <==> exists k :: 0 <= k < |rs| && Search(rs[k], name)
  {
    if |rs| == 0 then false
    else if Search(rs[0], name) then true
    else
      assert forall k :: 1 <= k < |rs| ==> rs[k] == rs[1..][k - 1];
      Blacklisted(rs[1..], name)
  }

  /** Every entry compiled, or `None` when one uses syntax beyond the
      modelled patterns. */
  function CompileAll(ps: seq<string>): (r: Option<seq<Regex>>)
    ensures r.Some? ==> |r.value| == |ps| && forall k :: 0 <= k < |ps| ==> Compile(ps[k]) == Some(r.value[k])
    ensures r.None? ==> exists k :: 0 <= k < |ps| && Compile(ps[k]).None?
  {
    if |ps| == 0 then Some([])
    else match (Compile(ps[0]), CompileAll(ps[1..]))
      case (Some(r), Some(rest)) => Some([r] + rest)
      case (None, _) => None
      case (_, None) => assert forall k :: 1 <= k < |ps| ==> ps[k] == ps[1..][k - 1]; None
  }

  /** A list of simple entries compiles, and blacklists a name exactly when
      one of their words occurs in it. */
  lemma SimpleBlacklist(ps: seq<string>, name: string)
    requires forall p :: p in ps ==> Simple(p)
    ensures CompileAll(ps).Some?
    ensures Blacklisted(CompileAll(ps).value, name) <==> exists k :: 0 <= k < |ps| && Occurs(Word(ps[k]), name)
  {
    forall k | 0 <= k < |ps| ensures Simple(ps[k]) && Compile(ps[k]).Some? {
      assert ps[k] in ps;
      SimpleSearch(ps[k], name);
    }
    var rs := CompileAll(ps).value;
    forall k | 0 <= k < |ps| ensures Simple(ps[k]) && (Search(rs[k], name) <==> Occurs(Word(ps[k]), name)) {
      assert ps[k] in ps;
      SimpleSearch(ps[k], name);
    }
  }

  // ---------------------------------------------------------------------
  // The blacklist

  /** `DEFAULT_BLACKLIST`. */
  const DefaultPatterns: seq<string> := [
    "bash", "dash", "sh", "perl", "python.*", "debconf", "dpkg",
    "init", "systemd", "udev", "coreutils", "base-files"]

  /** `_is_blacklisted` on the entries as given: they are tried in order
      and the first that finds the name decides; `None` when an entry tried
      uses syntax beyond the modelled patterns. */
  function IsBlacklisted(ps: seq<string>, name: string): (b: Option<bool>)
    ensures b == Some(true) ==> exists k :: 0 <= k < |ps| && Compile(ps[k]).Some? && Search(Compile(ps[k]).value, name)
    ensures b == Some(false) ==> forall k :: 0 <= k < |ps| ==> Compile(ps[k]).Some? && !Search(Compile(ps[k]).value, name)
  {
    if |ps| == 0 then Some(false)
    else match Compile(ps[0])
      case None => None
      case Some(r) =>
        if Search(r, name) then Some(true)
        else
          var b := IsBlacklisted(ps[1..], name);
          assert b == Some(true) ==> exists k :: 1 <= k < |ps| && Compile(ps[k]).Some? && Search(Compile(ps[k]).value, name) by {
            if b == Some(true) {
              var k :| 0 <= k < |ps[1..]| && Compile(ps[1..][k]).Some? && Search(Compile(ps[1..][k]).value, name);
              assert ps[1..][k] == ps[k + 1];
            }
          }
          assert b == Some(false) ==> forall k :: 1 <= k < |ps| ==> ps[k] == ps[1..][k - 1];
          b
  }

  /** With every entry compiled, the entries as given decide as the
      compiled patterns do. */
  lemma {:induction false} IsBlacklistedCompiled(ps: seq<string>, rs: seq<Regex>, name: string)
    requires CompileAll(ps) == Some(rs)
    ensures IsBlacklisted(ps, name) == Some(Blacklisted(rs, name))
  {
    if |ps| > 0 {
      var rest := CompileAll(ps[1..]);
      assert rest.Some? && rs == [rs[0]] + rest.value;
      IsBlacklistedCompiled(ps[1..], rest.value, name);
      assert rs[1..] == rest.value;
    }
  }

  /** Simple entries tried in order before a simple entry whose word occurs
      in the name: the name is blacklisted. */
  lemma {:induction false} SimpleHit(ps: seq<string>, k: nat, name: string)
    requires k < |ps| && forall p :: p in ps[..k + 1] ==> Simple(p)
    requires Occurs(Word(ps[k]), name)
    ensures IsBlacklisted(ps, name) == Some(true)
  {
    assert ps[0] in ps[..k + 1];
    SimpleSearch(ps[0], name);
    if k > 0 && !Search(Compile(ps[0]).value, name) {
      assert ps[1..][..k] == ps[1..k + 1];
      SimpleHit(ps[1..], k - 1, name);
    }
  }

  /** The first five defaults are simple entries. */
  lemma FirstDefaultsSimple()
    ensures DefaultPatterns[..5] == ["bash", "dash", "sh", "perl", "python.*"]
    ensures forall p :: p in DefaultPatterns[..5] ==> Simple(p)
  {
    assert Plain("bash") && Plain("dash") && Plain("sh") && Plain("perl");
    assert Simple("python.*") by {
      var p := "python.*";
      assert p[|p| - 2..] == ".*" && p[..|p| - 2] == "python";
      assert Plain("python");
    }
  }

  /** Any name that contains `sh` is blacklisted by the defaults: `bash`,
      but also `libssh-4` and `shared-mime-info`. */
  lemma ShCaughtByDefaults(name: string)
    requires Occurs("sh", name)
    ensures IsBlacklisted(DefaultPatterns, name) == Some(true)
  {
    FirstDefaultsSimple();
    assert DefaultPatterns[..3] == ["bash", "dash", "sh"];
    assert Word(DefaultPatterns[2]) == "sh";
    SimpleHit(DefaultPatterns, 2, name);
  }

  /** Any name that contains `python` is blacklisted by the defaults. */
  lemma PythonCaughtByDefaults(name: string)
    requires Occurs("python", name)
    ensures IsBlacklisted(DefaultPatterns, name) == Some(true)
  {
    FirstDefaultsSimple();
    var p := DefaultPatterns[4];
    assert !Plain(p) by {
      assert p[6] in p;
    }
    assert Word(p) == "python";
    SimpleHit(DefaultPatterns, 4, name);
  }

  /** The list `main` assembles: the defaults unless left out, then the
      comma-separated extras. */
  function AssembledBlacklist(noDefault: bool, extra: Option<string>): (ps: seq<string>)
    ensures forall p :: p in ps <==> (!noDefault && p in DefaultPatterns) || p in CommaList(extra)
  {
    (if noDefault then [] else DefaultPatterns) + CommaList(extra)
  }

  /** The patterns the builder uses, as written: an empty list counts as
      none given, so the defaults come back. */
  function BuilderPatternsAsWritten(noDefault: bool, extra: Option<string>): seq<string>
  {
    var ps := AssembledBlacklist(noDefault, extra);
    if |ps| == 0 then DefaultPatterns else ps
  }

  /** The patterns evidently intended: exactly the assembled list. */
  function BuilderPatterns(noDefault: bool, extra: Option<string>): seq<string>
  {
    AssembledBlacklist(noDefault, extra)
  }

  /** `--no-default-blacklist` without `-b` still blacklists the defaults as
      written; as intended it blacklists nothing. Otherwise the two agree. */
  lemma NoDefaultIgnored(noDefault: bool, extra: Option<string>)
    ensures BuilderPatternsAsWritten(true, None) == DefaultPatterns
    ensures BuilderPatterns(true, None) == []
    ensures !noDefault || Given(extra) ==>
      BuilderPatternsAsWritten(noDefault, extra) == BuilderPatterns(noDefault, extra)
  {
    if Given(extra) {
      assert |Split(extra.value, ',')| > 0;
    }
  }

  // ---------------------------------------------------------------------
  // Reading `apt-cache depends`

  const DependsKey: string := "Depends:"

  /** The end of the run of non-blank characters from `i`. */
  function WordEnd(s: string, i: nat): (j: nat)
    requires i <= |s|
    ensures i <= j <= |s| && (j < |s| ==> IsSpace(s[j]))
    ensures forall k :: i <= k < j ==> !IsSpace(s[k])
    decreases |s| - i
  {
    if i < |s| && !IsSpace(s[i]) then WordEnd(s, i + 1) else i
  }

  /** `Depends:\s+\S+` matches at `i`. */
  predicate DependsAt(line: string, i: nat)
  {
    i + |DependsKey| <= |line| && line[i..i + |DependsKey|] == DependsKey
    && var j := SpaceEnd(line, i + |DependsKey|);
    i + |DependsKey| < j < |line|
  }

  /** The captured name of a match at `i`. */
  function TokenAt(line: string, i: nat): (t: string)
    requires DependsAt(line, i)
    ensures |t| > 0 && forall k :: 0 <= k < |t| ==> !IsSpace(t[k])
  {
    var j := SpaceEnd(line, i + |DependsKey|);
    line[j..WordEnd(line, j)]
  }

  /** `re.search(r'Depends:\s+(\S+)', line[i..])`: the group of the
      leftmost match. */
  function TokenFrom(line: string, i: nat): (t: Option<string>)
    requires i <= |line|
    ensures t.Some? ==> |t.value| > 0
    decreases |line| - i
  {
    if DependsAt(line, i) then Some(TokenAt(line, i))
    else if i < |line| then TokenFrom(line, i + 1)
    else None
  }

  /** The search finds the leftmost match, and nothing when there is none. */
  lemma {:induction false} TokenLeftmost(line: string, i: nat, m: nat)
    requires i <= m <= |line| && DependsAt(line, m)
    requires forall k :: i <= k < m ==> !DependsAt(line, k)
    ensures TokenFrom(line, i) == Some(TokenAt(line, m))
    decreases m - i
  {
    if i < m {
      TokenLeftmost(line, i + 1, m);
    }
  }

  lemma {:induction false} TokenNone(line: string, i: nat)
    requires i <= |line|
    requires forall k :: i <= k <= |line| ==> !DependsAt(line, k)
    ensures TokenFrom(line, i).None?
    decreases |line| - i
  {
    if i < |line| {
      TokenNone(line, i + 1);
    }
  }

  /** `_get_package_dependencies`: the name after `Depends:` on each line
      that has one; no names when `apt-cache` fails (`None`). */
  function PackageDependencies(output: Option<string>): (deps: seq<string>)
    ensures forall d :: d in deps ==> |d| > 0
  {
    match output
    case None => []
    case Some(o) =>
      var lines := Split(o, '\n');
      Present(seq(|lines|, k requires 0 <= k < |lines| => TokenFrom(lines[k], 0)))
  }

  /** A line `pre Depends:<blanks>name<rest>`, with no `D` before the key. */
  function DependsLine(pre: string, blanks: string, name: string, rest: string): string
  {
    pre + DependsKey + blanks + name + rest
  }

  /** Such a line gives `name`: the key may follow `|` or be part of
      `PreDepends:`, and what follows the name is ignored. */
  lemma DependsLineToken(pre: string, blanks: string, name: string, rest: string)
    requires !Has(pre, 'D')
    requires |blanks| > 0 && forall k :: 0 <= k < |blanks| ==> IsSpace(blanks[k])
    requires |name| > 0 && forall k :: 0 <= k < |name| ==> !IsSpace(name[k])
    requires |rest| > 0 ==> IsSpace(rest[0])
    ensures TokenFrom(DependsLine(pre, blanks, name, rest), 0) == Some(name)
  {
    var line := DependsLine(pre, blanks, name, rest);
    var m := |pre|;
    KeyAfter(pre, blanks, name, rest);
    assert forall k :: 0 <= k < m ==> !DependsAt(line, k) by {
      NoKeyBefore(line, m);
      forall k | 0 <= k < m ensures line[k] != 'D' {
        assert line[k] == pre[k];
      }
    }
    TokenLeftmost(line, 0, m);
  }

  /** The key after `pre` starts a match that captures `name`. */
  lemma KeyAfter(pre: string, blanks: string, name: string, rest: string)
    requires |blanks| > 0 && forall k :: 0 <= k < |blanks| ==> IsSpace(blanks[k])
    requires |name| > 0 && forall k :: 0 <= k < |name| ==> !IsSpace(name[k])
    requires |rest| > 0 ==> IsSpace(rest[0])
    ensures DependsAt(DependsLine(pre, blanks, name, rest), |pre|)
    ensures TokenAt(DependsLine(pre, blanks, name, rest), |pre|) == name
  {
    var line := DependsLine(pre, blanks, name, rest);
    var m := |pre|;
    var a := m + |DependsKey|;
    var b := a + |blanks|;
    assert line[m..a] == DependsKey;
    assert forall k :: a <= k < b ==> line[k] == blanks[k - a];
    assert forall k :: b <= k < b + |name| ==> line[k] == name[k - b];
    SpaceRunEnd(line, a, b);
    WordRunEnd(line, b, b + |name|);
    assert line[b..b + |name|] == name;
  }

  /** No match starts where the line holds no `D`. */
  lemma NoKeyBefore(line: string, m: nat)
    ensures forall k :: 0 <= k < m && k < |line| && line[k] != 'D' ==> !DependsAt(line, k)
  {
    assert DependsKey[0] == 'D';
  }

  /** A run of blanks ending before a non-blank ends where `SpaceEnd` says. */
  lemma {:induction false} SpaceRunEnd(s: string, i: nat, j: nat)
    requires i <= j < |s| && !IsSpace(s[j])
    requires forall k :: i <= k < j ==> IsSpace(s[k])
    ensures SpaceEnd(s, i) == j
    decreases j - i
  {
    if i < j {
      SpaceRunEnd(s, i + 1, j);
    }
  }

  /** A run of non-blanks ending at a blank or the end ends where `WordEnd`
      says. */
  lemma {:induction false} WordRunEnd(s: string, i: nat, j: nat)
    requires i <= j <= |s| && (j < |s| ==> IsSpace(s[j]))
    requires forall k :: i <= k < j ==> !IsSpace(s[k])
    ensures WordEnd(s, i) == j
    decreases j - i
  {
    if i < j {
      WordRunEnd(s, i + 1, j);
    }
  }

  /** The indented line `apt-cache depends` prints for a dependency. */
  function IndentedDepends(name: string): string
  {
    DependsLine("  ", " ", name, "")
  }

  /** Output listing names one per line reads back as those names. */
  lemma DependenciesRead(names: seq<string>)
    requires forall n :: n in names ==> |n| > 0 && forall k :: 0 <= k < |n| ==> !IsSpace(n[k])
    requires |names| > 0
    ensures PackageDependencies(Some(Join(seq(|names|, i requires 0 <= i < |names| => IndentedDepends(names[i])), '\n'))) == names
  {
    var lines := seq(|names|, i requires 0 <= i < |names| => IndentedDepends(names[i]));
    forall k | 0 <= k < |lines| ensures !Has(lines[k], '\n') && TokenFrom(lines[k], 0) == Some(names[k]) {
      assert names[k] in names;
      IndentedReads(names[k]);
    }
    SplitJoin(lines, '\n');
    PresentAll(seq(|lines|, k requires 0 <= k < |lines| => TokenFrom(lines[k], 0)), names);
  }

  /** One indented line holds no newline and gives its name back. */
  lemma IndentedReads(n: string)
    requires |n| > 0 && forall k :: 0 <= k < |n| ==> !IsSpace(n[k])
    ensures !Has(IndentedDepends(n), '\n') && TokenFrom(IndentedDepends(n), 0) == Some(n)
  {
    assert " "[0] == ' ' && !Has("  ", 'D');
    DependsLineToken("  ", " ", n, "");
    assert !Has(n, '\n');
    HasAppend("  " + DependsKey + " ", n, '\n');
    HasAppend("  " + DependsKey + " " + n, "", '\n');
  }

  // ---------------------------------------------------------------------
  // The packages to fetch

  /** `[d for d in deps if not self._is_blacklisted(d)]`: the entries no
      pattern blacklists, in order, or `None` when checking one of them
      reaches an entry `IsBlacklisted` cannot read (the `re.error` that
      leaves the comprehension). */
  function Unblacklisted(patterns: seq<string>, deps: seq<string>): (r: Option<seq<string>>)
    ensures r.None? <==> exists k :: 0 <= k < |deps| && IsBlacklisted(patterns, deps[k]).None?
    ensures r.Some? ==> forall x :: x in r.value <==> x in deps && IsBlacklisted(patterns, x) == Some(false)
  {
    if |deps| == 0 then Some([])
    else
      match (IsBlacklisted(patterns, deps[0]), Unblacklisted(patterns, deps[1..]))
      case (None, _) => None
      case (_, None) => assert forall k :: 1 <= k < |deps| ==> deps[k] == deps[1..][k - 1]; None
      case (Some(b), Some(rest)) =>
        assert forall k :: 1 <= k < |deps| ==> deps[k] == deps[1..][k - 1];
        assert forall x :: x in deps <==> x == deps[0] || x in deps[1..];
        if b then Some(rest) else Some([deps[0]] + rest)
  }

  /** Some dependency `apt-cache` lists for a given name is one the
      blacklist check cannot decide. */
  ghost predicate Undecided(packages: set<string>, patterns: seq<string>, aptDepends: string -> Option<string>)
  {
    exists p, k :: p in packages && 0 <= k < |PackageDependencies(aptDepends(p))|
      && IsBlacklisted(patterns, PackageDependencies(aptDepends(p))[k]).None?
  }

  /** `_resolve_package_list`: the given names, and when resolving, every
      name on a `Depends:` line of the `apt-cache depends --recurse` output
      of each given name that no pattern blacklists; that output already
      lists the dependencies' own dependencies, and the loop does not look
      them up again. `None` is the `re.error` a blacklist entry raises when
      it is tried on a dependency (`Undecided`). */
  method ResolvePackageList(packages: seq<string>, resolveDeps: bool, patterns: seq<string>,
    aptDepends: string -> Option<string>)
    returns (fetch: Option<set<string>>)
    ensures fetch.None? <==> resolveDeps && Undecided((set p | p in packages), patterns, aptDepends)
    ensures fetch.Some? ==> forall x :: x in fetch.value <==> (x in packages
      || (resolveDeps && IsBlacklisted(patterns, x) == Some(false)
          && exists p :: p in packages && x in PackageDependencies(aptDepends(p))))
  {
    var acc := set p | p in packages;
    if resolveDeps {
      var originals := acc;
      var left := originals;
      while left != {}
        invariant left <= originals
        invariant !Undecided(originals - left, patterns, aptDepends)
        invariant forall x :: x in acc <==> (x in packages
          || (IsBlacklisted(patterns, x) == Some(false)
              && exists p :: p in originals - left && x in PackageDependencies(aptDepends(p))))
        decreases |left|
      {
        var p :| p in left;
        var deps := PackageDependencies(aptDepends(p));
        var kept := Unblacklisted(patterns, deps);
        if kept.None? {
          assert Undecided(originals, patterns, aptDepends);
          return None;
        }
        acc := acc + set d | d in kept.value;
        left := left - {p};
      }
      assert originals - left == originals;
    }
    fetch := Some(acc);
  }

  // ---------------------------------------------------------------------
  // The manifest and the module file

  const ManifestHeader: string := "[manifest]\n"

  /** Where the module keeps the extracted files on the host. */
  const HostRoot: string := "${MODULE_DIR}/extracted"

  /** The guest path of an extracted file: its relative path under `/`. */
  function GuestPath(parts: RelPath): string
  {
    "/" + RelText(parts)
  }

  /** The record for one extracted file: its guest path, then the same
      path under the host root. */
  function ManifestRecord(parts: RelPath): string
  {
    GuestPath(parts) + ": " + HostRoot + GuestPath(parts)
  }

  /** `_generate_manifest`: the header, then a line per file in the order
      the directory walk yields them. */
  function Manifest(files: seq<RelPath>): string
  {
    ManifestHeader + Concat(seq(|files|, k requires 0 <= k < |files| => ManifestRecord(files[k]) + LineEnd))
  }

  /** The manifest reads back as the header and then one line per file. */
  lemma ManifestLines(files: seq<RelPath>)
    requires forall f, i :: f in files && 0 <= i < |f| ==> OneLine(f[i])
    ensures var lines := ReadLines(Manifest(files));
      |lines| == |files| + 1 && lines[0] == ManifestHeader
      && forall k :: 0 <= k < |files| ==> lines[k + 1] == ManifestRecord(files[k]) + LineEnd
  {
    var rs := seq(|files|, k requires 0 <= k < |files| => ManifestRecord(files[k]) + LineEnd);
    forall k | 0 <= k < |rs| ensures EndsLine(rs[k]) {
      assert files[k] in files;
      RecordOneLine(files[k]);
      assert rs[k][..|rs[k]| - 1] == ManifestRecord(files[k]);
    }
    ReadLinesConcat(rs);
    assert ManifestHeader == "[manifest]" + LineEnd;
    assert OneLine("[manifest]") by {
      HasIn("[manifest]", '\n');
    }
    ReadLinesFront("[manifest]", Concat(rs));
  }

  lemma RecordOneLine(parts: RelPath)
    requires forall i :: 0 <= i < |parts| ==> OneLine(parts[i])
    ensures OneLine(ManifestRecord(parts))
  {
    var g := GuestPath(parts);
    JoinOneLine(parts);
    HasIn("/", '\n');
    HasIn(": ", '\n');
    HasIn(HostRoot, '\n');
    HasAppend("/", RelText(parts), '\n');
    HasAppend(g, ": ", '\n');
    HasAppend(g + ": ", HostRoot, '\n');
    HasAppend(g + ": " + HostRoot, g, '\n');
  }

  /** Reading a record back: up to the first `:` is the guest path, and
      after `: ` comes that guest path under the host root. */
  lemma RecordPaths(parts: RelPath)
    requires !Has(RelText(parts), ':')
    ensures var line := ManifestRecord(parts);
      var guest := Before(line, ':');
      guest == GuestPath(parts) && line[|guest| + 2..] == HostRoot + guest
  {
    var g := GuestPath(parts);
    assert !Has(g, ':') by {
      HasIn("/", ':');
      HasAppend("/", RelText(parts), ':');
    }
    assert ManifestRecord(parts) == g + ": " + (HostRoot + g);
    ColonSplit(g, HostRoot + g);
  }

  /** `g: h` with no colon in `g` splits back into `g` and `h`. */
  lemma ColonSplit(g: string, h: string)
    requires !Has(g, ':')
    ensures Before(g + ": " + h, ':') == g && (g + ": " + h)[|g| + 2..] == h
  {
    var line := g + ": " + h;
    assert line[|g|] == ':';
    assert forall k :: 0 <= k < |g| ==> line[k] == g[k];
    FindAt(line, ':', |g|);
    assert line[..|g|] == g;
  }

  const ModuleHeader: string := "from osv.modules import api"

  const DefaultOpen: string := "default = api.run(cmdline='"

  const DefaultClose: string := "')"

  const NoDefault: string := "# No default command line specified"

  /** The last line of `module.py`, without its newline. */
  function DefaultLine(commandLine: Option<string>): string
  {
    if Given(commandLine) then DefaultOpen + commandLine.value + DefaultClose else NoDefault
  }

  /** `generate_module_files`: the `module.py` text; a `default =` line runs
      the command line when one is set. */
  function ModulePy(commandLine: Option<string>): string
  {
    ModuleHeader + LineEnd + LineEnd + DefaultLine(commandLine) + LineEnd
  }

  /** `module.py` reads as three lines; the last is a `default =` line
      exactly when a command line is set, and then it quotes that command
      line. */
  lemma ModulePyLines(commandLine: Option<string>)
    requires commandLine.Some? ==> OneLine(commandLine.value)
    ensures var lines := ReadLines(ModulePy(commandLine));
      |lines| == 3 && lines[0] == ModuleHeader + LineEnd && lines[1] == LineEnd
      && (StartsWith(lines[2], "default = ") <==> Given(commandLine))
      && (Given(commandLine) ==> lines[2] == DefaultOpen + commandLine.value + DefaultClose + LineEnd)
  {
    var last := DefaultLine(commandLine);
    assert ModulePy(commandLine) == ModuleHeader + LineEnd + ("" + LineEnd + (last + LineEnd)) by {
      Regroup(ModuleHeader, LineEnd, last);
    }
    assert OneLine(ModuleHeader) by { HasIn(ModuleHeader, '\n'); }
    assert OneLine("") by { HasIn("", '\n'); }
    assert OneLine(last) by { DefaultLineOneLine(commandLine); }
    ThreeLines(ModuleHeader, "", last);
    DefaultLineStarts(commandLine);
  }

  /** The last line holds no newline when the command line holds none. */
  lemma DefaultLineOneLine(commandLine: Option<string>)
    requires commandLine.Some? ==> OneLine(commandLine.value)
    ensures OneLine(DefaultLine(commandLine))
  {
    if Given(commandLine) {
      HasIn(DefaultOpen, '\n');
      HasIn(DefaultClose, '\n');
      HasAppend(DefaultOpen, commandLine.value, '\n');
      HasAppend(DefaultOpen + commandLine.value, DefaultClose, '\n');
    } else {
      HasIn(NoDefault, '\n');
    }
  }

  /** The last line starts `default = ` exactly when a command line is set. */
  lemma DefaultLineStarts(commandLine: Option<string>)
    ensures StartsWith(DefaultLine(commandLine) + LineEnd, "default = ") <==> Given(commandLine)
  {
    if Given(commandLine) {
      PrefixKept(DefaultOpen, commandLine.value + DefaultClose + LineEnd, 10);
      assert DefaultLine(commandLine) + LineEnd == DefaultOpen + (commandLine.value + DefaultClose + LineEnd);
      assert DefaultOpen[..10] == "default = ";
    } else {
      assert (NoDefault + LineEnd)[0] == '#';
    }
  }

  /** Three newline-free lines, each ended, read back as three lines. */
  lemma ThreeLines(a: string, b: string, c: string)
    requires OneLine(a) && OneLine(b) && OneLine(c)
    ensures ReadLines(a + LineEnd + (b + LineEnd + (c + LineEnd))) == [a + LineEnd, b + LineEnd, c + LineEnd]
  {
    ReadLinesFront(c, "");
    assert c + LineEnd + "" == c + LineEnd;
    ReadLinesFront(b, c + LineEnd);
    ReadLinesFront(a, b + LineEnd + (c + LineEnd));
  }

  /** The same text, grouped from the right with an empty middle line. */
  lemma Regroup(a: string, e: string, c: string)
    ensures a + e + e + c + e == a + e + ("" + e + (c + e))
  {
    assert "" + e == e;
  }

  /** Appending leaves a prefix alone. */
  lemma PrefixKept(a: string, b: string, n: nat)
    requires n <= |a|
    ensures (a + b)[..n] == a[..n]
  {
  }
}

=== FILE: command_line.dfy ===
/** The regex-based command-line splitter and its escape processing. A line
    is cut into commands; each command is its words followed by the
    delimiter that ended it (`;`, `&`, `!` or `&!`), or by `""` when the line
    ended first. Words are either quoted (the quotes are dropped) or runs of
    characters that are neither blank nor a delimiter; both have their
    backslash escapes processed.

    The token pattern `("([^"\\]|\\.)*")|([^\s;&!]+)|(&!|;|&|!)` is run as
    a repeated ECMAScript search over 8-bit characters: at the leftmost
    position where some alternative matches, the first alternative that
    matches wins. `\s` is the C locale's blank set and `.` is any character
    but a line break. */
module CommandLine {
  import opened Wrappers

  // ---------------------------------------------------------------------
  // process_escape_sequences

  /** The escapes the table knows, and what each stands for. */
  function EscapeOf(c: char): Option<char>
  {
    match c
    case 'a' => Some('\U{7}')
    case 'b' => Some('\U{8}')
    case 'f' => Some('\U{C}')
    case 'n' => Some('\n')
    case 'r' => Some('\r')
    case 't' => Some('\t')
    case 'v' => Some('\U{B}')
    case '\\' => Some('\\')
    case '\'' => Some('\'')
    case '"' => Some('"')
    case _ => None
  }

  /** `process_escape_sequences`: a backslash and a known escape letter
      become one character; any other backslash, including a trailing one,
      is kept and the character after it is processed normally. */
  function Unescape(s: string): (r: string)
    ensures |r| <= |s|
    ensures (forall i :: 0 <= i < |s| ==> s[i] != '\\') ==> r == s
  {
    if |s| == 0 then ""
    else if s[0] == '\\' && |s| > 1 && EscapeOf(s[1]).Some? then [EscapeOf(s[1]).value] + Unescape(s[2..])
    else [s[0]] + Unescape(s[1..])
  }

  /** The letter that escapes `c`, if any: the inverse of the table. */
  function LetterFor(c: char): (l: Option<char>)
    ensures l.Some? ==> EscapeOf(l.value) == Some(c)
  {
    match c
    case '\U{7}' => Some('a')
    case '\U{8}' => Some('b')
    case '\U{C}' => Some('f')
    case '\n' => Some('n')
    case '\r' => Some('r')
    case '\t' => Some('t')
    case '\U{B}' => Some('v')
    case '\\' => Some('\\')
    case '\'' => Some('\'')
    case '"' => Some('"')
    case _ => None
  }

  /** Writing text with escapes for every character the table covers. */
  function Escape(s: string): string
  {
    if |s| == 0 then "" else
      (match LetterFor(s[0]) case Some(l) => ['\\', l] case None => [s[0]]) + Escape(s[1..])
  }

  lemma UnescapeKnown(l: char, rest: string)
    requires EscapeOf(l).Some?
    ensures Unescape(['\\', l] + rest) == [EscapeOf(l).value] + Unescape(rest)
  {
    assert (['\\', l] + rest)[2..] == rest;
  }

  lemma UnescapePlain(c: char, rest: string)
    requires c != '\\'
    ensures Unescape([c] + rest) == [c] + Unescape(rest)
  {
    assert ([c] + rest)[1..] == rest;
  }

  /** Escape processing undoes escaping: every escape written is read back
      as its character, and every other character, never a backslash,
      stands for itself. */
  lemma {:induction false} UnescapeEscape(s: string)
    ensures Unescape(Escape(s)) == s
  {
    if |s| > 0 {
      UnescapeEscape(s[1..]);
      match LetterFor(s[0])
      case Some(l) =>
        UnescapeKnown(l, Escape(s[1..]));
      case None =>
        UnescapePlain(s[0], Escape(s[1..]));
    }
    assert |s| > 0 ==> s == [s[0]] + s[1..];
  }

  /** The cases the table spells out: a known escape, an unknown one (the
      backslash is kept), and a trailing backslash. */
  lemma UnescapeExamples()
    ensures Unescape("a\\tb") == "a\tb"
    ensures Unescape("\\q") == "\\q"
    ensures Unescape("x\\") == "x\\"
    ensures Unescape("\\\\n") == "\\n"
  {
    assert "a\\tb"[1..][2..] == "b";
    assert "\\q"[1..] == "q";
    assert "x\\"[1..] == "\\";
    assert "\\\\n"[2..] == "n";
  }

  // ---------------------------------------------------------------------
  // The tokenizer

  /** `\s` over 8-bit characters in the C locale. */
  predicate Space(c: char)
  {
    c == ' ' || c == '\t' || c == '\n' || c == '\U{B}' || c == '\U{C}' || c == '\r'
  }

  /** `[^\s;&!]`: a character an unquoted word may hold. */
  predicate WordChar(c: char)
  {
    !Space(c) && c != ';' && c != '&' && c != '!'
  }

  /** `.`: anything but a line break. */
  predicate AnyChar(c: char)
  {
    c != '\n' && c != '\r'
  }

  datatype Token = Quoted(body: string) | Word(text: string) | Delim(d: string)

  /** Where the closing quote of a quoted word is in `s`, the text after
      the opening one: `[^"\\]` takes one character and `\\.` takes two.
      The repetition is deterministic, so the first unescaped quote closes
      the word; reaching the end of the line, or a backslash before a line
      break, means there is no quoted word here. */
  function QuoteEnd(s: string): (e: Option<nat>)
    ensures e.Some? ==> e.value < |s| && s[e.value] == '"'
  {
    if |s| == 0 then None
    else if s[0] == '"' then Some(0)
    else if s[0] == '\\' then
      if |s| > 1 && AnyChar(s[1]) then
        match QuoteEnd(s[2..]) case Some(e) => Some(e + 2) case None => None
      else None
    else match QuoteEnd(s[1..]) case Some(e) => Some(e + 1) case None => None
  }

  /** The length of the run of word characters `s` starts with. */
  function WordEnd(s: string): (e: nat)
    ensures e <= |s|
    ensures forall k :: 0 <= k < e ==> WordChar(s[k])
    ensures e < |s| ==> !WordChar(s[e])
  {
    if |s| > 0 && WordChar(s[0]) then WordEnd(s[1..]) + 1 else 0
  }

  /** The successive matches of the token pattern in `s`. */
  function Lex(s: string): (ts: seq<Token>)
  {
    if |s| == 0 then []
    else if Space(s[0]) then Lex(s[1..])
    else if s[0] == '"' && QuoteEnd(s[1..]).Some? then
      var e := QuoteEnd(s[1..]).value + 1;
      [Quoted(s[1..e])] + Lex(s[e + 1..])
    else if WordChar(s[0]) then
      var e := WordEnd(s);
      [Word(s[..e])] + Lex(s[e..])
    else if s[0] == '&' && |s| > 1 && s[1] == '!' then [Delim("&!")] + Lex(s[2..])
    else [Delim([s[0]])] + Lex(s[1..])
  }

  predicate Delimiter(d: string)
  {
    d == ";" || d == "&" || d == "!" || d == "&!"
  }

  /** What a match of the pattern can be: an unquoted word is a non-empty
      run of word characters, and a delimiter is one of the four listed. */
  predicate TokenShape(t: Token)
  {
    match t
    case Quoted(_) => true
    case Word(w) => |w| > 0 && forall k :: 0 <= k < |w| ==> WordChar(w[k])
    case Delim(d) => Delimiter(d)
  }

  predicate AllShaped(ts: seq<Token>)
  {
    |ts| == 0 || (TokenShape(ts[0]) && AllShaped(ts[1..]))
  }

  lemma ShapedCons(t: Token, ts: seq<Token>)
    requires TokenShape(t) && AllShaped(ts)
    ensures AllShaped([t] + ts)
  {
    assert ([t] + ts)[1..] == ts;
  }

  /** Every match the tokenizer reports has the shape the pattern allows. */
  lemma {:induction false} LexShaped(s: string)
    ensures AllShaped(Lex(s))
  {
    if |s| > 0 {
      if Space(s[0]) {
        LexShaped(s[1..]);
      } else if s[0] == '"' && QuoteEnd(s[1..]).Some? {
        var e := QuoteEnd(s[1..]).value + 1;
        LexShaped(s[e + 1..]);
        ShapedCons(Quoted(s[1..e]), Lex(s[e + 1..]));
      } else if WordChar(s[0]) {
        var e := WordEnd(s);
        LexShaped(s[e..]);
        ShapedCons(Word(s[..e]), Lex(s[e..]));
      } else if s[0] == '&' && |s| > 1 && s[1] == '!' {
        LexShaped(s[2..]);
        ShapedCons(Delim("&!"), Lex(s[2..]));
      } else {
        LexShaped(s[1..]);
        ShapedCons(Delim([s[0]]), Lex(s[1..]));
      }
    }
  }

  // ---------------------------------------------------------------------
  // parse_command_line_regex

  /** The value a word token contributes. */
  function WordValue(t: Token): string
    requires !t.Delim?
  {
    if t.Quoted? then Unescape(t.body) else Unescape(t.text)
  }

  /** The loop over the matches: words gather in the current command; a
      delimiter closes a non-empty current command and is dropped
      otherwise; at the end a non-empty current command is closed with
      `""`. */
  function Gather(ts: seq<Token>, current: seq<string>, done: seq<seq<string>>): seq<seq<string>>
  {
    if |ts| == 0 then (if |current| > 0 then done + [current + [""]] else done)
    else match ts[0]
      case Delim(d) =>
        if |current| > 0 then Gather(ts[1..], [], done + [current + [d]]) else Gather(ts[1..], current, done)
      case _ => Gather(ts[1..], current + [WordValue(ts[0])], done)
  }

  /** The blank test: nothing but blanks and `;`. */
  predicate Ignorable(line: string)
  {
    forall i :: 0 <= i < |line| ==> line[i] in " \U{C}\n\r\t\U{B};"
  }

  /** `parse_command_line_regex`: the commands, and `ok`, which is always
      set. */
  function ParseCommandLine(line: string): (r: (seq<seq<string>>, bool))
    ensures r.1
    ensures Ignorable(line) ==> r.0 == []
  {
    if Ignorable(line) then ([], true) else (Gather(Lex(line), [], []), true)
  }

  // ---------------------------------------------------------------------
  // What the parse keeps

  /** A command closed by a delimiter: at least one word, then the
      delimiter. */
  predicate Closed(cmd: seq<string>)
  {
    |cmd| >= 2 && Delimiter(cmd[|cmd| - 1])
  }

  /** A command cut off by the end of the line: words, then `""`. */
  predicate Unfinished(cmd: seq<string>)
  {
    |cmd| >= 2 && cmd[|cmd| - 1] == ""
  }

  predicate AllClosed(cmds: seq<seq<string>>)
  {
    forall i :: 0 <= i < |cmds| ==> Closed(cmds[i])
  }

  /** Every command has words and a delimiter, except that the last one
      may have been cut off by the end of the line. */
  predicate Shaped(cmds: seq<seq<string>>)
  {
    AllClosed(cmds) || (|cmds| > 0 && AllClosed(cmds[..|cmds| - 1]) && Unfinished(cmds[|cmds| - 1]))
  }

  lemma ClosedAppend(cmds: seq<seq<string>>, cmd: seq<string>)
    requires AllClosed(cmds) && Closed(cmd)
    ensures AllClosed(cmds + [cmd])
  {
  }

  lemma UnfinishedAppend(cmds: seq<seq<string>>, cmd: seq<string>)
    requires AllClosed(cmds) && Unfinished(cmd)
    ensures Shaped(cmds + [cmd])
  {
    assert (cmds + [cmd])[..|cmds|] == cmds;
  }

  /** The words of a list of commands, terminators dropped, in order. */
  function Words(cmds: seq<seq<string>>): seq<string>
  {
    if |cmds| == 0 then [] else
      var c := cmds[0];
      (if |c| > 0 then c[..|c| - 1] else []) + Words(cmds[1..])
  }

  /** The values of the word tokens, in order. */
  function TokenWords(ts: seq<Token>): seq<string>
  {
    if |ts| == 0 then [] else (if ts[0].Delim? then [] else [WordValue(ts[0])]) + TokenWords(ts[1..])
  }

  lemma {:induction false} WordsAppend(a: seq<seq<string>>, b: seq<seq<string>>)
    ensures Words(a + b) == Words(a) + Words(b)
  {
    if |a| > 0 {
      assert (a + b)[0] == a[0];
      assert (a + b)[1..] == a[1..] + b;
      WordsAppend(a[1..], b);
    } else {
      assert a + b == b;
    }
  }

  /** Closing a command adds its words. */
  lemma WordsClose(done: seq<seq<string>>, current: seq<string>, d: string)
    ensures Words(done + [current + [d]]) == Words(done) + current
  {
    WordsAppend(done, [current + [d]]);
    assert (current + [d])[..|current|] == current;
    assert Words([current + [d]]) == current + Words([]);
  }

  /** The gathering loop builds well-formed commands. */
  lemma {:induction false} GatherShaped(ts: seq<Token>, current: seq<string>, done: seq<seq<string>>)
    requires AllClosed(done) && AllShaped(ts)
    ensures Shaped(Gather(ts, current, done))
  {
    if |ts| == 0 {
      if |current| > 0 {
        UnfinishedAppend(done, current + [""]);
      }
    } else {
      match ts[0]
      case Delim(d) =>
        if |current| > 0 {
          ClosedAppend(done, current + [d]);
          GatherShaped(ts[1..], [], done + [current + [d]]);
        } else {
          GatherShaped(ts[1..], current, done);
        }
      case _ =>
        GatherShaped(ts[1..], current + [WordValue(ts[0])], done);
    }
  }

  /** The gathering loop keeps every word, once and in order. */
  lemma {:induction false} GatherWords(ts: seq<Token>, current: seq<string>, done: seq<seq<string>>)
    ensures Words(Gather(ts, current, done)) == Words(done) + current + TokenWords(ts)
  {
    if |ts| == 0 {
      if |current| > 0 {
        WordsClose(done, current, "");
      }
    } else {
      var rest := TokenWords(ts[1..]);
      TokenWordsAt(ts);
      match ts[0]
      case Delim(d) =>
        if |current| > 0 {
          WordsClose(done, current, d);
          GatherWords(ts[1..], [], done + [current + [d]]);
        } else {
          GatherWords(ts[1..], current, done);
        }
      case _ =>
        GatherWords(ts[1..], current + [WordValue(ts[0])], done);
        Shift(Words(done), current, [WordValue(ts[0])], rest);
    }
  }

  lemma TokenWordsAt(ts: seq<Token>)
    requires |ts| > 0
    ensures TokenWords(ts) == (if ts[0].Delim? then [] else [WordValue(ts[0])]) + TokenWords(ts[1..])
  {
  }

  lemma Shift<T>(x: seq<T>, y: seq<T>, z: seq<T>, w: seq<T>)
    ensures x + (y + z) + w == x + y + (z + w)
  {
  }

  /** Every parsed line is a list of well-formed commands whose words are
      the line's word matches, unescaped, in order. */
  lemma ParseKeepsWords(line: string)
    ensures Shaped(ParseCommandLine(line).0)
    ensures !Ignorable(line) ==> Words(ParseCommandLine(line).0) == TokenWords(Lex(line))
  {
    if !Ignorable(line) {
      LexShaped(line);
      GatherShaped(Lex(line), [], []);
      GatherWords(Lex(line), [], []);
    }
  }

  // ---------------------------------------------------------------------
  // The tokenizer over joined pieces of text

  /** A bare word: word characters only, not opening a quote, and free of
      backslashes, so that it stands for itself. */
  predicate BareWord(w: string)
  {
    |w| > 0 && w[0] != '"' && forall k :: 0 <= k < |w| ==> WordChar(w[k]) && w[k] != '\\'
  }

  /** Text the next match cannot continue a word into. */
  predicate WordBreak(s: string)
  {
    |s| == 0 || !WordChar(s[0])
  }

  lemma {:induction false} LexBlanks(b: string, s: string)
    requires forall k :: 0 <= k < |b| ==> Space(b[k])
    ensures Lex(b + s) == Lex(s)
  {
    if |b| > 0 {
      LexBlanks(b[1..], s);
      assert (b + s)[1..] == b[1..] + s;
    } else {
      assert b + s == s;
    }
  }

  lemma {:induction false} WordEndCat(w: string, s: string)
    requires forall k :: 0 <= k < |w| ==> WordChar(w[k])
    requires WordBreak(s)
    ensures WordEnd(w + s) == |w|
  {
    if |w| > 0 {
      WordEndCat(w[1..], s);
      assert (w + s)[1..] == w[1..] + s;
    } else {
      assert w + s == s;
    }
  }

  lemma LexWord(w: string, s: string)
    requires BareWord(w) && WordBreak(s)
    ensures Lex(w + s) == [Word(w)] + Lex(s)
  {
    WordEndCat(w, s);
    assert (w + s)[..|w|] == w;
    assert (w + s)[|w|..] == s;
  }

  lemma LexDelim(c: char, s: string)
    requires c == ';' || c == '!' || (c == '&' && (|s| == 0 || s[0] != '!'))
    ensures Lex([c] + s) == [Delim([c])] + Lex(s)
  {
    var t := [c] + s;
    assert t[0] == c && t[1..] == s;
    assert !Space(c) && !WordChar(c) && c != '"';
    assert !(c == '&' && |t| > 1 && t[1] == '!');
  }

  /** The text of a quoted word: no bare quote, and every backslash
      followed by a character `.` matches. */
  predicate QuotedText(b: string)
  {
    |b| == 0
    || (b[0] == '\\' && |b| > 1 && AnyChar(b[1]) && QuotedText(b[2..]))
    || (b[0] != '\\' && b[0] != '"' && QuotedText(b[1..]))
  }

  lemma {:induction false} QuoteEndCat(b: string, s: string)
    requires QuotedText(b)
    ensures QuoteEnd(b + ['"'] + s) == Some(|b|)
  {
    var t := b + ['"'] + s;
    if |b| == 0 {
      assert t[0] == '"';
    } else if b[0] == '\\' && |b| > 1 && AnyChar(b[1]) && QuotedText(b[2..]) {
      QuoteEndCat(b[2..], s);
      assert t[2..] == b[2..] + ['"'] + s;
    } else {
      QuoteEndCat(b[1..], s);
      assert t[1..] == b[1..] + ['"'] + s;
    }
  }

  lemma LexQuoted(b: string, s: string)
    requires QuotedText(b)
    ensures Lex(['"'] + b + ['"'] + s) == [Quoted(b)] + Lex(s)
  {
    var t := ['"'] + b + ['"'] + s;
    assert t[1..] == b + ['"'] + s;
    QuoteEndCat(b, s);
    assert t[1..|b| + 1] == b;
    assert t[|b| + 2..] == s;
  }

  lemma {:induction false} UnescapeBare(s: string)
    requires forall i :: 0 <= i < |s| ==> s[i] != '\\'
    ensures Unescape(s) == s
  {
  }

  lemma GatherWordStep(t: Token, ts: seq<Token>, current: seq<string>, done: seq<seq<string>>)
    requires !t.Delim?
    ensures Gather([t] + ts, current, done) == Gather(ts, current + [WordValue(t)], done)
  {
    assert ([t] + ts)[1..] == ts;
  }

  lemma GatherDelimStep(d: string, ts: seq<Token>, current: seq<string>, done: seq<seq<string>>)
    requires |current| > 0
    ensures Gather([Delim(d)] + ts, current, done) == Gather(ts, [], done + [current + [d]])
  {
    assert ([Delim(d)] + ts)[1..] == ts;
  }

  // ---------------------------------------------------------------------
  // Lines written from commands

  /** An argument as a user writes it: bare, or in double quotes. */
  datatype Arg = Bare(text: string) | InQuotes(body: string)

  function ArgText(a: Arg): string
  {
    match a
    case Bare(w) => w
    case InQuotes(b) => ['"'] + b + ['"']
  }

  function ArgToken(a: Arg): Token
  {
    match a
    case Bare(w) => Word(w)
    case InQuotes(b) => Quoted(b)
  }

  predicate ArgOk(a: Arg)
  {
    match a
    case Bare(w) => BareWord(w)
    case InQuotes(b) => QuotedText(b)
  }

  /** The value an argument stands for once parsed. */
  function ArgValue(a: Arg): string
  {
    WordValue(ArgToken(a))
  }

  predicate Blank(g: string)
  {
    forall k :: 0 <= k < |g| ==> Space(g[k])
  }

  /** A command as written: its arguments, the blanks around them (`gaps[k]`
      comes before `args[k]`, the last one after all of them), and the
      delimiter after it, if the line did not end first. */
  datatype Command = Command(args: seq<Arg>, gaps: seq<string>, end: Option<char>)

  function Gap(c: Command, k: nat): string
  {
    if k < |c.gaps| then c.gaps[k] else ""
  }

  function EndText(end: Option<char>): string
  {
    match end case Some(d) => [d] case None => ""
  }

  /** The text of a command from argument `k` on, followed by `rest`. */
  function ArgsThen(c: Command, k: nat, rest: string): string
    decreases |c.args| - k
  {
    if k >= |c.args| then Gap(c, k) + rest
    else Gap(c, k) + (ArgText(c.args[k]) + ArgsThen(c, k + 1, rest))
  }

  /** The line holding commands `i` onwards. */
  function LineFrom(cmds: seq<Command>, i: nat): string
    decreases |cmds| - i
  {
    if i >= |cmds| then "" else ArgsThen(cmds[i], 0, EndText(cmds[i].end) + LineFrom(cmds, i + 1))
  }

  function Line(cmds: seq<Command>): string
  {
    LineFrom(cmds, 0)
  }

  lemma ArgsThenAt(c: Command, k: nat, rest: string)
    ensures ArgsThen(c, k, rest) == if k >= |c.args| then Gap(c, k) + rest
      else Gap(c, k) + (ArgText(c.args[k]) + ArgsThen(c, k + 1, rest))
  {
  }

  lemma LineFromAt(cmds: seq<Command>, i: nat)
    ensures LineFrom(cmds, i) == if i >= |cmds| then ""
      else ArgsThen(cmds[i], 0, EndText(cmds[i].end) + LineFrom(cmds, i + 1))
  {
  }

  /** A command a line can hold: at least one argument, blanks between
      them (a bare word runs into whatever touches it), and one of the
      three delimiter characters, if any. */
  predicate CommandOk(c: Command)
  {
    |c.args| > 0 && |c.gaps| == |c.args| + 1
    && (forall k :: 0 <= k < |c.args| ==> ArgOk(c.args[k]))
    && (forall k :: 0 <= k < |c.gaps| ==> Blank(c.gaps[k]))
    && (forall k :: 0 <= k < |c.args| - 1 && c.args[k].Bare? ==> |c.gaps[k + 1]| > 0)
    && (c.end.Some? ==> c.end.value == ';' || c.end.value == '&' || c.end.value == '!')
  }

  /** Commands a line can hold; only the last may be left open. */
  predicate WellFormed(cmds: seq<Command>)
  {
    forall i :: 0 <= i < |cmds| ==> CommandOk(cmds[i]) && (cmds[i].end.None? ==> i == |cmds| - 1)
  }

  /** What written commands mean: each command's argument values, then its
      delimiter, or `""` for the one the line ended. */
  function Meaning(cmds: seq<Command>): (m: seq<seq<string>>)
    ensures |m| == |cmds|
  {
    seq(|cmds|, i requires 0 <= i < |cmds| => Values(cmds[i].args) + [EndText(cmds[i].end)])
  }

  function Values(args: seq<Arg>): (vs: seq<string>)
    ensures |vs| == |args|
  {
    seq(|args|, j requires 0 <= j < |args| => ArgValue(args[j]))
  }

  // ---------------------------------------------------------------------
  // Tokenizing written commands

  function ArgTokens(c: Command, k: nat): seq<Token>
    decreases |c.args| - k
  {
    if k >= |c.args| then [] else [ArgToken(c.args[k])] + ArgTokens(c, k + 1)
  }

  function EndTokens(end: Option<char>): seq<Token>
  {
    match end case Some(d) => [Delim([d])] case None => []
  }

  function TokensFrom(cmds: seq<Command>, i: nat): seq<Token>
    decreases |cmds| - i
  {
    if i >= |cmds| then [] else ArgTokens(cmds[i], 0) + (EndTokens(cmds[i].end) + TokensFrom(cmds, i + 1))
  }

  lemma BlankBreak(g: string, s: string)
    requires Blank(g) && |g| > 0
    ensures WordBreak(g + s)
  {
    assert (g + s)[0] == g[0];
  }

  /** How the text of a command from argument `k` on starts. */
  lemma ArgsThenStart(c: Command, k: nat, rest: string)
    requires CommandOk(c) && k < |c.args|
    ensures var t := ArgsThen(c, k, rest);
      |t| > 0 && (Space(t[0]) || WordChar(t[0]) || t[0] == '"')
  {
    var g := Gap(c, k);
    var t := ArgsThen(c, k, rest);
    if |g| > 0 {
      assert Blank(c.gaps[k]);
      assert t[0] == g[0];
    } else {
      assert ArgOk(c.args[k]);
      assert t == ArgText(c.args[k]) + ArgsThen(c, k + 1, rest);
      assert t[0] == ArgText(c.args[k])[0];
    }
  }

  /** A bare word ends where the blanks or the delimiter after it begin. */
  lemma BreakAfter(c: Command, k: nat, rest: string)
    requires CommandOk(c) && k < |c.args| && c.args[k].Bare? && WordBreak(rest)
    ensures WordBreak(ArgsThen(c, k + 1, rest))
  {
    if k + 1 < |c.args| {
      assert Blank(c.gaps[k + 1]);
      BlankBreak(Gap(c, k + 1), ArgText(c.args[k + 1]) + ArgsThen(c, k + 2, rest));
    } else if |Gap(c, k + 1)| > 0 {
      assert Blank(c.gaps[k + 1]);
      BlankBreak(Gap(c, k + 1), rest);
    } else {
      assert ArgsThen(c, k + 1, rest) == rest;
    }
  }

  lemma LexArg(a: Arg, after: string)
    requires ArgOk(a) && (a.Bare? ==> WordBreak(after))
    ensures Lex(ArgText(a) + after) == [ArgToken(a)] + Lex(after)
  {
    match a
    case Bare(w) => LexWord(w, after);
    case InQuotes(b) => LexQuoted(b, after);
  }

  /** Tokenizing a command's text finds its arguments, in order. */
  lemma {:induction false} LexArgs(c: Command, k: nat, rest: string)
    requires CommandOk(c) && k <= |c.args| && WordBreak(rest)
    ensures Lex(ArgsThen(c, k, rest)) == ArgTokens(c, k) + Lex(rest)
    decreases |c.args| - k, 1
  {
    if k == |c.args| {
      LexArgsEnd(c, rest);
    } else {
      LexArgsStep(c, k, rest);
    }
  }

  lemma LexArgsEnd(c: Command, rest: string)
    requires CommandOk(c)
    ensures Lex(ArgsThen(c, |c.args|, rest)) == ArgTokens(c, |c.args|) + Lex(rest)
  {
    var g := Gap(c, |c.args|);
    assert Blank(g) by { assert Blank(c.gaps[|c.args|]); }
    LexBlanks(g, rest);
  }

  lemma {:induction false} LexArgsStep(c: Command, k: nat, rest: string)
    requires CommandOk(c) && k < |c.args| && WordBreak(rest)
    ensures Lex(ArgsThen(c, k, rest)) == ArgTokens(c, k) + Lex(rest)
    decreases |c.args| - k, 0
  {
    var a := c.args[k];
    LexArgs(c, k + 1, rest);
    assert Blank(c.gaps[k]) && ArgOk(a);
    if a.Bare? {
      BreakAfter(c, k, rest);
    }
    ArgsThenAt(c, k, rest);
    LexAfterArg(ArgsThen(c, k, rest), Gap(c, k), a, ArgsThen(c, k + 1, rest), ArgTokens(c, k + 1), Lex(rest));
    ArgTokensAt(c, k);
  }

  /** Blanks, then an argument, then text it cannot run into. */
  lemma LexAfterArg(t: string, g: string, a: Arg, after: string, ts: seq<Token>, more: seq<Token>)
    requires t == g + (ArgText(a) + after)
    requires Blank(g) && ArgOk(a) && (a.Bare? ==> WordBreak(after))
    requires Lex(after) == ts + more
    ensures Lex(t) == [ArgToken(a)] + ts + more
  {
    LexBlanks(g, ArgText(a) + after);
    LexArg(a, after);
    TokensCons(ArgToken(a), ts, more);
  }

  lemma ArgTokensAt(c: Command, k: nat)
    requires k < |c.args|
    ensures ArgTokens(c, k) == [ArgToken(c.args[k])] + ArgTokens(c, k + 1)
  {
  }

  lemma TokensCons(t: Token, ts: seq<Token>, more: seq<Token>)
    ensures [t] + (ts + more) == [t] + ts + more
  {
  }

  lemma {:induction false} LexLine(cmds: seq<Command>, i: nat)
    requires WellFormed(cmds) && i <= |cmds|
    ensures Lex(LineFrom(cmds, i)) == TokensFrom(cmds, i)
    decreases |cmds| - i
  {
    if i < |cmds| {
      var c := cmds[i];
      var next := LineFrom(cmds, i + 1);
      LexLine(cmds, i + 1);
      assert CommandOk(c);
      match c.end
      case Some(d) =>
        assert [d] + next == EndText(c.end) + next;
        LexArgs(c, 0, [d] + next);
        if i + 1 < |cmds| {
          assert CommandOk(cmds[i + 1]);
          ArgsThenStart(cmds[i + 1], 0, EndText(cmds[i + 1].end) + LineFrom(cmds, i + 2));
        }
        LexDelim(d, next);
      case None =>
        assert next == "";
        assert EndText(c.end) + next == "";
        LexArgs(c, 0, "");
    }
  }

  // ---------------------------------------------------------------------
  // Gathering written commands

  lemma {:induction false} GatherArgs(c: Command, k: nat, rest: seq<Token>, current: seq<string>, done: seq<seq<string>>)
    requires k <= |c.args|
    ensures Gather(ArgTokens(c, k) + rest, current, done) == Gather(rest, current + Values(c.args)[k..], done)
    decreases |c.args| - k
  {
    if k == |c.args| {
      assert ArgTokens(c, k) + rest == rest;
      assert current + Values(c.args)[k..] == current;
    } else {
      var t := ArgToken(c.args[k]);
      ArgTokensAt(c, k);
      ConsFront(t, ArgTokens(c, k + 1), rest);
      GatherWordStep(t, ArgTokens(c, k + 1) + rest, current, done);
      GatherArgs(c, k + 1, rest, current + [ArgValue(c.args[k])], done);
      ValuesAt(c.args, k);
      ConsAfter(current, ArgValue(c.args[k]), Values(c.args)[k + 1..]);
    }
  }

  lemma ConsFront<T>(x: T, s: seq<T>, rest: seq<T>)
    ensures ([x] + s) + rest == [x] + (s + rest)
  {
  }

  lemma ValuesAt(args: seq<Arg>, k: nat)
    requires k < |args|
    ensures Values(args)[k..] == [ArgValue(args[k])] + Values(args)[k + 1..]
  {
  }

  lemma {:induction false} GatherLine(cmds: seq<Command>, i: nat, done: seq<seq<string>>)
    requires WellFormed(cmds) && i <= |cmds|
    ensures Gather(TokensFrom(cmds, i), [], done) == done + Meaning(cmds)[i..]
    decreases |cmds| - i, 1
  {
    if i == |cmds| {
      assert done + Meaning(cmds)[i..] == done;
    } else {
      GatherLineStep(cmds, i, done);
    }
  }

  lemma {:induction false} GatherLineStep(cmds: seq<Command>, i: nat, done: seq<seq<string>>)
    requires WellFormed(cmds) && i < |cmds|
    ensures Gather(TokensFrom(cmds, i), [], done) == done + Meaning(cmds)[i..]
    decreases |cmds| - i, 0
  {
    var c := cmds[i];
    assert CommandOk(c);
    var later := TokensFrom(cmds, i + 1);
    var cmd := Values(c.args) + [EndText(c.end)];
    TokensFromAt(cmds, i);
    GatherArgs(c, 0, EndTokens(c.end) + later, [], done);
    FromStart(Values(c.args));
    MeaningAt(cmds, i);
    match c.end
    case Some(d) =>
      GatherDelimStep([d], later, Values(c.args), done);
      GatherLine(cmds, i + 1, done + [cmd]);
      ConsAfter(done, cmd, Meaning(cmds)[i + 1..]);
    case None =>
      assert i + 1 == |cmds|;
      TokensFromAt(cmds, i + 1);
      assert EndTokens(c.end) + later == [];
      ConsAfter(done, cmd, Meaning(cmds)[i + 1..]);
  }

  lemma TokensFromAt(cmds: seq<Command>, i: nat)
    ensures TokensFrom(cmds, i) == if i >= |cmds| then []
      else ArgTokens(cmds[i], 0) + (EndTokens(cmds[i].end) + TokensFrom(cmds, i + 1))
  {
  }

  lemma FromStart<T>(s: seq<T>)
    ensures [] + s[0..] == s
  {
  }

  lemma MeaningAt(cmds: seq<Command>, i: nat)
    requires i < |cmds|
    ensures Meaning(cmds)[i..] == [Values(cmds[i].args) + [EndText(cmds[i].end)]] + Meaning(cmds)[i + 1..]
  {
  }

  lemma ConsAfter<T>(done: seq<T>, x: T, rest: seq<T>)
    ensures done + [x] + rest == done + ([x] + rest)
  {
  }

  /** A line holding a command has something besides blanks and `;`. */
  lemma NotIgnorable(cmds: seq<Command>)
    requires WellFormed(cmds) && |cmds| > 0
    ensures !Ignorable(Line(cmds))
  {
    var c := cmds[0];
    assert CommandOk(c) && ArgOk(c.args[0]);
    var g, a := Gap(c, 0), ArgText(c.args[0]);
    var line := Line(cmds);
    assert line == g + (a + ArgsThen(c, 1, EndText(c.end) + LineFrom(cmds, 1)));
    assert line[|g|] == a[0];
    assert a[0] !in " \U{C}\n\r\t\U{B};";
  }

  /** Parsing a line written from well-formed commands gives back what
      they mean: each command's argument values, unescaped, and its
      delimiter. Together with `LexLine` this is the round trip from
      written commands through the tokenizer and the gathering loop. */
  lemma ParseLine(cmds: seq<Command>)
    requires WellFormed(cmds)
    ensures ParseCommandLine(Line(cmds)).0 == Meaning(cmds)
  {
    if |cmds| == 0 {
      assert Line(cmds) == "";
    } else {
      NotIgnorable(cmds);
      LexLine(cmds, 0);
      GatherLine(cmds, 0, []);
      assert [] + Meaning(cmds)[0..] == Meaning(cmds);
    }
  }

  // ---------------------------------------------------------------------
  // The command lines the two test programs try

  lemma Assoc(x: string, y: string, z: string)
    ensures x + (y + z) == x + y + z
  {
  }

  lemma BareValue(a: string)
    requires BareWord(a)
    ensures ArgValue(Bare(a)) == a
  {
    UnescapeBare(a);
  }

  lemma ValuesOne(x: Arg, e: string)
    ensures Values([x]) + [e] == [ArgValue(x), e]
  {
  }

  lemma ValuesTwo(x: Arg, y: Arg, e: string)
    ensures Values([x, y]) + [e] == [ArgValue(x), ArgValue(y), e]
  {
  }

  lemma ValuesThree(x: Arg, y: Arg, z: Arg, e: string)
    ensures Values([x, y, z]) + [e] == [ArgValue(x), ArgValue(y), ArgValue(z), e]
  {
  }

  lemma MeaningOne(c: Command)
    ensures Meaning([c]) == [Values(c.args) + [EndText(c.end)]]
  {
  }

  lemma MeaningTwo(c0: Command, c1: Command)
    ensures Meaning([c0, c1]) == [Values(c0.args) + [EndText(c0.end)], Values(c1.args) + [EndText(c1.end)]]
  {
  }

  lemma MeaningThree(c0: Command, c1: Command, c2: Command)
    ensures Meaning([c0, c1, c2]) == [Values(c0.args) + [EndText(c0.end)], Values(c1.args) + [EndText(c1.end)],
                                     Values(c2.args) + [EndText(c2.end)]]
  {
  }

  /** Lines of blanks and `;` give no commands. */
  lemma BlankLines()
    ensures ParseCommandLine("").0 == []
    ensures ParseCommandLine(" ").0 == []
    ensures ParseCommandLine(" \t\n;").0 == []
  {
    assert Ignorable(" \t\n;");
  }

  lemma LoneWordText(a: string)
    ensures Line([Command([Bare(a)], ["", ""], None)]) == a
  {
    var cmds := [Command([Bare(a)], ["", ""], None)];
    LineFromAt(cmds, 0);
    LineFromAt(cmds, 1);
    ArgsThenAt(cmds[0], 0, "");
    ArgsThenAt(cmds[0], 1, "");
  }

  lemma LoneWordParse(a: string)
    requires BareWord(a)
    ensures ParseCommandLine(Line([Command([Bare(a)], ["", ""], None)])).0 == [[a, ""]]
  {
    var c := Command([Bare(a)], ["", ""], None);
    assert CommandOk(c);
    ParseLine([c]);
    MeaningOne(c);
    ValuesOne(Bare(a), "");
    BareValue(a);
  }

  /** A single bare word is one command the line ends, as for `mkfs.so`. */
  lemma LoneWord(a: string)
    requires BareWord(a)
    ensures ParseCommandLine(a).0 == [[a, ""]]
  {
    LoneWordText(a);
    LoneWordParse(a);
  }

  lemma ThreeWordsText(a: string, g1: string, b: string, g2: string, c: string)
    ensures Line([Command([Bare(a), Bare(b), Bare(c)], ["", g1, g2, ""], None)]) == a + g1 + b + g2 + c
  {
    var cmds := [Command([Bare(a), Bare(b), Bare(c)], ["", g1, g2, ""], None)];
    assert Line(cmds) == a + (g1 + (b + (g2 + c))) by {
      LineFromAt(cmds, 0);
      LineFromAt(cmds, 1);
      ArgsThenAt(cmds[0], 0, "");
      ArgsThenAt(cmds[0], 1, "");
      ArgsThenAt(cmds[0], 2, "");
      ArgsThenAt(cmds[0], 3, "");
    }
    Assoc(a, g1, b + (g2 + c));
    Assoc(a + g1, b, g2 + c);
    Assoc(a + g1 + b, g2, c);
  }

  lemma ThreeWordsParse(a: string, g1: string, b: string, g2: string, c: string)
    requires BareWord(a) && BareWord(b) && BareWord(c) && Blank(g1) && Blank(g2) && |g1| > 0 && |g2| > 0
    ensures ParseCommandLine(Line([Command([Bare(a), Bare(b), Bare(c)], ["", g1, g2, ""], None)])).0
      == [[a, b, c, ""]]
  {
    var x := Command([Bare(a), Bare(b), Bare(c)], ["", g1, g2, ""], None);
    assert CommandOk(x);
    ParseLine([x]);
    MeaningOne(x);
    ValuesThree(Bare(a), Bare(b), Bare(c), "");
    BareValue(a);
    BareValue(b);
    BareValue(c);
  }

  /** Bare words separated by blanks make one command the line ends, as
      for `mkfs.so --blub      --blah`. */
  lemma WordsAndBlanks(a: string, g1: string, b: string, g2: string, c: string)
    requires BareWord(a) && BareWord(b) && BareWord(c) && Blank(g1) && Blank(g2) && |g1| > 0 && |g2| > 0
    ensures ParseCommandLine(a + g1 + b + g2 + c).0 == [[a, b, c, ""]]
  {
    ThreeWordsText(a, g1, b, g2, c);
    ThreeWordsParse(a, g1, b, g2, c);
  }

  lemma QuotedLineText(a: string, g: string, q: string)
    ensures Line([Command([Bare(a), InQuotes(q)], ["", g, ""], None)]) == a + g + "\"" + q + "\""
  {
    var cmds := [Command([Bare(a), InQuotes(q)], ["", g, ""], None)];
    var x := "\"" + q + "\"";
    assert Line(cmds) == a + (g + x) by {
      LineFromAt(cmds, 0);
      LineFromAt(cmds, 1);
      ArgsThenAt(cmds[0], 0, "");
      ArgsThenAt(cmds[0], 1, "");
      ArgsThenAt(cmds[0], 2, "");
    }
    Assoc(a, g, x);
    Assoc(a + g, "\"" + q, "\"");
    Assoc(a + g, "\"", q);
  }

  lemma QuotedParse(a: string, g: string, q: string)
    requires BareWord(a) && Blank(g) && |g| > 0 && QuotedText(q)
    ensures ParseCommandLine(Line([Command([Bare(a), InQuotes(q)], ["", g, ""], None)])).0
      == [[a, Unescape(q), ""]]
  {
    var x := Command([Bare(a), InQuotes(q)], ["", g, ""], None);
    assert CommandOk(x);
    ParseLine([x]);
    MeaningOne(x);
    ValuesTwo(Bare(a), InQuotes(q), "");
    BareValue(a);
  }

  /** A quoted argument loses its quotes and keeps blanks and `;` inside,
      with its escapes processed, as for `mkfs.so  "--blub ;  --blah"`. */
  lemma QuotedArgument(a: string, g: string, q: string)
    requires BareWord(a) && Blank(g) && |g| > 0 && QuotedText(q)
    ensures ParseCommandLine(a + g + "\"" + q + "\"").0 == [[a, Unescape(q), ""]]
  {
    QuotedLineText(a, g, q);
    QuotedParse(a, g, q);
  }

  function SemicolonsCommands(a: string, b: string, g1: string, g2: string, c: string): seq<Command>
  {
    [Command([Bare(a)], ["", ""], Some(';')), Command([Bare(b)], ["", g1], Some(';')),
     Command([Bare(c)], [g2, ""], Some(';'))]
  }

  lemma SemicolonsText(a: string, b: string, g1: string, g2: string, c: string)
    ensures Line(SemicolonsCommands(a, b, g1, g2, c)) == a + ";" + b + g1 + ";" + g2 + c + ";"
  {
    var cmds := SemicolonsCommands(a, b, g1, g2, c);
    var t2 := g2 + (c + ";");
    var t1 := b + (g1 + (";" + t2));
    assert LineFrom(cmds, 2) == t2 by {
      LineFromAt(cmds, 2);
      LineFromAt(cmds, 3);
      ArgsThenAt(cmds[2], 0, ";");
      ArgsThenAt(cmds[2], 1, ";");
    }
    assert LineFrom(cmds, 1) == t1 by {
      LineFromAt(cmds, 1);
      ArgsThenAt(cmds[1], 0, ";" + t2);
      ArgsThenAt(cmds[1], 1, ";" + t2);
    }
    assert Line(cmds) == a + (";" + t1) by {
      LineFromAt(cmds, 0);
      ArgsThenAt(cmds[0], 0, ";" + t1);
      ArgsThenAt(cmds[0], 1, ";" + t1);
    }
    SemicolonsAssoc(a, b, g1, g2, c);
  }

  lemma SemicolonsAssoc(a: string, b: string, g1: string, g2: string, c: string)
    ensures a + (";" + (b + (g1 + (";" + (g2 + (c + ";")))))) == a + ";" + b + g1 + ";" + g2 + c + ";"
  {
    var t2 := g2 + (c + ";");
    var p1 := a + ";";
    Assoc(a, ";", b + (g1 + (";" + t2)));
    Assoc(p1, b, g1 + (";" + t2));
    Assoc(p1 + b, g1, ";" + t2);
    var p3 := p1 + b + g1;
    Assoc(p3, ";", t2);
    Assoc(p3 + ";", g2, c + ";");
    Assoc(p3 + ";" + g2, c, ";");
  }

  lemma SemicolonsParse(a: string, b: string, g1: string, g2: string, c: string)
    requires BareWord(a) && BareWord(b) && BareWord(c) && Blank(g1) && Blank(g2)
    ensures ParseCommandLine(Line(SemicolonsCommands(a, b, g1, g2, c))).0 == [[a, ";"], [b, ";"], [c, ";"]]
  {
    var cmds := SemicolonsCommands(a, b, g1, g2, c);
    assert CommandOk(cmds[0]) && CommandOk(cmds[1]) && CommandOk(cmds[2]);
    ParseLine(cmds);
    MeaningThree(cmds[0], cmds[1], cmds[2]);
    ValuesOne(Bare(a), ";");
    ValuesOne(Bare(b), ";");
    ValuesOne(Bare(c), ";");
    BareValue(a);
    BareValue(b);
    BareValue(c);
  }

  /** Commands closed by `;`, with or without blanks around it, as for
      `mkfs.so;cpiod.so   ;   haproxy.so;`. */
  lemma SemicolonCommands(a: string, b: string, g1: string, g2: string, c: string)
    requires BareWord(a) && BareWord(b) && BareWord(c) && Blank(g1) && Blank(g2)
    ensures ParseCommandLine(a + ";" + b + g1 + ";" + g2 + c + ";").0 == [[a, ";"], [b, ";"], [c, ";"]]
  {
    SemicolonsText(a, b, g1, g2, c);
    SemicolonsParse(a, b, g1, g2, c);
  }

  function TwoCommandsOf(a: string, b: string): seq<Command>
  {
    [Command([Bare(a)], ["", ""], Some(';')), Command([Bare(b)], ["", ""], Some(';'))]
  }

  lemma TwoCommandsText(a: string, b: string)
    ensures Line(TwoCommandsOf(a, b)) == a + ";" + b + ";"
  {
    var cmds := TwoCommandsOf(a, b);
    var t1 := b + ";";
    assert LineFrom(cmds, 1) == t1 by {
      LineFromAt(cmds, 1);
      LineFromAt(cmds, 2);
      ArgsThenAt(cmds[1], 0, ";");
      ArgsThenAt(cmds[1], 1, ";");
    }
    assert Line(cmds) == a + (";" + t1) by {
      LineFromAt(cmds, 0);
      ArgsThenAt(cmds[0], 0, ";" + t1);
      ArgsThenAt(cmds[0], 1, ";" + t1);
    }
    Assoc(a, ";", t1);
    Assoc(a + ";", b, ";");
  }

  lemma TwoCommandsParse(a: string, b: string)
    requires BareWord(a) && BareWord(b)
    ensures ParseCommandLine(Line(TwoCommandsOf(a, b))).0 == [[a, ";"], [b, ";"]]
  {
    var cmds := TwoCommandsOf(a, b);
    assert CommandOk(cmds[0]) && CommandOk(cmds[1]);
    ParseLine(cmds);
    MeaningTwo(cmds[0], cmds[1]);
    ValuesOne(Bare(a), ";");
    ValuesOne(Bare(b), ";");
    BareValue(a);
    BareValue(b);
  }

  /** Two commands each closed by `;`, as for `mkfs.so;cpiod.so;`. */
  lemma TwoCommands(a: string, b: string)
    requires BareWord(a) && BareWord(b)
    ensures ParseCommandLine(a + ";" + b + ";").0 == [[a, ";"], [b, ";"]]
  {
    TwoCommandsText(a, b);
    TwoCommandsParse(a, b);
  }

  function MixedCommandsOf(a: string, b: string, g1: string, q: string, g2: string, g3: string, c: string): seq<Command>
  {
    [Command([Bare(a)], ["", ""], Some(';')), Command([Bare(b), InQuotes(q)], ["", g1, g2], Some(';')),
     Command([Bare(c)], [g3, ""], None)]
  }

  lemma MixedText(a: string, b: string, g1: string, q: string, g2: string, g3: string, c: string)
    ensures Line(MixedCommandsOf(a, b, g1, q, g2, g3, c))
      == a + ";" + b + g1 + "\"" + q + "\"" + g2 + ";" + g3 + c
  {
    var cmds := MixedCommandsOf(a, b, g1, q, g2, g3, c);
    var x := "\"" + q + "\"";
    var t2 := g3 + c;
    var t1 := b + (g1 + (x + (g2 + (";" + t2))));
    assert LineFrom(cmds, 2) == t2 by {
      LineFromAt(cmds, 2);
      LineFromAt(cmds, 3);
      ArgsThenAt(cmds[2], 0, "");
      ArgsThenAt(cmds[2], 1, "");
    }
    assert LineFrom(cmds, 1) == t1 by {
      var r := ";" + t2;
      LineFromAt(cmds, 1);
      assert ArgsThen(cmds[1], 2, r) == g2 + r by { ArgsThenAt(cmds[1], 2, r); }
      assert ArgsThen(cmds[1], 1, r) == g1 + (x + (g2 + r)) by {
        ArgsThenAt(cmds[1], 1, r);
        assert ArgText(cmds[1].args[1]) == x;
      }
      ArgsThenAt(cmds[1], 0, r);
    }
    assert Line(cmds) == a + (";" + t1) by {
      LineFromAt(cmds, 0);
      ArgsThenAt(cmds[0], 0, ";" + t1);
      ArgsThenAt(cmds[0], 1, ";" + t1);
    }
    MixedAssoc(a, b, g1, q, g2, g3, c);
  }

  lemma MixedAssoc(a: string, b: string, g1: string, q: string, g2: string, g3: string, c: string)
    ensures var x := "\"" + q + "\"";
      a + (";" + (b + (g1 + (x + (g2 + (";" + (g3 + c)))))))
      == a + ";" + b + g1 + "\"" + q + "\"" + g2 + ";" + g3 + c
  {
    var x := "\"" + q + "\"";
    var t2 := g3 + c;
    var t4 := g2 + (";" + t2);
    var p1 := a + ";";
    Assoc(a, ";", b + (g1 + (x + t4)));
    Assoc(p1, b, g1 + (x + t4));
    Assoc(p1 + b, g1, x + t4);
    var p3 := p1 + b + g1;
    Assoc(p3, x, t4);
    Assoc(p3, "\"" + q, "\"");
    Assoc(p3, "\"", q);
    var p6 := p3 + "\"" + q + "\"";
    Assoc(p6, g2, ";" + t2);
    Assoc(p6 + g2, ";", t2);
    Assoc(p6 + g2 + ";", g3, c);
  }

  lemma MixedParse(a: string, b: string, g1: string, q: string, g2: string, g3: string, c: string)
    requires BareWord(a) && BareWord(b) && BareWord(c) && QuotedText(q)
    requires Blank(g1) && |g1| > 0 && Blank(g2) && Blank(g3)
    ensures ParseCommandLine(Line(MixedCommandsOf(a, b, g1, q, g2, g3, c))).0
      == [[a, ";"], [b, Unescape(q), ";"], [c, ""]]
  {
    var cmds := MixedCommandsOf(a, b, g1, q, g2, g3, c);
    assert CommandOk(cmds[0]);
    assert CommandOk(cmds[1]);
    assert CommandOk(cmds[2]);
    ParseLine(cmds);
    MeaningThree(cmds[0], cmds[1], cmds[2]);
    ValuesOne(Bare(a), ";");
    ValuesTwo(Bare(b), InQuotes(q), ";");
    ValuesOne(Bare(c), "");
    BareValue(a);
    BareValue(b);
    BareValue(c);
  }

  /** Commands mixing bare and quoted arguments: sizes two, three and two,
      the quoted text unescaped, as for
      `mkfs.so;cpiod.so  " ;; --onx -fon;x \t" ;   haproxy.so`. */
  lemma MixedCommands(a: string, b: string, g1: string, q: string, g2: string, g3: string, c: string)
    requires BareWord(a) && BareWord(b) && BareWord(c) && QuotedText(q)
    requires Blank(g1) && |g1| > 0 && Blank(g2) && Blank(g3)
    ensures ParseCommandLine(a + ";" + b + g1 + "\"" + q + "\"" + g2 + ";" + g3 + c).0
      == [[a, ";"], [b, Unescape(q), ";"], [c, ""]]
  {
    MixedText(a, b, g1, q, g2, g3, c);
    MixedParse(a, b, g1, q, g2, g3, c);
  }

  // ---------------------------------------------------------------------
  // The test programs' own words

  /** Text with neither a backslash nor a double quote. */
  predicate Literal(p: string)
  {
    forall k :: 0 <= k < |p| ==> p[k] != '\\' && p[k] != '"'
  }

  lemma {:induction false} LiteralQuoted(p: string)
    requires Literal(p)
    ensures QuotedText(p) && Unescape(p) == p
  {
    if |p| > 0 {
      LiteralQuoted(p[1..]);
    }
    UnescapeBare(p);
  }

  /** Quoted text ending in the escape `\t` reads as the text and a tab. */
  lemma QuotedTab(p: string)
    requires Literal(p)
    ensures QuotedText(p + "\\t") && Unescape(p + "\\t") == p + "\t"
  {
    QuotedTextCat(p, "\\t");
    UnescapePlainPrefix(p, "\\t");
    UnescapeKnown('t', "");
    assert ['\\', 't'] + "" == "\\t";
  }

  /** Escape processing passes a backslash-free prefix through. */
  lemma {:induction false} UnescapePlainPrefix(p: string, s: string)
    requires forall k :: 0 <= k < |p| ==> p[k] != '\\'
    ensures Unescape(p + s) == p + Unescape(s)
    decreases |p|, 1
  {
    if |p| == 0 {
      assert p + s == s;
    } else {
      UnescapePlainStep(p, s);
    }
  }

  lemma {:induction false} UnescapePlainStep(p: string, s: string)
    requires |p| > 0 && forall k :: 0 <= k < |p| ==> p[k] != '\\'
    ensures Unescape(p + s) == p + Unescape(s)
    decreases |p|, 0
  {
    var t := p[1..] + s;
    UnescapePlainPrefix(p[1..], s);
    HeadSplit(p, s);
    UnescapePlain(p[0], t);
    HeadSplit(p, Unescape(s));
  }

  lemma HeadSplit(p: string, s: string)
    requires |p| > 0
    ensures p + s == [p[0]] + (p[1..] + s)
  {
  }

  lemma {:induction false} QuotedTextCat(p: string, s: string)
    requires Literal(p) && QuotedText(s)
    ensures QuotedText(p + s)
  {
    if |p| > 0 {
      QuotedTextCat(p[1..], s);
      assert (p + s)[1..] == p[1..] + s;
    } else {
      assert p + s == s;
    }
  }

  /** The words and quoted texts of the test lines meet the hypotheses of
      the lemmas above. */
  lemma TestWords()
    ensures BareWord("mkfs.so") && BareWord("--blub") && BareWord("--blah")
    ensures BareWord("cpiod.so") && BareWord("haproxy.so")
    ensures Literal("--blub ;  --blah") && Literal(" ;; --onx -fon;x ")
  {
  }
}

=== FILE: dmi.dfy ===
/** The SMBIOS reader that fills in the BIOS vendor (DMTF DSP0134): it finds an
    entry point in the legacy BIOS area or through the UEFI configuration
    table, checks it, and walks the structure table for the BIOS Information
    structure (type 0, section 7.1), whose vendor field is a string number into
    the structure's string set (section 6.1.3). Physical memory is a byte
    sequence from address 0; a read past its end has no value in the model and
    ends the walk with `BeyondMemory`. Mapping the regions into the kernel's
    address space and the debug messages are left out. */
module Dmi {
  import opened Wrappers
  import opened Octets

  type Memory = seq<Byte>

  /** `dmi_bios_vendor` before any table is read. */
  const Unknown: seq<Byte> := Ascii("Unknown")
  /** What string number 0 stands for. */
  const NotSpecified: seq<Byte> := Ascii("Not Specified")

  const AnchorSm: seq<Byte> := Ascii("_SM_")
  const AnchorDmi: seq<Byte> := Ascii("_DMI_")
  const AnchorSm3: seq<Byte> := Ascii("_SM3_")

  const EndOfTable: Byte := 127
  const BiosInformation: Byte := 0
  /** The shortest BIOS Information structure the vendor is read from. */
  const BiosInfoLength: nat := 18
  /** The vendor's string number sits at this offset of the structure. */
  const VendorField: nat := 4
  const HeaderSize: nat := 4

  /** The legacy BIOS area the 32-bit entry point is searched in. */
  const LegacyBase: nat := 0xf0000
  const LegacySize: nat := 0x10000
  const Paragraph: nat := 16
  /** The last paragraph searched, and the last one decoded. */
  const LastSearched: nat := 0xfff0
  const LastDecoded: nat := 0xffe0

  // ---------------------------------------------------------------------
  // Reading memory

  /** A little-endian field of `n` bytes at `at`. */
  function Field(mem: Memory, at: nat, n: nat): nat
    requires at + n <= |mem|
  {
    FromLittleEndian(mem[at..at + n])
  }

  /** `strlen` from `at`: the first NUL at or after it. */
  function Nul(mem: Memory, at: nat): (k: Option<nat>)
    ensures k.Some? ==> at <= k.value < |mem| && mem[k.value] == 0 && 0 !in mem[at..k.value]
    ensures k.None? ==> at >= |mem| || 0 !in mem[at..]
  {
    var k := IndexFrom(mem, 0, at);
    if k < |mem| then Some(k) else None
  }

  /** The first NUL after `at` is the one at `k` when nothing between is NUL. */
  lemma NulAt(mem: Memory, at: nat, k: nat)
    requires at <= k < |mem| && mem[k] == 0 && 0 !in mem[at..k]
    ensures Nul(mem, at) == Some(k)
  {
    IndexFromAt(mem, 0, at, k);
  }

  /** The C string at `at`, without its NUL. */
  function CString(mem: Memory, at: nat): (s: Option<seq<Byte>>)
    ensures s.Some? ==> 0 !in s.value
  {
    match Nul(mem, at)
    case None => None
    case Some(k) => Some(mem[at..k])
  }

  // ---------------------------------------------------------------------
  // String sets

  datatype Strings = Strings(items: seq<seq<Byte>>, end: nat)

  /** The NUL-terminated strings from `s` up to the first empty one; `end` is
      the position of that empty string's NUL. */
  function StringList(mem: Memory, s: nat): (r: Option<Strings>)
    ensures r.Some? ==> s <= r.value.end < |mem| && mem[r.value.end] == 0
    ensures r.Some? ==> forall i :: 0 <= i < |r.value.items| ==> |r.value.items[i]| > 0
    decreases |mem| - s
  {
    if s >= |mem| then None
    else if mem[s] == 0 then Some(Strings([], s))
    else
      match Nul(mem, s)
      case None => None
      case Some(k) =>
        match StringList(mem, k + 1)
        case None => None
        case Some(rest) => Some(Strings([mem[s..k]] + rest.items, rest.end))
  }

  /** The string set after a structure's formatted area: each string ended by
      a NUL and the set by one more; a set with no strings is two NULs. */
  function StringSet(mem: Memory, s: nat): (r: Option<Strings>)
    ensures r.Some? ==> s < r.value.end < |mem| && mem[r.value.end] == 0
  {
    match StringList(mem, s)
    case None => None
    case Some(l) =>
      if |l.items| > 0 then Some(l)
      else if s + 1 < |mem| && mem[s + 1] == 0 then Some(Strings([], s + 1))
      else None
  }

  /** Where the walk for string number `idx` ends, as the source writes it:
      it steps over `idx - 1` strings and never looks for the end of the set
      (its guard tests the pointer, which is never null, where the byte under
      it was meant). */
  function StringStartAsWritten(mem: Memory, s: nat, idx: nat): Option<nat>
    decreases idx
  {
    if idx <= 1 then Some(s)
    else
      match Nul(mem, s)
      case None => None
      case Some(k) => StringStartAsWritten(mem, k + 1, idx - 1)
  }

  /** The walk that stops at the empty string ending the set, so a string
      number past the last string reads as the empty string. */
  function StringStart(mem: Memory, s: nat, idx: nat): Option<nat>
    decreases idx
  {
    if idx <= 1 then Some(s)
    else if s >= |mem| then None
    else if mem[s] == 0 then Some(s)
    else
      match Nul(mem, s)
      case None => None
      case Some(k) => StringStart(mem, k + 1, idx - 1)
  }

  /** `dmi_string` as written, for the structure at `data` of formatted
      length `length`. */
  function DmiStringAsWritten(mem: Memory, data: nat, length: nat, idx: Byte): Option<seq<Byte>>
  {
    if idx == 0 then Some(NotSpecified)
    else
      match StringStartAsWritten(mem, data + length, idx)
      case None => None
      case Some(at) => CString(mem, at)
  }

  /** `dmi_string` with the end-of-set test. */
  function DmiString(mem: Memory, data: nat, length: nat, idx: Byte): Option<seq<Byte>>
  {
    if idx == 0 then Some(NotSpecified)
    else
      match StringStart(mem, data + length, idx)
      case None => None
      case Some(at) => CString(mem, at)
  }

  /** Which reading the walks follow: the source as written, or with the
      end-of-set test in the string walk and the corrected SMBIOS 3 skip. */
  datatype Rule = AsWritten | Corrected

  /** `dmi_string` under a rule. */
  function DmiStringBy(rule: Rule, mem: Memory, data: nat, length: nat, idx: Byte): Option<seq<Byte>>
  {
    match rule
    case AsWritten => DmiStringAsWritten(mem, data, length, idx)
    case Corrected => DmiString(mem, data, length, idx)
  }

  /** String number `idx` (from one) of a well-formed list is its
      `idx`-th string, and past the last string it is the empty string. */
  lemma {:induction false} StringStartReads(mem: Memory, s: nat, idx: nat, l: Strings) returns (at: nat)
    requires StringList(mem, s) == Some(l) && idx >= 1
    ensures StringStart(mem, s, idx) == Some(at)
    ensures CString(mem, at) == Some(if idx <= |l.items| then l.items[idx - 1] else [])
    decreases idx
  {
    if mem[s] == 0 {
      NulAt(mem, s, s);
      at := s;
      assert StringStart(mem, s, idx) == Some(at);
    } else {
      var k := Nul(mem, s).value;
      var rest := ListHead(mem, s, l, k);
      if idx > 1 {
        at := StringStartReads(mem, k + 1, idx - 1, rest);
        StringStartStep(mem, s, idx, k);
        assert idx <= |l.items| ==> l.items[idx - 1] == rest.items[idx - 2];
      } else {
        at := s;
        assert StringStart(mem, s, idx) == Some(at) && l.items[0] == mem[s..k];
      }
    }
  }

  /** Past the first string, the walk goes on after that string's NUL. */
  lemma StringStartStep(mem: Memory, s: nat, idx: nat, k: nat)
    requires s < |mem| && mem[s] != 0 && Nul(mem, s) == Some(k) && idx > 1
    ensures StringStart(mem, s, idx) == StringStart(mem, k + 1, idx - 1)
  {
  }

  /** A list that starts with a string is that string, from `s` up to its
      NUL at `k`, followed by the list after the NUL. */
  lemma ListHead(mem: Memory, s: nat, l: Strings, k: nat) returns (rest: Strings)
    requires StringList(mem, s) == Some(l) && s < |mem| && mem[s] != 0 && Nul(mem, s) == Some(k)
    ensures StringList(mem, k + 1) == Some(rest)
    ensures l.items == [mem[s..k]] + rest.items
    ensures CString(mem, s) == Some(mem[s..k])
  {
    rest := StringList(mem, k + 1).value;
  }

  /** The vendor string `dmi_string` returns, for every string number: the
      string it names, "Not Specified" for number 0, and the empty string
      past the last one. */
  lemma DmiStringReads(mem: Memory, data: nat, length: nat, idx: Byte)
    requires StringSet(mem, data + length).Some?
    ensures var items := StringSet(mem, data + length).value.items;
      DmiString(mem, data, length, idx)
        == Some(if idx == 0 then NotSpecified else if idx <= |items| then items[idx - 1] else [])
  {
    if idx > 0 {
      var _ := StringStartReads(mem, data + length, idx, StringList(mem, data + length).value);
    }
  }

  /** As written, the walk agrees with the corrected one up to the empty
      string that ends the list. */
  lemma {:induction false} StringStartAsWrittenAgrees(mem: Memory, s: nat, idx: nat, l: Strings)
    requires StringList(mem, s) == Some(l) && 1 <= idx <= |l.items| + 1
    ensures StringStartAsWritten(mem, s, idx) == StringStart(mem, s, idx)
    decreases idx
  {
    if idx > 1 {
      var k := Nul(mem, s).value;
      StringStartAsWrittenAgrees(mem, k + 1, idx - 1, StringList(mem, k + 1).value);
    }
  }

  /** One string number past the end of the list, the walk as written steps
      over the terminating NUL and lands outside the string set, on whatever
      follows it (the next structure's header); the corrected walk stays on
      the terminator. */
  lemma {:induction false} StringStartAsWrittenOverruns(mem: Memory, s: nat, l: Strings)
    requires StringList(mem, s) == Some(l)
    ensures StringStartAsWritten(mem, s, |l.items| + 2) == Some(l.end + 1)
    ensures StringStart(mem, s, |l.items| + 2) == Some(l.end)
    decreases |l.items|
  {
    if mem[s] == 0 {
      NulAt(mem, s, s);
    } else {
      var k := Nul(mem, s).value;
      var rest := StringList(mem, k + 1).value;
      StringStartAsWrittenOverruns(mem, k + 1, rest);
    }
  }

  /** A type 0 structure with one string, "A", followed by a structure whose
      header starts with byte 0x42: string number 3 reads the next
      structure's bytes as written, and the empty string once corrected. */
  lemma DmiStringAsWrittenExample(next: Byte)
    requires next != 0
    ensures var mem := [0, 4, 0, 0, 0x41, 0, 0, next, 0];
      DmiStringAsWritten(mem, 0, 4, 3) == Some([next]) && DmiString(mem, 0, 4, 3) == Some([])
  {
    var mem: seq<Byte> := [0, 4, 0, 0, 0x41, 0, 0, next, 0];
    NulAt(mem, 4, 5);
    NulAt(mem, 6, 6);
    NulAt(mem, 7, 8);
    assert StringStartAsWritten(mem, 7, 1) == Some(7);
    assert StringStartAsWritten(mem, 6, 2) == Some(7);
    assert StringStartAsWritten(mem, 4, 3) == Some(7);
    assert mem[7..8] == [next];
    assert StringStart(mem, 6, 2) == Some(6);
    assert StringStart(mem, 4, 3) == Some(6);
  }

  // ---------------------------------------------------------------------
  // Skipping a structure's string set

  datatype Stop = CountReached | TableEnd | BadLength | EndMarker | Unterminated | BeyondMemory
                | FoundBios | Rejected

  datatype Skip = Skipped(next: nat) | Stopped(why: Stop)

  /** The string-set skip of the SMBIOS 2 table walk: `memchr` for the next
      NUL within what is left of the table (a negative remainder becomes a
      huge `size_t`), then one byte read; a NUL there ends the set. */
  function SkipTable(mem: Memory, q: nat, end: nat): (r: Skip)
    ensures r.Skipped? ==> r.next >= q + 2
    decreases |mem| - q
  {
    var limit := (end - q) % TwoTo64;
    match Nul(mem, q)
    case None => Stopped(if q + limit <= |mem| then Unterminated else BeyondMemory)
    case Some(k) =>
      if k >= q + limit then Stopped(Unterminated)
      else if k + 1 >= |mem| then Stopped(BeyondMemory)
      else if mem[k + 1] != 0 then SkipTable(mem, k + 2, end)
      else Skipped(k + 2)
  }

  /** The facts one step of a non-empty list unfolds to: a first string
      ended by a NUL at `k`, and the rest of the list from `k + 1`. */
  lemma ListStep(mem: Memory, s: nat, l: Strings)
    requires StringList(mem, s) == Some(l) && |l.items| > 0
    ensures mem[s] != 0 && Nul(mem, s).Some?
    ensures var k := Nul(mem, s).value;
      StringList(mem, k + 1).Some? && StringList(mem, k + 1).value.end == l.end
      && (mem[k + 1] == 0 <==> StringList(mem, k + 1).value.items == [])
      && (mem[k + 1] == 0 ==> l.end == k + 1)
  {
  }

  /** The first NUL after any point inside a string is the string's own. */
  lemma NulInside(mem: Memory, s: nat, q: nat, k: nat)
    requires Nul(mem, s) == Some(k) && s <= q <= k
    ensures Nul(mem, q) == Some(k)
  {
    assert 0 !in mem[q..k] by {
      assert mem[q..k] == mem[s..k][q - s..];
    }
    NulAt(mem, q, k);
  }

  /** One step of the skip from `q` whose next NUL, at `k`, lies inside the
      table. */
  lemma SkipTableAt(mem: Memory, q: nat, end: nat, k: nat)
    requires Nul(mem, q) == Some(k) && k < end < TwoTo64 && k + 1 < |mem|
    ensures SkipTable(mem, q, end) == if mem[k + 1] != 0 then SkipTable(mem, k + 2, end) else Skipped(k + 2)
  {
    assert (end - q) % TwoTo64 == end - q;
  }

  /** Inside the first string of a list that ends before the table does,
      the skip lands just past the list's terminating NUL. */
  lemma {:induction false} SkipTableList(mem: Memory, s: nat, q: nat, end: nat, l: Strings)
    requires StringList(mem, s) == Some(l) && |l.items| > 0 && l.end < end < TwoTo64
    requires s <= q <= Nul(mem, s).value
    ensures SkipTable(mem, q, end) == Skipped(l.end + 1)
    decreases |mem| - q, 1
  {
    ListStep(mem, s, l);
    var k := Nul(mem, s).value;
    var rest := StringList(mem, k + 1).value;
    assert k + 1 <= rest.end < |mem| && rest.end == l.end;
    NulInside(mem, s, q, k);
    SkipTableAt(mem, q, end, k);
    if mem[k + 1] != 0 {
      SkipTableNext(mem, q, end, k, rest);
    }
  }

  /** The step of `SkipTableList` into the next string of the list, `rest`,
      which starts just past the NUL at `k`. */
  lemma {:induction false} SkipTableNext(mem: Memory, q: nat, end: nat, k: nat, rest: Strings)
    requires q <= k && k + 1 < |mem| && mem[k + 1] != 0
    requires StringList(mem, k + 1) == Some(rest) && rest.items != [] && rest.end < end < TwoTo64
    ensures SkipTable(mem, k + 2, end) == Skipped(rest.end + 1)
    decreases |mem| - q, 0
  {
    ListStep(mem, k + 1, rest);
    var k' := Nul(mem, k + 1).value;
    assert k + 2 <= k' by {
      assert mem[k + 1] != 0 && mem[k'] == 0;
    }
    SkipTableList(mem, k + 1, k + 2, end, rest);
  }

  /** A well-formed string set that ends inside the table is skipped whole:
      the walk goes on just past its final NUL. */
  lemma SkipTableSet(mem: Memory, s: nat, end: nat)
    requires StringSet(mem, s).Some? && StringSet(mem, s).value.end < end < TwoTo64
    ensures SkipTable(mem, s, end) == Skipped(StringSet(mem, s).value.end + 1)
  {
    var l := StringList(mem, s).value;
    if |l.items| > 0 {
      SkipTableList(mem, s, s, end, l);
    } else {
      NulAt(mem, s, s);
      assert (end - s) % TwoTo64 == end - s;
    }
  }

  /** The strings loop of the SMBIOS 3 walk: `strlen` plus one while the
      byte under the cursor is inside the table and not NUL. */
  function SkipStrings(mem: Memory, tp: nat, end: nat): (r: Skip)
    ensures r.Skipped? ==> r.next >= tp
    ensures r.Stopped? ==> r.why == BeyondMemory
    decreases |mem| - tp
  {
    if tp >= end then Skipped(tp)
    else if tp >= |mem| then Stopped(BeyondMemory)
    else if mem[tp] == 0 then Skipped(tp)
    else
      match Nul(mem, tp)
      case None => Stopped(BeyondMemory)
      case Some(k) => SkipStrings(mem, k + 1, end)
  }

  /** The SMBIOS 3 walk's string-set skip as written: the strings, then one
      NUL. An empty set is two NULs, so it stops on the second. */
  function SkipSet3AsWritten(mem: Memory, tp: nat, end: nat): (r: Skip)
    ensures r.Skipped? ==> r.next >= tp
    ensures r.Stopped? ==> r.why == BeyondMemory
  {
    match SkipStrings(mem, tp, end)
    case Stopped(why) => Stopped(why)
    case Skipped(t) => Skipped(if t < end then t + 1 else t)
  }

  /** The skip with an empty set's first NUL stepped over first. */
  function SkipSet3(mem: Memory, tp: nat, end: nat): (r: Skip)
    ensures r.Skipped? ==> r.next >= tp
    ensures r.Stopped? ==> r.why == BeyondMemory
  {
    if tp < end && tp < |mem| && mem[tp] == 0 then SkipSet3AsWritten(mem, tp + 1, end)
    else SkipSet3AsWritten(mem, tp, end)
  }

  lemma {:induction false} SkipStringsList(mem: Memory, s: nat, end: nat, l: Strings)
    requires StringList(mem, s) == Some(l) && l.end < end
    ensures SkipStrings(mem, s, end) == Skipped(l.end)
    decreases |mem| - s
  {
    if mem[s] != 0 {
      var k := Nul(mem, s).value;
      SkipStringsList(mem, k + 1, end, StringList(mem, k + 1).value);
    }
  }

  /** The corrected skip steps over a well-formed string set whole. */
  lemma SkipSet3Set(mem: Memory, s: nat, end: nat)
    requires StringSet(mem, s).Some? && StringSet(mem, s).value.end < end
    ensures SkipSet3(mem, s, end) == Skipped(StringSet(mem, s).value.end + 1)
  {
    var l := StringList(mem, s).value;
    if |l.items| > 0 {
      SkipStringsList(mem, s, end, l);
    } else {
      assert StringList(mem, s + 1) == Some(Strings([], s + 1));
      SkipStringsList(mem, s + 1, end, Strings([], s + 1));
    }
  }

  /** As written, a structure with no strings leaves the cursor on the second
      NUL of its set, where the next header is then read; with strings it
      agrees with the corrected skip. */
  lemma SkipSet3AsWrittenEmptySet(mem: Memory, s: nat, end: nat)
    requires StringSet(mem, s).Some? && StringSet(mem, s).value.end < end
    ensures StringSet(mem, s).value.items == [] ==>
      SkipSet3AsWritten(mem, s, end) == Skipped(StringSet(mem, s).value.end)
    ensures StringSet(mem, s).value.items != [] ==>
      SkipSet3AsWritten(mem, s, end) == SkipSet3(mem, s, end)
  {
    var l := StringList(mem, s).value;
    SkipStringsList(mem, s, end, l);
    SkipSet3Set(mem, s, end);
  }

  // ---------------------------------------------------------------------
  // Walking the structure table

  datatype Walk = Walk(vendor: seq<Byte>, visited: seq<nat>, stop: Stop)

  /** A structure header the walks accept: inside memory, a formatted length
      of at least the header's own four bytes, and not the end marker. */
  predicate Accepted(mem: Memory, p: nat)
  {
    p + HeaderSize <= |mem| && mem[p + 1] >= HeaderSize && mem[p] != EndOfTable
  }

  /** A BIOS Information structure long enough to hold the vendor field. */
  predicate IsBios(mem: Memory, p: nat)
    requires p + 2 <= |mem|
  {
    mem[p] == BiosInformation && mem[p + 1] >= BiosInfoLength
  }

  /** The string a structure's vendor field names. */
  function VendorAt(rule: Rule, mem: Memory, p: nat): Option<seq<Byte>>
    requires p + 2 <= |mem|
  {
    if p + VendorField >= |mem| then None
    else DmiStringBy(rule, mem, p, mem[p + 1], mem[p + VendorField])
  }

  /** Both readings give the same vendor when the structure's string set is
      well formed and its vendor number names one of the strings, or the
      empty one just past them. */
  lemma VendorAtAgrees(mem: Memory, p: nat)
    requires p + VendorField < |mem|
    requires StringSet(mem, p + mem[p + 1]).Some?
    requires mem[p + VendorField] as nat <= |StringSet(mem, p + mem[p + 1]).value.items| + 1
    ensures VendorAt(AsWritten, mem, p) == VendorAt(Corrected, mem, p)
  {
    var idx := mem[p + VendorField];
    var s := p + mem[p + 1];
    if idx > 0 {
      StringStartAsWrittenAgrees(mem, s, idx as nat, StringList(mem, s).value);
    }
  }

  /** What one accepted structure does to the vendor: a BIOS Information
      structure replaces it with the string it names, any other keeps it. */
  function Visit(rule: Rule, mem: Memory, p: nat, vendor: seq<Byte>): Option<seq<Byte>>
    requires Accepted(mem, p)
  {
    if IsBios(mem, p) then VendorAt(rule, mem, p) else Some(vendor)
  }

  /** `dmi_table`'s loop from the structure at `p`, with `left` structures of
      the entry point's count still allowed, over a table ending at `end`.
      Every BIOS Information structure sets the vendor; the loop does not stop
      at the first. */
  function TableWalk(rule: Rule, mem: Memory, end: nat, p: nat, left: nat, vendor: seq<Byte>): (w: Walk)
    ensures |w.visited| <= left
    decreases end - p
  {
    if left == 0 then Walk(vendor, [], CountReached)
    else if p + HeaderSize >= end then Walk(vendor, [], TableEnd)
    else if p + HeaderSize > |mem| then Walk(vendor, [], BeyondMemory)
    else if mem[p + 1] < HeaderSize then Walk(vendor, [], BadLength)
    else if mem[p] == EndOfTable then Walk(vendor, [], EndMarker)
    else
      match Visit(rule, mem, p, vendor)
      case None => Walk(vendor, [], BeyondMemory)
      case Some(v) =>
        match SkipTable(mem, p + mem[p + 1], end)
        case Stopped(why) => Walk(v, [p], why)
        case Skipped(q) =>
          var w := TableWalk(rule, mem, end, q, left - 1, v);
          Walk(w.vendor, [p] + w.visited, w.stop)
  }

  /** The vendor after a sequence of accepted structures, each applied in
      turn: the string named by the last BIOS Information structure among
      them, or `vendor` when there is none. */
  function VendorAfter(rule: Rule, mem: Memory, ps: seq<nat>, vendor: seq<Byte>): seq<Byte>
  {
    if |ps| == 0 then vendor
    else
      var v := if Accepted(mem, ps[0]) && Visit(rule, mem, ps[0], vendor).Some? then Visit(rule, mem, ps[0], vendor).value else vendor;
      VendorAfter(rule, mem, ps[1..], v)
  }

  /** Offsets in increasing order, none before `from`. */
  predicate Ascending(ps: seq<nat>, from: nat)
  {
    (|ps| > 0 ==> from <= ps[0]) && forall i :: 0 < i < |ps| ==> ps[i - 1] < ps[i]
  }

  lemma AscendingCons(p: nat, ps: seq<nat>, from: nat, q: nat)
    requires from <= p < q && Ascending(ps, q)
    ensures Ascending([p] + ps, from)
  {
  }

  /** A walk from `p` that visited accepted structures only, in increasing
      order from `p`, and left the vendor the last BIOS Information structure
      among them names. */
  predicate VisitsFrom(rule: Rule, mem: Memory, p: nat, vendor: seq<Byte>, w: Walk)
  {
    Ascending(w.visited, p) && (forall i :: 0 <= i < |w.visited| ==> Accepted(mem, w.visited[i]))
    && w.vendor == VendorAfter(rule, mem, w.visited, vendor)
  }

  /** The walk visits accepted structures only, in increasing order from its
      start, and leaves the vendor the last BIOS Information structure among
      them names. */
  lemma {:induction false} TableWalkVisits(rule: Rule, mem: Memory, end: nat, p: nat, left: nat, vendor: seq<Byte>)
    ensures VisitsFrom(rule, mem, p, vendor, TableWalk(rule, mem, end, p, left, vendor))
    decreases end - p, 1
  {
    if left > 0 && p + HeaderSize < end && p + HeaderSize <= |mem| && mem[p + 1] >= HeaderSize
      && mem[p] != EndOfTable && Visit(rule, mem, p, vendor).Some? {
      var v := Visit(rule, mem, p, vendor).value;
      match SkipTable(mem, p + mem[p + 1], end)
      case Stopped(why) =>
        assert VendorAfter(rule, mem, [p], vendor) == VendorAfter(rule, mem, [], v);
      case Skipped(q) =>
        TableWalkStep(rule, mem, end, p, left, vendor, v, q);
    }
  }

  lemma {:induction false} TableWalkStep(rule: Rule, mem: Memory, end: nat, p: nat, left: nat, vendor: seq<Byte>, v: seq<Byte>, q: nat)
    requires left > 0 && p + HeaderSize < end && Accepted(mem, p)
    requires Visit(rule, mem, p, vendor) == Some(v) && SkipTable(mem, p + mem[p + 1], end) == Skipped(q)
    ensures VisitsFrom(rule, mem, p, vendor, TableWalk(rule, mem, end, p, left, vendor))
    decreases end - p, 0
  {
    var w := TableWalkCons(rule, mem, end, p, left, vendor, v, q);
    TableWalkVisits(rule, mem, end, q, left - 1, v);
    VisitsCons(rule, mem, p, q, vendor, v, w.visited, w.vendor, w.stop);
  }

  /** One step of the walk: an accepted structure followed by another at `q`
      is visited, and the walk goes on from `q` with the new vendor. */
  lemma TableWalkCons(rule: Rule, mem: Memory, end: nat, p: nat, left: nat, vendor: seq<Byte>, v: seq<Byte>, q: nat)
    returns (w: Walk)
    requires left > 0 && p + HeaderSize < end && Accepted(mem, p)
    requires Visit(rule, mem, p, vendor) == Some(v) && SkipTable(mem, p + mem[p + 1], end) == Skipped(q)
    ensures w == TableWalk(rule, mem, end, q, left - 1, v)
    ensures TableWalk(rule, mem, end, p, left, vendor) == Walk(w.vendor, [p] + w.visited, w.stop)
  {
    w := TableWalk(rule, mem, end, q, left - 1, v);
  }

  /** Putting an accepted structure in front of a walk's visits from past it
      keeps them ascending and accepted, and applies it to the vendor first. */
  lemma VisitsCons(rule: Rule, mem: Memory, p: nat, q: nat, vendor: seq<Byte>, v: seq<Byte>, ps: seq<nat>, last: seq<Byte>, stop: Stop)
    requires p < q && Accepted(mem, p) && Visit(rule, mem, p, vendor) == Some(v)
    requires VisitsFrom(rule, mem, q, v, Walk(last, ps, stop))
    ensures VisitsFrom(rule, mem, p, vendor, Walk(last, [p] + ps, stop))
  {
    AscendingCons(p, ps, p, q);
    assert ([p] + ps)[1..] == ps;
  }

  function SkipSet3By(rule: Rule, mem: Memory, tp: nat, end: nat): (r: Skip)
    ensures r.Skipped? ==> r.next >= tp
    ensures r.Stopped? ==> r.why == BeyondMemory
  {
    match rule
    case AsWritten => SkipSet3AsWritten(mem, tp, end)
    case Corrected => SkipSet3(mem, tp, end)
  }

  /** The SMBIOS 3 table loop of `dmi_probe_uefi`: no structure count, and it
      returns at the first BIOS Information structure. */
  function Table3Walk(rule: Rule, mem: Memory, end: nat, tp: nat, vendor: seq<Byte>): (w: Walk)
    decreases end - tp
  {
    if tp >= end then Walk(vendor, [], TableEnd)
    else if tp + HeaderSize > |mem| then Walk(vendor, [], BeyondMemory)
    else if mem[tp + 1] < HeaderSize then Walk(vendor, [], BadLength)
    else if mem[tp] == EndOfTable then Walk(vendor, [], EndMarker)
    else if IsBios(mem, tp) then
      match VendorAt(rule, mem, tp)
      case None => Walk(vendor, [], BeyondMemory)
      case Some(v) => Walk(v, [tp], FoundBios)
    else
      match SkipSet3By(rule, mem, tp + mem[tp + 1], end)
      case Stopped(why) => Walk(vendor, [tp], why)
      case Skipped(n) =>
        var w := Table3Walk(rule, mem, end, n, vendor);
        Walk(w.vendor, [tp] + w.visited, w.stop)
  }

  /** What the SMBIOS 3 walk promises of its result `w` from `vendor`: it
      visited accepted structures only, none but the last a BIOS Information
      structure, it stopped with `FoundBios` exactly when the last one is,
      and the vendor changed only then, to the string that structure names. */
  predicate FindsFirstBios(rule: Rule, mem: Memory, w: Walk, vendor: seq<Byte>)
  {
    (forall i :: 0 <= i < |w.visited| ==> Accepted(mem, w.visited[i]))
    && (forall i :: 0 <= i < |w.visited| - 1 ==> !IsBios(mem, w.visited[i]))
    && (w.stop == FoundBios <==> |w.visited| > 0 && IsBios(mem, w.visited[|w.visited| - 1]))
    && (w.stop == FoundBios ==> VendorAt(rule, mem, w.visited[|w.visited| - 1]) == Some(w.vendor))
    && (w.stop != FoundBios ==> w.vendor == vendor)
  }

  /** Putting an accepted structure that is not BIOS Information in front of
      a walk keeps the promise. */
  lemma FindsFirstBiosCons(rule: Rule, mem: Memory, tp: nat, w: Walk, vendor: seq<Byte>)
    requires Accepted(mem, tp) && !IsBios(mem, tp) && FindsFirstBios(rule, mem, w, vendor)
    ensures FindsFirstBios(rule, mem, Walk(w.vendor, [tp] + w.visited, w.stop), vendor)
  {
    var vs := [tp] + w.visited;
    assert forall i :: 0 < i < |vs| ==> vs[i] == w.visited[i - 1];
    if |w.visited| > 0 {
      assert vs[|vs| - 1] == w.visited[|w.visited| - 1];
    }
  }

  /** The SMBIOS 3 walk changes the vendor exactly when it finds a BIOS
      Information structure, which is then the last structure it visited and
      the only one of its kind among them. */
  lemma {:induction false} Table3WalkFinds(rule: Rule, mem: Memory, end: nat, tp: nat, vendor: seq<Byte>)
    ensures FindsFirstBios(rule, mem, Table3Walk(rule, mem, end, tp, vendor), vendor)
    decreases end - tp
  {
    if tp < end && tp + HeaderSize <= |mem| && mem[tp + 1] >= HeaderSize && mem[tp] != EndOfTable
      && !IsBios(mem, tp) {
      match SkipSet3By(rule, mem, tp + mem[tp + 1], end)
      case Stopped(why) =>
      case Skipped(n) =>
        var w := Table3Walk(rule, mem, end, n, vendor);
        Table3WalkFinds(rule, mem, end, n, vendor);
        FindsFirstBiosCons(rule, mem, tp, w, vendor);
    }
  }

  // ---------------------------------------------------------------------
  // Entry points

  datatype Entry = Entry(base: nat, len: nat, count: nat)

  datatype EntryRead = Valid(entry: Entry) | Invalid | Unreadable

  /** `smbios_decode`'s reading of a 32-bit entry point at `at` (section
      5.2.1 of DSP0134): the checksum over the entry's own length (byte
      0x05), the intermediate anchor at 0x10, then the table's length (0x16),
      address (0x18) and structure count (0x1c). */
  function Entry2(mem: Memory, at: nat): EntryRead
  {
    if at + 6 > |mem| then Unreadable
    else
      var n := mem[at + 5];
      if at + n > |mem| then Unreadable
      else if Checksum(mem[at..at + n]) != 0 then Invalid
      else if at + 0x15 > |mem| then Unreadable
      else if mem[at + 0x10..at + 0x15] != AnchorDmi then Invalid
      else if at + 0x1e > |mem| then Unreadable
      else Valid(Entry(Field(mem, at + 0x18, 4), Field(mem, at + 0x16, 2), Field(mem, at + 0x1c, 2)))
  }

  /** `smbios_decode`: a valid entry point's table is walked; any other
      leaves the vendor alone. */
  function SmbiosDecode(rule: Rule, mem: Memory, at: nat, vendor: seq<Byte>): (w: Walk)
    ensures Entry2(mem, at).Valid? ==> |w.visited| <= Entry2(mem, at).entry.count
    ensures !Entry2(mem, at).Valid? ==> w.vendor == vendor && w.visited == []
  {
    match Entry2(mem, at)
    case Invalid => Walk(vendor, [], Rejected)
    case Unreadable => Walk(vendor, [], BeyondMemory)
    case Valid(e) => TableWalk(rule, mem, e.base + e.len, e.base, e.count, vendor)
  }

  /** The 64-bit entry point at `at` (section 5.2.2 of DSP0134): the
      `"_SM3_"` anchor, the checksum over the entry's length (byte 0x06), the
      table's maximum size (0x0c, 32 bits) and address (0x10, 64 bits). It has
      no structure count. */
  function Entry3(mem: Memory, at: nat): EntryRead
  {
    if at + 5 > |mem| then Unreadable
    else if mem[at..at + 5] != AnchorSm3 then Invalid
    else if at + 7 > |mem| then Unreadable
    else
      var n := mem[at + 6];
      if at + n > |mem| then Unreadable
      else if Checksum(mem[at..at + n]) != 0 then Invalid
      else if at + 0x18 > |mem| then Unreadable
      else Valid(Entry(Field(mem, at + 0x10, 8), Field(mem, at + 0x0c, 4), 0))
  }

  // ---------------------------------------------------------------------
  // The probes

  /** The paragraphs from `off` on that `dmi_probe` decodes. */
  predicate Decodable(mem: Memory, off: nat)
    requires |mem| >= LegacyBase + LegacySize
  {
    off % Paragraph == 0 && off <= LastDecoded
    && mem[LegacyBase + off..LegacyBase + off + 4] == AnchorSm
  }

  /** `dmi_probe`'s scan from paragraph offset `off` of the legacy BIOS
      area: every `"_SM_"` anchor at an offset up to 0xffe0 is decoded in
      turn, and one in the last paragraph is passed over. */
  function Probe(rule: Rule, mem: Memory, off: nat, vendor: seq<Byte>): seq<Byte>
    requires |mem| >= LegacyBase + LegacySize
    decreases LegacySize - off
  {
    if off > LastSearched then vendor
    else
      var at := LegacyBase + off;
      var v := if mem[at..at + 4] == AnchorSm && off <= LastDecoded then SmbiosDecode(rule, mem, at, vendor).vendor else vendor;
      Probe(rule, mem, off + Paragraph, v)
  }

  /** `dmi_probe`, as written. The legacy BIOS area must be memory. */
  function DmiProbe(mem: Memory, vendor: seq<Byte>): seq<Byte>
    requires |mem| >= LegacyBase + LegacySize
  {
    Probe(AsWritten, mem, 0, vendor)
  }

  /** With no decodable anchor from `off` on, the scan keeps the vendor. */
  lemma {:induction false} ProbeFindsNothing(rule: Rule, mem: Memory, off: nat, vendor: seq<Byte>)
    requires |mem| >= LegacyBase + LegacySize && off % Paragraph == 0
    requires forall o :: off <= o <= LastSearched ==> !Decodable(mem, o)
    ensures Probe(rule, mem, off, vendor) == vendor
    decreases LegacySize - off
  {
    if off <= LastSearched {
      assert !Decodable(mem, off);
      ProbeFindsNothing(rule, mem, off + Paragraph, vendor);
    }
  }

  /** With exactly one decodable anchor from `off` on, the vendor is the one
      its table gives. */
  lemma {:induction false} ProbeFindsOne(rule: Rule, mem: Memory, off: nat, vendor: seq<Byte>, o: nat)
    requires |mem| >= LegacyBase + LegacySize && off % Paragraph == 0 && off <= o
    requires Decodable(mem, o)
    requires forall o' :: off <= o' <= LastSearched && o' != o ==> !Decodable(mem, o')
    ensures Probe(rule, mem, off, vendor) == SmbiosDecode(rule, mem, LegacyBase + o, vendor).vendor
    decreases LegacySize - off
  {
    if off == o {
      ProbeFindsNothing(rule, mem, off + Paragraph, SmbiosDecode(rule, mem, LegacyBase + o, vendor).vendor);
    } else {
      assert !Decodable(mem, off);
      ProbeFindsOne(rule, mem, off + Paragraph, vendor, o);
    }
  }

  /** `dmi_probe_uefi` under a rule, given the configuration tables the
      firmware lists for SMBIOS 3 and SMBIOS 2 (their addresses, or none): a
      valid SMBIOS 3 entry point is used alone; otherwise a 2.x entry point
      with the `"_SM_"` anchor is decoded. */
  function ProbeUefiBy(rule: Rule, mem: Memory, smbios3: Option<nat>, smbios: Option<nat>, vendor: seq<Byte>): (w: Walk)
  {
    match (if smbios3.Some? then Entry3(mem, smbios3.value) else Invalid)
    case Valid(e) => Table3Walk(rule, mem, e.base + e.len, e.base, vendor)
    case Unreadable => Walk(vendor, [], BeyondMemory)
    case Invalid =>
      if smbios.None? then Walk(vendor, [], Rejected)
      else if smbios.value + 4 > |mem| then Walk(vendor, [], BeyondMemory)
      else if mem[smbios.value..smbios.value + 4] != AnchorSm then Walk(vendor, [], Rejected)
      else SmbiosDecode(rule, mem, smbios.value, vendor)
  }

  /** `dmi_probe_uefi`, as written. */
  function ProbeUefi(mem: Memory, smbios3: Option<nat>, smbios: Option<nat>, vendor: seq<Byte>): (w: Walk)
  {
    ProbeUefiBy(AsWritten, mem, smbios3, smbios, vendor)
  }

  /** A valid SMBIOS 3 entry point wins: the 2.x table is never looked at.
      Without one, a 2.x entry point is decoded as `dmi_probe` would. */
  lemma ProbeUefiPrefers3(rule: Rule, mem: Memory, at3: nat, smbios: Option<nat>, other: Option<nat>, vendor: seq<Byte>)
    ensures Entry3(mem, at3).Valid? ==>
      ProbeUefiBy(rule, mem, Some(at3), smbios, vendor) == ProbeUefiBy(rule, mem, Some(at3), other, vendor)
    ensures (Entry3(mem, at3).Invalid? && smbios.Some? && smbios.value + 4 <= |mem|
      && mem[smbios.value..smbios.value + 4] == AnchorSm) ==>
      ProbeUefiBy(rule, mem, Some(at3), smbios, vendor) == SmbiosDecode(rule, mem, smbios.value, vendor)
  {
  }
}

=== FILE: dmi_build.dfy ===
/** Entry points built for a given table, and the proof that the reader
    takes them back apart: the checksum byte is chosen to balance the rest,
    and every field reads back as written. */
module DmiBuild {
  import opened Octets
  import opened Dmi

  // ---------------------------------------------------------------------
  // Building entry points

  /** The byte that brings a running sum `c` to a multiple of 256. */
  function Balance(c: nat): (b: Byte)
    ensures (c + b) % 256 == 0
  {
    var r := c % 256;
    BalanceMod(c, r);
    if r == 0 then 0 else 256 - r
  }

  lemma BalanceMod(c: nat, r: nat)
    requires r == c % 256
    ensures r == 0 ==> c % 256 == 0
    ensures r != 0 ==> 0 < 256 - r < 256 && (c + (256 - r)) % 256 == 0
  {
    var q := c / 256;
    assert c == q * 256 + r;
    assert c + (256 - r) == (q + 1) * 256;
  }

  /** A balance byte placed between two runs makes the checksum zero. */
  lemma BalancedChecksum(a: seq<Byte>, x: Byte, b: seq<Byte>)
    requires x == Balance(Checksum(a) + Checksum(b))
    ensures Checksum(a + [x] + b) == 0
  {
    BalanceSum(Checksum(a), Checksum(b), x);
    ChecksumAround(a, x, b);
  }

  lemma ChecksumAround(a: seq<Byte>, x: Byte, b: seq<Byte>)
    ensures Checksum(a + [x] + b) == ((Checksum(a) + x) % 256 + Checksum(b)) % 256
  {
    ChecksumAppend(a, [x]);
    ChecksumSingle(x);
    ChecksumAppend(a + [x], b);
  }

  lemma ChecksumSingle(x: Byte)
    ensures Checksum([x]) == x
  {
    assert [x][1..] == [];
  }

  lemma BalanceSum(ca: nat, cb: nat, x: Byte)
    requires cb < 256 && x == Balance(ca + cb)
    ensures ((ca + x) % 256 + cb) % 256 == 0
  {
    ModStep(ca + x, cb);
  }

  /** A field written little-endian reads back. */
  lemma FieldReads(mem: Memory, at: nat, n: nat, v: nat)
    requires at + n <= |mem| && mem[at..at + n] == LittleEndian(v, n) && v < Pow256(n)
    ensures Field(mem, at, n) == v
  {
    LittleEndianRoundTrip(v, n);
  }

  /** The body of a 32-bit entry point after its checksum byte: entry length
      0x1f, version 2.8, then the intermediate anchor, the table's length,
      address and count, and the BCD revision. Nothing reads the
      intermediate checksum, which is left zero. */
  function Entry2Body(base: nat, len: nat, count: nat): (b: seq<Byte>)
    ensures |b| == 0x1a
  {
    [0x1f, 2, 8, 0, 0, 0, 0, 0, 0, 0, 0] + AnchorDmi + [0]
      + LittleEndian(len, 2) + LittleEndian(base, 4) + LittleEndian(count, 2) + [0x28]
  }

  /** A 32-bit entry point (section 5.2.1 of DSP0134) for a table of `len`
      bytes at `base` holding `count` structures. */
  function EntryPoint2(base: nat, len: nat, count: nat): (e: seq<Byte>)
    ensures |e| == 0x1f
  {
    var body := Entry2Body(base, len, count);
    AnchorSm + [Balance(Checksum(AnchorSm) + Checksum(body))] + body
  }

  /** An entry point built for a table is read back as that table, and
      `dmi_probe` looks at it: it carries the `"_SM_"` anchor. */
  lemma Entry2RoundTrip(mem: Memory, at: nat, base: nat, len: nat, count: nat)
    requires base < 0x1_0000_0000 && len < 0x1_0000 && count < 0x1_0000
    requires at + 0x1f <= |mem| && mem[at..at + 0x1f] == EntryPoint2(base, len, count)
    ensures mem[at..at + 4] == AnchorSm
    ensures Entry2(mem, at) == Valid(Entry(base, len, count))
  {
    var e := EntryPoint2(base, len, count);
    Entry2Layout(base, len, count);
    Within(mem, at, e, 0, 4);
    Within(mem, at, e, 0, 0x1f);
    Within(mem, at, e, 0x10, 0x15);
    Within(mem, at, e, 0x16, 0x18);
    Within(mem, at, e, 0x18, 0x1c);
    Within(mem, at, e, 0x1c, 0x1e);
    assert mem[at + 5] == e[5];
    Pow256Values();
    FieldReads(mem, at + 0x16, 2, len);
    FieldReads(mem, at + 0x18, 4, base);
    FieldReads(mem, at + 0x1c, 2, count);
  }

  /** Where each field of a built 32-bit entry point sits. */
  lemma Entry2Layout(base: nat, len: nat, count: nat)
    ensures var e := EntryPoint2(base, len, count);
      e[..4] == AnchorSm && e[5] == 0x1f && Checksum(e) == 0
      && e[0x10..0x15] == AnchorDmi && e[0x16..0x18] == LittleEndian(len, 2)
      && e[0x18..0x1c] == LittleEndian(base, 4) && e[0x1c..0x1e] == LittleEndian(count, 2)
  {
    var body := Entry2Body(base, len, count);
    var e := EntryPoint2(base, len, count);
    BalancedChecksum(AnchorSm, e[4], body);
    assert e[5..] == body;
    assert e[0x10..0x15] == body[11..16];
    assert e[0x16..0x18] == body[17..19];
    assert e[0x18..0x1c] == body[19..23];
    assert e[0x1c..0x1e] == body[23..25];
  }

  /** The body of a 64-bit entry point after its checksum byte: entry length
      0x18, version 3.0, entry revision 1, then the table's maximum size and
      address. */
  function Entry3Body(base: nat, len: nat): (b: seq<Byte>)
    ensures |b| == 0x12
  {
    [0x18, 3, 0, 0, 1, 0] + LittleEndian(len, 4) + LittleEndian(base, 8)
  }

  /** A 64-bit entry point (section 5.2.2 of DSP0134) for a table of at most
      `len` bytes at `base`. */
  function EntryPoint3(base: nat, len: nat): (e: seq<Byte>)
    ensures |e| == 0x18
  {
    var body := Entry3Body(base, len);
    AnchorSm3 + [Balance(Checksum(AnchorSm3) + Checksum(body))] + body
  }

  /** An entry point built for a table is read back as that table. */
  lemma Entry3RoundTrip(mem: Memory, at: nat, base: nat, len: nat)
    requires base < TwoTo64 && len < 0x1_0000_0000
    requires at + 0x18 <= |mem| && mem[at..at + 0x18] == EntryPoint3(base, len)
    ensures Entry3(mem, at) == Valid(Entry(base, len, 0))
  {
    var e := EntryPoint3(base, len);
    Entry3Layout(base, len);
    Within(mem, at, e, 0, 5);
    Within(mem, at, e, 0, 0x18);
    Within(mem, at, e, 0x0c, 0x10);
    Within(mem, at, e, 0x10, 0x18);
    assert mem[at + 6] == e[6];
    Pow256Values();
    FieldReads(mem, at + 0x0c, 4, len);
    FieldReads(mem, at + 0x10, 8, base);
  }

  /** Where each field of a built 64-bit entry point sits. */
  lemma Entry3Layout(base: nat, len: nat)
    ensures var e := EntryPoint3(base, len);
      e[..5] == AnchorSm3 && e[6] == 0x18 && Checksum(e) == 0
      && e[0x0c..0x10] == LittleEndian(len, 4) && e[0x10..0x18] == LittleEndian(base, 8)
  {
    var body := Entry3Body(base, len);
    var e := EntryPoint3(base, len);
    BalancedChecksum(AnchorSm3, e[5], body);
    assert e[6..] == body;
    assert e[0x0c..0x10] == body[6..10];
    assert e[0x10..0x18] == body[10..18];
  }
}

=== FILE: fix_makefile.dfy ===
/** The one-shot Makefile repair script: the text is split on `'\n'`, every
    line that starts with exactly eight spaces has them replaced by one tab,
    and the lines are joined back with `'\n'`. Reading and writing the file
    are left to the caller. */
module FixMakefile {
  import opened PyText

  const EightSpaces: string := "        "

  /** The line starts with eight spaces and not with nine. */
  predicate EightIndented(line: string)
  {
    StartsWith(line, EightSpaces) && !StartsWith(line, EightSpaces + " ")
  }

  function FixLine(line: string): (r: string)
  {
    if EightIndented(line) then "\t" + line[8..] else line
  }

  /** A changed line is the original with its leading tab widened back to
      eight spaces, and no line of the result is still eight-space indented;
      no newline is introduced. */
  lemma FixLineInverse(line: string)
    ensures FixLine(line) != line ==> EightSpaces + FixLine(line)[1..] == line
    ensures !EightIndented(FixLine(line))
    ensures Has(FixLine(line), '\n') ==> Has(line, '\n')
  {
    if EightIndented(line) {
      assert line == EightSpaces + line[8..];
      assert FixLine(line)[0] == '\t';
      if Has(FixLine(line), '\n') {
        var k :| 0 <= k < |FixLine(line)| && FixLine(line)[k] == '\n';
        assert line[k + 7] == '\n';
      }
    }
  }

  /** Fixing a line twice is fixing it once. */
  lemma FixLineIdempotent(line: string)
    ensures FixLine(FixLine(line)) == FixLine(line)
  {
    FixLineInverse(line);
  }

  function FixLines(lines: seq<string>): (fixed: seq<string>)
    ensures |fixed| == |lines|
    ensures forall i :: 0 <= i < |lines| ==> fixed[i] == FixLine(lines[i])
  {
    if |lines| == 0 then [] else [FixLine(lines[0])] + FixLines(lines[1..])
  }

  /** The whole script on the file's text. */
  function FixText(content: string): (r: string)
  {
    Join(FixLines(Split(content, '\n')), '\n')
  }

  lemma FixedLinesAreLines(lines: seq<string>)
    requires forall l :: l in lines ==> !Has(l, '\n')
    ensures forall l :: l in FixLines(lines) ==> !Has(l, '\n')
  {
    forall l | l in FixLines(lines) ensures !Has(l, '\n') {
      var i :| 0 <= i < |lines| && FixLines(lines)[i] == l;
      assert lines[i] in lines;
      FixLineInverse(lines[i]);
    }
  }

  /** The script keeps the number of lines, and line `i` of the result is
      line `i` of the input, fixed. */
  lemma FixTextLines(content: string)
    ensures |Split(FixText(content), '\n')| == |Split(content, '\n')|
    ensures forall i :: 0 <= i < |Split(content, '\n')| ==>
      Split(FixText(content), '\n')[i] == FixLine(Split(content, '\n')[i])
  {
    var lines := Split(content, '\n');
    FixedLinesAreLines(lines);
    SplitJoin(FixLines(lines), '\n');
  }

  /** Running the script on its own output changes nothing. */
  lemma FixTextIdempotent(content: string)
    ensures FixText(FixText(content)) == FixText(content)
  {
    var lines := Split(content, '\n');
    FixedLinesAreLines(lines);
    SplitJoin(FixLines(lines), '\n');
    forall i | 0 <= i < |lines| ensures FixLines(FixLines(lines))[i] == FixLines(lines)[i] {
      FixLineIdempotent(lines[i]);
    }
    assert FixLines(FixLines(lines)) == FixLines(lines);
  }
}

=== FILE: fix_makefile_indentation.dfy ===
/** The recipe-aware Makefile repair script. It walks the lines of the file
    (as `readlines` gives them, newline included) carrying one flag,
    `in_recipe`: a line that looks like a rule header sets it, and a
    non-blank line that starts with neither a tab, a space nor `#` clears
    it. Lines indented by exactly eight spaces become tab-led everywhere;
    lines indented by exactly four spaces only inside a recipe. */
module FixMakefileIndentation {
  import opened PyText

  /** The line starts with exactly `n` spaces (and not `n + 1`). */
  predicate IndentedBy(line: string, n: nat)
  {
    |line| >= n && (forall k :: 0 <= k < n ==> line[k] == ' ') && !(|line| > n && line[n] == ' ')
  }

  /** The conditional directives the header test excludes, by prefix of the
      stripped line. */
  predicate Directive(line: string)
  {
    var t := Strip(line);
    StartsWith(t, "ifeq") || StartsWith(t, "ifneq") || StartsWith(t, "ifdef")
    || StartsWith(t, "ifndef") || StartsWith(t, "else") || StartsWith(t, "endif")
  }

  /** The rule-header test: a non-blank line that is not a comment, not
      tab-led and not a directive, holding a `:` and either ending with one
      or having no `=` before its first one. */
  predicate TargetLike(line: string)
  {
    Strip(line) != "" && !StartsWith(line, "#") && !StartsWith(line, "\t") && Has(line, ':')
    && !Directive(line)
    && (EndsWith(RStrip(line), ":") || !Has(Before(line, ':'), '='))
  }

  /** A line that ends a recipe when it is not a header: not blank, and
      led by none of tab, space or `#`. */
  predicate EndsRecipe(line: string)
  {
    Strip(line) != "" && !StartsWith(line, "\t") && !StartsWith(line, " ") && !StartsWith(line, "#")
  }

  /** What a line does to `in_recipe`. */
  datatype Role = Header | Closer | Plain

  function RoleOf(line: string): Role
  {
    if TargetLike(line) then Header else if EndsRecipe(line) then Closer else Plain
  }

  function Roles(lines: seq<string>): (rs: seq<Role>)
    ensures |rs| == |lines| && forall i :: 0 <= i < |lines| ==> rs[i] == RoleOf(lines[i])
  {
    seq(|lines|, i requires 0 <= i < |lines| => RoleOf(lines[i]))
  }

  /** `in_recipe` after one more line. */
  function Next(inRecipe: bool, role: Role): bool
  {
    match role
    case Header => true
    case Closer => false
    case Plain => inRecipe
  }

  /** The flag as the loop holds it before line `i`. */
  function State(roles: seq<Role>, i: nat): bool
    requires i <= |roles|
  {
    if i == 0 then false else Next(State(roles, i - 1), roles[i - 1])
  }

  /** The flag described without the loop: some header precedes line `i`
      and no line between them ends the recipe. */
  predicate InRecipe(roles: seq<Role>, i: nat)
    requires i <= |roles|
  {
    exists j :: 0 <= j < i && roles[j] == Header && forall k :: j < k < i ==> roles[k] != Closer
  }

  /** The loop's flag is the declarative one. */
  lemma {:induction false} StateMeaning(roles: seq<Role>, i: nat)
    requires i <= |roles|
    ensures State(roles, i) <==> InRecipe(roles, i)
  {
    if i > 0 {
      StateMeaning(roles, i - 1);
      match roles[i - 1]
      case Header =>
      case Closer =>
        if InRecipe(roles, i) {
          var j :| 0 <= j < i && roles[j] == Header && forall k :: j < k < i ==> roles[k] != Closer;
        }
      case Plain =>
        if InRecipe(roles, i) {
          var j :| 0 <= j < i && roles[j] == Header && forall k :: j < k < i ==> roles[k] != Closer;
          assert j != i - 1;
          assert InRecipe(roles, i - 1);
        }
        if InRecipe(roles, i - 1) {
          var j :| 0 <= j < i - 1 && roles[j] == Header && forall k :: j < k < i - 1 ==> roles[k] != Closer;
          assert forall k :: j < k < i ==> roles[k] != Closer;
        }
    }
  }

  /** One line of output, given the flag before the line. A line indented by
      four spaces never changes the flag, so the flag it is tested against is
      the incoming one. */
  function FixLine(line: string, inRecipe: bool): string
  {
    if RoleOf(line) == Header then line
    else if IndentedBy(line, 8) then "\t" + line[8..]
    else if IndentedBy(line, 4) && inRecipe then "\t" + line[4..]
    else line
  }

  /** The script's output described line by line, each line fixed against
      the declarative flag. */
  function FixAll(lines: seq<string>): seq<string>
  {
    var roles := Roles(lines);
    seq(|lines|, i requires 0 <= i < |lines| => FixLine(lines[i], InRecipe(roles, i)))
  }

  /** The script's loop over the lines (`readlines` in, `writelines` out):
      `RoleOf` is its header test followed by its recipe-end test, and
      `FixLine` its conversion. A four-space line never ends a recipe, so
      converting it against the incoming flag is converting it against the
      updated one, as the script does. */
  method FixIndentation(lines: seq<string>) returns (fixed: seq<string>)
    ensures fixed == FixAll(lines)
  {
    fixed := Walk(lines, RoleOf, FixLine);
    LoopIsFixAll(lines, fixed);
  }

  /** The loop itself, for any classification and conversion of lines. */
  method Walk<L>(lines: seq<L>, role: L -> Role, fix: (L, bool) -> L) returns (out: seq<L>)
    ensures |out| == |lines|
    ensures forall k :: 0 <= k < |lines| ==> out[k] == fix(lines[k], State(RolesBy(lines, role), k))
  {
    ghost var roles := RolesBy(lines, role);
    out := [];
    var inRecipe := false;
    var i := 0;
    while i < |lines|
      invariant i <= |lines| && |out| == i
      invariant inRecipe == State(roles, i)
      invariant forall k {:trigger out[k]} :: 0 <= k < i ==> out[k] == fix(lines[k], State(roles, k))
    {
      var line := fix(lines[i], inRecipe);
      assert State(roles, i + 1) == Next(State(roles, i), role(lines[i]));
      out := out + [line];
      inRecipe := Next(inRecipe, role(lines[i]));
      i := i + 1;
    }
  }

  function RolesBy<L>(lines: seq<L>, role: L -> Role): (rs: seq<Role>)
    ensures |rs| == |lines| && forall i :: 0 <= i < |lines| ==> rs[i] == role(lines[i])
  {
    seq(|lines|, i requires 0 <= i < |lines| => role(lines[i]))
  }

  lemma LoopIsFixAll(lines: seq<string>, fixed: seq<string>)
    requires |fixed| == |lines|
    requires forall k :: 0 <= k < |lines| ==> fixed[k] == FixLine(lines[k], State(RolesBy(lines, RoleOf), k))
    ensures fixed == FixAll(lines)
  {
    assert RolesBy(lines, RoleOf) == Roles(lines);
    forall k | 0 <= k < |lines| ensures State(Roles(lines), k) == InRecipe(Roles(lines), k) {
      StateMeaning(Roles(lines), k);
    }
  }

  /** What happens to each line: lines indented by neither four nor eight
      spaces pass through; non-header eight-space lines become tab-led;
      non-header four-space lines become tab-led exactly inside a recipe. */
  lemma LineFate(line: string, inRecipe: bool)
    ensures !IndentedBy(line, 8) && !IndentedBy(line, 4) ==> FixLine(line, inRecipe) == line
    ensures !TargetLike(line) && IndentedBy(line, 8) ==> FixLine(line, inRecipe) == "\t" + line[8..]
    ensures !TargetLike(line) && IndentedBy(line, 4) ==>
      (FixLine(line, inRecipe) != line <==> inRecipe)
  {
    if !TargetLike(line) && IndentedBy(line, 4) && inRecipe {
      assert line[0] == ' ';
    }
  }

  /** A changed line is a tab-led non-header that was space-led: both play
      no part in the flag, and the result is no longer space-indented. */
  lemma FixedLineRole(line: string, inRecipe: bool)
    ensures FixLine(line, inRecipe) != line ==>
      RoleOf(line) == Plain && RoleOf(FixLine(line, inRecipe)) == Plain
      && !IndentedBy(FixLine(line, inRecipe), 4) && !IndentedBy(FixLine(line, inRecipe), 8)
  {
    var r := FixLine(line, inRecipe);
    if r != line {
      assert StartsWith(r, "\t") by { assert r[0] == '\t'; }
      assert StartsWith(line, " ") by { assert line[0] == ' '; }
    }
  }

  /** The fixed lines play the same roles as the originals. */
  lemma SameRoles(lines: seq<string>)
    ensures Roles(FixAll(lines)) == Roles(lines)
  {
    var fixed := FixAll(lines);
    forall k | 0 <= k < |lines| ensures RoleOf(fixed[k]) == RoleOf(lines[k]) {
      FixedLineRole(lines[k], InRecipe(Roles(lines), k));
    }
  }

  /** Running the script on its own output changes nothing. */
  lemma FixIdempotent(lines: seq<string>)
    ensures FixAll(FixAll(lines)) == FixAll(lines)
  {
    var fixed := FixAll(lines);
    SameRoles(lines);
    forall i | 0 <= i < |fixed| ensures FixLine(fixed[i], InRecipe(Roles(fixed), i)) == fixed[i] {
      FixedLineRole(lines[i], InRecipe(Roles(lines), i));
    }
  }

  const EightSpaces: string := "        "

  /** A recipe line indented by eight spaces whose text holds a `:` with no
      `=` before it (an `echo` of a message with a colon, a `cp` to a path
      with a colon) passes the header test, unless the text starts like a
      directive. */
  lemma ColonRecipeLineIsHeader(body: string)
    requires |body| > 0 && !IsSpace(body[0]) && body[0] != 'i' && body[0] != 'e' && body[0] != '#'
    requires Has(body, ':') && !Has(Before(body, ':'), '=')
    ensures TargetLike(EightSpaces + body)
  {
    var l := EightSpaces + body;
    HeaderText(l, body);
    HeaderColon(l, body);
    assert l[0] == ' ';
  }

  lemma HeaderText(l: string, body: string)
    requires l == EightSpaces + body && |body| > 0 && !IsSpace(body[0]) && body[0] != 'i' && body[0] != 'e'
    ensures Strip(l) != "" && !Directive(l)
  {
    StripsToBody(l, body);
    NotDirective(l, body[0]);
  }

  lemma HeaderColon(l: string, body: string)
    requires l == EightSpaces + body && Has(body, ':') && !Has(Before(body, ':'), '=')
    ensures Has(l, ':') && !Has(Before(l, ':'), '=')
  {
    BeforeAfterIndent(l, body);
    HasAppend(EightSpaces, Before(body, ':'), '=');
  }

  lemma StripsToBody(l: string, body: string)
    requires l == EightSpaces + body && |body| > 0 && !IsSpace(body[0])
    ensures |Strip(l)| > 0 && Strip(l)[0] == body[0]
  {
    var r := RStrip(l);
    RStripLonger(l, 8);
    LStripSkips(r, 8);
  }

  lemma NotDirective(l: string, c: char)
    requires |Strip(l)| > 0 && Strip(l)[0] == c && c != 'i' && c != 'e'
    ensures !Directive(l)
  {
  }

  lemma BeforeAfterIndent(l: string, body: string)
    requires l == EightSpaces + body && Has(body, ':')
    ensures Has(l, ':') && Before(l, ':') == EightSpaces + Before(body, ':')
  {
    var j := Find(body, ':');
    assert l[8 + j] == ':';
    FindAt(l, ':', 8 + j);
  }

  /** So such a line keeps its spaces, whatever the flag: for instance
      `        a:b` after the header `all:`. */
  lemma ColonRecipeLineKept(body: string, inRecipe: bool)
    requires |body| > 0 && !IsSpace(body[0]) && body[0] != 'i' && body[0] != 'e' && body[0] != '#'
    requires Has(body, ':') && !Has(Before(body, ':'), '=')
    ensures IndentedBy(EightSpaces + body, 8)
    ensures FixLine(EightSpaces + body, inRecipe) == EightSpaces + body
    ensures FixAll(["all:", EightSpaces + body])[1] == EightSpaces + body
  {
    ColonRecipeLineIsHeader(body);
  }

  /** The header test as evidently intended: rule headers are not indented. */
  predicate TargetLikeIntended(line: string)
  {
    TargetLike(line) && !StartsWith(line, " ")
  }

  function FixLineIntended(line: string, inRecipe: bool): (r: string)
  {
    if TargetLikeIntended(line) then line
    else if IndentedBy(line, 8) then "\t" + line[8..]
    else if IndentedBy(line, 4) && inRecipe then "\t" + line[4..]
    else line
  }

  /** With the intended header test every line indented by exactly eight
      spaces becomes tab-led, whatever the flag, and headers still pass
      through. */
  lemma IntendedConvertsEight(line: string, inRecipe: bool)
    ensures IndentedBy(line, 8) ==> FixLineIntended(line, inRecipe) == "\t" + line[8..]
    ensures TargetLike(line) && !StartsWith(line, " ") ==> FixLineIntended(line, inRecipe) == line
  {
    if IndentedBy(line, 8) {
      assert StartsWith(line, " ") by { assert line[0] == ' '; }
    }
  }
}

=== FILE: gdb_arch.dfy ===
/** The architecture back ends of the GDB stub (`gdb_arch.cc`): the register
    tables of x86-64 and AArch64, single-register access within a thread's
    register image, software breakpoints, and single stepping.

    The source's `get_thread_registers` is a placeholder that zero-fills the
    image and `set_thread_registers` discards it; here the image is an
    explicit byte sequence laid out as `x64_registers` / `aarch64_registers`,
    so that what the register operations do to it can be stated. */
module GdbArch {
  import opened Wrappers
  import opened Octets

  /** One row of `get_register_info`: name, width in bytes, and offset in the
      register image. */
  datatype RegisterInfo = RegisterInfo(name: string, size: nat, offset: nat)

  /** Every register lies inside the image, and the rows are in increasing,
      non-overlapping order. */
  predicate Layout(table: seq<RegisterInfo>, imageSize: nat)
  {
    (forall i :: 0 <= i < |table| ==> 0 < table[i].size && table[i].offset + table[i].size <= imageSize)
    && (forall i, j :: 0 <= i < j < |table| ==> table[i].offset + table[i].size <= table[j].offset)
  }

  // ---------------------------------------------------------------------
  // x86-64

  const X64Names: seq<string> := ["rax", "rbx", "rcx", "rdx", "rsi", "rdi", "rbp", "rsp",
                                  "r8", "r9", "r10", "r11", "r12", "r13", "r14", "r15",
                                  "rip", "eflags", "cs", "ss", "ds", "es", "fs", "gs"]

  /** `sizeof(x64_registers)`: eighteen 64-bit fields (`rax` … `rip`,
      `eflags`) and six 32-bit segment registers. */
  const X64ImageSize: nat := 168

  /** `offsetof` each field of `x64_registers`. */
  function X64Offset(i: nat): nat
  {
    if i < 18 then 8 * i else 144 + 4 * (i - 18)
  }

  /** `x64_arch_interface::get_register_info`: the sixteen general
      registers and `rip` are 8 bytes wide; `eflags` (although an 8-byte
      field) and the six segment registers are described as 4 bytes. */
  function X64RegisterInfo(): (table: seq<RegisterInfo>)
    ensures |table| == 24
    ensures forall i :: 0 <= i < 17 ==> table[i].size == 8
    ensures forall i :: 17 <= i < 24 ==> table[i].size == 4
    ensures table[16].name == "rip" && table[17].name == "eflags" && table[17].offset == EflagsOffset
    ensures Layout(table, X64ImageSize)
  {
    seq(24, i requires 0 <= i < 24 => RegisterInfo(X64Names[i], if i < 17 then 8 else 4, X64Offset(i)))
  }

  // ---------------------------------------------------------------------
  // AArch64

  const Aarch64Names: seq<string> := ["x0", "x1", "x2", "x3", "x4", "x5", "x6", "x7", "x8", "x9",
                                      "x10", "x11", "x12", "x13", "x14", "x15", "x16", "x17", "x18",
                                      "x19", "x20", "x21", "x22", "x23", "x24", "x25", "x26", "x27",
                                      "x28", "x29", "x30", "sp", "pc", "cpsr"]

  /** `sizeof(aarch64_registers)`: `x[31]`, `sp`, `pc` and a 32-bit `cpsr`,
      padded to a multiple of 8. */
  const Aarch64ImageSize: nat := 272

  /** `aarch64_arch_interface::get_register_info`: `x0`-`x30`, `sp` and `pc`
      are 8 bytes wide and consecutive; `cpsr` is 4 bytes. */
  function Aarch64RegisterInfo(): (table: seq<RegisterInfo>)
    ensures |table| == 34
    ensures forall i :: 0 <= i < 33 ==> table[i].size == 8 && table[i].offset == 8 * i
    ensures table[33].name == "cpsr" && table[33].size == 4
    ensures Layout(table, Aarch64ImageSize)
  {
    seq(34, i requires 0 <= i < 34 => RegisterInfo(Aarch64Names[i], if i < 33 then 8 else 4, 8 * i))
  }

  // ---------------------------------------------------------------------
  // Whole and single register access

  /** `write_registers`: the data replaces the image only when it is
      exactly the image's size. */
  function WriteRegisters(imageSize: nat, data: seq<Byte>): (r: Option<seq<Byte>>)
    ensures r.Some? <==> |data| == imageSize
    ensures r.Some? ==> r.value == data
  {
    if |data| != imageSize then None else Some(data)
  }

  /** The outcome of a single-register access: refused (`false`), done, or
      past the front of the table, which the source's guard lets through
      and which indexes `reg_info` out of bounds. */
  datatype Access = Refused | Done(bytes: seq<Byte>) | OutOfTable

  /** `read_register` as written: only `reg_num >= size` is refused. */
  function ReadRegister(table: seq<RegisterInfo>, image: seq<Byte>, regNum: int): (r: Access)
    requires Layout(table, |image|)
    ensures regNum >= |table| ==> r == Refused
    ensures regNum < 0 ==> r == OutOfTable
    ensures 0 <= regNum < |table| ==> r.Done? && |r.bytes| == table[regNum].size
  {
    if regNum >= |table| then Refused
    else if regNum < 0 then OutOfTable
    else
      var reg := table[regNum];
      Done(image[reg.offset..reg.offset + reg.size])
  }

  /** `write_register` as written: refused for `reg_num >= size` or data of
      the wrong width. */
  function WriteRegister(table: seq<RegisterInfo>, image: seq<Byte>, regNum: int, data: seq<Byte>): (r: Access)
    requires Layout(table, |image|)
    ensures regNum >= |table| ==> r == Refused
    ensures regNum < 0 ==> r == OutOfTable
    ensures 0 <= regNum < |table| ==> (r.Done? <==> |data| == table[regNum].size)
    ensures r.Done? ==> |r.bytes| == |image|
  {
    if regNum >= |table| then Refused
    else if regNum < 0 then OutOfTable
    else
      var reg := table[regNum];
      if |data| != reg.size then Refused
      else Done(image[..reg.offset] + data + image[reg.offset + reg.size..])
  }

  /** A negative register number passes the guard of both accessors. */
  lemma NegativeRegisterPassesGuard(image: seq<Byte>)
    requires |image| == X64ImageSize
    ensures ReadRegister(X64RegisterInfo(), image, -1) == OutOfTable
    ensures WriteRegister(X64RegisterInfo(), image, -1, [0, 0, 0, 0, 0, 0, 0, 0]) == OutOfTable
  {
  }

  /** The accessors with the guard evidently intended: any number outside
      the table is refused. */
  function ReadRegisterChecked(table: seq<RegisterInfo>, image: seq<Byte>, regNum: int): (r: Access)
    requires Layout(table, |image|)
    ensures r != OutOfTable
    ensures (regNum < 0 || regNum >= |table|) ==> r == Refused
    ensures 0 <= regNum < |table| ==> r == ReadRegister(table, image, regNum)
  {
    if regNum < 0 then Refused else ReadRegister(table, image, regNum)
  }

  function WriteRegisterChecked(table: seq<RegisterInfo>, image: seq<Byte>, regNum: int, data: seq<Byte>): (r: Access)
    requires Layout(table, |image|)
    ensures r != OutOfTable
    ensures (regNum < 0 || regNum >= |table|) ==> r == Refused
    ensures 0 <= regNum < |table| ==> r == WriteRegister(table, image, regNum, data)
  {
    if regNum < 0 then Refused else WriteRegister(table, image, regNum, data)
  }

  /** A register reads back what was written to it. */
  lemma RegisterRoundTrip(table: seq<RegisterInfo>, image: seq<Byte>, regNum: int, data: seq<Byte>)
    requires Layout(table, |image|)
    requires 0 <= regNum < |table| && |data| == table[regNum].size
    ensures WriteRegisterChecked(table, image, regNum, data).Done?
    ensures ReadRegisterChecked(table, WriteRegisterChecked(table, image, regNum, data).bytes, regNum) == Done(data)
  {
    var reg := table[regNum];
    var after := image[..reg.offset] + data + image[reg.offset + reg.size..];
    assert after[reg.offset..reg.offset + reg.size] == data;
  }

  /** Writing one register leaves every other register as it was. */
  lemma RegisterFrame(table: seq<RegisterInfo>, image: seq<Byte>, regNum: int, data: seq<Byte>, other: int)
    requires Layout(table, |image|)
    requires 0 <= regNum < |table| && |data| == table[regNum].size
    requires other != regNum
    ensures ReadRegisterChecked(table, WriteRegisterChecked(table, image, regNum, data).bytes, other)
         == ReadRegisterChecked(table, image, other)
  {
    if 0 <= other < |table| {
      var reg, o := table[regNum], table[other];
      var after := image[..reg.offset] + data + image[reg.offset + reg.size..];
      assert |after| == |image|;
      if other < regNum {
        assert o.offset + o.size <= reg.offset;
        assert after[o.offset..o.offset + o.size] == image[o.offset..o.offset + o.size];
      } else {
        assert reg.offset + reg.size <= o.offset;
        assert after[o.offset..o.offset + o.size] == image[o.offset..o.offset + o.size];
      }
    }
  }

  // ---------------------------------------------------------------------
  // Single stepping

  const EflagsOffset: nat := 136

  /** The trap flag (bit 8 of `eflags`) as it sits in the image: bit 0 of
      the second byte of the little-endian field. */
  predicate TrapFlag(image: seq<Byte>)
    requires |image| == X64ImageSize
  {
    (FromLittleEndian(image[EflagsOffset..EflagsOffset + 8]) / 256) % 2 == 1
  }

  /** `x64_arch_interface::single_step`: `eflags |= 0x100`. The trap flag
      ends up set, the `eflags` value grows by 0x100 exactly when the flag
      was clear, and no other byte changes. */
  function X64SingleStep(image: seq<Byte>): (r: seq<Byte>)
    requires |image| == X64ImageSize
    ensures |r| == |image| && TrapFlag(r)
    ensures forall i :: 0 <= i < |r| && i != EflagsOffset + 1 ==> r[i] == image[i]
    ensures FromLittleEndian(r[EflagsOffset..EflagsOffset + 8])
         == FromLittleEndian(image[EflagsOffset..EflagsOffset + 8]) + (if TrapFlag(image) then 0 else 0x100)
  {
    SetTrapBit(image);
    SetTrapBitImage(image)
  }

  /** The byte-level step: set bit 0 of the second `eflags` byte. */
  function SetTrapBitImage(image: seq<Byte>): seq<Byte>
    requires |image| == X64ImageSize
  {
    var b := image[EflagsOffset + 1];
    if b % 2 == 1 then image else image[EflagsOffset + 1 := b + 1]
  }

  lemma SetTrapBit(image: seq<Byte>)
    requires |image| == X64ImageSize
    ensures var r := SetTrapBitImage(image);
      |r| == |image| && TrapFlag(r)
      && (forall i :: 0 <= i < |r| && i != EflagsOffset + 1 ==> r[i] == image[i])
      && FromLittleEndian(r[EflagsOffset..EflagsOffset + 8])
         == FromLittleEndian(image[EflagsOffset..EflagsOffset + 8]) + (if TrapFlag(image) then 0 else 0x100)
  {
    var b := image[EflagsOffset + 1];
    var r := SetTrapBitImage(image);
    SecondByte(image[EflagsOffset..EflagsOffset + 8]);
    if b % 2 == 0 {
      assert r[EflagsOffset..EflagsOffset + 8] == image[EflagsOffset..EflagsOffset + 8][1 := b + 1];
      SecondByte(r[EflagsOffset..EflagsOffset + 8]);
      BumpSecondByte(image[EflagsOffset..EflagsOffset + 8]);
    }
  }

  /** The second byte's low bit is bit 8 of the little-endian value. */
  lemma SecondByte(bs: seq<Byte>)
    requires |bs| >= 2
    ensures (FromLittleEndian(bs) / 256) % 2 == bs[1] % 2
  {
    var rest := FromLittleEndian(bs[2..]);
    assert bs[1..][1..] == bs[2..];
    assert FromLittleEndian(bs) == bs[0] + 256 * (bs[1] + 256 * rest);
    assert FromLittleEndian(bs) / 256 == bs[1] + 256 * rest;
    assert (bs[1] + 256 * rest) % 2 == bs[1] % 2 by {
      assert bs[1] + 256 * rest == bs[1] + 2 * (128 * rest);
    }
  }

  /** Adding one to the second byte adds 256 to the value. */
  lemma BumpSecondByte(bs: seq<Byte>)
    requires |bs| >= 2 && bs[1] < 255
    ensures FromLittleEndian(bs[1 := bs[1] + 1]) == FromLittleEndian(bs) + 256
  {
    var cs := bs[1 := bs[1] + 1];
    assert cs[1..][1..] == bs[1..][1..];
  }

  /** `aarch64_arch_interface::single_step` is not implemented and reports
      failure. */
  function Aarch64SingleStep(image: seq<Byte>): (ok: bool)
  {
    false
  }

  // ---------------------------------------------------------------------
  // Breakpoints

  /** `breakpoint_type::SOFTWARE`. */
  const Software: int := 0

  /** The `breakpoint` record: the type as a number (the source casts the
      digit after `Z`/`z` to the enum), address, length, the saved first
      byte, and whether it is planted. */
  datatype Breakpoint = Breakpoint(kind: int, address: nat, length: nat, original: Byte, enabled: bool)

  /** The result of planting: success, the updated record, and memory. */
  datatype Planted = Planted(ok: bool, bp: Breakpoint, mem: nat -> Byte)

  const Int3: Byte := 0xCC

  /** `x64_arch_interface::set_breakpoint`: only software breakpoints; the
      byte at the address is saved in the record and replaced by INT3. */
  function X64SetBreakpoint(bp: Breakpoint, mem: nat -> Byte): (r: Planted)
    ensures r.ok <==> bp.kind == Software
    ensures !r.ok ==> r.bp == bp && forall a :: r.mem(a) == mem(a)
    ensures r.ok ==> r.bp == bp.(original := mem(bp.address), enabled := true)
    ensures r.ok ==> X64IsBreakpoint(r.mem, bp.address) && forall a :: a != bp.address ==> r.mem(a) == mem(a)
  {
    if bp.kind != Software then Planted(false, bp, mem)
    else Planted(true, bp.(original := mem(bp.address), enabled := true), Store(mem, bp.address, [Int3]))
  }

  /** `x64_arch_interface::is_breakpoint_instruction`. */
  predicate X64IsBreakpoint(mem: nat -> Byte, addr: nat)
  {
    mem(addr) == Int3
  }

  /** `x64_arch_interface::remove_breakpoint`: only a planted software
      breakpoint is removed, by writing its saved byte back. */
  function X64RemoveBreakpoint(bp: Breakpoint, mem: nat -> Byte): (r: Planted)
    ensures r.ok <==> bp.kind == Software && bp.enabled
    ensures r.bp == bp
    ensures r.ok ==> r.mem(bp.address) == bp.original && forall a :: a != bp.address ==> r.mem(a) == mem(a)
    ensures !r.ok ==> forall a :: r.mem(a) == mem(a)
  {
    if bp.kind != Software || !bp.enabled then Planted(false, bp, mem)
    else Planted(true, bp, Store(mem, bp.address, [bp.original]))
  }

  /** Planting a software breakpoint and removing it again restores memory
      exactly. */
  lemma X64SetThenRemove(bp: Breakpoint, mem: nat -> Byte)
    requires bp.kind == Software
    ensures var planted := X64SetBreakpoint(bp, mem);
      var removed := X64RemoveBreakpoint(planted.bp, planted.mem);
      planted.ok && removed.ok && forall a :: removed.mem(a) == mem(a)
  {
  }

  /** `AARCH64_BREAKPOINT_INSTRUCTION` (BRK #0) as stored, little-endian. */
  const Brk: seq<Byte> := [0x00, 0x00, 0x20, 0xD4]

  /** `aarch64_arch_interface::set_breakpoint`: only software breakpoints;
      the low byte of the instruction word is saved and the word replaced
      by BRK. */
  function Aarch64SetBreakpoint(bp: Breakpoint, mem: nat -> Byte): (r: Planted)
    ensures r.ok <==> bp.kind == Software
    ensures r.ok ==> r.bp == bp.(original := mem(bp.address), enabled := true)
    ensures r.ok ==> ((forall a: nat :: bp.address <= a < bp.address + 4 ==> r.mem(a) == Brk[a - bp.address])
                      && (forall a: nat :: (a < bp.address || a >= bp.address + 4) ==> r.mem(a) == mem(a)))
  {
    if bp.kind != Software then Planted(false, bp, mem)
    else Planted(true, bp.(original := mem(bp.address), enabled := true), Store(mem, bp.address, Brk))
  }

  /** `aarch64_arch_interface::remove_breakpoint`: a planted software
      breakpoint is removed by writing a zero word, not the saved
      instruction. */
  function Aarch64RemoveBreakpoint(bp: Breakpoint, mem: nat -> Byte): (r: Planted)
    ensures r.ok <==> bp.kind == Software && bp.enabled
    ensures r.ok ==> ((forall a: nat :: bp.address <= a < bp.address + 4 ==> r.mem(a) == 0)
                      && (forall a: nat :: (a < bp.address || a >= bp.address + 4) ==> r.mem(a) == mem(a)))
  {
    if bp.kind != Software || !bp.enabled then Planted(false, bp, mem)
    else Planted(true, bp, Store(mem, bp.address, [0, 0, 0, 0]))
  }

  /** On AArch64, planting and removing leaves a zero word where the
      instruction was, and single stepping is refused. */
  lemma Aarch64SetThenRemove(bp: Breakpoint, mem: nat -> Byte, image: seq<Byte>)
    requires bp.kind == Software
    ensures var planted := Aarch64SetBreakpoint(bp, mem);
      var removed := Aarch64RemoveBreakpoint(planted.bp, planted.mem);
      planted.ok && removed.ok
      && (forall a: nat :: bp.address <= a < bp.address + 4 ==> removed.mem(a) == 0)
      && (forall a: nat :: (a < bp.address || a >= bp.address + 4) ==> removed.mem(a) == mem(a))
    ensures !Aarch64SingleStep(image)
  {
  }
}

=== FILE: gdb_protocol.dfy ===
/** The framing layer of the GDB remote serial protocol, as the protocol
    handler implements it: `$data#cs` packets with a two-digit modulo-256
    checksum, the `}` escape that XORs the next byte with 0x20, and the
    `+`/`-` acknowledgements. The transport is a byte stream: what the peer
    sends is an input sequence, and what the handler writes is returned. */
module GdbProtocol {
  import opened Wrappers
  import opened Octets

  const PacketStart: Byte := 0x24  // '$'
  const PacketEnd: Byte := 0x23    // '#'
  const AckByte: Byte := 0x2B      // '+'
  const NackByte: Byte := 0x2D     // '-'
  const Interrupt: Byte := 0x03
  const EscapeMark: Byte := 0x7D   // '}'
  const Star: Byte := 0x2A         // '*'

  /** The four bytes `escape_data` protects. */
  predicate Special(b: Byte)
  {
    b == PacketEnd || b == PacketStart || b == EscapeMark || b == Star
  }

  function EscapeByte(b: Byte): seq<Byte>
  {
    if Special(b) then [EscapeMark, Flip(b)] else [b]
  }

  /** `escape_data`: each special byte becomes `}` and the byte XOR 0x20;
      the result never contains a packet delimiter. */
  function Escape(s: seq<Byte>): (e: seq<Byte>)
    ensures |s| <= |e| <= 2 * |s|
    ensures forall i :: 0 <= i < |e| ==> e[i] != PacketEnd && e[i] != PacketStart
  {
    if |s| == 0 then [] else EscapeByte(s[0]) + Escape(s[1..])
  }

  /** The loop of `unescape_data`, with its `escape_next` flag. */
  function UnescapeFrom(s: seq<Byte>, pending: bool): (u: seq<Byte>)
    ensures |u| <= |s|
  {
    if |s| == 0 then []
    else if pending then [Flip(s[0])] + UnescapeFrom(s[1..], false)
    else if s[0] == EscapeMark then UnescapeFrom(s[1..], true)
    else [s[0]] + UnescapeFrom(s[1..], false)
  }

  /** `unescape_data`. */
  function Unescape(s: seq<Byte>): (u: seq<Byte>)
    ensures |u| <= |s|
  {
    UnescapeFrom(s, false)
  }

  /** Unescaping an escaped string followed by anything yields the original
      string followed by the unescaped remainder. */
  lemma {:induction false} UnescapeAfterEscape(s: seq<Byte>, t: seq<Byte>)
    ensures Unescape(Escape(s) + t) == s + Unescape(t)
  {
    if |s| == 0 {
      assert Escape(s) + t == t;
    } else {
      var rest := Escape(s[1..]) + t;
      assert Escape(s) + t == EscapeByte(s[0]) + rest;
      UnescapeAfterEscape(s[1..], t);
      UnescapeByte(s[0], rest);
    }
  }

  /** One escaped byte unescapes to itself, and the walk goes on unflagged. */
  lemma UnescapeByte(b: Byte, rest: seq<Byte>)
    ensures UnescapeFrom(EscapeByte(b) + rest, false) == [b] + UnescapeFrom(rest, false)
  {
    var e := EscapeByte(b) + rest;
    if Special(b) {
      assert e[1..] == [Flip(b)] + rest;
      assert e[1..][1..] == rest;
      FlipInvolutive(b);
    } else {
      assert e[1..] == rest;
    }
  }

  /** `unescape_data(escape_data(s)) == s`. */
  lemma UnescapeEscape(s: seq<Byte>)
    ensures Unescape(Escape(s)) == s
  {
    UnescapeAfterEscape(s, []);
    assert Escape(s) + [] == Escape(s);
  }

  /** A lone `}` at the end of well-formed data is dropped silently. */
  lemma TrailingEscapeDropped(s: seq<Byte>)
    ensures Unescape(Escape(s) + [EscapeMark]) == s
  {
    UnescapeAfterEscape(s, [EscapeMark]);
    assert [EscapeMark][1..] == [];
  }

  /** `format_packet`: `$`, the data, `#`, and the checksum as two lower-case
      hex digits. */
  function FormatPacket(d: seq<Byte>): (f: seq<Byte>)
    ensures |f| == |d| + 4 && f[0] == PacketStart && f[1..|d| + 1] == d && f[|d| + 1] == PacketEnd
    ensures LowerHex(f[|d| + 2]) && LowerHex(f[|d| + 3])
    ensures HexPair(f[|d| + 2], f[|d| + 3]) == Some(Checksum(d))
  {
    [PacketStart] + d + [PacketEnd] + HexByte(Checksum(d))
  }

  // ---------------------------------------------------------------------
  // Receiving

  /** Where the first loop of `receive_packet` stops: at the first `$` or
      interrupt byte; every other byte, `+` and `-` included, is discarded. */
  function SeekStart(input: seq<Byte>): (k: nat)
    ensures k <= |input|
    ensures forall j :: 0 <= j < k ==> input[j] != PacketStart && input[j] != Interrupt
    ensures k < |input| ==> input[k] == PacketStart || input[k] == Interrupt
  {
    if |input| == 0 || input[0] == PacketStart || input[0] == Interrupt then 0
    else 1 + SeekStart(input[1..])
  }

  /** What one call of `receive_packet` produces: the packet (if it returns
      true), the unread input, the acknowledgement bytes it writes, and
      whether it left by the exception `std::stoul` throws rather than by
      returning. */
  datatype Reception = Reception(packet: Option<seq<Byte>>, rest: seq<Byte>, replies: seq<Byte>, thrown: bool)

  function Acknowledge(ackMode: bool, b: Byte): seq<Byte>
  {
    if ackMode then [b] else []
  }

  /** `receive_packet` over an input stream; a read past the end of the
      stream is the failed read that makes it return false. */
  function Receive(input: seq<Byte>, ackMode: bool): (r: Reception)
    ensures |r.rest| < |input| || (|input| == 0 && r.rest == [])
    ensures r.replies == [] || (ackMode && (r.replies == [AckByte] || r.replies == [NackByte]))
    ensures r.replies == [AckByte] ==> r.packet.Some?
    ensures r.replies == [NackByte] ==> r.packet.None?
    ensures r.thrown ==> r.packet.None? && r.replies == []
  {
    var k := SeekStart(input);
    if k == |input| then Reception(None, [], [], false)
    else if input[k] == Interrupt then Reception(Some([Interrupt]), input[k + 1..], [], false)
    else ReadFrame(input[k + 1..], ackMode)
  }

  /** The rest of `receive_packet` once `$` has been read: the data up to
      `#`, then two checksum characters. */
  function ReadFrame(body: seq<Byte>, ackMode: bool): (r: Reception)
    ensures |r.rest| <= |body|
    ensures r.replies == [] || (ackMode && (r.replies == [AckByte] || r.replies == [NackByte]))
    ensures r.replies == [AckByte] ==> r.packet.Some?
    ensures r.replies == [NackByte] ==> r.packet.None?
    ensures r.thrown ==> r.packet.None? && r.replies == []
  {
    var e := IndexOf(body, PacketEnd);
    if e + 3 > |body| then Reception(None, [], [], false)
    else Verdict(body[..e], body[e + 1], body[e + 2], body[e + 3..], ackMode)
  }

  /** The checksum verdict on received data: a first checksum character that
      is not a hex digit makes `std::stoul` throw; a mismatch is answered
      with `-` and a match with `+` and the unescaped data. */
  function Verdict(data: seq<Byte>, d0: Byte, d1: Byte, rest: seq<Byte>, ackMode: bool): (r: Reception)
    ensures r.rest == rest
    ensures r.packet.Some? <==> HexPair(d0, d1) == Some(Checksum(data))
    ensures r.packet.Some? ==> r.packet.value == Unescape(data) && r.replies == Acknowledge(ackMode, AckByte)
    ensures HexPair(d0, d1).Some? && r.packet.None? ==> r.replies == Acknowledge(ackMode, NackByte)
    ensures HexPair(d0, d1).None? ==> r.replies == []
    ensures r.thrown <==> HexPair(d0, d1).None?
  {
    match HexPair(d0, d1)
    case None => Reception(None, rest, [], true)
    case Some(cs) =>
      if cs != Checksum(data) then Reception(None, rest, Acknowledge(ackMode, NackByte), false)
      else Reception(Some(Unescape(data)), rest, Acknowledge(ackMode, AckByte), false)
  }

  /** Data free of `#`, a `#`, two characters and the rest of the input are
      split where `receive_packet` splits them. */
  lemma ReadFrameSplit(e: seq<Byte>, d0: Byte, d1: Byte, rest: seq<Byte>, ackMode: bool)
    requires forall i :: 0 <= i < |e| ==> e[i] != PacketEnd
    ensures ReadFrame(e + [PacketEnd, d0, d1] + rest, ackMode) == Verdict(e, d0, d1, rest, ackMode)
  {
    var body := e + [PacketEnd, d0, d1] + rest;
    assert body == e + ([PacketEnd, d0, d1] + rest);
    IndexOfAppend(e, PacketEnd, [PacketEnd, d0, d1] + rest);
    assert body[..|e|] == e;
    assert body[|e| + 3..] == rest;
    assert body[|e| + 1] == d0 && body[|e| + 2] == d1;
  }

  /** The frame body of an escaped packet, with its own checksum digits,
      reads back as the packet. */
  lemma ReadFrameOf(d: seq<Byte>, rest: seq<Byte>, ackMode: bool)
    ensures ReadFrame(Escape(d) + [PacketEnd] + HexByte(Checksum(Escape(d))) + rest, ackMode)
         == Reception(Some(d), rest, Acknowledge(ackMode, AckByte), false)
  {
    var e := Escape(d);
    var h := HexByte(Checksum(e));
    assert e + [PacketEnd] + h + rest == e + [PacketEnd, h[0], h[1]] + rest;
    ReadFrameSplit(e, h[0], h[1], rest, ackMode);
    UnescapeEscape(d);
  }

  lemma SeekStartAppend(noise: seq<Byte>, tail: seq<Byte>)
    requires forall j :: 0 <= j < |noise| ==> noise[j] != PacketStart && noise[j] != Interrupt
    requires |tail| > 0 && (tail[0] == PacketStart || tail[0] == Interrupt)
    ensures SeekStart(noise + tail) == |noise|
  {
    assert (noise + tail)[|noise|] == tail[0];
    assert forall j :: 0 <= j < |noise| ==> (noise + tail)[j] == noise[j];
  }

  /** A framed, escaped packet after any noise (bytes other than `$` and the
      interrupt) is received intact and acknowledged in ack mode; the input
      after its checksum is left unread. */
  lemma ReceiveFrame(noise: seq<Byte>, d: seq<Byte>, rest: seq<Byte>, ackMode: bool)
    requires forall j :: 0 <= j < |noise| ==> noise[j] != PacketStart && noise[j] != Interrupt
    ensures Receive(noise + FormatPacket(Escape(d)) + rest, ackMode)
         == Reception(Some(d), rest, Acknowledge(ackMode, AckByte), false)
  {
    var e := Escape(d);
    var body := e + [PacketEnd] + HexByte(Checksum(e)) + rest;
    assert noise + FormatPacket(e) + rest == noise + [PacketStart] + body;
    ReceiveAfterNoise(noise, body, ackMode);
    ReadFrameOf(d, rest, ackMode);
  }

  /** Noise before `$` is skipped, and the frame after it is read. */
  lemma ReceiveAfterNoise(noise: seq<Byte>, body: seq<Byte>, ackMode: bool)
    requires forall j :: 0 <= j < |noise| ==> noise[j] != PacketStart && noise[j] != Interrupt
    ensures Receive(noise + [PacketStart] + body, ackMode) == ReadFrame(body, ackMode)
  {
    var input := noise + [PacketStart] + body;
    assert input == noise + ([PacketStart] + body);
    SeekStartAppend(noise, [PacketStart] + body);
    assert input[|noise| + 1..] == body;
  }

  /** A frame whose checksum digits name a different value is rejected, and
      answered with `-` in ack mode. */
  lemma ReceiveCorrupted(d: seq<Byte>, c: Byte, rest: seq<Byte>, ackMode: bool)
    requires c != Checksum(Escape(d))
    ensures Receive([PacketStart] + Escape(d) + [PacketEnd] + HexByte(c) + rest, ackMode)
         == Reception(None, rest, Acknowledge(ackMode, NackByte), false)
  {
    var e := Escape(d);
    var h := HexByte(c);
    var body := e + [PacketEnd, h[0], h[1]] + rest;
    assert [PacketStart] + e + [PacketEnd] + h + rest == [] + [PacketStart] + body;
    ReceiveAfterNoise([], body, ackMode);
    ReadFrameSplit(e, h[0], h[1], rest, ackMode);
  }

  /** The interrupt byte yields the one-byte packet `"\x03"` and no
      acknowledgement. */
  lemma ReceiveInterrupt(noise: seq<Byte>, rest: seq<Byte>, ackMode: bool)
    requires forall j :: 0 <= j < |noise| ==> noise[j] != PacketStart && noise[j] != Interrupt
    ensures Receive(noise + [Interrupt] + rest, ackMode) == Reception(Some([Interrupt]), rest, [], false)
  {
    assert noise + [Interrupt] + rest == noise + ([Interrupt] + rest);
    SeekStartAppend(noise, [Interrupt] + rest);
    assert (noise + [Interrupt] + rest)[|noise| + 1..] == rest;
  }

  /** A frame whose checksum characters `std::stoul` cannot read (`$abc#zz`)
      leaves `receive_packet` by the exception: no packet, no
      acknowledgement, and no `false` return either. */
  lemma ReceiveThrows(noise: seq<Byte>, e: seq<Byte>, d0: Byte, d1: Byte, rest: seq<Byte>, ackMode: bool)
    requires forall j :: 0 <= j < |noise| ==> noise[j] != PacketStart && noise[j] != Interrupt
    requires forall i :: 0 <= i < |e| ==> e[i] != PacketEnd
    requires HexPair(d0, d1).None?
    ensures Receive(noise + [PacketStart] + e + [PacketEnd, d0, d1] + rest, ackMode)
         == Reception(None, rest, [], true)
  {
    var body := e + [PacketEnd, d0, d1] + rest;
    assert noise + [PacketStart] + e + [PacketEnd, d0, d1] + rest == noise + [PacketStart] + body;
    ReceiveAfterNoise(noise, body, ackMode);
    ReadFrameSplit(e, d0, d1, rest, ackMode);
  }

  /** Input that ends before any `$` or interrupt byte is the failed read:
      `receive_packet` returns false, throws nothing and writes nothing. */
  lemma ReceiveLost(input: seq<Byte>, ackMode: bool)
    requires forall j :: 0 <= j < |input| ==> input[j] != PacketStart && input[j] != Interrupt
    ensures Receive(input, ackMode) == Reception(None, [], [], false)
  {
  }

  // ---------------------------------------------------------------------
  // Sending

  /** What `send_packet` does: whether it returns true, the bytes it writes,
      and the acknowledgement bytes it leaves unread. */
  datatype Transmission = Transmission(ok: bool, wire: seq<Byte>, rest: seq<Byte>)

  function Repeat(f: seq<Byte>, k: nat): seq<Byte>
  {
    if k == 0 then [] else f + Repeat(f, k - 1)
  }

  /** `send_packet`: write the escaped frame (see `Transmit`). */
  function Send(data: seq<Byte>, ackMode: bool, replies: seq<Byte>, writesComplete: bool): Transmission
  {
    Transmit(FormatPacket(Escape(data)), ackMode, replies, writesComplete)
  }

  /** Without acknowledgements, a framed packet is received whole with
      nothing sent back, and a reply goes out as one frame. */
  lemma PlainExchange(data: seq<Byte>, reply: seq<Byte>, rest: seq<Byte>)
    ensures Receive(FormatPacket(Escape(data)) + rest, false) == Reception(Some(data), rest, [], false)
    ensures Send(reply, false, rest, true) == Transmission(true, FormatPacket(Escape(reply)), rest)
  {
    ReceivePlain(data, rest);
  }

  /** The receiving half of `PlainExchange`. */
  lemma ReceivePlain(data: seq<Byte>, rest: seq<Byte>)
    ensures Receive(FormatPacket(Escape(data)) + rest, false) == Reception(Some(data), rest, [], false)
  {
    var frame := FormatPacket(Escape(data));
    assert [] + frame + rest == frame + rest;
    ReceiveFrame([], data, rest, false);
  }

  /** The body of `send_packet` for a given frame: write it; in ack mode read
      one reply byte, sending again on `-` and failing on anything but `+`.
      `writesComplete` says whether the transport accepts whole frames. */
  function Transmit(frame: seq<Byte>, ackMode: bool, replies: seq<Byte>, writesComplete: bool): (t: Transmission)
    ensures |t.rest| <= |replies|
    ensures t.ok && ackMode ==> |t.rest| < |replies|
    ensures t.ok ==> writesComplete
    ensures writesComplete ==> (|frame| <= |t.wire| && t.wire[..|frame|] == frame)
    ensures !ackMode && writesComplete ==> t == Transmission(true, frame, replies)
    decreases |replies|
  {
    if !writesComplete then Transmission(false, [], replies)
    else if !ackMode then Transmission(true, frame, replies)
    else if |replies| == 0 then Transmission(false, frame, [])
    else if replies[0] == NackByte then
      var t := Transmit(frame, ackMode, replies[1..], writesComplete);
      Transmission(t.ok, frame + t.wire, t.rest)
    else Transmission(replies[0] == AckByte, frame, replies[1..])
  }

  /** `k` negative acknowledgements followed by `+` make the handler write
      the frame `k + 1` times and succeed. */
  lemma {:induction false} TransmitResends(frame: seq<Byte>, k: nat, rest: seq<Byte>)
    ensures Transmit(frame, true, seq(k, _ => NackByte) + [AckByte] + rest, true)
         == Transmission(true, Repeat(frame, k + 1), rest)
  {
    var replies := seq(k, _ => NackByte) + [AckByte] + rest;
    if k == 0 {
      assert replies == [AckByte] + rest;
      assert Repeat(frame, 1) == frame + [];
    } else {
      assert replies[0] == NackByte;
      assert replies[1..] == seq(k - 1, _ => NackByte) + [AckByte] + rest;
      TransmitResends(frame, k - 1, rest);
    }
  }

  /** A reply other than `+` or `-` makes the send fail. */
  lemma TransmitRejected(frame: seq<Byte>, b: Byte, rest: seq<Byte>)
    requires b != AckByte && b != NackByte
    ensures !Transmit(frame, true, [b] + rest, true).ok
  {
  }

  /** Whatever the replies, the first frame on the wire is received by the
      peer as the data that was sent. */
  lemma SendThenReceive(data: seq<Byte>, ackMode: bool, replies: seq<Byte>)
    ensures var t := Send(data, ackMode, replies, true);
      Receive(t.wire, ackMode).packet == Some(data)
  {
    var f := FormatPacket(Escape(data));
    var t := Transmit(f, ackMode, replies, true);
    assert t.wire == [] + f + t.wire[|f|..];
    ReceiveFrame([], data, t.wire[|f|..], ackMode);
  }
}

=== FILE: gdb_stub.dfy ===
/** The full GDB stub of `gdb_stub.cc`: its hex codecs, the thread and
    breakpoint tables, the command handlers and the `qXfer` document
    transfer. Every handler sends exactly one packet; here it returns that
    packet's data. An exception a handler lets escape (from `std::stoi`,
    `std::stoul` or `std::stoull`) is `Thrown`. */
module GdbStub {
  import opened Wrappers
  import opened Octets
  import opened GdbArch
  import GdbStubCommands
  import GdbProtocol

  const ErrorReply1: seq<Byte> := GdbStubCommands.ErrorReply1
  const ErrorReply2: seq<Byte> := GdbStubCommands.ErrorReply2
  const ErrorReply3: seq<Byte> := GdbStubCommands.ErrorReply3
  const OkReply: seq<Byte> := GdbStubCommands.OkReply
  const Comma: Byte := GdbStubCommands.Comma
  const Colon: Byte := GdbStubCommands.Colon

  // ---------------------------------------------------------------------
  // format_hex / parse_hex

  /** `gdb_stub::parse_hex`: pairs of characters read by `std::stoul` in
      base 16, a trailing single character ignored; a pair `stoul` rejects
      throws. */
  function ParseHex(s: seq<Byte>): (r: Option<seq<Byte>>)
    ensures r.Some? ==> |r.value| == |s| / 2
  {
    var (bytes, ok) := DecodePairs(s);
    if ok then Some(bytes) else None
  }

  /** `parse_hex(format_hex(v)) == v`, where `format_hex` is two lower-case
      digits per byte (`HexBytes`). */
  lemma ParseFormatHex(bs: seq<Byte>)
    ensures ParseHex(HexBytes(bs)) == Some(bs)
  {
    DecodeHex(bs);
  }

  /** A trailing odd character changes nothing. */
  lemma ParseHexOddNibble(s: seq<Byte>, x: Byte)
    requires |s| % 2 == 0
    ensures ParseHex(s + [x]) == ParseHex(s)
  {
    DecodeIgnoresOddNibble(s, x);
  }

  // ---------------------------------------------------------------------
  // The thread table

  /** One entry of `threads_`, a `std::map<int, thread_info>`; the thread is
      identified by its address. */
  datatype ThreadEntry = ThreadEntry(id: Int32, thread: nat)

  /** The source's `int`. */
  type Int32 = x: int | IntMin <= x <= IntMax

  /** The entries of a `std::map`: keys strictly increasing. */
  predicate SortedIds(ts: seq<ThreadEntry>)
  {
    forall i, j :: 0 <= i < j < |ts| ==> ts[i].id < ts[j].id
  }

  /** Every key is above `lo`. */
  predicate IdsAbove(ts: seq<ThreadEntry>, lo: int)
  {
    forall i :: 0 <= i < |ts| ==> lo < ts[i].id
  }

  function Lookup(ts: seq<ThreadEntry>, id: int): (r: Option<nat>)
    ensures r.Some? <==> exists i :: 0 <= i < |ts| && ts[i].id == id
  {
    if |ts| == 0 then None
    else if ts[0].id == id then Some(ts[0].thread)
    else
      var r := Lookup(ts[1..], id);
      assert forall i :: 1 <= i < |ts| ==> ts[i] == ts[1..][i - 1];
      r
  }

  /** `threads_[id] = …`: replace the entry with that key or insert one in
      key order. */
  function Insert(ts: seq<ThreadEntry>, id: Int32, t: nat): (r: seq<ThreadEntry>)
    requires SortedIds(ts)
    ensures SortedIds(r)
    ensures Lookup(r, id) == Some(t)
    ensures forall j :: j != id ==> Lookup(r, j) == Lookup(ts, j)
    ensures forall lo :: IdsAbove(ts, lo) && lo < id ==> IdsAbove(r, lo)
  {
    if |ts| == 0 then [ThreadEntry(id, t)]
    else if ts[0].id == id then [ThreadEntry(id, t)] + ts[1..]
    else if id < ts[0].id then [ThreadEntry(id, t)] + ts
    else
      var tail := Insert(ts[1..], id, t);
      assert IdsAbove(ts[1..], ts[0].id);
      [ts[0]] + tail
  }

  /** `threads_.erase(id)`. */
  function Erase(ts: seq<ThreadEntry>, id: int): (r: seq<ThreadEntry>)
    requires SortedIds(ts)
    ensures SortedIds(r)
    ensures Lookup(r, id) == None
    ensures forall j :: j != id ==> Lookup(r, j) == Lookup(ts, j)
    ensures forall lo :: IdsAbove(ts, lo) ==> IdsAbove(r, lo)
  {
    if |ts| == 0 then []
    else if ts[0].id == id then
      assert IdsAbove(ts[1..], id);
      ts[1..]
    else
      var tail := Erase(ts[1..], id);
      assert IdsAbove(ts[1..], ts[0].id);
      [ts[0]] + tail
  }

  /** Inserting a new key and erasing it again gives back the same table. */
  lemma {:induction false} EraseInsert(ts: seq<ThreadEntry>, id: Int32, t: nat)
    requires SortedIds(ts) && Lookup(ts, id).None?
    ensures Erase(Insert(ts, id, t), id) == ts
  {
    if |ts| > 0 && ts[0].id < id {
      EraseInsert(ts[1..], id, t);
      assert [ts[0]] + ts[1..] == ts;
    }
  }

  /** `get_thread_id`: the low 16 bits of the thread's address. */
  function ThreadId(t: nat): (id: Int32)
    ensures 0 <= id < 0x1_0000 && id == t % 0x1_0000
  {
    t % 0x1_0000
  }

  // ---------------------------------------------------------------------
  // The stub's state

  datatype Arch = X64 | Aarch64

  function ImageSize(arch: Arch): nat
  {
    if arch == X64 then X64ImageSize else Aarch64ImageSize
  }

  /** The state the handlers read and change: the thread table, the current
      thread (by address), the breakpoint table keyed by address, the two
      flags and the target's memory. A thread's registers are not part of
      it: the back ends' `get_thread_registers` hands out a zero-filled block
      and `set_thread_registers` discards what it is given. */
  datatype Stub = Stub(arch: Arch, threads: seq<ThreadEntry>, current: Option<nat>,
                       breakpoints: map<nat, Breakpoint>, running: bool, attached: bool,
                       mem: nat -> Byte)

  /** What every handler keeps: the thread table is a `std::map`. */
  predicate Valid(s: Stub)
  {
    SortedIds(s.threads)
  }

  /** The register block `get_thread_registers` fills in: all zero. */
  function SavedRegisters(arch: Arch): (image: seq<Byte>)
    ensures |image| == ImageSize(arch)
  {
    seq(ImageSize(arch), i => 0)
  }

  /** The effect of one packet: nothing sent (empty packet data), one reply
      with the new state, or an exception escaping the handler. */
  datatype Outcome = Quiet | Sent(reply: seq<Byte>, stub: Stub) | Thrown

  /** `add_thread`: the thread is entered under its id, replacing any
      thread with the same id, and becomes current when there is none. */
  function AddThread(s: Stub, t: nat): (r: Stub)
    requires Valid(s)
    ensures Valid(r)
    ensures Lookup(r.threads, ThreadId(t)) == Some(t)
    ensures forall id :: id != ThreadId(t) ==> Lookup(r.threads, id) == Lookup(s.threads, id)
    ensures r.current == (if s.current.None? then Some(t) else s.current)
  {
    var threads := Insert(s.threads, ThreadId(t), t);
    s.(threads := threads, current := if s.current.None? then Some(t) else s.current)
  }

  /** `remove_thread`: the entry under the thread's id goes (even when it
      holds another thread with the same id), and the current thread is
      cleared when it was this one. */
  function RemoveThread(s: Stub, t: nat): (r: Stub)
    requires Valid(s)
    ensures Valid(r)
    ensures Lookup(r.threads, ThreadId(t)) == None
    ensures forall id :: id != ThreadId(t) ==> Lookup(r.threads, id) == Lookup(s.threads, id)
    ensures r.current == (if s.current == Some(t) then None else s.current)
  {
    var threads := Erase(s.threads, ThreadId(t));
    s.(threads := threads, current := if s.current == Some(t) then None else s.current)
  }

  /** Adding a thread whose id is free and removing it again restores the
      table and the current thread. */
  lemma AddThenRemove(s: Stub, t: nat)
    requires Valid(s) && Lookup(s.threads, ThreadId(t)).None? && s.current != Some(t)
    ensures RemoveThread(AddThread(s, t), t) == s
  {
    EraseInsert(s.threads, ThreadId(t), t);
  }

  // ---------------------------------------------------------------------
  // Threads

  const Dash: Byte := 0x2D

  /** `handle_thread_selection`: `E01` for no parameters; an id of `0` or
      `-1` answers `OK` and selects nothing; otherwise `std::stoi` reads the
      id (and may throw), an unknown id gets `E02`, and `Hc`/`Hg` make the
      thread current while any other operation gets `E01`. */
  function HandleThreadSelection(s: Stub, params: seq<Byte>): (r: Outcome)
    ensures r.Sent? ==> r.stub == s.(current := r.stub.current)
    ensures |params| == 0 ==> r == Sent(ErrorReply1, s)
    ensures |params| > 0 && (params[1..] == [0x30] || params[1..] == [Dash, 0x31]) ==> r == Sent(OkReply, s)
    ensures r == Thrown <==> |params| > 0 && params[1..] != [0x30] && params[1..] != [Dash, 0x31]
                             && ParseInt(params[1..]).None?
    ensures r.Sent? && r.stub.current != s.current ==>
      r.reply == OkReply && (params[0] == 0x63 || params[0] == 0x67)
      && r.stub.current.Some? && Lookup(s.threads, ParseInt(params[1..]).value) == r.stub.current
  {
    if |params| == 0 then Sent(ErrorReply1, s)
    else
      var operation := params[0];
      var idText := params[1..];
      if idText == [0x30] || idText == [Dash, 0x31] then Sent(OkReply, s)
      else
        match ParseInt(idText)
        case None => Thrown
        case Some(id) =>
          match Lookup(s.threads, id)
          case None => Sent(ErrorReply2, s)
          case Some(t) =>
            if operation == 0x63 || operation == 0x67 then Sent(OkReply, s.(current := Some(t)))
            else Sent(ErrorReply1, s)
  }

  /** `handle_thread_alive`: `OK` for a known id, `E01` otherwise; the id is
      read by `std::stoi`, which may throw. */
  function HandleThreadAlive(s: Stub, params: seq<Byte>): (r: Outcome)
    ensures r == Thrown <==> ParseInt(params).None?
    ensures r.Sent? ==> r.stub == s
    ensures r.Sent? ==> (r.reply == OkReply <==> Lookup(s.threads, ParseInt(params).value).Some?)
    ensures r.Sent? ==> r.reply in {OkReply, ErrorReply1}
  {
    match ParseInt(params)
    case None => Thrown
    case Some(id) => if Lookup(s.threads, id).Some? then Sent(OkReply, s) else Sent(ErrorReply1, s)
  }

  /** Selecting an added thread by its decimal id with `Hg` makes it
      current, unless its id is 0, which means "any thread". */
  lemma SelectAddedThread(s: Stub, t: nat)
    requires Valid(s) && ThreadId(t) != 0
    ensures HandleThreadSelection(AddThread(s, t), [0x67] + DecimalText(ThreadId(t)))
         == Sent(OkReply, AddThread(s, t).(current := Some(t)))
  {
    var id := ThreadId(t);
    var text := DecimalText(id);
    DecimalRoundTrip(id);
    assert ([0x67] + text)[1..] == text;
    DecimalValueOfText(id);
    assert text != [0x30] by {
      assert [0x30][..0] == [];
      assert DecimalValue([0x30]) == 0;
    }
    assert text != [Dash, 0x31] by { assert DecimalDigit(text[0]); }
  }

  /** `get_thread_id` of an added thread answers `OK` to the alive query. */
  lemma AddedThreadAlive(s: Stub, t: nat)
    requires Valid(s)
    ensures HandleThreadAlive(AddThread(s, t), DecimalText(ThreadId(t))) == Sent(OkReply, AddThread(s, t))
  {
    DecimalRoundTrip(ThreadId(t));
  }

  /** An `int` id as `std::hex` prints it: a negative id as its 32-bit
      two's complement. */
  function IdText(id: Int32): (h: seq<Byte>)
    ensures 0 < |h| && forall i :: 0 <= i < |h| ==> LowerHex(h[i])
  {
    HexNumber(WireId(id))
  }

  /** The ids of the table, in key order, separated by commas. */
  function JoinIds(ts: seq<ThreadEntry>): seq<Byte>
  {
    if |ts| == 0 then []
    else if |ts| == 1 then IdText(ts[0].id)
    else IdText(ts[0].id) + [Comma] + JoinIds(ts[1..])
  }

  /** `handle_thread_info`: `m` and then the ids. */
  function ThreadInfo(ts: seq<ThreadEntry>): (reply: seq<Byte>)
    ensures 0 < |reply| && reply[0] == 0x6D
    ensures ParseIdList(reply[1..]) == (if |ts| == 0 then Some([]) else Some(Unsigned(ts)))
  {
    ParseJoined(ts);
    [0x6D] + JoinIds(ts)
  }

  /** The ids as the client sees them, 32-bit unsigned. */
  function Unsigned(ts: seq<ThreadEntry>): (ids: seq<nat>)
    ensures |ids| == |ts|
    ensures forall i :: 0 <= i < |ts| ==> ids[i] % 0x1_0000_0000 == ts[i].id % 0x1_0000_0000
  {
    if |ts| == 0 then [] else [WireId(ts[0].id)] + Unsigned(ts[1..])
  }

  /** How a client reads a thread list: hex numbers separated by commas. */
  function ParseIdList(s: seq<Byte>): Option<seq<nat>>
    decreases |s|
  {
    if |s| == 0 then Some([])
    else
      var n := HexRun(s);
      if n == 0 then None
      else if n == |s| then Some([DigitsValue(s)])
      else if s[n] != Comma || n + 1 == |s| then None
      else
        match ParseIdList(s[n + 1..])
        case None => None
        case Some(rest) => Some([DigitsValue(s[..n])] + rest)
  }

  lemma {:induction false} ParseJoined(ts: seq<ThreadEntry>)
    ensures ParseIdList(JoinIds(ts)) == (if |ts| == 0 then Some([]) else Some(Unsigned(ts)))
    ensures |ts| > 0 ==> 0 < |JoinIds(ts)| && LowerHex(JoinIds(ts)[0])
  {
    if |ts| == 1 {
      ParseOneId(ts[0].id);
      assert Unsigned(ts) == Unsigned([ts[0]]);
    } else if |ts| > 1 {
      ParseJoined(ts[1..]);
      ParseIdThenList(ts[0].id, JoinIds(ts[1..]), Unsigned(ts[1..]));
    }
  }

  /** The value an id has on the wire. */
  function WireId(id: Int32): nat
  {
    if id < 0 then id + 0x1_0000_0000 else id
  }

  lemma ParseOneId(id: Int32)
    ensures ParseIdList(IdText(id)) == Some([WireId(id)])
    ensures Unsigned([ThreadEntry(id, 0)]) == [WireId(id)]
  {
    var h := IdText(id);
    DigitsOfHexNumber(WireId(id));
    HexRunOfDigits(h, []);
    assert h + [] == h;
  }

  lemma ParseIdThenList(id: Int32, rest: seq<Byte>, ids: seq<nat>)
    requires ParseIdList(rest) == Some(ids) && 0 < |rest| && LowerHex(rest[0])
    ensures ParseIdList(IdText(id) + [Comma] + rest) == Some([WireId(id)] + ids)
  {
    IdThenComma(id, rest);
    ParseIdListStep(IdText(id) + [Comma] + rest, |IdText(id)|, ids);
  }

  /** Where an id's text ends when a comma follows it. */
  lemma IdThenComma(id: Int32, rest: seq<Byte>)
    ensures var h := IdText(id);
      var s := h + [Comma] + rest;
      HexRun(s) == |h| && |h| + 1 <= |s| && s[|h|] == Comma && s[|h| + 1..] == rest
      && DigitsValue(s[..|h|]) == WireId(id)
  {
    var h := IdText(id);
    var s := h + [Comma] + rest;
    assert HexRun(s) == |h| by {
      HexRunOfDigits(h, [Comma] + rest);
      assert h + ([Comma] + rest) == s;
    }
    assert s[..|h|] == h;
    DigitsOfHexNumber(WireId(id));
  }

  /** One step of `ParseIdList`: a run of digits, a comma, and a list. */
  lemma ParseIdListStep(s: seq<Byte>, n: nat, ids: seq<nat>)
    requires 0 < n && n + 1 < |s| && HexRun(s) == n && s[n] == Comma
    requires ParseIdList(s[n + 1..]) == Some(ids)
    ensures ParseIdList(s) == Some([DigitsValue(s[..n])] + ids)
  {
  }

  // ---------------------------------------------------------------------
  // Memory

  /** `handle_read_memory`: `E01` without a comma; address and length are
      read by `std::stoull` in base 16 (which may throw); the copy always
      succeeds, so the reply is the bytes in hex. */
  function HandleReadMemory(s: Stub, params: seq<Byte>): (r: Outcome)
    ensures r.Sent? ==> r.stub == s
    ensures IndexOf(params, Comma) == |params| ==> r == Sent(ErrorReply1, s)
    ensures r.Sent? && r.reply != ErrorReply1 ==>
      var comma := IndexOf(params, Comma);
      comma < |params|
      && ParseHexNumber(params[..comma]).Some? && ParseHexNumber(params[comma + 1..]).Some?
      && ParseHex(r.reply) == Some(Load(s.mem, ParseHexNumber(params[..comma]).value,
                                        ParseHexNumber(params[comma + 1..]).value))
  {
    var comma := IndexOf(params, Comma);
    if comma == |params| then Sent(ErrorReply1, s)
    else
      match (ParseHexNumber(params[..comma]), ParseHexNumber(params[comma + 1..]))
      case (Some(addr), Some(length)) =>
        var bytes := Load(s.mem, addr, length);
        ParseFormatHex(bytes);
        Sent(HexBytes(bytes), s)
      case _ => Thrown
  }

  /** The length field of an `M` packet: up to the colon, or to the end when
      the colon comes first (`colon - comma - 1` wraps around). */
  function LengthField(params: seq<Byte>, comma: nat, colon: nat): seq<Byte>
    requires comma < |params| && colon < |params|
  {
    if colon > comma then params[comma + 1..colon] else params[comma + 1..]
  }

  /** The fields of an `M` packet, as `handle_write_memory` reads them. */
  datatype WriteRequest = Write(addr: nat, length: nat, data: seq<Byte>) | NoSeparator | Unparsable

  /** `E01` without both a comma and a colon; otherwise address and length
      by `std::stoull`, the data by `parse_hex`, any of which may throw. */
  function ParseWrite(params: seq<Byte>): (w: WriteRequest)
    ensures w == NoSeparator <==> IndexOf(params, Comma) == |params| || IndexOf(params, Colon) == |params|
    ensures w.Write? ==> w.addr < TwoTo64 && w.length < TwoTo64
  {
    var comma := IndexOf(params, Comma);
    var colon := IndexOf(params, Colon);
    if comma == |params| || colon == |params| then NoSeparator
    else WriteOf(ParseHexNumber(params[..comma]), ParseHexNumber(LengthField(params, comma, colon)),
                 ParseHex(params[colon + 1..]))
  }

  /** The request once each field has been read, or not. */
  function WriteOf(addr: Option<nat>, length: Option<nat>, data: Option<seq<Byte>>): (w: WriteRequest)
    ensures w.Write? <==> addr.Some? && length.Some? && data.Some?
    ensures w.Write? ==> w == Write(addr.value, length.value, data.value)
  {
    if addr.None? || length.None? || data.None? then Unparsable
    else Write(addr.value, length.value, data.value)
  }

  /** `handle_write_memory`: `E01` without the separators, an exception for
      an unreadable field, `E02` when the data's size differs from the
      length, otherwise the bytes are stored and the reply is `OK`. */
  function HandleWriteMemory(s: Stub, params: seq<Byte>): (r: Outcome)
    ensures r == Sent(ErrorReply1, s) <==> ParseWrite(params) == NoSeparator
    ensures r == Thrown <==> ParseWrite(params) == Unparsable
    ensures r.Sent? ==> r.reply in {OkReply, ErrorReply1, ErrorReply2}
    ensures r.Sent? && r.reply != OkReply ==> r.stub == s
    ensures ParseWrite(params).Write? ==>
      var w := ParseWrite(params);
      r.Sent? && (r.reply == OkReply <==> |w.data| == w.length)
      && (r.reply == OkReply ==> r.stub == s.(mem := Store(s.mem, w.addr, w.data)))
  {
    match ParseWrite(params)
    case NoSeparator => Sent(ErrorReply1, s)
    case Unparsable => Thrown
    case Write(addr, length, data) =>
      if |data| != length then Sent(ErrorReply2, s)
      else Sent(OkReply, s.(mem := Store(s.mem, addr, data)))
  }

  /** The `m` parameters a client sends for `length` bytes at `addr`. */
  function ReadParams(addr: nat, length: nat): seq<Byte>
  {
    HexNumber(addr) + [Comma] + HexNumber(length)
  }

  /** The `M` parameters a client sends to store `bs` at `addr`. */
  function WriteParams(addr: nat, bs: seq<Byte>): seq<Byte>
  {
    HexNumber(addr) + [Comma] + HexNumber(|bs|) + [Colon] + HexBytes(bs)
  }

  lemma ReadFields(addr: nat, length: nat)
    requires addr < TwoTo64 && length < TwoTo64
    ensures var p := ReadParams(addr, length);
      var comma := IndexOf(p, Comma);
      comma < |p| && ParseHexNumber(p[..comma]) == Some(addr) && ParseHexNumber(p[comma + 1..]) == Some(length)
  {
    var a, n := HexNumber(addr), HexNumber(length);
    assert ParseHexNumber(a) == Some(addr) && ParseHexNumber(n) == Some(length) by {
      HexNumberRoundTrip(addr, []);
      HexNumberRoundTrip(length, []);
      assert a + [] == a && n + [] == n;
    }
    GdbStubCommands.CommaFields(ReadParams(addr, length), a, n);
  }

  lemma WriteFields(addr: nat, bs: seq<Byte>)
    requires addr < TwoTo64 && |bs| < TwoTo64
    ensures ParseWrite(WriteParams(addr, bs)) == Write(addr, |bs|, bs)
  {
    var a, n, d := HexNumber(addr), HexNumber(|bs|), HexBytes(bs);
    assert ParseHexNumber(a) == Some(addr) && ParseHexNumber(n) == Some(|bs|) by {
      HexNumberRoundTrip(addr, []);
      HexNumberRoundTrip(|bs|, []);
      assert a + [] == a && n + [] == n;
    }
    ParseFormatHex(bs);
    WriteParts(WriteParams(addr, bs), a, n, d);
    ParseWriteAt(WriteParams(addr, bs), a, n, d, addr, |bs|, bs);
  }

  /** Where the fields of an `M` request sit. */
  lemma WriteParts(p: seq<Byte>, a: seq<Byte>, n: seq<Byte>, d: seq<Byte>)
    requires p == a + [Comma] + n + [Colon] + d
    requires forall i :: 0 <= i < |a| ==> LowerHex(a[i])
    requires forall i :: 0 <= i < |n| ==> LowerHex(n[i])
    ensures var comma := IndexOf(p, Comma);
      var colon := IndexOf(p, Colon);
      comma == |a| && colon == |a| + |n| + 1 && colon < |p|
      && p[..comma] == a && LengthField(p, comma, colon) == n && p[colon + 1..] == d
  {
    GdbStubCommands.WriteLayout(a, n, d);
    assert p[|a| + 1..|a| + |n| + 1] == n;
  }

  lemma ParseWriteAt(p: seq<Byte>, a: seq<Byte>, n: seq<Byte>, d: seq<Byte>, addr: nat, length: nat, data: seq<Byte>)
    requires IndexOf(p, Comma) == |a| && IndexOf(p, Colon) == |a| + |n| + 1 && |a| + |n| + 1 < |p|
    requires p[..|a|] == a && LengthField(p, |a|, |a| + |n| + 1) == n && p[|a| + |n| + 2..] == d
    requires ParseHexNumber(a) == Some(addr) && ParseHexNumber(n) == Some(length) && ParseHex(d) == Some(data)
    ensures ParseWrite(p) == Write(addr, length, data)
  {
    var comma, colon := IndexOf(p, Comma), IndexOf(p, Colon);
    assert ParseWrite(p) == WriteOf(ParseHexNumber(a), ParseHexNumber(n), ParseHex(d)) by {
      assert p[..comma] == a && LengthField(p, comma, colon) == n && p[colon + 1..] == d;
    }
  }

  /** An `M` request stores its bytes and is answered `OK`. */
  lemma WriteRequestStores(s: Stub, addr: nat, bs: seq<Byte>)
    requires addr < TwoTo64 && |bs| < TwoTo64
    ensures HandleWriteMemory(s, WriteParams(addr, bs)) == Sent(OkReply, s.(mem := Store(s.mem, addr, bs)))
  {
    WriteFields(addr, bs);
  }

  /** An `m` request for the range just written reads the bytes back. */
  lemma ReadAfterWrite(s: Stub, addr: nat, bs: seq<Byte>)
    requires addr < TwoTo64 && |bs| < TwoTo64
    ensures var t := s.(mem := Store(s.mem, addr, bs));
      HandleReadMemory(t, ReadParams(addr, |bs|)) == Sent(HexBytes(bs), t)
  {
    ReadFields(addr, |bs|);
    LoadStore(s.mem, addr, bs);
    ReadBack(s.(mem := Store(s.mem, addr, bs)), ReadParams(addr, |bs|), addr, bs);
  }

  lemma ReadBack(s: Stub, params: seq<Byte>, addr: nat, bs: seq<Byte>)
    requires IndexOf(params, Comma) < |params|
    requires ParseHexNumber(params[..IndexOf(params, Comma)]) == Some(addr)
    requires ParseHexNumber(params[IndexOf(params, Comma) + 1..]) == Some(|bs|)
    requires Load(s.mem, addr, |bs|) == bs
    ensures HandleReadMemory(s, params) == Sent(HexBytes(bs), s)
  {
    ReadMemoryAt(s, params, addr, |bs|);
  }

  /** An `m` request whose two fields parse reads that many bytes. */
  lemma ReadMemoryAt(s: Stub, params: seq<Byte>, addr: nat, length: nat)
    requires IndexOf(params, Comma) < |params|
    requires ParseHexNumber(params[..IndexOf(params, Comma)]) == Some(addr)
    requires ParseHexNumber(params[IndexOf(params, Comma) + 1..]) == Some(length)
    ensures HandleReadMemory(s, params).Sent?
    ensures HandleReadMemory(s, params).reply == HexBytes(Load(s.mem, addr, length))
    ensures HandleReadMemory(s, params).stub == s
  {
  }

  // ---------------------------------------------------------------------
  // Registers and execution control

  /** `handle_read_registers`: `E01` without a current thread, otherwise the
      thread's register block in hex, which is all zero. */
  function HandleReadRegisters(s: Stub): (r: Outcome)
    ensures r.Sent? && r.stub == s
    ensures s.current.None? <==> r.reply == ErrorReply1
    ensures s.current.Some? ==> ParseHex(r.reply) == Some(SavedRegisters(s.arch))
  {
    if s.current.None? then Sent(ErrorReply1, s)
    else
      var image := SavedRegisters(s.arch);
      ParseFormatHex(image);
      Sent(HexBytes(image), s)
  }

  /** `handle_write_registers`: `E01` without a current thread; the data is
      decoded by `parse_hex` (which may throw) and accepted only when it is
      exactly one register block (`E02` otherwise). An accepted block is
      handed to `set_thread_registers`, which keeps nothing. */
  function HandleWriteRegisters(s: Stub, data: seq<Byte>): (r: Outcome)
    ensures s.current.None? ==> r == Sent(ErrorReply1, s)
    ensures r == Thrown <==> s.current.Some? && ParseHex(data).None?
    ensures r.Sent? ==> r.stub == s
    ensures r.Sent? && r.reply == OkReply <==>
      s.current.Some? && ParseHex(data).Some? && |ParseHex(data).value| == ImageSize(s.arch)
  {
    if s.current.None? then Sent(ErrorReply1, s)
    else
      match ParseHex(data)
      case None => Thrown
      case Some(bytes) =>
        match WriteRegisters(ImageSize(s.arch), bytes)
        case None => Sent(ErrorReply2, s)
        case Some(image) => Sent(OkReply, s)
  }

  /** A register block written with `G` is accepted, yet `g` then reads the
      zero block: nothing written reaches the thread. */
  lemma WriteThenReadRegisters(s: Stub, image: seq<Byte>)
    requires s.current.Some? && |image| == ImageSize(s.arch)
    ensures HandleWriteRegisters(s, HexBytes(image)) == Sent(OkReply, s)
    ensures HandleReadRegisters(s).reply == HexBytes(SavedRegisters(s.arch))
  {
    ParseFormatHex(image);
  }

  /** `handle_step`: `E01` without a current thread; on x86-64 the trap
      flag is set in the `eflags` of the zero block and the block handed to
      `set_thread_registers`, which keeps nothing, and the reply is `OK`;
      AArch64 refuses (`E02`). */
  function HandleStep(s: Stub): (r: Outcome)
    ensures r.Sent? && r.stub == s
    ensures s.current.None? ==> r.reply == ErrorReply1
    ensures s.current.Some? ==> (r.reply == OkReply <==> s.arch == X64)
    ensures s.current.Some? && s.arch == Aarch64 ==> r.reply == ErrorReply2
  {
    if s.current.None? then Sent(ErrorReply1, s)
    else if s.arch == Aarch64 then
      assert !Aarch64SingleStep(SavedRegisters(s.arch));
      Sent(ErrorReply2, s)
    else
      var stepped := X64SingleStep(SavedRegisters(s.arch));
      Sent(OkReply, s)
  }

  /** `handle_continue`: `OK`; resuming is not implemented. */
  function HandleContinue(s: Stub): (r: Outcome)
    ensures r == Sent(OkReply, s)
  {
    Sent(OkReply, s)
  }

  /** `handle_halt_reason`: always SIGTRAP. */
  function HandleHaltReason(s: Stub): (r: Outcome)
    ensures r == Sent(GdbStubCommands.TrapReply, s)
  {
    Sent(GdbStubCommands.TrapReply, s)
  }

  /** `handle_detach`: `OK`, and the client is no longer attached. */
  function HandleDetach(s: Stub): (r: Outcome)
    ensures r.Sent? && r.reply == OkReply && !r.stub.attached
    ensures r.stub == s.(attached := false)
  {
    Sent(OkReply, s.(attached := false))
  }

  /** `handle_kill`: `OK`, and the main loop stops. */
  function HandleKill(s: Stub): (r: Outcome)
    ensures r.Sent? && r.reply == OkReply && !r.stub.running
    ensures r.stub == s.(running := false)
  {
    Sent(OkReply, s.(running := false))
  }

  // ---------------------------------------------------------------------
  // Breakpoints

  function ArchSetBreakpoint(arch: Arch, bp: Breakpoint, mem: nat -> Byte): Planted
  {
    if arch == X64 then X64SetBreakpoint(bp, mem) else Aarch64SetBreakpoint(bp, mem)
  }

  function ArchRemoveBreakpoint(arch: Arch, bp: Breakpoint, mem: nat -> Byte): Planted
  {
    if arch == X64 then X64RemoveBreakpoint(bp, mem) else Aarch64RemoveBreakpoint(bp, mem)
  }

  /** The result of a table operation: success and the new state. */
  datatype Change = Change(ok: bool, stub: Stub)

  /** `gdb_stub::set_breakpoint`: a fresh record goes to the architecture,
      and only when it plants the breakpoint is the (updated) record stored
      under its address, replacing any earlier one. */
  function SetBreakpoint(s: Stub, kind: int, addr: nat, length: nat): (r: Change)
    ensures r.ok <==> kind == Software
    ensures !r.ok ==> r.stub == s
    ensures r.ok ==> (addr in r.stub.breakpoints && r.stub.breakpoints[addr].enabled
                      && r.stub.breakpoints[addr].original == s.mem(addr)
                      && r.stub == s.(breakpoints := r.stub.breakpoints, mem := r.stub.mem)
                      && forall a :: a != addr ==> (a in r.stub.breakpoints <==> a in s.breakpoints))
  {
    var planted := ArchSetBreakpoint(s.arch, Breakpoint(kind, addr, length, 0, false), s.mem);
    if planted.ok then Change(true, s.(breakpoints := s.breakpoints[addr := planted.bp], mem := planted.mem))
    else Change(false, s)
  }

  /** `gdb_stub::remove_breakpoint`: only a recorded breakpoint whose
      removal the architecture accepts is dropped from the table. */
  function RemoveBreakpoint(s: Stub, addr: nat): (r: Change)
    ensures r.ok <==> addr in s.breakpoints && s.breakpoints[addr].kind == Software && s.breakpoints[addr].enabled
    ensures !r.ok ==> r.stub == s
    ensures r.ok ==> (r.stub.breakpoints == s.breakpoints - {addr}
                      && r.stub == s.(breakpoints := r.stub.breakpoints, mem := r.stub.mem))
  {
    if addr !in s.breakpoints then Change(false, s)
    else
      var removed := ArchRemoveBreakpoint(s.arch, s.breakpoints[addr], s.mem);
      if removed.ok then Change(true, s.(breakpoints := s.breakpoints - {addr}, mem := removed.mem))
      else Change(false, s)
  }

  /** On x86-64, setting a software breakpoint at an address that has none
      and removing it again gives back the table and every memory byte. */
  lemma SetThenRemoveBreakpoint(s: Stub, addr: nat, length: nat)
    requires s.arch == X64 && addr !in s.breakpoints
    ensures var set1 := SetBreakpoint(s, Software, addr, length);
      var removed := RemoveBreakpoint(set1.stub, addr);
      set1.ok && removed.ok && removed.stub.breakpoints == s.breakpoints
      && forall a :: removed.stub.mem(a) == s.mem(a)
  {
    var set1 := SetBreakpoint(s, Software, addr, length);
    X64SetThenRemove(Breakpoint(Software, addr, length, 0, false), s.mem);
    assert set1.stub.breakpoints - {addr} == s.breakpoints;
  }

  /** A `char` as the source's (signed) `char` arithmetic sees it. */
  function SignedChar(b: Byte): int
  {
    if b < 0x80 then b else b - 0x100
  }

  /** `handle_breakpoint`, given the whole packet data: `E01` below four
      characters or without two commas (searched from the third character);
      the type is the second character's distance from `0`; address and
      length are read by `std::stoull` (which may throw); `Z` sets and any
      other first character removes, answering `OK` or `E03`. */
  function HandleBreakpoint(s: Stub, data: seq<Byte>): (r: Outcome)
    ensures |data| < 4 ==> r == Sent(ErrorReply1, s)
    ensures |data| >= 4 && (IndexFrom(data, Comma, 2) == |data| || IndexFrom(data, Comma, IndexFrom(data, Comma, 2) + 1) == |data|)
            ==> r == Sent(ErrorReply1, s)
    ensures r.Sent? ==> r.reply in {OkReply, ErrorReply1, ErrorReply3}
    ensures r.Sent? && r.reply != OkReply ==> r.stub == s
    ensures r.Sent? ==> r.stub == s.(breakpoints := r.stub.breakpoints, mem := r.stub.mem)
    ensures r.Sent? && r.reply == OkReply ==>
      var comma1 := IndexFrom(data, Comma, 2);
      var comma2 := IndexFrom(data, Comma, comma1 + 1);
      comma2 < |data| && ParseHexNumber(data[comma1 + 1..comma2]).Some?
      && var addr := ParseHexNumber(data[comma1 + 1..comma2]).value;
      if data[0] == 0x5A then addr in r.stub.breakpoints && r.stub.breakpoints[addr].enabled
      else addr !in r.stub.breakpoints && addr in s.breakpoints
  {
    if |data| < 4 then Sent(ErrorReply1, s)
    else
      var comma1 := IndexFrom(data, Comma, 2);
      var comma2 := IndexFrom(data, Comma, comma1 + 1);
      if comma1 == |data| || comma2 == |data| then Sent(ErrorReply1, s)
      else BreakpointFieldsAt(s, data, comma1, comma2)
  }

  /** The rest of `handle_breakpoint` once both commas are found: the type
      character, then the address and length fields around the second
      comma, parsed by `std::stoull`. */
  function BreakpointFieldsAt(s: Stub, data: seq<Byte>, comma1: nat, comma2: nat): (r: Outcome)
    requires 2 <= comma1 < comma2 < |data|
    ensures r.Thrown? <==> ParseHexNumber(data[comma1 + 1..comma2]).None? || ParseHexNumber(data[comma2 + 1..]).None?
    ensures r.Sent? ==> r.reply in {OkReply, ErrorReply3}
    ensures r.Sent? && r.reply != OkReply ==> r.stub == s
    ensures r.Sent? ==> r.stub == s.(breakpoints := r.stub.breakpoints, mem := r.stub.mem)
    ensures r.Sent? && r.reply == OkReply ==>
      var addr := ParseHexNumber(data[comma1 + 1..comma2]).value;
      if data[0] == 0x5A then addr in r.stub.breakpoints && r.stub.breakpoints[addr].enabled
      else addr !in r.stub.breakpoints && addr in s.breakpoints
  {
    var kind := SignedChar(data[1]) - 0x30;
    var addr, length := ParseHexNumber(data[comma1 + 1..comma2]), ParseHexNumber(data[comma2 + 1..]);
    if addr.Some? && length.Some? then ApplyBreakpoint(s, data[0], kind, addr.value, length.value)
    else Thrown
  }

  /** The table operation a parsed `Z` (set) or other (remove) packet asks
      for, and its reply. */
  function ApplyBreakpoint(s: Stub, action: Byte, kind: int, addr: nat, length: nat): (r: Outcome)
    ensures r.Sent? && r.reply in {OkReply, ErrorReply3}
    ensures r.reply == OkReply <==> (if action == 0x5A then kind == Software else
                                     addr in s.breakpoints && s.breakpoints[addr].kind == Software && s.breakpoints[addr].enabled)
    ensures r.reply != OkReply ==> r.stub == s
    ensures r.stub == s.(breakpoints := r.stub.breakpoints, mem := r.stub.mem)
    ensures r.reply == OkReply ==>
      if action == 0x5A then addr in r.stub.breakpoints && r.stub.breakpoints[addr].enabled
      else addr !in r.stub.breakpoints && addr in s.breakpoints
  {
    var change := if action == 0x5A then SetBreakpoint(s, kind, addr, length) else RemoveBreakpoint(s, addr);
    if change.ok then Sent(OkReply, change.stub) else Sent(ErrorReply3, s)
  }

  /** The `Z`/`z` packet data a client sends for a software breakpoint. */
  function BreakpointData(action: Byte, addr: nat, length: nat): seq<Byte>
  {
    [action, 0x30, Comma] + HexNumber(addr) + [Comma] + HexNumber(length)
  }

  /** Where a separator following a field free of it is found, and the
      field and the rest around it. */
  lemma SplitAt(q: seq<Byte>, head: seq<Byte>, field: seq<Byte>, sep: Byte, rest: seq<Byte>)
    requires q == head + field + [sep] + rest
    requires forall i :: 0 <= i < |field| ==> field[i] != sep
    ensures IndexFrom(q, sep, |head|) == |head| + |field|
    ensures q[|head|..|head| + |field|] == field && q[|head| + |field| + 1..] == rest
  {
    assert q[|head|..] == field + ([sep] + rest);
    IndexOfAppend(field, sep, [sep] + rest);
  }

  lemma BreakpointFields(action: Byte, addr: nat, length: nat)
    requires addr < TwoTo64 && length < TwoTo64
    ensures var data := BreakpointData(action, addr, length);
      var comma1 := IndexFrom(data, Comma, 2);
      var comma2 := IndexFrom(data, Comma, comma1 + 1);
      |data| >= 4 && comma1 == 2 && comma2 < |data|
      && ParseHexNumber(data[comma1 + 1..comma2]) == Some(addr)
      && ParseHexNumber(data[comma2 + 1..]) == Some(length)
  {
    var a, n := HexNumber(addr), HexNumber(length);
    var data := BreakpointData(action, addr, length);
    SplitAt(data, [action, 0x30], [], Comma, a + [Comma] + n);
    GdbStubCommands.DigitsHaveNoSeparator(a);
    SplitAt(data, [action, 0x30, Comma], a, Comma, n);
    HexNumberRoundTrip(addr, []);
    HexNumberRoundTrip(length, []);
    assert a + [] == a;
    assert n + [] == n;
  }

  /** A well-formed `Z0`/`z0` packet reaches the table operation. */
  lemma BreakpointDispatch(s: Stub, action: Byte, addr: nat, length: nat)
    requires addr < TwoTo64 && length < TwoTo64
    ensures var change := if action == 0x5A then SetBreakpoint(s, Software, addr, length) else RemoveBreakpoint(s, addr);
      HandleBreakpoint(s, BreakpointData(action, addr, length))
      == if change.ok then Sent(OkReply, change.stub) else Sent(ErrorReply3, s)
  {
    var data := BreakpointData(action, addr, length);
    BreakpointFields(action, addr, length);
    assert data[0] == action && data[1] == 0x30;
    var comma1 := IndexFrom(data, Comma, 2);
    BreakpointAt(s, data, comma1, IndexFrom(data, Comma, comma1 + 1), addr, length);
  }

  /** A breakpoint packet whose fields are where `handle_breakpoint` looks
      for them reaches the table operation. */
  lemma BreakpointAt(s: Stub, data: seq<Byte>, comma1: nat, comma2: nat, addr: nat, length: nat)
    requires |data| >= 4 && data[1] == 0x30
    requires IndexFrom(data, Comma, 2) == comma1 && IndexFrom(data, Comma, comma1 + 1) == comma2 < |data|
    requires comma1 < comma2
    requires ParseHexNumber(data[comma1 + 1..comma2]) == Some(addr) && ParseHexNumber(data[comma2 + 1..]) == Some(length)
    ensures var change := if data[0] == 0x5A then SetBreakpoint(s, Software, addr, length) else RemoveBreakpoint(s, addr);
      HandleBreakpoint(s, data) == if change.ok then Sent(OkReply, change.stub) else Sent(ErrorReply3, s)
  {
    assert HandleBreakpoint(s, data) == BreakpointFieldsAt(s, data, comma1, comma2);
    assert SignedChar(data[1]) - 0x30 == Software;
  }

  /** `Z0,addr,len` and then `z0,addr,len` on x86-64 at an address without a
      breakpoint both answer `OK` and leave table and memory as they were. */
  lemma BreakpointRequests(s: Stub, addr: nat, length: nat)
    requires s.arch == X64 && addr !in s.breakpoints
    requires addr < TwoTo64 && length < TwoTo64
    ensures var set1 := HandleBreakpoint(s, BreakpointData(0x5A, addr, length));
      set1.Sent? && set1.reply == OkReply
      && var removed := HandleBreakpoint(set1.stub, BreakpointData(0x7A, addr, length));
      removed.Sent? && removed.reply == OkReply
      && removed.stub.breakpoints == s.breakpoints && forall a :: removed.stub.mem(a) == s.mem(a)
  {
    SetThenRemoveBreakpoint(s, addr, length);
    BreakpointDispatch(s, 0x5A, addr, length);
    BreakpointDispatch(SetBreakpoint(s, Software, addr, length).stub, 0x7A, addr, length);
  }

  // ---------------------------------------------------------------------
  // Queries and document transfer

  /** The two documents a client can read with `qXfer`: the architecture's
      target description and the memory map. */
  datatype Documents = Documents(targetXml: seq<Byte>, memoryMap: seq<Byte>)

  const L: Byte := 0x6C  // 'l': last chunk
  const M: Byte := 0x6D  // 'm': more follows

  /** One `qXfer` reply: `l` alone past the end; otherwise up to `length`
      bytes from `offset`, marked `l` when they reach the end of the
      document and `m` when more follows. */
  function Chunk(doc: seq<Byte>, offset: nat, length: nat): (reply: seq<Byte>)
    ensures 0 < |reply| && (reply[0] == L || reply[0] == M)
    ensures reply[0] == M <==> offset + length < |doc|
    ensures offset < |doc| ==> reply[1..] == doc[offset..if offset + length < |doc| then offset + length else |doc|]
    ensures offset >= |doc| ==> reply == [L]
  {
    if offset >= |doc| then [L]
    else
      var size := if length < |doc| - offset then length else |doc| - offset;
      var chunk := doc[offset..offset + size];
      if offset + size >= |doc| then [L] + chunk else [M] + chunk
  }

  /** What a client assembles by asking for `length` bytes at a time from
      `offset` until a reply is marked last. */
  function Fetch(doc: seq<Byte>, offset: nat, length: nat): seq<Byte>
    requires length > 0
    decreases |doc| - offset
  {
    var reply := Chunk(doc, offset, length);
    if reply[0] == L then reply[1..] else reply[1..] + Fetch(doc, offset + length, length)
  }

  /** Reading a document chunk by chunk yields exactly the document from
      the starting offset. */
  lemma {:induction false} FetchWhole(doc: seq<Byte>, offset: nat, length: nat)
    requires length > 0 && offset <= |doc|
    ensures Fetch(doc, offset, length) == doc[offset..]
    decreases |doc| - offset
  {
    var reply := Chunk(doc, offset, length);
    if reply[0] == M {
      FetchWhole(doc, offset + length, length);
      assert doc[offset..offset + length] + doc[offset + length..] == doc[offset..];
    }
  }

  const SupportedFeatures: seq<Byte> := Ascii("PacketSize=1000;qXfer:features:read+;qXfer:memory-map:read+")
  const FeaturesPrefix: seq<Byte> := Ascii("Xfer:features:read:")
  const MemoryMapPrefix: seq<Byte> := Ascii("Xfer:memory-map:read:")
  const TargetXmlName: seq<Byte> := Ascii("target.xml")

  /** How a `qXfer` query is read: well formed, with an offset or length
      `std::stoull` rejects, or lacking a separator. */
  datatype XferRequest = Request(annex: seq<Byte>, offset: nat, length: nat) | Unreadable | Malformed

  /** The annex runs from `start` to the next colon and the offset from
      there to the next comma; the length is the rest. */
  function ParseXfer(q: seq<Byte>, start: nat): (r: XferRequest)
    ensures r.Request? ==> r.offset < TwoTo64 && r.length < TwoTo64
  {
    var colon := IndexFrom(q, Colon, start);
    var comma := IndexFrom(q, Comma, colon);
    if colon == |q| || comma == |q| then Malformed
    else XferOf(q[start..colon], ParseHexNumber(q[colon + 1..comma]), ParseHexNumber(q[comma + 1..]))
  }

  /** The request once both numbers have been read, or not. */
  function XferOf(annex: seq<Byte>, offset: Option<nat>, length: Option<nat>): (r: XferRequest)
    ensures r.Request? <==> offset.Some? && length.Some?
    ensures r.Request? ==> r == Request(annex, offset.value, length.value)
    ensures !r.Request? ==> r == Unreadable
  {
    if offset.Some? && length.Some? then Request(annex, offset.value, length.value) else Unreadable
  }

  /** `handle_target_xml_query` with the annex starting at `start`: `E01`
      for a missing separator, an exception for an unreadable number, and
      only the annex `target.xml` is served. */
  function TargetXmlAt(s: Stub, q: seq<Byte>, xml: seq<Byte>, start: nat): (r: Outcome)
    ensures r.Sent? ==> r.stub == s
    ensures r == Thrown <==> ParseXfer(q, start) == Unreadable
    ensures r.Sent? && r.reply != ErrorReply1 ==>
      var x := ParseXfer(q, start);
      x.Request? && x.annex == TargetXmlName && r.reply == Chunk(xml, x.offset, x.length)
  {
    match ParseXfer(q, start)
    case Malformed => Sent(ErrorReply1, s)
    case Unreadable => Thrown
    case Request(annex, offset, length) =>
      if annex == TargetXmlName then Sent(Chunk(xml, offset, length), s) else Sent(ErrorReply1, s)
  }

  /** `handle_target_xml_query` as written: the annex is taken from
      position 11, inside `features`, instead of after the 19-character
      prefix. */
  function TargetXmlQuery(s: Stub, q: seq<Byte>, xml: seq<Byte>): (r: Outcome)
    ensures r.Sent? ==> r.stub == s
    ensures StartsWith(q, FeaturesPrefix) ==> r == Thrown || r == Sent(ErrorReply1, s)
  {
    if StartsWith(q, FeaturesPrefix) then
      TargetXmlAtFeatures(s, q, xml);
      TargetXmlAt(s, q, xml, 11)
    else TargetXmlAt(s, q, xml, 11)
  }

  /** On a `Xfer:features:read:` query the search from position 11 stops at
      the colon after `features`, so the offset field starts with `read`,
      which `std::stoull` rejects. */
  lemma TargetXmlAtFeatures(s: Stub, q: seq<Byte>, xml: seq<Byte>)
    requires StartsWith(q, FeaturesPrefix)
    ensures TargetXmlAt(s, q, xml, 11) == Thrown || TargetXmlAt(s, q, xml, 11) == Sent(ErrorReply1, s)
  {
    assert q[11] == 0x65 && q[12] == 0x73 && q[13] == Colon && q[14] == 0x72 by {
      assert q[..19] == FeaturesPrefix;
    }
    assert IndexFrom(q, Colon, 11) == 13 by {
      assert q[11..13] == [q[11], q[12]];
      IndexFromAt(q, Colon, 11, 13);
    }
    OffsetUnreadable(q, 11, 13);
  }

  /** When the byte after the colon cannot start a number, no request is
      read. */
  lemma OffsetUnreadable(q: seq<Byte>, start: nat, colon: nat)
    requires start <= colon && colon + 1 < |q| && IndexFrom(q, Colon, start) == colon
    requires HexValue(q[colon + 1]).None? && !Space(q[colon + 1]) && q[colon + 1] != 0x2B && q[colon + 1] != 0x2D
    ensures !ParseXfer(q, start).Request?
  {
    var comma := IndexFrom(q, Comma, colon);
    if comma < |q| {
      assert comma > colon;
      if comma > colon + 1 {
        assert q[colon + 1..comma][0] == q[colon + 1];
      }
      UnreadableStart(q[colon + 1..comma]);
    }
  }

  /** The evidently intended `handle_target_xml_query`: the annex starts
      after `Xfer:features:read:`. */
  function TargetXmlQueryIntended(s: Stub, q: seq<Byte>, xml: seq<Byte>): (r: Outcome)
    ensures r.Sent? ==> r.stub == s
  {
    TargetXmlAt(s, q, xml, |FeaturesPrefix|)
  }

  /** A `qXfer` request for `length` bytes at `offset` of the given annex. */
  function XferQuery(prefix: seq<Byte>, annex: seq<Byte>, offset: nat, length: nat): seq<Byte>
  {
    prefix + annex + [Colon] + ReadParams(offset, length)
  }

  /** A search that starts on a byte other than the one sought may as well
      start one later. */
  lemma IndexFromSkip(q: seq<Byte>, b: Byte, from: nat)
    requires from < |q| && q[from] != b
    ensures IndexFrom(q, b, from) == IndexFrom(q, b, from + 1)
  {
  }

  /** A request built by `XferQuery` is read back by `ParseXfer`. */
  lemma XferFields(prefix: seq<Byte>, annex: seq<Byte>, offset: nat, length: nat)
    requires offset < TwoTo64 && length < TwoTo64
    requires forall i :: 0 <= i < |annex| ==> annex[i] != Colon
    ensures var q := XferQuery(prefix, annex, offset, length); ParseXfer(q, |prefix|) == Request(annex, offset, length)
  {
    var a, n := HexNumber(offset), HexNumber(length);
    assert ParseHexNumber(a) == Some(offset) && ParseHexNumber(n) == Some(length) by {
      HexNumberRoundTrip(offset, []);
      HexNumberRoundTrip(length, []);
      assert a + [] == a && n + [] == n;
    }
    XferParts(XferQuery(prefix, annex, offset, length), prefix, annex, a, n, offset, length);
  }

  lemma XferParts(q: seq<Byte>, prefix: seq<Byte>, annex: seq<Byte>, a: seq<Byte>, n: seq<Byte>, offset: nat, length: nat)
    requires q == prefix + annex + [Colon] + (a + [Comma] + n)
    requires forall i :: 0 <= i < |annex| ==> annex[i] != Colon
    requires forall i :: 0 <= i < |a| ==> LowerHex(a[i])
    requires ParseHexNumber(a) == Some(offset) && ParseHexNumber(n) == Some(length)
    ensures ParseXfer(q, |prefix|) == Request(annex, offset, length)
  {
    XferLayout(q, prefix, annex, a, n);
    XferRead(q, |prefix|, |prefix| + |annex|, |prefix| + |annex| + 1 + |a|, annex, a, n, offset, length);
  }

  /** Where the separators of an `XferQuery` are found. */
  lemma XferLayout(q: seq<Byte>, prefix: seq<Byte>, annex: seq<Byte>, a: seq<Byte>, n: seq<Byte>)
    requires q == prefix + annex + [Colon] + (a + [Comma] + n)
    requires forall i :: 0 <= i < |annex| ==> annex[i] != Colon
    requires forall i :: 0 <= i < |a| ==> LowerHex(a[i])
    ensures var colon := |prefix| + |annex|;
      var comma := colon + 1 + |a|;
      IndexFrom(q, Colon, |prefix|) == colon && q[|prefix|..colon] == annex
      && IndexFrom(q, Comma, colon) == comma && q[colon + 1..comma] == a && q[comma + 1..] == n
  {
    SplitAt(q, prefix, annex, Colon, a + [Comma] + n);
    CommaAfterColon(q, prefix + annex, a, n);
  }

  /** The comma search starts on the colon and finds the comma after the
      offset's digits. */
  lemma CommaAfterColon(q: seq<Byte>, head: seq<Byte>, a: seq<Byte>, n: seq<Byte>)
    requires q == head + [Colon] + (a + [Comma] + n)
    requires forall i :: 0 <= i < |a| ==> LowerHex(a[i])
    ensures IndexFrom(q, Comma, |head|) == |head| + 1 + |a|
    ensures q[|head| + 1..|head| + 1 + |a|] == a && q[|head| + 1 + |a| + 1..] == n
  {
    SplitDigits(q, head + [Colon], a, n);
    assert q[|head|] == Colon;
    IndexFromSkip(q, Comma, |head|);
  }

  /** Where the comma after a run of hex digits is, when a known head comes
      before them. */
  lemma SplitDigits(q: seq<Byte>, head: seq<Byte>, digits: seq<Byte>, rest: seq<Byte>)
    requires q == head + (digits + [Comma] + rest)
    requires forall i :: 0 <= i < |digits| ==> LowerHex(digits[i])
    ensures IndexFrom(q, Comma, |head|) == |head| + |digits|
    ensures q[|head|..|head| + |digits|] == digits && q[|head| + |digits| + 1..] == rest
  {
    assert q == head + digits + [Comma] + rest;
    GdbStubCommands.DigitsHaveNoSeparator(digits);
    SplitAt(q, head, digits, Comma, rest);
  }

  /** A query whose separators and fields are where `ParseXfer` looks. */
  lemma XferRead(q: seq<Byte>, start: nat, colon: nat, comma: nat, annex: seq<Byte>, a: seq<Byte>, n: seq<Byte>,
                 offset: nat, length: nat)
    requires start <= colon < comma < |q|
    requires IndexFrom(q, Colon, start) == colon && q[start..colon] == annex
    requires IndexFrom(q, Comma, colon) == comma && q[colon + 1..comma] == a && q[comma + 1..] == n
    requires ParseHexNumber(a) == Some(offset) && ParseHexNumber(n) == Some(length)
    ensures ParseXfer(q, start) == Request(annex, offset, length)
  {
    ParseXferAt(q, start, colon, comma, offset, length);
  }

  lemma ParseXferAt(q: seq<Byte>, start: nat, colon: nat, comma: nat, offset: nat, length: nat)
    requires start <= colon < comma < |q|
    requires IndexFrom(q, Colon, start) == colon && IndexFrom(q, Comma, colon) == comma
    requires ParseHexNumber(q[colon + 1..comma]) == Some(offset) && ParseHexNumber(q[comma + 1..]) == Some(length)
    ensures ParseXfer(q, start) == Request(q[start..colon], offset, length)
  {
    assert ParseXfer(q, start) == XferOf(q[start..colon], Some(offset), Some(length));
  }

  /** The intended handler serves every chunk of the target description. */
  lemma TargetXmlServed(s: Stub, xml: seq<Byte>, offset: nat, length: nat)
    requires offset < TwoTo64 && length < TwoTo64
    ensures TargetXmlQueryIntended(s, XferQuery(FeaturesPrefix, TargetXmlName, offset, length), xml)
         == Sent(Chunk(xml, offset, length), s)
  {
    assert forall i :: 0 <= i < |TargetXmlName| ==> TargetXmlName[i] != Colon;
    XferFields(FeaturesPrefix, TargetXmlName, offset, length);
    assert |FeaturesPrefix| == 19;
  }

  /** `handle_memory_memoryMapquery` with the colon searched from `start`:
      read like a target-description query, but the annex is not
      checked. */
  function MemoryMapAt(s: Stub, q: seq<Byte>, memoryMap: seq<Byte>, start: nat): (r: Outcome)
    ensures r.Sent? ==> r.stub == s
    ensures r == Thrown <==> ParseXfer(q, start) == Unreadable
    ensures r.Sent? && r.reply != ErrorReply1 ==>
      var x := ParseXfer(q, start);
      x.Request? && r.reply == Chunk(memoryMap, x.offset, x.length)
  {
    match ParseXfer(q, start)
    case Malformed => Sent(ErrorReply1, s)
    case Unreadable => Thrown
    case Request(_, offset, length) => Sent(Chunk(memoryMap, offset, length), s)
  }

  /** `handle_memory_memoryMapquery` as written: the search starts at position
      15, which is the colon after `memory-map`. */
  function MemoryMapQuery(s: Stub, q: seq<Byte>, memoryMap: seq<Byte>): (r: Outcome)
    ensures r.Sent? ==> r.stub == s
    ensures StartsWith(q, MemoryMapPrefix) ==> r == Thrown || r == Sent(ErrorReply1, s)
  {
    if StartsWith(q, MemoryMapPrefix) then
      MemoryMapAtPrefix(s, q, memoryMap);
      MemoryMapAt(s, q, memoryMap, 15)
    else MemoryMapAt(s, q, memoryMap, 15)
  }

  /** On a `Xfer:memory-map:read:` query the colon at position 15 is found,
      so the offset field starts with `read`, which `std::stoull`
      rejects. */
  lemma MemoryMapAtPrefix(s: Stub, q: seq<Byte>, memoryMap: seq<Byte>)
    requires StartsWith(q, MemoryMapPrefix)
    ensures MemoryMapAt(s, q, memoryMap, 15) == Thrown || MemoryMapAt(s, q, memoryMap, 15) == Sent(ErrorReply1, s)
  {
    assert q[15] == Colon && q[16] == 0x72 by {
      assert q[..21] == MemoryMapPrefix;
    }
    assert IndexOf(q[15..], Colon) == 0;
    var comma := IndexFrom(q, Comma, 15);
    if comma < |q| {
      assert q[16..comma][0] == 0x72;
      UnreadableStart(q[16..comma]);
    }
  }

  /** The evidently intended `handle_memory_memoryMapquery`: the colon is
      searched after `Xfer:memory-map:read:`. */
  function MemoryMapQueryIntended(s: Stub, q: seq<Byte>, memoryMap: seq<Byte>): (r: Outcome)
    ensures r.Sent? ==> r.stub == s
  {
    MemoryMapAt(s, q, memoryMap, |MemoryMapPrefix|)
  }

  /** The intended handler serves every chunk of the memory map for the
      empty annex a client sends. */
  lemma MemoryMapServed(s: Stub, memoryMap: seq<Byte>, offset: nat, length: nat)
    requires offset < TwoTo64 && length < TwoTo64
    ensures MemoryMapQueryIntended(s, XferQuery(MemoryMapPrefix, [], offset, length), memoryMap)
         == Sent(Chunk(memoryMap, offset, length), s)
  {
    XferFields(MemoryMapPrefix, [], offset, length);
    assert |MemoryMapPrefix| == 21;
  }

  // ---------------------------------------------------------------------
  // handle_query

  const SupportedQuery: seq<Byte> := Ascii("Supported")
  const FirstThreadsQuery: seq<Byte> := Ascii("fThreadInfo")
  const NextThreadsQuery: seq<Byte> := Ascii("sThreadInfo")
  const CurrentThreadQuery: seq<Byte> := Ascii("C")
  const CurrentThreadReply: seq<Byte> := Ascii("QC1")

  /** `handle_query` as written. The `fThreadInfo` branch compares the first
      8 characters with an 11-character literal, and the two `Xfer` branches
      compare 11 and 15 characters with 19- and 21-character literals, so
      none of the three can be taken. */
  function HandleQuery(s: Stub, docs: Documents, q: seq<Byte>): (r: Outcome)
    ensures r.Sent? ==> r.stub == s
  {
    if PrefixIs(q, 9, SupportedQuery) then Sent(SupportedFeatures, s)
    else if q == CurrentThreadQuery then Sent(CurrentThreadReply, s)
    else if PrefixIs(q, 8, FirstThreadsQuery) then Sent(ThreadInfo(s.threads), s)
    else if q == NextThreadsQuery then Sent([L], s)
    else if PrefixIs(q, 11, FeaturesPrefix) then TargetXmlQuery(s, q, docs.targetXml)
    else if PrefixIs(q, 15, MemoryMapPrefix) then MemoryMapQuery(s, q, docs.memoryMap)
    else Sent([], s)
  }

  /** What `handle_query` answers: the feature list to `Supported…`, `QC1`
      to `C`, `l` to `sThreadInfo`, and the empty reply to everything else,
      the thread-list and document requests included. */
  lemma QueryReplies(s: Stub, docs: Documents, q: seq<Byte>)
    ensures StartsWith(q, SupportedQuery) ==> HandleQuery(s, docs, q) == Sent(SupportedFeatures, s)
    ensures q == CurrentThreadQuery ==> HandleQuery(s, docs, q) == Sent(CurrentThreadReply, s)
    ensures q == NextThreadsQuery ==> HandleQuery(s, docs, q) == Sent([L], s)
    ensures !StartsWith(q, SupportedQuery) && q != CurrentThreadQuery && q != NextThreadsQuery
            ==> HandleQuery(s, docs, q) == Sent([], s)
  {
    PrefixIsMeaning(q, 9, SupportedQuery);
    PrefixIsMeaning(q, 8, FirstThreadsQuery);
    PrefixIsMeaning(q, 11, FeaturesPrefix);
    PrefixIsMeaning(q, 15, MemoryMapPrefix);
    if q == NextThreadsQuery {
      assert q[0] != SupportedQuery[0];
    }
  }

  /** The evidently intended `handle_query`: each prefix is compared over
      its full length, and the document requests go to the handlers that
      read the annex after the prefix. */
  function HandleQueryIntended(s: Stub, docs: Documents, q: seq<Byte>): (r: Outcome)
    ensures r.Sent? ==> r.stub == s
  {
    if StartsWith(q, SupportedQuery) then Sent(SupportedFeatures, s)
    else if q == CurrentThreadQuery then Sent(CurrentThreadReply, s)
    else if StartsWith(q, FirstThreadsQuery) then Sent(ThreadInfo(s.threads), s)
    else if q == NextThreadsQuery then Sent([L], s)
    else if StartsWith(q, FeaturesPrefix) then TargetXmlQueryIntended(s, q, docs.targetXml)
    else if StartsWith(q, MemoryMapPrefix) then MemoryMapQueryIntended(s, q, docs.memoryMap)
    else Sent([], s)
  }

  /** With the intended comparisons a client gets the thread list, which
      names every thread of the table. */
  lemma IntendedListsThreads(s: Stub, docs: Documents)
    requires |s.threads| > 0
    ensures var r := HandleQueryIntended(s, docs, FirstThreadsQuery);
      r.Sent? && r.reply[0] == 0x6D && ParseIdList(r.reply[1..]) == Some(Unsigned(s.threads))
  {
    assert FirstThreadsQuery[0] != SupportedQuery[0];
    assert StartsWith(FirstThreadsQuery, FirstThreadsQuery);
  }

  /** As written, the same request is answered with the empty reply. */
  lemma WrittenHidesThreads(s: Stub, docs: Documents)
    ensures HandleQuery(s, docs, FirstThreadsQuery) == Sent([], s)
  {
    assert FirstThreadsQuery[0] != SupportedQuery[0];
    QueryReplies(s, docs, FirstThreadsQuery);
  }

  /** With the intended comparisons every chunk of the target description
      is served. */
  lemma IntendedServesTargetXml(s: Stub, docs: Documents, offset: nat, length: nat)
    requires offset < TwoTo64 && length < TwoTo64
    ensures HandleQueryIntended(s, docs, XferQuery(FeaturesPrefix, TargetXmlName, offset, length))
         == Sent(Chunk(docs.targetXml, offset, length), s)
  {
    var q := XferQuery(FeaturesPrefix, TargetXmlName, offset, length);
    assert q[..|FeaturesPrefix|] == FeaturesPrefix;
    assert q[0] == 0x58;
    IntendedFeatures(s, docs, q);
    TargetXmlServed(s, docs.targetXml, offset, length);
  }

  /** A `Xfer:features:read:` query goes to the intended target-description
      handler. */
  lemma IntendedFeatures(s: Stub, docs: Documents, q: seq<Byte>)
    requires StartsWith(q, FeaturesPrefix) && q[0] == 0x58
    ensures HandleQueryIntended(s, docs, q) == TargetXmlQueryIntended(s, q, docs.targetXml)
  {
    assert q != CurrentThreadQuery && q != NextThreadsQuery;
    assert !StartsWith(q, SupportedQuery) && !StartsWith(q, FirstThreadsQuery);
  }

  /** As written, the request for the target description never reaches its
      handler. */
  lemma WrittenHidesTargetXml(s: Stub, docs: Documents, offset: nat, length: nat)
    ensures HandleQuery(s, docs, XferQuery(FeaturesPrefix, TargetXmlName, offset, length)) == Sent([], s)
  {
    var q := XferQuery(FeaturesPrefix, TargetXmlName, offset, length);
    assert q[0] == 0x58;
    QueryReplies(s, docs, q);
  }

  // ---------------------------------------------------------------------
  // handle_packet and the main loop

  /** The command letters `handle_packet` dispatches on. */
  predicate Known(c: Byte)
  {
    c in {0x71, 0x67, 0x47, 0x6D, 0x4D, 0x63, 0x73, 0x5A, 0x7A, 0x48, 0x54, 0x3F, 0x44, 0x6B}
  }

  /** `handle_packet`: nothing for empty data; otherwise the first character
      selects the handler, which gets the rest (the breakpoint handler gets
      the whole data), and an unknown letter is answered with the empty
      packet. */
  function HandlePacket(s: Stub, docs: Documents, data: seq<Byte>): (r: Outcome)
    requires Valid(s)
    ensures r == Quiet <==> |data| == 0
    ensures r.Sent? ==> Valid(r.stub) && r.stub.threads == s.threads && r.stub.arch == s.arch
    ensures |data| > 0 && !Known(data[0]) ==> r == Sent([], s)
    ensures r == Thrown ==> data[0] in {0x71, 0x47, 0x6D, 0x4D, 0x5A, 0x7A, 0x48, 0x54}
    ensures r.Sent? && !r.stub.running ==> !s.running || data[0] == 0x6B
  {
    if |data| == 0 then Quiet
    else
      var params := data[1..];
      match data[0]
      case 0x71 => HandleQuery(s, docs, params)
      case 0x67 => HandleReadRegisters(s)
      case 0x47 => HandleWriteRegisters(s, params)
      case 0x6D => HandleReadMemory(s, params)
      case 0x4D => HandleWriteMemory(s, params)
      case 0x63 => HandleContinue(s)
      case 0x73 => HandleStep(s)
      case 0x5A => HandleBreakpoint(s, data)
      case 0x7A => HandleBreakpoint(s, data)
      case 0x48 => HandleThreadSelection(s, params)
      case 0x54 => HandleThreadAlive(s, params)
      case 0x3F => HandleHaltReason(s)
      case 0x44 => HandleDetach(s)
      case 0x6B => HandleKill(s)
      case _ => Sent([], s)
  }

  /** What a connection leaves behind: the stub, every byte the stub wrote
      (acknowledgements and reply frames), the data of each reply, and
      whether an exception ended it. A connection that ends without one is
      left by `break`, and `run` waits for the next; an exception leaves
      `run` and ends the stub. */
  datatype Session = Session(stub: Stub, wire: seq<Byte>, replies: seq<seq<Byte>>, thrown: bool)

  /** The frame that carries one reply. */
  function Frame(reply: seq<Byte>): seq<Byte>
  {
    GdbProtocol.FormatPacket(GdbProtocol.Escape(reply))
  }

  /** The replies, each framed by `frame`, one after another. */
  function Frames(replies: seq<seq<Byte>>, frame: seq<Byte> -> seq<Byte>): seq<Byte>
  {
    if |replies| == 0 then [] else frame(replies[0]) + Frames(replies[1..], frame)
  }

  /** The inner loop of `run` over one connection, whose client sends
      `input`: while the stub runs, receive a packet and handle it. A
      failed receive ends the connection; an exception, from
      `receive_packet` or from a handler, escapes `run` and is recorded as
      `thrown`. The outcome of each send is ignored, as
      `gdb_stub::send_packet` ignores it; in ack mode the client's
      acknowledgements are read from the same input. */
  function Serve(s: Stub, docs: Documents, input: seq<Byte>, ackMode: bool): (r: Session)
    requires Valid(s)
    ensures Valid(r.stub)
    ensures !s.running ==> r == Session(s, [], [], false)
    ensures r.stub.threads == s.threads && r.stub.arch == s.arch
    decreases |input|
  {
    if !s.running || |input| == 0 then Session(s, [], [], false)
    else
      var rc := GdbProtocol.Receive(input, ackMode);
      match rc.packet
      case None => Session(s, rc.replies, [], rc.thrown)
      case Some(data) =>
        match HandlePacket(s, docs, data)
        case Thrown => Session(s, rc.replies, [], true)
        case Quiet =>
          var next := Serve(s, docs, rc.rest, ackMode);
          Session(next.stub, rc.replies + next.wire, next.replies, next.thrown)
        case Sent(reply, s') =>
          var t := GdbProtocol.Send(reply, ackMode, rc.rest, true);
          var next := Serve(s', docs, t.rest, ackMode);
          Session(next.stub, rc.replies + t.wire + next.wire, [reply] + next.replies, next.thrown)
  }


  /** Without acknowledgements the stub writes exactly the frames of its
      replies, in order. */
  lemma {:induction false} ServeFrames(s: Stub, docs: Documents, input: seq<Byte>)
    requires Valid(s)
    ensures Serve(s, docs, input, false).wire == Frames(Serve(s, docs, input, false).replies, Frame)
    decreases |input|
  {
    if s.running && |input| > 0 {
      var rc := GdbProtocol.Receive(input, false);
      if rc.packet.Some? {
        var data := rc.packet.value;
        var out := HandlePacket(s, docs, data);
        if out.Quiet? {
          ServeFrames(s, docs, rc.rest);
          ServeQuiet(s, docs, input, false, data, rc.rest, rc.replies);
        } else if out.Sent? {
          var t := GdbProtocol.Send(out.reply, false, rc.rest, true);
          ServeFrames(out.stub, docs, t.rest);
          ServeStep(s, docs, input, false, data, rc.rest, rc.replies, out.reply, out.stub);
          FramesAfterReply(Serve(s, docs, input, false), rc.replies, t.wire, out.reply, Serve(out.stub, docs, t.rest, false), Frame);
        }
      }
    }
  }

  lemma FramesAfterReply(r: Session, acks: seq<Byte>, wire: seq<Byte>, reply: seq<Byte>, next: Session,
                          frame: seq<Byte> -> seq<Byte>)
    requires r.wire == acks + wire + next.wire && r.replies == [reply] + next.replies
    requires acks == [] && wire == frame(reply)
    requires next.wire == Frames(next.replies, frame)
    ensures r.wire == Frames(r.replies, frame)
  {
    assert ([reply] + next.replies)[1..] == next.replies;
    assert acks + wire + next.wire == wire + next.wire;
  }

  /** A received packet that needs no reply is followed by the rest of the
      session. */
  lemma ServeQuiet(s: Stub, docs: Documents, input: seq<Byte>, ackMode: bool,
                   data: seq<Byte>, rest: seq<Byte>, acks: seq<Byte>)
    requires Valid(s) && s.running && |input| > 0
    requires GdbProtocol.Receive(input, ackMode) == GdbProtocol.Reception(Some(data), rest, acks, false)
    requires HandlePacket(s, docs, data) == Quiet
    ensures var next := Serve(s, docs, rest, ackMode);
      Serve(s, docs, input, ackMode) == Session(next.stub, acks + next.wire, next.replies, next.thrown)
  {
  }

  /** One round of the loop: a received packet that a handler answers is
      followed by the reply frame and the rest of the session. */
  lemma ServeStep(s: Stub, docs: Documents, input: seq<Byte>, ackMode: bool,
                  data: seq<Byte>, rest: seq<Byte>, acks: seq<Byte>, reply: seq<Byte>, s': Stub)
    requires Valid(s) && s.running && |input| > 0
    requires GdbProtocol.Receive(input, ackMode) == GdbProtocol.Reception(Some(data), rest, acks, false)
    requires HandlePacket(s, docs, data) == Sent(reply, s')
    ensures var t := GdbProtocol.Send(reply, ackMode, rest, true);
      var next := Serve(s', docs, t.rest, ackMode);
      Serve(s, docs, input, ackMode) == Session(next.stub, acks + t.wire + next.wire, [reply] + next.replies, next.thrown)
  {
  }

  /** A client that sends `k` (without acknowledgements) stops the stub: it
      is answered `OK`, and the rest of the input is never read. */
  lemma KillEndsSession(s: Stub, docs: Documents, rest: seq<Byte>)
    requires Valid(s) && s.running
    ensures var input := GdbProtocol.FormatPacket(GdbProtocol.Escape([0x6B])) + rest;
      Serve(s, docs, input, false) == Session(s.(running := false), Frame(OkReply), [OkReply], false)
  {
    KillPacket(s, docs);
    LastPacket(s, docs, [0x6B], rest, OkReply);
  }

  /** A packet whose handler stops the stub ends the session: its reply is
      the last, and the input after it is never read. */
  lemma LastPacket(s: Stub, docs: Documents, data: seq<Byte>, rest: seq<Byte>, reply: seq<Byte>)
    requires Valid(s) && s.running && HandlePacket(s, docs, data) == Sent(reply, s.(running := false))
    ensures Serve(s, docs, Frame(data) + rest, false) == Session(s.(running := false), Frame(reply), [reply], false)
  {
    var input := Frame(data) + rest;
    var s' := s.(running := false);
    GdbProtocol.PlainExchange(data, reply, rest);
    ServeStep(s, docs, input, false, data, rest, [], reply, s');
    LastReply(Serve(s, docs, input, false), [], Frame(reply), reply, Serve(s', docs, rest, false), s');
  }

  lemma KillPacket(s: Stub, docs: Documents)
    requires Valid(s)
    ensures HandlePacket(s, docs, [0x6B]) == Sent(OkReply, s.(running := false))
  {
  }

  /** A reply after which the session ends is the session's last. */
  lemma LastReply(r: Session, acks: seq<Byte>, wire: seq<Byte>, reply: seq<Byte>, next: Session, stub: Stub)
    requires r == Session(next.stub, acks + wire + next.wire, [reply] + next.replies, next.thrown)
    requires acks == [] && next == Session(stub, [], [], false)
    ensures r == Session(stub, wire, [reply], false)
  {
    assert acks + wire + next.wire == wire;
  }

  /** A frame whose checksum characters `std::stoul` cannot read ends the
      stub by the exception, with nothing written for it and the stub as it
      was; it is not the failed receive that sends `run` back to
      `wait_for_connection`. */
  lemma ServeThrows(s: Stub, docs: Documents, noise: seq<Byte>, e: seq<Byte>, d0: Byte, d1: Byte,
                    rest: seq<Byte>, ackMode: bool)
    requires Valid(s) && s.running
    requires forall j :: 0 <= j < |noise| ==> noise[j] != GdbProtocol.PacketStart && noise[j] != GdbProtocol.Interrupt
    requires forall i :: 0 <= i < |e| ==> e[i] != GdbProtocol.PacketEnd
    requires HexPair(d0, d1).None?
    ensures Serve(s, docs, noise + [GdbProtocol.PacketStart] + e + [GdbProtocol.PacketEnd, d0, d1] + rest, ackMode)
         == Session(s, [], [], true)
  {
    GdbProtocol.ReceiveThrows(noise, e, d0, d1, rest, ackMode);
  }

  /** A packet whose handler throws ends the stub the same way, after the
      acknowledgement of that packet. */
  lemma ServeHandlerThrows(s: Stub, docs: Documents, input: seq<Byte>, ackMode: bool,
                           data: seq<Byte>, rest: seq<Byte>, acks: seq<Byte>)
    requires Valid(s) && s.running && |input| > 0
    requires GdbProtocol.Receive(input, ackMode) == GdbProtocol.Reception(Some(data), rest, acks, false)
    requires HandlePacket(s, docs, data) == Thrown
    ensures Serve(s, docs, input, ackMode) == Session(s, acks, [], true)
  {
  }

  /** A client that goes away before sending another `$` or interrupt byte
      ends the connection without an exception: `receive_packet` returns
      false and `run` breaks out of the connection's loop. */
  lemma ServeLost(s: Stub, docs: Documents, input: seq<Byte>, ackMode: bool)
    requires Valid(s)
    requires forall j :: 0 <= j < |input| ==> input[j] != GdbProtocol.PacketStart && input[j] != GdbProtocol.Interrupt
    ensures Serve(s, docs, input, ackMode) == Session(s, [], [], false)
  {
    if s.running && |input| > 0 {
      GdbProtocol.ReceiveLost(input, ackMode);
    }
  }
}

=== FILE: gdb_stub_commands.dfy ===
/** The self-contained stub of `gdb-stub.cc`: its `Packet` (checksum, format,
    parse), its command dispatcher and its memory handlers. The CPU state
    capture is a parameter (`cpu`, the eighteen 64-bit registers in the
    order the stub sends them), and memory is a function from address to
    byte; a memory write is reported as the bytes stored from an address. */
module GdbStubCommands {
  import opened Wrappers
  import opened Octets
  import opened GdbProtocol

  // ---------------------------------------------------------------------
  // Packet

  /** A frame `Packet::parse` hands to `std::stoi` with checksum characters
      that hold no hex digit to read, so that `stoi` throws
      `invalid_argument` out of `parse`. */
  predicate ParseThrows(raw: seq<Byte>)
  {
    var h := IndexOf(raw, PacketEnd);
    |raw| >= 4 && raw[0] == PacketStart && h + 3 <= |raw| && HexPair(raw[h + 1], raw[h + 2]).None?
  }

  /** `Packet::parse`: the data between `$` and the first `#` if the two
      characters after that `#` read (as `std::stoi` in base 16 reads them)
      as its checksum. When `stoi` throws (`ParseThrows`) there is no
      data either; `ReceivePacket` tells that case apart. */
  function Parse(raw: seq<Byte>): (r: Option<seq<Byte>>)
    ensures ParseThrows(raw) ==> r.None?
    ensures r.Some? ==> (|r.value| + 4 <= |raw|
      && raw[0] == PacketStart && raw[1..|r.value| + 1] == r.value && raw[|r.value| + 1] == PacketEnd
      && (forall i :: 0 <= i < |r.value| ==> r.value[i] != PacketEnd)
      && HexPair(raw[|r.value| + 2], raw[|r.value| + 3]) == Some(Checksum(r.value)))
  {
    if |raw| < 4 || raw[0] != PacketStart then None
    else
      var h := IndexOf(raw, PacketEnd);
      if h == |raw| || h + 3 > |raw| then None
      else
        var data := raw[1..h];
        match HexPair(raw[h + 1], raw[h + 2])
        case None => None
        case Some(expected) => if Checksum(data) == expected then Some(data) else None
  }

  /** The converse: a well-formed frame, whatever follows its checksum
      digits, parses exactly when the digits name its checksum. */
  lemma ParseFrame(d: seq<Byte>, d0: Byte, d1: Byte, tail: seq<Byte>)
    requires forall i :: 0 <= i < |d| ==> d[i] != PacketEnd
    ensures Parse([PacketStart] + d + [PacketEnd, d0, d1] + tail)
         == if HexPair(d0, d1) == Some(Checksum(d)) then Some(d) else None
    ensures ParseThrows([PacketStart] + d + [PacketEnd, d0, d1] + tail) <==> HexPair(d0, d1).None?
  {
    var raw := [PacketStart] + d + [PacketEnd, d0, d1] + tail;
    var h := |d| + 1;
    assert IndexOf(raw, PacketEnd) == h && raw[1..h] == d && raw[h + 1] == d0 && raw[h + 2] == d1 by {
      var a := [PacketStart] + d;
      assert raw == a + ([PacketEnd, d0, d1] + tail);
      assert forall j :: 0 <= j < |a| ==> a[j] != PacketEnd by {
        forall j | 0 <= j < |a| ensures a[j] != PacketEnd {
          if j > 0 { assert a[j] == d[j - 1]; }
        }
      }
      IndexOfAppend(a, PacketEnd, [PacketEnd, d0, d1] + tail);
    }
    ParseAt(raw, h);
  }

  /** `Parse` once the `#` has been found at `h`. */
  lemma ParseAt(raw: seq<Byte>, h: nat)
    requires 4 <= h + 3 <= |raw| && raw[0] == PacketStart && IndexOf(raw, PacketEnd) == h
    ensures Parse(raw) == if HexPair(raw[h + 1], raw[h + 2]) == Some(Checksum(raw[1..h])) then Some(raw[1..h]) else None
  {
  }

  /** `parse(format(d))` succeeds with `d` whenever `d` has no `#`. */
  lemma ParseFormat(d: seq<Byte>)
    requires forall i :: 0 <= i < |d| ==> d[i] != PacketEnd
    ensures Parse(FormatPacket(d)) == Some(d)
  {
    var h := HexByte(Checksum(d));
    assert FormatPacket(d) == [PacketStart] + d + [PacketEnd, h[0], h[1]] + [];
    ParseFrame(d, h[0], h[1], []);
  }

  /** No `#` inside: such data frames and parses back unchanged. */
  predicate Unframed(s: seq<Byte>)
  {
    forall i :: 0 <= i < |s| ==> s[i] != PacketEnd
  }

  /** Text without `#` encodes to unframed bytes. */
  lemma AsciiUnframed(t: string)
    requires forall i :: 0 <= i < |t| ==> t[i] != '#'
    requires forall i :: 0 <= i < |t| ==> t[i] as int < 256
    ensures Unframed(Ascii(t))
  {
  }

  // ---------------------------------------------------------------------
  // format_hex

  /** `GdbStub::format_hex(value, bytes)`: the low `bytes` bytes of a 64-bit
      value, least significant first, two lower-case digits each. The shift
      by `i * 8` is only defined for at most eight bytes. */
  function FormatHex(value: nat, bytes: nat): (h: seq<Byte>)
    requires value < TwoTo64 && bytes <= 8
    ensures |h| == 2 * bytes
    ensures DecodePairs(h) == (LittleEndian(value, bytes), true)
    ensures FromLittleEndian(DecodePairs(h).0) == value % Pow256(bytes)
    ensures Unframed(h)
  {
    DecodeHexBytes(LittleEndian(value, bytes), []);
    assert HexBytes(LittleEndian(value, bytes)) + [] == HexBytes(LittleEndian(value, bytes));
    LittleEndianValue(value, bytes);
    HexBytes(LittleEndian(value, bytes))
  }

  // ---------------------------------------------------------------------
  // Memory handlers

  const ErrorReply1: seq<Byte> := [0x45, 0x30, 0x31]  // "E01"
  const ErrorReply2: seq<Byte> := [0x45, 0x30, 0x32]  // "E02"
  const ErrorReply3: seq<Byte> := [0x45, 0x30, 0x33]  // "E03"
  const ErrorReply4: seq<Byte> := [0x45, 0x30, 0x34]  // "E04"
  const OkReply: seq<Byte> := [0x4F, 0x4B]            // "OK"
  const TrapReply: seq<Byte> := [0x53, 0x30, 0x35]    // "S05"
  const MaxTransfer: nat := 4096

  /** `handle_read_memory`: `E01` for a length of 0 or above 4096, `E02` for
      address 0, otherwise two hex digits per byte read. */
  function ReadMemory(addr: nat, length: nat, mem: nat -> Byte): (reply: seq<Byte>)
    ensures (length == 0 || length > MaxTransfer) ==> reply == ErrorReply1
    ensures 0 < length <= MaxTransfer && addr == 0 ==> reply == ErrorReply2
    ensures 0 < length <= MaxTransfer && addr != 0 ==>
      DecodePairs(reply) == (seq(length, i requires 0 <= i < length => mem(addr + i)), true)
    ensures Unframed(reply)
  {
    if length == 0 || length > MaxTransfer then ErrorReply1
    else if addr == 0 then ErrorReply2
    else
      var bytes := seq(length, i requires 0 <= i < length => mem(addr + i));
      DecodeHex(bytes);
      HexBytes(bytes)
  }

  /** The outcome of a memory write: the reply and the bytes stored from the
      address, in order. */
  datatype Written = Written(reply: seq<Byte>, stored: seq<Byte>)

  /** `handle_write_memory`: `E01` for address 0, `E02` for empty or
      odd-length data, `E03` above 4096 bytes; otherwise the pairs are
      stored one by one, and a pair `std::stoi` rejects ends the write with
      `E04`, the bytes before it already stored. */
  function WriteMemory(addr: nat, data: seq<Byte>): (w: Written)
    ensures addr == 0 ==> w == Written(ErrorReply1, [])
    ensures addr != 0 && (|data| == 0 || |data| % 2 != 0) ==> w == Written(ErrorReply2, [])
    ensures addr != 0 && |data| > 0 && |data| % 2 == 0 && |data| / 2 > MaxTransfer ==> w == Written(ErrorReply3, [])
    ensures w.reply == OkReply ==> |w.stored| == |data| / 2 && 0 < |w.stored| <= MaxTransfer
    ensures w.reply == OkReply || w.reply == ErrorReply4 ==> w.stored == DecodePairs(data).0
  {
    if addr == 0 then Written(ErrorReply1, [])
    else if |data| == 0 || |data| % 2 != 0 then Written(ErrorReply2, [])
    else if |data| / 2 > MaxTransfer then Written(ErrorReply3, [])
    else
      var decoded := DecodePairs(data);
      Written(if decoded.1 then OkReply else ErrorReply4, decoded.0)
  }

  /** A write of encoded bytes stores exactly those bytes. */
  lemma WriteMemoryStores(addr: nat, bs: seq<Byte>)
    requires addr != 0 && 0 < |bs| <= MaxTransfer
    ensures WriteMemory(addr, HexBytes(bs)) == Written(OkReply, bs)
  {
    DecodeHex(bs);
    WriteMemoryDecoded(addr, HexBytes(bs), bs);
  }

  lemma WriteMemoryDecoded(addr: nat, data: seq<Byte>, bs: seq<Byte>)
    requires addr != 0 && |data| == 2 * |bs| && 0 < |bs| <= MaxTransfer
    requires DecodePairs(data) == (bs, true)
    ensures WriteMemory(addr, data) == Written(OkReply, bs)
  {
  }

  // ---------------------------------------------------------------------
  // Queries and commands

  const SupportedReply: seq<Byte> := Ascii("PacketSize=4096;qXfer:features:read+")

  /** `GdbStub::handle_query`: each `substr(0, n) == literal` test has `n`
      equal to the literal's length except the `TStatus` one, whose answer is
      empty either way. */
  function HandleQuery(params: seq<Byte>): (reply: seq<Byte>)
    ensures StartsWith(params, Ascii("Supported")) ==> reply == SupportedReply
    ensures !StartsWith(params, Ascii("Supported")) && params == Ascii("C") ==> reply == Ascii("QC1")
    ensures (!StartsWith(params, Ascii("Supported")) && params != Ascii("C")
             && StartsWith(params, Ascii("Attached"))) ==> reply == Ascii("1")
    ensures (!StartsWith(params, Ascii("Supported")) && params != Ascii("C")
             && !StartsWith(params, Ascii("Attached")) && StartsWith(params, Ascii("Symbol:")))
            ==> reply == OkReply
    ensures (!StartsWith(params, Ascii("Supported")) && params != Ascii("C")
             && !StartsWith(params, Ascii("Attached")) && !StartsWith(params, Ascii("Symbol:")))
            ==> reply == []
    ensures Unframed(reply)
  {
    AsciiUnframed("PacketSize=4096;qXfer:features:read+");
    AsciiUnframed("QC1");
    AsciiUnframed("1");
    PrefixIsMeaning(params, 9, Ascii("Supported"));
    PrefixIsMeaning(params, 8, Ascii("Attached"));
    PrefixIsMeaning(params, 7, Ascii("Symbol:"));
    if PrefixIs(params, 9, Ascii("Supported")) then SupportedReply
    else if params == Ascii("C") then Ascii("QC1")
    else if PrefixIs(params, 8, Ascii("Attached")) then Ascii("1")
    else if PrefixIs(params, 7, Ascii("Symbol:")) then OkReply
    else if PrefixIs(params, 6, Ascii("TStatus")) then []
    else []
  }

  const Comma: Byte := 0x2C  // ','
  const Colon: Byte := 0x3A  // ':'

  /** What a command does: the reply, whether it stops the stub, and the
      bytes it stores to memory from address `at`. */
  datatype Handled = Handled(reply: seq<Byte>, stop: bool, stored: seq<Byte>, at: nat)

  function Answer(reply: seq<Byte>): Handled
  {
    Handled(reply, false, [], 0)
  }

  /** `handle_read_registers`: every captured register as eight little-endian
      bytes. */
  function RegisterDump(cpu: seq<nat>): (h: seq<Byte>)
    requires forall i :: 0 <= i < |cpu| ==> cpu[i] < TwoTo64
    ensures |h| == 16 * |cpu|
    ensures Unframed(h)
  {
    if |cpu| == 0 then [] else FormatHex(cpu[0], 8) + RegisterDump(cpu[1..])
  }

  /** The address field of `Z`/`z`: from after the first comma up to the
      next comma, or to the end. */
  function BreakpointAddress(params: seq<Byte>, comma1: nat): seq<Byte>
    requires comma1 < |params|
  {
    var comma2 := IndexFrom(params, Comma, comma1 + 1);
    params[comma1 + 1..comma2]
  }

  /** `m<addr>,<length>`: `E01` without a comma, otherwise the two fields
      as `parse_hex` reads them and `handle_read_memory`. */
  function ReadCommand(params: seq<Byte>, mem: nat -> Byte): (r: Option<Handled>)
    ensures Comma !in params ==> r == Some(Answer(ErrorReply1))
    ensures r.Some? ==> !r.value.stop && r.value.stored == [] && Unframed(r.value.reply)
  {
    var comma := IndexOf(params, Comma);
    if comma == |params| then Some(Answer(ErrorReply1))
    else
      var addr :- ParseHexNumber(params[..comma]);
      var length :- ParseHexNumber(params[comma + 1..]);
      Some(Answer(ReadMemory(addr, length, mem)))
  }

  /** `M<addr>,<length>:<data>`: `E01` without both a comma and a colon;
      the length field is never read, and the data runs from after the
      first colon to the end. */
  function WriteCommand(params: seq<Byte>): (r: Option<Handled>)
    ensures (Comma !in params || Colon !in params) ==> r == Some(Answer(ErrorReply1))
    ensures r.Some? ==> !r.value.stop && Unframed(r.value.reply)
  {
    var comma := IndexOf(params, Comma);
    var colon := IndexOf(params, Colon);
    if comma == |params| || colon == |params| then Some(Answer(ErrorReply1))
    else
      var addr :- ParseHexNumber(params[..comma]);
      var w := WriteMemory(addr, params[colon + 1..]);
      Some(Handled(w.reply, false, w.stored, addr))
  }

  /** `Z`/`z<type>,<addr>,<kind>`: `E01` without a comma; an address field
      `parse_hex` accepts is answered `OK` (nothing is planted). */
  function BreakpointCommand(params: seq<Byte>): (r: Option<Handled>)
    ensures Comma !in params ==> r == Some(Answer(ErrorReply1))
    ensures r.Some? && Comma in params ==> r == Some(Answer(OkReply))
  {
    var comma1 := IndexOf(params, Comma);
    if comma1 == |params| then Some(Answer(ErrorReply1))
    else
      var _ :- ParseHexNumber(BreakpointAddress(params, comma1));
      Some(Answer(OkReply))
  }

  /** `GdbStub::handle_command`. `None` stands for the exception
      `std::stoull` throws when an address or length field does not start
      with a hex digit or does not fit in 64 bits. */
  function HandleCommand(cmd: seq<Byte>, cpu: seq<nat>, mem: nat -> Byte): (r: Option<Handled>)
    requires |cpu| == 18 && forall i :: 0 <= i < |cpu| ==> cpu[i] < TwoTo64
    ensures |cmd| == 0 ==> r == Some(Answer([]))
    ensures (r.Some? && r.value.stop) <==> (|cmd| > 0 && cmd[0] == 0x6B)
    ensures r.Some? && r.value.stop ==> r.value.reply == []
    ensures r.Some? && |r.value.stored| > 0 ==> cmd[0] == 0x4D
    ensures r.None? ==> cmd[0] in {0x6D, 0x4D, 0x5A, 0x7A}
    ensures |cmd| > 0 && cmd[0] == 0x3F ==> r == Some(Answer(TrapReply))
    ensures |cmd| > 0 && cmd[0] == 0x6D && Comma !in cmd[1..] ==> r == Some(Answer(ErrorReply1))
    ensures |cmd| > 0 && cmd[0] == 0x4D && (Comma !in cmd[1..] || Colon !in cmd[1..])
      ==> r == Some(Answer(ErrorReply1))
    ensures |cmd| > 0 && cmd[0] !in {0x3F, 0x71, 0x51, 0x67, 0x47, 0x6D, 0x4D, 0x63, 0x73, 0x5A, 0x7A, 0x6B}
      ==> r == Some(Answer([]))
    ensures r.Some? ==> Unframed(r.value.reply)
  {
    if |cmd| == 0 then Some(Answer([])) else Command(cmd[0], cmd[1..], cpu, mem)
  }

  /** The handler the command letter picks, given the rest of the packet. */
  function Command(command: Byte, params: seq<Byte>, cpu: seq<nat>, mem: nat -> Byte): Option<Handled>
    requires forall i :: 0 <= i < |cpu| ==> cpu[i] < TwoTo64
  {
    if command == 0x3F then Some(Answer(TrapReply))                          // '?'
    else if command == 0x71 || command == 0x51 then Some(Answer(HandleQuery(params)))  // 'q', 'Q'
    else if command == 0x67 then Some(Answer(RegisterDump(cpu)))             // 'g'
    else if command == 0x47 then Some(Answer(OkReply))                       // 'G'
    else if command == 0x6D then                                             // 'm'
      ReadCommand(params, mem)
    else if command == 0x4D then                                             // 'M'
      WriteCommand(params)
    else if command == 0x63 || command == 0x73 then Some(Answer(TrapReply))  // 'c', 's'
    else if command == 0x5A || command == 0x7A then                          // 'Z', 'z'
      BreakpointCommand(params)
    else if command == 0x6B then Some(Handled([], true, [], 0))             // 'k'
    else Some(Answer([]))
  }

  /** Hex digits hold no comma and no colon. */
  lemma DigitsHaveNoSeparator(h: seq<Byte>)
    requires forall i :: 0 <= i < |h| ==> LowerHex(h[i])
    ensures forall i :: 0 <= i < |h| ==> h[i] != Comma && h[i] != Colon
  {
  }

  /** The command letter picks the handler for the rest of the packet. */
  lemma Dispatch(command: Byte, params: seq<Byte>, cpu: seq<nat>, mem: nat -> Byte)
    requires |cpu| == 18 && forall i :: 0 <= i < |cpu| ==> cpu[i] < TwoTo64
    ensures command == 0x6D ==> HandleCommand([command] + params, cpu, mem) == ReadCommand(params, mem)
    ensures command == 0x4D ==> HandleCommand([command] + params, cpu, mem) == WriteCommand(params)
    ensures command == 0x6B ==> HandleCommand([command] + params, cpu, mem) == Some(Handled([], true, [], 0))
  {
    var cmd := [command] + params;
    assert |cmd| > 0 && cmd[0] == command && cmd[1..] == params;
    assert HandleCommand(cmd, cpu, mem) == Command(command, params, cpu, mem);
    if command == 0x6D {
      ReadPicked(params, cpu, mem);
    } else if command == 0x4D {
      WritePicked(params, cpu, mem);
    }
  }

  lemma ReadPicked(params: seq<Byte>, cpu: seq<nat>, mem: nat -> Byte)
    requires forall i :: 0 <= i < |cpu| ==> cpu[i] < TwoTo64
    ensures Command(0x6D, params, cpu, mem) == ReadCommand(params, mem)
  {
  }

  lemma WritePicked(params: seq<Byte>, cpu: seq<nat>, mem: nat -> Byte)
    requires forall i :: 0 <= i < |cpu| ==> cpu[i] < TwoTo64
    ensures Command(0x4D, params, cpu, mem) == WriteCommand(params)
  {
  }

  /** The fields of a read request, parsed. */
  lemma ReadFields(addr: nat, length: nat, mem: nat -> Byte)
    requires addr < TwoTo64 && length < TwoTo64
    ensures ReadCommand(HexNumber(addr) + [Comma] + HexNumber(length), mem)
         == Some(Answer(ReadMemory(addr, length, mem)))
  {
    var a, n := HexNumber(addr), HexNumber(length);
    assert ParseHexNumber(a) == Some(addr) && ParseHexNumber(n) == Some(length) by {
      HexNumberRoundTrip(addr, []);
      HexNumberRoundTrip(length, []);
      assert a + [] == a && n + [] == n;
    }
    CommaFields(a + [Comma] + n, a, n);
    ReadAt(a + [Comma] + n, a, n, addr, length, mem);
  }

  /** Where the comma after a run of hex digits is, and what lies on each
      side of it. */
  lemma CommaFields(p: seq<Byte>, a: seq<Byte>, n: seq<Byte>)
    requires p == a + [Comma] + n
    requires forall i :: 0 <= i < |a| ==> LowerHex(a[i])
    ensures IndexOf(p, Comma) == |a| && p[..|a|] == a && p[|a| + 1..] == n
  {
    assert p == a + ([Comma] + n);
    DigitsHaveNoSeparator(a);
    IndexOfAppend(a, Comma, [Comma] + n);
  }

  lemma ReadAt(p: seq<Byte>, a: seq<Byte>, n: seq<Byte>, addr: nat, length: nat, mem: nat -> Byte)
    requires IndexOf(p, Comma) == |a| < |p| && p[..|a|] == a && p[|a| + 1..] == n
    requires ParseHexNumber(a) == Some(addr) && ParseHexNumber(n) == Some(length)
    ensures ReadCommand(p, mem) == Some(Answer(ReadMemory(addr, length, mem)))
  {
  }

  /** A read request written the way a debugger writes it is answered with
      the memory it names. */
  lemma ReadRequest(addr: nat, length: nat, cpu: seq<nat>, mem: nat -> Byte)
    requires addr < TwoTo64 && length < TwoTo64
    requires |cpu| == 18 && forall i :: 0 <= i < |cpu| ==> cpu[i] < TwoTo64
    ensures HandleCommand([0x6D] + HexNumber(addr) + [Comma] + HexNumber(length), cpu, mem)
         == Some(Answer(ReadMemory(addr, length, mem)))
  {
    var params := HexNumber(addr) + [Comma] + HexNumber(length);
    assert [0x6D] + HexNumber(addr) + [Comma] + HexNumber(length) == [0x6D] + params;
    ReadFields(addr, length, mem);
    Dispatch(0x6D, params, cpu, mem);
  }

  /** Where the address field and the data of a write request sit. */
  lemma WriteLayout(a: seq<Byte>, n: seq<Byte>, d: seq<Byte>)
    requires forall i :: 0 <= i < |a| ==> LowerHex(a[i])
    requires forall i :: 0 <= i < |n| ==> LowerHex(n[i])
    ensures var params := a + [Comma] + n + [Colon] + d;
      IndexOf(params, Comma) == |a| && IndexOf(params, Colon) == |a| + |n| + 1
      && params[..|a|] == a && params[|a| + |n| + 2..] == d
  {
    var head := a + [Comma] + n;
    var params := head + ([Colon] + d);
    assert a + [Comma] + n + [Colon] + d == params;
    assert params == a + ([Comma] + (n + [Colon] + d));
    DigitsHaveNoSeparator(a);
    DigitsHaveNoSeparator(n);
    IndexOfAppend(a, Comma, [Comma] + (n + [Colon] + d));
    assert forall j :: 0 <= j < |head| ==> head[j] != Colon;
    IndexOfAppend(head, Colon, [Colon] + d);
  }

  /** The fields of a write request carrying encoded bytes, parsed. */
  lemma WriteFields(addr: nat, bs: seq<Byte>)
    requires 0 < addr < TwoTo64 && 0 < |bs| <= MaxTransfer
    ensures WriteCommand(HexNumber(addr) + [Comma] + HexNumber(|bs|) + [Colon] + HexBytes(bs))
         == Some(Handled(OkReply, false, bs, addr))
  {
    var a := HexNumber(addr);
    WriteLayout(a, HexNumber(|bs|), HexBytes(bs));
    assert a == a + [];
    HexNumberRoundTrip(addr, []);
    WriteMemoryStores(addr, bs);
  }

  /** A write request carrying encoded bytes stores exactly those bytes at
      its address and is answered `OK`. */
  lemma WriteRequest(addr: nat, bs: seq<Byte>, cpu: seq<nat>, mem: nat -> Byte)
    requires 0 < addr < TwoTo64 && 0 < |bs| <= MaxTransfer
    requires |cpu| == 18 && forall i :: 0 <= i < |cpu| ==> cpu[i] < TwoTo64
    ensures HandleCommand([0x4D] + HexNumber(addr) + [Comma] + HexNumber(|bs|) + [Colon] + HexBytes(bs), cpu, mem)
         == Some(Handled(OkReply, false, bs, addr))
  {
    var params := HexNumber(addr) + [Comma] + HexNumber(|bs|) + [Colon] + HexBytes(bs);
    assert [0x4D] + HexNumber(addr) + [Comma] + HexNumber(|bs|) + [Colon] + HexBytes(bs) == [0x4D] + params;
    WriteFields(addr, bs);
    Dispatch(0x4D, params, cpu, mem);
  }

  // ---------------------------------------------------------------------
  // The main loop

  /** What `GdbStub::receive_packet` yields: the packet data (empty when the
      connection closed or the packet was rejected), the acknowledgements it
      sent, the transport chunks still unread, and whether `parse` threw. */
  datatype Received = Received(data: seq<Byte>, sent: seq<seq<Byte>>, rest: seq<seq<Byte>>, thrown: bool)

  /** `GdbStub::receive_packet` over the chunks successive `receive()` calls
      return (an empty chunk, or none left, is a closed connection). One
      leading `+` or `-` is dropped; a chunk holding only that is skipped. A
      packet that parses is acknowledged with `+`, one that does not with
      `-`; when `parse` throws nothing is sent and the exception leaves
      `receive_packet`. */
  function ReceivePacket(chunks: seq<seq<Byte>>): (r: Received)
    ensures |r.rest| < |chunks| || (chunks == [] && r == Received([], [], [], false))
    ensures r.sent == [] || r.sent == [[AckByte]] || r.sent == [[NackByte]]
    ensures r.sent != [[AckByte]] ==> r.data == []
    ensures r.sent == [[AckByte]] ==> Unframed(r.data)
    ensures r.thrown ==> r.sent == []
    decreases |chunks|
  {
    if |chunks| == 0 then Received([], [], [], false)
    else
      var data := chunks[0];
      if |data| == 0 then Received([], [], chunks[1..], false)
      else if (data[0] == AckByte || data[0] == NackByte) && |data| == 1 then ReceivePacket(chunks[1..])
      else
        var raw := if data[0] == AckByte || data[0] == NackByte then data[1..] else data;
        if ParseThrows(raw) then Received([], [], chunks[1..], true)
        else
          match Parse(raw)
          case None => Received([], [[NackByte]], chunks[1..], false)
          case Some(d) => Received(d, [[AckByte]], chunks[1..], false)
  }

  /** A packet framed by `Packet::format`, alone in its chunk or after one
      acknowledgement byte, is received and acknowledged. */
  lemma ReceiveFormatted(d: seq<Byte>, prefix: seq<Byte>, rest: seq<seq<Byte>>)
    requires Unframed(d)
    requires prefix == [] || prefix == [AckByte] || prefix == [NackByte]
    ensures ReceivePacket([prefix + FormatPacket(d)] + rest) == Received(d, [[AckByte]], rest, false)
  {
    var chunks := [prefix + FormatPacket(d)] + rest;
    assert chunks[1..] == rest;
    assert chunks[0][0] == (if prefix == [] then PacketStart else prefix[0]);
    assert (if prefix == [] then chunks[0] else chunks[0][1..]) == FormatPacket(d);
    ParseFormat(d);
  }

  /** A frame whose checksum characters hold no hex digit is neither
      acknowledged nor refused: `stoi` throws while it is parsed. */
  lemma ReceiveThrows(d: seq<Byte>, d0: Byte, d1: Byte, tail: seq<Byte>, rest: seq<seq<Byte>>)
    requires Unframed(d) && HexPair(d0, d1).None?
    ensures ReceivePacket([[PacketStart] + d + [PacketEnd, d0, d1] + tail] + rest) == Received([], [], rest, true)
  {
    var raw := [PacketStart] + d + [PacketEnd, d0, d1] + tail;
    assert ([raw] + rest)[1..] == rest;
    ParseFrame(d, d0, d1, tail);
  }

  /** A lone acknowledgement chunk is skipped. */
  lemma ReceiveSkipsAck(b: Byte, chunks: seq<seq<Byte>>)
    requires b == AckByte || b == NackByte
    ensures ReceivePacket([[b]] + chunks) == ReceivePacket(chunks)
  {
    assert ([[b]] + chunks)[1..] == chunks;
  }

  /** Every message the stub sends: an acknowledgement, or a framed reply
      that parses back. */
  predicate WellFormedOutput(out: seq<seq<Byte>>)
  {
    forall i :: 0 <= i < |out| ==> out[i] == [AckByte] || out[i] == [NackByte] || Parse(out[i]).Some?
  }

  /** How `GdbStub::run` ends: everything written to the transport, in
      order, and whether an exception left `run` (rather than the loop
      ending and `stop()` being called). */
  datatype Session = Session(out: seq<seq<Byte>>, thrown: bool)

  /** `GdbStub::run`: receive a packet, stop on empty data, otherwise
      handle it and send any non-empty reply as a packet; `k` ends the
      loop. Sends are taken to succeed. Nothing catches an exception from
      `parse` (inside `receive_packet`) or from `parse_hex` (inside
      `handle_command`): it leaves `run` with nothing more sent. Memory
      writes are seen by later reads. */
  function Run(chunks: seq<seq<Byte>>, cpu: seq<nat>, mem: nat -> Byte): (s: Session)
    requires |cpu| == 18 && forall i :: 0 <= i < |cpu| ==> cpu[i] < TwoTo64
    ensures WellFormedOutput(s.out)
    decreases |chunks|
  {
    var r := ReceivePacket(chunks);
    if r.thrown then Session(r.sent, true)
    else if |r.data| == 0 then Session(r.sent, false)
    else
      match HandleCommand(r.data, cpu, mem)
      case None => Session(r.sent, true)
      case Some(h) =>
        ParseFormat(h.reply);
        var out := r.sent + (if |h.reply| > 0 then [FormatPacket(h.reply)] else []);
        if h.stop then Session(out, false)
        else
          var next := Run(r.rest, cpu, Store(mem, h.at, h.stored));
          Session(out + next.out, next.thrown)
  }

  /** A frame whose checksum characters `stoi` cannot read ends the session
      by the exception, with nothing sent for it. */
  lemma RunThrows(d: seq<Byte>, d0: Byte, d1: Byte, tail: seq<Byte>, rest: seq<seq<Byte>>,
                  cpu: seq<nat>, mem: nat -> Byte)
    requires |cpu| == 18 && forall i :: 0 <= i < |cpu| ==> cpu[i] < TwoTo64
    requires Unframed(d) && HexPair(d0, d1).None?
    ensures Run([[PacketStart] + d + [PacketEnd, d0, d1] + tail] + rest, cpu, mem) == Session([], true)
  {
    ReceiveThrows(d, d0, d1, tail, rest);
  }

  /** A kill request is acknowledged and ends the session, whatever follows. */
  lemma RunKill(rest: seq<seq<Byte>>, cpu: seq<nat>, mem: nat -> Byte)
    requires |cpu| == 18 && forall i :: 0 <= i < |cpu| ==> cpu[i] < TwoTo64
    ensures Run([FormatPacket([0x6B])] + rest, cpu, mem) == Session([[AckByte]], false)
  {
    var chunks := [FormatPacket([0x6B])] + rest;
    assert [] + FormatPacket([0x6B]) == FormatPacket([0x6B]);
    ReceiveFormatted([0x6B], [], rest);
    Dispatch(0x6B, [], cpu, mem);
    assert [0x6B] + [] == [0x6B];
    var r := ReceivePacket(chunks);
    assert r.data == [0x6B] && r.sent == [[AckByte]];
    assert HandleCommand(r.data, cpu, mem) == Some(Handled([], true, [], 0));
  }

  /** One turn of the loop that goes on. */
  lemma RunStep(chunks: seq<seq<Byte>>, cpu: seq<nat>, mem: nat -> Byte, h: Handled)
    requires |cpu| == 18 && forall i :: 0 <= i < |cpu| ==> cpu[i] < TwoTo64
    requires !ReceivePacket(chunks).thrown && |ReceivePacket(chunks).data| > 0
    requires HandleCommand(ReceivePacket(chunks).data, cpu, mem) == Some(h)
    requires !h.stop && |h.reply| > 0
    ensures var next := Run(ReceivePacket(chunks).rest, cpu, Store(mem, h.at, h.stored));
      Run(chunks, cpu, mem) == Session(ReceivePacket(chunks).sent + [FormatPacket(h.reply)] + next.out, next.thrown)
  {
  }

  /** A command with a reply is acknowledged, answered, and the session goes
      on with the memory it wrote. */
  lemma RunAnswers(d: seq<Byte>, rest: seq<seq<Byte>>, cpu: seq<nat>, mem: nat -> Byte)
    requires |cpu| == 18 && forall i :: 0 <= i < |cpu| ==> cpu[i] < TwoTo64
    requires Unframed(d) && |d| > 0
    requires HandleCommand(d, cpu, mem).Some?
    requires |HandleCommand(d, cpu, mem).value.reply| > 0
    ensures var h := HandleCommand(d, cpu, mem).value;
      var next := Run(rest, cpu, Store(mem, h.at, h.stored));
      Run([FormatPacket(d)] + rest, cpu, mem) == Session([[AckByte], FormatPacket(h.reply)] + next.out, next.thrown)
  {
    var chunks := [FormatPacket(d)] + rest;
    assert [] + FormatPacket(d) == FormatPacket(d);
    ReceiveFormatted(d, [], rest);
    var r := ReceivePacket(chunks);
    assert r.data == d && r.sent == [[AckByte]] && r.rest == rest && !r.thrown;
    var h := HandleCommand(d, cpu, mem).value;
    assert !h.stop;
    RunStep(chunks, cpu, mem, h);
    var tail := Run(rest, cpu, Store(mem, h.at, h.stored)).out;
    PrependTwo([AckByte], FormatPacket(h.reply), tail);
  }

  lemma PrependTwo<T>(a: T, b: T, t: seq<T>)
    ensures [a] + [b] + t == [a, b] + t
  {
  }

  // ---------------------------------------------------------------------
  // The standalone test vectors

  lemma QSupportedBytes()
    ensures Ascii("qSupported") == [113, 83, 117, 112, 112, 111, 114, 116, 101, 100]
  {
    var s := Ascii("qSupported");
    assert s[0] == 113 && s[1] == 83 && s[2] == 117 && s[3] == 112 && s[4] == 112;
    assert s[5] == 111 && s[6] == 114 && s[7] == 116 && s[8] == 101 && s[9] == 100;
  }

  lemma QSupportedUnframed()
    ensures forall i :: 0 <= i < |Ascii("qSupported")| ==> Ascii("qSupported")[i] != PacketEnd
  {
    QSupportedBytes();
  }

  /** The checksum of `"qSupported"` is 0x37 (the byte values add up to
      1079). */
  lemma StandaloneChecksum()
    ensures Checksum(Ascii("qSupported")) == 0x37
  {
    var s := Ascii("qSupported");
    QSupportedBytes();
    assert Sum(s[10..]) == 0;
    assert Sum(s[9..]) == 100;
    assert Sum(s[8..]) == 201;
    assert Sum(s[7..]) == 317;
    assert Sum(s[6..]) == 431;
    assert Sum(s[5..]) == 542;
    assert Sum(s[4..]) == 654;
    assert Sum(s[3..]) == 766;
    assert Sum(s[2..]) == 883;
    assert Sum(s[1..]) == 966;
    assert Sum(s[0..]) == 1079;
  }

  /** Text `"$" + t + "#" + [c0, c1]` as bytes. */
  lemma FrameText(t: string, c0: char, c1: char)
    ensures Ascii("$" + t + ['#', c0, c1])
         == [PacketStart] + Ascii(t) + [PacketEnd, (c0 as int) % 256, (c1 as int) % 256]
  {
    AsciiAppend("$", t);
    AsciiAppend("$" + t, ['#', c0, c1]);
  }

  /** A frame around data whose checksum is 0x37. */
  lemma FormatChecksum37(d: seq<Byte>)
    requires Checksum(d) == 0x37
    ensures FormatPacket(d) == [PacketStart] + d + [PacketEnd, 0x33, 0x37]
  {
    assert HexByte(0x37) == [0x33, 0x37];
  }

  /** `"qSupported"` is framed as `"$qSupported#37"`. */
  lemma StandaloneFormat()
    ensures FormatPacket(Ascii("qSupported")) == Ascii("$qSupported#37")
  {
    StandaloneChecksum();
    FormatChecksum37(Ascii("qSupported"));
    assert "$qSupported#37" == "$" + "qSupported" + ['#', '3', '7'];
    FrameText("qSupported", '3', '7');
  }

  /** `"$qSupported#37"` parses back to `"qSupported"`. */
  lemma StandaloneParse()
    ensures Parse(Ascii("$qSupported#37")) == Some(Ascii("qSupported"))
  {
    QSupportedBytes();
    StandaloneFormat();
    ParseFormat(Ascii("qSupported"));
  }

  /** `"$qSupported#00"` is rejected: 0x00 is not its checksum. */
  lemma StandaloneParseBadChecksum()
    ensures Parse(Ascii("$qSupported#00")) == None
  {
    var d := Ascii("qSupported");
    assert "$qSupported#00" == "$" + "qSupported" + ['#', '0', '0'];
    FrameText("qSupported", '0', '0');
    assert Ascii("$qSupported#00") == [PacketStart] + d + [PacketEnd, 0x30, 0x30] + [];
    QSupportedUnframed();
    ParseFrame(d, 0x30, 0x30, []);
    assert HexPair(0x30, 0x30) == Some(0);
    StandaloneChecksum();
  }

  /** `"?"` is framed as `"$?#3f"`. */
  lemma StandaloneQuestion()
    ensures FormatPacket(Ascii("?")) == Ascii("$?#3f")
  {
    var q := Ascii("?");
    assert q == [0x3F];
    assert q[1..] == [];
    assert Checksum(q) == 0x3F;
    assert HexByte(0x3F) == [0x33, 0x66];
    var f := Ascii("$?#3f");
    assert f[0] == PacketStart && f[1] == 0x3F && f[2] == PacketEnd && f[3] == 0x33 && f[4] == 0x66;
  }

  /** `"m1000,10"` survives format then parse. */
  lemma StandaloneReadCommand()
    ensures Parse(FormatPacket(Ascii("m1000,10"))) == Some(Ascii("m1000,10"))
  {
    var m := Ascii("m1000,10");
    assert m[0] == 0x6D && m[1] == 0x31 && m[2] == 0x30 && m[3] == 0x30;
    assert m[4] == 0x30 && m[5] == 0x2C && m[6] == 0x31 && m[7] == 0x30;
    ParseFormat(m);
  }

  /** 0x1234 in two little-endian bytes is `"3412"`. */
  lemma StandaloneHex()
    ensures FormatHex(0x1234, 2) == Ascii("3412")
  {
    assert LittleEndian(0x1234, 2) == [0x34, 0x12] by {
      assert LittleEndian(0x12, 1) == [0x12] + LittleEndian(0, 0);
    }
    assert HexBytes([0x34, 0x12]) == HexByte(0x34) + HexBytes([0x12]) by {
      assert [0x34, 0x12][1..] == [0x12];
    }
    assert HexBytes([0x12]) == HexByte(0x12) + HexBytes([]) by {
      assert [0x12][1..] == [];
    }
  }
}

=== FILE: java_launcher.dfy ===
/** The minimal Java launcher: it decides whether the user gave a heap
    limit, computes one from free memory when not, and builds the argument
    vector for `/usr/bin/java`. Forking, `execv` and waiting for the child
    are left to the caller; the free-memory figure is a parameter. */
module JavaLauncher {
  import PyText
  import opened Wrappers

  /** C's `strncmp(s, p, n) == 0` on NUL-terminated strings, with the
      terminator implicit: characters past the end read as NUL, and the
      comparison stops at the first difference or the first NUL. */
  predicate StrncmpEqual(s: string, p: string, n: nat)
    decreases n
  {
    n == 0
    || (var c1 := if |s| > 0 then s[0] else '\0';
        var c2 := if |p| > 0 then p[0] else '\0';
        c1 == c2 && (c1 == '\0' || StrncmpEqual(s[1..], p[1..], n - 1)))
  }

  /** `starts_with(s, prefix)`: `strncmp` over the prefix's length. */
  predicate StartsWith(s: string, prefix: string)
  {
    StrncmpEqual(s, prefix, |prefix|)
  }

  predicate NoNul(s: string)
  {
    forall i :: 0 <= i < |s| ==> s[i] != '\0'
  }

  /** On strings without an embedded NUL, the `strncmp` test is exactly the
      prefix test. */
  lemma {:induction false} StartsWithIsPrefix(s: string, prefix: string)
    requires NoNul(s) && NoNul(prefix)
    ensures StartsWith(s, prefix) <==> PyText.StartsWith(s, prefix)
  {
    StrncmpPrefix(s, prefix, |prefix|);
  }

  lemma {:induction false} StrncmpPrefix(s: string, p: string, n: nat)
    requires NoNul(s) && NoNul(p) && n == |p|
    ensures StrncmpEqual(s, p, n) <==> PyText.StartsWith(s, p)
    decreases n
  {
    if n > 0 {
      if |s| > 0 {
        StrncmpPrefix(s[1..], p[1..], n - 1);
        if PyText.StartsWith(s, p) {
          assert s[1..][..|p| - 1] == s[..|p|][1..];
        }
      }
    }
  }

  const XmxOption: string := "-Xmx"
  const MxOption: string := "-mx"

  /** The heap limit test over `argv[1..]`, written as the source's loop
      with its early return. */
  method HasHeapOption(argv: seq<string>) returns (found: bool)
    ensures found <==> exists i :: 1 <= i < |argv| && HeapArg(argv[i])
  {
    var i := 1;
    while i < |argv|
      invariant 1 <= i || |argv| <= i
      invariant forall k :: 1 <= k < i && k < |argv| ==> !HeapArg(argv[k])
    {
      if StartsWith(argv[i], XmxOption) || StartsWith(argv[i], MxOption) {
        return true;
      }
      i := i + 1;
    }
    return false;
  }

  predicate HeapArg(arg: string)
  {
    StartsWith(arg, XmxOption) || StartsWith(arg, MxOption)
  }

  predicate HasHeapArg(argv: seq<string>)
  {
    exists i :: 1 <= i < |argv| && HeapArg(argv[i])
  }

  // ---------------------------------------------------------------------
  // calculate_heap_size

  /** `std::to_string` of an unsigned value: its decimal digits, most
      significant first, with no leading zeros. */
  function Decimal(n: nat): (s: string)
    ensures |s| > 0 && forall i :: 0 <= i < |s| ==> '0' <= s[i] <= '9'
    ensures |s| > 1 ==> s[0] != '0'
  {
    if n < 10 then [Digit(n)] else Decimal(n / 10) + [Digit(n % 10)]
  }

  function Digit(d: nat): (c: char)
    requires d < 10
    ensures '0' <= c <= '9'
  {
    ['0', '1', '2', '3', '4', '5', '6', '7', '8', '9'][d]
  }

  /** Reading decimal digits back, most significant first. */
  function ParseDecimal(s: string): nat
    requires forall i :: 0 <= i < |s| ==> '0' <= s[i] <= '9'
  {
    if |s| == 0 then 0 else ParseDecimal(s[..|s| - 1]) * 10 + (s[|s| - 1] as int - '0' as int)
  }

  /** The decimal form reads back as the number. */
  lemma {:induction false} DecimalRoundTrip(n: nat)
    ensures ParseDecimal(Decimal(n)) == n
  {
    if n >= 10 {
      DecimalRoundTrip(n / 10);
      var s := Decimal(n);
      assert s[..|s| - 1] == Decimal(n / 10);
    }
  }

  /** The heap size in MiB: three quarters of the free MiB, at least 64.
      The source's `size_t` product cannot wrap: free memory is below 2^64
      bytes, so the MiB count times three stays below 2^46. */
  function HeapMegabytes(freeBytes: nat): (mb: nat)
    requires freeBytes < 0x1_0000_0000_0000_0000
    ensures mb >= 64
    ensures mb * 4 <= freeBytes / 0x10_0000 * 3 || mb == 64
    ensures freeBytes / 0x10_0000 * 3 < mb * 4 + 4 || mb == 64
  {
    var availableMb := freeBytes / 0x10_0000;
    var heapMb := availableMb * 3 / 4;
    if heapMb < 64 then 64 else heapMb
  }

  /** `calculate_heap_size`: `-Xmx<MiB>M`. */
  function HeapOption(freeBytes: nat): (opt: string)
    requires freeBytes < 0x1_0000_0000_0000_0000
  {
    XmxOption + Decimal(HeapMegabytes(freeBytes)) + "M"
  }

  /** The computed option reads back as the heap size and is one the heap
      test recognises. */
  lemma HeapOptionShape(freeBytes: nat)
    requires freeBytes < 0x1_0000_0000_0000_0000
    ensures var opt := HeapOption(freeBytes);
      var digits := opt[4..|opt| - 1];
      opt[|opt| - 1] == 'M' && (forall i :: 0 <= i < |digits| ==> '0' <= digits[i] <= '9')
      && ParseDecimal(digits) == HeapMegabytes(freeBytes)
      && HeapArg(opt)
  {
    var opt := HeapOption(freeBytes);
    var d := Decimal(HeapMegabytes(freeBytes));
    assert opt[4..|opt| - 1] == d;
    DecimalRoundTrip(HeapMegabytes(freeBytes));
    assert PyText.StartsWith(opt, XmxOption) by {
      assert opt[..4] == XmxOption;
    }
    StartsWithIsPrefix(opt, XmxOption);
  }

  // ---------------------------------------------------------------------
  // java_main argument vector

  const JavaBinary: string := "/usr/bin/java"
  const ClassPathFlag: string := "-cp"
  const GcMonitorJar: string := "/java/osv-gc-monitor.jar"

  /** The `java_args` vector: the binary, a computed heap limit when the
      user gave none, the class path of the GC monitor, then the user's
      arguments after the program name. */
  method JavaArgs(argv: seq<string>, freeBytes: nat) returns (args: seq<string>)
    requires freeBytes < 0x1_0000_0000_0000_0000
    ensures var heap := if HasHeapArg(argv) then [] else [HeapOption(freeBytes)];
      args == [JavaBinary] + heap + [ClassPathFlag, GcMonitorJar] + (if |argv| > 0 then argv[1..] else [])
  {
    args := [JavaBinary];
    var given := HasHeapOption(argv);
    if !given {
      args := args + [HeapOption(freeBytes)];
    }
    args := args + [ClassPathFlag, GcMonitorJar];
    var i := 1;
    ghost var head := args;
    while i < |argv|
      invariant 1 <= i || |argv| <= i
      invariant args == head + (if |argv| > 0 then argv[1..if i <= |argv| then i else |argv|] else [])
    {
      args := args + [argv[i]];
      i := i + 1;
    }
  }

  /** What `java` gets: the binary first, a heap limit in every case (the
      user's own, with no computed one before the class path, or the
      computed one), and the user's arguments unchanged and last. */
  lemma JavaArgsFacts(argv: seq<string>, freeBytes: nat, args: seq<string>)
    requires |argv| > 0 && freeBytes < 0x1_0000_0000_0000_0000
    requires args == [JavaBinary] + (if HasHeapArg(argv) then [] else [HeapOption(freeBytes)])
      + [ClassPathFlag, GcMonitorJar] + argv[1..]
    ensures args[0] == JavaBinary && HasHeapArg(args)
    ensures |args| == |argv| + 2 + (if HasHeapArg(argv) then 0 else 1)
    ensures args[|args| - (|argv| - 1)..] == argv[1..]
    ensures HasHeapArg(argv) ==> args[1] == ClassPathFlag
  {
    if HasHeapArg(argv) {
      var i :| 1 <= i < |argv| && HeapArg(argv[i]);
      assert args[i + 2] == argv[i];
    } else {
      HeapOptionShape(freeBytes);
      assert args[1] == HeapOption(freeBytes);
    }
  }

  /** `execv`'s vector: every argument, then the null pointer. */
  function ExecVector(args: seq<string>): (v: seq<Option<string>>)
    ensures |v| == |args| + 1 && v[|args|] == None
    ensures forall i :: 0 <= i < |args| ==> v[i] == Some(args[i])
  {
    seq(|args|, i requires 0 <= i < |args| => Some(args[i])) + [None]
  }

  /** The 64 MiB floor applies exactly below 87 MiB of free memory: from
      87 MiB on, three quarters of the free MiB exceed 64. */
  lemma HeapFloor(freeBytes: nat)
    requires freeBytes < 0x1_0000_0000_0000_0000
    ensures HeapMegabytes(freeBytes) == 64 <==> freeBytes < 87 * 0x10_0000
  {
    var mb := freeBytes / 0x10_0000;
    assert mb <= 86 <==> freeBytes < 87 * 0x10_0000;
    if mb <= 86 {
      assert mb * 3 / 4 <= 64;
    } else {
      assert mb * 3 >= 261;
    }
  }

  /** More free memory never gives a smaller heap. */
  lemma HeapMonotone(a: nat, b: nat)
    requires a <= b < 0x1_0000_0000_0000_0000
    ensures HeapMegabytes(a) <= HeapMegabytes(b)
  {
    var ma := a / 0x10_0000;
    var mb := b / 0x10_0000;
    assert ma <= mb;
    assert ma * 3 / 4 <= mb * 3 / 4;
  }
}

=== FILE: logarithms.dfy ===
/** Powers of two and the two integer logarithms the allocators use:
    `ilog2` (floor) and `ilog2_roundup` (ceiling, 0 for 0 and 1). Their
    defining brackets are stated as lemmas, so that the arithmetic enters a
    proof only where it is asked for. */
module Logarithms {

  function Pow2(n: nat): (r: nat)
    ensures r >= 1
  {
    if n == 0 then 1 else 2 * Pow2(n - 1)
  }

  /** `ilog2(n)` for `n >= 1`. */
  function Log2(n: nat): nat
    requires n >= 1
  {
    if n == 1 then 0 else Log2(n / 2) + 1
  }

  /** `ilog2_roundup(n)`. */
  function Log2Roundup(n: nat): nat
  {
    if n <= 1 then 0 else Log2(n - 1) + 1
  }

  /** `ilog2(n)` is the largest k with 2^k <= n. */
  lemma {:induction false} Log2Bounds(n: nat)
    requires n >= 1
    ensures Pow2(Log2(n)) <= n < 2 * Pow2(Log2(n))
  {
    if n > 1 {
      Log2Bounds(n / 2);
    }
  }

  /** `ilog2_roundup(n)` is the smallest k with n <= 2^k. */
  lemma Log2RoundupBounds(n: nat)
    ensures n <= Pow2(Log2Roundup(n))
    ensures Log2Roundup(n) > 0 ==> Pow2(Log2Roundup(n) - 1) < n
  {
    if n > 1 {
      Log2Bounds(n - 1);
    }
  }

  lemma {:induction false} Pow2Monotone(a: nat, b: nat)
    requires a <= b
    ensures Pow2(a) <= Pow2(b)
  {
    if a < b {
      Pow2Monotone(a, b - 1);
    }
  }

  /** The floor logarithm is determined by the bracket 2^k <= n < 2^(k+1). */
  lemma Log2Unique(n: nat, k: nat)
    requires n >= 1 && Pow2(k) <= n < 2 * Pow2(k)
    ensures Log2(n) == k
  {
    Log2Bounds(n);
    var j := Log2(n);
    if j < k {
      Pow2Monotone(j + 1, k);
    }
  }

  /** A number of at least 2^k has a floor logarithm of at least k. */
  lemma Log2AtLeast(n: nat, k: nat)
    requires n >= Pow2(k)
    ensures n >= 1 && Log2(n) >= k
  {
    Log2Bounds(n);
    if Log2(n) < k {
      Pow2Monotone(Log2(n) + 1, k);
    }
  }

  /** A number of order k is at least 2^k. */
  lemma Log2AtMost(n: nat, k: nat)
    requires n >= 1 && Log2(n) >= k
    ensures n >= Pow2(k)
  {
    Log2Bounds(n);
    Pow2Monotone(k, Log2(n));
  }

  /** The ceiling logarithm is at most k exactly when n fits in 2^k. */
  lemma Log2RoundupBound(n: nat, k: nat)
    ensures Log2Roundup(n) <= k <==> n <= Pow2(k)
  {
    Log2RoundupBounds(n);
    var r := Log2Roundup(n);
    if r <= k {
      Pow2Monotone(r, k);
    } else {
      Pow2Monotone(k, r - 1);
    }
  }
}

=== FILE: mmu_ops.dfy ===
/** The per-entry operations of the page-table walker in `core/mmu.cc`:
    the level mask, `clamp`, `change_perm`, `pte_mark_cow`, the decision
    `populate` takes for one entry, the bounded `tlb_gather` buffer that
    `unpopulate` frees pages through, and `file_vma::validate_perm` and
    `offset`. Entries are RISC-V page-table words, read and written with the
    getters and setters of `RiscvPte`. */
module MmuOps {
  import opened Wrappers
  import opened RiscvPte

  // ---------------------------------------------------------------------
  // Level mask

  /** `log2(page_size)` and `log2(pte_per_page)`. */
  const PageShift: nat := 12
  const PtePerPageShift: nat := 9

  /** The number of low address bits a level-`level` entry leaves to the
      virtual address: the page offset and 9 bits per level below. Written
      out per level so that no integer has to become a bit-vector. */
  function LevelShift(level: nat): (s: bv64)
    requires level <= 5
    ensures s as nat == PageShift + level * PtePerPageShift
  {
    if level == 0 then 12 else if level == 1 then 21 else if level == 2 then 30
    else if level == 3 then 39 else if level == 4 then 48 else 57
  }

  /** Bit `i` of `x`. */
  predicate Bit(x: bv64, i: bv64)
    requires i < 64
  {
    (x >> i) & 1 == 1
  }

  /** `pte_level_mask(level)`: `~((1 << shift) - 1)`, one constant per level
      (`LevelMaskFormula` shows each is that expression). The shift stays
      below 64 for the levels a four-level table has (and one more). */
  function PteLevelMask(level: nat): bv64
    requires level <= 5
  {
    if level == 0 then 0xFFFF_FFFF_FFFF_F000
    else if level == 1 then 0xFFFF_FFFF_FFE0_0000
    else if level == 2 then 0xFFFF_FFFF_C000_0000
    else if level == 3 then 0xFFFF_FF80_0000_0000
    else if level == 4 then 0xFFFF_0000_0000_0000
    else 0xFE00_0000_0000_0000
  }

  /** The table is the source's expression. */
  lemma LevelMaskFormula(level: nat)
    requires level <= 5
    ensures PteLevelMask(level) == !(((1 as bv64) << LevelShift(level)) - 1)
  {
  }

  /** The mask has ones for the bits the entry provides and zeros in exactly
      the low `LevelShift(level)` bits, which the virtual address provides. */
  lemma LevelMaskBits(level: nat)
    requires level <= 5
    ensures forall i: bv64 :: i < 64 ==> (Bit(PteLevelMask(level), i) <==> i >= LevelShift(level))
  {
    var shift := LevelShift(level);
    forall i: bv64 | i < 64
      ensures Bit(PteLevelMask(level), i) <==> i >= shift
    {
      LevelMaskFormula(level);
      MaskBit(shift, i);
    }
  }

  lemma MaskBit(shift: bv64, i: bv64)
    requires shift < 64 && i < 64
    ensures ((!(((1 as bv64) << shift) - 1)) >> i) & 1 == 1 <==> i >= shift
  {
  }

  /** What `virt_to_phys_map::page` computes for a level-`level` entry with
      address `addr`: `Combine` of the two under the level mask. */
  function LeafPhys(addr: bv64, v: bv64, level: nat): bv64
    requires level <= 5
  {
    Combine(addr, v, PteLevelMask(level))
  }

  /** `addr | (v & ~m)`: the bits of `addr` under the mask `m`, and outside
      it the bits of `v` together with any `addr` has there. */
  function Combine(addr: bv64, v: bv64, m: bv64): (r: bv64)
    ensures r & m == addr & m
    ensures r & !m == (v & !m) | (addr & !m)
  {
    OrHigh(addr, v, m);
    OrLow(addr, v, m);
    addr | (v & !m)
  }

  /** For an entry address with no bits outside the mask (aligned to its
      level), the physical address is the entry's address plus the offset
      into the page. */
  lemma CombineAligned(addr: bv64, v: bv64, m: bv64)
    requires addr & !m == 0
    ensures Combine(addr, v, m) == addr + (v & !m)
  {
    OrAligned(addr, v, m);
  }

  lemma OrAligned(addr: bv64, v: bv64, m: bv64)
    requires addr & !m == 0
    ensures addr | (v & !m) == addr + (v & !m)
  {
    AndDisjoint(addr, v, m);
    OrIsAdd(addr, v & !m);
  }

  lemma OrHigh(addr: bv64, v: bv64, m: bv64)
    ensures (addr | (v & !m)) & m == addr & m
  {
  }

  lemma OrLow(addr: bv64, v: bv64, m: bv64)
    ensures (addr | (v & !m)) & !m == (v & !m) | (addr & !m)
  {
  }

  lemma AndDisjoint(addr: bv64, v: bv64, m: bv64)
    requires addr & !m == 0
    ensures addr & (v & !m) == 0
  {
  }

  /** Adding numbers with no bit in common carries nothing. */
  lemma OrIsAdd(a: bv64, b: bv64)
    requires a & b == 0
    ensures a | b == a + b
  {
  }

  // ---------------------------------------------------------------------
  // clamp

  /** `clamp`: the start rounded down and the end rounded up to a `slop`
      boundary, then bounded to `[min, max]`. The source rounds with the
      masks `~(slop - 1)` and `| (slop - 1)`, which for the power-of-two
      slop every caller passes (`page_size`) are these remainders. */
  function Clamp(vstart: nat, vend: nat, min: nat, max: nat, slop: nat): (r: (nat, nat))
    requires slop > 0
    ensures min <= r.0 && r.1 <= max
    ensures r.0 == min || r.0 % slop == 0
    ensures r.1 == max || r.1 % slop == slop - 1
    ensures r.0 <= (if vstart < min then min else vstart)
    ensures r.1 >= (if vend > max then max else vend)
    ensures RoundDown(vstart, slop) <= r.0 && r.1 <= RoundUp(vend, slop)
  {
    var s := RoundDown(vstart, slop);
    var e := RoundUp(vend, slop);
    (if s > min then s else min, if e < max then e else max)
  }

  /** `x & ~(slop - 1)`: the slop boundary at or below `x`. */
  function RoundDown(x: nat, slop: nat): (s: nat)
    requires slop > 0
    ensures s <= x && s % slop == 0 && x - s < slop
  {
    SubMod(x, slop);
    x - x % slop
  }

  /** `x | (slop - 1)`: the last address of `x`'s slop block. */
  function RoundUp(x: nat, slop: nat): (e: nat)
    requires slop > 0
    ensures x <= e && e % slop == slop - 1 && e - x < slop
  {
    SubMod(x, slop);
    AddMod(x - x % slop, slop - 1, slop);
    x - x % slop + slop - 1
  }

  lemma SubMod(x: nat, slop: nat)
    requires slop > 0
    ensures (x - x % slop) % slop == 0
  {
    MulMod(x / slop, slop, 0);
    assert x - x % slop == (x / slop) * slop;
  }

  lemma AddMod(b: nat, k: nat, slop: nat)
    requires slop > 0 && b % slop == 0 && k < slop
    ensures (b + k) % slop == k
  {
    MulMod(b / slop, slop, k);
    assert b == (b / slop) * slop;
  }

  /** Division by `slop` is unique: `q * slop + k` leaves remainder `k`. */
  lemma MulMod(q: nat, slop: nat, k: nat)
    requires slop > 0 && k < slop
    ensures (q * slop + k) % slop == k
  {
    var x := q * slop + k;
    var d := x / slop;
    var r := x % slop;
    assert x == d * slop + r;
    Distrib(d, q, slop);
    assert (d - q) * slop == k - r;
    if d > q {
      MulGe(d - q, slop);
    } else if d < q {
      MulGe(q - d, slop);
      Distrib(q, d, slop);
    }
  }

  lemma MulGe(a: int, b: int)
    requires a >= 1 && b > 0
    ensures a * b >= b
  {
  }

  lemma Distrib(d: int, q: int, s: int)
    ensures d * s - q * s == (d - q) * s
  {
  }

  /** A slop boundary at or below `x` is at or below `RoundDown(x)`. */
  lemma RoundDownAbove(a: nat, x: nat, slop: nat)
    requires slop > 0 && a % slop == 0 && a <= x
    ensures a <= RoundDown(x, slop)
  {
    var d := RoundDown(x, slop);
    if d < a {
      MultipleOrder(d, a, slop);
    }
  }

  /** The last address of a slop block at or above `x` is at or above
      `RoundUp(x)`. */
  lemma RoundUpBelow(e: nat, x: nat, slop: nat)
    requires slop > 0 && e % slop == slop - 1 && x <= e
    ensures RoundUp(x, slop) <= e
  {
    var d := RoundDown(x, slop);
    MulMod(e / slop + 1, slop, 0);
    assert e + 1 == (e / slop + 1) * slop;
    MultipleOrder(d, e + 1, slop);
  }

  /** Distinct multiples of `slop` are at least `slop` apart. */
  lemma MultipleOrder(a: nat, b: nat, slop: nat)
    requires slop > 0 && a % slop == 0 && b % slop == 0 && a < b
    ensures a + slop <= b
  {
    var ka := a / slop;
    var kb := b / slop;
    assert a == ka * slop && b == kb * slop;
    Distrib(kb, ka, slop);
    if kb <= ka {
      if kb < ka {
        MulGe(ka - kb, slop);
      }
      Distrib(ka, kb, slop);
      assert false;
    }
    MulGe(kb - ka, slop);
  }

  /** When a whole slot `[min, max]` lies inside the rounded range, the
      slot is what `clamp` returns. */
  lemma ClampWholeSlot(vstart: nat, vend: nat, min: nat, max: nat, slop: nat)
    requires slop > 0 && min <= max
    requires RoundDown(vstart, slop) <= min && max <= RoundUp(vend, slop)
    ensures Clamp(vstart, vend, min, max, slop) == (min, max)
  {
  }

  // ---------------------------------------------------------------------
  // change_perm

  /** The architectures `change_perm` has a return value for. */
  datatype Arch = X86 | Aarch64

  /** `pte_cow`: the software bit that marks a copy-on-write entry. */
  const PteCow: bv64 := 0

  predicate IsCow(x: bv64)
  {
    SwBit(x, PteCow)
  }

  /** The permissions an entry grants, as `change_perm` reads them: read
      when it is valid, write and exec from their bits. */
  function HeldPerm(x: bv64): (p: bv32)
    ensures p & PermRead != 0 <==> Valid(x)
    ensures p & PermWrite != 0 <==> Writable(x)
    ensures p & PermExec != 0 <==> Executable(x)
    ensures p & !PermRwx == 0
  {
    var r: bv32 := if Valid(x) then PermRead else 0;
    var w: bv32 := if Writable(x) then PermWrite else 0;
    var e: bv32 := if Executable(x) then PermExec else 0;
    r | w | e
  }

  /** The permission `change_perm` applies: write is dropped from a
      copy-on-write entry. */
  function EffectivePerm(x: bv64, perm: bv32): (p: bv32)
    ensures p & PermWrite != 0 <==> perm & PermWrite != 0 && !IsCow(x)
    ensures p & !PermWrite == perm & !PermWrite
  {
    if IsCow(x) then perm & !PermWrite else perm
  }

  /** `change_perm`: the entry after the change and whether a TLB flush is
      needed. The entry is always made valid (on x86 a non-present entry
      would refuse every access), W and X follow the permission, a
      copy-on-write entry never becomes writable, and no other bit changes
      (`set_rsvd_bit` is a no-op in this encoding). On x86 a flush is needed
      exactly when the entry loses a permission it had; on aarch64 whenever
      the permission differs from the one held. */
  function ChangePerm(x: bv64, perm: bv32, arch: Arch): (r: (bv64, bool))
    ensures Valid(r.0)
    ensures Writable(r.0) <==> perm & PermWrite != 0 && !IsCow(x)
    ensures Executable(r.0) <==> perm & PermExec != 0
    ensures Frame(x, r.0, 0xD)
    ensures arch == X86 ==>
      (r.1 <==> (Valid(x) && perm & PermRead == 0) || (Writable(x) && !Writable(r.0))
                || (Executable(x) && !Executable(r.0)))
    ensures arch == Aarch64 ==> (r.1 <==> HeldPerm(x) != EffectivePerm(x, perm))
  {
    var y := ChangedEntry(x, EffectivePerm(x, perm));
    (y, FlushNeeded(x, perm, arch))
  }

  /** The entry `change_perm` writes for the effective permission `p`. */
  function ChangedEntry(x: bv64, p: bv32): (y: bv64)
    ensures Valid(y)
    ensures Writable(y) <==> p & PermWrite != 0
    ensures Executable(y) <==> p & PermExec != 0
    ensures Frame(x, y, 0xD)
  {
    var a := SetValid(x, true);
    var b := SetWritable(a, p & PermWrite != 0);
    var c := SetExecutable(b, p & PermExec != 0);
    FrameJoin(x, a, b, c);
    SetRsvdBit(c, 0, p == 0)
  }

  /** `change_perm`'s result: on x86 some held permission is missing from
      the effective one; on aarch64 the two differ. */
  function FlushNeeded(x: bv64, perm: bv32, arch: Arch): (f: bool)
    ensures arch == X86 ==>
      (f <==> (Valid(x) && perm & PermRead == 0) || (Writable(x) && (perm & PermWrite == 0 || IsCow(x)))
              || (Executable(x) && perm & PermExec == 0))
    ensures arch == Aarch64 ==> (f <==> HeldPerm(x) != EffectivePerm(x, perm))
  {
    var held := HeldPerm(x);
    var p := EffectivePerm(x, perm);
    LostPerm(held, p);
    match arch
    case X86 => held & !p != 0
    case Aarch64 => held != p
  }

  lemma FrameJoin(x: bv64, a: bv64, b: bv64, c: bv64)
    requires Frame(x, a, 0x1) && Frame(a, b, 0x4) && Frame(b, c, 0x8)
    ensures Frame(x, c, 0xD)
  {
  }

  /** `old & ~perm` is non-zero exactly when one of the three permission bits
      is held and not granted. */
  lemma LostPerm(held: bv32, p: bv32)
    requires held & !PermRwx == 0
    ensures held & !p != 0 <==>
      (held & PermRead != 0 && p & PermRead == 0) || (held & PermWrite != 0 && p & PermWrite == 0)
      || (held & PermExec != 0 && p & PermExec == 0)
  {
  }

  /** `mprotect(PROT_NONE)` in this encoding: W and X are cleared but the
      entry stays valid and keeps its R bit, since the reserved bit x86 uses
      to hide such an entry does not exist here. */
  lemma ProtNoneKeepsRead(x: bv64, arch: Arch)
    ensures var y := ChangePerm(x, 0, arch).0;
      Valid(y) && !Writable(y) && !Executable(y) && Readable(y) == Readable(x)
  {
    var y := ChangePerm(x, 0, arch).0;
    assert y & 0x2 == x & 0x2 by {
      FrameBit(x, y, 0xD, 0x2);
    }
  }

  lemma FrameBit(x: bv64, y: bv64, mask: bv64, bit: bv64)
    requires Frame(x, y, mask) && bit & mask == 0
    ensures x & bit == y & bit
  {
  }

  /** Narrowing a read-write entry to read-only needs a flush on both
      architectures, and the entry is no longer writable. */
  lemma ReadOnlyNeedsFlush(x: bv64, arch: Arch)
    requires Valid(x) && Writable(x)
    ensures !Writable(ChangePerm(x, PermRead, arch).0)
    ensures ChangePerm(x, PermRead, arch).1
  {
    var p := EffectivePerm(x, PermRead);
    assert p & PermWrite == 0;
    assert HeldPerm(x) & PermWrite != 0;
  }

  /** Granting what the entry already holds needs no flush. */
  lemma SamePermNoFlush(x: bv64, arch: Arch)
    ensures !ChangePerm(x, HeldPerm(x), arch).1 || (IsCow(x) && Writable(x))
  {
  }

  // ---------------------------------------------------------------------
  // pte_mark_cow

  /** `pte_mark_cow`: marking clears W and sets the copy-on-write bit;
      unmarking clears the bit and leaves W alone; nothing else changes. */
  function MarkCow(x: bv64, cow: bool): (y: bv64)
    ensures IsCow(y) == cow
    ensures cow ==> !Writable(y) && Frame(x, y, 0x104)
    ensures !cow ==> Frame(x, y, 0x100)
  {
    var w := if cow then SetWritable(x, false) else x;
    var y := SetSwBit(w, PteCow, cow);
    assert (1 as bv64) << (8 + PteCow) == 0x100;
    CowFrame(x, w, y, cow);
    y
  }

  lemma CowFrame(x: bv64, w: bv64, y: bv64, cow: bool)
    requires cow ==> Frame(x, w, 0x4)
    requires !cow ==> w == x
    requires Frame(w, y, 0x100)
    ensures cow ==> Writable(y) == Writable(w) && Frame(x, y, 0x104)
    ensures !cow ==> Frame(x, y, 0x100)
  {
  }

  /** A marked entry stays unwritable through `change_perm`, whatever
      permission is asked for. */
  lemma CowSurvivesProtect(x: bv64, cow: bool, perm: bv32, arch: Arch)
    ensures cow ==> !Writable(ChangePerm(MarkCow(x, cow), perm, arch).0)
  {
  }

  // ---------------------------------------------------------------------
  // populate

  /** What `populate::page` does with one entry. */
  datatype PopulateStep =
    | Skipped                                   // already mapped well enough
    | Offered(pte: bv64, accounted: nat)        // the entry handed to the page provider
    | Failed                                    // the provider threw

  /** `populate::page` for a leaf entry of `size` bytes at a level
      that can (`largeCapable`) or cannot hold large pages. A present entry
      is kept unless this is a write and it is not writable. Otherwise a
      leaf entry for `perm` is made (`make_leaf_pte` with address 0, the
      provider fills in the page), dirty when the mapping asks for it or the
      access is a write, and offered to the page provider. `provider` is
      what the provider's `map` does: `None` when it throws, which makes
      the step fail; `Some(true)` when it mapped, which counts the size
      when the operation accounts (`account_opt::yes`; `populate` defaults
      to `account_opt::no`). */
  function PopulatePage(entry: bv64, perm: bv32, write: bool, mapDirty: bool, largeCapable: bool,
                        size: nat, provider: Option<bool>, account: bool): (r: PopulateStep)
    ensures r == Skipped <==> !Empty(entry) && (!write || Writable(entry))
    ensures r.Offered? ==> Dirty(r.pte) == (mapDirty || write)
    ensures r.Offered? ==> provider.Some?
    ensures r.Offered? && provider == Some(true) && account ==> r.accounted == size
    ensures r.Offered? && (provider == Some(false) || !account) ==> r.accounted == 0
    ensures r == Failed <==> provider == None && (Empty(entry) || (write && !Writable(entry)))
  {
    if !Empty(entry) && (!write || Writable(entry)) then Skipped
    else
      var pte := SetDirty(MakePte(0, true, perm, true, largeCapable), mapDirty || write);
      match provider
      case None => Failed
      case Some(mapped) => Offered(pte, if mapped && account then size else 0)
  }

  /** Apart from the dirty bit the offered entry is `make_pte` of a leaf:
      valid, readable exactly when some permission is asked for, and at a
      large-capable level writable and executable as asked. */
  lemma OfferedEntry(entry: bv64, perm: bv32, write: bool, mapDirty: bool, largeCapable: bool,
                     size: nat, provider: Option<bool>, account: bool)
    requires PopulatePage(entry, perm, write, mapDirty, largeCapable, size, provider, account).Offered?
    ensures var x := PopulatePage(entry, perm, write, mapDirty, largeCapable, size, provider, account).pte;
      Valid(x) && (Readable(x) <==> perm & PermRwx != 0)
      && (Writable(x) <==> largeCapable && perm & PermWrite != 0)
      && (Executable(x) <==> largeCapable && perm & PermExec != 0)
      && Addr(x) == 0
  {
    var m := MakePte(0, true, perm, true, largeCapable);
    MakePteBits(0, true, perm, true, largeCapable);
    var x := SetDirty(m, mapDirty || write);
    FrameBit(m, x, 0x80, 0x1);
    FrameBit(m, x, 0x80, 0x2);
    FrameBit(m, x, 0x80, 0x4);
    FrameBit(m, x, 0x80, 0x8);
    SameAddr(m, x, 0x80);
  }

  /** A second populate of the same range is a no-op for every entry the
      first one filled, unless it is a write to a read-only entry. */
  lemma PopulateAgainSkips(entry: bv64, perm: bv32, mapDirty: bool, largeCapable: bool, size: nat,
                           provider: Option<bool>, again: Option<bool>, account: bool)
    requires PopulatePage(entry, perm, false, mapDirty, largeCapable, size, provider, account).Offered?
    ensures var x := PopulatePage(entry, perm, false, mapDirty, largeCapable, size, provider, account).pte;
      PopulatePage(x, perm, false, mapDirty, largeCapable, size, again, account) == Skipped
  {
    OfferedEntry(entry, perm, false, mapDirty, largeCapable, size, provider, account);
  }

  // ---------------------------------------------------------------------
  // tlb_gather

  /** `tlb_gather::max_pages`. */
  const MaxPages: nat := 20

  /** `memory::page_size`. */
  const PageSize: nat := 4096

  /** A page waiting to be freed after the next TLB flush. */
  datatype TlbPage = TlbPage(addr: nat, size: nat)

  /** What a flush does, in order: one full TLB flush, then each gathered
      page freed as a small page or as a huge page by its size. */
  datatype Action = FlushTlb | FreePage(addr: nat) | FreeHugePage(addr: nat, size: nat)

  /** The frees for `pages`, in order. */
  function Frees(pages: seq<TlbPage>): (acts: seq<Action>)
    ensures |acts| == |pages|
    ensures forall i :: 0 <= i < |pages| ==>
      acts[i] == if pages[i].size == PageSize then FreePage(pages[i].addr) else FreeHugePage(pages[i].addr, pages[i].size)
  {
    if |pages| == 0 then []
    else [if pages[0].size == PageSize then FreePage(pages[0].addr) else FreeHugePage(pages[0].addr, pages[0].size)]
         + Frees(pages[1..])
  }

  /** `tlb_gather::flush`: nothing on an empty buffer (false); otherwise a
      TLB flush, the pages freed, the buffer emptied, and true. */
  function Flush(pages: seq<TlbPage>): (r: (seq<TlbPage>, bool, seq<Action>))
    ensures r.0 == []
    ensures r.1 <==> |pages| > 0
    ensures r.1 ==> r.2 == [FlushTlb] + Frees(pages)
    ensures !r.1 ==> r.2 == []
  {
    if |pages| == 0 then ([], false, []) else ([], true, [FlushTlb] + Frees(pages))
  }

  /** `tlb_gather::push`: a full buffer is flushed first (and true
      returned); then the page is appended. */
  function Push(pages: seq<TlbPage>, p: TlbPage): (r: (seq<TlbPage>, bool, seq<Action>))
    requires |pages| <= MaxPages
    ensures 0 < |r.0| <= MaxPages && r.0[|r.0| - 1] == p
    ensures r.1 <==> |pages| == MaxPages
    ensures r.1 ==> r.0 == [p] && r.2 == [FlushTlb] + Frees(pages)
    ensures !r.1 ==> r.0 == pages + [p] && r.2 == []
  {
    if |pages| == MaxPages then
      var f := Flush(pages);
      (f.0 + [p], true, f.2)
    else (pages + [p], false, [])
  }

  /** One page `unpopulate::page` handles: the provider's `unmap` result and
      the page it was backed by. */
  datatype Unmapped = Unmapped(page: TlbPage, unmapped: bool)

  /** `unpopulate`'s state after some pages: whether it accounts
      (`account_opt::yes`; the default is `account_opt::no`), the gather
      buffer, `do_flush`, the bytes accounted and the flushes and frees so
      far. */
  datatype Unpopulate = Unpopulate(account: bool, gathered: seq<TlbPage>, doFlush: bool, total: nat, log: seq<Action>)

  /** `unpopulate::page`: a page the provider unmapped goes to the gather
      buffer and `do_flush` becomes whether that push did not flush; a page
      it kept sets `do_flush`. Either way the size is accounted when the
      operation accounts. */
  function UnpopulatePage(u: Unpopulate, m: Unmapped): (r: Unpopulate)
    requires |u.gathered| <= MaxPages
    ensures |r.gathered| <= MaxPages && r.account == u.account
    ensures u.account ==> r.total == u.total + m.page.size
    ensures !u.account ==> r.total == u.total
    ensures m.unmapped ==> |r.gathered| > 0 && r.gathered[|r.gathered| - 1] == m.page
    ensures m.unmapped ==> (r.doFlush <==> |u.gathered| < MaxPages)
    ensures !m.unmapped ==> r.doFlush && r.gathered == u.gathered && r.log == u.log
  {
    if m.unmapped then
      var p := Push(u.gathered, m.page);
      u.(gathered := p.0, doFlush := !p.1, total := Counted(u, m), log := u.log + p.2)
    else u.(doFlush := true, total := Counted(u, m))
  }

  /** `account(size)`: the total grows by the page's size only when the
      operation accounts. */
  function Counted(u: Unpopulate, m: Unmapped): nat
  {
    if u.account then u.total + m.page.size else u.total
  }

  /** `unpopulate` over the leaf pages of a walk, in order. */
  function UnpopulatePages(u: Unpopulate, ms: seq<Unmapped>): (r: Unpopulate)
    requires |u.gathered| <= MaxPages
    ensures |r.gathered| <= MaxPages && r.account == u.account
    decreases |ms|
  {
    if |ms| == 0 then u else UnpopulatePages(UnpopulatePage(u, ms[0]), ms[1..])
  }

  /** The bytes of the pages of a walk. */
  function Bytes(ms: seq<Unmapped>): nat
  {
    if |ms| == 0 then 0 else ms[0].page.size + Bytes(ms[1..])
  }

  /** `account_results` after a whole walk: every page's size, unmapped or
      kept, when the operation accounts, and nothing added when it does
      not. */
  lemma {:induction false} UnpopulateAccounts(u: Unpopulate, ms: seq<Unmapped>)
    requires |u.gathered| <= MaxPages
    ensures UnpopulatePages(u, ms).total == u.total + (if u.account then Bytes(ms) else 0)
    decreases |ms|
  {
    if |ms| > 0 {
      UnpopulateAccounts(UnpopulatePage(u, ms[0]), ms[1..]);
    }
  }

  /** `unpopulate::tlb_flush_needed`: the gather buffer is flushed, and a
      further flush is asked for only when that flush had nothing to do and
      `do_flush` is set. `operate_range` then flushes when asked. */
  function FinishUnpopulate(u: Unpopulate): (log: seq<Action>)
  {
    var f := Flush(u.gathered);
    var needed := !f.1 && u.doFlush;
    u.log + f.2 + (if needed then [FlushTlb] else [])
  }

  /** The pages the provider unmapped, in order. */
  function Released(ms: seq<Unmapped>): seq<TlbPage>
  {
    if |ms| == 0 then [] else (if ms[0].unmapped then [ms[0].page] else []) + Released(ms[1..])
  }

  /** The frees in a log, in order. */
  function FreedIn(log: seq<Action>): seq<Action>
  {
    if |log| == 0 then [] else (if log[0].FlushTlb? then [] else [log[0]]) + FreedIn(log[1..])
  }

  lemma {:induction false} FreedInAppend(a: seq<Action>, b: seq<Action>)
    ensures FreedIn(a + b) == FreedIn(a) + FreedIn(b)
  {
    if |a| > 0 {
      assert (a + b)[1..] == a[1..] + b;
      FreedInAppend(a[1..], b);
    } else {
      assert a + b == b;
    }
  }

  lemma {:induction false} FreedFrees(pages: seq<TlbPage>)
    ensures FreedIn(Frees(pages)) == Frees(pages)
  {
    if |pages| > 0 {
      var f := Frees(pages);
      assert f == [f[0]] + Frees(pages[1..]);
      FreedInAppend([f[0]], Frees(pages[1..]));
      FreedFrees(pages[1..]);
    }
  }

  lemma {:induction false} FreesAppend(a: seq<TlbPage>, b: seq<TlbPage>)
    ensures Frees(a + b) == Frees(a) + Frees(b)
  {
    if |a| > 0 {
      assert (a + b)[1..] == a[1..] + b;
      FreesAppend(a[1..], b);
    } else {
      assert a + b == b;
    }
  }

  /** Every page the provider unmapped is freed exactly once, in order,
      by the time `unpopulate` finishes, whatever the buffer held before. */
  lemma {:induction false} EveryPageFreed(u: Unpopulate, ms: seq<Unmapped>)
    requires |u.gathered| <= MaxPages
    ensures FreedIn(FinishUnpopulate(UnpopulatePages(u, ms)))
         == FreedIn(u.log) + Frees(u.gathered + Released(ms))
    decreases |ms|
  {
    if |ms| == 0 {
      FinishFrees(u);
      assert u.gathered + [] == u.gathered;
    } else {
      var v := UnpopulatePage(u, ms[0]);
      EveryPageFreed(v, ms[1..]);
      assert Released(ms) == (if ms[0].unmapped then [ms[0].page] else []) + Released(ms[1..]);
      if ms[0].unmapped {
        PushedFrees(u, ms[0], Released(ms[1..]));
      } else {
        assert Released(ms) == Released(ms[1..]);
      }
    }
  }

  lemma FinishFrees(u: Unpopulate)
    ensures FreedIn(FinishUnpopulate(u)) == FreedIn(u.log) + Frees(u.gathered)
  {
    var f := Flush(u.gathered);
    var needed := !f.1 && u.doFlush;
    var tail: seq<Action> := if needed then [FlushTlb] else [];
    FreedInAppend(u.log + f.2, tail);
    FreedInAppend(u.log, f.2);
    if f.1 {
      FreedInAppend([FlushTlb], Frees(u.gathered));
      FreedFrees(u.gathered);
    }
  }

  /** One page keeps the ledger: what is logged plus what is buffered is
      what was logged and buffered before, plus the page if it was
      unmapped. */
  lemma PageFrees(u: Unpopulate, m: Unmapped)
    requires |u.gathered| <= MaxPages
    ensures var v := UnpopulatePage(u, m);
      FreedIn(v.log) + Frees(v.gathered)
      == FreedIn(u.log) + Frees(u.gathered + (if m.unmapped then [m.page] else []))
  {
    var v := UnpopulatePage(u, m);
    if m.unmapped {
      var p := Push(u.gathered, m.page);
      assert v.log == u.log + p.2 && v.gathered == p.0;
      FreedInAppend(u.log, p.2);
      FreesAppend(u.gathered, [m.page]);
      if p.1 {
        FreedInAppend([FlushTlb], Frees(u.gathered));
        FreedFrees(u.gathered);
      } else {
        assert FreedIn([]) == [];
      }
    } else {
      assert u.gathered + [] == u.gathered;
    }
  }

  lemma PushedFrees(u: Unpopulate, m: Unmapped, rest: seq<TlbPage>)
    requires |u.gathered| <= MaxPages && m.unmapped
    ensures var v := UnpopulatePage(u, m);
      FreedIn(v.log) + Frees(v.gathered + rest)
      == FreedIn(u.log) + Frees(u.gathered + ([m.page] + rest))
  {
    var v := UnpopulatePage(u, m);
    PageFrees(u, m);
    FreesAppend(v.gathered, rest);
    FreesAppend(u.gathered + [m.page], rest);
    Assoc(u.gathered, [m.page], rest);
    Regroup(FreedIn(v.log), Frees(v.gathered), FreedIn(u.log), Frees(u.gathered + [m.page]), Frees(rest));
  }

  lemma Assoc<T>(a: seq<T>, b: seq<T>, c: seq<T>)
    ensures a + (b + c) == (a + b) + c
  {
  }

  lemma Regroup<T>(a: seq<T>, x: seq<T>, b: seq<T>, y: seq<T>, r: seq<T>)
    requires a + x == b + y
    ensures a + (x + r) == b + (y + r)
  {
    assert a + (x + r) == (a + x) + r;
    assert b + (y + r) == (b + y) + r;
  }

  // ---------------------------------------------------------------------
  // file_vma

  /** `EACCES` and `EPERM`. */
  const EAcces: int := 13
  const EPerm: int := 1

  /** What `validate_perm` looks at in the mapped file: whether it was
      opened for reading (`FREAD`) and for writing (`FWRITE`), and whether
      its file system is mounted no-exec. */
  datatype OpenFile = OpenFile(readable: bool, writable: bool, noExec: bool)

  /** `file_vma::validate_perm`: an unreadable file refuses every mapping;
      a write to a shared mapping needs a writable file; execution on a
      no-exec mount is refused with `EPERM`; 0 otherwise. */
  function ValidatePerm(f: OpenFile, shared: bool, perm: bv32): (r: int)
    ensures r == 0 || r == EAcces || r == EPerm
    ensures r == EAcces <==> !f.readable || (perm & PermWrite != 0 && shared && !f.writable)
    ensures r == EPerm <==> f.readable && !(perm & PermWrite != 0 && shared && !f.writable)
                            && perm & PermExec != 0 && f.noExec
  {
    if !f.readable then EAcces
    else if perm & PermWrite != 0 && shared && !f.writable then EAcces
    else if perm & PermExec != 0 && f.noExec then EPerm
    else 0
  }

  /** Asking for fewer permissions never turns an accepted mapping into a
      refused one. */
  lemma FewerPermsAccepted(f: OpenFile, shared: bool, perm: bv32, fewer: bv32)
    requires fewer & !perm == 0
    requires ValidatePerm(f, shared, perm) == 0
    ensures ValidatePerm(f, shared, fewer) == 0
  {
    SubsetBit(fewer, perm, PermWrite);
    SubsetBit(fewer, perm, PermExec);
  }

  lemma SubsetBit(fewer: bv32, perm: bv32, b: bv32)
    requires fewer & !perm == 0
    ensures fewer & b != 0 ==> perm & b != 0
  {
  }

  /** A private mapping of a read-only file may still be written (the
      writes go to private copies); a shared one may not. */
  lemma PrivateWriteAllowed(noExec: bool)
    ensures ValidatePerm(OpenFile(true, false, noExec), false, PermRead | PermWrite) == 0
    ensures ValidatePerm(OpenFile(true, false, noExec), true, PermRead | PermWrite) == EAcces
  {
  }

  /** A file-backed mapping: its address range `[start, end)` and the file
      offset its first byte maps. */
  datatype FileVma = FileVma(start: nat, end: nat, fileOffset: nat)

  /** `file_vma::offset`: the file offset an address in the mapping maps. */
  function Offset(vma: FileVma, addr: nat): (off: nat)
    requires vma.start <= addr
    ensures off - vma.fileOffset == addr - vma.start
  {
    vma.fileOffset + (addr - vma.start)
  }

  /** `file_vma::split`: an edge strictly inside the range splits it in two,
      the upper half starting at the file offset the edge maps; any other
      edge leaves the mapping whole (`None`). */
  function Split(vma: FileVma, edge: nat): (r: Option<(FileVma, FileVma)>)
    ensures r.Some? <==> vma.start < edge < vma.end
    ensures r.Some? ==> (r.value.0.start == vma.start && r.value.0.end == edge
                         && r.value.1.start == edge && r.value.1.end == vma.end)
  {
    if edge <= vma.start || edge >= vma.end then None
    else Some((FileVma(vma.start, edge, vma.fileOffset), FileVma(edge, vma.end, Offset(vma, edge))))
  }

  /** Splitting changes no address's file offset: each address of the
      range is in exactly one half, which maps it where the whole did. */
  lemma SplitKeepsOffsets(vma: FileVma, edge: nat, addr: nat)
    requires Split(vma, edge).Some? && vma.start <= addr < vma.end
    ensures var (lo, hi) := Split(vma, edge).value;
      (lo.start <= addr < lo.end) != (hi.start <= addr < hi.end)
      && (addr < edge ==> Offset(lo, addr) == Offset(vma, addr))
      && (addr >= edge ==> Offset(hi, addr) == Offset(vma, addr))
  {
  }
}

=== FILE: mmu_walk.dfy ===
/** The generic page-table walker of `core/mmu.cc` (`map_level`, `map_range`,
    `operate_range`) and the lookup built on it (`virt_to_phys_pt`). The walk
    is modelled as the sequence of calls it makes into a page-table
    operation: leaf pages, sub-pages of large pages it does not split, the
    hooks around descending, and the tables it allocates or splits. What an
    operation does with each call is the business of `MmuOps`. */
module MmuWalk {
  import opened Wrappers
  import opened RiscvPte
  import opened MmuOps

  /** A page-table slot: empty, a leaf entry (a page, or a large page above
      level 0), or a pointer to the next-level table. A table shorter than
      512 entries reads as empty past its end, so `Table([])` is a freshly
      allocated one. */
  datatype Slot = Empty | Leaf(pte: bv64) | Table(entries: seq<Slot>)

  /** `pte_per_page`. */
  const PtePerPage: nat := 512

  /** The root table is the one a level-4 parent points to. */
  const RootLevel: nat := 4

  /** The bytes a level-`level` slot covers: a page, then 512 times more
      per level. */
  function Step(level: nat): (s: nat)
    ensures s >= PageSize
    ensures level > 0 ==> s == PtePerPage * Step(level - 1)
  {
    if level == 0 then PageSize else PtePerPage * Step(level - 1)
  }

  /** `pt_index(virt, level)`: the address shifted right by the page
      shift and 9 bits per level, masked to 9 bits. */
  function Index(virt: nat, level: nat): (i: nat)
    ensures i < PtePerPage
  {
    Shr(virt / PageSize, level) % PtePerPage
  }

  /** A page number shifted right by 9 bits per level. */
  function Shr(n: nat, level: nat): nat
  {
    if level == 0 then n else Shr(n, level - 1) / PtePerPage
  }

  /** The slot at `i`; `Empty` past the end of the table. */
  function Entry(entries: seq<Slot>, i: nat): Slot
  {
    if i < |entries| then entries[i] else Empty
  }

  /** `split_large_page<1>`'s child `i`: the large entry with
      `set_large(false)` (R, W and X cleared), and `i` pages added into its
      address by `set_addr(addr | i << page_size_shift)`, which also sets V.
      Every other flag of the large entry is kept. */
  function SplitChild(pte: bv64, i: bv16): (c: bv64)
    requires i < 512
    ensures Valid(c) && c & 0xE == 0 && c & 0x3F0 == pte & 0x3F0
  {
    var org := SetLarge(pte, false);
    SetAddr(org, Addr(org) | ((i as bv64) << PageSizeShift), false)
  }

  /** The table a level-1 large page is split into. */
  function SplitEntries(pte: bv64): (r: seq<Slot>)
    ensures |r| == PtePerPage && forall i :: 0 <= i < PtePerPage ==> r[i] == Leaf(SplitChild(pte, i as bv16))
  {
    seq(PtePerPage, i requires 0 <= i < PtePerPage => Leaf(SplitChild(pte, i as bv16)))
  }

  /** A split keeps the memory the large page mapped: when its address is
      2 MiB-aligned, child `i` maps the page `i` pages into it, so the
      children map distinct pages. */
  lemma SplitChildMaps(pte: bv64, i: bv16, j: bv16)
    requires Addr(pte) & 0x1F_FFFF == 0 && i < 512 && j < 512
    ensures Addr(SplitChild(pte, i)) == Addr(pte) + (i as bv64) * 0x1000
    ensures i != j ==> Addr(SplitChild(pte, i)) != Addr(SplitChild(pte, j))
  {
    SplitChildAddr(pte, i);
    SplitChildAddr(pte, j);
  }

  lemma SplitChildAddr(pte: bv64, i: bv16)
    requires Addr(pte) & 0x1F_FFFF == 0 && i < 512
    ensures Addr(SplitChild(pte, i)) == Addr(pte) + (i as bv64) * 0x1000
  {
    var org := SetLarge(pte, false);
    var k := i as bv64;
    ClearedAddr(pte);
    var a := Addr(org) | (k << PageSizeShift);
    DisjointOr(Addr(pte), k);
    AddrBelow(pte);
    AddrRoundTrip(org, a, false);
  }

  /** Clearing R, W and X leaves the address alone. */
  lemma ClearedAddr(pte: bv64)
    ensures Addr(pte & !0xE) == Addr(pte)
  {
  }

  /** An address is page-aligned and below 2^56. */
  lemma AddrBelow(pte: bv64)
    ensures Addr(pte) & 0xFFF == 0 && Addr(pte) < 0x100_0000_0000_0000
    ensures Addr(pte) & 0x1F_FFFF == 0 ==> Addr(pte) <= 0xFF_FFFF_FFE0_0000
  {
  }

  /** Or-ing a page number below 512 into a 2 MiB-aligned address adds it. */
  lemma DisjointOr(a: bv64, k: bv64)
    requires a & 0x1F_FFFF == 0 && k < 512 && a <= 0xFF_FFFF_FFE0_0000
    ensures a | (k << PageSizeShift) == a + k * 0x1000
    ensures (a + k * 0x1000) & 0xFFF == 0 && a + k * 0x1000 < 0x100_0000_0000_0000
  {
  }

  // ---------------------------------------------------------------------
  // Canonical addresses

  /** The span of the 48-bit virtual address space, and of each half. */
  const Span48: nat := 0x1_0000_0000_0000
  const HalfSpan: nat := 0x8000_0000_0000

  /** 2^64, the span of a `uintptr_t`. */
  const Span64: nat := 0x1_0000_0000_0000_0000

  /** A canonical address: bit 47 repeated in bits 48 to 63, so either in
      the lower half or in the top `HalfSpan` bytes of the 64-bit space. */
  predicate Canonical(v: nat)
  {
    v < HalfSpan || Span64 - HalfSpan <= v < Span64
  }

  /** `(int64_t(x) << 16) >> 16`: the low 48 bits of `x` with bit 47
      extended into bits 48 to 63. */
  function Canon(x: nat): (c: nat)
    ensures Canonical(c) && c % Span48 == x % Span48
  {
    var low := x % Span48;
    if low < HalfSpan then low else low + (Span64 - Span48)
  }

  /** Extending bit 47 leaves a canonical address alone. */
  lemma CanonFixes(x: nat)
    requires Canonical(x)
    ensures Canon(x) == x
  {
    if x >= HalfSpan {
      assert x == (Span64 / Span48 - 1) * Span48 + (x - (Span64 - Span48));
      MulMod(Span64 / Span48 - 1, Span48, x - (Span64 - Span48));
    }
  }

  /** Only the low 48 bits of the sum matter to `Canon`, so the base a
      table's walk starts from may be extended or not. */
  lemma CanonAdd(x: nat, y: nat)
    ensures Canon(Canon(x) + y) == Canon(x + y)
  {
    ModCongruent(Canon(x), x, y, Span48);
  }

  lemma ModCongruent(a: nat, b: nat, y: nat, m: nat)
    requires m > 0 && a % m == b % m
    ensures (a + y) % m == (b + y) % m
  {
    assert a == (a / m) * m + a % m;
    assert b == (b / m) * m + b % m;
    ModAddMul(a / m, a % m + y, m);
    ModAddMul(b / m, b % m + y, m);
  }

  lemma ModAddMul(q: nat, z: nat, m: nat)
    requires m > 0
    ensures (q * m + z) % m == z % m
  {
    var p := z / m;
    assert z == p * m + z % m;
    assert q * m + z == (q + p) * m + z % m;
    MulMod(q + p, m, z % m);
  }

  /** The options a page-table operation fixes (`allocate_intermediate`,
      `skip_empty`, `descend`, `once`, `split_large`, `nr_page_sizes`), the
      `slop` its range is clamped with, and what its `page` handler returns
      for a level and slot address. */
  datatype Ops = Ops(allocate: bool, skipEmpty: bool, descend: bool, once: bool, split: bool,
                     nrPageSizes: nat, slop: nat, pageOk: (nat, nat) -> bool)

  /** One call the walker makes. `virt` is the first address of the slot;
      the offset the source passes is `virt - vma_start`. */
  datatype Event =
    | Page(level: nat, virt: nat, slot: Slot)     // `page()` on a leaf slot
    | SubPage(level: nat, virt: nat, slot: Slot)  // `sub_page()` on an unsplit large page
    | Pre(level: nat, virt: nat)                  // `intermediate_page_pre()`
    | Post(level: nat, virt: nat)                 // `intermediate_page_post()`
    | Allocate(level: nat, virt: nat)             // a missing table allocated
    | SplitLarge(level: nat, virt: nat)           // a large page split into small ones
    | FlushAll                                    // `flush_tlb_all()` at the end
    | Finalize                                    // the operation's `finalize()`

  /** Every leaf call lies in `[lo, hi]`: the walk never touches a page
      outside the range it was asked for. */
  ghost predicate PagesWithin(evs: seq<Event>, lo: nat, hi: nat)
  {
    forall i :: 0 <= i < |evs| && evs[i].Page? ==> lo <= evs[i].virt && evs[i].virt + Step(evs[i].level) <= hi + 1
  }

  /** Leaf calls happen only at levels that can hold leaves. */
  ghost predicate LeafLevels(evs: seq<Event>, nrPageSizes: nat)
  {
    forall i :: 0 <= i < |evs| && evs[i].Page? ==> evs[i].level < nrPageSizes
  }

  /** No leaf call is made on an empty slot. */
  ghost predicate NoEmptyPages(evs: seq<Event>)
  {
    forall i :: 0 <= i < |evs| && evs[i].Page? ==> !evs[i].slot.Empty?
  }

  /** Tables are allocated and large pages split only when the operation
      asks for it. */
  ghost predicate Permitted(evs: seq<Event>, ops: Ops)
  {
    forall i :: 0 <= i < |evs| ==>
      (evs[i].Allocate? ==> ops.allocate) && (evs[i].SplitLarge? ==> ops.split)
      && (evs[i].SubPage? ==> !ops.split) && !evs[i].FlushAll? && !evs[i].Finalize?
  }

  /** The properties every walk keeps, together. */
  ghost predicate WalkSound(evs: seq<Event>, ops: Ops, lo: nat, hi: nat)
  {
    PagesWithin(evs, lo, hi) && LeafLevels(evs, ops.nrPageSizes)
    && (ops.skipEmpty ==> NoEmptyPages(evs)) && Permitted(evs, ops)
  }

  lemma SoundAppend(a: seq<Event>, b: seq<Event>, ops: Ops, lo: nat, hi: nat)
    requires WalkSound(a, ops, lo, hi) && WalkSound(b, ops, lo, hi)
    ensures WalkSound(a + b, ops, lo, hi)
  {
    assert forall i :: 0 <= i < |a + b| ==> (a + b)[i] == if i < |a| then a[i] else b[i - |a|];
  }

  /** A sound walk of a narrower range is sound for a wider one. */
  lemma SoundWiden(a: seq<Event>, ops: Ops, lo: nat, hi: nat, lo': nat, hi': nat)
    requires WalkSound(a, ops, lo, hi) && lo' <= lo && hi <= hi'
    ensures WalkSound(a, ops, lo', hi')
  {
  }

  /** `map_level<..., parentLevel>::operator()` on the slot `node` whose
      range starts at `baseVirt`, for the inclusive range `[vcur, vend]`.
      A missing table is allocated or, if the operation does not allocate,
      the walk returns. A large page is split (`SplitEntries`), or handed
      whole to `sub_page` and not walked. Otherwise the next-level slots
      from `pt_index(vcur)` to `pt_index(vend)` are visited (`Slots`), the
      first starting at `base_virt + idx * step` with bit 47 extended
      (`Canon`). */
  function Walk(ops: Ops, node: Slot, parentLevel: nat, vcur: nat, vend: nat, baseVirt: nat): (r: seq<Event>)
    requires 1 <= parentLevel <= RootLevel && ops.slop > 0
    ensures WalkSound(r, ops, RoundDown(vcur, ops.slop), RoundUp(vend, ops.slop))
    ensures node.Empty? && !ops.allocate ==> r == []
    ensures node.Leaf? && !ops.split ==> r == [SubPage(parentLevel, baseVirt, node)]
    ensures ops.once && AlwaysOk(ops) ==> LeafCount(r) <= 1
    decreases parentLevel, 1, 0
  {
    var level := parentLevel - 1;
    var step := Step(level);
    var idx := Index(vcur, level);
    var eidx := Index(vend, level);
    var base := Canon(baseVirt + idx * step);
    match node
    case Empty =>
      if !ops.allocate then []
      else
        var r := Slots(ops, [], level, vcur, vend, idx, eidx, base);
        SoundAppend([Allocate(parentLevel, baseVirt)], r, ops, RoundDown(vcur, ops.slop), RoundUp(vend, ops.slop));
        LeafCountAppend([Allocate(parentLevel, baseVirt)], r);
        [Allocate(parentLevel, baseVirt)] + r
    case Leaf(pte) =>
      if !ops.split then [SubPage(parentLevel, baseVirt, node)]
      else
        var r := Slots(ops, SplitEntries(pte), level, vcur, vend, idx, eidx, base);
        SoundAppend([SplitLarge(parentLevel, baseVirt)], r, ops, RoundDown(vcur, ops.slop), RoundUp(vend, ops.slop));
        LeafCountAppend([SplitLarge(parentLevel, baseVirt)], r);
        [SplitLarge(parentLevel, baseVirt)] + r
    case Table(entries) =>
      Slots(ops, entries, level, vcur, vend, idx, eidx, base)
  }

  /** The do-while loop of `map_level::operator()` from slot `idx`, whose
      range starts at `base`: this slot (`Visit`), then the next one while
      the operation is not `once` and `idx` has not passed `eidx`. */
  function Slots(ops: Ops, entries: seq<Slot>, level: nat, vcur: nat, vend: nat,
                 idx: nat, eidx: nat, base: nat): (r: seq<Event>)
    requires level < RootLevel && ops.slop > 0 && idx < PtePerPage && eidx < PtePerPage
    ensures WalkSound(r, ops, RoundDown(vcur, ops.slop), RoundUp(vend, ops.slop))
    ensures ops.once && AlwaysOk(ops) ==> LeafCount(r) <= 1
    decreases level + 1, 0, PtePerPage - idx
  {
    var here := Visit(ops, Entry(entries, idx), level, vcur, vend, base);
    if !ops.once && idx + 1 <= eidx then
      var rest := Slots(ops, entries, level, vcur, vend, idx + 1, eidx, base + Step(level));
      SoundAppend(here, rest, ops, RoundDown(vcur, ops.slop), RoundUp(vend, ops.slop));
      here + rest
    else here
  }

  /** One slot of the loop. The range is clamped to the slot; a slot
      covered whole at a level that can hold leaves is handled by `Whole`,
      a partly covered one is walked into (`Within`), which at level 0
      does nothing. */
  function Visit(ops: Ops, child: Slot, level: nat, vcur: nat, vend: nat, base: nat): (r: seq<Event>)
    requires level < RootLevel && ops.slop > 0
    ensures WalkSound(r, ops, RoundDown(vcur, ops.slop), RoundUp(vend, ops.slop))
    ensures ops.once && AlwaysOk(ops) ==> LeafCount(r) <= 1
    decreases level + 1, 0, 0
  {
    var c := Clamp(vcur, vend, base, base + Step(level) - 1, ops.slop);
    if level < ops.nrPageSizes && c.0 == base && c.1 == base + Step(level) - 1 then
      Whole(ops, child, level, vcur, vend, base)
    else if level == 0 then []
    else Within(ops, child, level, vcur, vend, c.0, c.1, base)
  }

  /** A slot the range covers whole: an empty slot is passed over when the
      operation skips empty ones; a level-0 slot gets `page()`; a higher
      one is descended into when the operation descends and the slot is a
      table, and otherwise gets `page()`, descending anyway when `page()`
      returns false. */
  function Whole(ops: Ops, child: Slot, level: nat, vcur: nat, vend: nat, base: nat): (r: seq<Event>)
    requires level < RootLevel && ops.slop > 0 && level < ops.nrPageSizes
    requires RoundDown(vcur, ops.slop) <= base && base + Step(level) - 1 <= RoundUp(vend, ops.slop)
    ensures WalkSound(r, ops, RoundDown(vcur, ops.slop), RoundUp(vend, ops.slop))
    ensures ops.once && AlwaysOk(ops) ==> LeafCount(r) <= 1
    decreases level, 3, 0
  {
    var ve := base + Step(level) - 1;
    if ops.skipEmpty && child.Empty? then []
    else if level == 0 then [Page(0, base, child)]
    else if ops.descend && child.Table? then Descent(ops, child, level, vcur, vend, base, ve, base)
    else
      var tail := if ops.pageOk(level, base) then [] else Descent(ops, child, level, vcur, vend, base, ve, base);
      SoundAppend([Page(level, base, child)], tail, ops, RoundDown(vcur, ops.slop), RoundUp(vend, ops.slop));
      LeafCountAppend([Page(level, base, child)], tail);
      [Page(level, base, child)] + tail
  }

  /** `intermediate_page_pre`, the walk of the slot's table, and
      `intermediate_page_post`. */
  function Descent(ops: Ops, child: Slot, level: nat, vcur: nat, vend: nat, vs: nat, ve: nat, base: nat): (r: seq<Event>)
    requires 1 <= level < RootLevel && ops.slop > 0
    requires RoundDown(vcur, ops.slop) <= vs && ve <= RoundUp(vend, ops.slop)
    ensures WalkSound(r, ops, RoundDown(vcur, ops.slop), RoundUp(vend, ops.slop))
    ensures ops.once && AlwaysOk(ops) ==> LeafCount(r) <= 1
    decreases level, 2, 0
  {
    var lo, hi := RoundDown(vcur, ops.slop), RoundUp(vend, ops.slop);
    var w := Within(ops, child, level, vcur, vend, vs, ve, base);
    SoundAppend([Pre(level, base)], w, ops, lo, hi);
    SoundAppend([Pre(level, base)] + w, [Post(level, base)], ops, lo, hi);
    LeafCountAppend([Pre(level, base)], w);
    LeafCountAppend([Pre(level, base)] + w, [Post(level, base)]);
    [Pre(level, base)] + w + [Post(level, base)]
  }

  /** The walk of the slot's own table for the clamped range `[vs, ve]`. */
  function Within(ops: Ops, child: Slot, level: nat, vcur: nat, vend: nat, vs: nat, ve: nat, base: nat): (r: seq<Event>)
    requires 1 <= level < RootLevel && ops.slop > 0
    requires RoundDown(vcur, ops.slop) <= vs && ve <= RoundUp(vend, ops.slop)
    ensures WalkSound(r, ops, RoundDown(vcur, ops.slop), RoundUp(vend, ops.slop))
    ensures ops.once && AlwaysOk(ops) ==> LeafCount(r) <= 1
    decreases level, 1, 1
  {
    var w := Walk(ops, child, level, vs, ve, base);
    Narrower(vcur, vend, vs, ve, ops.slop);
    SoundWiden(w, ops, RoundDown(vs, ops.slop), RoundUp(ve, ops.slop), RoundDown(vcur, ops.slop), RoundUp(vend, ops.slop));
    w
  }

  /** Clamping only narrows the rounded range. */
  lemma Narrower(vcur: nat, vend: nat, vs: nat, ve: nat, slop: nat)
    requires slop > 0 && RoundDown(vcur, slop) <= vs && ve <= RoundUp(vend, slop)
    ensures RoundDown(vcur, slop) <= RoundDown(vs, slop)
    ensures RoundUp(ve, slop) <= RoundUp(vend, slop)
  {
    RoundDownAbove(RoundDown(vcur, slop), vs, slop);
    RoundUpBelow(RoundUp(vend, slop), ve, slop);
  }

  /** The number of leaf calls (`page()` or `sub_page()`) in a walk. */
  function LeafCount(evs: seq<Event>): nat
  {
    if |evs| == 0 then 0
    else (if evs[0].Page? || evs[0].SubPage? then 1 else 0) + LeafCount(evs[1..])
  }

  lemma {:induction false} LeafCountAppend(a: seq<Event>, b: seq<Event>)
    ensures LeafCount(a + b) == LeafCount(a) + LeafCount(b)
  {
    if |a| > 0 {
      assert (a + b)[1..] == a[1..] + b;
      LeafCountAppend(a[1..], b);
    } else {
      assert a + b == b;
    }
  }

  /** The operation's `page()` never refuses a leaf. */
  ghost predicate AlwaysOk(ops: Ops)
  {
    forall level, virt :: ops.pageOk(level, virt)
  }

  // ---------------------------------------------------------------------
  // virt_to_phys_pt

  /** The options of `virt_to_phys_map`: no allocation, empty slots
      skipped, tables descended into, one slot per level, large pages left
      whole, both page sizes, and `page()` always succeeding. */
  function V2POps(nrPageSizes: nat): (ops: Ops)
    ensures ops.once && AlwaysOk(ops) && !ops.allocate && !ops.split
    ensures ops.skipEmpty && ops.descend && ops.slop == PageSize && ops.nrPageSizes == nrPageSizes
  {
    Ops(false, true, true, true, false, nrPageSizes, PageSize, (_, _) => true)
  }

  /** The walk `virt_to_phys_pt` makes: the page holding `v`, from the root.
      It makes at most one leaf call, so the source's check that `page()`
      runs only once never fails. */
  function V2PWalk(root: Slot, v: nat, nrPageSizes: nat): (r: seq<Event>)
    ensures LeafCount(r) <= 1
  {
    var vbase := RoundDown(v, PageSize);
    Walk(V2POps(nrPageSizes), root, RootLevel, vbase, vbase + PageSize - 1, 0)
  }

  /** The level and entry of the first leaf call of a walk, when that call
      is on a leaf entry. */
  function LeafOf(evs: seq<Event>): Option<(nat, bv64)>
  {
    if |evs| == 0 then None
    else if evs[0].Page? || evs[0].SubPage? then
      (if evs[0].slot.Leaf? then Some((evs[0].level, evs[0].slot.pte)) else None)
    else LeafOf(evs[1..])
  }

  /** `virt_to_phys_pt`: the entry the walk finds for the page of `v`, with
      `v`'s offset into it (`LeafPhys`). `None` is the source's failed
      assertion that some entry was found. */
  function VirtToPhysPt(root: Slot, v: nat, nrPageSizes: nat): Option<bv64>
    requires v < 0x1_0000_0000_0000_0000
  {
    match LeafOf(V2PWalk(root, v, nrPageSizes))
    case None => None
    case Some((level, pte)) => if level <= 5 then Some(LeafPhys(Addr(pte), v as bv64, level)) else None
  }

  /** The reference lookup: follow the table entries `pt_index` selects for
      `v` from a level-`parentLevel` slot down to a leaf entry (a page at
      level 0, a large page above it) and return its level. */
  function Lookup(node: Slot, parentLevel: nat, v: nat): (r: Option<(nat, bv64)>)
    ensures r.Some? ==> r.value.0 <= parentLevel
    decreases parentLevel
  {
    match node
    case Empty => None
    case Leaf(pte) => Some((parentLevel, pte))
    case Table(entries) =>
      if parentLevel == 0 then None
      else Lookup(Entry(entries, Index(v, parentLevel - 1)), parentLevel - 1, v)
  }

  /** The walker finds what the reference lookup finds, for every
      canonical address, in either half of the address space. */
  lemma VirtToPhysAgrees(root: Slot, v: nat, nrPageSizes: nat)
    requires nrPageSizes >= 1 && Canonical(v)
    ensures VirtToPhysPt(root, v, nrPageSizes)
         == match Lookup(root, RootLevel, v)
            case None => None
            case Some((level, pte)) => Some(LeafPhys(Addr(pte), v as bv64, level))
  {
    V2PFinds(root, v, nrPageSizes, v / PageSize);
    LeafTranslates(root, v, nrPageSizes, Lookup(root, RootLevel, v));
  }

  /** The walk `virt_to_phys` runs reaches the leaf the lookup finds. */
  lemma V2PFinds(root: Slot, v: nat, nrPageSizes: nat, n: nat)
    requires nrPageSizes >= 1 && Canonical(v) && n == v / PageSize
    ensures LeafOf(V2PWalk(root, v, nrPageSizes)) == Lookup(root, RootLevel, v)
  {
    var ops := V2POps(nrPageSizes);
    V2PWalkPage(root, v, nrPageSizes);
    RootBase(n);
    WalkFinds(ops, root, RootLevel, v, n, 0);
  }

  /** Whatever leaf the walk finds, at a level no higher than the root,
      gives the translation. */
  lemma LeafTranslates(root: Slot, v: nat, nrPageSizes: nat, found: Option<(nat, bv64)>)
    requires v < Span64 && LeafOf(V2PWalk(root, v, nrPageSizes)) == found
    requires found.Some? ==> found.value.0 <= RootLevel
    ensures VirtToPhysPt(root, v, nrPageSizes)
         == match found
            case None => None
            case Some((level, pte)) => Some(LeafPhys(Addr(pte), v as bv64, level))
  {
  }

  /** `virt_to_phys` walks the page holding `v`. */
  lemma V2PWalkPage(root: Slot, v: nat, nrPageSizes: nat)
    ensures var n := v / PageSize;
      V2PWalk(root, v, nrPageSizes)
      == Walk(V2POps(nrPageSizes), root, RootLevel, n * PageSize, n * PageSize + PageSize - 1, 0)
  {
    assert RoundDown(v, PageSize) == (v / PageSize) * PageSize;
  }

  /** The root's one slot starts at address 0. */
  lemma RootBase(n: nat)
    ensures Canon(SlotBase(n, RootLevel)) == 0
  {
    StepValues();
    MulMod(Shr(n, RootLevel), Span48, 0);
  }

  /** For a small page the physical address is the entry's frame plus the
      offset of `v` into its page. */
  lemma SmallPageTranslation(root: Slot, v: nat, nrPageSizes: nat, pte: bv64)
    requires nrPageSizes >= 1 && Canonical(v)
    requires Lookup(root, RootLevel, v) == Some((0, pte))
    ensures VirtToPhysPt(root, v, nrPageSizes) == Some(Addr(pte) + (v as bv64 & 0xFFF))
  {
    VirtToPhysAgrees(root, v, nrPageSizes);
    var m := PteLevelMask(0);
    assert !m == 0xFFF;
    AddrPageAligned(pte);
    CombineAligned(Addr(pte), v as bv64, m);
  }

  lemma AddrPageAligned(pte: bv64)
    ensures Addr(pte) & 0xFFF == 0
  {
  }

  /** The walk from a level-`parentLevel` slot that holds the page `n` of
      `v` finds what the reference lookup finds. */
  lemma {:induction false} WalkFinds(ops: Ops, node: Slot, parentLevel: nat, v: nat, n: nat, baseVirt: nat)
    requires ops == V2POps(ops.nrPageSizes) && ops.nrPageSizes >= 1
    requires 1 <= parentLevel <= RootLevel && n == v / PageSize && Canonical(v)
    requires baseVirt == Canon(SlotBase(n, parentLevel))
    ensures LeafOf(Walk(ops, node, parentLevel, n * PageSize, n * PageSize + PageSize - 1, baseVirt))
         == Lookup(node, parentLevel, v)
    decreases parentLevel, 1
  {
    match node
    case Empty =>
    case Leaf(_) =>
    case Table(entries) => TableFinds(ops, entries, parentLevel, v, n, baseVirt);
  }

  lemma {:induction false} TableFinds(ops: Ops, entries: seq<Slot>, parentLevel: nat, v: nat, n: nat, baseVirt: nat)
    requires ops == V2POps(ops.nrPageSizes) && ops.nrPageSizes >= 1
    requires 1 <= parentLevel <= RootLevel && n == v / PageSize && Canonical(v)
    requires baseVirt == Canon(SlotBase(n, parentLevel))
    ensures LeafOf(Walk(ops, Table(entries), parentLevel, n * PageSize, n * PageSize + PageSize - 1, baseVirt))
         == Lookup(Entry(entries, Index(v, parentLevel - 1)), parentLevel - 1, v)
    decreases parentLevel, 0
  {
    var level := parentLevel - 1;
    var child := Entry(entries, Index(v, level));
    var base := SlotBase(n, level);
    WalkTable(ops, entries, parentLevel, v, n, baseVirt);
    CanonSlot(v, n, level);
    if level == 0 {
      VisitPage(ops, child, n);
    } else {
      VisitDescends(ops, child, level, n);
      WalkFinds(ops, child, level, v, n, base);
    }
  }

  /** With `once`, the walk of a table visits only the slot that holds the
      page, at that slot's base. */
  lemma WalkTable(ops: Ops, entries: seq<Slot>, parentLevel: nat, v: nat, n: nat, baseVirt: nat)
    requires ops == V2POps(ops.nrPageSizes)
    requires 1 <= parentLevel <= RootLevel && n == v / PageSize && Canonical(v)
    requires baseVirt == Canon(SlotBase(n, parentLevel))
    ensures var level := parentLevel - 1;
      Walk(ops, Table(entries), parentLevel, n * PageSize, n * PageSize + PageSize - 1, baseVirt)
      == Visit(ops, Entry(entries, Index(v, level)), level, n * PageSize, n * PageSize + PageSize - 1,
               SlotBase(n, level))
  {
    TableBase(v, n, parentLevel);
    WalkTableOnce(ops, entries, parentLevel, n * PageSize, n * PageSize + PageSize - 1, baseVirt);
  }

  /** With `once`, a walk of a table visits only the slot holding its first
      address, at the base the walk computes for it. */
  lemma WalkTableOnce(ops: Ops, entries: seq<Slot>, parentLevel: nat, vcur: nat, vend: nat, baseVirt: nat)
    requires 1 <= parentLevel <= RootLevel && ops.slop > 0 && ops.once
    ensures var level := parentLevel - 1;
      Walk(ops, Table(entries), parentLevel, vcur, vend, baseVirt)
      == Visit(ops, Entry(entries, Index(vcur, level)), level, vcur, vend,
               Canon(baseVirt + Index(vcur, level) * Step(level)))
  {
  }

  /** The slot below a canonical address's slot at `parentLevel` that holds
      the address, and its base, the walk computes for that address's page. */
  lemma TableBase(v: nat, n: nat, parentLevel: nat)
    requires 1 <= parentLevel <= RootLevel && n == v / PageSize && Canonical(v)
    ensures Index(n * PageSize, parentLevel - 1) == Index(v, parentLevel - 1)
    ensures Canon(Canon(SlotBase(n, parentLevel)) + Index(v, parentLevel - 1) * Step(parentLevel - 1))
         == SlotBase(n, parentLevel - 1)
  {
    var level := parentLevel - 1;
    PageOfBase(n);
    assert Index(n * PageSize, level) == Index(v, level);
    ChildBase(n, level);
    CanonAdd(SlotBase(n, parentLevel), Index(v, level) * Step(level));
    CanonSlot(v, n, level);
  }


  /** A page-sized range never covers a slot above level 0 whole, so the
      walk goes into the slot's table. */
  lemma VisitDescends(ops: Ops, child: Slot, level: nat, n: nat)
    requires ops.slop == PageSize && 1 <= level < RootLevel
    ensures var base := SlotBase(n, level);
      Visit(ops, child, level, n * PageSize, n * PageSize + PageSize - 1, base)
      == Walk(ops, child, level, n * PageSize, n * PageSize + PageSize - 1, base)
  {
    var vbase := n * PageSize;
    var base := SlotBase(n, level);
    var size := Step(level);
    SlotContains(n, level);
    AlignedPage(n);
    var c := Clamp(vbase, vbase + PageSize - 1, base, base + size - 1, PageSize);
    assert c == (vbase, vbase + PageSize - 1);
    assert size > PageSize;
    assert !(c.0 == base && c.1 == base + size - 1);
  }

  /** At level 0 the slot is the page: `page()` is called on it unless it
      is empty. */
  lemma VisitPage(ops: Ops, child: Slot, n: nat)
    requires ops == V2POps(ops.nrPageSizes) && ops.nrPageSizes >= 1
    ensures Visit(ops, child, 0, n * PageSize, n * PageSize + PageSize - 1, SlotBase(n, 0))
         == if child.Empty? then [] else [Page(0, n * PageSize, child)]
  {
    AlignedPage(n);
  }

  /** The page address of page `n` rounds to itself, and `v`'s page number
      is that of its page. */
  lemma PageOfBase(n: nat)
    ensures (n * PageSize) / PageSize == n
  {
    MulMod(n, PageSize, 0);
  }

  lemma AlignedPage(n: nat)
    ensures RoundDown(n * PageSize, PageSize) == n * PageSize
    ensures RoundUp(n * PageSize + PageSize - 1, PageSize) == n * PageSize + PageSize - 1
  {
    MulMod(n, PageSize, 0);
    MulMod(n, PageSize, PageSize - 1);
  }

  /** The first address of the level-`level` slot that holds page `n`. */
  function SlotBase(n: nat, level: nat): nat
  {
    Shr(n, level) * Step(level)
  }

  /** The level-`level` slot that holds page `n` starts at
      `SlotBase(n, level)` and holds the whole page. */
  lemma {:induction false} SlotContains(n: nat, level: nat)
    ensures SlotBase(n, level) <= n * PageSize
    ensures n * PageSize + PageSize <= SlotBase(n, level) + Step(level)
  {
    if level > 0 {
      SlotContains(n, level - 1);
      var m := Shr(n, level - 1);
      assert m == (m / PtePerPage) * PtePerPage + m % PtePerPage;
      SlotStep(m, m / PtePerPage, Step(level - 1), n * PageSize);
    }
  }

  /** Below the root, the slot that holds a canonical address starts at a
      canonical address, so extending bit 47 leaves its base alone. */
  lemma CanonSlot(v: nat, n: nat, level: nat)
    requires Canonical(v) && n == v / PageSize && level < RootLevel
    ensures Canon(SlotBase(n, level)) == SlotBase(n, level)
  {
    var b := SlotBase(n, level);
    var s := Step(level);
    SlotContains(n, level);
    assert n * PageSize <= v by {
      assert v == n * PageSize + v % PageSize;
    }
    if v >= HalfSpan {
      var c := Span64 - HalfSpan;
      StepValues();
      assert c % PageSize == 0 && c % s == 0;
      RoundDownAbove(c, v, PageSize);
      assert RoundDown(v, PageSize) == n * PageSize by {
        assert v == n * PageSize + v % PageSize;
      }
      var k := c / s;
      assert k * s == c;
      SlotAbove(Shr(n, level), k, s, n * PageSize);
    }
    CanonFixes(b);
  }

  /** A slot that ends above `k` slots' worth of addresses starts at or
      after them. */
  lemma SlotAbove(m: nat, k: nat, s: nat, x: nat)
    requires s > 0 && m * s <= x < m * s + s && k * s <= x
    ensures k * s <= m * s
  {
    if m < k {
      MulMono(m + 1, k, s);
      Distrib2(m, 1, s);
    }
  }

  /** The slot sizes of the four levels, and the root table's span. */
  lemma StepValues()
    ensures Step(0) == 0x1000 && Step(1) == 0x20_0000 && Step(2) == 0x4000_0000
    ensures Step(3) == 0x80_0000_0000 && Step(RootLevel) == Span48
  {
    assert Step(1) == PtePerPage * Step(0);
    assert Step(2) == PtePerPage * Step(1);
    assert Step(3) == PtePerPage * Step(2);
    assert Step(4) == PtePerPage * Step(3);
  }

  lemma SlotStep(m: nat, q: nat, s: nat, x: nat)
    requires m * s <= x && x + PageSize <= m * s + s
    requires q * PtePerPage <= m < q * PtePerPage + PtePerPage
    ensures q * (PtePerPage * s) <= x && x + PageSize <= q * (PtePerPage * s) + PtePerPage * s
  {
    MulMono(q * PtePerPage, m, s);
    MulMono(m + 1, q * PtePerPage + PtePerPage, s);
    Distrib2(m, 1, s);
    Distrib2(q * PtePerPage, PtePerPage, s);
    MulAssoc(q, PtePerPage, s);
  }

  lemma MulAssoc(a: int, b: int, c: int)
    ensures a * (b * c) == (a * b) * c
  {
  }

  /** A child slot's base is its parent's base plus its index times its
      size. */
  lemma ChildBase(n: nat, level: nat)
    requires level < RootLevel
    ensures SlotBase(n, level + 1) + (Shr(n, level) % PtePerPage) * Step(level)
         == SlotBase(n, level)
  {
    var m := Shr(n, level);
    var s := Step(level);
    assert m == (m / PtePerPage) * PtePerPage + m % PtePerPage;
    assert SlotBase(n, level + 1) == ((m / PtePerPage) * PtePerPage) * s;
    Distrib2((m / PtePerPage) * PtePerPage, m % PtePerPage, s);
  }

  lemma Distrib2(a: int, b: int, s: int)
    ensures a * s + b * s == (a + b) * s
  {
  }

  lemma MulMono(a: nat, b: nat, c: nat)
    requires a <= b
    ensures a * c <= b * c
  {
  }

  // ---------------------------------------------------------------------
  // operate_range

  /** `align_up(size, page_size)`. */
  function AlignUp(size: nat): (r: nat)
    ensures size <= r < size + PageSize && r % PageSize == 0
  {
    RoundDown(size + PageSize - 1, PageSize)
  }

  /** The inclusive range `operate_range` walks for `start` and `size`: from
      the page holding `start`, `size` rounded up to whole pages and at
      least one page. */
  function RangeOf(start: nat, size: nat): (r: (nat, nat))
    ensures r.0 <= start < r.0 + PageSize && r.0 % PageSize == 0
    ensures r.0 + PageSize <= r.1 + 1 && r.1 % PageSize == PageSize - 1
    ensures r.0 + size <= r.1 + 1
    ensures r.1 + 1 - r.0 == PageSize || r.1 + 1 - r.0 < size + PageSize
  {
    var s := RoundDown(start, PageSize);
    var len := if AlignUp(size) > PageSize then AlignUp(size) else PageSize;
    LastOfPages(s, len);
    (s, s + len - 1)
  }

  /** The byte before an aligned end is the last of its page. */
  lemma LastOfPages(s: nat, len: nat)
    requires s % PageSize == 0 && len % PageSize == 0 && len >= PageSize
    ensures (s + len - 1) % PageSize == PageSize - 1
  {
    var k := s / PageSize + len / PageSize;
    assert s + len == k * PageSize;
    MulMod(k - 1, PageSize, PageSize - 1);
    assert s + len - 1 == (k - 1) * PageSize + (PageSize - 1);
  }

  /** The walk `operate_range` makes: `map_range` from the root over
      `RangeOf(start, size)`, clamped with the page size. */
  function RangeWalk(ops: Ops, root: Slot, start: nat, size: nat): (r: seq<Event>)
    ensures WalkSound(r, ops.(slop := PageSize), RangeOf(start, size).0, RangeOf(start, size).1)
  {
    var range := RangeOf(start, size);
    var w := Walk(ops.(slop := PageSize), root, RootLevel, range.0, range.1, 0);
    RoundsToItself(range.0, range.1);
    w
  }

  lemma RoundsToItself(s: nat, e: nat)
    requires s % PageSize == 0 && e % PageSize == PageSize - 1
    ensures RoundDown(s, PageSize) == s && RoundUp(e, PageSize) == e
  {
  }

  /** `operate_range`: the walk, then one TLB flush if the operation's
      `tlb_flush_needed` (`needsFlush`, given the walk) asks for it, then
      `finalize`. Every leaf call lies in the walked range, none comes after
      the flush, and `finalize` comes last and once. */
  function OperateRange(ops: Ops, root: Slot, start: nat, size: nat, needsFlush: seq<Event> -> bool): (r: seq<Event>)
    ensures |r| > 0 && r[|r| - 1] == Finalize && forall i :: 0 <= i < |r| - 1 ==> !r[i].Finalize?
    ensures forall i, j :: 0 <= i < j < |r| && r[i].FlushAll? ==> !r[j].Page?
    ensures PagesWithin(r, RangeOf(start, size).0, RangeOf(start, size).1)
    ensures (exists i :: 0 <= i < |r| && r[i].FlushAll?) <==> needsFlush(RangeWalk(ops, root, start, size))
  {
    var w := RangeWalk(ops, root, start, size);
    var range := RangeOf(start, size);
    var flush := needsFlush(w);
    Finished(w, flush, ops.(slop := PageSize), range.0, range.1);
    w + (if flush then [FlushAll] else []) + [Finalize]
  }

  /** A walk followed by an optional flush and `finalize`. */
  lemma Finished(w: seq<Event>, flush: bool, ops: Ops, lo: nat, hi: nat)
    requires WalkSound(w, ops, lo, hi)
    ensures var r := w + (if flush then [FlushAll] else []) + [Finalize];
      |r| > 0 && r[|r| - 1] == Finalize && (forall i :: 0 <= i < |r| - 1 ==> !r[i].Finalize?)
      && (forall i, j :: 0 <= i < j < |r| && r[i].FlushAll? ==> !r[j].Page?)
      && PagesWithin(r, lo, hi)
      && ((exists i :: 0 <= i < |r| && r[i].FlushAll?) <==> flush)
  {
    var tail := (if flush then [FlushAll] else []) + [Finalize];
    var r := w + tail;
    assert w + (if flush then [FlushAll] else []) + [Finalize] == r;
    assert forall i :: 0 <= i < |r| ==> r[i] == if i < |w| then w[i] else tail[i - |w|];
    if flush {
      assert r[|w|].FlushAll?;
    }
  }
}

=== FILE: octets.dfy ===
/** Byte strings and their textual codecs, shared by the protocol and firmware
    parsers: the 8-bit wrapping checksum, the `ch ^ 0x20` escape flip, and the
    hexadecimal forms that `std::hex` writes and `std::stoul(…, 16)` reads. */
module Octets {
  import opened Wrappers

  /** One byte of a C++ `std::string` or `uint8_t` buffer. */
  type Byte = x: int | 0 <= x < 256

  const TwoTo64: nat := 0x1_0000_0000_0000_0000

  /** C's fixed-width unsigned integers. */
  type U16 = x: nat | x < 0x1_0000
  type U32 = x: nat | x < 0x1_0000_0000
  type U64 = x: nat | x < 0x1_0000_0000_0000_0000

  /** The byte string a string literal stands for (every character used by
      the model is below 256). */
  function Ascii(s: string): seq<Byte>
  {
    seq(|s|, i requires 0 <= i < |s| => (s[i] as int) % 256)
  }

  /** Memory, byte by byte, after `bs` is stored from address `at`. */
  function Store(mem: nat -> Byte, at: nat, bs: seq<Byte>): nat -> Byte
  {
    (a: nat) => if at <= a < at + |bs| then bs[a - at] else mem(a)
  }

  /** The `n` bytes of memory from address `at`. */
  function Load(mem: nat -> Byte, at: nat, n: nat): (bs: seq<Byte>)
    ensures |bs| == n
  {
    seq(n, i requires 0 <= i < n => mem(at + i))
  }

  /** What is stored is what is loaded back. */
  lemma LoadStore(mem: nat -> Byte, at: nat, bs: seq<Byte>)
    ensures Load(Store(mem, at, bs), at, |bs|) == bs
  {
  }

  /** Encoding text piecewise is encoding it whole. */
  lemma AsciiAppend(a: string, b: string)
    ensures Ascii(a + b) == Ascii(a) + Ascii(b)
  {
    assert forall i :: 0 <= i < |b| ==> (a + b)[|a| + i] == b[i];
  }

  /** The plain, unbounded sum of the byte values: the reference the wrapping
      checksum is measured against. */
  function Sum(s: seq<Byte>): nat
  {
    if |s| == 0 then 0 else s[0] + Sum(s[1..])
  }

  lemma {:induction false} SumAppend(a: seq<Byte>, b: seq<Byte>)
    ensures Sum(a + b) == Sum(a) + Sum(b)
  {
    if |a| == 0 {
      assert a + b == b;
    } else {
      assert (a + b)[1..] == a[1..] + b;
      SumAppend(a[1..], b);
    }
  }

  /** A `uint8_t` accumulator that adds each byte in order and wraps at 256
      after every step; it equals the plain sum taken modulo 256. */
  function Checksum(s: seq<Byte>): (c: Byte)
    ensures c == Sum(s) % 256
    decreases |s|
  {
    if |s| == 0 then 0
    else
      var init, last := s[..|s| - 1], s[|s| - 1];
      assert Sum(s) == Sum(init) + last by {
        assert init + [last] == s;
        SumAppend(init, [last]);
        assert Sum([last]) == last + Sum([]);
      }
      ModStep(Sum(init), last);
      (Checksum(init) + last) % 256
  }

  /** Adding a byte to a value reduced modulo 256. */
  lemma ModStep(x: nat, y: Byte)
    ensures (x % 256 + y) % 256 == (x + y) % 256
  {
    ModAdd(x, y);
    ModAdd(x % 256, y);
  }

  /** Checksums compose: the checksum of a concatenation is the wrapped sum
      of the parts' checksums. */
  lemma ChecksumAppend(a: seq<Byte>, b: seq<Byte>)
    ensures Checksum(a + b) == (Checksum(a) + Checksum(b)) % 256
  {
    SumAppend(a, b);
    ModAdd(Sum(a), Sum(b));
  }

  lemma ModAdd(x: nat, y: nat)
    ensures (x + y) % 256 == (x % 256 + y % 256) % 256
  {
    var q1, q2 := x / 256, y / 256;
    assert x + y == 256 * (q1 + q2) + (x % 256 + y % 256);
  }

  /** `ch ^ 0x20`: flips bit 5, the bit worth 32. */
  function Flip(b: Byte): Byte
  {
    if b % 64 >= 32 then b - 32 else b + 32
  }

  lemma FlipInvolutive(b: Byte)
    ensures Flip(Flip(b)) == b
  {
    var q := b / 64;
    assert b == 64 * q + b % 64;
    if b % 64 >= 32 {
      assert b - 32 == 64 * q + (b % 64 - 32);
    } else {
      assert b + 32 == 64 * q + (b % 64 + 32);
    }
  }

  // ---------------------------------------------------------------------
  // Hexadecimal digits

  /** The value of one hexadecimal digit, in either case, as `strtoul` reads
      it. */
  function HexValue(b: Byte): (r: Option<nat>)
    ensures r.Some? <==> (0x30 <= b <= 0x39 || 0x41 <= b <= 0x46 || 0x61 <= b <= 0x66)
    ensures r.Some? ==> r.value < 16
  {
    if 0x30 <= b <= 0x39 then Some(b - 0x30)
    else if 0x61 <= b <= 0x66 then Some(b - 0x61 + 10)
    else if 0x41 <= b <= 0x46 then Some(b - 0x41 + 10)
    else None
  }

  /** The digits `std::hex` writes: `0`-`9` and lower-case `a`-`f`. */
  predicate LowerHex(b: Byte)
  {
    0x30 <= b <= 0x39 || 0x61 <= b <= 0x66
  }

  /** The digit `std::hex` writes for `n`; reading it back gives `n`. */
  function HexDigit(n: nat): (d: Byte)
    requires n < 16
    ensures LowerHex(d) && HexValue(d) == Some(n)
  {
    if n < 10 then 0x30 + n else 0x61 + n - 10
  }

  /** `std::stoul` (or `std::stoi`) in base 16 on a two-character string,
      the result cast to a byte. A leading digit is read with the next one
      when that is a digit too; a leading space or plus sign leaves the
      second character to be the number; a leading minus negates it;
      anything else throws (`None`). `HexPairIsStoull` shows this is the
      number `ParseHexNumber` reads, modulo 256 (a negative `int` or a
      wrapped `unsigned long` keeps its low byte alike). */
  function HexPair(d0: Byte, d1: Byte): (r: Option<Byte>)
    ensures r.Some? <==> HexValue(d0).Some? || ((Space(d0) || d0 == 0x2B || d0 == 0x2D) && HexValue(d1).Some?)
  {
    if HexValue(d0).Some? then
      Some(if HexValue(d1).Some? then 16 * HexValue(d0).value + HexValue(d1).value else HexValue(d0).value)
    else if HexValue(d1).None? then None
    else if Space(d0) || d0 == 0x2B then Some(HexValue(d1).value)
    else if d0 == 0x2D then Some((256 - HexValue(d1).value) % 256)
    else None
  }

  /** Two characters read the way `std::stoull` reads them, then cast to a
      byte. */
  lemma HexPairIsStoull(d0: Byte, d1: Byte)
    ensures HexPair(d0, d1) == match ParseHexNumber([d0, d1])
      case None => None
      case Some(v) => Some(v % 256)
  {
    PairValue(d0, d1);
  }

  /** What `stoull` makes of two characters, case by case. */
  lemma PairValue(d0: Byte, d1: Byte)
    ensures HexValue(d0).Some? ==> (ParseHexNumber([d0, d1])
      == Some(if HexValue(d1).Some? then 16 * HexValue(d0).value + HexValue(d1).value else HexValue(d0).value))
    ensures (Space(d0) || d0 == 0x2B) ==> ParseHexNumber([d0, d1]) == HexValue(d1)
    ensures d0 == 0x2D ==> (ParseHexNumber([d0, d1])
      == if HexValue(d1).None? then None else Some((TwoTo64 - HexValue(d1).value) % TwoTo64))
    ensures d0 == 0x2D && HexValue(d1).Some? ==>
      (TwoTo64 - HexValue(d1).value) % TwoTo64 % 256 == (256 - HexValue(d1).value) % 256
    ensures HexValue(d0).None? && !Space(d0) && d0 != 0x2B && d0 != 0x2D ==> ParseHexNumber([d0, d1]).None?
  {
    var s := [d0, d1];
    ScanIsStoull(s);
    if HexValue(d0).Some? {
      PairLeadingDigit(d0, d1);
      var hi := HexValue(d0).value;
      assert DigitsValue([d0]) == hi by {
        assert [d0][..0] == [];
      }
      if HexValue(d1).Some? {
        assert s[..1] == [d0];
        assert DigitsValue(s) == 16 * hi + HexValue(d1).value;
      }
    } else if Space(d0) || d0 == 0x2B || d0 == 0x2D {
      PairSigned(d0, d1);
      if HexValue(d1).Some? {
        var lo := HexValue(d1).value;
        assert [d1][..0] == [];
        assert DigitsValue([d1]) == lo;
        if lo > 0 {
          NegatedByte(lo);
        }
      }
    } else {
      PairOther(d0, d1);
    }
  }

  /** Two characters led by a hex digit: one digit or two, unsigned. */
  lemma PairLeadingDigit(d0: Byte, d1: Byte)
    requires HexValue(d0).Some?
    ensures HexDigitsOf([d0, d1]) == if HexValue(d1).Some? then [d0, d1] else [d0]
    ensures !Negative([d0, d1])
  {
    var s := [d0, d1];
    assert SpaceRun(s) == 0;
    assert DigitsStart(s) == 0;
    assert s[0..] == s && s[1..] == [d1] && [d1][1..] == [];
    assert HexRun([d1]) == if HexValue(d1).Some? then 1 else 0;
    assert HexRun(s) == 1 + HexRun([d1]);
  }

  /** Two characters led by white space or a sign: the second is the only
      digit there can be, and only a minus negates it. */
  lemma PairSigned(d0: Byte, d1: Byte)
    requires Space(d0) || d0 == 0x2B || d0 == 0x2D
    ensures HexDigitsOf([d0, d1]) == if HexValue(d1).Some? then [d1] else []
    ensures HexValue(d1).Some? ==> (Negative([d0, d1]) <==> d0 == 0x2D)
  {
    var s := [d0, d1];
    assert s[1..] == [d1] && [d1][1..] == [] && s[2..] == [];
    assert HexRun([d1]) == if HexValue(d1).Some? then 1 else 0;
    if Space(d0) {
      assert SpaceRun(s) == 1 + SpaceRun([d1]);
      if Space(d1) {
        assert SpaceRun([d1]) == 1 + SpaceRun([]);
      } else {
        assert SpaceRun([d1]) == 0;
      }
    } else {
      assert SpaceRun(s) == 0;
      assert DigitsStart(s) == 1;
    }
  }

  /** Two characters led by anything else: no digits. */
  lemma PairOther(d0: Byte, d1: Byte)
    requires HexValue(d0).None? && !Space(d0) && d0 != 0x2B && d0 != 0x2D
    ensures HexDigitsOf([d0, d1]) == []
  {
    var s := [d0, d1];
    assert SpaceRun(s) == 0;
    assert DigitsStart(s) == 0;
    assert s[0..] == s;
  }

  /** The low byte of 2^64 - `lo`. */
  lemma NegatedByte(lo: nat)
    requires 0 < lo < 256
    ensures (TwoTo64 - lo) % TwoTo64 % 256 == 256 - lo
  {
    assert (TwoTo64 - lo) % TwoTo64 == TwoTo64 - lo;
    DivModUnique(TwoTo64 - lo, 256, TwoTo64 / 256 - 1, 256 - lo);
  }

  /** `std::setw(2) << std::setfill('0') << std::hex` of one byte: two
      lower-case digits that read back as the byte. */
  function HexByte(b: Byte): (h: seq<Byte>)
    ensures |h| == 2 && LowerHex(h[0]) && LowerHex(h[1])
    ensures HexPair(h[0], h[1]) == Some(b)
  {
    [HexDigit(b / 16), HexDigit(b % 16)]
  }

  /** Two digits per byte, in order. */
  function HexBytes(bs: seq<Byte>): (h: seq<Byte>)
    ensures |h| == 2 * |bs|
    ensures forall i :: 0 <= i < |h| ==> LowerHex(h[i])
  {
    if |bs| == 0 then [] else HexByte(bs[0]) + HexBytes(bs[1..])
  }

  /** The value of a string made only of hex digits, most significant first. */
  function DigitsValue(s: seq<Byte>): nat
    requires forall i :: 0 <= i < |s| ==> HexValue(s[i]).Some?
  {
    if |s| == 0 then 0 else 16 * DigitsValue(s[..|s| - 1]) + HexValue(s[|s| - 1]).value
  }

  /** How many hex digits `s` starts with. */
  function HexRun(s: seq<Byte>): (n: nat)
    ensures n <= |s|
    ensures forall i :: 0 <= i < n ==> HexValue(s[i]).Some?
    ensures n < |s| ==> HexValue(s[n]).None?
  {
    if |s| == 0 || HexValue(s[0]).None? then 0 else 1 + HexRun(s[1..])
  }

  /** Where the digits `std::stoull(s, nullptr, 16)` reads begin: past
      leading white space, an optional sign, and a `0x` or `0X` prefix when
      a hex digit follows it. */
  function DigitsStart(s: seq<Byte>): (k: nat)
    ensures k <= |s|
  {
    var i := SpaceRun(s);
    var j := if i < |s| && (s[i] == 0x2B || s[i] == 0x2D) then i + 1 else i;
    if j + 2 < |s| && s[j] == 0x30 && (s[j + 1] == 0x78 || s[j + 1] == 0x58) && HexValue(s[j + 2]).Some? then j + 2
    else j
  }

  /** A minus sign after the leading white space. */
  predicate Negative(s: seq<Byte>)
  {
    SpaceRun(s) < |s| && s[SpaceRun(s)] == 0x2D
  }

  /** The digits `std::stoull(s, nullptr, 16)` reads: the longest run of hex
      digits from `DigitsStart`; the rest of the string is ignored. */
  function HexDigitsOf(s: seq<Byte>): (d: seq<Byte>)
    ensures forall i :: 0 <= i < |d| ==> HexValue(d[i]).Some?
  {
    var k := DigitsStart(s);
    s[k..][..HexRun(s[k..])]
  }

  /** `std::stoull(s, nullptr, 16)` read as a whole: no digits throws
      `invalid_argument`, a value past 64 bits throws `out_of_range` (both
      `None`); a minus sign negates the value modulo 2^64, as `strtoull`
      does. `ScanIsStoull` shows the scan `ParseHexNumber` agrees with it. */
  function StoullReference(s: seq<Byte>): (r: Option<nat>)
    ensures r.None? <==> |HexDigitsOf(s)| == 0 || DigitsValue(HexDigitsOf(s)) >= TwoTo64
    ensures r.Some? ==> r.value < TwoTo64
    ensures r.Some? && !Negative(s) ==> r.value == DigitsValue(HexDigitsOf(s))
    ensures r.Some? && Negative(s) ==> (r.value + DigitsValue(HexDigitsOf(s))) % TwoTo64 == 0
  {
    StoullDigits(Negative(s), HexDigitsOf(s))
  }

  /** The number a run of hex digits stands for, negated when `negative`;
      `None` when there are no digits or they do not fit 64 bits. */
  function StoullDigits(negative: bool, d: seq<Byte>): (r: Option<nat>)
    requires forall i :: 0 <= i < |d| ==> HexValue(d[i]).Some?
    ensures r.Some? ==> r.value < TwoTo64
  {
    if |d| == 0 then None
    else
      var v := DigitsValue(d);
      if v >= TwoTo64 then None
      else if negative then Some((TwoTo64 - v) % TwoTo64)
      else Some(v)
  }

  /** Where `strtoull` is in its left-to-right reading. */
  datatype ScanPhase = LeadingSpace | SignChar | HexPrefix | HexDigits

  function PhaseRank(p: ScanPhase): nat
  {
    match p
    case LeadingSpace => 3
    case SignChar => 2
    case HexPrefix => 1
    case HexDigits => 0
  }

  /** `strtoull` in base 16 as it reads: white space, then one sign, then a
      `0x` or `0X` that a hex digit follows, then the digits from `start` up
      to the first non-digit. */
  function Scan(s: seq<Byte>, i: nat, phase: ScanPhase, negative: bool, start: nat): (r: Option<nat>)
    requires start <= i <= |s|
    requires forall k :: start <= k < i ==> HexValue(s[k]).Some?
    ensures r.Some? ==> r.value < TwoTo64
    decreases |s| - i, PhaseRank(phase)
  {
    match phase
    case LeadingSpace =>
      if i < |s| && Space(s[i]) then Scan(s, i + 1, LeadingSpace, negative, i + 1)
      else Scan(s, i, SignChar, negative, i)
    case SignChar =>
      if i < |s| && (s[i] == 0x2B || s[i] == 0x2D) then Scan(s, i + 1, HexPrefix, s[i] == 0x2D, i + 1)
      else Scan(s, i, HexPrefix, negative, i)
    case HexPrefix =>
      if i + 2 < |s| && s[i] == 0x30 && (s[i + 1] == 0x78 || s[i + 1] == 0x58) && HexValue(s[i + 2]).Some? then
        Scan(s, i + 2, HexDigits, negative, i + 2)
      else Scan(s, i, HexDigits, negative, i)
    case HexDigits =>
      if i < |s| && HexValue(s[i]).Some? then Scan(s, i + 1, HexDigits, negative, start)
      else StoullDigits(negative, s[start..i])
  }

  /** `std::stoull(s, nullptr, 16)`, as `strtoull` scans it. */
  function ParseHexNumber(s: seq<Byte>): (r: Option<nat>)
    ensures r.Some? ==> r.value < TwoTo64
  {
    Scan(s, 0, LeadingSpace, false, 0)
  }

  /** The scan reads what the whole-string reading reads, for every string. */
  lemma ScanIsStoull(s: seq<Byte>)
    ensures ParseHexNumber(s) == StoullReference(s)
  {
    ScanSpaces(s, 0);
    assert s[0..] == s;
    ScanSignAndPrefix(s);
    var k := DigitsStart(s);
    ScanDigits(s, k, Negative(s), k);
    assert s[k..k + HexRun(s[k..])] == HexDigitsOf(s);
  }

  /** After the white space, a sign and a prefix take the scan to where the
      digits start, negated exactly when the sign is a minus. */
  lemma ScanSignAndPrefix(s: seq<Byte>)
    ensures Scan(s, SpaceRun(s), SignChar, false, SpaceRun(s)) == Scan(s, DigitsStart(s), HexDigits, Negative(s), DigitsStart(s))
  {
    var i := SpaceRun(s);
    var j := if i < |s| && (s[i] == 0x2B || s[i] == 0x2D) then i + 1 else i;
    assert Scan(s, i, SignChar, false, i) == Scan(s, j, HexPrefix, Negative(s), j);
  }

  /** White space from `i` on is skipped. */
  lemma {:induction false} ScanSpaces(s: seq<Byte>, i: nat)
    requires i <= |s|
    ensures Scan(s, i, LeadingSpace, false, i) == Scan(s, i + SpaceRun(s[i..]), SignChar, false, i + SpaceRun(s[i..]))
    decreases |s| - i
  {
    if i < |s| && Space(s[i]) {
      assert s[i..][1..] == s[i + 1..];
      ScanSpaces(s, i + 1);
    }
  }

  /** The digits from `i` on are read up to the first non-digit. */
  lemma {:induction false} ScanDigits(s: seq<Byte>, i: nat, negative: bool, start: nat)
    requires start <= i <= |s|
    requires forall k :: start <= k < i ==> HexValue(s[k]).Some?
    ensures i + HexRun(s[i..]) <= |s|
    ensures Scan(s, i, HexDigits, negative, start) == StoullDigits(negative, s[start..i + HexRun(s[i..])])
    decreases |s| - i
  {
    if i < |s| && HexValue(s[i]).Some? {
      assert s[i..][1..] == s[i + 1..];
      ScanDigits(s, i + 1, negative, start);
    }
  }

  /** A string that starts with a hex digit and no `0x` prefix is read from
      its first character, unsigned. */
  lemma PlainDigits(s: seq<Byte>)
    requires |s| > 0 && HexValue(s[0]).Some?
    requires |s| > 1 && s[0] == 0x30 ==> s[1] != 0x78 && s[1] != 0x58
    ensures DigitsStart(s) == 0 && !Negative(s)
    ensures HexDigitsOf(s) == s[..HexRun(s)]
  {
    assert !Space(s[0]) && SpaceRun(s) == 0;
    assert s[0..] == s;
  }

  /** The digits read are `h` when they start at `k` and a non-digit (or
      the end) follows them. */
  lemma DigitsAt(s: seq<Byte>, k: nat, h: seq<Byte>)
    requires DigitsStart(s) == k && k + |h| <= |s| && s[k..k + |h|] == h
    requires forall i :: 0 <= i < |h| ==> HexValue(h[i]).Some?
    requires k + |h| < |s| ==> HexValue(s[k + |h|]).None?
    ensures HexDigitsOf(s) == h
  {
    var rest := s[k + |h|..];
    assert s[k..] == h + rest;
    HexRunOfDigits(h, rest);
    assert (h + rest)[..|h|] == h;
  }

  /** `std::hex` of a number: lower-case digits without leading zeros, and
      `"0"` for zero. */
  function HexNumber(v: nat): (h: seq<Byte>)
    ensures 0 < |h|
    ensures forall i :: 0 <= i < |h| ==> LowerHex(h[i])
  {
    if v < 16 then [HexDigit(v)] else HexNumber(v / 16) + [HexDigit(v % 16)]
  }

  /** Every number below 2^64 reads back from its `std::hex` form, also when
      the form is followed by a character that is neither a digit nor an
      `x` (after `"0"`, an `x` and a digit would read as a prefix). */
  lemma HexNumberRoundTrip(v: nat, tail: seq<Byte>)
    requires v < TwoTo64
    requires |tail| > 0 ==> HexValue(tail[0]).None? && tail[0] != 0x78 && tail[0] != 0x58
    ensures ParseHexNumber(HexNumber(v) + tail) == Some(v)
  {
    DigitsOfHexNumber(v);
    PlainValue(HexNumber(v), tail, v);
  }

  /** A `0x` prefix is skipped. */
  lemma PrefixedRoundTrip(v: nat, tail: seq<Byte>)
    requires v < TwoTo64
    requires |tail| > 0 ==> HexValue(tail[0]).None?
    ensures ParseHexNumber([0x30, 0x78] + HexNumber(v) + tail) == Some(v)
  {
    DigitsOfHexNumber(v);
    PrefixedReads(HexNumber(v), tail, v);
  }

  /** A minus sign negates modulo 2^64: `"-1"` reads as 2^64 - 1. */
  lemma NegatedRoundTrip(v: nat, tail: seq<Byte>)
    requires v < TwoTo64
    requires |tail| > 0 ==> HexValue(tail[0]).None? && tail[0] != 0x78 && tail[0] != 0x58
    ensures ParseHexNumber([0x2D] + HexNumber(v) + tail) == Some((TwoTo64 - v) % TwoTo64)
  {
    DigitsOfHexNumber(v);
    NegatedReads(HexNumber(v), tail, v);
  }

  /** Digits worth 2^64 or more throw `out_of_range`. */
  lemma OverflowThrows(v: nat, tail: seq<Byte>)
    requires v >= TwoTo64
    requires |tail| > 0 ==> HexValue(tail[0]).None?
    ensures ParseHexNumber(HexNumber(v) + tail) == None
  {
    HexNumberLeads(v);
    DigitsOfHexNumber(v);
    PlainValue(HexNumber(v), tail, v);
  }

  /** `std::stoull` throws `invalid_argument` on an empty string and on one
      whose first character is neither white space, a sign nor a digit. */
  lemma UnreadableStart(s: seq<Byte>)
    requires |s| > 0 ==> HexValue(s[0]).None? && !Space(s[0]) && s[0] != 0x2B && s[0] != 0x2D
    ensures ParseHexNumber(s) == None
  {
    ScanIsStoull(s);
    if |s| > 0 {
      assert SpaceRun(s) == 0 && DigitsStart(s) == 0;
      assert s[0..] == s;
    }
  }

  /** Digits followed by a non-digit read as their value, or throw when it
      does not fit 64 bits. */
  lemma PlainValue(h: seq<Byte>, tail: seq<Byte>, v: nat)
    requires |h| > 0 && forall i :: 0 <= i < |h| ==> HexValue(h[i]).Some?
    requires |tail| > 0 ==> HexValue(tail[0]).None?
    requires |h| == 1 && h[0] == 0x30 && |tail| > 0 ==> tail[0] != 0x78 && tail[0] != 0x58
    requires DigitsValue(h) == v
    ensures ParseHexNumber(h + tail) == if v < TwoTo64 then Some(v) else None
  {
    PlainReads(h, tail);
    ScanIsStoull(h + tail);
  }

  /** Digits followed by a non-digit are read whole, unsigned; a lone `0`
      must not be followed by an `x`, which would make it a prefix. */
  lemma PlainReads(h: seq<Byte>, tail: seq<Byte>)
    requires |h| > 0 && forall i :: 0 <= i < |h| ==> HexValue(h[i]).Some?
    requires |tail| > 0 ==> HexValue(tail[0]).None?
    requires |h| == 1 && h[0] == 0x30 && |tail| > 0 ==> tail[0] != 0x78 && tail[0] != 0x58
    ensures HexDigitsOf(h + tail) == h && !Negative(h + tail)
  {
    var s := h + tail;
    assert s[0] == h[0];
    if |s| > 1 {
      assert s[1] == if |h| > 1 then h[1] else tail[0];
    }
    PlainDigits(s);
    assert s[0..|h|] == h;
    DigitsAt(s, 0, h);
  }

  /** Digits after `0x` read as their value. */
  lemma PrefixedReads(h: seq<Byte>, tail: seq<Byte>, v: nat)
    requires |h| > 0 && forall i :: 0 <= i < |h| ==> HexValue(h[i]).Some?
    requires |tail| > 0 ==> HexValue(tail[0]).None?
    requires DigitsValue(h) == v < TwoTo64
    ensures ParseHexNumber([0x30, 0x78] + h + tail) == Some(v)
  {
    PrefixedDigits(h, tail);
    ScanIsStoull([0x30, 0x78] + h + tail);
  }

  /** Digits after `0x` are read whole, unsigned. */
  lemma PrefixedDigits(h: seq<Byte>, tail: seq<Byte>)
    requires |h| > 0 && forall i :: 0 <= i < |h| ==> HexValue(h[i]).Some?
    requires |tail| > 0 ==> HexValue(tail[0]).None?
    ensures HexDigitsOf([0x30, 0x78] + h + tail) == h && !Negative([0x30, 0x78] + h + tail)
  {
    var s := [0x30, 0x78] + h + tail;
    assert s[0] == 0x30 && s[1] == 0x78 && s[2] == h[0];
    assert !Space(s[0]) && SpaceRun(s) == 0;
    assert DigitsStart(s) == 2;
    assert s[2..2 + |h|] == h;
    DigitsAt(s, 2, h);
  }

  /** Digits after a minus sign read as their value negated modulo 2^64. */
  lemma NegatedReads(h: seq<Byte>, tail: seq<Byte>, v: nat)
    requires |h| > 0 && forall i :: 0 <= i < |h| ==> HexValue(h[i]).Some?
    requires |tail| > 0 ==> HexValue(tail[0]).None?
    requires |h| == 1 && h[0] == 0x30 && |tail| > 0 ==> tail[0] != 0x78 && tail[0] != 0x58
    requires DigitsValue(h) == v < TwoTo64
    ensures ParseHexNumber([0x2D] + h + tail) == Some((TwoTo64 - v) % TwoTo64)
  {
    NegatedDigits(h, tail);
    ReadsNegated([0x2D] + h + tail, h, v);
  }

  lemma ReadsNegated(s: seq<Byte>, h: seq<Byte>, v: nat)
    requires HexDigitsOf(s) == h && Negative(s) && |h| > 0 && DigitsValue(h) == v < TwoTo64
    ensures ParseHexNumber(s) == Some((TwoTo64 - v) % TwoTo64)
  {
    ScanIsStoull(s);
  }

  /** Digits after a minus sign are read whole, and the string is negative. */
  lemma NegatedDigits(h: seq<Byte>, tail: seq<Byte>)
    requires |h| > 0 && forall i :: 0 <= i < |h| ==> HexValue(h[i]).Some?
    requires |tail| > 0 ==> HexValue(tail[0]).None?
    requires |h| == 1 && h[0] == 0x30 && |tail| > 0 ==> tail[0] != 0x78 && tail[0] != 0x58
    ensures HexDigitsOf([0x2D] + h + tail) == h && Negative([0x2D] + h + tail)
  {
    var s := [0x2D] + h + tail;
    assert s[1] == h[0];
    if |s| > 2 {
      assert s[2] == if |h| > 1 then h[1] else tail[0];
    }
    assert !Space(s[0]) && SpaceRun(s) == 0;
    assert DigitsStart(s) == 1;
    assert s[1..1 + |h|] == h;
    DigitsAt(s, 1, h);
  }

  /** The `std::hex` form of a positive number does not start with `0`. */
  lemma {:induction false} HexNumberLeads(v: nat)
    requires v > 0
    ensures HexNumber(v)[0] != 0x30
  {
    if v >= 16 {
      HexNumberLeads(v / 16);
    }
  }

  lemma {:induction false} DigitsOfHexNumber(v: nat)
    ensures DigitsValue(HexNumber(v)) == v
  {
    var h := HexNumber(v);
    if v >= 16 {
      DigitsOfHexNumber(v / 16);
      assert h[..|h| - 1] == HexNumber(v / 16);
    }
  }

  lemma {:induction false} HexRunOfDigits(h: seq<Byte>, tail: seq<Byte>)
    requires forall i :: 0 <= i < |h| ==> HexValue(h[i]).Some?
    requires |tail| > 0 ==> HexValue(tail[0]).None?
    ensures HexRun(h + tail) == |h|
  {
    if |h| > 0 {
      assert (h + tail)[1..] == h[1..] + tail;
      HexRunOfDigits(h[1..], tail);
    } else {
      assert h + tail == tail;
    }
  }

  // ---------------------------------------------------------------------
  // Decimal numbers

  /** `isspace` in the C locale. */
  predicate Space(b: Byte)
  {
    b == 0x20 || 0x09 <= b <= 0x0D
  }

  predicate DecimalDigit(b: Byte)
  {
    0x30 <= b <= 0x39
  }

  /** How many white-space bytes `s` starts with. */
  function SpaceRun(s: seq<Byte>): (n: nat)
    ensures n <= |s|
    ensures forall i :: 0 <= i < n ==> Space(s[i])
    ensures n < |s| ==> !Space(s[n])
  {
    if |s| == 0 || !Space(s[0]) then 0 else 1 + SpaceRun(s[1..])
  }

  /** How many decimal digits `s` starts with. */
  function DecimalRun(s: seq<Byte>): (n: nat)
    ensures n <= |s|
    ensures forall i :: 0 <= i < n ==> DecimalDigit(s[i])
    ensures n < |s| ==> !DecimalDigit(s[n])
  {
    if |s| == 0 || !DecimalDigit(s[0]) then 0 else 1 + DecimalRun(s[1..])
  }

  /** The value of a string of decimal digits, most significant first. */
  function DecimalValue(s: seq<Byte>): nat
    requires forall i :: 0 <= i < |s| ==> DecimalDigit(s[i])
  {
    if |s| == 0 then 0
    else
      assert DecimalDigit(s[|s| - 1]);
      10 * DecimalValue(s[..|s| - 1]) + (s[|s| - 1] - 0x30)
  }

  const IntMin: int := -0x8000_0000
  const IntMax: int := 0x7FFF_FFFF

  /** `std::stoi(s)`: leading white space, an optional sign, then the
      longest run of decimal digits, which must not be empty (otherwise
      `invalid_argument`) and must fit in a 32-bit `int` (otherwise
      `out_of_range`); the rest is ignored. */
  function ParseInt(s: seq<Byte>): (r: Option<int>)
    ensures r.Some? ==> IntMin <= r.value <= IntMax
  {
    var body := s[SpaceRun(s)..];
    var signed := |body| > 0 && (body[0] == 0x2B || body[0] == 0x2D);
    var digits := if signed then body[1..] else body;
    var n := DecimalRun(digits);
    if n == 0 then None
    else
      var magnitude := DecimalValue(digits[..n]);
      var v: int := if signed && body[0] == 0x2D then -(magnitude as int) else magnitude;
      if IntMin <= v <= IntMax then Some(v) else None
  }

  /** `std::to_string` of a natural number. */
  function DecimalText(v: nat): (t: seq<Byte>)
    ensures 0 < |t|
    ensures forall i :: 0 <= i < |t| ==> DecimalDigit(t[i])
  {
    if v < 10 then [0x30 + v] else DecimalText(v / 10) + [0x30 + v % 10]
  }

  lemma {:induction false} DecimalValueOfText(v: nat)
    ensures DecimalValue(DecimalText(v)) == v
  {
    var t := DecimalText(v);
    if v >= 10 {
      DecimalValueOfText(v / 10);
      assert t[..|t| - 1] == DecimalText(v / 10);
    }
  }

  lemma {:induction false} DecimalRunOfDigits(t: seq<Byte>)
    requires forall i :: 0 <= i < |t| ==> DecimalDigit(t[i])
    ensures DecimalRun(t) == |t|
  {
    if |t| > 0 {
      DecimalRunOfDigits(t[1..]);
    }
  }

  /** Every `int` value that is not negative reads back from its decimal
      text. */
  lemma DecimalRoundTrip(v: nat)
    requires v <= IntMax
    ensures ParseInt(DecimalText(v)) == Some(v)
  {
    var t := DecimalText(v);
    assert SpaceRun(t) == 0;
    assert t[0..] == t;
    DecimalRunOfDigits(t);
    assert t[..|t|] == t;
    DecimalValueOfText(v);
  }

  // ---------------------------------------------------------------------
  // Searching

  /** `s.find(b)`: the first position holding `b`, or `|s|` (`npos`). */
  function IndexOf(s: seq<Byte>, b: Byte): (k: nat)
    ensures k <= |s|
    ensures b !in s[..k]
    ensures k < |s| ==> s[k] == b
  {
    assert s[0..] == s;
    IndexFrom(s, b, 0)
  }

  /** `s.find(b, from)`: the first position at or after `from` holding `b`,
      or `|s|`. */
  function IndexFrom(s: seq<Byte>, b: Byte, from: nat): (k: nat)
    ensures from <= |s| ==> from <= k <= |s|
    ensures from > |s| ==> k == |s|
    ensures forall i :: from <= i < k ==> s[i] != b
    ensures k < |s| ==> s[k] == b
    decreases |s| - from
  {
    if from >= |s| then |s|
    else if s[from] == b then from
    else IndexFrom(s, b, from + 1)
  }

  /** A position holding `b` with no `b` between `from` and it is what the
      search finds. */
  lemma IndexFromAt(s: seq<Byte>, b: Byte, from: nat, k: nat)
    requires from <= k < |s| && s[k] == b && b !in s[from..k]
    ensures IndexFrom(s, b, from) == k
  {
  }

  /** The first occurrence of `b` is found in a concatenation whose first part
      lacks it. */
  lemma IndexOfAppend(a: seq<Byte>, b: Byte, c: seq<Byte>)
    requires forall j :: 0 <= j < |a| ==> a[j] != b
    requires |c| > 0 && c[0] == b
    ensures IndexOf(a + c, b) == |a|
  {
    assert (a + c)[|a|] == b;
    assert forall j :: 0 <= j < |a| ==> (a + c)[j] == a[j];
  }

  /** `s.substr(0, n) == lit`, as written: the prefix of length `n`, or the
      whole string when it is shorter. */
  predicate PrefixIs(s: seq<Byte>, n: nat, lit: seq<Byte>)
  {
    s[..if n <= |s| then n else |s|] == lit
  }

  /** When `n` is the literal's length the comparison is a prefix test; when
      `n` is shorter than the literal it never holds. */
  lemma PrefixIsMeaning(s: seq<Byte>, n: nat, lit: seq<Byte>)
    ensures n == |lit| ==> (PrefixIs(s, n, lit) <==> |lit| <= |s| && s[..|lit|] == lit)
    ensures n < |lit| ==> !PrefixIs(s, n, lit)
  {
  }

  /** `s` begins with `p`. */
  predicate StartsWith(s: seq<Byte>, p: seq<Byte>)
  {
    |p| <= |s| && s[..|p|] == p
  }

  // ---------------------------------------------------------------------
  // Hex byte strings

  /** Reads a hex string two characters at a time, each pair as
      `std::stoul(pair, nullptr, 16)` reads it, and ignores a trailing odd
      character. Decoding stops at the first pair that does not start with a
      digit (where `stoul` throws); `complete` says no pair failed. */
  function DecodePairs(s: seq<Byte>): (r: (seq<Byte>, bool))
    ensures |r.0| <= |s| / 2
    ensures r.1 ==> |r.0| == |s| / 2
  {
    if |s| < 2 then ([], true)
    else
      match HexPair(s[0], s[1])
      case None => ([], false)
      case Some(b) =>
        var rest := DecodePairs(s[2..]);
        ([b] + rest.0, rest.1)
  }

  /** The digits `HexBytes` writes decode back to the bytes, whether or not
      a single stray character follows. */
  lemma {:induction false} DecodeHexBytes(bs: seq<Byte>, tail: seq<Byte>)
    requires |tail| < 2
    ensures DecodePairs(HexBytes(bs) + tail) == (bs, true)
  {
    if |bs| == 0 {
      assert HexBytes(bs) + tail == tail;
    } else {
      var h := HexByte(bs[0]);
      var rest := HexBytes(bs[1..]) + tail;
      var s := HexBytes(bs) + tail;
      assert s == h + rest;
      assert s[0] == h[0] && s[1] == h[1] && s[2..] == rest;
      DecodeHexBytes(bs[1..], tail);
      DecodeStep(s, bs[0]);
      assert [bs[0]] + bs[1..] == bs;
    }
  }

  /** A pair that reads as `b` puts `b` in front of what the rest decodes to. */
  lemma DecodeStep(s: seq<Byte>, b: Byte)
    requires |s| >= 2 && HexPair(s[0], s[1]) == Some(b)
    ensures DecodePairs(s) == ([b] + DecodePairs(s[2..]).0, DecodePairs(s[2..]).1)
  {
  }

  /** Encoded bytes decode to themselves, completely. */
  lemma DecodeHex(bs: seq<Byte>)
    ensures DecodePairs(HexBytes(bs)) == (bs, true)
  {
    DecodeHexBytes(bs, []);
    assert HexBytes(bs) + [] == HexBytes(bs);
  }

  /** A trailing odd character never changes what is decoded. */
  lemma {:induction false} DecodeIgnoresOddNibble(s: seq<Byte>, x: Byte)
    requires |s| % 2 == 0
    ensures DecodePairs(s + [x]) == DecodePairs(s)
  {
    if |s| >= 2 {
      assert (s + [x])[2..] == s[2..] + [x];
      assert (s + [x])[0] == s[0] && (s + [x])[1] == s[1];
      DecodeIgnoresOddNibble(s[2..], x);
    } else {
      assert |s| == 0;
    }
  }

  // ---------------------------------------------------------------------
  // Little-endian integers

  /** The low `n` bytes of `v`, least significant first. */
  function LittleEndian(v: nat, n: nat): (bs: seq<Byte>)
    ensures |bs| == n
  {
    if n == 0 then [] else [v % 256] + LittleEndian(v / 256, n - 1)
  }

  /** The number little-endian bytes stand for. */
  function FromLittleEndian(bs: seq<Byte>): nat
  {
    if |bs| == 0 then 0 else bs[0] + 256 * FromLittleEndian(bs[1..])
  }

  function Pow256(n: nat): (p: nat)
    ensures p > 0
  {
    if n == 0 then 1 else 256 * Pow256(n - 1)
  }

  /** The bytes `LittleEndian` picks are those of `v` modulo 256^n. */
  lemma {:induction false} LittleEndianValue(v: nat, n: nat)
    ensures FromLittleEndian(LittleEndian(v, n)) == v % Pow256(n)
  {
    if n > 0 {
      var bs := LittleEndian(v, n);
      assert bs[1..] == LittleEndian(v / 256, n - 1);
      LittleEndianValue(v / 256, n - 1);
      ModPow256(v, n);
    }
  }

  lemma ModPow256(v: nat, n: nat)
    requires n > 0
    ensures v % Pow256(n) == v % 256 + 256 * ((v / 256) % Pow256(n - 1))
  {
    ModSplit(v, Pow256(n - 1));
  }

  /** Reducing modulo `256 * p` keeps the low byte and reduces the rest
      modulo `p`. */
  lemma ModSplit(v: nat, p: nat)
    requires p > 0
    ensures v % (256 * p) == v % 256 + 256 * ((v / 256) % p)
  {
    var q := (v / 256) / p;
    var r := (v / 256) % p;
    assert v == q * (256 * p) + (256 * r + v % 256) by {
      Recompose(v, v / 256, q, p, r);
    }
    assert 256 * r + v % 256 < 256 * p by {
      assert r <= p - 1;
      assert 256 * r <= 256 * (p - 1);
    }
    DivModUnique(v, 256 * p, q, 256 * r + v % 256);
  }

  lemma Recompose(v: nat, h: nat, q: nat, p: nat, r: nat)
    requires h == v / 256 && h == q * p + r
    ensures v == q * (256 * p) + (256 * r + v % 256)
  {
    assert v == 256 * h + v % 256;
    assert 256 * (q * p + r) == q * (256 * p) + 256 * r;
  }

  lemma DivModUnique(v: nat, d: nat, q: nat, r: nat)
    requires d > 0 && v == q * d + r && r < d
    ensures v % d == r
  {
    var q' := v / d;
    var r' := v % d;
    assert v == q' * d + r';
    if q' > q {
      MulMono(q + 1, q', d);
    } else if q' < q {
      MulMono(q' + 1, q, d);
    }
  }

  lemma MulMono(a: nat, b: nat, d: nat)
    requires a <= b
    ensures a * d <= b * d
  {
  }

  /** A value that fits in `n` bytes reads back from its little-endian form. */
  lemma LittleEndianRoundTrip(v: nat, n: nat)
    requires v < Pow256(n)
    ensures FromLittleEndian(LittleEndian(v, n)) == v
  {
    LittleEndianValue(v, n);
    SmallMod(v, Pow256(n));
  }

  lemma SmallMod(v: nat, m: nat)
    requires v < m
    ensures v % m == v
  {
  }

  lemma Pow256Values()
    ensures Pow256(2) == 0x1_0000 && Pow256(4) == 0x1_0000_0000 && Pow256(8) == TwoTo64
  {
    assert Pow256(1) == 256 * Pow256(0);
    assert Pow256(2) == 256 * Pow256(1);
    assert Pow256(3) == 256 * Pow256(2);
    assert Pow256(4) == 256 * Pow256(3);
    assert Pow256(5) == 256 * Pow256(4);
    assert Pow256(6) == 256 * Pow256(5);
    assert Pow256(7) == 256 * Pow256(6);
    assert Pow256(8) == 256 * Pow256(7);
  }

  /** A slice of a run written into memory is the same slice of the run. */
  lemma Within(mem: seq<Byte>, at: nat, e: seq<Byte>, i: nat, j: nat)
    requires at + |e| <= |mem| && mem[at..at + |e|] == e && i <= j <= |e|
    ensures mem[at + i..at + j] == e[i..j]
  {
    forall k | 0 <= k < j - i
      ensures mem[at + i..at + j][k] == e[i..j][k]
    {
      assert mem[at + i + k] == mem[at..at + |e|][i + k];
    }
  }
}

=== FILE: page_range_alloc.dfy ===
/** `page_range_allocator::alloc` and `alloc_aligned` (core/mempool.cc): the
    choice of a free range, and the carving of the requested pages out of it
    with the leftover pieces put back. */
module PageRangeAlloc {
  import opened Wrappers
  import opened Logarithms
  import opened PageRanges

  /** A successful allocation: the allocator after it and the pages handed
      out. */
  datatype Grant = Grant(state: Allocator, range: Range)

  // ---------------------------------------------------------------------------
  // Carving a range

  /** `r` lies within `s`. */
  predicate Within(r: Range, s: Range) { s.start <= r.start && End(r) <= End(s) }

  /** A piece as a multiset: empty when it has no pages. */
  function Piece(x: Range): (m: multiset<Range>)
    ensures forall y :: y in m <==> y == x && x.pages > 0
  {
    if x.pages > 0 then multiset{x} else multiset{}
  }

  /** The pages of `r` before `p`, and after it. */
  function Before(r: Range, p: Range): Range
    requires Within(p, r)
  {
    Range(r.start, p.start - r.start)
  }

  function After(r: Range, p: Range): Range
    requires Within(p, r)
  {
    Range(End(p), End(r) - End(p))
  }

  /** The leftover pieces of `r` that go back to the free containers when
      `p` is handed out: the pages after it and those before it. */
  function Pieces(r: Range, p: Range): multiset<Range>
    requires Within(p, r)
  {
    Piece(After(r, p)) + Piece(Before(r, p))
  }

  /** Take free range `r` out, put back the pages after `p` and then those
      before it, as both callers do, and hand out `p`, clearing its boundary
      bits (every bit with `fill`). The invariant is kept, `r` is replaced by
      its leftover pieces, and exactly the pages of `p` leave the free
      containers. */
  method Carve(a: Allocator, r: Range, p: Range, fill: bool) returns (g: Allocator)
    requires Inv(a) && r in Members(a) && p.pages >= 1 && Within(p, r)
    ensures Inv(g)
    ensures Members(g) == Members(a) - multiset{r} + Pieces(r, p)
    ensures forall k: nat :: IsFreePage(Members(g), k) <==> IsFreePage(Members(a), k) && !Contains(p, k)
    ensures g.handedOut == a.handedOut + {p}
    ensures FreePages(g) + p.pages == FreePages(a)
    ensures |g.bitmap| == |a.bitmap|
  {
    var m := Members(a);
    var v := LedgerOf(a);
    assert Tracks(v, r);
    var news := Pieces(r, p);
    var a1 := Remove(a, r);
    var a3 := PutBack(a1, r, p);
    g := a3.(bitmap := SetBits(a3.bitmap, p, false, fill), handedOut := a3.handedOut + {p});
    var w := LedgerOf(g);
    var m' := Members(g);
    assert m' == Members(a3);
    PiecesShape(r, p);
    ClearMiddle(v, LedgerOf(a3), w, r, p, news, fill);
    ReshapeTracked(m, v, r, news, m', w);
    ReshapeSeparated(m, r, news, m');
    ReshapeOwned(m, v, r, p, news, m', w);
    ReshapeHonest(m, v, r, p, news, m', w);
    CarvePages(m, r, p, news, m');
  }

  /** After the carve the free pages are the old ones less those of `p`. */
  lemma CarvePages(m: multiset<Range>, r: Range, p: Range, news: multiset<Range>, m': multiset<Range>)
    requires Separated(m) && r in m && m[r] == 1
    requires PieceSet(news, r, p) && m' == m - multiset{r} + news
    ensures forall k: nat :: IsFreePage(m', k) <==> IsFreePage(m, k) && !Contains(p, k)
  {
    forall k: nat
      ensures IsFreePage(m', k) <==> IsFreePage(m, k) && !Contains(p, k)
    {
      if IsFreePage(m', k) {
        var x :| x in m' && Contains(x, k);
        if x in news {
          assert Contains(r, k);
        } else {
          Survivor(m, r, news, x);
          assert Apart(x, r);
        }
      }
      if IsFreePage(m, k) && !Contains(p, k) {
        var x :| x in m && Contains(x, k);
        if x == r {
          var y :| y in news && Contains(y, k);
          assert y in m';
        } else {
          assert x in m';
        }
      }
    }
  }

  /** Clearing the handed-out middle's bits keeps the pieces tracked and
      touches nothing outside `r`. */
  lemma ClearMiddle(v: Ledger, u: Ledger, w: Ledger, r: Range, p: Range, news: multiset<Range>, fill: bool)
    requires PieceSet(news, r, p) && End(r) <= |u.bitmap|
    requires forall x :: x in news ==> Tracks(u, x)
    requires FrameOutside(v, u, r)
    requires w.head == u.head && w.back == u.back && w.bitmap == SetBits(u.bitmap, p, false, fill)
    ensures forall x :: x in news ==> Tracks(w, x)
    ensures FrameOutside(v, w, r)
    ensures !w.bitmap[p.start] && !w.bitmap[Last(p)]
  {
    forall x | x in news
      ensures Tracks(w, x)
    {
      assert Tracks(u, x) && Disjoint(x, p);
    }
  }

  /** The `insert` calls of `alloc` and `alloc_aligned`: the pages of `r`
      after `p`, then those before it, go back into the free containers with
      their bits set; nothing outside `r` changes. */
  method PutBack(a: Allocator, r: Range, p: Range) returns (a': Allocator)
    requires Placed(a) && End(r) <= |a.bitmap| && p.pages >= 1 && Within(p, r)
    ensures Placed(a')
    ensures Members(a') == Members(a) + Pieces(r, p)
    ensures FreePages(a') + p.pages == FreePages(a) + r.pages
    ensures a'.handedOut == a.handedOut && |a'.bitmap| == |a.bitmap|
    ensures forall x :: x in Pieces(r, p) ==> Tracks(LedgerOf(a'), x)
    ensures FrameOutside(LedgerOf(a), LedgerOf(a'), r)
  {
    var a1 := PutPiece(a, After(r, p), r, Before(r, p));
    a' := PutPiece(a1, Before(r, p), r, After(r, p));
    FrameChain(LedgerOf(a), LedgerOf(a1), LedgerOf(a'), r);
  }

  /** One `insert` of a piece `x` of `r`, skipped when the piece is empty.
      A range `keep` that the piece does not touch stays tracked. */
  method PutPiece(a: Allocator, x: Range, r: Range, keep: Range) returns (a': Allocator)
    requires Placed(a) && End(r) <= |a.bitmap| && Within(x, r)
    requires x.pages > 0 ==> Disjoint(x, keep)
    ensures Placed(a')
    ensures Members(a') == Members(a) + Piece(x)
    ensures FreePages(a') == FreePages(a) + x.pages
    ensures a'.handedOut == a.handedOut && |a'.bitmap| == |a.bitmap|
    ensures x.pages > 0 ==> Tracks(LedgerOf(a'), x)
    ensures Tracks(LedgerOf(a), keep) ==> Tracks(LedgerOf(a'), keep)
    ensures FrameOutside(LedgerOf(a), LedgerOf(a'), r)
  {
    if x.pages > 0 {
      a' := Insert(a, x, true);
      InsertedLedger(LedgerOf(a), LedgerOf(a'), x, r, keep);
    } else {
      a' := a;
    }
  }

  /** The ledger after a piece `x` of `r` is inserted: `x` is tracked, a
      range apart from it stays tracked, and nothing outside `r` changes. */
  lemma InsertedLedger(l: Ledger, l': Ledger, x: Range, r: Range, keep: Range)
    requires x.pages >= 1 && End(r) <= |l.bitmap| && Within(x, r) && Disjoint(x, keep)
    requires l'.bitmap == SetBits(l.bitmap, x, true, false)
    requires l'.head == l.head[x.start := x] && l'.back == l.back[Last(x) := x]
    ensures Tracks(l', x)
    ensures Tracks(l, keep) ==> Tracks(l', keep)
    ensures FrameOutside(l, l', r)
  {
  }

  lemma FrameChain(u: Ledger, v: Ledger, w: Ledger, r: Range)
    requires FrameOutside(u, v, r) && FrameOutside(v, w, r)
    ensures FrameOutside(u, w, r)
  {
  }

  /** The pieces are the non-empty parts of `r` around the handed-out
      middle, apart from one another and disjoint from the middle. */
  lemma PiecesShape(r: Range, p: Range)
    requires p.pages >= 1 && Within(p, r)
    ensures PieceSet(Pieces(r, p), r, p)
  {
    var news := Pieces(r, p);
    var lp := Before(r, p);
    var tp := After(r, p);
    forall x | x in news
      ensures x == lp || x == tp
    {
    }
    forall k: nat | Contains(r, k) && !Contains(p, k)
      ensures exists x :: x in news && Contains(x, k)
    {
      if k < p.start {
        assert lp in news && Contains(lp, k);
      } else {
        assert tp in news && Contains(tp, k);
      }
    }
  }

  /** `news` are pieces of `r`, apart from one another and from `p`, which
      with `p` make up all of `r`. */
  ghost predicate PieceSet(news: multiset<Range>, r: Range, p: Range)
  {
    && (forall x :: x in news ==> news[x] == 1 && x.pages >= 1 && Within(x, r) && Disjoint(x, p))
    && (forall x, y :: x in news && y in news && x != y ==> Apart(x, y))
    && (forall k: nat :: Contains(r, k) ==> Contains(p, k) || exists x :: x in news && Contains(x, k))
    && p.pages >= 1 && Within(p, r)
  }

  /** Outside `r`, `w` has the same header words, back-pointers and bits as
      `v`. */
  ghost predicate FrameOutside(v: Ledger, w: Ledger, r: Range)
  {
    && |w.bitmap| == |v.bitmap|
    && forall k: nat :: !Contains(r, k) ==>
         && (k in w.head <==> k in v.head) && (k in v.head ==> w.head[k] == v.head[k])
         && (k in w.back <==> k in v.back) && (k in v.back ==> w.back[k] == v.back[k])
         && (k < |v.bitmap| ==> w.bitmap[k] == v.bitmap[k])
  }

  /** A range still free after `r` was replaced, and not one of the
      pieces, was free before and is not `r`. */
  lemma Survivor(m: multiset<Range>, r: Range, news: multiset<Range>, x: Range)
    requires m[r] == 1 && x in m - multiset{r} + news && x !in news
    ensures x in m && x != r
  {
  }

  lemma ReshapeTracked(m: multiset<Range>, v: Ledger, r: Range, news: multiset<Range>, m': multiset<Range>, w: Ledger)
    requires Tracked(m, v) && Separated(m) && r in m
    requires m' == m - multiset{r} + news
    requires forall x :: x in news ==> news[x] == 1 && x.pages >= 1 && Within(x, r) && Tracks(w, x)
    requires FrameOutside(v, w, r)
    ensures Tracked(m', w)
  {
    forall x | x in m'
      ensures Tracks(w, x) && m'[x] == 1
    {
      if x in news {
        assert (m - multiset{r})[x] == 0;
      } else {
        Survivor(m, r, news, x);
        assert Apart(x, r) && Tracks(v, x);
      }
    }
  }

  lemma ReshapeSeparated(m: multiset<Range>, r: Range, news: multiset<Range>, m': multiset<Range>)
    requires Separated(m) && r in m && m[r] == 1
    requires m' == m - multiset{r} + news
    requires forall x :: x in news ==> Within(x, r)
    requires forall x, y :: x in news && y in news && x != y ==> Apart(x, y)
    ensures Separated(m')
  {
    forall x, y | x in m' && y in m' && x != y
      ensures Apart(x, y)
    {
      if x !in news {
        Survivor(m, r, news, x);
      }
      if y !in news {
        Survivor(m, r, news, y);
      }
    }
  }

  lemma ReshapeOwned(m: multiset<Range>, v: Ledger, r: Range, p: Range, news: multiset<Range>, m': multiset<Range>, w: Ledger)
    requires Owned(m, v) && Separated(m) && r in m && m[r] == 1 && End(r) <= |v.bitmap|
    requires m' == m - multiset{r} + news
    requires PieceSet(news, r, p)
    requires w.handedOut == v.handedOut + {p} && |w.bitmap| == |v.bitmap|
    ensures Owned(m', w)
  {
    ReshapeOwnedFree(m, v, r, p, news, m', w);
    ReshapeOwnedPairs(m, v, r, p, w);
  }

  /** Every range handed out, the new one included, stays clear of the free
      ranges after the reshape. */
  lemma ReshapeOwnedFree(m: multiset<Range>, v: Ledger, r: Range, p: Range, news: multiset<Range>, m': multiset<Range>, w: Ledger)
    requires Owned(m, v) && Separated(m) && r in m && m[r] == 1 && End(r) <= |v.bitmap|
    requires m' == m - multiset{r} + news
    requires PieceSet(news, r, p)
    requires w.handedOut == v.handedOut + {p} && |w.bitmap| == |v.bitmap|
    ensures forall q :: q in w.handedOut ==>
          && q.pages >= 1 && End(q) <= |w.bitmap|
          && (forall x :: x in m' ==> Disjoint(q, x))
  {
    forall q | q in w.handedOut
      ensures q.pages >= 1 && End(q) <= |w.bitmap|
      ensures forall x :: x in m' ==> Disjoint(q, x)
    {
      forall x | x in m'
        ensures Disjoint(q, x)
      {
        if x !in news {
          Survivor(m, r, news, x);
        }
        if q != p {
          assert Disjoint(q, r);
        }
      }
    }
  }

  /** The new range is disjoint from every range already handed out. */
  lemma ReshapeOwnedPairs(m: multiset<Range>, v: Ledger, r: Range, p: Range, w: Ledger)
    requires Owned(m, v) && r in m && p.pages >= 1 && Within(p, r)
    requires w.handedOut == v.handedOut + {p}
    ensures forall q1, q2 :: q1 in w.handedOut && q2 in w.handedOut && q1 != q2 ==> Disjoint(q1, q2)
  {
    forall q1, q2 | q1 in w.handedOut && q2 in w.handedOut && q1 != q2
      ensures Disjoint(q1, q2)
    {
      if q1 == p {
        assert Disjoint(q2, r);
      } else if q2 == p {
        assert Disjoint(q1, r);
      }
    }
  }

  lemma ReshapeHonest(m: multiset<Range>, v: Ledger, r: Range, p: Range, news: multiset<Range>, m': multiset<Range>, w: Ledger)
    requires Honest(m, v) && r in m && m[r] == 1
    requires m' == m - multiset{r} + news
    requires PieceSet(news, r, p)
    requires w.handedOut == v.handedOut + {p} && FrameOutside(v, w, r)
    requires End(p) <= |w.bitmap| && !w.bitmap[p.start] && !w.bitmap[Last(p)]
    ensures Honest(m', w)
  {
    forall k | 0 <= k < |w.bitmap| && w.bitmap[k]
      ensures Covered(m', w, k)
    {
      if Contains(r, k) {
        if Contains(p, k) {
          assert Interior(p, k);
        } else {
          var x :| x in news && Contains(x, k);
          assert x in m';
        }
      } else {
        assert Covered(m, v, k);
        if exists x :: x in m && Contains(x, k) {
          var x :| x in m && Contains(x, k);
          assert x != r && x in m';
        } else {
          var q :| q in v.handedOut && Interior(q, k);
          assert q in w.handedOut;
        }
      }
    }
  }

  // ---------------------------------------------------------------------------
  // alloc

  /** `exact_order`: the order of the smallest power of two that holds `n`
      pages, capped at `MaxOrder`. */
  function ExactOrder(n: nat): nat
  {
    if Log2Roundup(n) > MaxOrder then MaxOrder else Log2Roundup(n)
  }

  /** `count_trailing_zeros` of the `_not_empty` bits from `lo` upwards: the
      lowest set bit at or above `lo`, if any. */
  function LowestFrom(bits: seq<bool>, lo: nat): (o: Option<nat>)
    decreases |bits| - lo
    ensures o.Some? ==> lo <= o.value < |bits| && bits[o.value]
    ensures o.Some? ==> forall j :: lo <= j < o.value ==> !bits[j]
    ensures o.None? ==> forall j :: lo <= j < |bits| ==> !bits[j]
  {
    if lo >= |bits| then None
    else if bits[lo] then Some(lo)
    else LowestFrom(bits, lo + 1)
  }

  /** The first range of a list, front to back, of at least `n` pages. */
  function FirstFit(l: seq<Range>, n: nat): (i: Option<nat>)
    ensures i.Some? ==> i.value < |l| && l[i.value].pages >= n
    ensures i.Some? ==> forall j :: 0 <= j < i.value ==> l[j].pages < n
    ensures i.None? ==> forall j :: 0 <= j < |l| ==> l[j].pages < n
  {
    if |l| == 0 then None
    else if l[0].pages >= n then Some(0)
    else match FirstFit(l[1..], n)
      case None => None
      case Some(i) => Some(i + 1)
  }

  /** The range `alloc(n, contiguous)` takes: the front of the lowest
      non-empty list at or above `exact_order`; the largest huge range when
      that is the huge set; and, only for a contiguous request with nothing
      at or above `exact_order`, the first range of the list just below that
      is big enough. */
  function Choose(a: Allocator, n: nat, contiguous: bool): Option<Range>
    requires Placed(a) && n >= 1
  {
    var exact := ExactOrder(n);
    match LowestFrom(a.notEmpty, exact)
    case None =>
      if !contiguous || exact == 0 || |a.lists[exact - 1]| == 0 then None
      else (match FirstFit(a.lists[exact - 1], n)
        case None => None
        case Some(i) => Some(a.lists[exact - 1][i]))
    case Some(o) =>
      if o == MaxOrder then
        var big := a.huge[|a.huge| - 1];
        if big.pages < n then None else Some(big)
      else Some(a.lists[o][0])
  }

  /** A free range `alloc` is able to serve `n` pages from: big enough, and
      of order `exact_order` or more, or, for a contiguous request, one
      order below. */
  predicate Eligible(r: Range, n: nat, contiguous: bool)
    requires r.pages >= 1
  {
    var exact := ExactOrder(n);
    r.pages >= n && (Order(r.pages) >= exact || (contiguous && exact > 0 && Order(r.pages) == exact - 1))
  }

  ghost predicate Fits(a: Allocator, n: nat, contiguous: bool)
  {
    exists r :: r in Members(a) && r.pages >= 1 && Eligible(r, n, contiguous)
  }

  /** What `alloc` chooses: a free range of at least `n` pages, the front of
      the lowest non-empty list at or above `exact_order`, or otherwise the
      largest huge range, or otherwise the first fit one order below. */
  lemma ChooseSpec(a: Allocator, n: nat, contiguous: bool)
    requires Placed(a) && n >= 1
    ensures var c := Choose(a, n, contiguous);
            var exact := ExactOrder(n);
            c.Some? ==>
              && c.value in Members(a) && c.value.pages >= n
              && (forall o :: exact <= o < MaxOrder && o < Order(c.value.pages) ==> a.lists[o] == [])
              && (exact <= Order(c.value.pages) < MaxOrder ==> c.value == a.lists[Order(c.value.pages)][0])
              && (Order(c.value.pages) >= MaxOrder ==> forall x :: x in a.huge ==> x.pages <= c.value.pages)
              && (Order(c.value.pages) < exact ==> contiguous && Order(c.value.pages) == exact - 1)
  {
    var c := Choose(a, n, contiguous);
    var exact := ExactOrder(n);
    if c.Some? {
      var r := c.value;
      match LowestFrom(a.notEmpty, exact)
      case None =>
        var i := FirstFit(a.lists[exact - 1], n).value;
        BagHas(a.lists, exact - 1, r);
        assert OfOrder(a.lists[exact - 1], exact - 1);
      case Some(o) =>
        if o == MaxOrder {
          assert r in a.huge;
          SortedMax(a.huge);
        } else {
          assert OfOrder(a.lists[o], o) && r == a.lists[o][0];
          BagHas(a.lists, o, r);
          ExactFits(n, o);
        }
    }
  }

  /** `alloc` finds a range exactly when an eligible free range exists. */
  lemma ChooseFits(a: Allocator, n: nat, contiguous: bool)
    requires Placed(a) && n >= 1
    ensures Choose(a, n, contiguous).Some? <==> Fits(a, n, contiguous)
  {
    if Choose(a, n, contiguous).Some? {
      ChooseSound(a, n, contiguous);
    }
    if Fits(a, n, contiguous) {
      var x :| x in Members(a) && x.pages >= 1 && Eligible(x, n, contiguous);
      ChooseComplete(a, n, contiguous, x);
    }
  }

  lemma ChooseSound(a: Allocator, n: nat, contiguous: bool)
    requires Placed(a) && n >= 1 && Choose(a, n, contiguous).Some?
    ensures Fits(a, n, contiguous)
  {
    ChooseSpec(a, n, contiguous);
    var r := Choose(a, n, contiguous).value;
    Locate(a, r);
    assert Eligible(r, n, contiguous);
  }

  lemma ChooseComplete(a: Allocator, n: nat, contiguous: bool, x: Range)
    requires Placed(a) && n >= 1
    requires x in Members(a) && x.pages >= 1 && Eligible(x, n, contiguous)
    ensures Choose(a, n, contiguous).Some?
  {
    var exact := ExactOrder(n);
    var lf := LowestFrom(a.notEmpty, exact);
    if lf.None? {
      BelowOnly(a, exact, x);
      var l := a.lists[exact - 1];
      var i :| 0 <= i < |l| && l[i] == x;
    } else if lf.value == MaxOrder && a.huge[|a.huge| - 1].pages < n {
      BelowOnly(a, exact, x);
      HugeOnly(a.huge, exact, n, x);
    }
  }

  /** With no `_not_empty` bit set from `lo` to `MaxOrder`, every free range
      sits in a list below `lo`. */
  lemma BelowOnly(a: Allocator, lo: nat, x: Range)
    requires Placed(a) && x in Members(a) && lo <= MaxOrder
    requires forall j :: lo <= j < MaxOrder ==> !a.notEmpty[j]
    ensures x.pages >= 1
    ensures Order(x.pages) < lo ==> x in a.lists[Order(x.pages)]
    ensures Order(x.pages) >= lo ==> x in a.huge && Order(x.pages) >= MaxOrder
  {
    Locate(a, x);
  }

  /** When the huge set is the lowest non-empty container at or above
      `exact_order` and even its largest range is too small, no free range
      is eligible. */
  lemma HugeOnly(huge: seq<Range>, exact: nat, n: nat, x: Range)
    requires HugeOrdered(huge) && n >= 1 && exact == ExactOrder(n) && x.pages >= 1
    requires |huge| > 0 && huge[|huge| - 1].pages < n
    requires Order(x.pages) < exact ==> Order(x.pages) < MaxOrder
    requires Order(x.pages) >= exact ==> x in huge
    ensures x.pages < n
  {
    var big := huge[|huge| - 1];
    SortedMax(huge);
    if Order(x.pages) < exact {
      Log2Bounds(x.pages);
      assert big in huge;
      Log2AtMost(big.pages, MaxOrder);
      Pow2Monotone(Order(x.pages) + 1, MaxOrder);
    }
  }

  /** A range of order `o >= exact_order` below `MaxOrder` holds `n` pages. */
  lemma ExactFits(n: nat, o: nat)
    requires n >= 1 && ExactOrder(n) <= o < MaxOrder
    ensures forall pages :: pages >= 1 && Order(pages) == o ==> pages >= n
  {
    Log2RoundupBound(n, o);
    forall pages | pages >= 1 && Order(pages) == o
      ensures pages >= n
    {
      Log2Bounds(pages);
    }
  }

  /** The last range of a size-ordered sequence is a largest one. */
  lemma {:induction false} SortedMax(s: seq<Range>)
    requires SortedBySize(s) && |s| > 0
    ensures forall x :: x in s ==> x.pages <= s[|s| - 1].pages
  {
    if |s| > 1 {
      var t := s[..|s| - 1];
      assert SortedBySize(t) by {
        forall i | 0 < i < |t|
          ensures t[i - 1].pages <= t[i].pages
        {
          assert t[i - 1] == s[i - 1] && t[i] == s[i];
        }
      }
      SortedMax(t);
      forall x | x in s
        ensures x.pages <= s[|s| - 1].pages
      {
        if x != s[|s| - 1] {
          assert x in t;
        }
      }
    }
  }

  /** `alloc(n, contiguous)` with the bitmap in use: the chosen range is
      split at `n` pages, the excess put back, and the first `n` pages
      handed out. It fails exactly when no free range is eligible. */
  method Alloc(a: Allocator, n: nat, contiguous: bool) returns (res: Option<Grant>)
    requires Inv(a) && n >= 1
    ensures res.None? <==> !Fits(a, n, contiguous)
    ensures res.Some? ==>
              && Choose(a, n, contiguous).Some?
              && Choose(a, n, contiguous).value.pages >= n
              && var r := Choose(a, n, contiguous).value;
                 var g := res.value.state;
                 && r in Members(a)
                 && res.value.range == Range(r.start, n)
                 && Inv(g)
                 && (forall k: nat :: IsFreePage(Members(g), k) <==> IsFreePage(Members(a), k) && !Contains(res.value.range, k))
                 && Members(g) == Members(a) - multiset{r} + Pieces(r, res.value.range)
                 && g.handedOut == a.handedOut + {res.value.range}
                 && FreePages(g) + n == FreePages(a)
  {
    ChooseFits(a, n, contiguous);
    var c := Choose(a, n, contiguous);
    if c.None? {
      return None;
    }
    var r := c.value;
    ChooseSpec(a, n, contiguous);
    var p := Range(r.start, n);
    var g := Carve(a, r, p, false);
    res := Some(Grant(g, p));
  }

  // ---------------------------------------------------------------------------
  // alloc_aligned

  /** The lowest order `alloc_aligned` looks at: one below `ilog2(n)`, and
      not below 0. */
  function AlignedMinOrder(n: nat): nat
    requires n >= 1
  {
    (if Log2(n) > 1 then Log2(n) else 1) - 1
  }

  /** `alignment_shift`: how far below the end of `r` the `n` pages must
      move for their start plus `offset` to be a multiple of `align`. */
  function Shift(r: Range, n: nat, offset: nat, align: nat): nat
    requires align >= 1
  {
    Rem(r.start + r.pages - n + offset, align)
  }

  /** `x - align_down(x, m)`: the remainder of `x` by `m`, by repeated
      subtraction so that proofs about the allocator stay linear; `RemIsMod`
      ties it to `%`. */
  function Rem(x: int, m: nat): (s: nat)
    requires m >= 1
    ensures s < m
    decreases if x < 0 then -x + m else x
  {
    if x < 0 then Rem(x + m, m) else if x < m then x else Rem(x - m, m)
  }

  predicate AlignedFit(r: Range, n: nat, offset: nat, align: nat)
    requires align >= 1
  {
    r.pages >= n + Shift(r, n, offset, align)
  }

  /** The index of the first range of `s` that `alloc_aligned` can use. */
  function FirstAligned(s: seq<Range>, n: nat, offset: nat, align: nat): (i: Option<nat>)
    requires align >= 1
    ensures i.Some? ==> i.value < |s| && AlignedFit(s[i.value], n, offset, align)
    ensures i.Some? ==> forall j :: 0 <= j < i.value ==> !AlignedFit(s[j], n, offset, align)
    ensures i.None? ==> forall j :: 0 <= j < |s| ==> !AlignedFit(s[j], n, offset, align)
  {
    if |s| == 0 then None
    else if AlignedFit(s[0], n, offset, align) then Some(0)
    else match FirstAligned(s[1..], n, offset, align)
      case None => None
      case Some(i) => Some(i + 1)
  }

  /** The range `alloc_aligned` takes: the first in `for_each` order, from
      the lowest order it visits, that holds `n` aligned pages. */
  function ChooseAligned(a: Allocator, n: nat, offset: nat, alignLog: nat): Option<Range>
    requires n >= 1
  {
    var w := Walk(a, AlignedMinOrder(n));
    match FirstAligned(w, n, offset, Pow2(alignLog))
    case None => None
    case Some(i) => Some(w[i])
  }

  /** `alloc_aligned` visits the huge ranges and the lists from its lowest
      order: a free range is visited exactly when its order is at least
      that order or it is huge. */
  lemma WalkVisits(a: Allocator, lo: nat, x: Range)
    requires Placed(a)
    ensures x in Walk(a, lo) <==> x in Members(a) && x.pages >= 1 && Visited(x, lo)
  {
    if x in Walk(a, lo) {
      if x !in a.huge {
        var o := WalkListsWitness(a.lists, lo, x);
        BagHas(a.lists, o, x);
        assert OfOrder(a.lists[o], o);
      }
    }
    if x in Members(a) {
      Locate(a, x);
      if Order(x.pages) < MaxOrder && Order(x.pages) >= lo {
        WalkListsHas(a.lists, lo, Order(x.pages), x);
      }
    }
  }

  /** Where the `n` pages carved from `r` start: `Shift` pages short of its
      end. Adding `offset` to the start gives a multiple of `align`. */
  function AlignedStart(r: Range, n: nat, offset: nat, align: nat): (start: nat)
    requires align >= 1 && AlignedFit(r, n, offset, align)
    ensures start + n + Shift(r, n, offset, align) == End(r)
    ensures Rem(start + offset, align) == 0
  {
    RemDown(r.start + r.pages - n + offset, align);
    r.start + r.pages - Shift(r, n, offset, align) - n
  }

  /** Taking off the remainder leaves a multiple. */
  lemma RemDown(x: nat, align: nat)
    requires align >= 1 && Rem(x, align) <= x
    ensures Rem(x - Rem(x, align), align) == 0
  {
    RemIsMod(x, align);
    RemIsMod(x - x % align, align);
    assert x == (x / align) * align + x % align;
    ModUnique(x - x % align, align, x / align, 0);
  }

  /** `Rem` is Euclidean `%`. */
  lemma {:induction false} RemIsMod(x: int, m: nat)
    requires m >= 1
    ensures Rem(x, m) == x % m
    decreases if x < 0 then -x + m else x
  {
    if x < 0 {
      RemIsMod(x + m, m);
      ModShift(x, m, 1);
    } else if x >= m {
      RemIsMod(x - m, m);
      ModShift(x - m, m, 1);
    } else {
      ModUnique(x, m, 0, x);
    }
  }

  /** Adding a multiple of `m` leaves the remainder alone. */
  lemma ModShift(x: int, m: nat, k: int)
    requires m >= 1
    ensures (x + k * m) % m == x % m
  {
    assert x == (x / m) * m + x % m;
    ModUnique(x + k * m, m, x / m + k, x % m);
  }

  /** Euclidean remainders are unique. */
  lemma ModUnique(x: int, m: int, q: int, s: int)
    requires m >= 1 && 0 <= s < m && x == q * m + s
    ensures x % m == s
  {
    var q' := x / m;
    var s' := x % m;
    assert x == q' * m + s';
    if q > q' {
      MulAtLeast(q - q', m);
    } else if q < q' {
      MulAtLeast(q' - q, m);
    }
  }

  lemma MulAtLeast(d: int, m: int)
    requires d >= 1 && m >= 1
    ensures d * m >= m
  {
  }

  /** `alloc_aligned(n, offset, 2^alignLog, fill)`: the chosen range loses
      its last `Shift` pages and its first ones, which go back, and the `n`
      pages between them are handed out, aligned as asked. It fails exactly
      when no range it visits has room for `n` aligned pages. */
  method AllocAligned(a: Allocator, n: nat, offset: nat, alignLog: nat, fill: bool) returns (res: Option<Grant>)
    requires Inv(a) && n >= 1
    ensures res.None? <==>
              forall x :: x in Members(a) && x.pages >= 1 && Visited(x, AlignedMinOrder(n))
                ==> !AlignedFit(x, n, offset, Pow2(alignLog))
    ensures res.Some? ==>
              && ChooseAligned(a, n, offset, alignLog).Some?
              && var r := ChooseAligned(a, n, offset, alignLog).value;
                 var p := res.value.range;
                 var g := res.value.state;
                 && r in Members(a) && p.pages == n && Within(p, r)
                 && End(p) + Shift(r, n, offset, Pow2(alignLog)) == End(r)
                 && Rem(p.start + offset, Pow2(alignLog)) == 0
                 && Inv(g)
                 && (forall k: nat :: IsFreePage(Members(g), k) <==> IsFreePage(Members(a), k) && !Contains(p, k))
                 && Members(g) == Members(a) - multiset{r} + Pieces(r, p)
                 && g.handedOut == a.handedOut + {p}
                 && FreePages(g) + n == FreePages(a)
  {
    ChooseAlignedFits(a, n, offset, alignLog);
    var c := ChooseAligned(a, n, offset, alignLog);
    if c.None? {
      return None;
    }
    var r := c.value;
    var align := Pow2(alignLog);
    var start := AlignedStart(r, n, offset, align);
    var p := Range(start, n);
    assert Within(p, r) && End(p) + Shift(r, n, offset, align) == End(r) by {}
    assert Rem(p.start + offset, align) == 0 by {}
    var g := Carve(a, r, p, fill);
    res := Some(Grant(g, p));
  }

  /** Whether `for_each(lo, ...)` visits a free range of these pages: the
      huge ones always, the others from order `lo` up. */
  predicate Visited(x: Range, lo: nat)
    requires x.pages >= 1
  {
    Order(x.pages) >= lo || Order(x.pages) >= MaxOrder
  }

  /** `alloc_aligned` finds a range exactly when some visited free range has
      room for `n` aligned pages, and the range it finds is one. */
  lemma ChooseAlignedFits(a: Allocator, n: nat, offset: nat, alignLog: nat)
    requires Placed(a) && n >= 1
    ensures var c := ChooseAligned(a, n, offset, alignLog);
            && (c.None? <==>
                  forall x :: x in Members(a) && x.pages >= 1 && Visited(x, AlignedMinOrder(n))
                    ==> !AlignedFit(x, n, offset, Pow2(alignLog)))
            && (c.Some? ==> c.value in Members(a) && AlignedFit(c.value, n, offset, Pow2(alignLog)))
  {
    var lo := AlignedMinOrder(n);
    var w := Walk(a, lo);
    var align := Pow2(alignLog);
    if FirstAligned(w, n, offset, align).None? {
      forall x | x in Members(a) && x.pages >= 1 && Visited(x, lo)
        ensures !AlignedFit(x, n, offset, align)
      {
        WalkVisits(a, lo, x);
        var j :| 0 <= j < |w| && w[j] == x;
      }
    } else {
      var i := FirstAligned(w, n, offset, align).value;
      WalkVisits(a, lo, w[i]);
    }
  }
}

=== FILE: page_range_free.dfy ===
/** `page_range_allocator::free` and `initial_add` (core/mempool.cc): a
    returned range is coalesced with the free ranges that touch it, found
    through the bitmap, the back-pointer word before it and the header word
    after it. */
module PageRangeFree {
  import opened Wrappers
  import opened PageRanges
  import opened PageRangeAlloc

  // ---------------------------------------------------------------------------
  // The neighbours

  /** A range `free` may take back: it overlaps no free range and no other
      handed-out range. A range handed out by `alloc` is one; so is memory
      the allocator has never seen. */
  ghost predicate Clear(m: multiset<Range>, l: Ledger, pr: Range)
  {
    && pr.pages >= 1
    && (forall r :: r in m ==> Disjoint(pr, r))
    && (forall q :: q in l.handedOut && q != pr ==> Disjoint(pr, q))
  }

  /** A set bit just before a clear range is the last page of a free range
      ending there, and the back-pointer word names it. */
  lemma PrevNeighbour(m: multiset<Range>, l: Ledger, pr: Range)
    requires Sound(m, l) && Clear(m, l, pr)
    requires 0 < pr.start <= |l.bitmap| && l.bitmap[pr.start - 1]
    ensures pr.start - 1 in l.back && l.back[pr.start - 1] in m
    ensures End(l.back[pr.start - 1]) == pr.start
  {
    var k := pr.start - 1;
    assert Covered(m, l, k);
    if exists r :: r in m && Contains(r, k) {
      var r :| r in m && Contains(r, k);
      assert Tracks(l, r) && Disjoint(pr, r);
    }
  }

  /** A set bit just after a clear range is the first page of a free range
      starting there, and the header word names it. */
  lemma NextNeighbour(m: multiset<Range>, l: Ledger, pr: Range)
    requires Sound(m, l) && Clear(m, l, pr)
    requires End(pr) < |l.bitmap| && l.bitmap[End(pr)]
    ensures End(pr) in l.head && l.head[End(pr)] in m
    ensures l.head[End(pr)].start == End(pr)
  {
    var k := End(pr);
    assert Covered(m, l, k);
    if exists r :: r in m && Contains(r, k) {
      var r :| r in m && Contains(r, k);
      assert Tracks(l, r) && Disjoint(pr, r);
    }
  }

  /** What `free` found before `pr`: the free range ending at it, or none
      when the bit before it is clear (or it starts at page 0). */
  ghost predicate PrevFound(m: multiset<Range>, l: Ledger, pr: Range, prev: Option<Range>)
  {
    match prev
    case Some(x) => x in m && m[x] == 1 && x.pages >= 1 && End(x) == pr.start
    case None => !(0 < pr.start <= |l.bitmap| && l.bitmap[pr.start - 1])
  }

  /** What `free` found after `pr`: the free range starting right after
      it, or none when that bit is clear or lies beyond the bitmap. */
  ghost predicate NextFound(m: multiset<Range>, l: Ledger, pr: Range, next: Option<Range>)
  {
    match next
    case Some(y) => y in m && m[y] == 1 && y.pages >= 1 && y.start == End(pr)
    case None => !(End(pr) < |l.bitmap| && l.bitmap[End(pr)])
  }

  /** A neighbour as a multiset. */
  function Found(o: Option<Range>): (b: multiset<Range>)
    ensures forall y :: y in b <==> o == Some(y)
  {
    if o.Some? then multiset{o.value} else multiset{}
  }

  function Size(o: Option<Range>): nat
  {
    if o.Some? then o.value.pages else 0
  }

  /** The range `free` inserts: `pr` grown over its neighbours. */
  function Merged(pr: Range, prev: Option<Range>, next: Option<Range>): (r: Range)
    ensures r.pages == Size(prev) + pr.pages + Size(next)
    ensures prev.None? ==> r.start == pr.start
    ensures prev.Some? ==> r.start == prev.value.start
  {
    Range(if prev.Some? then prev.value.start else pr.start, Size(prev) + pr.pages + Size(next))
  }

  // ---------------------------------------------------------------------------
  // free

  /** `free(pr)`: merge with the free range before `pr` when the bit before
      it is set, then with the one after when that bit is set, and insert
      the result. The invariant is kept, the pages of `pr` become free and
      nothing else does, and `pr` is no longer handed out. */
  method Free(a: Allocator, pr: Range) returns (a': Allocator)
    requires Inv(a) && Clear(Members(a), LedgerOf(a), pr) && End(pr) <= |a.bitmap|
    ensures Inv(a')
    ensures forall k: nat :: IsFreePage(Members(a'), k) <==> IsFreePage(Members(a), k) || Contains(pr, k)
    ensures FreePages(a') == FreePages(a) + pr.pages
    ensures a'.handedOut == a.handedOut - {pr}
    ensures |a'.bitmap| == |a.bitmap|
  {
    var a1, prev := TakePrev(a, pr);
    var a2, next := TakeNext(a, a1, pr, prev);
    var merged := Merged(pr, prev, next);
    var a3 := Insert(a2, merged, true);
    a' := a3.(handedOut := a3.handedOut - {pr});
    MergeSound(Members(a), LedgerOf(a), pr, prev, next, Members(a'), LedgerOf(a'));
  }

  /** The first step of `free`: when the bit before `pr` is set, take out
      the free range the back-pointer word before `pr` names. */
  method TakePrev(a: Allocator, pr: Range) returns (a1: Allocator, prev: Option<Range>)
    requires Placed(a) && Sound(Members(a), LedgerOf(a)) && Clear(Members(a), LedgerOf(a), pr)
    ensures Placed(a1) && LedgerOf(a1) == LedgerOf(a)
    ensures PrevFound(Members(a), LedgerOf(a), pr, prev)
    ensures Members(a1) == Members(a) - Found(prev)
    ensures FreePages(a1) + Size(prev) == FreePages(a)
  {
    if 0 < pr.start <= |a.bitmap| && a.bitmap[pr.start - 1] {
      PrevNeighbour(Members(a), LedgerOf(a), pr);
      var x := a.back[pr.start - 1];
      assert Tracks(LedgerOf(a), x);
      a1 := Remove(a, x);
      prev := Some(x);
    } else {
      a1 := a;
      prev := None;
    }
  }

  /** The second step: when the bit after `pr` is set, take out the free
      range whose header word sits there. */
  method TakeNext(a: Allocator, a1: Allocator, pr: Range, prev: Option<Range>) returns (a2: Allocator, next: Option<Range>)
    requires Sound(Members(a), LedgerOf(a)) && Clear(Members(a), LedgerOf(a), pr)
    requires Placed(a1) && LedgerOf(a1) == LedgerOf(a)
    requires PrevFound(Members(a), LedgerOf(a), pr, prev) && Members(a1) == Members(a) - Found(prev)
    ensures Placed(a2) && LedgerOf(a2) == LedgerOf(a)
    ensures NextFound(Members(a), LedgerOf(a), pr, next)
    ensures Members(a2) == Members(a1) - Found(next)
    ensures FreePages(a2) + Size(next) == FreePages(a1)
  {
    if End(pr) < |a1.bitmap| && a1.bitmap[End(pr)] {
      NextNeighbour(Members(a), LedgerOf(a), pr);
      var y := a1.head[End(pr)];
      assert Tracks(LedgerOf(a), y);
      assert prev != Some(y);
      a2 := Remove(a1, y);
      next := Some(y);
    } else {
      a2 := a1;
      next := None;
    }
  }

  /** The ledger-level content of `free`: merging `pr` with the neighbours
      it found keeps the bitmap invariant and frees exactly `pr`'s pages. */
  lemma MergeSound(m: multiset<Range>, l: Ledger, pr: Range, prev: Option<Range>, next: Option<Range>,
                   m': multiset<Range>, w: Ledger)
    requires Sound(m, l) && Clear(m, l, pr)
    requires PrevFound(m, l, pr, prev) && NextFound(m, l, pr, next)
    requires m' == m - Found(prev) - Found(next) + multiset{Merged(pr, prev, next)}
    requires Inserted(l, w, Merged(pr, prev, next)) && w.handedOut == l.handedOut - {pr}
    ensures Sound(m', w)
    ensures forall k: nat :: IsFreePage(m', k) <==> IsFreePage(m, k) || Contains(pr, k)
  {
    MergeTracked(m, l, pr, prev, next, m', w);
    MergeSeparated(m, l, pr, prev, next, m');
    MergeOwned(m, l, pr, prev, next, m', w);
    MergeHonest(m, l, pr, prev, next, m', w);
    MergePages(m, pr, prev, next, m');
  }

  /** A range apart from both neighbours and clear of `pr` is clear of the
      merged range. */
  lemma OutsideMerged(x: Range, pr: Range, prev: Option<Range>, next: Option<Range>)
    requires x.pages >= 1 && pr.pages >= 1 && Disjoint(x, pr)
    requires prev.Some? ==> End(prev.value) == pr.start && Disjoint(x, prev.value)
    requires next.Some? ==> next.value.start == End(pr) && Disjoint(x, next.value)
    ensures Disjoint(x, Merged(pr, prev, next))
  {
  }

  /** A free range other than the merged one was free before and is
      neither neighbour. */
  lemma Kept(m: multiset<Range>, prev: Option<Range>, next: Option<Range>, r: Range, m': multiset<Range>, x: Range)
    requires m' == m - Found(prev) - Found(next) + multiset{r}
    requires prev.Some? ==> m[prev.value] == 1
    requires next.Some? ==> m[next.value] == 1
    requires x in m' && x != r
    ensures x in m && prev != Some(x) && next != Some(x) && m'[x] == m[x]
  {
    assert m'[x] == (m - Found(prev) - Found(next))[x];
  }

  /** A free range that is neither neighbour stays free. */
  lemma Stays(m: multiset<Range>, prev: Option<Range>, next: Option<Range>, r: Range, m': multiset<Range>, x: Range)
    requires m' == m - Found(prev) - Found(next) + multiset{r}
    requires x in m && prev != Some(x) && next != Some(x)
    ensures x in m'
  {
    assert (m - Found(prev) - Found(next))[x] == m[x];
  }

  /** The header and back-pointer words after `insert(r)`. */
  ghost predicate Pointed(l: Ledger, w: Ledger, r: Range)
  {
    r.pages >= 1 && w.head == l.head[r.start := r] && w.back == l.back[Last(r) := r]
  }

  /** The ledger after `insert(r)` with the bitmap in use. */
  ghost predicate Inserted(l: Ledger, w: Ledger, r: Range)
  {
    && Pointed(l, w, r) && End(r) <= |l.bitmap|
    && w.bitmap == SetBits(l.bitmap, r, true, false)
  }

  /** `insert(r)` tracks `r` and keeps tracking the ranges clear of it. */
  lemma InsertedTracks(l: Ledger, w: Ledger, r: Range, x: Range)
    requires Inserted(l, w, r)
    requires x == r || (Tracks(l, x) && Disjoint(x, r))
    ensures Tracks(w, x)
  {
  }

  lemma MergeTracked(m: multiset<Range>, l: Ledger, pr: Range, prev: Option<Range>, next: Option<Range>,
                     m': multiset<Range>, w: Ledger)
    requires Tracked(m, l) && Separated(m) && Clear(m, l, pr)
    requires PrevFound(m, l, pr, prev) && NextFound(m, l, pr, next)
    requires m' == m - Found(prev) - Found(next) + multiset{Merged(pr, prev, next)}
    requires Inserted(l, w, Merged(pr, prev, next))
    ensures Tracked(m', w)
  {
    var r := Merged(pr, prev, next);
    assert r !in m;
    assert m'[r] == 1;
    forall x | x in m'
      ensures Tracks(w, x) && m'[x] == 1
    {
      if x == r {
        InsertedTracks(l, w, r, r);
      } else {
        Kept(m, prev, next, r, m', x);
        assert Tracks(l, x) && m[x] == 1 && Disjoint(pr, x);
        if prev.Some? {
          assert x != prev.value && Apart(x, prev.value);
        }
        if next.Some? {
          assert x != next.value && Apart(x, next.value);
        }
        KeptTracks(l, w, pr, prev, next, x);
      }
    }
  }

  /** A free range clear of the merged range keeps its boundary words. */
  lemma KeptTracks(l: Ledger, w: Ledger, pr: Range, prev: Option<Range>, next: Option<Range>, x: Range)
    requires Inserted(l, w, Merged(pr, prev, next)) && Tracks(l, x) && pr.pages >= 1 && Disjoint(x, pr)
    requires prev.Some? ==> End(prev.value) == pr.start && Disjoint(x, prev.value)
    requires next.Some? ==> next.value.start == End(pr) && Disjoint(x, next.value)
    ensures Tracks(w, x)
  {
    OutsideMerged(x, pr, prev, next);
    InsertedTracks(l, w, Merged(pr, prev, next), x);
  }

  lemma MergeSeparated(m: multiset<Range>, l: Ledger, pr: Range, prev: Option<Range>, next: Option<Range>,
                       m': multiset<Range>)
    requires Tracked(m, l) && Separated(m) && Clear(m, l, pr)
    requires PrevFound(m, l, pr, prev) && NextFound(m, l, pr, next)
    requires m' == m - Found(prev) - Found(next) + multiset{Merged(pr, prev, next)}
    ensures Separated(m')
  {
    var r := Merged(pr, prev, next);
    forall x, y | x in m' && y in m' && x != y
      ensures Apart(x, y)
    {
      if x == r {
        Kept(m, prev, next, r, m', y);
        MergedApart(m, l, pr, prev, next, y);
      } else if y == r {
        Kept(m, prev, next, r, m', x);
        MergedApart(m, l, pr, prev, next, x);
      } else {
        Kept(m, prev, next, r, m', x);
        Kept(m, prev, next, r, m', y);
      }
    }
  }

  /** A free range that is neither neighbour does not touch the merged
      range: had it touched `pr`, its boundary bit would have made it a
      neighbour. */
  lemma MergedApart(m: multiset<Range>, l: Ledger, pr: Range, prev: Option<Range>, next: Option<Range>, x: Range)
    requires Tracked(m, l) && Separated(m) && Clear(m, l, pr)
    requires PrevFound(m, l, pr, prev) && NextFound(m, l, pr, next)
    requires x in m && prev != Some(x) && next != Some(x)
    ensures Apart(x, Merged(pr, prev, next))
  {
    assert Tracks(l, x) && Disjoint(pr, x);
    OutsideMerged(x, pr, prev, next);
  }

  lemma MergeOwned(m: multiset<Range>, l: Ledger, pr: Range, prev: Option<Range>, next: Option<Range>,
                   m': multiset<Range>, w: Ledger)
    requires Owned(m, l) && Clear(m, l, pr)
    requires PrevFound(m, l, pr, prev) && NextFound(m, l, pr, next)
    requires m' == m - Found(prev) - Found(next) + multiset{Merged(pr, prev, next)}
    requires w.handedOut == l.handedOut - {pr} && |w.bitmap| >= |l.bitmap|
    ensures Owned(m', w)
  {
    var r := Merged(pr, prev, next);
    forall q, x | q in w.handedOut && x in m'
      ensures Disjoint(q, x)
    {
      if x == r {
        OutsideMerged(q, pr, prev, next);
      } else {
        Kept(m, prev, next, r, m', x);
      }
    }
  }

  lemma MergeHonest(m: multiset<Range>, l: Ledger, pr: Range, prev: Option<Range>, next: Option<Range>,
                    m': multiset<Range>, w: Ledger)
    requires Honest(m, l) && Clear(m, l, pr)
    requires PrevFound(m, l, pr, prev) && NextFound(m, l, pr, next)
    requires m' == m - Found(prev) - Found(next) + multiset{Merged(pr, prev, next)}
    requires Inserted(l, w, Merged(pr, prev, next)) && w.handedOut == l.handedOut - {pr}
    ensures Honest(m', w)
  {
    var r := Merged(pr, prev, next);
    assert r in m';
    forall k | 0 <= k < |w.bitmap| && w.bitmap[k]
      ensures Covered(m', w, k)
    {
      if !Contains(r, k) {
        MergedCovers(pr, prev, next, k);
        assert l.bitmap[k] && Covered(m, l, k);
        if exists x :: x in m && Contains(x, k) {
          var x :| x in m && Contains(x, k);
          if prev != Some(x) && next != Some(x) {
            Stays(m, prev, next, r, m', x);
          }
        } else {
          var q :| q in l.handedOut && Interior(q, k);
          assert q in w.handedOut;
        }
      }
    }
  }

  /** The merged range holds `pr` and both neighbours. */
  lemma MergedCovers(pr: Range, prev: Option<Range>, next: Option<Range>, k: nat)
    requires prev.Some? ==> End(prev.value) == pr.start
    requires next.Some? ==> next.value.start == End(pr)
    ensures Contains(pr, k) ==> Contains(Merged(pr, prev, next), k)
    ensures prev.Some? && Contains(prev.value, k) ==> Contains(Merged(pr, prev, next), k)
    ensures next.Some? && Contains(next.value, k) ==> Contains(Merged(pr, prev, next), k)
  {
  }

  /** After the merge the free pages are the old ones and those of `pr`. */
  lemma MergePages(m: multiset<Range>, pr: Range, prev: Option<Range>, next: Option<Range>, m': multiset<Range>)
    requires pr.pages >= 1
    requires prev.Some? ==> prev.value in m && m[prev.value] == 1 && End(prev.value) == pr.start
    requires next.Some? ==> next.value in m && m[next.value] == 1 && next.value.start == End(pr)
    requires m' == m - Found(prev) - Found(next) + multiset{Merged(pr, prev, next)}
    ensures forall k: nat :: IsFreePage(m', k) <==> IsFreePage(m, k) || Contains(pr, k)
  {
    var r := Merged(pr, prev, next);
    forall k: nat
      ensures IsFreePage(m', k) <==> IsFreePage(m, k) || Contains(pr, k)
    {
      if IsFreePage(m', k) {
        var x :| x in m' && Contains(x, k);
        if x != r {
          Kept(m, prev, next, r, m', x);
        } else if !Contains(pr, k) {
          if prev.Some? && k < pr.start {
            assert Contains(prev.value, k);
          } else {
            assert Contains(next.value, k);
          }
        }
      }
      if IsFreePage(m, k) || Contains(pr, k) {
        assert r in m';
        if !Contains(r, k) {
          var x :| x in m && Contains(x, k);
          Stays(m, prev, next, r, m', x);
        }
      }
    }
  }

  // ---------------------------------------------------------------------------
  // initial_add

  /** `initial_add(pr)`: memory handed to the allocator at boot. When `pr`
      reaches past the bitmap, it is merged with the free range before it
      (when that range's last bit is set) and inserted without touching the
      bitmap; the bitmap is then rebuilt at the new length from the boundary
      bits of every free range. Otherwise `pr` is freed. */
  method InitialAdd(a: Allocator, pr: Range) returns (a': Allocator)
    requires Inv(a) && Clear(Members(a), LedgerOf(a), pr)
    ensures Inv(a')
    ensures forall k: nat :: IsFreePage(Members(a'), k) <==> IsFreePage(Members(a), k) || Contains(pr, k)
    ensures FreePages(a') == FreePages(a) + pr.pages
    ensures a'.handedOut == a.handedOut - {pr}
    ensures |a'.bitmap| == if End(pr) > |a.bitmap| then End(pr) else |a.bitmap|
  {
    if End(pr) > |a.bitmap| {
      a' := Grow(a, pr);
    } else {
      a' := Free(a, pr);
    }
  }

  /** The growing branch of `initial_add`. */
  method Grow(a: Allocator, pr: Range) returns (a': Allocator)
    requires Inv(a) && Clear(Members(a), LedgerOf(a), pr) && End(pr) > |a.bitmap|
    ensures Inv(a')
    ensures forall k: nat :: IsFreePage(Members(a'), k) <==> IsFreePage(Members(a), k) || Contains(pr, k)
    ensures FreePages(a') == FreePages(a) + pr.pages
    ensures a'.handedOut == a.handedOut - {pr}
    ensures |a'.bitmap| == End(pr)
  {
    var a1, prev := TakePrev(a, pr);
    var merged := Merged(pr, prev, None);
    var a2 := Insert(a1, merged, false);
    GrownFits(Members(a), LedgerOf(a), pr, prev, Members(a2));
    var bm := Rebuild(a2, End(pr));
    a' := a2.(bitmap := bm, handedOut := a2.handedOut - {pr});
    GrowSound(Members(a), LedgerOf(a), pr, prev, Members(a'), LedgerOf(a'));
  }

  /** After the merge every free range lies below the end of `pr`. */
  lemma GrownFits(m: multiset<Range>, l: Ledger, pr: Range, prev: Option<Range>, m': multiset<Range>)
    requires Tracked(m, l) && pr.pages >= 1 && End(pr) > |l.bitmap| && PrevFound(m, l, pr, prev)
    requires m' == m - Found(prev) + multiset{Merged(pr, prev, None)}
    ensures forall x :: x in m' ==> x.pages >= 1 && End(x) <= End(pr)
  {
    forall x | x in m'
      ensures x.pages >= 1 && End(x) <= End(pr)
    {
      if x != Merged(pr, prev, None) {
        assert x in m && Tracks(l, x);
      }
    }
  }

  /** `_bitmap.reset(); _bitmap.resize(n);` and then `set_bits(pr, true)`
      for every free range `for_each` visits. */
  method Rebuild(a: Allocator, n: nat) returns (bm: seq<bool>)
    requires Placed(a) && forall x :: x in Members(a) ==> x.pages >= 1 && End(x) <= n
    ensures |bm| == n && Marked(Members(a), bm)
  {
    var walk := Walk(a, 0);
    bm := MarkAll(seq(n, p => false), walk);
    forall x | x in Members(a) && x.pages >= 1
      ensures x in walk
    {
      WalkVisits(a, 0, x);
    }
    forall x | x in walk
      ensures x in Members(a)
    {
      WalkVisits(a, 0, x);
    }
    Rebuilt(Members(a), walk, bm);
  }

  /** The boundary bits of the free ranges `m`. */
  ghost predicate IsBoundary(m: multiset<Range>, p: nat)
  {
    exists x :: x in m && x.pages >= 1 && (p == x.start || p == Last(x))
  }

  /** A bitmap whose set bits are exactly the boundaries of `m`. */
  ghost predicate Marked(m: multiset<Range>, bm: seq<bool>)
  {
    forall p :: 0 <= p < |bm| ==> (bm[p] <==> IsBoundary(m, p))
  }

  /** `for_each(set_bits(pr, true))`: the boundary bits of every range of
      `s` that fits are set, and no others. */
  function MarkAll(bm: seq<bool>, s: seq<Range>): (bm': seq<bool>)
    ensures |bm'| == |bm|
    ensures forall p :: 0 <= p < |bm| ==>
              (bm'[p] <==> bm[p] || exists x :: x in s && x.pages >= 1 && End(x) <= |bm| && (p == x.start || p == Last(x)))
    decreases |s|
  {
    if |s| == 0 then bm
    else
      var x := s[0];
      var b := if x.pages >= 1 && End(x) <= |bm| then SetBits(bm, x, true, false) else bm;
      assert forall y :: y in s[1..] ==> y in s;
      MarkAll(b, s[1..])
  }

  /** Marking every free range of a bitmap cleared to its new length gives
      the boundary bitmap, when every free range fits in it. */
  lemma Rebuilt(m: multiset<Range>, s: seq<Range>, bm: seq<bool>)
    requires forall x :: x in m && x.pages >= 1 ==> x in s
    requires forall x :: x in s ==> x in m
    requires forall x :: x in m ==> x.pages >= 1 && End(x) <= |bm|
    requires forall p :: 0 <= p < |bm| ==>
               (bm[p] <==> exists x :: x in s && x.pages >= 1 && End(x) <= |bm| && (p == x.start || p == Last(x)))
    ensures Marked(m, bm)
  {
    forall p | 0 <= p < |bm|
      ensures bm[p] <==> IsBoundary(m, p)
    {
      if IsBoundary(m, p) {
        var x :| x in m && x.pages >= 1 && (p == x.start || p == Last(x));
        assert x in s;
      }
    }
  }

  /** The ledger-level content of the growing branch. */
  lemma GrowSound(m: multiset<Range>, l: Ledger, pr: Range, prev: Option<Range>, m': multiset<Range>, w: Ledger)
    requires Sound(m, l) && Clear(m, l, pr) && End(pr) > |l.bitmap|
    requires PrevFound(m, l, pr, prev)
    requires m' == m - Found(prev) + multiset{Merged(pr, prev, None)}
    requires Pointed(l, w, Merged(pr, prev, None)) && w.handedOut == l.handedOut - {pr}
    requires |w.bitmap| == End(pr) && Marked(m', w.bitmap)
    ensures Sound(m', w)
    ensures forall k: nat :: IsFreePage(m', k) <==> IsFreePage(m, k) || Contains(pr, k)
  {
    assert NextFound(m, l, pr, None);
    GrowTracked(m, l, pr, prev, m', w);
    MergeSeparated(m, l, pr, prev, None, m');
    MergeOwned(m, l, pr, prev, None, m', w);
    MarkedHonest(m', w);
    MergePages(m, pr, prev, None, m');
  }

  /** Boundary bits are honest. */
  lemma MarkedHonest(m: multiset<Range>, w: Ledger)
    requires Marked(m, w.bitmap)
    ensures Honest(m, w)
  {
    forall k | 0 <= k < |w.bitmap| && w.bitmap[k]
      ensures Covered(m, w, k)
    {
      var x :| x in m && x.pages >= 1 && (k == x.start || k == Last(x));
      assert Contains(x, k);
    }
  }

  lemma GrowTracked(m: multiset<Range>, l: Ledger, pr: Range, prev: Option<Range>, m': multiset<Range>, w: Ledger)
    requires Tracked(m, l) && Separated(m) && Clear(m, l, pr) && End(pr) > |l.bitmap|
    requires PrevFound(m, l, pr, prev)
    requires m' == m - Found(prev) + multiset{Merged(pr, prev, None)}
    requires Pointed(l, w, Merged(pr, prev, None))
    requires |w.bitmap| == End(pr) && Marked(m', w.bitmap)
    ensures Tracked(m', w)
  {
    var r := Merged(pr, prev, None);
    assert r !in m;
    assert m'[r] == 1;
    forall x | x in m'
      ensures Tracks(w, x) && m'[x] == 1
    {
      if x != r {
        Kept(m, prev, None, r, m', x);
        assert Tracks(l, x) && m[x] == 1 && Disjoint(pr, x);
        if prev.Some? {
          assert x != prev.value && Apart(x, prev.value);
        }
        OutsideMerged(x, pr, prev, None);
      }
      MarkedTracks(l, w, r, m', x);
    }
  }

  /** A range of `m` tracked by the old words, or the one just inserted, is
      tracked by a boundary bitmap of `m`. */
  lemma MarkedTracks(l: Ledger, w: Ledger, r: Range, m: multiset<Range>, x: Range)
    requires Pointed(l, w, r) && Marked(m, w.bitmap) && x in m
    requires x == r || (Tracks(l, x) && Disjoint(x, r))
    requires End(x) <= |w.bitmap|
    ensures Tracks(w, x)
  {
    assert IsBoundary(m, x.start) && IsBoundary(m, Last(x));
  }

  // ---------------------------------------------------------------------------
  // Round trip

  /** A range handed out by the allocator may be freed. */
  lemma GrantClear(g: Allocator, p: Range)
    requires Inv(g) && p in g.handedOut
    ensures Clear(Members(g), LedgerOf(g), p) && End(p) <= |g.bitmap|
  {
  }

  /** Pages carved from a free range were not handed out before. */
  lemma FreshGrant(a: Allocator, r: Range, p: Range)
    requires Inv(a) && r in Members(a) && p.pages >= 1 && Within(p, r)
    ensures p !in a.handedOut
  {
  }

  /** `free(alloc(n))`: the allocator ends with the same free pages and the
      same handed-out ranges it started with. */
  method AllocThenFree(a: Allocator, n: nat, contiguous: bool) returns (a': Allocator)
    requires Inv(a) && n >= 1
    ensures Inv(a')
    ensures forall k: nat :: IsFreePage(Members(a'), k) <==> IsFreePage(Members(a), k)
    ensures FreePages(a') == FreePages(a)
    ensures a'.handedOut == a.handedOut
  {
    var res := Alloc(a, n, contiguous);
    if res.None? {
      return a;
    }
    var g := res.value.state;
    var p := res.value.range;
    var r := Choose(a, n, contiguous).value;
    FreshGrant(a, r, p);
    GrantClear(g, p);
    a' := Free(g, p);
    RoundPages(Members(a), Members(g), Members(a'), r, p);
  }

  /** Taking the pages of `p` out of the free pages and putting them back
      gives the free pages back, as `p` was free. */
  lemma RoundPages(m: multiset<Range>, m1: multiset<Range>, m2: multiset<Range>, r: Range, p: Range)
    requires r in m && Within(p, r)
    requires forall k: nat :: IsFreePage(m1, k) <==> IsFreePage(m, k) && !Contains(p, k)
    requires forall k: nat :: IsFreePage(m2, k) <==> IsFreePage(m1, k) || Contains(p, k)
    ensures forall k: nat :: IsFreePage(m2, k) <==> IsFreePage(m, k)
  {
    forall k: nat | Contains(p, k)
      ensures IsFreePage(m, k)
    {
      assert Contains(r, k);
    }
  }
}

=== FILE: page_ranges.dfy ===
/** The state of OSv's physical page-range allocator (`page_range_allocator` in
    core/mempool.cc) and its two container primitives, `insert` and `remove`.

    Memory is measured in pages: a free range is `Range(start, pages)`, where
    `start` is the index of its first page (its header) relative to the start of
    physical memory. A range of `pages` pages lives in the list of order
    `ilog2(pages)` when that order is below `MaxOrder`, and in the size-ordered
    multiset of "huge" ranges otherwise. One bit per page marks range
    boundaries, and the last word of every free range holds a back-pointer to
    its header. */
module PageRanges {
  import opened Logarithms

  /** `page_ranges_max_order`: ranges of 2^16 pages or more are "huge". */
  const MaxOrder: nat := 16

  datatype Range = Range(start: nat, pages: nat)

  function End(r: Range): nat { r.start + r.pages }

  function Last(r: Range): nat
    requires r.pages >= 1
  {
    r.start + r.pages - 1
  }

  predicate Contains(r: Range, p: nat) { r.start <= p < End(r) }

  /** Strictly inside: neither the first nor the last page. */
  predicate Interior(r: Range, p: nat) { r.start < p && p + 1 < End(r) }

  predicate Disjoint(r1: Range, r2: Range) { End(r1) <= r2.start || End(r2) <= r1.start }

  /** Disjoint and not touching: at least one page lies between them. */
  predicate Apart(r1: Range, r2: Range) { End(r1) < r2.start || End(r2) < r1.start }

  function Order(pages: nat): nat
    requires pages >= 1
  {
    Log2(pages)
  }

  /** The allocator's fields. `lists[o]` is `_free[o]` front first; `huge` is
      `_free_huge` in iteration (ascending size) order; `notEmpty` is the
      `_not_empty` bitset of `MaxOrder + 1` bits; `bitmap` has one bit per page;
      `head` and `back` are the memory words the allocator reads through
      pointers: the header record at a range's first page and the back-pointer
      in its last page. `handedOut` records the ranges currently handed out to
      callers, which the allocator itself does not store but which the bitmap
      invariant has to mention. */
  datatype Allocator = Allocator(
    lists: seq<seq<Range>>,
    huge: seq<Range>,
    notEmpty: seq<bool>,
    bitmap: seq<bool>,
    head: map<nat, Range>,
    back: map<nat, Range>,
    handedOut: set<Range>)

  // ---------------------------------------------------------------------------
  // Contents and sizes of the containers

  function SumPages(s: seq<Range>): nat
  {
    if |s| == 0 then 0 else s[0].pages + SumPages(s[1..])
  }

  /** The ranges of all lists, highest order first. */
  function Bag(ls: seq<seq<Range>>): multiset<Range>
  {
    if |ls| == 0 then multiset{} else multiset(ls[|ls| - 1]) + Bag(ls[..|ls| - 1])
  }

  function ListPages(ls: seq<seq<Range>>): nat
  {
    if |ls| == 0 then 0 else SumPages(ls[|ls| - 1]) + ListPages(ls[..|ls| - 1])
  }

  /** The lists of order `lo` and above, highest order first, each front to
      back: the order in which `for_each(lo, f)` visits them after the huge
      ranges. */
  function WalkLists(ls: seq<seq<Range>>, lo: nat): seq<Range>
  {
    if |ls| <= lo then [] else ls[|ls| - 1] + WalkLists(ls[..|ls| - 1], lo)
  }

  /** `for_each(min_order, f)`: the huge ranges in ascending size order, then
      the lists from order `MaxOrder - 1` down to `lo`. */
  function Walk(a: Allocator, lo: nat): seq<Range>
  {
    a.huge + WalkLists(a.lists, lo)
  }

  /** Every free range, wherever it is stored. */
  function Members(a: Allocator): multiset<Range>
  {
    multiset(a.huge) + Bag(a.lists)
  }

  /** The number of free pages the allocator holds. */
  function FreePages(a: Allocator): nat
  {
    SumPages(a.huge) + ListPages(a.lists)
  }

  /** Ascending by size, stated on neighbours. */
  predicate SortedBySize(s: seq<Range>)
  {
    forall i :: 0 < i < |s| ==> s[i - 1].pages <= s[i].pages
  }

  // ---------------------------------------------------------------------------
  // Invariants

  /** Every range of `l` has order `o`. */
  ghost predicate OfOrder(l: seq<Range>, o: nat)
  {
    forall i :: 0 <= i < |l| ==> l[i].pages >= 1 && Order(l[i].pages) == o
  }

  /** Every huge range has order `MaxOrder` or more, in ascending size order. */
  ghost predicate HugeOrdered(h: seq<Range>)
  {
    && (forall x :: x in h ==> x.pages >= 1 && Order(x.pages) >= MaxOrder)
    && SortedBySize(h)
  }

  /** Bucket and bitset consistency: every range sits in the container of its
      order, the huge set is ordered by size, and bit `o` of `notEmpty` is set
      exactly when container `o` is non-empty. */
  ghost predicate Placed(a: Allocator)
  {
    && |a.lists| == MaxOrder
    && |a.notEmpty| == MaxOrder + 1
    && (forall o :: 0 <= o < MaxOrder ==> OfOrder(a.lists[o], o) && a.notEmpty[o] == (|a.lists[o]| > 0))
    && HugeOrdered(a.huge)
    && a.notEmpty[MaxOrder] == (|a.huge| > 0)
  }

  /** The allocator's bookkeeping outside its containers: the bitmap, the
      header and back-pointer words, and the record of handed-out ranges.
      The bitmap invariant is about these and the free ranges alone. */
  datatype Ledger = Ledger(
    bitmap: seq<bool>,
    head: map<nat, Range>,
    back: map<nat, Range>,
    handedOut: set<Range>)

  function LedgerOf(a: Allocator): Ledger
  {
    Ledger(a.bitmap, a.head, a.back, a.handedOut)
  }

  /** A free range's boundary bits are set and its header and back-pointer
      words name it. */
  ghost predicate Tracks(l: Ledger, r: Range)
  {
    && r.pages >= 1
    && End(r) <= |l.bitmap|
    && l.bitmap[r.start] && l.bitmap[Last(r)]
    && r.start in l.head && l.head[r.start] == r
    && Last(r) in l.back && l.back[Last(r)] == r
  }

  /** A set bit lies in a free range or strictly inside a handed-out one. Bits
      are never cleared when ranges merge, so stale bits inside ranges are
      normal; what matters is that a page just outside a range the caller
      owns has its bit set only if it is the boundary of a free range. */
  ghost predicate Covered(m: multiset<Range>, l: Ledger, p: nat)
  {
    || (exists r :: r in m && Contains(r, p))
    || (exists q :: q in l.handedOut && Interior(q, p))
  }

  /** Page `k` lies in one of the free ranges `m`. */
  ghost predicate IsFreePage(m: multiset<Range>, k: nat)
  {
    exists r :: r in m && Contains(r, k)
  }

  /** Every free range is tracked and stored once. */
  ghost predicate Tracked(m: multiset<Range>, l: Ledger)
  {
    forall r :: r in m ==> Tracks(l, r) && m[r] == 1
  }

  /** No two free ranges overlap or touch: `free` always coalesces. */
  ghost predicate Separated(m: multiset<Range>)
  {
    forall r1, r2 :: r1 in m && r2 in m && r1 != r2 ==> Apart(r1, r2)
  }

  /** Handed-out ranges lie in the bitmap, and overlap neither free ranges nor
      one another. */
  ghost predicate Owned(m: multiset<Range>, l: Ledger)
  {
    && (forall q :: q in l.handedOut ==>
          && q.pages >= 1 && End(q) <= |l.bitmap|
          && (forall r :: r in m ==> Disjoint(q, r)))
    && (forall q1, q2 :: q1 in l.handedOut && q2 in l.handedOut && q1 != q2 ==> Disjoint(q1, q2))
  }

  /** Every set bit is covered. The trigger keeps the solver from chasing
      a covering range's own boundary bits: a proof asks about `Covered`
      where it needs it. */
  ghost predicate Honest(m: multiset<Range>, l: Ledger)
  {
    forall p {:trigger Covered(m, l, p)} :: 0 <= p < |l.bitmap| && l.bitmap[p] ==> Covered(m, l, p)
  }

  ghost predicate Sound(m: multiset<Range>, l: Ledger)
  {
    Tracked(m, l) && Separated(m) && Owned(m, l) && Honest(m, l)
  }

  ghost predicate Inv(a: Allocator)
  {
    Placed(a) && Sound(Members(a), LedgerOf(a))
  }

  /** An allocator over `n` pages with nothing free yet. */
  function Empty(n: nat): (a: Allocator)
    ensures Inv(a) && |a.bitmap| == n && Members(a) == multiset{} && FreePages(a) == 0
  {
    var a := Allocator(seq(MaxOrder, o => []), [], seq(MaxOrder + 1, o => false),
                       seq(n, p => false), map[], map[], {});
    EmptyBag(a.lists);
    EmptyListPages(a.lists);
    a
  }

  // ---------------------------------------------------------------------------
  // set_bits

  /** `set_bits(pr, value, fill)`: the first and last page of `r`, or every
      page of `r` when `fill`. */
  function SetBits(bm: seq<bool>, r: Range, v: bool, fill: bool): (bm': seq<bool>)
    requires r.pages >= 1 && End(r) <= |bm|
    ensures |bm'| == |bm|
    ensures forall p :: 0 <= p < |bm| ==>
              bm'[p] == if p == r.start || p == Last(r) || (fill && Contains(r, p)) then v else bm[p]
  {
    if fill then seq(|bm|, p requires 0 <= p < |bm| => if Contains(r, p) then v else bm[p])
    else bm[r.start := v][Last(r) := v]
  }

  // ---------------------------------------------------------------------------
  // insert and remove

  /** Multiset insertion into the size-ordered huge set: after every range of
      equal size. */
  function InsertSorted(s: seq<Range>, r: Range): (t: seq<Range>)
    ensures multiset(t) == multiset(s) + multiset{r}
    ensures SumPages(t) == SumPages(s) + r.pages
  {
    if |s| == 0 then [r]
    else if r.pages < s[0].pages then [r] + s
    else
      var t := [s[0]] + InsertSorted(s[1..], r);
      assert s == [s[0]] + s[1..];
      assert t[1..] == InsertSorted(s[1..], r);
      t
  }

  function IndexOf(s: seq<Range>, r: Range): (i: nat)
    requires r in s
    ensures i < |s| && s[i] == r
  {
    if s[0] == r then 0 else IndexOf(s[1..], r) + 1
  }

  function RemoveAt(s: seq<Range>, i: nat): (t: seq<Range>)
    requires i < |s|
    ensures |t| == |s| - 1
    ensures multiset(t) == multiset(s) - multiset{s[i]}
    ensures SumPages(t) + s[i].pages == SumPages(s)
    ensures forall j :: 0 <= j < |t| ==> t[j] == if j < i then s[j] else s[j + 1]
  {
    assert s == s[..i] + [s[i]] + s[i + 1..];
    SumPagesRemoveAt(s, i);
    s[..i] + s[i + 1..]
  }

  /** `insert`: place `r` in the container of its order, record its header
      and back-pointer, and, with `useBitmap`, set its boundary bits. */
  method Insert(a: Allocator, r: Range, useBitmap: bool) returns (a': Allocator)
    requires Placed(a) && r.pages >= 1 && (useBitmap ==> End(r) <= |a.bitmap|)
    ensures Placed(a')
    ensures Members(a') == Members(a) + multiset{r}
    ensures FreePages(a') == FreePages(a) + r.pages
    ensures a'.bitmap == if useBitmap then SetBits(a.bitmap, r, true, false) else a.bitmap
    ensures a'.head == a.head[r.start := r] && a'.back == a.back[Last(r) := r]
    ensures a'.handedOut == a.handedOut
  {
    var bm := if useBitmap then SetBits(a.bitmap, r, true, false) else a.bitmap;
    var a0 := a.(bitmap := bm, head := a.head[r.start := r], back := a.back[Last(r) := r]);
    if Order(r.pages) >= MaxOrder {
      a' := InsertHuge(a0, r);
    } else {
      a' := InsertList(a0, r);
    }
  }

  /** The huge branch of `insert`: into `_free_huge`, setting its bit. */
  function InsertHuge(a: Allocator, r: Range): (a': Allocator)
    requires Placed(a) && r.pages >= 1 && Order(r.pages) >= MaxOrder
    ensures Placed(a')
    ensures Members(a') == Members(a) + multiset{r}
    ensures FreePages(a') == FreePages(a) + r.pages
    ensures a' == a.(huge := a'.huge, notEmpty := a'.notEmpty)
  {
    InsertSortedOrdered(a.huge, r);
    a.(huge := InsertSorted(a.huge, r), notEmpty := a.notEmpty[MaxOrder := true])
  }

  /** The list branch of `insert`: at the front of the list of its order,
      setting that order's bit. */
  function InsertList(a: Allocator, r: Range): (a': Allocator)
    requires Placed(a) && r.pages >= 1 && Order(r.pages) < MaxOrder
    ensures Placed(a')
    ensures Members(a') == Members(a) + multiset{r}
    ensures FreePages(a') == FreePages(a) + r.pages
    ensures a' == a.(lists := a'.lists, notEmpty := a'.notEmpty)
  {
    var o := Order(r.pages);
    var l := [r] + a.lists[o];
    var a' := a.(lists := a.lists[o := l], notEmpty := a.notEmpty[o := true]);
    BagUpdate(a.lists, o, l);
    ListPagesUpdate(a.lists, o, l);
    MultisetGrow(Bag(a.lists), multiset(a.lists[o]), r);
    assert multiset(l) == multiset{r} + multiset(a.lists[o]);
    PushFrontOfOrder(a.lists[o], r, o);
    ListReplacedPlaced(a, o, l, a');
    a'
  }

  /** `remove_huge`: erase `r` from the huge set and clear its `notEmpty`
      bit when the set becomes empty. */
  function RemoveHuge(a: Allocator, r: Range): (a': Allocator)
    requires Placed(a) && r in a.huge
    ensures Placed(a')
    ensures multiset(a'.huge) == multiset(a.huge) - multiset{r} && a'.lists == a.lists
    ensures SumPages(a'.huge) + r.pages == SumPages(a.huge)
    ensures a'.bitmap == a.bitmap && a'.head == a.head && a'.back == a.back
    ensures a'.handedOut == a.handedOut
  {
    var k := IndexOf(a.huge, r);
    var h := RemoveAt(a.huge, k);
    RemoveAtOrdered(a.huge, k);
    a.(huge := h, notEmpty := a.notEmpty[MaxOrder := if |h| == 0 then false else a.notEmpty[MaxOrder]])
  }

  /** `remove_list`: erase `r` from list `o` and clear bit `o` of `notEmpty`
      when the list becomes empty. */
  function RemoveList(a: Allocator, o: nat, r: Range): (a': Allocator)
    requires Placed(a) && o < MaxOrder && r in a.lists[o]
    ensures Placed(a')
    ensures Bag(a'.lists) == Bag(a.lists) - multiset{r} && a'.huge == a.huge
    ensures ListPages(a'.lists) + r.pages == ListPages(a.lists)
    ensures a'.bitmap == a.bitmap && a'.head == a.head && a'.back == a.back
    ensures a'.handedOut == a.handedOut
  {
    var k := IndexOf(a.lists[o], r);
    var l := RemoveAt(a.lists[o], k);
    var a' := a.(lists := a.lists[o := l], notEmpty := a.notEmpty[o := if |l| == 0 then false else a.notEmpty[o]]);
    BagUpdate(a.lists, o, l);
    ListPagesUpdate(a.lists, o, l);
    RemoveAtOfOrder(a.lists[o], k, o);
    ListReplacedPlaced(a, o, l, a');
    MultisetReplace(Bag(a.lists), multiset(a.lists[o]), r);
    a'
  }

  /** `remove`: take `r` out of the container of its order. Bits, header and
      back-pointer words are left as they were. */
  method Remove(a: Allocator, r: Range) returns (a': Allocator)
    requires Placed(a) && r in Members(a)
    ensures Placed(a')
    ensures Members(a') == Members(a) - multiset{r}
    ensures FreePages(a') + r.pages == FreePages(a)
    ensures a'.bitmap == a.bitmap && a'.head == a.head && a'.back == a.back
    ensures a'.handedOut == a.handedOut
  {
    Locate(a, r);
    var o := Order(r.pages);
    if o >= MaxOrder {
      a' := RemoveHuge(a, r);
      MultisetTake(multiset(a.huge), Bag(a.lists), r);
    } else {
      a' := RemoveList(a, o, r);
      BagHas(a.lists, o, r);
      MultisetTake(Bag(a.lists), multiset(a.huge), r);
    }
  }

  lemma MultisetGrow(b: multiset<Range>, m: multiset<Range>, r: Range)
    requires m <= b
    ensures b - m + (multiset{r} + m) == b + multiset{r}
  {
  }

  lemma MultisetTake(m: multiset<Range>, b: multiset<Range>, r: Range)
    requires r in m
    ensures (m - multiset{r}) + b == (m + b) - multiset{r}
    ensures b + (m - multiset{r}) == (b + m) - multiset{r}
  {
  }

  lemma MultisetReplace(b: multiset<Range>, m: multiset<Range>, r: Range)
    requires m <= b && r in m
    ensures b - m + (m - multiset{r}) == b - multiset{r}
  {
  }

  // ---------------------------------------------------------------------------
  // Lemmas about the containers

  /** A free range is stored in the container its order names. */
  lemma Locate(a: Allocator, r: Range)
    requires Placed(a) && r in Members(a)
    ensures r.pages >= 1
    ensures Order(r.pages) >= MaxOrder ==> r in a.huge
    ensures Order(r.pages) < MaxOrder ==> r in a.lists[Order(r.pages)]
  {
    if r in multiset(a.huge) {
      assert r in a.huge;
    } else {
      assert r in Bag(a.lists);
      var o := BagWitness(a.lists, r);
      var i :| 0 <= i < |a.lists[o]| && a.lists[o][i] == r;
      assert Order(r.pages) == o;
    }
  }

  lemma {:induction false} BagWitness(ls: seq<seq<Range>>, r: Range) returns (o: nat)
    requires r in Bag(ls)
    ensures o < |ls| && r in ls[o]
  {
    var n := |ls| - 1;
    if r in multiset(ls[n]) {
      o := n;
    } else {
      o := BagWitness(ls[..n], r);
      assert ls[..n][o] == ls[o];
    }
  }

  lemma {:induction false} BagHas(ls: seq<seq<Range>>, o: nat, r: Range)
    requires o < |ls| && r in ls[o]
    ensures r in Bag(ls)
  {
    var n := |ls| - 1;
    if o < n {
      assert ls[..n][o] == ls[o];
      BagHas(ls[..n], o, r);
    }
  }

  lemma {:induction false} BagUpdate(ls: seq<seq<Range>>, o: nat, x: seq<Range>)
    requires o < |ls|
    ensures multiset(ls[o]) <= Bag(ls)
    ensures Bag(ls[o := x]) == Bag(ls) - multiset(ls[o]) + multiset(x)
  {
    var n := |ls| - 1;
    InitUpdate(ls, o, x);
    if o < n {
      BagUpdate(ls[..n], o, x);
    }
  }

  lemma {:induction false} ListPagesUpdate(ls: seq<seq<Range>>, o: nat, x: seq<Range>)
    requires o < |ls|
    ensures ListPages(ls[o := x]) + SumPages(ls[o]) == ListPages(ls) + SumPages(x)
  {
    var n := |ls| - 1;
    InitUpdate(ls, o, x);
    if o < n {
      ListPagesUpdate(ls[..n], o, x);
    }
  }

  /** Updating a list and dropping the last one commute. */
  lemma InitUpdate(ls: seq<seq<Range>>, o: nat, x: seq<Range>)
    requires o < |ls|
    ensures o == |ls| - 1 ==> ls[o := x][..o] == ls[..o]
    ensures o < |ls| - 1 ==> ls[o := x][..|ls| - 1] == ls[..|ls| - 1][o := x] && ls[..|ls| - 1][o] == ls[o]
  {
  }

  /** Walking every list visits exactly the ranges the lists hold. */
  lemma {:induction false} WalkListsBag(ls: seq<seq<Range>>)
    ensures multiset(WalkLists(ls, 0)) == Bag(ls)
  {
    if |ls| > 0 {
      WalkListsBag(ls[..|ls| - 1]);
    }
  }

  /** The walk from order `lo` visits only ranges of the lists of order `lo`
      and above ... */
  lemma {:induction false} WalkListsWitness(ls: seq<seq<Range>>, lo: nat, r: Range) returns (o: nat)
    requires r in WalkLists(ls, lo)
    ensures lo <= o < |ls| && r in ls[o]
  {
    var n := |ls| - 1;
    if r in ls[n] {
      o := n;
    } else {
      o := WalkListsWitness(ls[..n], lo, r);
      assert ls[..n][o] == ls[o];
    }
  }

  /** ... and every range of those lists. */
  lemma {:induction false} WalkListsHas(ls: seq<seq<Range>>, lo: nat, o: nat, r: Range)
    requires lo <= o < |ls| && r in ls[o]
    ensures r in WalkLists(ls, lo)
  {
    var n := |ls| - 1;
    if o < n {
      assert ls[..n][o] == ls[o];
      WalkListsHas(ls[..n], lo, o, r);
    }
  }

  lemma {:induction false} SumPagesRemoveAt(s: seq<Range>, i: nat)
    requires i < |s|
    ensures SumPages(s[..i] + s[i + 1..]) + s[i].pages == SumPages(s)
  {
    if i > 0 {
      SumPagesRemoveAt(s[1..], i - 1);
      assert s[1..][..i - 1] + s[1..][i..] == (s[..i] + s[i + 1..])[1..];
    } else {
      assert s[..i] + s[i + 1..] == s[1..];
    }
  }

  lemma {:induction false} EmptyBag(ls: seq<seq<Range>>)
    requires forall o :: 0 <= o < |ls| ==> ls[o] == []
    ensures Bag(ls) == multiset{}
  {
    if |ls| > 0 {
      EmptyBag(ls[..|ls| - 1]);
    }
  }

  lemma {:induction false} EmptyListPages(ls: seq<seq<Range>>)
    requires forall o :: 0 <= o < |ls| ==> ls[o] == []
    ensures ListPages(ls) == 0
  {
    if |ls| > 0 {
      EmptyListPages(ls[..|ls| - 1]);
    }
  }

  lemma InsertSortedOrdered(s: seq<Range>, r: Range)
    requires HugeOrdered(s) && r.pages >= 1 && Order(r.pages) >= MaxOrder
    ensures HugeOrdered(InsertSorted(s, r))
  {
    var t := InsertSorted(s, r);
    forall x | x in t
      ensures x.pages >= 1 && Order(x.pages) >= MaxOrder
    {
      assert x in multiset(t);
    }
    InsertSortedSorted(s, r);
  }

  lemma {:induction false} InsertSortedSorted(s: seq<Range>, r: Range)
    requires SortedBySize(s)
    ensures SortedBySize(InsertSorted(s, r))
    ensures |s| > 0 ==> InsertSorted(s, r)[0] == if r.pages < s[0].pages then r else s[0]
  {
    var t := InsertSorted(s, r);
    if |s| > 0 && r.pages >= s[0].pages {
      var s' := s[1..];
      InsertSortedSorted(s', r);
      var u := InsertSorted(s', r);
      assert t == [s[0]] + u;
      forall i | 0 < i < |t|
        ensures t[i - 1].pages <= t[i].pages
      {
        assert t[i] == u[i - 1];
        if i > 1 {
          assert t[i - 1] == u[i - 2];
        }
      }
    }
  }

  lemma RemoveAtOrdered(s: seq<Range>, k: nat)
    requires k < |s| && HugeOrdered(s)
    ensures HugeOrdered(RemoveAt(s, k))
  {
    var t := RemoveAt(s, k);
    RemoveAtSorted(s, k);
    forall x | x in t
      ensures x in s
    {
      assert x in multiset(t);
    }
  }

  lemma RemoveAtSorted(s: seq<Range>, k: nat)
    requires k < |s| && SortedBySize(s)
    ensures SortedBySize(RemoveAt(s, k))
  {
    var t := RemoveAt(s, k);
    forall i | 0 < i < |t|
      ensures t[i - 1].pages <= t[i].pages
    {
      if i == k {
        assert t[i - 1] == s[k - 1] && t[i] == s[k + 1];
        assert s[k - 1].pages <= s[k].pages <= s[k + 1].pages;
      } else if i < k {
        assert t[i - 1] == s[i - 1] && t[i] == s[i];
      } else {
        assert t[i - 1] == s[i] && t[i] == s[i + 1];
      }
    }
  }

  lemma RemoveAtOfOrder(l: seq<Range>, k: nat, o: nat)
    requires k < |l| && OfOrder(l, o)
    ensures OfOrder(RemoveAt(l, k), o)
  {
    var t := RemoveAt(l, k);
    forall i | 0 <= i < |t|
      ensures t[i].pages >= 1 && Order(t[i].pages) == o
    {
      var i' := if i < k then i else i + 1;
      assert t[i] == l[i'];
    }
  }

  lemma PushFrontOfOrder(l: seq<Range>, r: Range, o: nat)
    requires OfOrder(l, o) && r.pages >= 1 && Order(r.pages) == o
    ensures OfOrder([r] + l, o)
  {
    var t := [r] + l;
    forall i | 0 <= i < |t|
      ensures t[i].pages >= 1 && Order(t[i].pages) == o
    {
      if i > 0 {
        assert t[i] == l[i - 1];
      }
    }
  }

  /** Replacing one list by another of the same order keeps the placement. */
  lemma ListReplacedPlaced(a: Allocator, o: nat, l: seq<Range>, a': Allocator)
    requires Placed(a) && o < MaxOrder && OfOrder(l, o)
    requires a'.huge == a.huge && a'.lists == a.lists[o := l]
    requires a'.notEmpty == a.notEmpty[o := |l| > 0]
    ensures Placed(a')
  {
    forall o' | 0 <= o' < MaxOrder
      ensures OfOrder(a'.lists[o'], o') && a'.notEmpty[o'] == (|a'.lists[o']| > 0)
    {
      if o' != o {
        assert a'.lists[o'] == a.lists[o'];
      }
    }
  }
}

=== FILE: py_text.dfy ===
/** The handful of Python `str` operations the build scripts rely on, each
    defined once over `seq<char>`: `startswith`, `endswith`, `in`, `strip`
    (with Python's notion of whitespace), `split(sep)` with a one-character
    separator, `sep.join(...)`, and `readlines`; how lines, relative paths
    and optional command-line values read. */
module PyText {
  import opened Wrappers

  predicate StartsWith(s: string, p: string)
  {
    |p| <= |s| && s[..|p|] == p
  }

  predicate EndsWith(s: string, p: string)
  {
    |p| <= |s| && s[|s| - |p|..] == p
  }

  /** `c in s` for a single character. */
  predicate Has(s: string, c: char)
  {
    exists i :: 0 <= i < |s| && s[i] == c
  }

  /** The characters `str.isspace()` accepts: the ASCII blanks and control
      separators, and the Unicode space separators and line breaks. */
  predicate IsSpace(c: char)
  {
    c == ' ' || c == '\t' || c == '\n' || c == '\r' || c == '\U{B}' || c == '\U{C}'
    || '\U{1C}' <= c <= '\U{1F}' || c == '\U{85}' || c == '\U{A0}' || c == '\U{1680}'
    || '\U{2000}' <= c <= '\U{200A}' || c == '\U{2028}' || c == '\U{2029}'
    || c == '\U{202F}' || c == '\U{205F}' || c == '\U{3000}'
  }

  /** `s.lstrip()`: drop leading whitespace. */
  function LStrip(s: string): (t: string)
    ensures |t| <= |s| && t == s[|s| - |t|..]
  {
    if |s| > 0 && IsSpace(s[0]) then LStrip(s[1..]) else s
  }

  /** `s.rstrip()`: drop trailing whitespace. */
  function RStrip(s: string): (t: string)
    ensures |t| <= |s| && t == s[..|t|]
  {
    if |s| > 0 && IsSpace(s[|s| - 1]) then RStrip(s[..|s| - 1]) else s
  }

  /** `lstrip` removes whitespace only, and all of it. */
  lemma {:induction false} LStripSpaces(s: string)
    ensures var t := LStrip(s);
      (|t| > 0 ==> !IsSpace(t[0])) && forall i :: 0 <= i < |s| - |t| ==> IsSpace(s[i])
  {
    if |s| > 0 && IsSpace(s[0]) {
      LStripSpaces(s[1..]);
    }
  }

  /** `rstrip` removes whitespace only, and all of it. */
  lemma {:induction false} RStripSpaces(s: string)
    ensures var t := RStrip(s);
      (|t| > 0 ==> !IsSpace(t[|t| - 1])) && forall i :: |t| <= i < |s| ==> IsSpace(s[i])
  {
    if |s| > 0 && IsSpace(s[|s| - 1]) {
      RStripSpaces(s[..|s| - 1]);
    }
  }

  /** `lstrip` on a text whose first non-space is at `n`. */
  lemma {:induction false} LStripSkips(s: string, n: nat)
    requires n < |s| && !IsSpace(s[n]) && forall i :: 0 <= i < n ==> IsSpace(s[i])
    ensures LStrip(s) == s[n..]
  {
    if n > 0 {
      LStripSkips(s[1..], n - 1);
      assert s[1..][n - 1..] == s[n..];
    }
  }

  /** `rstrip` on a text whose last non-space is at `n - 1`. */
  lemma {:induction false} RStripKeeps(s: string, n: nat)
    requires 0 < n <= |s| && !IsSpace(s[n - 1]) && forall i :: n <= i < |s| ==> IsSpace(s[i])
    ensures RStrip(s) == s[..n]
    decreases |s|
  {
    if n < |s| {
      RStripKeeps(s[..|s| - 1], n);
      assert s[..|s| - 1][..n] == s[..n];
    }
  }

  /** `rstrip` keeps every character up to the last non-space. */
  lemma {:induction false} RStripLonger(s: string, j: nat)
    requires j < |s| && !IsSpace(s[j])
    ensures j < |RStrip(s)|
    decreases |s|
  {
    if j < |s| - 1 {
      RStripLonger(s[..|s| - 1], j);
    }
  }

  /** `s.strip()`. */
  function Strip(s: string): (t: string)
  {
    LStrip(RStrip(s))
  }

  predicate Blank(s: string)
  {
    forall i :: 0 <= i < |s| ==> IsSpace(s[i])
  }

  /** A string strips to nothing exactly when it is all whitespace. */
  lemma StripEmpty(s: string)
    ensures Strip(s) == "" <==> Blank(s)
  {
    LStripSpaces(RStrip(s));
    RStripSpaces(s);
  }

  /** `Has` is membership; on a literal, membership is the cheaper test. */
  lemma HasIn(s: string, c: char)
    ensures Has(s, c) <==> c in s
  {
    if c in s {
      var i :| 0 <= i < |s| && s[i] == c;
    }
  }

  lemma HasAppend(a: string, b: string, c: char)
    ensures Has(a + b, c) <==> Has(a, c) || Has(b, c)
  {
    if Has(b, c) {
      var i :| 0 <= i < |b| && b[i] == c;
      assert (a + b)[|a| + i] == c;
    }
    if Has(a, c) {
      var i :| 0 <= i < |a| && a[i] == c;
      assert (a + b)[i] == c;
    }
  }

  /** The first position of `c` in `s`. */
  function Find(s: string, c: char): (i: nat)
    requires Has(s, c)
    ensures i < |s| && s[i] == c && forall k :: 0 <= k < i ==> s[k] != c
  {
    if s[0] == c then 0 else Find(s[1..], c) + 1
  }

  lemma FindAt(s: string, c: char, n: nat)
    requires n < |s| && s[n] == c && forall k :: 0 <= k < n ==> s[k] != c
    ensures Find(s, c) == n
  {
  }

  /** `s.split(sep)[0]`: everything before the first `sep`, or all of `s`. */
  function Before(s: string, sep: char): (t: string)
    ensures StartsWith(s, t) && !Has(t, sep)
    ensures Has(s, sep) ==> |t| < |s| && s[|t|] == sep
    ensures !Has(s, sep) ==> t == s
  {
    if Has(s, sep) then s[..Find(s, sep)] else s
  }

  /** `s.split(sep)` for a one-character separator: the pieces between
      separators, always at least one. */
  function Split(s: string, sep: char): (ps: seq<string>)
    ensures |ps| > 0
    ensures forall p :: p in ps ==> !Has(p, sep)
    decreases |s|
  {
    if Has(s, sep) then
      var i := Find(s, sep);
      [s[..i]] + Split(s[i + 1..], sep)
    else [s]
  }

  /** `sep.join(ps)`. */
  function Join(ps: seq<string>, sep: char): string
  {
    if |ps| == 0 then "" else if |ps| == 1 then ps[0] else ps[0] + [sep] + Join(ps[1..], sep)
  }

  /** Joining the pieces of a split gives back the text. */
  lemma {:induction false} JoinSplit(s: string, sep: char)
    ensures Join(Split(s, sep), sep) == s
    decreases |s|
  {
    if Has(s, sep) {
      var i := Find(s, sep);
      JoinSplit(s[i + 1..], sep);
      assert Split(s, sep)[1..] == Split(s[i + 1..], sep);
      assert s == s[..i] + [sep] + s[i + 1..];
    }
  }

  /** Splitting a join of separator-free pieces gives back the pieces. */
  lemma {:induction false} SplitJoin(ps: seq<string>, sep: char)
    requires |ps| > 0 && forall p :: p in ps ==> !Has(p, sep)
    ensures Split(Join(ps, sep), sep) == ps
  {
    if |ps| > 1 {
      assert ps[0] in ps && ps[1] in ps;
      SplitJoin(ps[1..], sep);
      SplitCons(ps[0], sep, Join(ps[1..], sep));
      assert ps == [ps[0]] + ps[1..];
    }
  }

  /** The first piece of a split is the text up to the first separator. */
  lemma SplitCons(a: string, sep: char, rest: string)
    requires !Has(a, sep)
    ensures Split(a + [sep] + rest, sep) == [a] + Split(rest, sep)
  {
    var s := a + [sep] + rest;
    assert s[|a|] == sep;
    assert forall k :: 0 <= k < |a| ==> s[k] == a[k];
    FindAt(s, sep, |a|);
    assert s[..|a|] == a;
    assert s[|a| + 1..] == rest;
  }

  /** `f.readlines()` on text `s`: every line keeps its `'\n'`, and only the
      last may lack one. */
  function ReadLines(s: string): (ls: seq<string>)
    ensures forall l :: l in ls ==> |l| > 0
    decreases |s|
  {
    if |s| == 0 then []
    else if Has(s, '\n') then
      var i := Find(s, '\n');
      [s[..i + 1]] + ReadLines(s[i + 1..])
    else [s]
  }

  /** `f.writelines(ls)`: the lines written back to back. */
  function Concat(ls: seq<string>): string
  {
    if |ls| == 0 then "" else ls[0] + Concat(ls[1..])
  }

  /** Writing back what was read reproduces the text read. */
  lemma {:induction false} ConcatReadLines(s: string)
    ensures Concat(ReadLines(s)) == s
    decreases |s|
  {
    if |s| > 0 && Has(s, '\n') {
      var i := Find(s, '\n');
      ConcatReadLines(s[i + 1..]);
      assert ReadLines(s)[1..] == ReadLines(s[i + 1..]);
      assert s == s[..i + 1] + s[i + 1..];
    }
  }

  // ---------------------------------------------------------------------
  // Lines, paths and options

  /** A relative `pathlib` path, as its components. */
  type RelPath = seq<string>

  /** `str(rel_path)`. */
  function RelText(parts: RelPath): string
  {
    Join(parts, '/')
  }

  /** The line terminator. */
  const LineEnd: string := "\n"

  /** Text without a newline. */
  predicate OneLine(s: string)
  {
    !Has(s, '\n')
  }

  /** `l` ends in a newline and holds no other. */
  predicate EndsLine(l: string)
  {
    |l| > 0 && l == l[..|l| - 1] + LineEnd && OneLine(l[..|l| - 1])
  }

  /** Lines that each end in their only newline read back as themselves. */
  lemma {:induction false} ReadLinesConcat(ls: seq<string>)
    requires forall k :: 0 <= k < |ls| ==> EndsLine(ls[k])
    ensures ReadLines(Concat(ls)) == ls
  {
    if |ls| > 0 {
      ReadLinesConcat(ls[1..]);
      ReadLinesFront(ls[0][..|ls[0]| - 1], Concat(ls[1..]));
      assert ls == [ls[0]] + ls[1..];
    }
  }

  /** Joining newline-free components with `/` gives a newline-free path. */
  lemma {:induction false} JoinOneLine(parts: RelPath)
    requires forall i :: 0 <= i < |parts| ==> OneLine(parts[i])
    ensures OneLine(RelText(parts))
  {
    if |parts| > 1 {
      JoinOneLine(parts[1..]);
      HasAppend(parts[0], "/", '\n');
      HasAppend(parts[0] + "/", RelText(parts[1..]), '\n');
    }
  }

  /** A line without a newline, then a newline, reads as that first line. */
  lemma ReadLinesFront(a: string, rest: string)
    requires OneLine(a)
    ensures ReadLines(a + LineEnd + rest) == [a + LineEnd] + ReadLines(rest)
  {
    var s := a + LineEnd + rest;
    assert s[|a|] == '\n';
    assert forall k :: 0 <= k < |a| ==> s[k] == a[k];
    FindAt(s, '\n', |a|);
    assert s[..|a| + 1] == a + LineEnd;
    assert s[|a| + 1..] == rest;
  }

  /** Newline-free lines written back to back hold no newline. */
  lemma {:induction false} ConcatOneLine(ls: seq<string>)
    requires forall k :: 0 <= k < |ls| ==> OneLine(ls[k])
    ensures OneLine(Concat(ls))
  {
    if |ls| > 0 {
      ConcatOneLine(ls[1..]);
      HasAppend(ls[0], Concat(ls[1..]), '\n');
    }
  }

  /** Text without a newline reads as at most one line. */
  lemma NoNewlineOneLine(s: string)
    requires OneLine(s)
    ensures |ReadLines(s)| <= 1
  {
  }

  /** An option Python reads as true: given and not empty. */
  predicate Given(o: Option<string>)
  {
    o.Some? && |o.value| > 0
  }

  /** The entries of a comma-separated option, none when it is not given. */
  function CommaList(o: Option<string>): seq<string>
  {
    if Given(o) then Split(o.value, ',') else []
  }

  /** The end of the run of white space that starts at `i`. */
  function SpaceEnd(s: string, i: nat): (j: nat)
    requires i <= |s|
    ensures i <= j <= |s| && (j < |s| ==> !IsSpace(s[j]))
    ensures forall k :: i <= k < j ==> IsSpace(s[k])
    decreases |s| - i
  {
    if i < |s| && IsSpace(s[i]) then SpaceEnd(s, i + 1) else i
  }

  /** The values present in `ds`, in order. */
  function Present(ds: seq<Option<string>>): (r: seq<string>)
    ensures |r| <= |ds|
    ensures forall d :: d in r ==> Some(d) in ds
  {
    if |ds| == 0 then []
    else (match ds[0] case Some(d) => [d] case None => []) + Present(ds[1..])
  }

  /** A sequence of present values gives exactly those values. */
  lemma {:induction false} PresentAll(ds: seq<Option<string>>, names: seq<string>)
    requires |ds| == |names|
    requires forall i :: 0 <= i < |ds| ==> ds[i] == Some(names[i])
    ensures Present(ds) == names
  {
    if |ds| > 0 {
      PresentAll(ds[1..], names[1..]);
      assert [names[0]] + names[1..] == names;
    }
  }
}

=== FILE: riscv_pte.dfy ===
/** The RISC-V (Sv39) page-table entry word: getters and setters over a
    64-bit value, and `make_pte`. Bits 0-7 are V, R, W, X, U, G, A, D (section
    4.3.1 of the RISC-V privileged architecture); bits 8-9 are free for
    software; the physical page number sits at bits 10-53. Whether a level can
    hold leaves or large pages comes from level traits that are not part of
    this model, so it is passed in. */
module RiscvPte {

  const PageSizeShift: bv64 := 12

  /** The permission bits callers pass (`perm_read`, `perm_write`,
      `perm_exec`, `perm_rwx`). */
  const PermRead: bv32 := 1
  const PermWrite: bv32 := 2
  const PermExec: bv32 := 4
  const PermRwx: bv32 := 7

  /** The generic `set_bit`, on the bit selected by a one-bit `mask`: set it
      or clear it. */
  function SetMask(x: bv64, mask: bv64, v: bool): (y: bv64)
    requires mask != 0
    ensures y & mask == (if v then mask else 0)
    ensures Frame(x, y, mask)
  {
    if v then SetBits(x, mask); x | mask
    else ClearBits(x, mask); x & !mask
  }

  lemma SetBits(x: bv64, mask: bv64)
    ensures (x | mask) & mask == mask && (x | mask) & !mask == x & !mask
  {
  }

  lemma ClearBits(x: bv64, mask: bv64)
    ensures (x & !mask) & mask == 0 && (x & !mask) & !mask == x & !mask
  {
  }

  /** `x` and `y` agree outside `mask`. */
  predicate Frame(x: bv64, y: bv64, mask: bv64)
  {
    x & !mask == y & !mask
  }

  // ---------------------------------------------------------------------
  // Getters

  function Empty(x: bv64): bool { x == 0 }
  function Valid(x: bv64): bool { x & 0x1 != 0 }
  function Readable(x: bv64): bool { x & 0x2 != 0 }
  function Writable(x: bv64): bool { x & 0x4 != 0 }
  function Executable(x: bv64): bool { x & 0x8 != 0 }
  function User(x: bv64): bool { x & 0x10 != 0 }
  function Accessed(x: bv64): bool { x & 0x40 != 0 }
  function Dirty(x: bv64): bool { x & 0x80 != 0 }

  /** A level reports a large page only when it is large-capable and the
      entry has one of R, W or X set. */
  function Large(x: bv64, largeCapable: bool): bool
  {
    largeCapable && x & 0xE != 0
  }

  /** The two software bits, 8 and 9. */
  function SwBit(x: bv64, off: bv64): bool
    requires off < 2
  {
    (x >> (8 + off)) & 1 == 1
  }

  /** There are no reserved bits in this encoding. */
  function RsvdBit(x: bv64, off: bv64): bool { false }

  /** The physical address: the 44-bit PPN at bit 10, as a page address. */
  function Addr(x: bv64): bv64
  {
    ((x >> 10) & 0xFFF_FFFF_FFFF) << PageSizeShift
  }

  function Pfn(x: bv64): bv64
  {
    Addr(x) >> PageSizeShift
  }

  // ---------------------------------------------------------------------
  // Setters

  /** Each flag setter writes its own bit, which the matching getter then
      reads back, and leaves every other bit alone. */
  function SetValid(x: bv64, v: bool): (y: bv64)
    ensures Valid(y) == v && Frame(x, y, 0x1)
  {
    SetMask(x, 0x1, v)
  }

  function SetWritable(x: bv64, v: bool): (y: bv64)
    ensures Writable(y) == v && Frame(x, y, 0x4)
  {
    SetMask(x, 0x4, v)
  }

  function SetExecutable(x: bv64, v: bool): (y: bv64)
    ensures Executable(y) == v && Frame(x, y, 0x8)
  {
    SetMask(x, 0x8, v)
  }

  function SetUser(x: bv64, v: bool): (y: bv64)
    ensures User(y) == v && Frame(x, y, 0x10)
  {
    SetMask(x, 0x10, v)
  }

  function SetAccessed(x: bv64, v: bool): (y: bv64)
    ensures Accessed(y) == v && Frame(x, y, 0x40)
  {
    SetMask(x, 0x40, v)
  }

  function SetDirty(x: bv64, v: bool): (y: bv64)
    ensures Dirty(y) == v && Frame(x, y, 0x80)
  {
    SetMask(x, 0x80, v)
  }

  /** `set_sw_bit(off)`: bit `8 + off`, which `sw_bit(off)` reads back. */
  function SetSwBit(x: bv64, off: bv64, v: bool): (y: bv64)
    requires off < 2
    ensures SwBit(y, off) == v && Frame(x, y, (1 as bv64) << (8 + off))
  {
    SetMask(x, 1 << (8 + off), v)
  }

  /** `set_large(false)` clears R, W and X; `set_large(true)` does nothing. */
  function SetLarge(x: bv64, v: bool): (y: bv64)
    ensures !v ==> !Large(y, true) && Frame(x, y, 0xE)
    ensures v ==> y == x
  {
    if !v then x & !0xE else x
  }

  /** Setting reserved bits is a no-op. */
  function SetRsvdBit(x: bv64, off: bv64, v: bool): (y: bv64)
    ensures y == x
  {
    x
  }

  /** `set_addr`: keep the low ten bits, store the page number at bit 10,
      and set V whatever `large` says. */
  function SetAddr(x: bv64, a: bv64, large: bool): bv64
  {
    (x & 0x3FF) | ((a >> PageSizeShift) << 10) | 0x1
  }

  function SetPfn(x: bv64, pfn: bv64, large: bool): bv64
  {
    SetAddr(x, pfn << PageSizeShift, large)
  }

  /** The address round trip: a page-aligned address below 2^56 comes back
      from `addr()` after `set_addr`; the low flag bits are kept, except that
      V ends up set. */
  lemma AddrRoundTrip(x: bv64, a: bv64, large: bool)
    requires a & 0xFFF == 0 && a < 0x100_0000_0000_0000
    ensures Addr(SetAddr(x, a, large)) == a
    ensures SetAddr(x, a, large) & 0x3FE == x & 0x3FE
    ensures Valid(SetAddr(x, a, large))
  {
  }

  /** The page-frame number round-trips through `set_pfn` and `pfn()` for
      every 44-bit frame number. */
  lemma PfnRoundTrip(x: bv64, pfn: bv64, large: bool)
    requires pfn < 0x1000_0000_0000
    ensures Pfn(SetPfn(x, pfn, large)) == pfn
  {
    AddrRoundTrip(x, pfn << PageSizeShift, large);
  }

  // ---------------------------------------------------------------------
  // make_pte

  /** `make_pte`, step by step in the order the source applies them. */
  function MakePte(a: bv64, leaf: bool, perm: bv32, leafCapable: bool, largeCapable: bool): bv64
    requires leafCapable || !leaf
  {
    var large := largeCapable && leaf;
    var x0 := SetValid(0, perm != 0);
    var x1 := SetWritable(x0, perm & PermWrite != 0);
    var x2 := SetExecutable(x1, perm & PermExec != 0);
    var x3 := SetDirty(x2, true);
    var x4 := SetLarge(x3, large);
    var x5 := SetAddr(x4, a, large);
    var x6 := if perm & (PermRead | PermWrite | PermExec) != 0 then x5 | 0x2 else x5;
    var x7 := SetUser(x6, false);
    SetAccessed(x7, true)
  }

  /** What `make_pte` produces: V always (because `set_addr` sets it last),
      R exactly when some permission is asked for, W and X as asked only for
      a large leaf (`set_large(false)` runs after them and clears them),
      dirty and accessed set, user clear, and the requested address. */
  lemma MakePteBits(a: bv64, leaf: bool, perm: bv32, leafCapable: bool, largeCapable: bool)
    requires leafCapable || !leaf
    requires a & 0xFFF == 0 && a < 0x100_0000_0000_0000
    ensures var x := MakePte(a, leaf, perm, leafCapable, largeCapable);
      var large := largeCapable && leaf;
      Valid(x)
      && (Readable(x) <==> perm & PermRwx != 0)
      && (Writable(x) <==> large && perm & PermWrite != 0)
      && (Executable(x) <==> large && perm & PermExec != 0)
      && Dirty(x) && Accessed(x) && !User(x)
      && Addr(x) == a
  {
  }

  /** A `perm` of 0 still yields a valid entry, though one that grants
      nothing. */
  lemma MakePteNoPermIsValid(a: bv64, leaf: bool, leafCapable: bool, largeCapable: bool)
    requires leafCapable || !leaf
    requires a & 0xFFF == 0 && a < 0x100_0000_0000_0000
    ensures var x := MakePte(a, leaf, 0, leafCapable, largeCapable);
      Valid(x) && !Readable(x) && !Writable(x) && !Executable(x)
  {
    MakePteBits(a, leaf, 0, leafCapable, largeCapable);
  }

  /** A leaf at a level that cannot hold large pages comes out read-only
      and not executable, whatever `perm` asks for. */
  lemma MakePteSmallLeafReadOnly(a: bv64, perm: bv32)
    requires a & 0xFFF == 0 && a < 0x100_0000_0000_0000
    ensures var x := MakePte(a, true, perm, true, false);
      !Writable(x) && !Executable(x) && (Readable(x) <==> perm & PermRwx != 0)
  {
    MakePteBits(a, true, perm, true, false);
  }

  /** The evidently intended `make_pte`: V exactly when some permission is
      given, leaf entries carry the requested R/W/X, and entries pointing to
      a next-level table carry none of them. */
  function MakePteIntended(a: bv64, leaf: bool, perm: bv32, leafCapable: bool): bv64
    requires leafCapable || !leaf
  {
    var v: bv64 := if perm != 0 then 0x1 else 0;
    var r: bv64 := if leaf && perm & PermRwx != 0 then 0x2 else 0;
    var w: bv64 := if leaf && perm & PermWrite != 0 then 0x4 else 0;
    var e: bv64 := if leaf && perm & PermExec != 0 then 0x8 else 0;
    WithFlags(a, 0xC0 | v | r | w | e)
  }

  /** An entry with the page number of `a` and the given low ten bits. */
  function WithFlags(a: bv64, flags: bv64): (x: bv64)
    ensures x & 0x3FF == flags & 0x3FF
    ensures a & 0xFFF == 0 && a < 0x100_0000_0000_0000 ==> Addr(x) == a
  {
    ((a >> PageSizeShift) << 10) | (flags & 0x3FF)
  }

  lemma MakePteIntendedBits(a: bv64, leaf: bool, perm: bv32, leafCapable: bool)
    requires leafCapable || !leaf
    requires a & 0xFFF == 0 && a < 0x100_0000_0000_0000
    ensures var x := MakePteIntended(a, leaf, perm, leafCapable);
      (Valid(x) <==> perm != 0)
      && (Readable(x) <==> leaf && perm & PermRwx != 0)
      && (Writable(x) <==> leaf && perm & PermWrite != 0)
      && (Executable(x) <==> leaf && perm & PermExec != 0)
      && Dirty(x) && Accessed(x) && !User(x)
      && Addr(x) == a
  {
    var x := MakePteIntended(a, leaf, perm, leafCapable);
    var f := x & 0x3FF;
    assert x & 0x1 == f & 0x1 && x & 0x2 == f & 0x2 && x & 0x4 == f & 0x4 && x & 0x8 == f & 0x8;
    assert x & 0x10 == f & 0x10 && x & 0x40 == f & 0x40 && x & 0x80 == f & 0x80;
  }

  /** Entries that differ only in flag bits have the same address. */
  lemma SameAddr(x: bv64, y: bv64, mask: bv64)
    requires Frame(x, y, mask) && mask & !0x3FF == 0
    ensures Addr(x) == Addr(y)
  {
  }
}

=== FILE: rofs.dfy ===
/** The read-only file system's block reader and vnode setup
    (`fs/rofs/rofs_common.cc`). A read of `count` blocks of 512 bytes from
    block `start` is sent to the device as one request when it fits the
    device's `max_io_size`, and otherwise as a run of contiguous requests of
    at most that size. The block layer is a parameter: for the k-th request
    the read prepares it says whether a bio could be allocated and, if so,
    which error the read completed with. */
module Rofs {
  import opened Wrappers

  const BlockSize: nat := 512
  const TwoTo64: nat := 0x1_0000_0000_0000_0000
  /** `ENOMEM`. */
  const NoMemory: int := 12

  /** Reduction to 64 bits, as `uint64_t` arithmetic wraps. */
  function Wrap(x: nat): nat
  {
    x % 0x1_0000_0000_0000_0000
  }

  function Min(a: nat, b: nat): nat
  {
    if a < b then a else b
  }

  /** One bio handed to the driver's strategy routine: the byte offset on
      the device (`block << 9`), the byte count, and where in the caller's
      buffer the data goes (as an offset from its start). */
  datatype Bio = Bio(offset: nat, bytes: nat, buffer: nat)

  /** What the block layer does with one request: `alloc_bio` fails, or the
      read completes with the error `bio_wait` returns (0 for success). */
  datatype Attempt = NoBio | Completed(error: int)

  /** What a call returns, and the bios it issued in order. */
  datatype Reading = Reading(error: int, issued: seq<Bio>)

  // ---------------------------------------------------------------------
  // The plan of a read

  /** Whether the whole read fits one request: the 64-bit byte count is at
      most `max_io_size`. */
  predicate Fits(maxIo: nat, count: nat)
  {
    Wrap(count * 512) <= maxIo
  }

  /** The requests of the splitting loop from `block`, with `remaining`
      blocks left, `per` blocks at most per request, and the buffer at
      `buffer`. The block counter is kept unbounded and reduced when it is
      shifted into a byte offset, which gives the same offsets as the
      source's wrapping counter. */
  function Chunks(block: nat, remaining: nat, per: nat, buffer: nat): seq<Bio>
    requires per > 0
    decreases remaining
  {
    if remaining == 0 then []
    else
      var n := Min(remaining, per);
      [Bio(Wrap(block * 512), n * 512, buffer)] + Chunks(block + n, remaining - n, per, buffer + n * 512)
  }

  /** One pass of the splitting loop as written: it asks for
      `min(remaining, max_io_size / 512)` blocks and, when the request
      succeeds, advances block, remaining count and buffer by that much.
      The result is the request and the three counters after it. */
  function LoopStepAsWritten(maxIo: nat, block: nat, remaining: nat, buffer: nat): (step: (Bio, nat, nat, nat))
    ensures step.2 <= remaining
    ensures remaining > 0 ==> (step.2 < remaining <==> maxIo >= 512)
  {
    var n := Min(remaining, maxIo / 512);
    (Bio(Wrap(block * 512), n * 512, buffer), block + n, remaining - n, buffer + n * 512)
  }

  /** With a `max_io_size` below one block, a read that does not fit one
      request issues a zero-byte request and comes back to the same state:
      the loop never ends. */
  lemma SmallDeviceStalls(maxIo: nat, block: nat, remaining: nat, buffer: nat)
    requires maxIo < 512 && remaining > 0
    ensures LoopStepAsWritten(maxIo, block, remaining, buffer) == (Bio(Wrap(block * 512), 0, buffer), block, remaining, buffer)
  {
  }

  /** Blocks per request in the splitting loop: `max_io_size / 512`, but at
      least one, so that every pass makes progress. */
  function PerRequest(maxIo: nat): (per: nat)
    ensures per > 0
    ensures maxIo >= 512 ==> per * 512 <= maxIo < (per + 1) * 512
    ensures maxIo < 512 ==> per == 1
  {
    if maxIo < 512 then 1 else maxIo / 512
  }

  /** The requests a read issues when every one of them succeeds. */
  function Plan(maxIo: nat, start: nat, count: nat): seq<Bio>
  {
    if Fits(maxIo, count) then [Bio(Wrap(start * 512), Wrap(count * 512), 0)]
    else Chunks(start, count, PerRequest(maxIo), 0)
  }

  /** The first of the first `n` attempts that does not succeed, or `n`. */
  function FirstFailure(device: nat -> Attempt, n: nat): (k: nat)
    ensures k <= n
    ensures forall i :: 0 <= i < k ==> device(i) == Completed(0)
    ensures k < n ==> device(k) != Completed(0)
  {
    if n == 0 then 0
    else
      var k := FirstFailure(device, n - 1);
      if k < n - 1 then k else if device(n - 1) == Completed(0) then n else n - 1
  }

  /** What a read of a given plan yields: requests are issued in order
      until one cannot be allocated (`ENOMEM`, not issued) or completes with
      an error (issued, and its error returned). */
  function Expected(plan: seq<Bio>, device: nat -> Attempt): Reading
  {
    var f := FirstFailure(device, |plan|);
    if f == |plan| then Reading(0, plan)
    else
      match device(f)
      case NoBio => Reading(NoMemory, plan[..f])
      case Completed(e) => Reading(e, plan[..f + 1])
  }

  lemma FirstFailureIs(device: nat -> Attempt, n: nat, k: nat)
    requires k <= n
    requires forall i :: 0 <= i < k ==> device(i) == Completed(0)
    requires k < n ==> device(k) != Completed(0)
    ensures FirstFailure(device, n) == k
  {
  }

  // ---------------------------------------------------------------------
  // rofs_read_blocks

  /** `rofs_read_blocks`: the requests it issues and the error it returns
      are those of the plan under the block layer's answers. */
  method ReadBlocks(maxIo: nat, start: nat, count: nat, device: nat -> Attempt) returns (r: Reading)
    ensures r == Expected(Plan(maxIo, start, count), device)
  {
    if Fits(maxIo, count) {
      var bio := Bio(Wrap(start * 512), Wrap(count * 512), 0);
      ExpectedAt([bio], device, 0);
      match device(0)
      case NoBio =>
        return Reading(NoMemory, []);
      case Completed(e) =>
        if e == 0 {
          ExpectedAll([bio], device);
        }
        return Reading(e, [bio]);
    }
    r := SplitRead(start, count, PerRequest(maxIo), device);
  }

  /** The splitting loop of `rofs_read_blocks`, `per` blocks at most per
      request: it issues the chunks in order and stops at the first that
      cannot be allocated or fails. */
  method SplitRead(start: nat, count: nat, per: nat, device: nat -> Attempt) returns (r: Reading)
    requires per > 0
    ensures r == Expected(Chunks(start, count, per, 0), device)
  {
    ghost var plan := Chunks(start, count, per, 0);
    var block: nat, remaining: nat, buffer: nat := start, count, 0;
    var issued: seq<Bio> := [];
    while remaining > 0
      invariant plan == issued + Chunks(block, remaining, per, buffer)
      invariant forall i :: 0 <= i < |issued| ==> device(i) == Completed(0)
      decreases remaining
    {
      var n := Min(remaining, per);
      var bytes: nat := n * 512;
      var bio := Bio(Wrap(block * 512), bytes, buffer);
      ghost var tail := Chunks(block + n, remaining - n, per, buffer + bytes);
      assert plan == issued + ([bio] + tail) by {
        ChunksStep(block, remaining, per, buffer);
      }
      var attempt := device(|issued|);
      if attempt.NoBio? || attempt.error != 0 {
        StopAt(plan, issued, bio, tail, device);
        if attempt.NoBio? {
          return Reading(NoMemory, issued);
        }
        return Reading(attempt.error, issued + [bio]);
      }
      Advance(plan, issued, bio, tail, device);
      issued := issued + [bio];
      block, remaining, buffer := block + n, remaining - n, buffer + bytes;
    }
    ExpectedAll(plan, device);
    return Reading(0, issued);
  }

  /** When request `|issued|` of the plan is the first to fail, the read
      is the requests before it, and the failing one too when it was sent. */
  lemma StopAt(plan: seq<Bio>, issued: seq<Bio>, bio: Bio, tail: seq<Bio>, device: nat -> Attempt)
    requires plan == issued + ([bio] + tail)
    requires forall i :: 0 <= i < |issued| ==> device(i) == Completed(0)
    requires device(|issued|) != Completed(0)
    ensures device(|issued|).NoBio? ==> Expected(plan, device) == Reading(NoMemory, issued)
    ensures device(|issued|).Completed? ==> Expected(plan, device) == Reading(device(|issued|).error, issued + [bio])
  {
    PlanSplit(plan, issued, bio, tail);
    ExpectedAt(plan, device, |issued|);
  }

  /** A successful request moves the split point of the plan one request
      on. */
  lemma Advance(plan: seq<Bio>, issued: seq<Bio>, bio: Bio, tail: seq<Bio>, device: nat -> Attempt)
    requires plan == issued + ([bio] + tail)
    requires forall i :: 0 <= i < |issued| ==> device(i) == Completed(0)
    requires device(|issued|) == Completed(0)
    ensures plan == (issued + [bio]) + tail
    ensures forall i :: 0 <= i < |issued + [bio]| ==> device(i) == Completed(0)
  {
    PlanSplit(plan, issued, bio, tail);
  }

  /** One step of the splitting loop. */
  lemma ChunksStep(block: nat, remaining: nat, per: nat, buffer: nat)
    requires per > 0 && remaining > 0
    ensures var n := Min(remaining, per);
      Chunks(block, remaining, per, buffer)
      == [Bio(Wrap(block * 512), n * 512, buffer)] + Chunks(block + n, remaining - n, per, buffer + n * 512)
  {
  }

  lemma PlanSplit(plan: seq<Bio>, issued: seq<Bio>, bio: Bio, tail: seq<Bio>)
    requires plan == issued + ([bio] + tail)
    ensures |issued| < |plan| && plan[|issued|] == bio && plan[..|issued|] == issued
    ensures plan[..|issued| + 1] == issued + [bio] && plan == (issued + [bio]) + tail
  {
  }

  /** When attempt `k` is the first to fail, the read stops there. */
  lemma ExpectedAt(plan: seq<Bio>, device: nat -> Attempt, k: nat)
    requires k < |plan|
    requires forall i :: 0 <= i < k ==> device(i) == Completed(0)
    ensures device(k) == NoBio ==> Expected(plan, device) == Reading(NoMemory, plan[..k])
    ensures device(k).Completed? && device(k).error != 0 ==> Expected(plan, device) == Reading(device(k).error, plan[..k + 1])
  {
    if device(k) != Completed(0) {
      FirstFailureIs(device, |plan|, k);
    }
  }

  /** When every attempt succeeds, the whole plan is issued. */
  lemma ExpectedAll(plan: seq<Bio>, device: nat -> Attempt)
    requires forall i :: 0 <= i < |plan| ==> device(i) == Completed(0)
    ensures Expected(plan, device) == Reading(0, plan)
  {
    FirstFailureIs(device, |plan|, |plan|);
  }

  // ---------------------------------------------------------------------
  // What the plan promises

  /** The bytes the requests cover. */
  function Total(bios: seq<Bio>): nat
  {
    if |bios| == 0 then 0 else bios[0].bytes + Total(bios[1..])
  }

  lemma TotalFirst(bios: seq<Bio>)
    requires |bios| > 0
    ensures Total(bios) == bios[0].bytes + Total(bios[1..])
  {
  }

  /** The split requests cover `remaining` blocks in all. */
  lemma {:induction false} ChunksTotal(block: nat, remaining: nat, per: nat, buffer: nat)
    requires per > 0
    ensures Total(Chunks(block, remaining, per, buffer)) == remaining * 512
    decreases remaining
  {
    if remaining > 0 {
      var n := Min(remaining, per);
      var c := Chunks(block, remaining, per, buffer);
      ChunksTotal(block + n, remaining - n, per, buffer + n * 512);
      assert c[1..] == Chunks(block + n, remaining - n, per, buffer + n * 512);
    }
  }

  /** Each split request is a non-empty whole number of blocks, at most
      `per`. */
  lemma {:induction false} ChunksSized(block: nat, remaining: nat, per: nat, buffer: nat)
    requires per > 0
    ensures forall b :: b in Chunks(block, remaining, per, buffer) ==> 0 < b.bytes <= per * 512 && b.bytes % 512 == 0
    decreases remaining
  {
    if remaining > 0 {
      var n := Min(remaining, per);
      ChunksStep(block, remaining, per, buffer);
      ChunksSized(block + n, remaining - n, per, buffer + n * 512);
      WholeBlocks(n);
    }
  }

  lemma WholeBlocks(n: nat)
    ensures (n * 512) % 512 == 0
  {
  }

  /** The split requests are contiguous: the first starts at the first
      block and the start of the buffer, and each next one where the
      previous ended, on the device and in the buffer. */
  lemma {:induction false} ChunksContiguous(block: nat, remaining: nat, per: nat, buffer: nat)
    requires per > 0
    ensures var c := Chunks(block, remaining, per, buffer);
      && (|c| > 0 ==> c[0].offset == Wrap(block * 512) && c[0].buffer == buffer)
      && (forall i :: 0 <= i < |c| - 1 ==> Adjacent(c[i], c[i + 1]))
    decreases remaining
  {
    if remaining > 0 {
      var n := Min(remaining, per);
      var head := Bio(Wrap(block * 512), n * 512, buffer);
      var rest := Chunks(block + n, remaining - n, per, buffer + n * 512);
      ChunksStep(block, remaining, per, buffer);
      ChunksContiguous(block + n, remaining - n, per, buffer + n * 512);
      if |rest| > 0 {
        WrapShift(block, n);
      }
      AdjacentCons(Chunks(block, remaining, per, buffer), head, rest);
    }
  }

  /** `next` starts where `b` ends, on the device and in the buffer. */
  predicate Adjacent(b: Bio, next: Bio)
  {
    next.buffer == b.buffer + b.bytes && next.offset == Wrap(b.offset + b.bytes)
  }

  lemma AdjacentCons(c: seq<Bio>, head: Bio, rest: seq<Bio>)
    requires c == [head] + rest
    requires |rest| > 0 ==> Adjacent(head, rest[0])
    requires forall i :: 0 <= i < |rest| - 1 ==> Adjacent(rest[i], rest[i + 1])
    ensures forall i :: 0 <= i < |c| - 1 ==> Adjacent(c[i], c[i + 1])
  {
    forall i | 0 <= i < |c| - 1
      ensures Adjacent(c[i], c[i + 1])
    {
      if i > 0 {
        assert c[i] == rest[i - 1] && c[i + 1] == rest[i];
      }
    }
  }

  /** Shifting the advanced block counter equals advancing the shifted
      one, modulo 2^64. */
  lemma WrapShift(block: nat, n: nat)
    ensures Wrap((block + n) * 512) == Wrap(Wrap(block * 512) + n * 512)
  {
    var x := block * 512;
    assert (block + n) * 512 == x + n * 512;
    var q := x / 0x1_0000_0000_0000_0000;
    assert x == q * 0x1_0000_0000_0000_0000 + Wrap(x);
    AddMultiple(Wrap(x) + n * 512, q);
  }

  lemma AddMultiple(y: nat, q: nat)
    ensures (y + q * 0x1_0000_0000_0000_0000) % 0x1_0000_0000_0000_0000 == y % 0x1_0000_0000_0000_0000
  {
    if q > 0 {
      AddMultiple(y, q - 1);
      assert y + q * 0x1_0000_0000_0000_0000 == (y + (q - 1) * 0x1_0000_0000_0000_0000) + 0x1_0000_0000_0000_0000;
    }
  }

  /** No request the read issues exceeds `max_io_size`, which is what the
      mock strategy routine of the test asserts. */
  lemma PlanWithinLimit(maxIo: nat, start: nat, count: nat)
    requires Fits(maxIo, count) || maxIo >= 512
    ensures forall b :: b in Plan(maxIo, start, count) ==> b.bytes <= maxIo
  {
    if !Fits(maxIo, count) {
      ChunksSized(start, count, PerRequest(maxIo), 0);
    }
  }

  /** A read that does not fit one request reads its blocks exactly once
      and in order, from the start of the buffer. */
  lemma SplitReadCovers(maxIo: nat, start: nat, count: nat)
    requires !Fits(maxIo, count)
    ensures var p := Plan(maxIo, start, count);
      && Total(p) == count * 512
      && p[0].offset == Wrap(start * 512) && p[0].buffer == 0
      && forall i :: 0 <= i < |p| - 1 ==> Adjacent(p[i], p[i + 1])
  {
    ChunksTotal(start, count, PerRequest(maxIo), 0);
    ChunksContiguous(start, count, PerRequest(maxIo), 0);
  }

  /** A block layer on which every request succeeds. */
  function Healthy(k: nat): Attempt
  {
    Completed(0)
  }

  /** On a healthy block layer a read issues its whole plan and returns 0. */
  lemma HealthyReadSucceeds(maxIo: nat, start: nat, count: nat)
    ensures Expected(Plan(maxIo, start, count), Healthy) == Reading(0, Plan(maxIo, start, count))
  {
    var p := Plan(maxIo, start, count);
    FirstFailureIs(Healthy, |p|, |p|);
  }

  /** The first read of the test program, on a device whose
      `max_io_size` is 2048 bytes (four blocks): two blocks from block 0
      go out as one 1024-byte request. */
  lemma TestSmallRead()
    ensures Plan(2048, 0, 2) == [Bio(0, 1024, 0)]
  {
  }

  /** The second read: ten blocks from block 100 go out as four, four and
      two blocks. */
  lemma TestTenBlocks()
    ensures Plan(2048, 100, 10) == [Bio(51200, 2048, 0), Bio(53248, 2048, 2048), Bio(55296, 1024, 4096)]
  {
    assert Chunks(110, 0, 4, 5120) == [];
    assert Chunks(108, 2, 4, 4096) == [Bio(55296, 1024, 4096)];
    assert Chunks(104, 6, 4, 2048) == [Bio(53248, 2048, 2048), Bio(55296, 1024, 4096)];
  }

  /** The third read: twenty blocks go out as five requests of four
      blocks. */
  lemma TestTwentyBlocks()
    ensures var p := Plan(2048, 200, 20); |p| == 5 && forall i :: 0 <= i < 5 ==> p[i].bytes == 2048
  {
    var per := 4;
    ChunksSized(200, 20, per, 0);
    assert Chunks(220, 0, 4, 10240) == [];
    assert |Chunks(216, 4, 4, 8192)| == 1;
    assert |Chunks(212, 8, 4, 6144)| == 2;
    assert |Chunks(208, 12, 4, 4096)| == 3;
    assert |Chunks(204, 16, 4, 2048)| == 4;
    var p := Plan(2048, 200, 20);
    ChunksTotal(200, 20, per, 0);
    TotalOfFull(p, 2048);
  }

  /** Five requests of at most 2048 bytes that add up to 10240 bytes are
      all full. */
  lemma TotalOfFull(p: seq<Bio>, limit: nat)
    requires |p| == 5 && Total(p) == 5 * limit
    requires forall b :: b in p ==> b.bytes <= limit
    ensures forall i :: 0 <= i < 5 ==> p[i].bytes == limit
  {
    TotalFirst(p);
    TotalFirst(p[1..]);
    TotalFirst(p[2..]);
    TotalFirst(p[3..]);
    TotalFirst(p[4..]);
    assert p[1..][1..] == p[2..] && p[2..][1..] == p[3..] && p[3..][1..] == p[4..] && p[4..][1..] == [];
    assert Total(p) == p[0].bytes + p[1].bytes + p[2].bytes + p[3].bytes + p[4].bytes;
    assert p[0] in p && p[1] in p && p[2] in p && p[3] in p && p[4] in p;
  }

  // ---------------------------------------------------------------------
  // rofs_set_vnode

  /** The on-disk inode fields the vnode takes. */
  datatype Inode = Inode(inodeNo: nat, mode: nat, fileSize: nat)

  datatype VType = VNon | VDir | VReg | VLnk

  /** The vnode fields `rofs_set_vnode` writes. */
  datatype Vnode = Vnode(data: Option<Inode>, ino: nat, vtype: VType, mode: nat, size: nat)

  /** The file-type bits of a mode (`S_IFMT`), as the code in octal digits
      12-15: 4 directory, 8 regular file, 10 symbolic link. */
  function FileType(mode: nat): nat
  {
    (mode / 0x1000) % 16
  }

  const ReadExecuteAll: nat := 0x16D  // 0555

  /** `rofs_set_vnode`: with either pointer null nothing changes; otherwise
      the vnode points to the inode and takes its number, type and size
      (`inodeSize` for a directory, the file size for a regular file, 512
      for a link, 0 and the old type for anything else), with mode 0555. */
  function SetVnode(vnode: Option<Vnode>, inode: Option<Inode>, inodeSize: nat): (r: Option<Vnode>)
    ensures vnode.None? || inode.None? ==> r == vnode
    ensures vnode.Some? && inode.Some? ==>
      && r.Some? && r.value.data == inode && r.value.ino == inode.value.inodeNo
      && r.value.mode == ReadExecuteAll
      && (FileType(inode.value.mode) == 4 ==> r.value.vtype == VDir && r.value.size == inodeSize)
      && (FileType(inode.value.mode) == 8 ==> r.value.vtype == VReg && r.value.size == inode.value.fileSize)
      && (FileType(inode.value.mode) == 10 ==> r.value.vtype == VLnk && r.value.size == 512)
      && (FileType(inode.value.mode) !in {4, 8, 10} ==> r.value.vtype == vnode.value.vtype && r.value.size == 0)
  {
    if vnode.None? || inode.None? then vnode
    else
      var v, i := vnode.value, inode.value;
      var (vtype, size) :=
        if FileType(i.mode) == 4 then (VDir, inodeSize)
        else if FileType(i.mode) == 8 then (VReg, i.fileSize)
        else if FileType(i.mode) == 10 then (VLnk, 512)
        else (v.vtype, 0);
      Some(v.(data := inode, ino := i.inodeNo, vtype := vtype, mode := ReadExecuteAll, size := size))
  }

  /** Setting a vnode from the same inode again changes nothing more: the
      second call keeps the vnode the first one made. */
  lemma SetVnodeAgain(vnode: Option<Vnode>, inode: Option<Inode>, inodeSize: nat)
    ensures SetVnode(SetVnode(vnode, inode, inodeSize), inode, inodeSize) == SetVnode(vnode, inode, inodeSize)
  {
  }
}

=== FILE: slab_pool.dfy ===
/** The small-object pools of the memory subsystem. A pool serves objects of
    one size out of pages; each page starts with a header (owning CPU, count
    of objects handed out `nalloc`, and the page's own free list of object
    slots) and pages with at least one free slot sit on the pool's `_free`
    list. Objects and pages are identified abstractly: a page by a number, an
    object by its page and its byte offset in the page. */
module SlabPool {
  import opened Wrappers
  import opened Logarithms

  const PageSize: nat := 4096
  /** `pool::max_object_size`. */
  const MaxObjectSize: nat := PageSize / 4

  datatype Obj = Obj(page: nat, offset: nat)

  datatype Header = Header(cpu: nat, nalloc: nat, localFree: seq<nat>)

  /** A pool of objects of `size` bytes; `hdr` is the size of the page header
      (its layout is not part of this model, so it is a parameter). */
  datatype Pool = Pool(size: nat, hdr: nat, headers: map<nat, Header>, free: seq<nat>)

  predicate Distinct(s: seq<nat>)
  {
    forall i, j :: 0 <= i < j < |s| ==> s[i] != s[j]
  }

  /** `malloc_pool::compute_object_size(pos)`: 2^pos, capped at a quarter
      page. */
  function ObjectSize(pos: nat): (size: nat)
    ensures 1 <= size <= MaxObjectSize
    ensures size <= Pow2(pos)
  {
    if Pow2(pos) > MaxObjectSize then MaxObjectSize else Pow2(pos)
  }

  /** The pool array holds one pool per `pos` up to `ilog2_roundup(page_size)`:
      positions up to 10 get the exact power of two, the last two are capped
      at 1024 bytes, and every size a pool may serve is a power of two. */
  lemma ObjectSizes(pos: nat)
    requires pos < Log2Roundup(PageSize) + 1
    ensures Log2Roundup(PageSize) + 1 == 13
    ensures pos <= 10 ==> ObjectSize(pos) == Pow2(pos)
    ensures pos > 10 ==> ObjectSize(pos) == MaxObjectSize
    ensures Pow2(Log2(ObjectSize(pos))) == ObjectSize(pos)
  {
    assert Pow2(10) == 1024 && Pow2(11) == 2048 && Pow2(12) == 4096;
    Log2Unique(4095, 11);
    Log2Unique(1024, 10);
    if pos <= 10 {
      Pow2Monotone(pos, 10);
      Log2Unique(Pow2(pos), pos);
    } else {
      Pow2Monotone(11, pos);
    }
  }

  // ---------------------------------------------------------------------
  // add_page: threading the slots of a fresh page

  /** The free list `add_page` builds: starting from the slot `p` and walking
      down by `size` while the slot does not overlap the header, each slot is
      pushed on the front, so the list ends up in ascending order. */
  function Thread(p: int, size: nat, hdr: nat): (lf: seq<nat>)
    requires size >= 1
    ensures p < hdr ==> lf == []
    ensures p >= hdr ==> |lf| >= 1 && lf[|lf| - 1] == p && hdr <= lf[0] < hdr + size
    ensures forall i :: 0 <= i < |lf| - 1 ==> lf[i + 1] == lf[i] + size
    decreases p - hdr + size
  {
    if p < hdr then [] else Thread(p - size, size, hdr) + [p]
  }

  /** The slots of a page of a pool: the last one ends exactly at the page
      end. */
  function Slots(size: nat, hdr: nat): seq<nat>
    requires size >= 1
  {
    Thread(PageSize - size, size, hdr)
  }

  /** The constructor's condition: an object and the header fit in a page. */
  predicate Fits(size: nat, hdr: nat)
  {
    1 <= size && size + hdr <= PageSize
  }

  /** Every slot lies between the header and the page end, slots are `size`
      apart, and there are `(page_size - size - hdr) / size + 1` of them. */
  lemma SlotsShape(size: nat, hdr: nat)
    requires Fits(size, hdr)
    ensures |Slots(size, hdr)| == (PageSize - size - hdr) / size + 1
    ensures forall i :: 0 <= i < |Slots(size, hdr)| ==>
      hdr <= Slots(size, hdr)[i] && Slots(size, hdr)[i] + size <= PageSize
    ensures Distinct(Slots(size, hdr))
  {
    StrideFacts(Slots(size, hdr), size, hdr, PageSize - size);
  }

  /** A strided run from just above `lo` up to `hi` is duplicate-free, stays
      within `[lo, hi]`, and has `(hi - lo) / size + 1` elements. */
  lemma StrideFacts(s: seq<nat>, size: nat, lo: nat, hi: nat)
    requires size >= 1 && |s| >= 1 && lo <= s[0] < lo + size && s[|s| - 1] == hi
    requires forall i :: 0 <= i < |s| - 1 ==> s[i + 1] == s[i] + size
    ensures |s| == (hi - lo) / size + 1
    ensures forall i :: 0 <= i < |s| ==> lo <= s[i] <= hi
    ensures Distinct(s)
  {
    StrideLinear(s, size);
    var q := |s| - 1;
    assert hi - lo == q * size + (s[0] - lo);
    DivUnique(hi - lo, size, q, s[0] - lo);
    forall i | 0 <= i < |s|
      ensures lo <= s[i] <= hi
    {
      MulMonotone(i, q, size);
    }
    forall i, j | 0 <= i < j < |s|
      ensures s[i] != s[j]
    {
      MulMonotone(i + 1, j, size);
      assert (i + 1) * size == i * size + size;
    }
  }

  /** Slot i lies i strides above the first. */
  lemma {:induction false} StrideLinear(s: seq<nat>, size: nat)
    requires |s| >= 1
    requires forall i :: 0 <= i < |s| - 1 ==> s[i + 1] == s[i] + size
    ensures forall i :: 0 <= i < |s| ==> s[i] == s[0] + i * size
  {
    if |s| > 1 {
      var t := s[..|s| - 1];
      StrideLinear(t, size);
      var k := |s| - 1;
      assert s[k] == s[k - 1] + size;
      assert s[k - 1] == t[k - 1] == s[0] + (k - 1) * size;
      assert (k - 1) * size + size == k * size;
    }
  }

  lemma MulMonotone(a: nat, b: nat, c: nat)
    requires a <= b
    ensures a * c <= b * c
  {
    assert b * c == a * c + (b - a) * c;
  }

  /** A strictly smaller factor leaves room for one more `c`. */
  lemma MulStep(a: nat, b: nat, c: nat)
    requires a < b
    ensures a * c + c <= b * c
  {
    assert b * c == a * c + c + (b - a - 1) * c;
  }

  lemma DivUnique(x: nat, d: nat, q: nat, r: nat)
    requires d >= 1 && x == q * d + r && r < d
    ensures x / d == q
  {
    var q' := x / d;
    assert x == q' * d + x % d;
    if q' > q {
      MulStep(q, q', d);
    } else if q' < q {
      MulStep(q', q, d);
    }
  }

  // ---------------------------------------------------------------------
  // The pool invariant

  predicate PageOk(size: nat, hdr: nat, h: Header)
    requires size >= 1
  {
    Distinct(h.localFree)
    && (forall i :: 0 <= i < |h.localFree| ==> h.localFree[i] in Slots(size, hdr))
    && h.nalloc + |h.localFree| == |Slots(size, hdr)|
  }

  /** Every header accounts for all slots of its page (handed out or on the
      page's free list, each free slot once), and a page is on `_free`,
      once, exactly when it has a free slot. */
  predicate Inv(p: Pool)
  {
    Fits(p.size, p.hdr)
    && Distinct(p.free)
    && (forall i :: 0 <= i < |p.free| ==> p.free[i] in p.headers)
    && (forall pg :: pg in p.headers ==>
          PageOk(p.size, p.hdr, p.headers[pg]) && (pg in p.free <==> |p.headers[pg].localFree| > 0))
  }

  /** An object currently handed out: a slot of a page of this pool that is
      not on that page's free list. */
  predicate Live(p: Pool, o: Obj)
    requires p.size >= 1
  {
    o.page in p.headers && o.offset in Slots(p.size, p.hdr)
    && o.offset !in p.headers[o.page].localFree
  }

  /** `pool::add_page`: a fresh page (supplied by the caller, since the page
      allocator is outside this module) gets a header owned by `cpu` with no
      object handed out and every slot free, and goes to the back of `_free`. */
  method AddPage(p: Pool, page: nat, cpu: nat) returns (q: Pool)
    requires Inv(p) && page !in p.headers
    ensures Inv(q)
    ensures q.size == p.size && q.hdr == p.hdr
    ensures q.free == p.free + [page]
    ensures page in q.headers && q.headers[page] == Header(cpu, 0, Slots(p.size, p.hdr))
    ensures forall pg :: pg in q.headers <==> pg in p.headers || pg == page
    ensures forall pg :: pg in p.headers ==> q.headers[pg] == p.headers[pg]
  {
    SlotsShape(p.size, p.hdr);
    var h := Header(cpu, 0, Slots(p.size, p.hdr));
    q := p.(headers := p.headers[page := h], free := p.free + [page]);
    assert PageOk(p.size, p.hdr, h);
    forall pg | pg in q.headers
      ensures PageOk(q.size, q.hdr, q.headers[pg]) && (pg in q.free <==> |q.headers[pg].localFree| > 0)
    {
      if pg != page {
        assert pg in p.headers;
        assert pg in q.free <==> pg in p.free;
      }
    }
  }

  // ---------------------------------------------------------------------
  // pool::alloc

  /** Takes an object from the front page of `_free`: the page's first free
      slot, with `nalloc` one higher; the page leaves `_free` when that was
      its last free slot. */
  method TakeFront(p: Pool) returns (q: Pool, o: Obj)
    requires Inv(p) && |p.free| > 0
    ensures Inv(q) && q.size == p.size && q.hdr == p.hdr
    ensures o.page == p.free[0] && o.offset == p.headers[o.page].localFree[0]
    ensures Live(q, o)
    ensures q.headers == p.headers[o.page := Header(p.headers[o.page].cpu,
                                                    p.headers[o.page].nalloc + 1,
                                                    p.headers[o.page].localFree[1..])]
    ensures q.free == if |p.headers[o.page].localFree| == 1 then p.free[1..] else p.free
  {
    var pg := p.free[0];
    var h := p.headers[pg];
    o := Obj(pg, h.localFree[0]);
    var h' := Header(h.cpu, h.nalloc + 1, h.localFree[1..]);
    var free' := if |h.localFree| == 1 then p.free[1..] else p.free;
    q := p.(headers := p.headers[pg := h'], free := free');
    assert PageOk(p.size, p.hdr, h');
    forall x | x in q.headers
      ensures PageOk(q.size, q.hdr, q.headers[x]) && (x in q.free <==> |q.headers[x].localFree| > 0)
    {
      if x != pg {
        assert x in q.free <==> x in p.free;
      }
    }
  }

  /** `pool::alloc`: when `_free` is empty a page is added first (`newPage` is
      the page the page allocator hands back); then an object is taken from
      the front page. */
  method Alloc(p: Pool, newPage: nat, cpu: nat) returns (q: Pool, o: Obj)
    requires Inv(p) && (|p.free| == 0 ==> newPage !in p.headers)
    ensures Inv(q) && q.size == p.size && q.hdr == p.hdr
    ensures Live(q, o)
    ensures |p.free| > 0 ==> o.page == p.free[0] && o.offset == p.headers[o.page].localFree[0]
    ensures |p.free| > 0 ==> q.headers[o.page].nalloc == p.headers[o.page].nalloc + 1
    ensures |p.free| == 0 ==> o == Obj(newPage, Slots(p.size, p.hdr)[0])
    ensures |p.free| == 0 ==> q.headers[newPage].nalloc == 1 && q.headers[newPage].cpu == cpu
    ensures o.page in q.free <==> |q.headers[o.page].localFree| > 0
    ensures forall pg :: pg in p.headers && pg != o.page ==> pg in q.headers && q.headers[pg] == p.headers[pg]
  {
    var p1 := p;
    if |p.free| == 0 {
      p1 := AddPage(p, newPage, cpu);
    }
    q, o := TakeFront(p1);
  }

  // ---------------------------------------------------------------------
  // pool::free_same_cpu

  /** `have_full_pages`: the back page of `_free` has no object handed out. */
  predicate HaveFullPages(p: Pool)
  {
    |p.free| > 0 && p.free[|p.free| - 1] in p.headers && p.headers[p.free[|p.free| - 1]].nalloc == 0
  }

  /** `s` without `x`, order kept (erasing a page from `_free`). */
  function Erase(s: seq<nat>, x: nat): (t: seq<nat>)
    ensures forall y :: y in t <==> y in s && y != x
    ensures |t| <= |s|
  {
    if s == [] then [] else if s[0] == x then Erase(s[1..], x) else [s[0]] + Erase(s[1..], x)
  }

  lemma {:induction false} EraseDistinct(s: seq<nat>, x: nat)
    requires Distinct(s)
    ensures Distinct(Erase(s, x))
  {
    if s != [] {
      var t := s[1..];
      assert Distinct(t);
      EraseDistinct(t, x);
      if s[0] != x {
        var e := Erase(t, x);
        assert s[0] !in t by {
          forall i | 0 <= i < |t| ensures t[i] != s[0] {
            assert t[i] == s[i + 1];
          }
        }
        assert s[0] !in e;
        PrependDistinct(s[0], e);
      }
    }
  }

  lemma PrependDistinct(x: nat, s: seq<nat>)
    requires Distinct(s) && x !in s
    ensures Distinct([x] + s)
  {
    var t := [x] + s;
    forall i, j | 0 <= i < j < |t| ensures t[i] != t[j] {
      assert t[j] == s[j - 1];
      if i > 0 {
        assert t[i] == s[i - 1];
      }
    }
  }

  /** A handed-out object means its page has `nalloc >= 1`: the free list is a
      duplicate-free part of the slots that misses the object's slot. */
  lemma LiveCounted(p: Pool, o: Obj)
    requires Inv(p) && Live(p, o)
    ensures p.headers[o.page].nalloc >= 1
  {
    var h := p.headers[o.page];
    assert PageOk(p.size, p.hdr, h);
    SlotsShape(p.size, p.hdr);
    FewerFree(h.localFree, Slots(p.size, p.hdr), o.offset);
  }

  /** A duplicate-free list drawn from `slots` that misses one slot is
      shorter than the slot list. */
  lemma {:induction false} FewerFree(lf: seq<nat>, slots: seq<nat>, x: nat)
    requires Distinct(lf) && Distinct(slots)
    requires forall i :: 0 <= i < |lf| ==> lf[i] in slots
    requires x in slots && x !in lf
    ensures |lf| < |slots|
    decreases |lf|
  {
    if lf != [] {
      var y := lf[0];
      var k :| 0 <= k < |slots| && slots[k] == y;
      var rest := Without(slots, k);
      forall i | 0 <= i < |lf| - 1 ensures lf[1..][i] in rest {
        assert lf[1..][i] == lf[i + 1] != y;
        var j :| 0 <= j < |slots| && slots[j] == lf[i + 1];
        assert j != k;
        assert slots[j] in rest by {
          if j < k {
            assert rest[j] == slots[j];
          } else {
            assert rest[j - 1] == slots[j];
          }
        }
      }
      var j :| 0 <= j < |slots| && slots[j] == x;
      assert x != y;
      assert x in rest by {
        if j < k {
          assert rest[j] == slots[j];
        } else {
          assert rest[j - 1] == slots[j];
        }
      }
      assert x !in lf[1..];
      FewerFree(lf[1..], rest, x);
    }
  }

  /** `s` with the element at `k` taken out. */
  function Without(s: seq<nat>, k: nat): (t: seq<nat>)
    requires k < |s|
    ensures |t| == |s| - 1
    ensures forall i :: 0 <= i < k ==> t[i] == s[i]
    ensures forall i :: k <= i < |t| ==> t[i] == s[i + 1]
    ensures Distinct(s) ==> Distinct(t)
  {
    s[..k] + s[k + 1..]
  }

  /** `pool::free_same_cpu`. With `nalloc` decremented, when the page has
      nothing handed out any more and the back page of `_free` is fully
      free, the page is released to the page allocator (and erased from
      `_free` if it was there). Otherwise the object goes on the page's free
      list, and a page that was full re-enters `_free`: at the front if it
      still has objects handed out, at the back if it is now fully free. */
  method FreeSameCpu(p: Pool, o: Obj) returns (q: Pool, released: bool)
    requires Inv(p) && Live(p, o)
    ensures Inv(q) && q.size == p.size && q.hdr == p.hdr
    ensures released <==>
      p.headers[o.page].nalloc == 1 && |p.free| > 0
      && (p.free[|p.free| - 1] == o.page || p.headers[p.free[|p.free| - 1]].nalloc == 0)
    ensures released ==> q.headers == p.headers - {o.page} && q.free == Erase(p.free, o.page)
    ensures !released ==>
      var h := p.headers[o.page];
      o.page in q.headers
      && q.headers[o.page].nalloc + 1 == h.nalloc
      && q.headers == p.headers[o.page := Header(h.cpu, q.headers[o.page].nalloc, [o.offset] + h.localFree)]
      && (|h.localFree| > 0 ==> q.free == p.free)
      && (|h.localFree| == 0 ==> q.free == if h.nalloc > 1 then [o.page] + p.free else p.free + [o.page])
    ensures !Live(q, o)
  {
    LiveCounted(p, o);
    var h := p.headers[o.page];
    var n := h.nalloc - 1;
    var back := if |p.free| > 0 then p.free[|p.free| - 1] else 0;
    if n == 0 && |p.free| > 0 && (back == o.page || p.headers[back].nalloc == 0) {
      released := true;
      q := ReleasePage(p, o.page);
    } else {
      released := false;
      q := ReturnObject(p, o);
    }
  }

  /** The release branch: the page leaves the pool. */
  method ReleasePage(p: Pool, pg: nat) returns (q: Pool)
    requires Inv(p) && pg in p.headers
    ensures Inv(q) && q.size == p.size && q.hdr == p.hdr
    ensures q.headers == p.headers - {pg} && q.free == Erase(p.free, pg)
  {
    q := p.(headers := p.headers - {pg}, free := Erase(p.free, pg));
    EraseDistinct(p.free, pg);
    forall i | 0 <= i < |q.free| ensures q.free[i] in q.headers {
      assert q.free[i] in p.free;
    }
    forall x | x in q.headers
      ensures PageOk(q.size, q.hdr, q.headers[x]) && (x in q.free <==> |q.headers[x].localFree| > 0)
    {
      assert x in p.headers && x != pg;
    }
  }

  /** The keep branch: the object goes on the front of its page's free list,
      and a page that was full re-enters `_free`. */
  method ReturnObject(p: Pool, o: Obj) returns (q: Pool)
    requires Inv(p) && Live(p, o) && p.headers[o.page].nalloc >= 1
    ensures Inv(q) && q.size == p.size && q.hdr == p.hdr
    ensures var h := p.headers[o.page];
      q.headers == p.headers[o.page := Header(h.cpu, h.nalloc - 1, [o.offset] + h.localFree)]
      && (|h.localFree| > 0 ==> q.free == p.free)
      && (|h.localFree| == 0 ==> q.free == if h.nalloc > 1 then [o.page] + p.free else p.free + [o.page])
  {
    var pg := o.page;
    var h := p.headers[pg];
    var h' := Header(h.cpu, h.nalloc - 1, [o.offset] + h.localFree);
    var free' := p.free;
    if |h.localFree| == 0 {
      assert pg !in p.free;
      free' := if h.nalloc > 1 then [pg] + p.free else p.free + [pg];
      assert Distinct(free') by {
        if h.nalloc > 1 {
          PrependDistinct(pg, p.free);
        }
      }
    }
    PrependDistinct(o.offset, h.localFree);
    assert PageOk(p.size, p.hdr, h');
    q := p.(headers := p.headers[pg := h'], free := free');
    forall i | 0 <= i < |q.free| ensures q.free[i] in q.headers {
      assert q.free[i] in p.free || q.free[i] == pg;
    }
    forall x | x in q.headers
      ensures PageOk(q.size, q.hdr, q.headers[x]) && (x in q.free <==> |q.headers[x].localFree| > 0)
    {
      if x != pg {
        assert x in q.free <==> x in p.free;
      }
    }
  }

  /** Allocating and then freeing the same object restores the pool exactly
      when the page had an object handed out before (so the free cannot
      release it): the page's free list, count and place in `_free` all come
      back. */
  method AllocThenFree(p: Pool) returns (q: Pool)
    requires Inv(p) && |p.free| > 0 && p.headers[p.free[0]].nalloc >= 1
    ensures q == p
  {
    var p1, o := TakeFront(p);
    var released;
    q, released := FreeSameCpu(p1, o);
    var h := p.headers[o.page];
    assert [o.offset] + h.localFree[1..] == h.localFree;
    assert q.headers == p.headers;
    if |h.localFree| == 1 {
      assert [o.page] + p.free[1..] == p.free;
    }
  }

  // ---------------------------------------------------------------------
  // Cross-CPU frees: garbage sinks

  /** `garbage_sink::signal_threshold`. */
  const SignalThreshold: int := 256

  /** One single-producer queue of objects freed on another CPU, and the
      number of pushes since the collector was last signalled. */
  datatype Sink = Sink(queue: seq<Obj>, pushed: int)

  /** `garbage_sink::free`: queue the object; when the counter passes the
      threshold, signal the owning CPU's collector and restart the count. */
  function SinkFree(s: Sink, o: Obj): (r: (Sink, bool))
    ensures r.0.queue == s.queue + [o]
    ensures r.1 <==> s.pushed >= SignalThreshold
    ensures 0 <= s.pushed <= SignalThreshold ==> 0 <= r.0.pushed <= SignalThreshold
  {
    var n := s.pushed + 1;
    if n > SignalThreshold then (Sink(s.queue + [o], 0), true) else (Sink(s.queue + [o], n), false)
  }

  /** Pushing objects one after another; the number of signals raised. */
  function SinkFreeAll(s: Sink, os: seq<Obj>): (r: (Sink, nat))
    decreases |os|
  {
    if os == [] then (s, 0)
    else
      var (s1, sig) := SinkFree(s, os[0]);
      var (s2, n) := SinkFreeAll(s1, os[1..]);
      (s2, n + if sig then 1 else 0)
  }

  /** From a counter in range, a run of pushes signals once per 257 pushes
      and leaves the remainder in the counter; the queue receives the
      objects in order. */
  lemma {:induction false} SinkSignals(s: Sink, os: seq<Obj>)
    requires 0 <= s.pushed <= SignalThreshold
    ensures SinkFreeAll(s, os).0.queue == s.queue + os
    ensures SinkFreeAll(s, os).1 == (s.pushed + |os|) / (SignalThreshold + 1)
    ensures SinkFreeAll(s, os).0.pushed == (s.pushed + |os|) % (SignalThreshold + 1)
    decreases |os|
  {
    if os != [] {
      var (s1, sig) := SinkFree(s, os[0]);
      SinkSignals(s1, os[1..]);
      assert s.queue + [os[0]] + os[1..] == s.queue + os;
      var m := s.pushed + |os|;
      if sig {
        assert s1.pushed + |os[1..]| == m - (SignalThreshold + 1);
        ShiftDiv(m - (SignalThreshold + 1), SignalThreshold + 1);
      } else {
        assert s1.pushed + |os[1..]| == m;
      }
    }
  }

  lemma ShiftDiv(x: nat, d: nat)
    requires d >= 1
    ensures (x + d) / d == x / d + 1 && (x + d) % d == x % d
  {
    var q := x / d;
    var r := x % d;
    assert x == q * d + r;
    assert x + d == (q + 1) * d + r;
    DivUnique(x + d, d, q + 1, r);
  }

  /** The per-CPU sink matrix: `[owner cpu][freeing cpu]`. */
  predicate Square(sinks: seq<seq<Sink>>, ncpus: nat)
  {
    |sinks| == ncpus && forall i :: 0 <= i < ncpus ==> |sinks[i]| == ncpus
  }

  /** `pool::free`: an object freed on the CPU that owns its page goes
      straight back to the page; otherwise it is pushed to the sink of
      (owning CPU, current CPU), which may signal the owner's collector. */
  method Free(p: Pool, sinks: seq<seq<Sink>>, ncpus: nat, o: Obj, cur: nat)
    returns (q: Pool, sinks': seq<seq<Sink>>, signal: Option<nat>)
    requires Inv(p) && Live(p, o) && Square(sinks, ncpus)
    requires p.headers[o.page].cpu < ncpus && cur < ncpus
    ensures Inv(q) && Square(sinks', ncpus)
    ensures p.headers[o.page].cpu == cur ==> sinks' == sinks && signal == None && !Live(q, o)
    ensures p.headers[o.page].cpu != cur ==>
      var owner := p.headers[o.page].cpu;
      q == p
      && sinks'[owner][cur].queue == sinks[owner][cur].queue + [o]
      && (signal.Some? <==> sinks[owner][cur].pushed >= SignalThreshold)
      && (signal.Some? ==> signal.value == owner)
      && (forall i, j :: 0 <= i < ncpus && 0 <= j < ncpus && (i, j) != (owner, cur) ==>
            sinks'[i][j] == sinks[i][j])
  {
    var owner := p.headers[o.page].cpu;
    if owner == cur {
      var released;
      q, released := FreeSameCpu(p, o);
      sinks' := sinks;
      signal := None;
    } else {
      q := p;
      var (s, sig) := SinkFree(sinks[owner][cur], o);
      sinks' := sinks[owner := sinks[owner][cur := s]];
      signal := if sig then Some(owner) else None;
    }
  }

  // ---------------------------------------------------------------------
  // Reclaimer arithmetic

  /** `min_emergency_pool_size`: 4 MiB. */
  const MinEmergencyPool: nat := 4 * 1024 * 1024

  datatype Pressure = Normal | UnderPressure

  /** The free-memory counters: total, free, and the low watermark. */
  datatype Memory = Memory(total: nat, free: nat, watermarkLo: nat)

  /** `on_new_memory`: memory joins the total, and the low watermark is
      recomputed as ten percent of the new total. */
  function OnNewMemory(m: Memory, mem: nat): (r: Memory)
    ensures r.total == m.total + mem && r.free == m.free
  {
    var total := m.total + mem;
    Memory(total, m.free, total * 10 / 100)
  }

  /** The watermark after `on_new_memory` is the largest whole number not
      above a tenth of the total. */
  lemma Watermark(m: Memory, mem: nat)
    ensures var r := OnNewMemory(m, mem);
      10 * r.watermarkLo <= r.total < 10 * r.watermarkLo + 10
  {
  }

  /** `on_free`. */
  function OnFree(m: Memory, mem: nat): (r: Memory)
    ensures r.free == m.free + mem && r.total == m.total && r.watermarkLo == m.watermarkLo
  {
    m.(free := m.free + mem)
  }

  /** `on_alloc` with the JVM balloon configured out: the free counter drops
      and the reclaimer is woken when it falls below the watermark. */
  function OnAlloc(m: Memory, mem: nat): (r: (Memory, bool))
    requires mem <= m.free
    ensures r.0.free + mem == m.free && r.0.total == m.total && r.0.watermarkLo == m.watermarkLo
    ensures r.1 <==> PressureLevel(r.0) == UnderPressure
  {
    var m' := m.(free := m.free - mem);
    (m', m'.free < m.watermarkLo)
  }

  /** `reclaimer::pressure_level`. */
  function PressureLevel(m: Memory): Pressure
  {
    if m.free < m.watermarkLo then UnderPressure else Normal
  }

  /** `reclaimer::bytes_until_normal`, as a signed count. */
  function BytesUntilNormal(m: Memory, curr: Pressure): int
  {
    if curr == UnderPressure then m.watermarkLo - m.free else 0
  }

  /** `stats::max_no_reclaim`. */
  function MaxNoReclaim(m: Memory): int
  {
    m.total - m.watermarkLo
  }

  /** The reclaimer's target: at the current level, the bytes still to free
      are positive exactly under pressure, and freeing them brings the level
      back to normal; at normal level nothing needs freeing. */
  lemma ReclaimTarget(m: Memory)
    ensures var b := BytesUntilNormal(m, PressureLevel(m));
      (b > 0 <==> PressureLevel(m) == UnderPressure)
      && b >= 0
      && PressureLevel(OnFree(m, b)) == Normal
  {
  }

  /** Freeing relieves pressure exactly when it lifts the free count to the
      low watermark; allocating causes it exactly when the count drops
      below; so freeing never causes pressure and allocating never relieves
      it. */
  lemma PressureMonotone(m: Memory, mem: nat)
    ensures PressureLevel(OnFree(m, mem)) == Normal <==> m.free + mem >= m.watermarkLo
    ensures mem <= m.free ==> (PressureLevel(OnAlloc(m, mem).0) == UnderPressure <==> m.free - mem < m.watermarkLo)
    ensures PressureLevel(m) == Normal ==> PressureLevel(OnFree(m, mem)) == Normal
    ensures mem <= m.free && PressureLevel(m) == UnderPressure ==>
      PressureLevel(OnAlloc(m, mem).0) == UnderPressure
  {
  }

  /** With the watermark set by `on_new_memory`, memory below it is at most
      the whole total. */
  lemma NoReclaimBound(m: Memory, mem: nat)
    ensures 0 <= MaxNoReclaim(OnNewMemory(m, mem)) <= OnNewMemory(m, mem).total
  {
  }

  datatype Wait = Proceed | WaitFor(bytes: nat) | Abort

  /** `reclaimer::wait_for_memory`: asking for more than the machine's total
      memory aborts; otherwise the caller blocks for `mem` bytes. */
  function WaitForMemory(mem: nat, total: nat): (w: Wait)
    ensures w == Abort <==> mem > total
    ensures w != Abort ==> w == WaitFor(mem)
  {
    if mem > total then Abort else WaitFor(mem)
  }

  /** `reclaimer::wait_for_minimum_memory`: threads in emergency mode never
      wait; below the emergency pool size the caller waits for the shortfall,
      unless there is no active shrinker that could give memory back. */
  function WaitForMinimumMemory(emergency: bool, free: nat, shrinkers: nat, total: nat): (w: Wait)
    ensures w.WaitFor? ==> !emergency && shrinkers > 0 && free + w.bytes == MinEmergencyPool
    ensures w == Proceed <==> emergency || free >= MinEmergencyPool || shrinkers == 0
    ensures w == Abort <==> !emergency && free < MinEmergencyPool && shrinkers > 0 && MinEmergencyPool - free > total
  {
    if emergency then Proceed
    else if free < MinEmergencyPool then
      if shrinkers == 0 then Proceed else WaitForMemory(MinEmergencyPool - free, total)
    else Proceed
  }
}

=== FILE: ubuntu_packages.dfy ===
/** The Ubuntu package handler: reading `apt-cache show` and `apt-cache
    depends` output, the dependency closure with its blacklist, the pool
    directory a package is looked up in, the manifest of the extracted
    files, and how the command line and the configuration file combine.
    `apt-cache`, the network and the file system are parameters. */
module UbuntuPackages {
  import opened Wrappers
  import opened PyText

  // ---------------------------------------------------------------------
  // apt-cache show

  /** `line.split(':', 1)` on a line holding a colon: the key, stripped. */
  function FieldKey(line: string): string
    requires Has(line, ':')
  {
    Strip(line[..Find(line, ':')])
  }

  /** ... and the value after the first colon, stripped. */
  function FieldValue(line: string): string
    requires Has(line, ':')
  {
    Strip(line[Find(line, ':') + 1..])
  }

  /** Line `i` sets the key `k`. */
  predicate SetsKey(lines: seq<string>, i: int, k: string)
  {
    0 <= i < |lines| && Has(lines[i], ':') && FieldKey(lines[i]) == k
  }

  /** `info[key] = value` for every line with a colon, in order. */
  function Fields(lines: seq<string>): (info: map<string, string>)
  {
    if |lines| == 0 then map[]
    else
      var last := lines[|lines| - 1];
      var info := Fields(lines[..|lines| - 1]);
      if Has(last, ':') then info[FieldKey(last) := FieldValue(last)] else info
  }

  /** `_parse_apt_cache_output`. */
  function ParseAptCacheOutput(output: string): map<string, string>
  {
    Fields(Split(output, '\n'))
  }

  /** A key is present exactly when some line with a colon names it. */
  lemma {:induction false} FieldsKeys(lines: seq<string>, k: string)
    ensures k in Fields(lines) <==> exists i :: SetsKey(lines, i, k)
  {
    if |lines| > 0 {
      var front, last := lines[..|lines| - 1], lines[|lines| - 1];
      assert k in Fields(lines) <==> k in Fields(front) || SetsKey(lines, |lines| - 1, k);
      FieldsKeys(front, k);
      forall i | 0 <= i < |front| ensures SetsKey(front, i, k) <==> SetsKey(lines, i, k) {
        assert front[i] == lines[i];
      }
    }
  }

  /** A key's value comes from the last line that sets it: later lines
      overwrite earlier ones. */
  lemma {:induction false} FieldsLast(lines: seq<string>, k: string, i: nat)
    requires SetsKey(lines, i, k)
    requires forall j :: i < j < |lines| ==> !SetsKey(lines, j, k)
    ensures k in Fields(lines) && Fields(lines)[k] == FieldValue(lines[i])
  {
    var front := lines[..|lines| - 1];
    if i < |lines| - 1 {
      assert !SetsKey(lines, |lines| - 1, k);
      forall j | i < j < |front| ensures !SetsKey(front, j, k) {
        assert !SetsKey(lines, j, k);
      }
      assert SetsKey(front, i, k);
      FieldsLast(front, k, i);
    }
  }

  // ---------------------------------------------------------------------
  // apt-cache depends

  /** The version-stripping substitution: as written, the raw string
      `r'\\s*\\([^)]*\\)'` doubles its escapes, so the regular expression
      wants literal backslashes; the evidently intended `\s*\([^)]*\)`
      removes white space and a parenthesised version. */
  datatype VersionPattern = AsWrittenPattern | IntendedPattern

  /** The end of the run of `c` that starts at `i`. */
  function RunEnd(s: string, i: nat, c: char): (j: nat)
    requires i <= |s|
    ensures i <= j <= |s| && (j < |s| ==> s[j] != c)
    ensures forall k :: i <= k < j ==> s[k] == c
    decreases |s| - i
  {
    if i < |s| && s[i] == c then RunEnd(s, i + 1, c) else i
  }

  /** The first `c` at or after `i`, or the end. */
  function NextFrom(s: string, c: char, i: nat): (j: nat)
    requires i <= |s|
    ensures i <= j <= |s| && (j < |s| ==> s[j] == c)
    ensures forall k :: i <= k < j ==> s[k] != c
    decreases |s| - i
  {
    if i == |s| || s[i] == c then i else NextFrom(s, c, i + 1)
  }

  /** The last `c` in `s[lo..hi]`. */
  function LastIn(s: string, c: char, lo: nat, hi: nat): (b: Option<nat>)
    requires lo <= hi <= |s|
    ensures b.Some? ==> lo <= b.value < hi && s[b.value] == c
    ensures b.Some? ==> forall k :: b.value < k < hi ==> s[k] != c
    ensures b.None? ==> forall k :: lo <= k < hi ==> s[k] != c
    decreases hi
  {
    if hi == lo then None else if s[hi - 1] == c then Some(hi - 1) else LastIn(s, c, lo, hi - 1)
  }

  /** Where a match of the pattern that starts at `i` ends, when there is
      one. As written: a backslash, any number of `s`, a backslash, then
      the longest stretch without `)` that still ends in a backslash.
      Intended: white space, `(`, and everything up to the next `)`. */
  function MatchEnd(p: VersionPattern, s: string, i: nat): (e: Option<nat>)
    requires i <= |s|
    ensures e.Some? ==> i < e.value <= |s|
  {
    match p
    case AsWrittenPattern =>
      if i < |s| && s[i] == '\\' then
        var j := RunEnd(s, i + 1, 's');
        if j < |s| && s[j] == '\\' then
          match LastIn(s, '\\', j + 1, NextFrom(s, ')', j + 1))
          case None => None
          case Some(b) => Some(b + 1)
        else None
      else None
    case IntendedPattern =>
      var j := SpaceEnd(s, i);
      if j < |s| && s[j] == '(' then
        var close := NextFrom(s, ')', j + 1);
        if close < |s| then Some(close + 1) else None
      else None
  }

  /** `re.sub(pattern, '', s[i..])`: matches are removed left to right, and
      the search resumes after each. */
  function Sub(p: VersionPattern, s: string, i: nat): (r: string)
    requires i <= |s|
    ensures |r| <= |s| - i
    decreases |s| - i
  {
    if i == |s| then ""
    else
      match MatchEnd(p, s, i)
      case Some(e) => Sub(p, s, e)
      case None => [s[i]] + Sub(p, s, i + 1)
  }

  /** No match starts in `s[i..k]`: those characters are kept. */
  lemma {:induction false} SubKeeps(p: VersionPattern, s: string, i: nat, k: nat)
    requires i <= k <= |s|
    requires forall j :: i <= j < k ==> MatchEnd(p, s, j).None?
    ensures Sub(p, s, i) == s[i..k] + Sub(p, s, k)
    decreases k - i
  {
    if i < k {
      SubKeeps(p, s, i + 1, k);
      SliceCons(s, i, k);
    }
  }

  /** A nonempty slice is its first character followed by the rest. */
  lemma SliceCons(s: string, i: nat, k: nat)
    requires i < k <= |s|
    ensures s[i..k] == [s[i]] + s[i + 1..k]
  {
  }

  /** As written, a text without a backslash is left alone, versions and
      all. */
  lemma AsWrittenKeepsText(s: string)
    requires !Has(s, '\\')
    ensures Sub(AsWrittenPattern, s, 0) == s
  {
    forall j | 0 <= j < |s| ensures MatchEnd(AsWrittenPattern, s, j).None? {
      assert s[j] != '\\';
    }
    SubKeeps(AsWrittenPattern, s, 0, |s|);
  }

  /** The intended pattern leaves a text without `(` alone. */
  lemma IntendedKeepsPlain(s: string)
    requires !Has(s, '(')
    ensures Sub(IntendedPattern, s, 0) == s
  {
    forall j | 0 <= j < |s| ensures MatchEnd(IntendedPattern, s, j).None? {
      var e := SpaceEnd(s, j);
      if e < |s| {
        assert s[e] != '(';
      }
    }
    SubKeeps(IntendedPattern, s, 0, |s|);
  }

  /** The intended pattern removes a version constraint after a name. */
  lemma IntendedStripsVersion(name: string, v: string)
    requires forall k :: 0 <= k < |name| ==> !IsSpace(name[k]) && name[k] != '('
    requires !Has(v, ')')
    ensures Sub(IntendedPattern, name + " (" + v + ")", 0) == name
  {
    var s := name + " (" + v + ")";
    var n := |name|;
    assert s[..n] == name && s[n + 2..|s| - 1] == v;
    NoMatchBefore(s, n);
    SubKeeps(IntendedPattern, s, 0, n);
    VersionMatch(s, n);
  }

  /** No intended match starts among characters that are neither blank nor
      `(`. */
  lemma NoMatchBefore(s: string, n: nat)
    requires n <= |s| && forall k :: 0 <= k < n ==> !IsSpace(s[k]) && s[k] != '('
    ensures forall j :: 0 <= j < n ==> MatchEnd(IntendedPattern, s, j).None?
  {
    forall j | 0 <= j < n ensures MatchEnd(IntendedPattern, s, j).None? {
      assert SpaceEnd(s, j) == j;
    }
  }

  /** A blank, `(`, and text without `)` up to a final `)` is one match. */
  lemma VersionMatch(s: string, n: nat)
    requires n + 3 <= |s| && s[n] == ' ' && s[n + 1] == '(' && s[|s| - 1] == ')'
    requires !Has(s[n + 2..|s| - 1], ')')
    ensures MatchEnd(IntendedPattern, s, n) == Some(|s|)
    ensures Sub(IntendedPattern, s, n) == ""
  {
    assert SpaceEnd(s, n + 1) == n + 1;
    forall k | n + 2 <= k < |s| - 1 ensures s[k] != ')' {
      assert s[k] == s[n + 2..|s| - 1][k - n - 2];
    }
    assert NextFrom(s, ')', n + 2) == |s| - 1;
  }

  /** A `Depends:` line of `apt-cache depends` (after stripping): the text
      after the colon, with versions removed under `p`, cut at the first
      `|` and stripped; names starting with `<` (virtual packages) and
      empty names are skipped. */
  function DependencyOf(p: VersionPattern, line: string): (d: Option<string>)
    ensures d.Some? ==> |d.value| > 0 && d.value[0] != '<' && !Has(d.value, '|')
  {
    var l := Strip(line);
    if StartsWith(l, "Depends:") then FirstAlternative(Sub(p, Strip(l[8..]), 0)) else None
  }

  /** `dep.split('|')[0].strip()`, kept when it is a name. */
  function FirstAlternative(dep: string): (d: Option<string>)
    ensures d.Some? ==> |d.value| > 0 && d.value[0] != '<' && !Has(d.value, '|')
  {
    var first := Strip(Before(dep, '|'));
    if |first| > 0 && !StartsWith(first, "<") && !StartsWith(first, "|") then
      StripKeepsOut(Before(dep, '|'), '|');
      Some(first)
    else None
  }

  /** The line `Depends: dep`. */
  function DependsOn(dep: string): string
  {
    "Depends: " + dep
  }

  /** A line `Depends: dep` gives the first alternative of `dep` once the
      versions are removed. */
  lemma AfterDepends(p: VersionPattern, dep: string)
    requires |dep| > 0 && !IsSpace(dep[0]) && !IsSpace(dep[|dep| - 1])
    ensures DependencyOf(p, DependsOn(dep)) == FirstAlternative(Sub(p, dep, 0))
  {
    var line := DependsOn(dep);
    assert Strip(line) == line by {
      StripBetween(line, 0, |line|);
      assert line[0..|line|] == line;
    }
    assert StartsWith(line, "Depends:") by {
      assert line[..8] == "Depends:";
    }
    assert Strip(line[8..]) == dep by {
      var rest := line[8..];
      assert rest == " " + dep;
      StripBetween(rest, 1, |rest|);
      assert rest[1..|rest|] == dep;
    }
  }

  /** Stripping keeps a character out. */
  lemma StripKeepsOut(s: string, c: char)
    requires !Has(s, c)
    ensures !Has(Strip(s), c)
  {
  }

  /** The dependencies of `lines`, in order. */
  function Dependencies(p: VersionPattern, lines: seq<string>): (deps: seq<string>)
    ensures forall d :: d in deps ==> |d| > 0 && d[0] != '<' && !Has(d, '|')
    ensures |deps| <= |lines|
  {
    Present(seq(|lines|, i requires 0 <= i < |lines| => DependencyOf(p, lines[i])))
  }

  /** `_parse_dependencies`, as written. */
  function ParseDependencies(output: string): seq<string>
  {
    Dependencies(AsWrittenPattern, Split(output, '\n'))
  }

  /** `_parse_dependencies` with the intended version pattern. */
  function ParseDependenciesIntended(output: string): seq<string>
  {
    Dependencies(IntendedPattern, Split(output, '\n'))
  }

  /** A package name as `apt-cache` prints one: not empty, no white space,
      no `|`, no parentheses, no backslash, not a `<virtual>` name. */
  predicate PlainName(n: string)
  {
    |n| > 0 && n[0] != '<'
    && forall k :: 0 <= k < |n| ==> !IsSpace(n[k]) && n[k] != '|' && n[k] != '(' && n[k] != ')' && n[k] != '\\'
  }

  /** Stripping keeps exactly the text between the outer white space. */
  lemma StripBetween(s: string, a: nat, b: nat)
    requires a < b <= |s| && !IsSpace(s[a]) && !IsSpace(s[b - 1])
    requires forall k :: 0 <= k < a ==> IsSpace(s[k])
    requires forall k :: b <= k < |s| ==> IsSpace(s[k])
    ensures Strip(s) == s[a..b]
  {
    RStripKeeps(s, b);
    LStripSkips(s[..b], a);
    assert s[..b][a..] == s[a..b];
  }

  /** A plain name is left alone by either pattern, by the cut at `|` and by
      stripping. */
  lemma PlainNameKept(p: VersionPattern, n: string)
    requires PlainName(n)
    ensures Sub(p, n, 0) == n && Before(n, '|') == n && Strip(n) == n
  {
    if p == AsWrittenPattern {
      AsWrittenKeepsText(n);
    } else {
      IntendedKeepsPlain(n);
    }
    StripBetween(n, 0, |n|);
    assert n[0..|n|] == n;
  }

  /** The line `apt-cache depends` prints for a dependency. */
  function DependsLine(n: string): string
  {
    "  Depends: " + n
  }

  /** A dependency line reads back as its name, under either pattern. */
  lemma DependsLineReads(p: VersionPattern, n: string)
    requires PlainName(n)
    ensures DependencyOf(p, DependsLine(n)) == Some(n)
  {
    IndentStripped(n);
    assert DependencyOf(p, DependsLine(n)) == DependencyOf(p, DependsOn(n));
    PlainNameKept(p, n);
    AfterDepends(p, n);
  }

  /** The indent before `Depends:` is stripped away. */
  lemma IndentStripped(dep: string)
    requires |dep| > 0 && !IsSpace(dep[0]) && !IsSpace(dep[|dep| - 1])
    ensures Strip(DependsLine(dep)) == Strip(DependsOn(dep))
  {
    var on := DependsOn(dep);
    assert DependsLine(dep) == "  " + on;
    assert on[0] == 'D' && on[|on| - 1] == dep[|dep| - 1];
    IndentDropped("  ", on);
  }

  /** Stripping drops a blank indent and keeps text with printing ends. */
  lemma IndentDropped(ws: string, t: string)
    requires forall k :: 0 <= k < |ws| ==> IsSpace(ws[k])
    requires |t| > 0 && !IsSpace(t[0]) && !IsSpace(t[|t| - 1])
    ensures Strip(ws + t) == t && Strip(t) == t
  {
    var s := ws + t;
    StripBetween(s, |ws|, |s|);
    assert s[|ws|..|s|] == t;
    StripBetween(t, 0, |t|);
    assert t[0..|t|] == t;
  }

  /** Of `a | b` only the first alternative is kept. */
  lemma AlternativeKeepsFirst(p: VersionPattern, a: string, b: string)
    requires PlainName(a) && PlainName(b)
    ensures DependencyOf(p, DependsOn(a + " | " + b)) == Some(a)
  {
    var dep := a + " | " + b;
    assert dep[0] == a[0] && !IsSpace(a[0]);
    assert dep[|dep| - 1] == b[|b| - 1] && !IsSpace(b[|b| - 1]);
    JoinedFree(a, " | ", b, '\\');
    JoinedFree(a, " | ", b, '(');
    DepTextKept(p, dep);
    assert dep == a + " |" + (" " + b);
    FirstAlternativeOf(a, " " + b);
    AfterDepends(p, dep);
  }

  /** A character in none of three pieces is not in their concatenation. */
  lemma JoinedFree(a: string, m: string, b: string, c: char)
    requires !Has(a, c) && !Has(m, c) && !Has(b, c)
    ensures !Has(a + m + b, c)
  {
    HasAppend(a + m, b, c);
    HasAppend(a, m, c);
  }

  /** Text without a backslash or `(` passes either pattern unchanged. */
  lemma DepTextKept(p: VersionPattern, dep: string)
    requires !Has(dep, '\\') && !Has(dep, '(')
    ensures Sub(p, dep, 0) == dep
  {
    if p == AsWrittenPattern {
      AsWrittenKeepsText(dep);
    } else {
      IntendedKeepsPlain(dep);
    }
  }

  /** `a | rest` with a blank before the bar: the first alternative is `a`. */
  lemma FirstAlternativeOf(a: string, rest: string)
    requires PlainName(a)
    ensures FirstAlternative(a + " |" + rest) == Some(a)
  {
    var dep := a + " |" + rest;
    assert forall k :: 0 <= k < |a| ==> dep[k] == a[k];
    FindAt(dep, '|', |a| + 1);
    var cut := dep[..|a| + 1];
    assert cut == a + " ";
    StripBetween(cut, 0, |a|);
    assert cut[0..|a|] == a;
  }

  /** A version constraint survives the pattern as written; the intended
      pattern removes it. */
  lemma VersionKept(a: string, v: string)
    requires PlainName(a) && !Has(v, ')') && !Has(v, '|') && !Has(v, '\\')
    ensures DependencyOf(AsWrittenPattern, DependsOn(a + " (" + v + ")")) == Some(a + " (" + v + ")")
    ensures DependencyOf(IntendedPattern, DependsOn(a + " (" + v + ")")) == Some(a)
  {
    var dep := a + " (" + v + ")";
    assert dep[0] == a[0] && !IsSpace(a[0]) && dep[|dep| - 1] == ')';
    assert dep == a + " (" + (v + ")");
    assert !Has(v + ")", '\\') && !Has(v + ")", '|') by {
      HasAppend(v, ")", '\\');
      HasAppend(v, ")", '|');
    }
    JoinedFree(a, " (", v + ")", '\\');
    JoinedFree(a, " (", v + ")", '|');
    AsWrittenKeepsText(dep);
    PlainDependency(dep);
    IntendedStripsVersion(a, v);
    PlainNameKept(IntendedPattern, a);
    AfterDepends(AsWrittenPattern, dep);
    AfterDepends(IntendedPattern, dep);
  }

  /** Text with no `|` that starts and ends with a printing character is
      taken whole. */
  lemma PlainDependency(dep: string)
    requires |dep| > 0 && !IsSpace(dep[0]) && !IsSpace(dep[|dep| - 1]) && dep[0] != '<'
    requires !Has(dep, '|')
    ensures FirstAlternative(dep) == Some(dep)
  {
    assert Strip(dep) == dep by {
      StripBetween(dep, 0, |dep|);
      assert dep[0..|dep|] == dep;
    }
  }

  function DependsLines(names: seq<string>): (lines: seq<string>)
    ensures |lines| == |names|
    ensures forall i :: 0 <= i < |names| ==> lines[i] == DependsLine(names[i])
  {
    if |names| == 0 then [] else [DependsLine(names[0])] + DependsLines(names[1..])
  }

  /** The dependency lines of `names` read back as `names`. */
  lemma DependenciesRead(p: VersionPattern, names: seq<string>)
    requires forall n :: n in names ==> PlainName(n)
    ensures Dependencies(p, DependsLines(names)) == names
  {
    var lines := DependsLines(names);
    forall i | 0 <= i < |lines|
      ensures DependencyOf(p, lines[i]) == Some(names[i])
    {
      DependsLineReads(p, names[i]);
    }
    PresentAll(seq(|lines|, i requires 0 <= i < |lines| => DependencyOf(p, lines[i])), names);
  }

  /** `apt-cache depends` output listing plain names parses back to those
      names, in order, under either pattern. */
  lemma ParseDependenciesRoundTrip(names: seq<string>)
    requires forall n :: n in names ==> PlainName(n)
    ensures ParseDependencies(Join(DependsLines(names), '\n')) == names
    ensures ParseDependenciesIntended(Join(DependsLines(names), '\n')) == names
  {
    var lines := DependsLines(names);
    if |names| == 0 {
      assert !Has("", '\n');
      assert Split("", '\n') == [""];
      assert !StartsWith(Strip(""), "Depends:");
    } else {
      forall l | l in lines ensures !Has(l, '\n') {
        var i :| 0 <= i < |lines| && lines[i] == l;
        assert names[i] in names;
        NoNewline(names[i]);
      }
      SplitJoin(lines, '\n');
    }
    DependenciesRead(AsWrittenPattern, names);
    DependenciesRead(IntendedPattern, names);
  }

  lemma NoNewline(n: string)
    requires PlainName(n)
    ensures !Has(DependsLine(n), '\n')
  {
  }

  // ---------------------------------------------------------------------
  // Where a package is downloaded from

  /** The archive for an architecture: amd64 packages come from the main
      archive, every other architecture from the ports archive. */
  function RepoBase(arch: string): string
  {
    if arch == "amd64" then "http://archive.ubuntu.com/ubuntu" else "http://ports.ubuntu.com/ubuntu-ports"
  }

  const Sections: seq<string> := ["main", "universe", "restricted", "multiverse"]

  /** The pool directory letter: the first character, or the first four
      for `lib` packages (Python's slice stops at the end of the name). */
  function PoolLetter(name: string): (d: string)
    requires |name| > 0
    ensures StartsWith(name, d)
    ensures StartsWith(name, "lib") ==> |d| == if |name| < 4 then |name| else 4
    ensures !StartsWith(name, "lib") ==> |d| == 1
  {
    if StartsWith(name, "lib") then name[..if |name| < 4 then |name| else 4] else name[..1]
  }

  /** The directory listing a section is looked up in. */
  function PoolUrl(base: string, section: string, name: string): string
    requires |name| > 0
  {
    base + "/pool/" + section + "/" + PoolLetter(name) + "/" + name + "/"
  }

  /** What reading a directory listing gives: `urlopen` raised, or the
      `.deb` links the pattern found in the page, in page order. */
  datatype Listing = Unreachable | Listed(links: seq<string>)

  predicate Offers(l: Listing)
  {
    l.Listed? && |l.links| > 0
  }

  /** `_find_package_url`: an empty name raises `IndexError` (`NoName`). */
  datatype UrlLookup = Found(url: string) | NotFound | NoName

  /** The sections from `k` on, in order: the first whose listing offers a
      link gives its last link. */
  function FindFrom(base: string, name: string, listing: string -> Listing, k: nat): (r: UrlLookup)
    requires |name| > 0 && k <= |Sections|
    ensures r != NoName
    decreases |Sections| - k
  {
    if k == |Sections| then NotFound
    else
      var dir := PoolUrl(base, Sections[k], name);
      var l := listing(dir);
      if Offers(l) then Found(dir + l.links[|l.links| - 1]) else FindFrom(base, name, listing, k + 1)
  }

  function FindPackageUrl(arch: string, name: string, listing: string -> Listing): UrlLookup
  {
    if |name| == 0 then NoName else FindFrom(RepoBase(arch), name, listing, 0)
  }

  /** Section `k` is the first, from `from` on, whose listing offers a link. */
  predicate FirstOffering(base: string, name: string, listing: string -> Listing, from: nat, k: nat)
    requires |name| > 0
  {
    from <= k < |Sections| && Offers(listing(PoolUrl(base, Sections[k], name)))
    && forall j :: from <= j < k ==> !Offers(listing(PoolUrl(base, Sections[j], name)))
  }

  /** The last link offered in section `k`'s directory. */
  function OfferedUrl(base: string, name: string, listing: string -> Listing, k: nat): string
    requires |name| > 0 && k < |Sections| && Offers(listing(PoolUrl(base, Sections[k], name)))
  {
    var dir := PoolUrl(base, Sections[k], name);
    dir + listing(dir).links[|listing(dir).links| - 1]
  }

  /** The URL found is the last link of the first section that offers one,
      and nothing is found exactly when no section offers a link. */
  lemma {:induction false} FindFromFirst(base: string, name: string, listing: string -> Listing, from: nat)
    requires |name| > 0 && from <= |Sections|
    ensures var r := FindFrom(base, name, listing, from);
      (r.Found? ==> exists k :: FirstOffering(base, name, listing, from, k) && r.url == OfferedUrl(base, name, listing, k))
      && (r == NotFound <==> forall j :: from <= j < |Sections| ==> !Offers(listing(PoolUrl(base, Sections[j], name))))
    decreases |Sections| - from
  {
    if from < |Sections| {
      var dir := PoolUrl(base, Sections[from], name);
      if Offers(listing(dir)) {
        assert FirstOffering(base, name, listing, from, from);
      } else {
        FindFromFirst(base, name, listing, from + 1);
        var r := FindFrom(base, name, listing, from);
        if r.Found? {
          var k :| FirstOffering(base, name, listing, from + 1, k) && r.url == OfferedUrl(base, name, listing, k);
          assert FirstOffering(base, name, listing, from, k);
        }
      }
    }
  }

  // ---------------------------------------------------------------------
  // The dependency closure

  const DefaultBlacklist: set<string> := {
    "bash", "dash", "sh", "csh", "tcsh", "zsh",
    "systemd", "systemd-sysv", "init", "upstart",
    "udev", "systemd-udev",
    "dbus", "dbus-x11",
    "apt", "dpkg", "debconf",
    "perl-base", "python3-minimal",
    "mount", "util-linux",
    "coreutils", "findutils", "grep", "sed"
  }

  /** The dependencies `apt-cache depends` reports, per package it knows;
      an unknown package (or a failed `apt-cache`) has none. */
  type Apt = map<string, seq<string>>

  function DepsOf(apt: Apt, p: string): seq<string>
  {
    if p in apt then apt[p] else []
  }

  /** Every name `apt-cache` can mention. */
  function Known(apt: Apt): set<string>
  {
    set p, i | p in apt && 0 <= i < |apt[p]| :: apt[p][i]
  }

  /** A chain of dependencies from one of `roots`, every link outside the
      blacklist. */
  predicate Chain(apt: Apt, black: set<string>, roots: set<string>, path: seq<string>)
  {
    |path| > 0 && path[0] in roots
    && (forall i :: 0 <= i < |path| ==> path[i] !in black)
    && forall i :: 0 <= i < |path| - 1 ==> path[i + 1] in DepsOf(apt, path[i])
  }

  /** `x` is reached from `roots` without passing through the blacklist. */
  ghost predicate Reaches(apt: Apt, black: set<string>, roots: set<string>, x: string)
  {
    exists path :: Chain(apt, black, roots, path) && path[|path| - 1] == x
  }

  /** `blacklist is None` selects the default blacklist. */
  function Blacklist(given: Option<set<string>>): set<string>
  {
    match given
    case None => DefaultBlacklist
    case Some(b) => b
  }

  /** `resolve_dependencies`: a work set is drained in any order (`set.pop`
      picks an arbitrary element); a package already processed or
      blacklisted is skipped, any other is resolved, its dependencies are
      asked for, and those neither processed nor blacklisted join the work
      set. `queried` lists the packages whose dependencies were asked for,
      in order. */
  method ResolveDependencies(packages: seq<string>, blacklist: Option<set<string>>, apt: Apt)
    returns (resolved: set<string>, queried: seq<string>)
    ensures forall x :: x in resolved <==> Reaches(apt, Blacklist(blacklist), (set p | p in packages), x)
    ensures |queried| == |resolved| && (forall x :: x in resolved <==> x in queried)
    ensures forall i, j :: 0 <= i < j < |queried| ==> queried[i] != queried[j]
  {
    var black := Blacklist(blacklist);
    var roots := set p | p in packages;
    var universe := roots + Known(apt);
    var todo := roots;
    var processed: set<string> := {};
    queried := [];
    Start(apt, black, roots, universe);
    while todo != {}
      invariant Draining(apt, black, roots, universe, todo, processed, queried)
      decreases |universe - processed|, |todo|
    {
      todo, processed, queried := Pop(apt, black, roots, universe, todo, processed, queried);
    }
    resolved := processed;
    Drained(apt, black, roots, universe, processed, queried);
  }

  /** One turn of the loop: pop any package; skip it when processed or
      blacklisted, otherwise resolve it and add its new dependencies. */
  method Pop(apt: Apt, black: set<string>, roots: set<string>, universe: set<string>,
    todo: set<string>, processed: set<string>, queried: seq<string>)
    returns (todo': set<string>, processed': set<string>, queried': seq<string>)
    requires todo != {} && Draining(apt, black, roots, universe, todo, processed, queried)
    ensures Draining(apt, black, roots, universe, todo', processed', queried')
    ensures |universe - processed'| < |universe - processed|
      || (processed' == processed && |todo'| < |todo|)
  {
    var p :| p in todo;
    if p in processed || p in black {
      Skip(apt, black, roots, universe, todo, processed, queried, p);
      todo', processed', queried' := todo - {p}, processed, queried;
    } else {
      var found := set d | d in DepsOf(apt, p) && d !in processed + {p} && d !in black;
      Resolve(apt, black, roots, universe, todo, processed, queried, p, found);
      Fresh(universe, processed, p);
      todo', processed', queried' := todo - {p} + found, processed + {p}, queried + [p];
    }
  }

  /** The loop starts with the roots to do and nothing processed. */
  lemma Start(apt: Apt, black: set<string>, roots: set<string>, universe: set<string>)
    requires universe == roots + Known(apt)
    ensures Draining(apt, black, roots, universe, roots, {}, [])
  {
    forall x | x in roots && x !in black ensures Reaches(apt, black, roots, x) {
      assert Chain(apt, black, roots, [x]);
    }
  }

  /** Skipping a processed or blacklisted package keeps the invariant. */
  lemma Skip(apt: Apt, black: set<string>, roots: set<string>, universe: set<string>,
    todo: set<string>, processed: set<string>, queried: seq<string>, p: string)
    requires Draining(apt, black, roots, universe, todo, processed, queried)
    requires p in todo && (p in processed || p in black)
    ensures Draining(apt, black, roots, universe, todo - {p}, processed, queried)
  {
  }

  /** With nothing left to do, what was processed is what is reached. */
  lemma Drained(apt: Apt, black: set<string>, roots: set<string>, universe: set<string>,
    processed: set<string>, queried: seq<string>)
    requires Draining(apt, black, roots, universe, {}, processed, queried)
    ensures forall x :: x in processed <==> Reaches(apt, black, roots, x)
  {
    ClosedReaches(apt, black, roots, processed);
  }

  /** The loop's invariant: the work set and the processed set lie in the
      names `apt-cache` can mention; everything processed is reached and
      not blacklisted; every root and every dependency of a processed
      package is blacklisted, processed or still to do; `queried` lists the
      processed packages once each. */
  ghost predicate Draining(apt: Apt, black: set<string>, roots: set<string>, universe: set<string>,
    todo: set<string>, processed: set<string>, queried: seq<string>)
  {
    todo <= universe && processed <= universe && roots <= universe && Known(apt) <= universe
    && processed !! black
    && (forall x :: x in processed ==> Reaches(apt, black, roots, x))
    && (forall x :: x in todo && x !in black ==> Reaches(apt, black, roots, x))
    && (forall r :: r in roots ==> r in black || r in processed || r in todo)
    && (forall p, d :: p in processed && d in DepsOf(apt, p) ==> d in black || d in processed || d in todo)
    && |queried| == |processed| && (forall x :: x in processed <==> x in queried)
    && (forall i, j :: 0 <= i < j < |queried| ==> queried[i] != queried[j])
  }

  /** Resolving `p` keeps the invariant. */
  lemma Resolve(apt: Apt, black: set<string>, roots: set<string>, universe: set<string>,
    todo: set<string>, processed: set<string>, queried: seq<string>, p: string, found: set<string>)
    requires Draining(apt, black, roots, universe, todo, processed, queried)
    requires p in todo && p !in processed && p !in black
    requires found == set d | d in DepsOf(apt, p) && d !in processed + {p} && d !in black
    ensures Draining(apt, black, roots, universe, todo - {p} + found, processed + {p}, queried + [p])
  {
    Reached(apt, black, roots, p, found);
    KnownDeps(apt, p);
    var queried' := queried + [p];
    forall i, j | 0 <= i < j < |queried'| ensures queried'[i] != queried'[j] {
      if j == |queried| {
        assert queried[i] in processed;
      }
    }
  }

  /** Resolving a new package shrinks what is left to resolve. */
  lemma Fresh(universe: set<string>, processed: set<string>, p: string)
    requires p in universe && p !in processed
    ensures |universe - (processed + {p})| < |universe - processed|
  {
    assert universe - (processed + {p}) == (universe - processed) - {p};
  }

  /** The dependencies of a reached package are reached too. */
  lemma Reached(apt: Apt, black: set<string>, roots: set<string>, p: string, found: set<string>)
    requires Reaches(apt, black, roots, p)
    requires forall d :: d in found ==> d in DepsOf(apt, p) && d !in black
    ensures forall d :: d in found ==> Reaches(apt, black, roots, d)
  {
    var path :| Chain(apt, black, roots, path) && path[|path| - 1] == p;
    forall d | d in found ensures Reaches(apt, black, roots, d) {
      var longer := path + [d];
      assert Chain(apt, black, roots, longer);
    }
  }

  lemma KnownDeps(apt: Apt, p: string)
    ensures forall d :: d in DepsOf(apt, p) ==> d in Known(apt)
  {
    forall d | d in DepsOf(apt, p) ensures d in Known(apt) {
      var i :| 0 <= i < |apt[p]| && apt[p][i] == d;
    }
  }

  /** A set that holds the unblocked roots and the unblocked dependencies of
      its members holds everything reached. */
  lemma ClosedReaches(apt: Apt, black: set<string>, roots: set<string>, s: set<string>)
    requires forall r :: r in roots && r !in black ==> r in s
    requires forall p, d :: p in s && d in DepsOf(apt, p) && d !in black ==> d in s
    ensures forall x :: Reaches(apt, black, roots, x) ==> x in s
  {
    forall x | Reaches(apt, black, roots, x) ensures x in s {
      var path :| Chain(apt, black, roots, path) && path[|path| - 1] == x;
      ChainInside(apt, black, roots, s, path);
    }
  }

  lemma {:induction false} ChainInside(apt: Apt, black: set<string>, roots: set<string>, s: set<string>, path: seq<string>)
    requires forall r :: r in roots && r !in black ==> r in s
    requires forall p, d :: p in s && d in DepsOf(apt, p) && d !in black ==> d in s
    requires Chain(apt, black, roots, path)
    ensures path[|path| - 1] in s
  {
    if |path| > 1 {
      var front := path[..|path| - 1];
      assert Chain(apt, black, roots, front);
      ChainInside(apt, black, roots, s, front);
      assert path[|path| - 1] in DepsOf(apt, path[|path| - 2]);
    }
  }

  // ---------------------------------------------------------------------
  // The manifest of the extracted files

  /** Some component starts with `.`: the file is left out. */
  predicate Hidden(parts: RelPath)
  {
    exists i :: 0 <= i < |parts| && StartsWith(parts[i], ".")
  }

  /** Where a file lands in the image: `usr/...` stays under `/usr`, anything
      else goes under the prefix. Either way the path ends with the file's
      relative path. */
  function OsvPath(prefix: string, rel: string): (r: string)
    ensures |r| > |rel| && r[|r| - |rel|..] == rel
    ensures StartsWith(rel, "usr/") ==> StartsWith(r, "/usr/")
    ensures !StartsWith(rel, "usr/") ==> StartsWith(r, prefix + "/")
  {
    if StartsWith(rel, "usr/") then "/" + rel else prefix + "/" + rel
  }

  /** The record terminator as written: a backslash and `n`, where a newline
      (`LineEnd`) is evidently intended. */
  const AsWrittenEnd: string := "\\n"

  /** The text of the record for one file of `dir`, before its terminator. */
  function Record(prefix: string, dir: string, parts: RelPath): string
  {
    OsvPath(prefix, RelText(parts)) + ": " + dir + "/" + RelText(parts)
  }

  /** The visible files, in order. */
  function Visible(files: seq<RelPath>): (v: seq<RelPath>)
    ensures forall f :: f in v <==> f in files && !Hidden(f)
  {
    if |files| == 0 then []
    else (if Hidden(files[0]) then [] else [files[0]]) + Visible(files[1..])
  }

  /** `generate_manifest`: the records of the visible files, in the order the
      directory walk yields them, each followed by `term`. */
  function Manifest(term: string, prefix: string, dir: string, files: seq<RelPath>): string
  {
    var vis := Visible(files);
    Concat(seq(|vis|, k requires 0 <= k < |vis| => Record(prefix, dir, vis[k]) + term))
  }

  /** With newline terminators, the manifest reads back as one line per
      visible file, and each line is that file's record. */
  lemma ManifestLines(prefix: string, dir: string, files: seq<RelPath>)
    requires OneLine(prefix) && OneLine(dir)
    requires forall f, i :: f in files && 0 <= i < |f| ==> OneLine(f[i])
    ensures var lines := ReadLines(Manifest(LineEnd, prefix, dir, files));
      |lines| == |Visible(files)|
      && forall k :: 0 <= k < |lines| ==> lines[k] == Record(prefix, dir, Visible(files)[k]) + LineEnd
  {
    var vis := Visible(files);
    var rs := seq(|vis|, k requires 0 <= k < |vis| => Record(prefix, dir, vis[k]) + LineEnd);
    forall k | 0 <= k < |rs| ensures EndsLine(rs[k]) {
      assert vis[k] in files;
      RecordOneLine(prefix, dir, vis[k]);
      assert rs[k][..|rs[k]| - 1] == Record(prefix, dir, vis[k]);
    }
    ReadLinesConcat(rs);
  }

  /** A record holds no newline. */
  lemma RecordOneLine(prefix: string, dir: string, parts: RelPath)
    requires OneLine(prefix) && OneLine(dir)
    requires forall i :: 0 <= i < |parts| ==> OneLine(parts[i])
    ensures OneLine(Record(prefix, dir, parts))
  {
    var rel := RelText(parts);
    JoinOneLine(parts);
    HasAppend("/", rel, '\n');
    HasAppend(prefix + "/", rel, '\n');
    HasAppend(prefix, "/", '\n');
    var o := OsvPath(prefix, rel);
    HasAppend(o, ": ", '\n');
    HasAppend(o + ": ", dir, '\n');
    HasAppend(o + ": " + dir, "/", '\n');
    HasAppend(o + ": " + dir + "/", rel, '\n');
  }

  /** As written, no record ends a line: the whole manifest is one line,
      however many files there are. */
  lemma ManifestAsWrittenOneLine(prefix: string, dir: string, files: seq<RelPath>)
    requires OneLine(prefix) && OneLine(dir)
    requires forall f, i :: f in files && 0 <= i < |f| ==> OneLine(f[i])
    ensures OneLine(Manifest(AsWrittenEnd, prefix, dir, files))
    ensures |ReadLines(Manifest(AsWrittenEnd, prefix, dir, files))| <= 1
  {
    var vis := Visible(files);
    var rs := seq(|vis|, k requires 0 <= k < |vis| => Record(prefix, dir, vis[k]) + AsWrittenEnd);
    forall k | 0 <= k < |rs| ensures OneLine(rs[k]) {
      assert vis[k] in files;
      RecordOneLine(prefix, dir, vis[k]);
      HasAppend(Record(prefix, dir, vis[k]), AsWrittenEnd, '\n');
    }
    ConcatOneLine(rs);
    NoNewlineOneLine(Concat(rs));
  }

  // ---------------------------------------------------------------------
  // Processing the packages

  /** `process_packages`: the packages handled are the dependency closure,
      or the given names themselves; `fetched(p)` says whether downloading
      and extracting `p` both succeeded. Success means none failed. */
  method ProcessPackages(packages: seq<string>, resolveDeps: bool, blacklist: Option<set<string>>,
    apt: Apt, fetched: string -> bool)
    returns (all: set<string>, failed: set<string>, success: bool)
    ensures resolveDeps ==> forall x :: x in all <==> Reaches(apt, Blacklist(blacklist), (set p | p in packages), x)
    ensures !resolveDeps ==> forall x :: x in all <==> x in packages
    ensures forall p :: p in failed <==> p in all && !fetched(p)
    ensures success <==> forall p :: p in all ==> fetched(p)
  {
    if resolveDeps {
      var queried;
      all, queried := ResolveDependencies(packages, blacklist, apt);
    } else {
      all := set p | p in packages;
    }
    failed := Failures(all, fetched);
    success := failed == {};
  }

  /** The loop over the packages: those whose fetch failed. */
  method Failures(all: set<string>, fetched: string -> bool) returns (failed: set<string>)
    ensures forall p :: p in failed <==> p in all && !fetched(p)
  {
    failed := {};
    var left := all;
    while left != {}
      invariant left <= all
      invariant forall p :: p in failed <==> p in all - left && !fetched(p)
      decreases |left|
    {
      var p :| p in left;
      if !fetched(p) {
        failed := failed + {p};
      }
      left := left - {p};
    }
  }

  // ---------------------------------------------------------------------
  // main

  /** The options main reads; `None` for one not given. */
  datatype Args = Args(packages: Option<string>, blacklist: Option<string>, noDeps: bool,
    manifestPrefix: Option<string>, cmdline: Option<string>)

  /** The configuration file's keys; `None` for one that is absent. */
  datatype Config = Config(packages: Option<seq<string>>, blacklist: Option<seq<string>>,
    manifestPrefix: Option<string>, cmdline: Option<string>)

  /** A list from the configuration file, empty when the key is absent. */
  function ConfigList(o: Option<seq<string>>): seq<string>
  {
    match o
    case Some(l) => l
    case None => []
  }

  /** The packages: those on the command line, then those of the
      configuration file. */
  function PackageList(args: Args, config: Config): seq<string>
  {
    CommaList(args.packages) + ConfigList(config.packages)
  }

  /** The blacklist handed on: the names from both sources, or `None` (the
      default list) when there are none. */
  function BlacklistOf(args: Args, config: Config): (b: Option<set<string>>)
    ensures b.Some? ==> b.value != {}
    ensures b.Some? ==> forall x :: x in b.value <==> x in CommaList(args.blacklist) || x in ConfigList(config.blacklist)
    ensures b.None? <==> |CommaList(args.blacklist)| == 0 && |ConfigList(config.blacklist)| == 0
  {
    var cli, file := CommaList(args.blacklist), ConfigList(config.blacklist);
    var names := (set x | x in cli) + (set x | x in file);
    if |cli| == 0 && |file| == 0 then None
    else
      assert if |cli| > 0 then cli[0] in names else file[0] in names;
      Some(names)
  }

  /** A `--packages` option written from names without commas gives those
      names back, ahead of the configuration file's. */
  lemma CommandLinePackages(names: seq<string>, config: Config, args: Args)
    requires |names| > 0 && forall n :: n in names ==> !Has(n, ',')
    requires args.packages == Some(Join(names, ',')) && |Join(names, ',')| > 0
    ensures PackageList(args, config) == names + ConfigList(config.packages)
  {
    SplitJoin(names, ',');
  }

  /** The manifest prefix as written: the option's default `/usr` is always
      true, so the configuration file's prefix is read only when the option
      is given as the empty text. */
  function ManifestPrefixAsWritten(args: Args, config: Config): string
  {
    var cli := match args.manifestPrefix case Some(p) => p case None => "/usr";
    if |cli| > 0 then cli
    else match config.manifestPrefix case Some(p) => p case None => "/usr"
  }

  /** The manifest prefix evidently intended: the option when given, then
      the configuration file, then `/usr`. */
  function ManifestPrefix(args: Args, config: Config): string
  {
    if Given(args.manifestPrefix) then args.manifestPrefix.value
    else match config.manifestPrefix case Some(p) => p case None => "/usr"
  }

  /** Without the option, the configuration file's prefix is ignored as
      written, and used as intended; with a non-empty option both take it. */
  lemma ConfigPrefixIgnored(args: Args, config: Config)
    ensures args.manifestPrefix.None? ==> ManifestPrefixAsWritten(args, config) == "/usr"
    ensures args.manifestPrefix.None? && config.manifestPrefix.Some? ==>
      ManifestPrefix(args, config) == config.manifestPrefix.value
    ensures Given(args.manifestPrefix) ==>
      ManifestPrefixAsWritten(args, config) == ManifestPrefix(args, config) == args.manifestPrefix.value
  {
  }

  /** The command line written to the `cmdline` file, if any. */
  function CommandLineText(args: Args, config: Config): (c: Option<string>)
    ensures c.Some? ==> |c.value| > 0
    ensures c.None? <==> !Given(args.cmdline) && !Given(config.cmdline)
  {
    if Given(args.cmdline) then args.cmdline
    else if Given(config.cmdline) then config.cmdline
    else None
  }

  /** `main`: exit status 1 without packages; otherwise the packages are
      processed and the status is 0 iff every one was fetched. */
  method RunMain(args: Args, config: Config, apt: Apt, fetched: string -> bool)
    returns (code: int, cmdline: Option<string>)
    ensures |PackageList(args, config)| == 0 ==> code == 1 && cmdline.None?
    ensures |PackageList(args, config)| > 0 ==> cmdline == CommandLineText(args, config)
    ensures code == 0 || code == 1
    ensures code == 0 <==> (|PackageList(args, config)| > 0
      && (args.noDeps ==> forall x :: x in PackageList(args, config) ==> fetched(x))
      && (!args.noDeps ==> forall x ::
            Reaches(apt, Blacklist(BlacklistOf(args, config)), (set p | p in PackageList(args, config)), x) ==> fetched(x)))
  {
    var packages := PackageList(args, config);
    if |packages| == 0 {
      return 1, None;
    }
    var all, failed, success := ProcessPackages(packages, !args.noDeps, BlacklistOf(args, config), apt, fetched);
    cmdline := CommandLineText(args, config);
    code := if success then 0 else 1;
  }
}

=== FILE: uefi_boot.dfy ===
/** The UEFI boot helpers: the configuration-table lookup by GUID, the
    two-call memory-map fetch, the count of conventional memory in the map,
    and the retried exit from boot services. The boot information the source
    keeps in a static variable is a value passed in and returned. The
    firmware's boot services are foreign calls: each is represented by what
    it answers (its status and the values it writes through its pointer
    arguments), and every call the helpers make is recorded, in order, in an
    event log. A pointer is a 64-bit address with 0 as null. */
module UefiBoot {
  import opened Wrappers
  import opened Octets

  // ---------------------------------------------------------------------
  // Status codes and memory types (include/osv/uefi.hh)

  const Success: U64 := 0
  const InvalidParameter: U64 := 0x8000_0000_0000_0002
  const Unsupported: U64 := 0x8000_0000_0000_0003
  const BufferTooSmall: U64 := 0x8000_0000_0000_0005

  const EfiLoaderData: U32 := 2
  const EfiConventionalMemory: nat := 7

  /** UEFI pages are 4 KiB. */
  const PageSize: nat := 4096

  // ---------------------------------------------------------------------
  // GUIDs

  type Bytes8 = s: seq<Byte> | |s| == 8 witness [0, 0, 0, 0, 0, 0, 0, 0]

  datatype Guid = Guid(data1: U32, data2: U16, data3: U16, data4: Bytes8)

  const Acpi20TableGuid: Guid := Guid(0x8868e871, 0xe4f1, 0x11d3, [0xbc, 0x22, 0x00, 0x80, 0xc7, 0x3c, 0x88, 0x81])
  const AcpiTableGuid: Guid := Guid(0xeb9d2d30, 0x2d88, 0x11d3, [0x9a, 0x16, 0x00, 0x90, 0x27, 0x3f, 0xc1, 0x4d])
  const SmbiosTableGuid: Guid := Guid(0xeb9d2d31, 0x2d88, 0x11d3, [0x9a, 0x16, 0x00, 0x90, 0x27, 0x3f, 0xc1, 0x4d])
  const Smbios3TableGuid: Guid := Guid(0xf2fd1544, 0x9794, 0x4a2c, [0x99, 0x2e, 0xe5, 0xbb, 0xcf, 0x20, 0xe3, 0x94])

  /** `memcmp(a, b, n) == 0`. */
  predicate MemEqual(a: seq<Byte>, b: seq<Byte>, n: nat)
    requires n <= |a| && n <= |b|
  {
    forall i :: 0 <= i < n ==> a[i] == b[i]
  }

  /** `guid_equal`: the three integer parts and the eight trailing bytes
      compared field by field; it is exactly GUID equality. */
  function GuidEqual(a: Guid, b: Guid): (r: bool)
    ensures r <==> a == b
  {
    var same := a.data1 == b.data1 && a.data2 == b.data2 && a.data3 == b.data3 && MemEqual(a.data4, b.data4, 8);
    assert same ==> a.data4 == b.data4;
    same
  }

  // ---------------------------------------------------------------------
  // The boot information

  datatype ConfigEntry = ConfigEntry(vendorGuid: Guid, vendorTable: U64)

  /** The part of the system table the helpers read: the configuration
      table, `number_of_table_entries` long. */
  datatype SystemTable = SystemTable(entries: seq<ConfigEntry>)

  /** `uefi_boot_detected` and `uefi_boot_info`. `mapBytes` is what the
      firmware wrote into the buffer at `memoryMap`. */
  datatype BootInfo = BootInfo(
    detected: bool,
    systemTable: Option<SystemTable>,
    imageHandle: U64,
    memoryMap: U64,
    mapBytes: seq<Byte>,
    mapSize: U64,
    mapKey: U64,
    descriptorSize: U64,
    descriptorVersion: U32,
    acpiTable: U64,
    smbiosTable: U64,
    smbios3Table: U64)

  /** The static variables before `uefi_init`: all zero. */
  const Boot: BootInfo := BootInfo(false, None, 0, 0, [], 0, 0, 0, 0, 0, 0, 0)

  // ---------------------------------------------------------------------
  // uefi_find_config_table

  /** Entry `k` is the first one with this GUID. */
  predicate FirstMatch(entries: seq<ConfigEntry>, guid: Guid, k: nat)
  {
    k < |entries| && entries[k].vendorGuid == guid
    && forall j :: 0 <= j < k ==> entries[j].vendorGuid != guid
  }

  predicate NoMatch(entries: seq<ConfigEntry>, guid: Guid)
  {
    forall j :: 0 <= j < |entries| ==> entries[j].vendorGuid != guid
  }

  /** The search loop from entry `i` on. */
  function Scan(entries: seq<ConfigEntry>, guid: Guid, i: nat): (t: U64)
    requires i <= |entries|
    ensures (forall j :: i <= j < |entries| ==> entries[j].vendorGuid != guid) ==> t == 0
    ensures forall k :: (i <= k < |entries| && entries[k].vendorGuid == guid
                         && forall j :: i <= j < k ==> entries[j].vendorGuid != guid) ==> t == entries[k].vendorTable
    decreases |entries| - i
  {
    if i == |entries| then 0
    else if GuidEqual(entries[i].vendorGuid, guid) then entries[i].vendorTable
    else Scan(entries, guid, i + 1)
  }

  /** `uefi_find_config_table`: the vendor table of the first entry with
      the GUID; null when not booted through UEFI, without a system table,
      or when no entry has the GUID. */
  function FindConfigTable(info: BootInfo, guid: Guid): (t: U64)
    ensures !info.detected || info.systemTable.None? ==> t == 0
    ensures info.detected && info.systemTable.Some? ==>
      (NoMatch(info.systemTable.value.entries, guid) ==> t == 0)
      && forall k: nat :: FirstMatch(info.systemTable.value.entries, guid, k) ==> t == info.systemTable.value.entries[k].vendorTable
  {
    if !info.detected || info.systemTable.None? then 0
    else Scan(info.systemTable.value.entries, guid, 0)
  }

  /** A table that is found is the vendor table of an entry with the GUID. */
  lemma FoundIsListed(info: BootInfo, guid: Guid)
    requires FindConfigTable(info, guid) != 0
    ensures info.detected && info.systemTable.Some?
    ensures exists k: nat :: (FirstMatch(info.systemTable.value.entries, guid, k)
                              && info.systemTable.value.entries[k].vendorTable == FindConfigTable(info, guid))
  {
    var entries := info.systemTable.value.entries;
    var k := FirstIndex(entries, guid, 0);
    assert FirstMatch(entries, guid, k);
  }

  /** Where some entry has the GUID, the first such entry. */
  function FirstIndex(entries: seq<ConfigEntry>, guid: Guid, i: nat): (k: nat)
    requires i <= |entries| && exists j :: i <= j < |entries| && entries[j].vendorGuid == guid
    ensures i <= k < |entries| && entries[k].vendorGuid == guid
    ensures forall j :: i <= j < k ==> entries[j].vendorGuid != guid
    decreases |entries| - i
  {
    if entries[i].vendorGuid == guid then i else FirstIndex(entries, guid, i + 1)
  }

  // ---------------------------------------------------------------------
  // The firmware's answers and the event log

  /** What `get_memory_map` returns and writes: the map size, key,
      descriptor size and version, and the map itself when given a buffer. */
  datatype MapReply = MapReply(status: U64, size: U64, key: U64, descriptorSize: U64, version: U32,
                               contents: seq<Byte>)

  /** What `allocate_pool` returns and the buffer it writes. */
  datatype PoolReply = PoolReply(status: U64, buffer: U64)

  /** The firmware's answers to one `get_memory_map` run, in call order. */
  datatype MapFirmware = MapFirmware(probe: MapReply, pool: PoolReply, fetch: MapReply)

  /** The boot-service calls, and the buffer a successful allocation grants. */
  datatype Event =
    | GetMemoryMap(size: U64, buffer: U64)
    | AllocatePool(poolType: U32, size: U64)
    | Granted(buffer: U64)
    | FreePool(buffer: U64)
    | ExitBootServices(image: U64, key: U64)

  datatype Outcome = Outcome(status: U64, info: BootInfo, events: seq<Event>)

  /** The map size asked for after the size probe: room for two more
      descriptors, in 64-bit arithmetic. */
  function Padded(size: U64, descriptorSize: U64): (p: U64)
    ensures size + 2 * descriptorSize < TwoTo64 ==> p == size + 2 * descriptorSize
  {
    (size + 2 * descriptorSize) % TwoTo64
  }

  /** Only the memory-map fields differ between the two. */
  predicate SameButMap(a: BootInfo, b: BootInfo)
  {
    a == b.(memoryMap := a.memoryMap, mapBytes := a.mapBytes, mapSize := a.mapSize, mapKey := a.mapKey,
            descriptorSize := a.descriptorSize, descriptorVersion := a.descriptorVersion)
  }

  /** `get_memory_map`: a probe with no buffer that must report
      `EFI_BUFFER_TOO_SMALL`, a pool allocation two descriptors larger than
      the reported size, then the real fetch; a failed fetch frees the
      buffer and nulls the map. The source reaches the boot services through
      the system table, so one must be recorded. */
  function GetMap(info: BootInfo, fw: MapFirmware): (o: Outcome)
    requires info.systemTable.Some?
    ensures SameButMap(o.info, info)
    ensures o.status == Success <==>
      fw.probe.status == Success
      || (fw.probe.status == BufferTooSmall && fw.pool.status == Success && fw.fetch.status == Success)
    ensures fw.probe.status != BufferTooSmall ==>
      o.status == fw.probe.status && o.events == [GetMemoryMap(0, 0)] && o.info.memoryMap == info.memoryMap
    ensures fw.probe.status == BufferTooSmall ==>
      |o.events| >= 2 && o.events[1] == AllocatePool(EfiLoaderData, Padded(fw.probe.size, fw.probe.descriptorSize))
    ensures fw.probe.status == BufferTooSmall && o.status == Success ==>
      o.info.memoryMap == fw.pool.buffer && o.info.mapBytes == fw.fetch.contents
      && o.info.mapSize == fw.fetch.size && o.info.mapKey == fw.fetch.key
      && o.info.descriptorSize == fw.fetch.descriptorSize
    ensures fw.probe.status == BufferTooSmall && fw.pool.status == Success && o.status != Success ==>
      o.info.memoryMap == 0 && o.events[|o.events| - 1] == FreePool(fw.pool.buffer)
  {
    var p := fw.probe;
    var probed := info.(mapSize := p.size, mapKey := p.key, descriptorSize := p.descriptorSize,
                        descriptorVersion := p.version);
    var probing := [GetMemoryMap(0, 0)];
    if p.status != BufferTooSmall then Outcome(p.status, probed, probing)
    else
      var size := Padded(p.size, p.descriptorSize);
      var asking := probing + [AllocatePool(EfiLoaderData, size)];
      if fw.pool.status != Success then Outcome(fw.pool.status, probed.(mapSize := size), asking)
      else
        var buffer := fw.pool.buffer;
        var f := fw.fetch;
        var fetched := probed.(memoryMap := buffer, mapSize := f.size, mapKey := f.key,
                               descriptorSize := f.descriptorSize, descriptorVersion := f.version);
        var fetching := asking + [Granted(buffer), GetMemoryMap(size, buffer)];
        if f.status != Success then Outcome(f.status, fetched.(memoryMap := 0), fetching + [FreePool(buffer)])
        else Outcome(Success, fetched.(mapBytes := f.contents), fetching)
  }

  /** After a free of `b` in the log, no later grant of `b`. */
  predicate FreedLast(events: seq<Event>, b: U64)
  {
    exists k :: 0 <= k < |events| && events[k] == FreePool(b)
      && forall j :: k < j < |events| ==> events[j] != Granted(b)
  }

  /** The recorded map points at a buffer this run gave back. */
  predicate Dangling(o: Outcome)
  {
    o.info.memoryMap != 0 && FreedLast(o.events, o.info.memoryMap)
  }

  /** `get_memory_map` never leaves the map pointing at the buffer it freed. */
  lemma GetMapNeverDangles(info: BootInfo, fw: MapFirmware)
    requires info.systemTable.Some?
    ensures !Dangling(GetMap(info, fw))
  {
  }

  // ---------------------------------------------------------------------
  // uefi_exit_boot_services

  /** `uefi_exit_boot_services` as written: on a first failure it frees the
      map, fetches a new one (giving up if that fails) and tries once more
      with the new key. It does not null the map after freeing it. */
  function ExitAsWritten(info: BootInfo, first: U64, remap: MapFirmware, second: U64): (o: Outcome)
    requires info.detected ==> info.systemTable.Some?
  {
    if !info.detected then Outcome(Unsupported, info, [])
    else
      var tried := [ExitBootServices(info.imageHandle, info.mapKey)];
      if first == Success then Outcome(Success, info, tried)
      else
        var freed := if info.memoryMap != 0 then [FreePool(info.memoryMap)] else [];
        var m := GetMap(info, remap);
        if m.status != Success then Outcome(m.status, m.info, tried + freed + m.events)
        else Outcome(second, m.info, tried + freed + m.events + [ExitBootServices(m.info.imageHandle, m.info.mapKey)])
  }

  /** A failed exit with a map in hand, followed by a failing size probe,
      leaves the recorded map pointing at the buffer just freed. */
  lemma ExitAsWrittenDangles(info: BootInfo, first: U64, remap: MapFirmware, second: U64)
    requires info.detected && info.systemTable.Some? && info.memoryMap != 0
    requires first != Success && remap.probe.status == InvalidParameter
    ensures var o := ExitAsWritten(info, first, remap, second);
      Dangling(o) && o.status == InvalidParameter
  {
    var o := ExitAsWritten(info, first, remap, second);
    assert o.events[1] == FreePool(info.memoryMap);
  }

  /** The retry with the freed map forgotten, as `get_memory_map` itself
      does after freeing: the exit is tried at most twice, the second time
      only after a successful refetch and with the new map key. */
  function Exit(info: BootInfo, first: U64, remap: MapFirmware, second: U64): (o: Outcome)
    requires info.detected ==> info.systemTable.Some?
    ensures !info.detected ==> o.status == Unsupported && o.events == [] && o.info == info
    ensures info.detected ==> |o.events| > 0 && o.events[0] == ExitBootServices(info.imageHandle, info.mapKey)
    ensures info.detected && first == Success ==> o.status == Success && o.events == [o.events[0]] && o.info == info
    ensures info.detected && first != Success ==>
      var m := GetMap(info.(memoryMap := 0), remap);
      o.info == m.info && |o.events| > 0
      && (m.status != Success ==> o.status == m.status && !o.events[|o.events| - 1].ExitBootServices?)
      && (m.status == Success ==> o.status == second && o.events[|o.events| - 1] == ExitBootServices(info.imageHandle, m.info.mapKey))
  {
    if !info.detected then Outcome(Unsupported, info, [])
    else
      var tried := [ExitBootServices(info.imageHandle, info.mapKey)];
      if first == Success then Outcome(Success, info, tried)
      else
        var freed := if info.memoryMap != 0 then [FreePool(info.memoryMap)] else [];
        var m := GetMap(info.(memoryMap := 0), remap);
        if m.status != Success then Outcome(m.status, m.info, tried + freed + m.events)
        else Outcome(second, m.info, tried + freed + m.events + [ExitBootServices(m.info.imageHandle, m.info.mapKey)])
  }

  /** The number of `exit_boot_services` calls in a log. */
  function ExitCalls(events: seq<Event>): nat
  {
    if |events| == 0 then 0
    else ExitCalls(events[..|events| - 1]) + (if events[|events| - 1].ExitBootServices? then 1 else 0)
  }

  lemma {:induction false} ExitCallsAppend(a: seq<Event>, b: seq<Event>)
    ensures ExitCalls(a + b) == ExitCalls(a) + ExitCalls(b)
    decreases |b|
  {
    if |b| == 0 {
      assert a + b == a;
    } else {
      assert (a + b)[..|a + b| - 1] == a + b[..|b| - 1];
      assert (a + b)[|a + b| - 1] == b[|b| - 1];
      assert ExitCalls(b) == ExitCalls(b[..|b| - 1]) + (if b[|b| - 1].ExitBootServices? then 1 else 0);
      assert ExitCalls(a + b) == ExitCalls(a + b[..|b| - 1]) + (if b[|b| - 1].ExitBootServices? then 1 else 0);
      ExitCallsAppend(a, b[..|b| - 1]);
    }
  }

  lemma {:induction false} NoExitCalls(events: seq<Event>)
    requires forall k :: 0 <= k < |events| ==> !events[k].ExitBootServices?
    ensures ExitCalls(events) == 0
  {
    if |events| > 0 {
      NoExitCalls(events[..|events| - 1]);
    }
  }

  /** Fetching the map never exits boot services. */
  lemma GetMapNeverExits(info: BootInfo, fw: MapFirmware)
    requires info.systemTable.Some?
    ensures ExitCalls(GetMap(info, fw).events) == 0
  {
    NoExitCalls(GetMap(info, fw).events);
  }

  /** The log of a failed exit: the first call, perhaps a free, the
      refetch, and the retry when the refetch succeeds. Only the first call
      and the retry are exits. */
  lemma RetryLog(first: Event, freed: seq<Event>, fetch: seq<Event>, again: Event)
    requires first.ExitBootServices? && again.ExitBootServices?
    requires forall k :: 0 <= k < |freed| ==> !freed[k].ExitBootServices?
    requires ExitCalls(fetch) == 0
    ensures ExitCalls([first] + freed + fetch) == 1
    ensures ExitCalls([first] + freed + fetch + [again]) == 2
  {
    assert ExitCalls([first]) == 1 by {
      assert [first][..0] == [];
    }
    assert ExitCalls([again]) == 1 by {
      assert [again][..0] == [];
    }
    NoExitCalls(freed);
    ExitCallsAppend([first], freed);
    ExitCallsAppend([first] + freed, fetch);
    ExitCallsAppend([first] + freed + fetch, [again]);
  }

  /** The exit is retried exactly once: two calls when the first fails and
      the map is fetched again, one otherwise, none without a UEFI boot. */
  lemma ExitRetriesOnce(info: BootInfo, first: U64, remap: MapFirmware, second: U64)
    requires info.detected ==> info.systemTable.Some?
    ensures var o := Exit(info, first, remap, second);
      ExitCalls(o.events) == (if !info.detected then 0
                              else if first != Success && GetMap(info.(memoryMap := 0), remap).status == Success then 2
                              else 1)
  {
    if info.detected {
      var tried := ExitBootServices(info.imageHandle, info.mapKey);
      assert ExitCalls([tried]) == 1 by {
        assert [tried][..0] == [];
      }
      if first != Success {
        var freed := if info.memoryMap != 0 then [FreePool(info.memoryMap)] else [];
        var m := GetMap(info.(memoryMap := 0), remap);
        GetMapNeverExits(info.(memoryMap := 0), remap);
        RetryLog(tried, freed, m.events, ExitBootServices(m.info.imageHandle, m.info.mapKey));
      }
    }
  }

  /** The same count holds for the exit as written: the dangling map does
      not change how often the exit is tried, only which map is fetched
      again. */
  lemma ExitAsWrittenRetriesOnce(info: BootInfo, first: U64, remap: MapFirmware, second: U64)
    requires info.detected ==> info.systemTable.Some?
    ensures var o := ExitAsWritten(info, first, remap, second);
      ExitCalls(o.events) == (if !info.detected then 0
                              else if first != Success && GetMap(info, remap).status == Success then 2
                              else 1)
  {
    if info.detected {
      var tried := ExitBootServices(info.imageHandle, info.mapKey);
      assert ExitCalls([tried]) == 1 by {
        assert [tried][..0] == [];
      }
      if first != Success {
        var freed := if info.memoryMap != 0 then [FreePool(info.memoryMap)] else [];
        var m := GetMap(info, remap);
        GetMapNeverExits(info, remap);
        RetryLog(tried, freed, m.events, ExitBootServices(m.info.imageHandle, m.info.mapKey));
      }
    }
  }

  /** With the freed map forgotten, the exit never leaves the map pointing at
      a buffer it gave back. */
  lemma ExitNeverDangles(info: BootInfo, first: U64, remap: MapFirmware, second: U64)
    requires info.detected ==> info.systemTable.Some?
    ensures !Dangling(Exit(info, first, remap, second))
  {
    var o := Exit(info, first, remap, second);
    if info.detected && first != Success && o.info.memoryMap != 0 {
      var cleared := info.(memoryMap := 0);
      var m := GetMap(cleared, remap);
      GetMapNeverDangles(cleared, remap);
      var b := o.info.memoryMap;
      var freed := if info.memoryMap != 0 then [FreePool(info.memoryMap)] else [];
      var head := [ExitBootServices(info.imageHandle, info.mapKey)] + freed;
      assert b == remap.pool.buffer && m.events[2] == Granted(b);
      assert m.events == [GetMemoryMap(0, 0), m.events[1], Granted(b), GetMemoryMap(m.events[1].size, b)];
      var last := [ExitBootServices(m.info.imageHandle, m.info.mapKey)];
      assert o.events == head + m.events + last;
      assert o.events[|head| + 2] == Granted(b);
      assert forall k :: 0 <= k < |o.events| && o.events[k] == FreePool(b) ==> k < |head|;
    }
  }

  // ---------------------------------------------------------------------
  // uefi_init

  /** `uefi_init`: record the UEFI boot, the image and the system table;
      take the ACPI 2.0 table, or the ACPI 1.0 one when there is none; look
      up both SMBIOS tables; fetch the memory map. The source fetches the
      map through the system table, so the firmware must pass one. */
  function Init(info: BootInfo, image: U64, st: SystemTable, fw: MapFirmware): (o: Outcome)
    ensures o.info.detected && o.info.imageHandle == image && o.info.systemTable == Some(st)
    ensures forall k: nat :: FirstMatch(st.entries, Acpi20TableGuid, k) && st.entries[k].vendorTable != 0 ==>
      o.info.acpiTable == st.entries[k].vendorTable
    ensures (NoMatch(st.entries, Acpi20TableGuid) || FindConfigTable(o.info, Acpi20TableGuid) == 0) ==>
      o.info.acpiTable == FindConfigTable(o.info, AcpiTableGuid)
    ensures o.info.smbios3Table == FindConfigTable(o.info, Smbios3TableGuid)
    ensures o.info.smbiosTable == FindConfigTable(o.info, SmbiosTableGuid)
    ensures o.status == Success <==>
      fw.probe.status == Success
      || (fw.probe.status == BufferTooSmall && fw.pool.status == Success && fw.fetch.status == Success)
  {
    var booted := info.(detected := true, imageHandle := image, systemTable := Some(st));
    var acpi20 := FindConfigTable(booted, Acpi20TableGuid);
    var acpi := if acpi20 != 0 then acpi20 else FindConfigTable(booted, AcpiTableGuid);
    var tables := booted.(acpiTable := acpi,
                          smbios3Table := FindConfigTable(booted, Smbios3TableGuid),
                          smbiosTable := FindConfigTable(booted, SmbiosTableGuid));
    GetMap(tables, fw)
  }
}

=== FILE: uefi_main.dfy ===
/** The UEFI entry point `efi_main`: it runs `uefi_init`, takes the memory
    map into `phys_mem_size`, leaves boot services, and enters the kernel. */
module UefiMain {
  import opened Wrappers
  import opened Octets
  import opened UefiBoot
  import opened UefiMemoryMap

  /** After a successful `uefi_init` the descriptor size is the one the
      firmware reported, by the size probe or by the fetch. */
  lemma InitDescriptorSize(image: U64, st: SystemTable, fw: MapFirmware)
    ensures var o := Init(Boot, image, st, fw);
      o.status == UefiBoot.Success ==>
        o.info.descriptorSize == fw.probe.descriptorSize || o.info.descriptorSize == fw.fetch.descriptorSize
  {
  }

  /** `uefi_init` only fetches the map: it never exits boot services. */
  lemma InitNeverExits(image: U64, st: SystemTable, fw: MapFirmware)
    ensures ExitCalls(Init(Boot, image, st, fw).events) == 0
  {
    var booted := Boot.(detected := true, imageHandle := image, systemTable := Some(st));
    var acpi20 := FindConfigTable(booted, Acpi20TableGuid);
    var acpi := if acpi20 != 0 then acpi20 else FindConfigTable(booted, AcpiTableGuid);
    var tables := booted.(acpiTable := acpi,
                          smbios3Table := FindConfigTable(booted, Smbios3TableGuid),
                          smbiosTable := FindConfigTable(booted, SmbiosTableGuid));
    assert Init(Boot, image, st, fw) == GetMap(tables, fw);
    GetMapNeverExits(tables, fw);
  }

  /** What `uefi_setup_memory_map` leaves in `phys_mem_size` after a UEFI
      boot: the conventional memory of the map added with 64-bit
      wrap-around, or nothing when the map cannot be read (a zero
      descriptor size included). */
  function MapTotal(info: BootInfo, physMemSize: U64): Option<U64>
  {
    if info.descriptorSize == 0 then None
    else match DecodeMap(info.mapBytes, info.descriptorSize, 0, info.mapSize / info.descriptorSize)
      case None => None
      case Some(ds) => Some((physMemSize + ConventionalBytes(ds)) % TwoTo64)
  }

  /** The part of `efi_main` after a successful `uefi_init`: the memory map
      is taken into `phys_mem_size`, boot services are left by
      `uefi_exit_boot_services` as written, and the kernel is entered
      exactly when that succeeds. */
  method EnterKernel(info: BootInfo, physMemSize: U64, first: U64, remap: MapFirmware, second: U64)
    returns (status: U64, started: bool, phys: Option<U64>, events: seq<Event>)
    requires info.detected && info.systemTable.Some? && info.descriptorSize > 0
    ensures var exit := ExitAsWritten(info, first, remap, second);
      status == exit.status && events == exit.events && (started <==> exit.status == UefiBoot.Success)
    ensures ExitCalls(events) >= 1
    ensures phys == MapTotal(info, physMemSize)
    ensures started ==> status == UefiBoot.Success && |events| > 0 && events[|events| - 1].ExitBootServices?
  {
    phys := SetupMemoryMap(info, physMemSize);
    var exit := ExitAsWritten(info, first, remap, second);
    status, started, events := exit.status, exit.status == UefiBoot.Success, exit.events;
    ExitAsWrittenRetriesOnce(info, first, remap, second);
  }

  /** `efi_main`: `uefi_init` from the zeroed boot variables, then
      `EnterKernel`. The kernel (BSS cleared, `premain`, `main`) is entered
      exactly when both `uefi_init` and the exit succeed; `main` does not
      return, so `started` stands for it. The descriptor sizes the firmware
      reports must not be zero, because the memory-map count divides by the
      one it keeps. */
  method EfiMain(image: U64, st: SystemTable, fw: MapFirmware, physMemSize: U64,
                 first: U64, remap: MapFirmware, second: U64)
    returns (status: U64, started: bool, phys: Option<U64>, events: seq<Event>)
    requires fw.probe.descriptorSize > 0 && fw.fetch.descriptorSize > 0
    ensures var init := Init(Boot, image, st, fw);
      init.status != UefiBoot.Success ==>
        status == init.status && !started && phys == Some(physMemSize) && events == init.events
    ensures var init := Init(Boot, image, st, fw);
      init.status == UefiBoot.Success ==>
        var exit := ExitAsWritten(init.info, first, remap, second);
        status == exit.status && events == init.events + exit.events
        && (started <==> exit.status == UefiBoot.Success)
        && phys == MapTotal(init.info, physMemSize)
    ensures ExitCalls(Init(Boot, image, st, fw).events) == 0
    ensures Init(Boot, image, st, fw).status == UefiBoot.Success ==> ExitCalls(events) >= 1
    ensures started ==> status == UefiBoot.Success && events[|events| - 1].ExitBootServices?
  {
    var init := Init(Boot, image, st, fw);
    InitNeverExits(image, st, fw);
    if init.status != UefiBoot.Success {
      return init.status, false, Some(physMemSize), init.events;
    }
    InitDescriptorSize(image, st, fw);
    var e;
    status, started, phys, e := EnterKernel(init.info, physMemSize, first, remap, second);
    events := init.events + e;
    ExitCallsAppend(init.events, e);
  }
}

=== FILE: uefi_memory_map.dfy ===
/** The conventional-memory count `uefi_setup_memory_map` takes over the
    memory map the firmware wrote, with the descriptor layout it reads and a
    writer for that layout that the decoding is proved against. */
module UefiMemoryMap {
  import opened Wrappers
  import opened Octets
  import opened UefiBoot

  /** The fields of a memory descriptor the source reads: `type` (offset 0,
      32 bits), `physical_start` (offset 8) and `number_of_pages` (offset
      24), both 64 bits. */
  datatype Descriptor = Descriptor(kind: nat, physicalStart: nat, pages: nat)

  /** The last byte read from a descriptor is the end of `number_of_pages`. */
  const FieldsEnd: nat := 32

  /** The descriptor at byte offset `at`; a read past the bytes the firmware
      wrote has no value in the model. */
  function ReadDescriptor(bytes: seq<Byte>, at: nat): (d: Option<Descriptor>)
    ensures d.Some? <==> at + FieldsEnd <= |bytes|
  {
    if at + FieldsEnd > |bytes| then None
    else Some(Descriptor(FromLittleEndian(bytes[at..at + 4]), FromLittleEndian(bytes[at + 8..at + 16]),
                         FromLittleEndian(bytes[at + 24..at + 32])))
  }

  /** The `n` descriptors from byte offset `at` on, `stride` bytes apart;
      absent when one of them cannot be read. */
  function DecodeMap(bytes: seq<Byte>, stride: nat, at: nat, n: nat): (r: Option<seq<Descriptor>>)
    ensures r.Some? ==> |r.value| == n
    decreases n
  {
    if n == 0 then Some([])
    else
      match ReadDescriptor(bytes, at)
      case None => None
      case Some(d) =>
        match DecodeMap(bytes, stride, at + stride, n - 1)
        case None => None
        case Some(ds) => Some([d] + ds)
  }

  /** The bytes of conventional memory the descriptors describe, each
      region's size wrapped to 64 bits as the source computes it. */
  function ConventionalBytes(ds: seq<Descriptor>): nat
  {
    if |ds| == 0 then 0 else Contribution(ds[0]) + ConventionalBytes(ds[1..])
  }

  /** A conventional region's size in bytes, wrapped to 64 bits; nothing
      for any other memory type. */
  function Contribution(d: Descriptor): nat
  {
    if d.kind == EfiConventionalMemory then d.pages * PageSize % TwoTo64 else 0
  }

  /** `uefi_setup_memory_map`: nothing without a UEFI boot; otherwise
      `memory_map_size / descriptor_size` descriptors, stepping by the
      descriptor size, each conventional region's size added to
      `phys_mem_size` with 64-bit wrap-around. The result is absent when a
      read falls outside the bytes the firmware wrote. The source divides by
      the descriptor size, so after a UEFI boot it must not be zero. */
  method SetupMemoryMap(info: BootInfo, physMemSize: U64) returns (r: Option<U64>)
    requires info.detected ==> info.descriptorSize > 0
    ensures !info.detected ==> r == Some(physMemSize)
    ensures info.detected ==>
      match DecodeMap(info.mapBytes, info.descriptorSize, 0, info.mapSize / info.descriptorSize)
      case None => r == None
      case Some(ds) => r == Some((physMemSize + ConventionalBytes(ds)) % TwoTo64)
  {
    if !info.detected {
      return Some(physMemSize);
    }
    var stride := info.descriptorSize;
    var entries := info.mapSize / stride;
    var at: nat := 0;
    var phys: U64 := physMemSize;
    var i: nat := 0;
    AccumulateAgrees(info.mapBytes, stride, 0, entries, physMemSize);
    while i < entries
      invariant i <= entries
      invariant Accumulate(info.mapBytes, stride, at, entries - i, phys)
             == Accumulate(info.mapBytes, stride, 0, entries, physMemSize)
    {
      var d := ReadDescriptor(info.mapBytes, at);
      if d.None? {
        return None;
      }
      if d.value.kind == EfiConventionalMemory {
        var size := d.value.pages * PageSize % TwoTo64;
        phys := (phys + size) % TwoTo64;
      } else {
        SmallMod(phys, TwoTo64);
      }
      at := at + stride;
      i := i + 1;
    }
    r := Some(phys);
  }

  /** The running total over `n` descriptors from offset `at` on, each
      conventional region's size added with 64-bit wrap-around; absent once
      a descriptor cannot be read. */
  function Accumulate(bytes: seq<Byte>, stride: nat, at: nat, n: nat, phys: nat): Option<nat>
    decreases n
  {
    if n == 0 then Some(phys)
    else
      match ReadDescriptor(bytes, at)
      case None => None
      case Some(d) => Accumulate(bytes, stride, at + stride, n - 1, (phys + Contribution(d)) % TwoTo64)
  }

  /** The running total is the decoded map's conventional bytes, wrapped. */
  lemma {:induction false} AccumulateAgrees(bytes: seq<Byte>, stride: nat, at: nat, n: nat, phys: nat)
    requires phys < TwoTo64
    ensures Accumulate(bytes, stride, at, n, phys)
         == match DecodeMap(bytes, stride, at, n)
            case None => None
            case Some(ds) => Some((phys + ConventionalBytes(ds)) % TwoTo64)
    decreases n
  {
    if n == 0 {
      SmallMod(phys, TwoTo64);
    } else {
      var d := ReadDescriptor(bytes, at);
      if d.Some? {
        var c := Contribution(d.value);
        AccumulateAgrees(bytes, stride, at + stride, n - 1, (phys + c) % TwoTo64);
        var rest := DecodeMap(bytes, stride, at + stride, n - 1);
        if rest.Some? {
          AddModulo(phys + c, ConventionalBytes(rest.value), TwoTo64);
          assert ([d.value] + rest.value)[1..] == rest.value;
        }
      }
    }
  }

  lemma AddModulo(x: nat, y: nat, m: nat)
    requires m > 0
    ensures (x % m + y) % m == (x + y) % m
  {
    DivModUnique(x + y, m, x / m + (x % m + y) / m, (x % m + y) % m);
  }

  /** A descriptor's fields fit their widths. */
  predicate Fits(d: Descriptor)
  {
    d.kind < 0x1_0000_0000 && d.physicalStart < TwoTo64 && d.pages < TwoTo64
  }

  /** A descriptor as the firmware lays it out, padded to the descriptor
      size; `pad`, `virtual_start` and `attribute` are written as zero. */
  function EncodeDescriptor(d: Descriptor, stride: nat): (bs: seq<Byte>)
    requires stride >= 40
    ensures |bs| == stride
  {
    LittleEndian(d.kind, 4) + LittleEndian(0, 4) + LittleEndian(d.physicalStart, 8)
      + LittleEndian(0, 8) + LittleEndian(d.pages, 8) + LittleEndian(0, stride - 32)
  }

  /** A memory map as the firmware writes it. */
  function EncodeMap(ds: seq<Descriptor>, stride: nat): (bs: seq<Byte>)
    requires stride >= 40
    ensures |bs| == |ds| * stride
  {
    if |ds| == 0 then [] else EncodeDescriptor(ds[0], stride) + EncodeMap(ds[1..], stride)
  }

  /** A written descriptor reads back. */
  lemma ReadEncoded(d: Descriptor, stride: nat, tail: seq<Byte>)
    requires stride >= 40 && Fits(d)
    ensures ReadDescriptor(EncodeDescriptor(d, stride) + tail, 0) == Some(d)
  {
    var e := EncodeDescriptor(d, stride);
    var bytes := e + tail;
    Within(bytes, 0, e, 0, 4);
    Within(bytes, 0, e, 8, 16);
    Within(bytes, 0, e, 24, 32);
    assert e[0..4] == LittleEndian(d.kind, 4);
    assert e[8..16] == LittleEndian(d.physicalStart, 8);
    assert e[24..32] == LittleEndian(d.pages, 8);
    Pow256Values();
    LittleEndianRoundTrip(d.kind, 4);
    LittleEndianRoundTrip(d.physicalStart, 8);
    LittleEndianRoundTrip(d.pages, 8);
  }

  /** Bytes in front of the map shift every read by their length. */
  lemma {:induction false} DecodeMapShift(front: seq<Byte>, bytes: seq<Byte>, stride: nat, at: nat, n: nat)
    ensures DecodeMap(front + bytes, stride, |front| + at, n) == DecodeMap(bytes, stride, at, n)
    decreases n
  {
    if n > 0 {
      var all := front + bytes;
      var k := |front| + at;
      if at + FieldsEnd <= |bytes| {
        assert all[k..k + 4] == bytes[at..at + 4];
        assert all[k + 8..k + 16] == bytes[at + 8..at + 16];
        assert all[k + 24..k + 32] == bytes[at + 24..at + 32];
      }
      DecodeMapShift(front, bytes, stride, at + stride, n - 1);
    }
  }

  /** A map the firmware wrote decodes to its descriptors. */
  lemma {:induction false} MapRoundTrip(ds: seq<Descriptor>, stride: nat, tail: seq<Byte>)
    requires stride >= 40 && forall i :: 0 <= i < |ds| ==> Fits(ds[i])
    ensures DecodeMap(EncodeMap(ds, stride) + tail, stride, 0, |ds|) == Some(ds)
  {
    if |ds| > 0 {
      var e := EncodeDescriptor(ds[0], stride);
      var rest := EncodeMap(ds[1..], stride) + tail;
      assert EncodeMap(ds, stride) + tail == e + rest;
      ReadEncoded(ds[0], stride, rest);
      MapRoundTrip(ds[1..], stride, tail);
      DecodeMapShift(e, rest, stride, 0, |ds| - 1);
      assert [ds[0]] + ds[1..] == ds;
    }
  }

  /** For a map the firmware wrote, the descriptor count the source derives
      is the number of descriptors and each decodes, so `SetupMemoryMap`
      adds exactly the conventional regions' sizes. */
  lemma SetupSeesEveryDescriptor(info: BootInfo, ds: seq<Descriptor>)
    requires info.descriptorSize >= 40 && forall i :: 0 <= i < |ds| ==> Fits(ds[i])
    requires info.mapSize == |ds| * info.descriptorSize
    requires StartsWith(info.mapBytes, EncodeMap(ds, info.descriptorSize))
    ensures info.mapSize / info.descriptorSize == |ds|
    ensures DecodeMap(info.mapBytes, info.descriptorSize, 0, info.mapSize / info.descriptorSize) == Some(ds)
  {
    var stride := info.descriptorSize;
    var enc := EncodeMap(ds, stride);
    DivExact(info.mapSize, stride, |ds|);
    var tail := info.mapBytes[|enc|..];
    assert info.mapBytes == enc + tail;
    MapRoundTrip(ds, stride, tail);
  }

  lemma DivExact(v: nat, d: nat, q: nat)
    requires d > 0 && v == q * d
    ensures v / d == q
  {
    var q' := v / d;
    var r' := v % d;
    assert v == q' * d + r';
    if q' > q {
      MulMono(q + 1, q', d);
    } else if q' < q {
      MulMono(q' + 1, q, d);
    }
  }
}

=== FILE: vsock.dfy ===
/** The vsock transport's protocol control block (PCB) and its socket-layer
    user requests. Each handler is a function of the socket's PCB slot
    (`so_pcb`, absent until `attach`) and of what the environment answers:
    whether a vsock driver is present and its guest context id (CID), whether
    the driver took a packet, whether the allocator and `soreserve` succeeded.
    It returns the error code, the new PCB slot, an address where the request
    produces one, and the visible effects in order: packets handed to the
    driver and calls into the socket layer. The packet header and its
    operations are those of section 5.10 of the VIRTIO 1.1 specification. */
module Vsock {
  import opened Wrappers
  import opened Octets

  /** The bytes of an mbuf chain; its packet-header length is a C `int`. */
  type Mbuf = s: seq<Byte> | |s| < 0x8000_0000

  const CidAny: U32 := 0xffff_ffff
  const PortAny: U32 := 0xffff_ffff

  const TypeStream: U16 := 1
  const OpRequest: U16 := 1
  const OpRst: U16 := 3
  const OpShutdown: U16 := 4
  const OpRw: U16 := 5

  const ShutdownRcv: U32 := 1
  const ShutdownSend: U32 := 2

  /** The `how` argument of `shutdown(2)`, with the BSD and POSIX values. */
  const ShutRd: int := 0
  const ShutWr: int := 1
  const ShutRdWr: int := 2

  /** The address family number of vsock in the C library's socket header. */
  const AfVsock: nat := 40
  /** `sizeof(struct sockaddr_vm)`: family, reserved half-word, port, CID and
      four bytes of padding. */
  const SockaddrVmSize: nat := 16
  /** The send and receive buffer space `attach` reserves. */
  const BufferSpace: nat := 65536

  datatype State = Unbound | Bound | Connecting | Connected | Listening | Closing

  datatype Pcb = Pcb(localPort: U32, remotePort: U32, localCid: U64, remoteCid: U64, state: State)

  /** The address a caller passes to `bind` or `connect`: its `sa_len`, its
      family and the vsock port and CID it names. */
  datatype Name = Name(len: nat, family: nat, port: U32, cid: U32)

  /** A `sockaddr_vm` the handlers hand back. */
  datatype VmAddr = VmAddr(family: nat, port: U32, cid: U32)

  /** A `virtio_vsock_hdr`; the credit fields `buf_alloc` and `fwd_cnt` are
      always zero here and are left out. */
  datatype Header = Header(srcCid: U64, dstCid: U64, srcPort: U32, dstPort: U32,
                           len: U32, kind: U16, op: U16, flags: U32)

  datatype Effect =
    | Sent(hdr: Header, data: seq<Byte>)   // handed to the driver's send_packet
    | Reserved(sendSpace: nat, recvSpace: nat)
    | IsConnected
    | IsDisconnected
    | Listen(backlog: int)
    | CantSendMore
    | FreedData
    | FreedControl

  datatype Errno = EInval | EIsConn | ENoBufs | EAfNoSupport | ENoDev | EIo | ENotConn
                 | ReserveFailed(code: nat)

  datatype Status = Ok | Err(errno: Errno)

  /** The vsock driver: its guest CID and whether `send_packet` succeeds. */
  datatype Driver = Driver(guestCid: U64, accepts: bool)

  datatype Reply = Reply(status: Status, pcb: Option<Pcb>, effects: seq<Effect>, addr: Option<VmAddr>)

  /** A failure that leaves the slot alone and does nothing else. */
  function Refuse(e: Errno, slot: Option<Pcb>): Reply
  {
    Reply(Err(e), slot, [], None)
  }

  /** The PCB `attach` creates: unbound, every port and CID the wildcard. */
  const FreshPcb: Pcb := Pcb(PortAny, PortAny, CidAny, CidAny, Unbound)

  /** A stream header from the PCB's local end to its remote end. */
  function HeaderOf(p: Pcb, op: U16, len: U32, flags: U32): (h: Header)
    ensures h.srcCid == p.localCid && h.dstCid == p.remoteCid
    ensures h.srcPort == p.localPort && h.dstPort == p.remotePort
    ensures h.kind == TypeStream && h.op == op && h.len == len && h.flags == flags
  {
    Header(p.localCid, p.remoteCid, p.localPort, p.remotePort, len, TypeStream, op, flags)
  }

  /** The packets among the effects. */
  function Packets(effects: seq<Effect>): (hs: seq<Header>)
    ensures |hs| <= |effects|
  {
    if |effects| == 0 then []
    else (if effects[0].Sent? then [effects[0].hdr] else []) + Packets(effects[1..])
  }

  lemma {:induction false} PacketsAppend(a: seq<Effect>, b: seq<Effect>)
    ensures Packets(a + b) == Packets(a) + Packets(b)
  {
    if |a| > 0 {
      assert (a + b)[0] == a[0] && (a + b)[1..] == a[1..] + b;
      PacketsAppend(a[1..], b);
      var head := if a[0].Sent? then [a[0].hdr] else [];
      assert head + (Packets(a[1..]) + Packets(b)) == head + Packets(a[1..]) + Packets(b);
    } else {
      assert a + b == b;
    }
  }

  // ---------------------------------------------------------------------
  // The handlers

  /** `vsock_attach`. */
  function Attach(slot: Option<Pcb>, allocOk: bool, reserveError: nat): (r: Reply)
    ensures r.status == Ok <==> slot.None? && allocOk && reserveError == 0
    ensures r.status == Ok ==> r.pcb == Some(FreshPcb)
    ensures r.status.Err? ==> r.pcb == slot
    ensures r.addr.None? && Packets(r.effects) == []
  {
    if slot.Some? then Refuse(EIsConn, slot)
    else if !allocOk then Refuse(ENoBufs, None)
    else if reserveError != 0 then
      Reply(Err(ReserveFailed(reserveError)), None, [Reserved(BufferSpace, BufferSpace)], None)
    else Reply(Ok, Some(FreshPcb), [Reserved(BufferSpace, BufferSpace)], None)
  }

  /** `vsock_detach`. */
  function Detach(slot: Option<Pcb>): (r: Reply)
    ensures r.status == Ok <==> slot.Some?
    ensures r.pcb == None && r.effects == [] && r.addr.None?
  {
    if slot.None? then Refuse(EInval, None) else Reply(Ok, None, [], None)
  }

  /** The checks `bind` and `connect` share, in the source's order. */
  function CheckName(slot: Option<Pcb>, name: Name, driver: Option<Driver>): (e: Option<Errno>)
    ensures e.None? <==> slot.Some? && name.family == AfVsock && name.len == SockaddrVmSize && driver.Some?
  {
    if slot.None? then Some(EInval)
    else if name.family != AfVsock then Some(EAfNoSupport)
    else if name.len != SockaddrVmSize then Some(EInval)
    else if driver.None? then Some(ENoDev)
    else None
  }

  /** `vsock_bind`. */
  function Bind(slot: Option<Pcb>, name: Name, driver: Option<Driver>): (r: Reply)
    ensures r.status == Ok <==> CheckName(slot, name, driver).None?
    ensures r.status.Err? ==> r.pcb == slot
    ensures r.status == Ok ==> (r.pcb.Some? && r.pcb.value.state == Bound
      && r.pcb.value.localCid == driver.value.guestCid && r.pcb.value.localPort == name.port
      && r.pcb.value.remoteCid == slot.value.remoteCid && r.pcb.value.remotePort == slot.value.remotePort)
    ensures r.effects == [] && r.addr.None?
  {
    match CheckName(slot, name, driver)
    case Some(e) => Refuse(e, slot)
    case None =>
      Reply(Ok, Some(slot.value.(localCid := driver.value.guestCid, localPort := name.port, state := Bound)), [], None)
  }

  /** `vsock_connect`: an unbound PCB first takes the guest CID and port 0,
      the remote end is recorded, and a REQUEST goes out. The source does not
      wait for the peer's RESPONSE: a packet the driver takes is a
      connection. */
  function Connect(slot: Option<Pcb>, name: Name, driver: Option<Driver>): (r: Reply)
    ensures CheckName(slot, name, driver).Some? ==> (
      r == Refuse(CheckName(slot, name, driver).value, slot))
    ensures CheckName(slot, name, driver).None? ==> (
      r.pcb.Some? && r.pcb.value.remoteCid == name.cid && r.pcb.value.remotePort == name.port
      && (r.status == Ok <==> driver.value.accepts)
      && r.pcb.value.state == (if driver.value.accepts then Connected else Connecting)
      && (r.status.Err? ==> r.status.errno == EIo)
      && Packets(r.effects) == [HeaderOf(r.pcb.value, OpRequest, 0, 0)])
    ensures r.addr.None?
  {
    match CheckName(slot, name, driver)
    case Some(e) => Refuse(e, slot)
    case None =>
      var p := slot.value;
      var d := driver.value;
      var local := if p.state == Unbound then p.(localCid := d.guestCid, localPort := 0) else p;
      var connecting := local.(remoteCid := name.cid, remotePort := name.port, state := Connecting);
      var request := Sent(HeaderOf(connecting, OpRequest, 0, 0), []);
      if !d.accepts then Reply(Err(EIo), Some(connecting), [request], None)
      else Reply(Ok, Some(connecting.(state := Connected)), [request, IsConnected], None)
  }

  /** `vsock_disconnect`: a RST to the peer only from a connected PCB with a
      driver present; the PCB ends unbound either way. */
  function Disconnect(slot: Option<Pcb>, driver: Option<Driver>): (r: Reply)
    ensures slot.None? ==> r == Refuse(EInval, None)
    ensures slot.Some? ==> (r.status == Ok && r.pcb == Some(slot.value.(state := Unbound))
      && |r.effects| > 0 && r.effects[|r.effects| - 1] == IsDisconnected)
    ensures Packets(r.effects) ==
      if slot.Some? && slot.value.state == Connected && driver.Some? then [HeaderOf(slot.value, OpRst, 0, 0)] else []
    ensures r.addr.None?
  {
    if slot.None? then Refuse(EInval, None)
    else
      var p := slot.value;
      var rst := if p.state == Connected && driver.Some? then [Sent(HeaderOf(p, OpRst, 0, 0), [])] else [];
      PacketsAppend(rst, [IsDisconnected]);
      Reply(Ok, Some(p.(state := Unbound)), rst + [IsDisconnected], None)
  }

  /** `vsock_listen`: only a bound PCB may listen. */
  function Listen(slot: Option<Pcb>, backlog: int): (r: Reply)
    ensures r.status == Ok <==> slot.Some? && slot.value.state == Bound
    ensures r.status == Ok ==> r.pcb == Some(slot.value.(state := Listening)) && r.effects == [Effect.Listen(backlog)]
    ensures r.status.Err? ==> r == Refuse(EInval, slot)
    ensures r.addr.None?
  {
    if slot.None? || slot.value.state != Bound then Refuse(EInval, slot)
    else Reply(Ok, Some(slot.value.(state := Listening)), [Effect.Listen(backlog)], None)
  }

  /** The `sockaddr_vm` the address handlers fill in. Its CID field is 32 bits
      wide, so a 64-bit CID keeps only its low half. */
  function AddrOf(cid: U64, port: U32): (a: VmAddr)
    ensures a.family == AfVsock && a.port == port
    ensures cid < 0x1_0000_0000 ==> a.cid == cid
  {
    VmAddr(AfVsock, port, cid % 0x1_0000_0000)
  }

  /** `vsock_accept`: the remote end's address. */
  function Accept(slot: Option<Pcb>): (r: Reply)
    ensures slot.None? ==> r == Refuse(EInval, None)
    ensures slot.Some? ==> (r.status == Ok && r.pcb == slot && r.effects == []
      && r.addr == Some(AddrOf(slot.value.remoteCid, slot.value.remotePort)))
  {
    if slot.None? then Refuse(EInval, None)
    else Reply(Ok, slot, [], Some(AddrOf(slot.value.remoteCid, slot.value.remotePort)))
  }

  /** `vsock_sockaddr`: the local end's address. */
  function SockAddr(slot: Option<Pcb>): (r: Reply)
    ensures slot.None? ==> r == Refuse(EInval, None)
    ensures slot.Some? ==> (r.status == Ok && r.pcb == slot && r.effects == []
      && r.addr == Some(AddrOf(slot.value.localCid, slot.value.localPort)))
  {
    if slot.None? then Refuse(EInval, None)
    else Reply(Ok, slot, [], Some(AddrOf(slot.value.localCid, slot.value.localPort)))
  }

  /** `vsock_peeraddr`: the remote end's address. */
  function PeerAddr(slot: Option<Pcb>): (r: Reply)
    ensures slot.None? ==> r == Refuse(EInval, None)
    ensures slot.Some? ==> (r.status == Ok && r.pcb == slot && r.effects == []
      && r.addr == Some(AddrOf(slot.value.remoteCid, slot.value.remotePort)))
  {
    if slot.None? then Refuse(EInval, None)
    else Reply(Ok, slot, [], Some(AddrOf(slot.value.remoteCid, slot.value.remotePort)))
  }

  /** The releases at `send`'s common exit: the data chain when there is one,
      then the control chain when there is one. */
  function Releases(data: Option<Mbuf>, control: bool): (fs: seq<Effect>)
    ensures Packets(fs) == []
  {
    (if data.Some? then [FreedData] else []) + (if control then [FreedControl] else [])
  }

  /** `vsock_send`: one RW packet carrying the whole chain, only from a
      connected PCB with a driver present. The source reads the chain's length
      on that path, so a chain must be there. */
  function Send(slot: Option<Pcb>, data: Option<Mbuf>, control: bool, driver: Option<Driver>): (r: Reply)
    requires slot.Some? && slot.value.state == Connected && driver.Some? ==> data.Some?
    ensures r.pcb == slot && r.addr.None?
    ensures r.status == Ok <==> slot.Some? && slot.value.state == Connected && driver.Some? && driver.value.accepts
    ensures slot.None? ==> r.status == Err(EInval)
    ensures slot.Some? && slot.value.state != Connected ==> r.status == Err(ENotConn)
    ensures Packets(r.effects) ==
      if slot.Some? && slot.value.state == Connected && driver.Some? then [HeaderOf(slot.value, OpRw, |data.value|, 0)] else []
  {
    var (error, out) :=
      if slot.None? then (Err(EInval), [])
      else if slot.value.state != Connected then (Err(ENotConn), [])
      else if driver.None? then (Err(ENoDev), [])
      else
        var packet := Sent(HeaderOf(slot.value, OpRw, |data.value|, 0), data.value);
        (if driver.value.accepts then Ok else Err(EIo), [packet]);
    PacketsAppend(out, Releases(data, control));
    Reply(error, slot, out + Releases(data, control), None)
  }

  /** The shutdown flags the source computes: it tests `how` bit by bit with
      the `SHUT_*` constants as masks. */
  function ShutdownFlagsAsWritten(how: int): (flags: U32)
  {
    var bits := ((how % 0x1_0000_0000) as bv32);
    (if bits & (ShutRd as bv32) != 0 then ShutdownRcv else 0)
    + (if bits & (ShutWr as bv32) != 0 then ShutdownSend else 0)
  }

  /** The shutdown flags `how` asks for: stop receiving for `SHUT_RD` and
      `SHUT_RDWR`, stop sending for `SHUT_WR` and `SHUT_RDWR`. */
  function ShutdownFlags(how: int): (flags: U32)
    ensures flags < 4
    ensures flags % 2 == ShutdownRcv % 2 <==> how == ShutRd || how == ShutRdWr
    ensures flags / 2 == ShutdownSend / 2 <==> how == ShutWr || how == ShutRdWr
  {
    (if how == ShutRd || how == ShutRdWr then ShutdownRcv else 0)
    + (if how == ShutWr || how == ShutRdWr then ShutdownSend else 0)
  }

  /** `SHUT_RD` is zero, so as a mask it selects nothing, and `SHUT_RDWR`
      (two) shares no bit with `SHUT_WR` (one): a full shutdown, and a
      read shutdown, go out with no flag at all, where the peer should be
      told both directions, or the receive direction, are closed. */
  lemma ShutdownFlagsAsWrittenLoseDirections()
    ensures ShutdownFlagsAsWritten(ShutRdWr) == 0 != ShutdownFlags(ShutRdWr)
    ensures ShutdownFlagsAsWritten(ShutRd) == 0 != ShutdownFlags(ShutRd)
    ensures ShutdownFlagsAsWritten(ShutWr) == ShutdownFlags(ShutWr)
  {
    MaskedFlags(ShutRdWr, 2);
    MaskedFlags(ShutWr, 1);
    MaskedFlags(ShutRd, 0);
  }

  /** The flags the source computes for a `how` whose low 32 bits are `bits`. */
  lemma MaskedFlags(how: int, bits: bv32)
    requires 0 <= how < 3 && bits == how as bv32
    ensures ShutdownFlagsAsWritten(how) == if bits & 1 != 0 then ShutdownSend else 0
  {
    assert (how % 0x1_0000_0000) as bv32 == bits;
    assert bits & (ShutRd as bv32) == 0;
  }

  /** `vsock_shutdown` sending `flags` in its SHUTDOWN: a packet to the
      peer only from a connected PCB with a driver present, and the socket
      can no longer send in every case where there is a PCB. */
  function ShutdownWith(slot: Option<Pcb>, flags: U32, driver: Option<Driver>): (r: Reply)
    ensures slot.None? ==> r == Refuse(EInval, None)
    ensures slot.Some? ==> (r.status == Ok && r.pcb == slot
      && |r.effects| > 0 && r.effects[|r.effects| - 1] == CantSendMore)
    ensures Packets(r.effects) ==
      if slot.Some? && slot.value.state == Connected && driver.Some? then
        [HeaderOf(slot.value, OpShutdown, 0, flags)]
      else []
    ensures r.addr.None?
  {
    if slot.None? then Refuse(EInval, None)
    else
      var p := slot.value;
      var notice :=
        if p.state == Connected && driver.Some? then [Sent(HeaderOf(p, OpShutdown, 0, flags), [])]
        else [];
      PacketsAppend(notice, [CantSendMore]);
      Reply(Ok, slot, notice + [CantSendMore], None)
  }

  /** `vsock_shutdown` as written, with the flags its masks compute. */
  function Shutdown(slot: Option<Pcb>, how: int, driver: Option<Driver>): (r: Reply)
    ensures slot.None? ==> r == Refuse(EInval, None)
    ensures slot.Some? ==> r.status == Ok && r.pcb == slot && |r.effects| > 0 && r.effects[|r.effects| - 1] == CantSendMore
    ensures Packets(r.effects) ==
      if slot.Some? && slot.value.state == Connected && driver.Some? then
        [HeaderOf(slot.value, OpShutdown, 0, ShutdownFlagsAsWritten(how))]
      else []
  {
    ShutdownWith(slot, ShutdownFlagsAsWritten(how), driver)
  }

  /** `vsock_shutdown` with the flags `how` asks for. */
  function ShutdownIntended(slot: Option<Pcb>, how: int, driver: Option<Driver>): (r: Reply)
    ensures slot.None? ==> r == Refuse(EInval, None)
    ensures slot.Some? ==> r.status == Ok && r.pcb == slot && |r.effects| > 0 && r.effects[|r.effects| - 1] == CantSendMore
    ensures Packets(r.effects) ==
      if slot.Some? && slot.value.state == Connected && driver.Some? then
        [HeaderOf(slot.value, OpShutdown, 0, ShutdownFlags(how))]
      else []
  {
    ShutdownWith(slot, ShutdownFlags(how), driver)
  }

  /** A full shutdown of a connected socket tells the peer nothing as
      written, and both directions once corrected. */
  lemma FullShutdownNotice(p: Pcb, d: Driver)
    requires p.state == Connected
    ensures Packets(Shutdown(Some(p), ShutRdWr, Some(d)).effects) == [HeaderOf(p, OpShutdown, 0, 0)]
    ensures Packets(ShutdownIntended(Some(p), ShutRdWr, Some(d)).effects)
         == [HeaderOf(p, OpShutdown, 0, ShutdownRcv + ShutdownSend)]
  {
    ShutdownFlagsAsWrittenLoseDirections();
  }

  // ---------------------------------------------------------------------
  // The protocol switch

  datatype Request =
    | AttachReq
    | DetachReq
    | BindReq(name: Name)
    | ConnectReq(name: Name)
    | DisconnectReq
    | ListenReq(backlog: int)
    | AcceptReq
    | SendReq(data: Option<Mbuf>, control: bool)
    | ShutdownReq(how: int)
    | SockAddrReq
    | PeerAddrReq

  /** What the environment answers during one request. */
  datatype Env = Env(driver: Option<Driver>, allocOk: bool, reserveError: nat)

  /** A request the source can serve: a send on a connected socket with a
      driver carries a chain. */
  predicate Servable(slot: Option<Pcb>, req: Request, env: Env)
  {
    req.SendReq? && slot.Some? && slot.value.state == Connected && env.driver.Some? ==> req.data.Some?
  }

  /** `vsock_usrreqs`: the handler for each request. */
  function Handle(slot: Option<Pcb>, req: Request, env: Env): (r: Reply)
    requires Servable(slot, req, env)
  {
    match req
    case AttachReq => Attach(slot, env.allocOk, env.reserveError)
    case DetachReq => Detach(slot)
    case BindReq(name) => Bind(slot, name, env.driver)
    case ConnectReq(name) => Connect(slot, name, env.driver)
    case DisconnectReq => Disconnect(slot, env.driver)
    case ListenReq(backlog) => Listen(slot, backlog)
    case AcceptReq => Accept(slot)
    case SendReq(data, control) => Send(slot, data, control, env.driver)
    case ShutdownReq(how) => Shutdown(slot, how, env.driver)
    case SockAddrReq => SockAddr(slot)
    case PeerAddrReq => PeerAddr(slot)
  }

  /** Every handler but `attach` refuses a socket without a PCB with EINVAL,
      leaves it without one and sends nothing. */
  lemma NoPcbInvalid(req: Request, env: Env)
    requires !req.AttachReq? && Servable(None, req, env)
    ensures Handle(None, req, env).status == Err(EInval)
    ensures Handle(None, req, env).pcb == None
    ensures Packets(Handle(None, req, env).effects) == []
  {
  }

  /** What every PCB the handlers build satisfies: the remote CID came from a
      32-bit `svm_cid` (or is the 32-bit wildcard), and nothing ever enters
      CLOSING. */
  predicate Good(slot: Option<Pcb>)
  {
    slot.Some? ==> slot.value.remoteCid < 0x1_0000_0000 && slot.value.state != Closing
  }

  /** Every request keeps the PCB good. */
  lemma HandleKeepsGood(slot: Option<Pcb>, req: Request, env: Env)
    requires Good(slot) && Servable(slot, req, env)
    ensures Good(Handle(slot, req, env).pcb)
  {
  }

  /** The peer's address, as `getpeername` or `accept` reports it, is the
      address of every packet the PCB sends: no bits of a good PCB's remote
      CID are lost in the 32-bit field. */
  lemma PeerAddrIsDestination(slot: Option<Pcb>, h: Header)
    requires Good(slot) && slot.Some?
    requires h == HeaderOf(slot.value, OpRw, h.len, h.flags)
    ensures PeerAddr(slot).addr == Some(VmAddr(AfVsock, h.dstPort, h.dstCid))
    ensures Accept(slot).addr == PeerAddr(slot).addr
  {
  }

  // ---------------------------------------------------------------------
  // Lifecycles

  /** Attaching and then detaching leaves the socket as it was. */
  lemma AttachDetach(allocOk: bool, reserveError: nat)
    ensures var a := Attach(None, allocOk, reserveError);
      a.status == Ok ==> Detach(a.pcb) == Reply(Ok, None, [], None)
  {
  }

  /** A failed `attach` on a fresh socket leaves no PCB behind, so a second
      attempt is not refused with EISCONN. */
  lemma AttachFailureLeavesNothing(allocOk: bool, reserveError: nat, allocOk2: bool, reserveError2: nat)
    requires !allocOk || reserveError != 0
    ensures Attach(None, allocOk, reserveError).pcb == None
    ensures Attach(Attach(None, allocOk, reserveError).pcb, allocOk2, reserveError2).status != Err(EIsConn)
  {
  }

  /** `bind` then `getsockname` reports the guest CID (in its low 32 bits)
      and the port asked for. */
  lemma BindThenSockAddr(slot: Option<Pcb>, name: Name, driver: Option<Driver>)
    requires Bind(slot, name, driver).status == Ok
    ensures SockAddr(Bind(slot, name, driver).pcb).addr ==
      Some(VmAddr(AfVsock, name.port, driver.value.guestCid % 0x1_0000_0000))
  {
  }

  /** `connect` then `getpeername` reports the address connected to, whether
      or not the REQUEST went out. */
  lemma ConnectThenPeerAddr(slot: Option<Pcb>, name: Name, driver: Option<Driver>)
    requires CheckName(slot, name, driver).None?
    ensures PeerAddr(Connect(slot, name, driver).pcb).addr == Some(VmAddr(AfVsock, name.port, name.cid))
  {
  }

  /** A fresh socket bound and put to listen is listening on the port it was
      bound to, having sent nothing. */
  lemma BindListen(name: Name, driver: Option<Driver>, backlog: int)
    requires name.family == AfVsock && name.len == SockaddrVmSize && driver.Some?
    ensures var a := Attach(None, true, 0);
      var b := Bind(a.pcb, name, driver);
      var l := Listen(b.pcb, backlog);
      l.status == Ok && l.pcb.value.state == Listening && l.pcb.value.localPort == name.port
  {
  }

  /** `listen` from any state but BOUND is refused, so an unbound or
      connected socket never listens. */
  lemma ListenOnlyBound(slot: Option<Pcb>, backlog: int)
    requires slot.Some? && slot.value.state != Bound
    ensures Listen(slot, backlog) == Refuse(EInval, slot)
  {
  }

  /** A fresh socket connected through a driver that takes packets sends a
      REQUEST from the guest CID's port 0, then each `send` goes out as one RW
      packet over the same pair of ends, and `disconnect` resets it and
      leaves it unbound. */
  lemma ConnectSendDisconnect(name: Name, guest: U64, data: Mbuf)
    requires name.family == AfVsock && name.len == SockaddrVmSize
    ensures var d := Some(Driver(guest, true));
      var c := Connect(Attach(None, true, 0).pcb, name, d);
      var s := Send(c.pcb, Some(data), false, d);
      var x := Disconnect(s.pcb, d);
      c.status == Ok && s.status == Ok && x.status == Ok
      && Packets(c.effects)[0] == Header(guest, name.cid, 0, name.port, 0, TypeStream, OpRequest, 0)
      && Packets(s.effects) == [Header(guest, name.cid, 0, name.port, |data|, TypeStream, OpRw, 0)]
      && Packets(x.effects) == [Header(guest, name.cid, 0, name.port, 0, TypeStream, OpRst, 0)]
      && x.pcb.value.state == Unbound
  {
  }

  /** `send` releases the chains it was given on every path, success and
      failure alike, and never changes the PCB. */
  lemma SendAlwaysFrees(slot: Option<Pcb>, data: Option<Mbuf>, control: bool, driver: Option<Driver>)
    requires slot.Some? && slot.value.state == Connected && driver.Some? ==> data.Some?
    ensures var r := Send(slot, data, control, driver);
      var n := |r.effects|;
      (control ==> n > 0 && r.effects[n - 1] == FreedControl)
      && (data.Some? ==> (FreedData in r.effects))
      && r.pcb == slot
  {
    var r := Send(slot, data, control, driver);
    var fs := Releases(data, control);
    assert r.effects[|r.effects| - |fs|..] == fs;
    if data.Some? {
      assert r.effects[|r.effects| - |fs|] == FreedData;
    }
  }
}

=== FILE: wrappers.dfy ===
/** Failure-compatible wrappers shared by every module of the model: `Option` for
    a value that may be absent (a null pointer, a missing map entry) and `Result`
    for an operation that either succeeds or reports an error code. */
module Wrappers {

  datatype Option<+T> = None | Some(value: T) {
    predicate IsFailure() { None? }

    function PropagateFailure<U>(): Option<U>
      requires None?
    {
      None
    }

    function Extract(): T
      requires Some?
    {
      value
    }
  }

  datatype Result<+R, +E> = Success(value: R) | Failure(error: E) {
    predicate IsFailure() { Failure? }

    function PropagateFailure<U>(): Result<U, E>
      requires Failure?
    {
      Failure(error)
    }

    function Extract(): R
      requires Success?
    {
      value
    }
  }
}
